=== FILE: README.md ===
# AI Kiosk Testing System — a Dafny model of its core

The AI Kiosk Testing System runs proctored exams on kiosk machines. An ASP.NET
backend holds the users, roles and permissions, subjects, classes and rooms,
question banks, exams and the students' attempts; a WPF desktop client locks
the kiosk down while an exam is taken (a low-level keyboard hook, a watch on
running processes, the Wi-Fi state); a React front end gives administrators,
lecturers, supervisors and students their pages.

This project models the rules at the heart of those three parts and proves
what they promise:

- the backend services: logging in and the JWT token's claims, permissions and
  roles, the permission cache, class, subject, room and enrolment management,
  question banks and questions, building and publishing exams, the OTP a
  supervisor hands out, students taking and submitting an exam, the
  supervisor's monitoring actions (extra time, finishing an exam, re-assigning
  a student), notifications, disabled keys, prohibited applications, the
  configured URLs, the activity log, the spreadsheet import and the helpers
  in `Utils`;
- the desktop client: the keyboard hook's blocking decision, the process
  monitor's register, scan and kill cycle, the Wi-Fi status parsing;
- the front end: the face-detection round, the paging and filter handlers of
  the list pages, the multi-select field, the dialogs that pick students,
  supervisors and bank questions, the exam editor and the question wizard,
  the role and permission tab and the shared helpers of `common.ts`.

Each service's tables are a class whose fields the operations reassign; an
operation's contract states the new tables in terms of the old ones and the
error it answers with, and lemmas relate operations to each other (round
trips, idempotence, invariants kept). Pure helpers are functions with
properties proved about them. The database, the network, the file system,
the clock, GUIDs, random draws, hashing and the Win32 and `netsh` calls are
parameters of the operations that use them.

Where the code does not do what its surroundings evidently intend, the model
has both: a member for the code as written with a lemma that exhibits the
difference, and the corrected behaviour, which the stores use. These are
listed under "## Findings", and the stores' rows below say "models the
intended behaviour".

## Model

| member | source | states |
|---|---|---|
| Domain.ExamStatusName | backend/API/Helper/Constant.cs:136-144 | `ToString()` gives one of the member names Draft, Published, Finished exactly for a defined exam status, and no member name otherwise |
| Domain.QuestionTypeName | backend/API/Helper/Constant.cs:110-122 | `ToString()` gives one of the six member names exactly for a defined question type, and never an empty text |
| Domain.AddMinutes | backend/API/Services/MonitoringService.cs:273 | adding a non-negative number of minutes never moves a time backwards |
| Domain.RoundHalfEven | backend/API/Services/ExamService.cs:146 | banker's rounding moves a value by at most one half and keeps whole numbers |
| Domain.Round2Error | backend/API/Services/ExamService.cs:146 | `Math.Round(x, 2)` moves a value by at most half a cent |
| Domain.Round2Exact | backend/API/Services/ExamService.cs:146 | `Math.Round(x, 2)` keeps a value that already has at most two decimals |
| Domain.InactiveFirstNewestTotal | backend/API/Services/DisabledKeyService.cs:44-45 | inactive first, then most recently updated first, is a total preorder, so the sort is well defined |
| Domain.NewestFirstTotal | backend/API/Services/NotificationService.cs:45 | newest first with missing dates last is a total preorder |
| JwtAuthentication.Decimals | backend/API/Utilities/JwtAuthentication.cs:26 | each role number becomes its decimal text |
| JwtAuthentication.EncodeRoleIds | backend/API/Utilities/JwtAuthentication.cs:26 | an absent or empty role list is written as "" |
| JwtAuthentication.TokenClaims | backend/API/Utilities/JwtAuthentication.cs:19-27 | the six claims FullName, Email, UserID, AvatarUrl, LastLoginIp and RoleIds in that order; an absent user id is a null dereference (Failure) |
| JwtAuthentication.FindClaim | backend/API/Utilities/JwtAuthentication.cs:65-70 | nothing is found exactly when no claim has the type |
| JwtAuthentication.FindClaimFirst | backend/API/Utilities/JwtAuthentication.cs:65-70 | the first claim of the type is the one found |
| JwtAuthentication.ParseAll | backend/API/Utilities/JwtAuthentication.cs:79 | the pieces all parse exactly when each is a 32-bit number, and then to those numbers in order |
| JwtAuthentication.DecodeRoleIds | backend/API/Utilities/JwtAuthentication.cs:79 | an absent claim gives the empty list; a present one is split on ',' and every piece parsed |
| JwtAuthentication.ParseJwtToken | backend/API/Utilities/JwtAuthentication.cs:45-86 | an expired token gives null; any other rejection, and a role piece that is not a number, escapes as an exception; otherwise the user read from the claims |
| JwtAuthentication.NoCommaInDecimal | backend/API/Utilities/JwtAuthentication.cs:26 | a decimal number holds no comma (also line 79) |
| JwtAuthentication.DecimalParses | backend/API/Utilities/JwtAuthentication.cs:79 | a 32-bit number's decimal text parses back to it |
| JwtAuthentication.RoleIdsRoundTrip | backend/API/Utilities/JwtAuthentication.cs:26 | a non-empty list of 32-bit role numbers survives the claim (also line 79) |
| JwtAuthentication.ClaimsFound | backend/API/Utilities/JwtAuthentication.cs:19-27 | each claim written for a user is found again by its type (also lines 65-70) |
| JwtAuthentication.TokenRoundTrip | backend/API/Utilities/JwtAuthentication.cs:13-86 | a token made for a user with at least one role reads back as that user, with every absent text turned into "" |
| JwtAuthentication.EmptyRolesAsWritten | backend/API/Utilities/JwtAuthentication.cs:26 | as written: a user without roles gets a token whose parsing throws, because "" is split into one piece that is not a number (also line 79) |
| JwtAuthentication.DecodeRoleIdsCorrected | backend/API/Utilities/JwtAuthentication.cs:79 | models the intended behaviour: an absent or empty claim gives the empty list; any other is decoded as written |
| JwtAuthentication.ParseJwtTokenCorrected | backend/API/Utilities/JwtAuthentication.cs:45-86 | models the intended behaviour: ParseJwtToken with the corrected role decoding |
| JwtAuthentication.RoleIdsRoundTripCorrected | backend/API/Utilities/JwtAuthentication.cs:26 | every list of 32-bit role numbers, the empty one included, survives the claim (also line 79) |
| JwtAuthentication.TokenRoundTripCorrected | backend/API/Utilities/JwtAuthentication.cs:13-86 | every token reads back as its user; an absent role list reads back empty |
| AuthenticateService.ByEmail | backend/API/Services/AuthenticateService.cs:73 | the first user whose email equals the given one, or none exactly when no user has it |
| AuthenticateService.LoginError | backend/API/Services/AuthenticateService.cs:72-81 | no error exactly when the email is known, a password is stored, its hash matches ignoring case, the campus matches and the user is not Inactive; otherwise the first failing check's message |
| AuthenticateService.UnknownEmailDistinguishable | backend/API/Services/AuthenticateService.cs:74-79 | an unknown email and a wrong password give different messages (they differ in the final full stop) |
| AuthenticateService.RoleIdsOf | backend/API/Services/AuthenticateService.cs:88 | exactly the user's role ids |
| AuthenticateService.ActiveRoleIdsOf | backend/API/Services/AuthenticateService.cs:122-123 | exactly the user's role ids whose role is active |
| AuthenticateService.ByGoogle | backend/API/Services/AuthenticateService.cs:106 | the first user with the Google id or the email, or none exactly when no user has either |
| AuthenticateService.GoogleError | backend/API/Services/AuthenticateService.cs:103-108 | no error exactly when the email ends in @fpt.edu.vn, a user matches and the campus matches |
| AuthenticateService.GoogleProfile | backend/API/Services/AuthenticateService.cs:110-117 | the picture fills only an empty avatar, a present name replaces the old one, the login time is stamped, and status, password and id are kept |
| AuthenticateService.GoogleProfileIdempotent | backend/API/Services/AuthenticateService.cs:110-117 | saving the same Google profile twice equals saving it once |
| AuthenticateService.AuthStore.constructor | backend/API/Services/AuthenticateService.cs:17-24 | the store holds the given users, user roles, active roles and hash function |
| AuthenticateService.AuthStore.DoLogin | backend/API/Services/AuthenticateService.cs:70-99 | a failing check returns its message and changes nothing; otherwise the user becomes Active with the login stamped, and the result carries all the user's roles |
| AuthenticateService.AuthStore.LoginByGoogle | backend/API/Services/AuthenticateService.cs:101-139 | a failing domain, user or campus check changes nothing; otherwise the profile is saved, and only then an Inactive user or one without an active role is refused, keeping the saved profile |
| AuthenticateService.AuthStore.DoChangePassword | backend/API/Services/AuthenticateService.cs:26-46 | unknown user, a user with no stored password (the NullReferenceException of `user.Password.Equals`, flagged as thrown), a current password whose hash differs exactly, and a new password equal to the current one are refused in that order with no change; otherwise the new hash is stored |
| AuthenticateService.AuthStore.DoResetPassword | backend/API/Services/AuthenticateService.cs:175-190 | a null id gives "UserId is null" and an unknown one "User not found.", with no change; otherwise the hash of the new password is stored |
| AuthenticateService.StoredHashLogsIn | backend/API/Services/AuthenticateService.cs:79 | a hash stored by a change or a reset passes the login's hash check for that password |
| AuthenticateService.HashCheckIgnoresCase | backend/API/Services/AuthenticateService.cs:79 | a stored hash equal to the typed password's hash only up to case still passes |
| AuthenticateService.ImportedPasswordNeverLogsIn | backend/API/Services/UserService.cs:233 | as written, a user imported with the generated password stored unhashed is refused at the hash check when typing that password |
| AuthenticateService.ImportedHashLogsIn | backend/API/Services/UserService.cs:233 | storing the hash of the generated password lets that password pass the hash check |
| AuthorizeService.PermissionError | backend/API/Services/AuthorizeService.cs:103-130 | no error exactly when the category exists, no other permission has the trimmed name or resource ignoring case (every one on create) and an update names a stored permission; a bad category is reported first |
| AuthorizeService.UpdateExcludesItself | backend/API/Services/AuthorizeService.cs:108-109 | re-saving a permission under its own name and resource passes: it is not compared with itself |
| AuthorizeService.CreateRefusesSameName | backend/API/Services/AuthorizeService.cs:106-110 | on create a name equal to a stored one up to case and padding is refused with "Permission name or resource already exists." |
| AuthorizeService.SavedPermission | backend/API/Services/AuthorizeService.cs:112-137 | the stored permission takes the input's name, resource and category; a new one gets the fresh id and is active, an update keeps its id and takes the input's flag |
| AuthorizeService.RoleError | backend/API/Services/AuthorizeService.cs:288-312 | a create passes exactly when no role has the name ignoring case; an update passes exactly when the role exists and no other role has exactly the name |
| AuthorizeService.RoleNameCaseAsymmetry | backend/API/Services/AuthorizeService.cs:295-312 | "admin" is refused as a new role beside "Admin" but another role may be renamed to "admin" |
| AuthorizeService.RolesOf | backend/API/Services/AuthorizeService.cs:400 | exactly the roles the user holds |
| AuthorizeService.PermissionsOf | backend/API/Services/AuthorizeService.cs:427-432 | exactly the permissions the role holds |
| AuthorizeService.ReplaceRoles | backend/API/Services/AuthorizeService.cs:394-402 | the user's roles become exactly the valid ones and every other user's pairs are unchanged |
| AuthorizeService.ExistingRoles | backend/API/Services/AuthorizeService.cs:391 | exactly the requested roles that exist |
| AuthorizeService.NewPermissions | backend/API/Services/AuthorizeService.cs:427-433 | exactly the requested permission ids the role does not hold |
| AuthorizeService.Grant | backend/API/Services/AuthorizeService.cs:437-443 | the role's permissions grow by exactly the granted ids; other roles' pairs are unchanged |
| AuthorizeService.Revoke | backend/API/Services/AuthorizeService.cs:470-478 | the role loses exactly the requested permission ids; other roles' pairs are unchanged |
| AuthorizeService.RevokeAfterGrant | backend/API/Services/AuthorizeService.cs:419-491 | granting and then removing the same ids leaves the table as the removal alone would |
| AuthorizeService.ActiveInCategory | backend/API/Services/AuthorizeService.cs:534-537 | exactly the active permissions of the category |
| AuthorizeService.AuthorizeStore.constructor | backend/API/Services/AuthorizeService.cs:19-24 | the store holds the given permission, role and join tables |
| AuthorizeService.AuthorizeStore.CreateUpdatePermission | backend/API/Services/AuthorizeService.cs:101-155 | a failing check returns its message and changes nothing; otherwise the saved permission is stored under its id, nothing else changes, and the log's answer is returned |
| AuthorizeService.AuthorizeStore.ToggleActivePermission | backend/API/Services/AuthorizeService.cs:182-208 | an empty id and an unknown id are refused with no change; otherwise exactly that permission's IsActive flips |
| AuthorizeService.AuthorizeStore.CreateUpdateRole | backend/API/Services/AuthorizeService.cs:286-330 | a failing check returns its message and changes nothing; a create adds the role under the new id; an update overwrites name, description and flag |
| AuthorizeService.AuthorizeStore.ToggleRole | backend/API/Services/AuthorizeService.cs:333-354 | a non-positive id and an unknown role are refused with no change; otherwise exactly that role's IsActive flips |
| AuthorizeService.AuthorizeStore.AssignRolesToUser | backend/API/Services/AuthorizeService.cs:383-416 | empty input, unknown user and no valid role are refused in order with no change; otherwise the user's roles become exactly the requested roles that exist |
| AuthorizeService.AuthorizeStore.AddPermissionsToRole | backend/API/Services/AuthorizeService.cs:419-459 | empty input and unknown role are refused; when the role already holds every requested id "All these permissions are already assigned to this role."; otherwise exactly the lacking ids are granted |
| AuthorizeService.AuthorizeStore.RemovePermissionsFromRole | backend/API/Services/AuthorizeService.cs:462-491 | empty input and unknown role are refused; when none of the ids is held "No matching permissions found to remove."; otherwise exactly the held requested ids are removed |
| AuthorizeService.AuthorizeStore.AddCategoryPermissionsToRole | backend/API/Services/AuthorizeService.cs:529-571 | unknown role, a category without active permissions and a role holding them all are refused in order; otherwise exactly the lacking active permissions are granted |
| AuthorizeService.CategoryGrantCovers | backend/API/Services/AuthorizeService.cs:545-556 | after a category grant the role holds every active permission of the category |
| DataCached.UserKey | backend/API/Cached/DataCached.cs:63 | the per-user key is the prefix, "_" and the user id |
| DataCached.UserKeysDistinct | backend/API/Cached/DataCached.cs:63-64 | different users get different keys, and no user key is one of the two fixed keys |
| DataCached.ActivePermissions | backend/API/Cached/DataCached.cs:46 | exactly the active permissions |
| DataCached.UserPermissions | backend/API/Cached/DataCached.cs:70-76 | exactly the active permissions granted to a role the user holds |
| DataCached.Registered | backend/API/Cached/DataCached.cs:81 | the key registry, or the empty list when it is absent |
| DataCached.Register | backend/API/Cached/DataCached.cs:81-86 | the key is added only when absent; no key is lost and no duplicate is made |
| DataCached.PermissionCache.constructor | backend/API/Cached/DataCached.cs:32-37 | the cache starts empty |
| DataCached.PermissionCache.GetFunctions | backend/API/Cached/DataCached.cs:39-57 | a hit is answered from the cache unchanged; a miss returns the active permissions and caches them unless there are none, which gives "No permissions found." |
| DataCached.PermissionCache.GetUserPermissions | backend/API/Cached/DataCached.cs:59-93 | an empty id is refused; a hit is answered from the cache; a miss caches the user's permissions under their key and registers the key once |
| DataCached.PermissionCache.ClearAllUserPermissionCache | backend/API/Cached/DataCached.cs:181-192 | every registered key and the registry are removed; without a registry nothing changes |
| DataCached.PermissionCache.ClearCache | backend/API/Cached/DataCached.cs:175-179 | the active-permission list, every registered key and the registry are removed |
| DataCached.PermissionCache.RemoveCache | backend/API/Cached/DataCached.cs:194-197 | exactly the named entry is removed |
| ActivityLog.Pieces | backend/API/Commons/Log.cs:137 | the pieces of a text split at spaces with empty entries removed and entries trimmed are non-empty and hold no space |
| ActivityLog.Keywords | backend/API/Commons/Log.cs:137-138 | every keyword is non-empty, holds no space and is already lower case |
| ActivityLog.KeywordsEmptyIffBlank | backend/API/Commons/Log.cs:135-139 | a search text gives no keywords exactly when it is blank, so the keywords.Any() test never fails after the IsEmpty test |
| ActivityLog.UserOf | backend/API/Commons/Log.cs:133 | a log whose user is missing reads as no user code, no name and no roles |
| ActivityLog.KeywordFilter | backend/API/Commons/Log.cs:139-156 | no expression exactly when there are no keywords; otherwise the built expression holds on a log exactly when every keyword hits the user code, name, description or action type |
| ActivityLog.DateRangeInclusive | backend/API/Commons/Log.cs:166-170 | with only a date range set, a user log matches exactly when its time lies in the closed range |
| ActivityLog.GetListUserLog | backend/API/Commons/Log.cs:132-199 | the items are the requested page of the matching logs sorted newest first; the "No found any log" message exactly when that page is empty (nothing matches, or a page past the end), otherwise the page with the count and page total |
| ActivityLog.SameColumnTest | backend/API/Commons/Log.cs:328-332 | for keywords of a search, testing a nullable column for a keyword is: present and its lower-case text contains the keyword (as in the user-log search at lines 144-150) |
| ActivityLog.GetListExamLog | backend/API/Commons/Log.cs:318-361 | the message exactly when no exam log matches at all; otherwise success whose items are the requested page of the matches sorted newest first, empty past the last page |
| ActivityLog.PastLastPage | backend/API/Commons/Log.cs:190 | past the last page the user-log list answers "No found any log" while the exam-log list (line 350) answers with an empty page |
| ActivityLog.ExamWriteError | backend/API/Commons/Log.cs:69-71 | an exam event is accepted exactly when an attempt with that id belongs to the sender and is in progress; otherwise "Student is not in a exam process." |
| ActivityLog.NoLogAfterSubmit | backend/API/Commons/Log.cs:69-71 | an event against a submitted attempt is refused |
| ActivityLog.ScreenshotKey | backend/API/Commons/Log.cs:77 | the screenshot key starts with the log folder and ends with the file name |
| ActivityLog.LogStore.constructor | backend/API/Commons/Log.cs:25-36 | the store holds the given user and exam logs |
| ActivityLog.LogStore.WriteActivity | backend/API/Commons/Log.cs:38-58 | a null record changes nothing; otherwise exactly one user log is appended with the client's address and browser, and the exam logs are untouched |
| ActivityLog.LogStore.WriteExamActivity | backend/API/Commons/Log.cs:66-99 | a null record or a refused guard changes nothing and uploads nothing; otherwise the screenshot (if any) is uploaded under its key and exactly one exam log with the uploaded URL is appended |
| ActivityLog.LogStore.GetLogUserById | backend/API/Commons/Log.cs:107-130 | a blank id gives "Log ID cannot be null or empty"; an unknown id "Log not found"; otherwise the first log with that id |
| ActivityLog.LogStore.GetLogExamById | backend/API/Commons/Log.cs:291-316 | a blank id gives "Log Exam ID cannot be null or empty"; an unknown id "Log not found"; otherwise the first exam log with that id |
| ActivityLog.LogStore.DeleteUserLog | backend/API/Commons/Log.cs:202-213 | a null or empty id list gives "No log ids provided."; a list matching nothing gives "No logs found to delete."; otherwise exactly the listed logs are removed |
| ActivityLog.LogStore.DeleteExamLog | backend/API/Commons/Log.cs:364-384 | a list matching nothing is refused with no change; otherwise exactly the listed exam logs are removed and the files deleted are exactly their non-empty screenshot URLs, each standing for the storage key derived from it |
| ActivityLog.DeleteRemovesExactlyListed | backend/API/Commons/Log.cs:205-211 | the kept logs are exactly the unlisted ones, and kept plus removed count the whole table |
| ClassesService.GetAllClasses | backend/API/Services/ClassesService.cs:23-52 | the page is the requested page of the matching classes (code search, active flag, start-date bounds) sorted newest first; "No classes found." exactly when that page is empty, otherwise that page with the total and page count |
| ClassesService.Find | backend/API/Services/ClassesService.cs:72 | the position of the class with the id, none exactly when no class has it |
| ClassesService.SaveError | backend/API/Services/ClassesService.cs:94-118 | a create is refused exactly when the ClassCode is in use; an update exactly when the id is unknown |
| ClassesService.CreatedClass | backend/API/Services/ClassesService.cs:102-112 | the new class has the generated id, the input's code and flag, the caller as creator and the creation time |
| ClassesService.UpdatedClass | backend/API/Services/ClassesService.cs:117-125 | an update keeps id and creation time, takes the input's fields, sets the update time and hands CreatedBy to the caller |
| ClassesService.CreateKeepsCodesUnique | backend/API/Services/ClassesService.cs:98-101 | a create that passes the check keeps ClassCodes unique |
| ClassesService.UpdateMayDuplicateCode | backend/API/Services/ClassesService.cs:117-125 | an update may give a class another class's code and passes the check; the creator becomes the last editor |
| ClassesService.LogEntryAsWritten | backend/API/Services/ClassesService.cs:96-98 | as written: the log record's object id is the generated id on a create (also lines 132-140) |
| ClassesService.CreateLoggedAsUpdate | backend/API/Services/ClassesService.cs:96-98 | as written: a create is logged as "updated." with "A class has been updated." (also lines 134-135) |
| ClassesService.LogEntryFor | backend/API/Services/ClassesService.cs:132-140 | models the intended behaviour: "created" exactly when the caller sent no id, otherwise "updated."; the description follows the action |
| ClassesService.LogEntriesAgreeOnUpdates | backend/API/Services/ClassesService.cs:132-140 | the written and the intended record differ exactly on creates |
| ClassesService.ClassStore.constructor | backend/API/Services/ClassesService.cs:16-21 | the store holds the given Classes table |
| ClassesService.ClassStore.DoDeactivateClass | backend/API/Services/ClassesService.cs:68-89 | an empty id and an unknown id are refused with no change; otherwise exactly that class's IsActive flips and the log's message is returned |
| ClassesService.ClassStore.DoCreateUpdateClass | backend/API/Services/ClassesService.cs:92-142 | models the intended behaviour: a refused save changes nothing and logs nothing; a create appends the new class, an update overwrites exactly that class; the record written is LogEntryFor |
| SubjectService.GetAllSubjects | backend/API/Services/SubjectService.cs:23-51 | "No subjects found." exactly when no subject matches (name or code search, status); otherwise a success whose items are the requested page of the matches sorted newest first (empty past the end), with the total and the page count |
| SubjectService.Find | backend/API/Services/SubjectService.cs:60 | the position of the subject with the id, none exactly when no subject has it |
| SubjectService.GetSubjectById | backend/API/Services/SubjectService.cs:54-64 | an empty id is refused; a success exactly when a subject has the id, and then it is that subject |
| SubjectService.SaveError | backend/API/Services/SubjectService.cs:96-120 | a create is refused for a used code, then for a used name; an update exactly when the id is unknown |
| SubjectService.CreatedSubject | backend/API/Services/SubjectService.cs:104-115 | the new subject has the generated id, the input's code, name and status, and the creation time |
| SubjectService.UpdatedSubject | backend/API/Services/SubjectService.cs:120-129 | an update keeps id and creation time, takes the input's fields and sets the update time |
| SubjectService.CreateKeepsCodesUnique | backend/API/Services/SubjectService.cs:98-102 | a create that passes the checks keeps subject codes unique |
| SubjectService.UpdateMayDuplicateCode | backend/API/Services/SubjectService.cs:118-131 | an update may give a subject another subject's code and passes the check |
| SubjectService.LogEntryAsWritten | backend/API/Services/SubjectService.cs:104 | as written: the log record's object id is the generated id on a create (also lines 135-143) |
| SubjectService.CreateLoggedAsUpdate | backend/API/Services/SubjectService.cs:104 | as written: a create is logged as "Update" with "<code> has been updated." (also lines 137-140) |
| SubjectService.LogEntryFor | backend/API/Services/SubjectService.cs:135-143 | models the intended behaviour: "Create" exactly when the caller sent no id, otherwise "Update"; the description says created or updated accordingly |
| SubjectService.LogEntriesAgreeOnUpdates | backend/API/Services/SubjectService.cs:135-143 | the written and the intended record differ exactly on creates |
| SubjectService.SubjectStore.constructor | backend/API/Services/SubjectService.cs:17-21 | the store holds the given Subjects table |
| SubjectService.SubjectStore.ChangeActivateSubject | backend/API/Services/SubjectService.cs:66-88 | an empty id and an unknown id are refused with no change; otherwise exactly that subject's Status flips and the log's message is returned |
| SubjectService.SubjectStore.CreateUpdateSubject | backend/API/Services/SubjectService.cs:91-145 | models the intended behaviour: a refused save changes nothing and logs nothing; a create appends the new subject, an update overwrites exactly that subject; the record written is LogEntryFor |
| RoomService.RoomBeforeTotal | backend/API/Services/RoomService.cs:46-47 | the room order (newest first) is a total preorder, so the page order is well defined |
| RoomService.TeacherEmails | backend/API/Services/RoomService.cs:76-77 | an e-mail is listed exactly when some member row of the room is an active lecturer with a user row and that e-mail; none when there is no such member, never more than the members |
| RoomService.Summary | backend/API/Services/RoomService.cs:75 | a room's row counts all of its members |
| RoomService.GetAllRooms | backend/API/Services/RoomService.cs:20-89 | the rooms matching class, subject, active flag and text, newest first, paged: "No rooms found." with no rows exactly when that page is empty, otherwise one summary per room of the page, in order, with its member count and teachers |
| RoomService.GetAllRoomsListing | backend/API/Services/RoomService.cs:42-88 | an empty page, even one past the end, gives "No rooms found." and no rows; a page of rows carries the totals of all matching rooms |
| RoomService.GetAllRoomsRows | backend/API/Services/RoomService.cs:24-78 | every row of a page is a room matching the class, subject, active flag and keyword, with its member count |
| RoomService.GetAllRoomsOrder | backend/API/Services/RoomService.cs:46-49 | the rows of a page are in room order |
| RoomService.Find | backend/API/Services/RoomService.cs:137-167 | the lookup finds a room with the id, and none exactly when no room has it |
| RoomService.SaveError | backend/API/Services/RoomService.cs:183-222 | a save is accepted exactly when no other room has the code, the subject and the class exist and an update names an existing room; the code is checked first, then the subject, then the class |
| RoomService.CreatedRoom | backend/API/Services/RoomService.cs:194-207 | a created room carries the new id and the form's fields and has no update stamp |
| RoomService.UpdatedRoom | backend/API/Services/RoomService.cs:209-221 | an updated room keeps its id and creation time, takes the form's fields and is stamped |
| RoomService.CreateKeepsCodesUnique | backend/API/Services/RoomService.cs:185-207 | a create the checks accept keeps room codes unique |
| RoomService.UpdateKeepsCodesUnique | backend/API/Services/RoomService.cs:185-221 | an update the checks accept keeps room codes unique |
| RoomService.UnknownRoomReportsCodeFirst | backend/API/Services/RoomService.cs:185-222 | an update of an unknown room whose code is in use reports the code, not the missing room |
| RoomService.RemoveKeepsOthers | backend/API/Services/RoomService.cs:169 | removing one room keeps every other room and the table's uniqueness |
| RoomService.RoomStore.constructor | backend/API/Services/RoomService.cs:14-18 | the store starts on the given rooms, subjects and classes, whose room codes and ids are unique, so the store is valid |
| RoomService.RoomStore.ChangeActivateRoom | backend/API/Services/RoomService.cs:133-157 | an empty id and an unknown room are refused and nothing changes; otherwise only that room's active flag flips and it is stamped, the log's message is returned, and codes and ids stay unique |
| RoomService.RoomStore.DoRemoveRoom | backend/API/Services/RoomService.cs:159-179 | an empty id and an unknown room are refused and nothing changes; otherwise exactly that room is removed and the log's message is returned |
| RoomService.RoomStore.CreateUpdateRoomVM | backend/API/Services/RoomService.cs:181-235 | a SaveError refusal changes nothing; otherwise a create appends CreatedRoom or an update replaces the room by UpdatedRoom, room codes stay unique and "" is returned |
| RoomUserService.InputMapSound | backend/API/Services/RoomUserService.cs:195-201 | every key of the lookup maps to the id of a found user whose id or code is that key |
| RoomUserService.InputMapComplete | backend/API/Services/RoomUserService.cs:195-201 | every found user is reachable through the lookup by its id and by its code |
| RoomUserService.InputMapOwnId | backend/API/Services/RoomUserService.cs:198-200 | a user's id maps to that user unless a later user has that id as its code |
| RoomUserService.BuildInputMap | backend/API/Services/RoomUserService.cs:195-201 | the loop builds exactly the lookup InputMap describes |
| RoomUserService.InvalidInputs | backend/API/Services/RoomUserService.cs:204 | an input is reported invalid exactly when no found user answers to it, in request order |
| RoomUserService.DuplicatedInputs | backend/API/Services/RoomUserService.cs:205-211 | a lookup key is reported duplicated exactly when its user is already in the room |
| RoomUserService.ValidNewInputs | backend/API/Services/RoomUserService.cs:214 | an input is added exactly when it resolves to a user not yet in the room; repeats collapse, so no input is added twice |
| RoomUserService.RepeatedInputCollapses | backend/API/Services/RoomUserService.cs:214 | an input repeated in the request is added only once |
| RoomUserService.MemberCount | backend/API/Services/RoomUserService.cs:217 | the current count covers all rows of the room, whatever their status |
| RoomUserService.CapacityError | backend/API/Services/RoomUserService.cs:218-224 | the request is accepted exactly when there is a free slot and no more new inputs than free slots |
| RoomUserService.NewRows | backend/API/Services/RoomUserService.cs:226-241 | one row per valid input, each the input's user as an active Student of the room |
| RoomUserService.IdAndCodeAddTwoRows | backend/API/Services/RoomUserService.cs:195-241 | sending a user's id and code, both new to the room, adds two rows for that one user |
| RoomUserService.MakeRows | backend/API/Services/RoomUserService.cs:228-241 | the loop builds exactly NewRows |
| RoomUserService.RoomExams | backend/API/Services/RoomUserService.cs:142 | an exam is the room's exactly when it is held in that room |
| RoomUserService.BusyUsers | backend/API/Services/RoomUserService.cs:146-153 | a requested user is busy exactly when they have an in-progress attempt at an exam of the room |
| RoomUserService.BusyNames | backend/API/Services/RoomUserService.cs:156-159 | a name is listed exactly when some user in the busy set has it as display name; none exactly when no user is busy; never more names than users |
| RoomUserService.RemainingRows | backend/API/Services/RoomUserService.cs:163-166 | a row survives exactly when it is not a targeted row of the room |
| RoomUserService.WithStatus | backend/API/Services/RoomUserService.cs:386-390 | every targeted row gets the status and a stamp; all other rows are unchanged |
| RoomUserService.WithStatusIdempotent | backend/API/Services/RoomUserService.cs:383-390 | setting the same status twice is the same as once |
| RoomUserService.RoomUserStore.constructor | backend/API/Services/RoomUserService.cs:16-20 | the store starts on the given memberships, users, room capacities, exam rooms and attempts |
| RoomUserService.RoomUserStore.AddStudentsToRoom | backend/API/Services/RoomUserService.cs:182-261 | an empty room id or list and an unknown room are refused with nothing added; a full room or too many new inputs are refused with nothing added; otherwise exactly NewRows of the valid inputs are appended and the invalid and duplicated inputs reported |
| RoomUserService.RoomUserStore.RemoveUsersFromRoom | backend/API/Services/RoomUserService.cs:137-180 | an empty room id or list is refused; a target in progress at an exam of the room refuses the whole removal; no targeted row is an error; otherwise exactly the targeted rows go |
| RoomUserService.RoomUserStore.ToggleActive | backend/API/Services/RoomUserService.cs:381-405 | no targeted row is "No student found." and nothing changes; otherwise the table becomes WithStatus and the log's message is returned |
| UserService.RefError | backend/API/Services/UserService.cs:491-518 | a reference check passes exactly when the id is given and names a row of its table |
| UserService.ValidateUserInput | backend/API/Services/UserService.cs:480-521 | the form passes exactly when the campus is known, a staff role has a known department and position, Student a known major and Lecture a known specialization; the campus is reported first |
| UserService.StudentIgnoresStaffFields | backend/API/Services/UserService.cs:494-519 | a Student-only form is judged without the department, position and specialization fields |
| UserService.CheckEmail | backend/API/Services/UserService.cs:523-532 | an email passes exactly when it is given, well formed and used by no user |
| UserService.CheckPhone | backend/API/Services/UserService.cs:534-542 | a phone passes exactly when it is given and no other user has it |
| UserService.CheckUserCode | backend/API/Services/UserService.cs:544-552 | a user code passes exactly when it is given and no other user has it |
| UserService.OwnPhoneAllowed | backend/API/Services/UserService.cs:538 | a user keeping their own phone on an update is not refused for it |
| UserService.OwnPhoneTakenWithoutId | backend/API/Services/UserService.cs:538 | without the user's id, the user's own phone counts as taken |
| UserService.UserToggled | backend/API/Services/UserService.cs:71 | Active becomes Inactive, anything else Active |
| UserService.UserToggleTwice | backend/API/Services/UserService.cs:71 | toggling twice restores Active or Inactive, and any other status ends Inactive |
| UserService.ValidRoles | backend/API/Services/UserService.cs:211 | a role is granted exactly when it exists and was requested |
| UserService.RowError | backend/API/Services/UserService.cs:197-212 | a row is accepted exactly when its email, phone, user code, form and roles all pass, checked in that order |
| UserService.NewUser | backend/API/Services/UserService.cs:216-234 | the new user carries the form's fields and the stored password and has no user code |
| UserService.Grants | backend/API/Services/UserService.cs:236-241 | the new user gets exactly one role row per valid role |
| UserService.ImportRow | backend/API/Services/UserService.cs:193-247 | a rejected row adds its error, an accepted one its user and role rows |
| UserService.ImportRowsShape | backend/API/Services/UserService.cs:193-247 | every row ends up created or reported, never both; reports carry their row and a message; created users have no user code |
| UserService.ImportCounts | backend/API/Services/UserService.cs:193-247 | one user per accepted row and one error per rejected row |
| UserService.NothingCreatedIffAllRejected | backend/API/Services/UserService.cs:251-262 | "No users were created." is answered exactly when every row is rejected |
| UserService.BatchDuplicatesPassChecks | backend/API/Services/UserService.cs:197-204 | rows are checked against the table only, so two rows with the same new email are both accepted |
| UserService.ScanImport | backend/API/Services/UserService.cs:193-247 | the loop gives exactly ImportRows |
| UserService.InsertAll | backend/API/Services/UserService.cs:253 | the users go in under their ids and nothing else is added |
| UserService.PreviewRows | backend/API/Services/UserService.cs:165-181 | one preview line per data row, numbered from 2 |
| UserService.CheckImportData | backend/API/Services/UserService.cs:155-183 | a parse error is passed on; no rows give "No data found in the file."; otherwise one preview line per row, numbered from 2 in increasing order |
| UserService.Hashed | backend/API/Services/UserService.cs:233 | models the intended behaviour: each generated password is stored as its hash |
| UserService.UserStore.constructor | backend/API/Services/UserService.cs:22-28 | the store starts on the given users, roles and lookup tables |
| UserService.UserStore.DoToggleActive | backend/API/Services/UserService.cs:64-87 | an empty id and an unknown user are refused and nothing changes; otherwise only that user's status flips and is stamped, and the log's message is returned |
| UserService.UserStore.AddListUser | backend/API/Services/UserService.cs:185-279 | models the intended behaviour (passwords stored hashed): an empty list is refused; rows are checked against the table as it was; with none accepted nothing changes, otherwise exactly the accepted users and their roles are added |
| FileHandler.PieceValues | backend/API/Utilities/FileHandler.cs:118 | each comma-separated piece becomes its parsed value, in order |
| FileHandler.IntListValueSpec | backend/API/Utilities/FileHandler.cs:115-121 | every number of a List<int> cell is a positive 32-bit integer that one of the cell's pieces parses to |
| FileHandler.IntListMember | backend/API/Utilities/FileHandler.cs:117-120 | a kept number is positive, 32-bit, and read from one of the pieces |
| FileHandler.PieceValueBound | backend/API/Utilities/FileHandler.cs:118 | a piece parses to a 32-bit integer, or 0 when it does not parse |
| FileHandler.EnumValueSpec | backend/API/Utilities/FileHandler.cs:103-104 | a member's name always parses, to that member's value; anything else parses only as a 32-bit number |
| FileHandler.BoolCell | backend/API/Utilities/FileHandler.cs:106-107 | a bool cell is true exactly for "1" and "true" in any letter case, and never fails |
| FileHandler.NullableAsUnderlying | backend/API/Utilities/FileHandler.cs:96-101 | a nullable column converts a non-empty text exactly as its underlying type |
| FileHandler.Decimals | backend/API/Utilities/FileHandler.cs:181 | each number becomes its decimal text |
| FileHandler.DecimalsShape | backend/API/Utilities/FileHandler.cs:181 | decimal texts are non-empty and hold no comma |
| FileHandler.PieceValueOfDecimal | backend/API/Utilities/FileHandler.cs:118 | a number's decimal text reads back as the number |
| FileHandler.DecimalsParse | backend/API/Utilities/FileHandler.cs:117-118 | every decimal text of a list parses back to its number |
| FileHandler.IntListRoundTrip | backend/API/Utilities/FileHandler.cs:115-121 | positive 32-bit numbers written with ", " between them, as the export writes a List<int> cell, read back as the same list, and so do ones written with "," alone (also line 181) |
| FileHandler.OverlayKey | backend/API/Utilities/FileHandler.cs:44-61 | a property is set exactly when one of the row's cells sets it |
| FileHandler.OverlayLastWins | backend/API/Utilities/FileHandler.cs:44-61 | a set property holds the value of the last cell that sets it |
| FileHandler.OverlayIndexed | backend/API/Utilities/FileHandler.cs:44-61 | when every setting's key is its index, key p is set exactly by setting p, to its value |
| FileHandler.HeaderProperty | backend/API/Utilities/FileHandler.cs:80-83 | the bound property is one of the properties |
| FileHandler.HeaderPropertySpec | backend/API/Utilities/FileHandler.cs:80-86 | the bound property is the first whose name equals the trimmed header ignoring case; none is bound exactly when the header is empty or nothing matches |
| FileHandler.HeaderIgnoresCase | backend/API/Utilities/FileHandler.cs:83 | headers that differ only in letter case bind the same property |
| FileHandler.HeaderBinding | backend/API/Utilities/FileHandler.cs:78-87 | a column's binding names that column and an existing property |
| FileHandler.Bindings | backend/API/Utilities/FileHandler.cs:78-87 | one binding per column of the header row, each naming an existing property |
| FileHandler.BindingsAt | backend/API/Utilities/FileHandler.cs:78-87 | the binding of column c is column c's header binding |
| FileHandler.GetColumnMapping | backend/API/Utilities/FileHandler.cs:74-91 | the loop over the header row builds exactly ColumnMapping |
| FileHandler.ColumnMappingSpec | backend/API/Utilities/FileHandler.cs:74-91 | a column is mapped exactly when it is in the header row and its header binds a property, and then to that property |
| FileHandler.ColumnMappingInto | backend/API/Utilities/FileHandler.cs:86 | the mapping only names existing properties |
| FileHandler.CellSetting | backend/API/Utilities/FileHandler.cs:46-61 | a cell sets only the property its column is mapped to; a blank cell, an unmapped column or a conversion that throws sets nothing |
| FileHandler.Settings | backend/API/Utilities/FileHandler.cs:44-62 | one setting per column of a row |
| FileHandler.SettingsAt | backend/API/Utilities/FileHandler.cs:44-62 | the setting of column c is that cell's setting |
| FileHandler.RowItemFields | backend/API/Utilities/FileHandler.cs:42-64 | every field of a row's record is a property that some mapped column of that row set |
| FileHandler.Rows | backend/API/Utilities/FileHandler.cs:40-65 | one record per data row |
| FileHandler.RowsAt | backend/API/Utilities/FileHandler.cs:40-42 | record i is read from row i + 2 |
| FileHandler.ImportedRows | backend/API/Utilities/FileHandler.cs:40 | one record for each row from 2 to the last row |
| FileHandler.ReadRow | backend/API/Utilities/FileHandler.cs:42-64 | the inner loop builds exactly that row's record; a later column overwrites an earlier one |
| FileHandler.ImportFromExcel | backend/API/Utilities/FileHandler.cs:19-73 | a missing or empty upload gives "No file found or file is empty." and no rows; a workbook without sheets "No found worksheet in file."; otherwise every data row of the first sheet is read |
| FileHandler.ColumnWidth | backend/API/Utilities/FileHandler.cs:147-159 | strings are 30 wide, DateTime 18, bool 10, enums 20, int/long/short 12, decimal/double/float 15, Guid 36, byte 8 and anything else (List<int> among them) 25, a nullable type as its underlying type; every width lies between 8 and 36 |
| FileHandler.GenerateExcelFile | backend/API/Utilities/FileHandler.cs:129-193 | a null or empty list gives the empty stream; otherwise the header names every property with its width and each record fills one row |
| Utils.IsEmptyIffTrimmedEmpty | backend/API/Commons/Utils.cs:20-23 | a present string is empty in IsEmpty's sense exactly when trimming leaves nothing, so a non-empty one starts with white space |
| Utils.IsObjectEmpty | backend/API/Commons/Utils.cs:24-31 | true exactly for a null collection or one with no elements |
| Utils.Next | backend/API/Commons/Utils.cs:35 | Random.Next(lo, hi) gives a value in [lo, hi), whatever the generator draws |
| Utils.Generate6Number | backend/API/Commons/Utils.cs:32-36 | the code lies in [100000, 999999), so 999999 never comes out, and always prints as six digits |
| Utils.DigitCount | backend/API/Commons/Utils.cs:32-36 | a number with k decimal digits prints as exactly k characters |
| Utils.AlphabetsInAll | backend/API/Commons/Utils.cs:39-44 | upper case, lower case, digits and specials are each part of the combined alphabet |
| Utils.Seconds | backend/API/Commons/Utils.cs:58 | the characters of the (sort key, character) pairs, one per pair, in order |
| Utils.SecondsInsert | backend/API/Commons/Utils.cs:58 | inserting a keyed character into a sorted list adds exactly that character |
| Utils.SecondsSort | backend/API/Commons/Utils.cs:58 | sorting by the drawn keys keeps every character as often as before |
| Utils.Shuffle | backend/API/Commons/Utils.cs:58 | OrderBy on random keys returns a string of the same length holding the same characters, each as often |
| Utils.GenerateCharacter | backend/API/Commons/Utils.cs:37-59 | the password has max(length, 4) characters, at least one upper-case letter, one lower-case letter, one digit and one special character, and no character outside the four alphabets |
| Utils.ClientIpAddress | backend/API/Commons/Utils.cs:66-71 | a non-empty X-Forwarded-For gives its trimmed first comma-separated entry (never holding a comma); otherwise the remote IPv4 address; otherwise "Unknown" |
| Utils.FirstHopWins | backend/API/Commons/Utils.cs:69 | whatever follows the first forwarded hop, the first hop is the address reported |
| Utils.ClientBrowser | backend/API/Commons/Utils.cs:72-76 | "Unknown" exactly when the User-Agent is blank (or is itself "Unknown"); the result is never blank |
| Utils.ExtensionTail | backend/API/Commons/Utils.cs:173 | the name's tail from its last '.', a suffix of the name holding no further '.' |
| Utils.Extension | backend/API/Commons/Utils.cs:173 | Path.GetExtension: empty, or a '.' followed by at least one character, a suffix of the name with no other '.' |
| Utils.ExtensionOfDotted | backend/API/Commons/Utils.cs:173 | a name ending in '.' plus a plain extension has exactly that extension, whatever comes before |
| Utils.UploadError | backend/API/Commons/Utils.cs:166-177 | a file is accepted exactly when it is at most 1 MB and its lower-cased extension is an allowed image format; size is checked first |
| Utils.Checks | backend/API/Commons/Utils.cs:166-177 | the check outcome of each file, one per file |
| Utils.StoredName | backend/API/Commons/Utils.cs:185 | the stored name starts with the fresh GUID |
| Utils.StoredNames | backend/API/Commons/Utils.cs:185 | one stored name per file, each its GUID plus its lower-cased extension |
| Utils.UploadFromAll | backend/API/Commons/Utils.cs:166-196 | with no refusal left, the upload stores every remaining file and returns all the names with no message |
| Utils.UploadFromReaches | backend/API/Commons/Utils.cs:166-196 | files before the first refusal are stored one by one in order |
| Utils.UploadOutcome | backend/API/Commons/Utils.cs:166-196 | with no refused file, the message is empty and every name is returned and written; otherwise the first refused file's message is returned with no names, while the files before it are already written |
| Utils.ImageFolder.constructor | backend/API/Commons/Utils.cs:179-183 | the folder starts with the files it holds |
| Utils.ImageFolder.GetUrlImages | backend/API/Commons/Utils.cs:161-197 | the message, the returned names and the folder's new contents are those of the upload outcome above |
| ConfigUrlService.Find | backend/API/Services/ConfigUrlService.cs:27 | the position of the row with the id, none exactly when no row has it |
| ConfigUrlService.GetOne | backend/API/Services/ConfigUrlService.cs:23-32 | a blank id is refused; a success exactly when a row has the id, and then it is that row; otherwise "not found" |
| ConfigUrlService.GetAll | backend/API/Services/ConfigUrlService.cs:34-41 | every row, or the message exactly when the table is empty |
| ConfigUrlService.Toggled | backend/API/Services/ConfigUrlService.cs:50-51 | the flag flips, the update time is set, nothing else changes |
| ConfigUrlService.ToggleTwice | backend/API/Services/ConfigUrlService.cs:43-67 | toggling twice gives back the flag and every field but the update time |
| ConfigUrlService.SaveError | backend/API/Services/ConfigUrlService.cs:71-94 | a create is refused exactly when the URL is in use; an update when the id is unknown, then when another row has the URL |
| ConfigUrlService.CreatedRow | backend/API/Services/ConfigUrlService.cs:76-85 | the new row has the generated id, the input's URL, name and flag, and the creation time |
| ConfigUrlService.UpdatedRow | backend/API/Services/ConfigUrlService.cs:96-101 | an update keeps id and creation time, takes the input's fields and sets the update time |
| ConfigUrlService.CreateKeepsUrlsUnique | backend/API/Services/ConfigUrlService.cs:71-86 | a create that passes the check keeps URLs unique |
| ConfigUrlService.UpdateKeepsUrlsUnique | backend/API/Services/ConfigUrlService.cs:88-103 | an update that passes the checks keeps URLs unique |
| ConfigUrlService.MatchedUrls | backend/API/Services/ConfigUrlService.cs:124-140 | a URL is returned exactly when it is listed and some row has it (a null URL read as ""); none exactly when no row matches |
| ConfigUrlService.WithoutUrls | backend/API/Services/ConfigUrlService.cs:127 | exactly the rows whose URL is not listed remain |
| ConfigUrlService.RemoveIgnoresIds | backend/API/Services/ConfigUrlService.cs:124 | removal goes by URL: a row listed only by id stays |
| ConfigUrlService.RemoveKeepsUnique | backend/API/Services/ConfigUrlService.cs:127-128 | removing rows by URL keeps URLs and ids unique |
| ConfigUrlService.UrlStore.constructor | backend/API/Services/ConfigUrlService.cs:16-21 | the store holds the given ConfigUrls table, whose URLs and ids are unique, so the store is valid |
| ConfigUrlService.UrlStore.ToggleConfigUrl | backend/API/Services/ConfigUrlService.cs:43-67 | a blank id and an unknown id are refused with no change; otherwise exactly that row is toggled and the log's message is returned; URLs and ids stay unique |
| ConfigUrlService.UrlStore.CreateUpdate | backend/API/Services/ConfigUrlService.cs:69-118 | a refused save changes nothing; a create appends the new row, an update overwrites exactly that row; URLs and ids stay unique |
| ConfigUrlService.UrlStore.DoRemove | backend/API/Services/ConfigUrlService.cs:120-141 | an empty list and a list matching nothing are refused with no change; otherwise the matching rows are removed, URLs and ids stay unique, and their URLs are returned unless the log fails |
| DisabledKeyService.GetAll | backend/API/Services/DisabledKeyService.cs:24-62 | the items are the requested page of the matching keys (code or combination search ignoring case, flag, risk level) sorted inactive first; "No disabled keys found." with no rows exactly when that page is empty, as it is when nothing matches |
| DisabledKeyService.Find | backend/API/Services/DisabledKeyService.cs:68 | the position of the key with the id, none exactly when no key has it |
| DisabledKeyService.GetOne | backend/API/Services/DisabledKeyService.cs:64-73 | a blank id is refused; a success exactly when a key has the id, and then it is that key |
| DisabledKeyService.MatchedCodes | backend/API/Services/DisabledKeyService.cs:80-107 | a code is returned exactly when some listed key has it; none exactly when no key is listed |
| DisabledKeyService.Flipped | backend/API/Services/DisabledKeyService.cs:86-92 | exactly the listed keys flip their flag and are stamped with the caller and time |
| DisabledKeyService.FlipTwice | backend/API/Services/DisabledKeyService.cs:75-108 | flipping the same ids twice gives every key its flag back |
| DisabledKeyService.WithoutIds | backend/API/Services/DisabledKeyService.cs:119 | exactly the keys not listed remain |
| DisabledKeyService.SaveError | backend/API/Services/DisabledKeyService.cs:138-162 | no caller is refused first; a create exactly when the KeyCode is in use; an update exactly when the id is unknown |
| DisabledKeyService.CreatedKey | backend/API/Services/DisabledKeyService.cs:146-157 | the new key has the generated id, the input's code and flag, and the caller as creator |
| DisabledKeyService.UpdatedKey | backend/API/Services/DisabledKeyService.cs:163-172 | an update keeps id, creation time and creator and takes the input's fields |
| DisabledKeyService.CreateKeepsCodesUnique | backend/API/Services/DisabledKeyService.cs:140-145 | a create that passes the checks keeps KeyCodes unique |
| DisabledKeyService.UpdateMayDuplicateCode | backend/API/Services/DisabledKeyService.cs:159-172 | an update may give a key another key's code and passes the checks |
| DisabledKeyService.KeyStore.constructor | backend/API/Services/DisabledKeyService.cs:17-22 | the store holds the given DisabledKeys table |
| DisabledKeyService.KeyStore.ChangeActivate | backend/API/Services/DisabledKeyService.cs:75-108 | no caller, an empty list and a list matching nothing are refused in order with no change; otherwise the listed keys flip and their codes are returned unless the log fails |
| DisabledKeyService.KeyStore.DoDelete | backend/API/Services/DisabledKeyService.cs:110-134 | an empty list and a list matching nothing are refused with no change; otherwise the listed keys are removed and their codes returned unless the log fails |
| DisabledKeyService.KeyStore.CreateUpdate | backend/API/Services/DisabledKeyService.cs:136-186 | a refused save changes nothing; a create appends the new key, an update overwrites exactly that key; the log's message is returned |
| ProhibitedAppService.AppBeforeTotal | backend/API/Services/ProhibitedAppService.cs:48-51 | the list order (inactive first, then most recently updated) is a total preorder, so the page order is well defined |
| ProhibitedAppService.GetAll | backend/API/Services/ProhibitedAppService.cs:24-66 | the items are the requested page of the apps matching the text, active flag, type, risk and category, in list order, with the total and page count of all matches; "No prohibited apps found." with no rows and no pages exactly when that page is empty |
| ProhibitedAppService.GetOne | backend/API/Services/ProhibitedAppService.cs:68-78 | a missing or empty key is refused; otherwise an app is found exactly when one has the key as id, name or process, and the app returned is such an app |
| ProhibitedAppService.MatchedNames | backend/API/Services/ProhibitedAppService.cs:84-107 | a name is returned exactly when some listed app has it; none exactly when no app is listed |
| ProhibitedAppService.Flipped | backend/API/Services/ProhibitedAppService.cs:87-93 | listed apps have their active flag flipped and are stamped; all others are unchanged |
| ProhibitedAppService.FlipTwice | backend/API/Services/ProhibitedAppService.cs:80-108 | flipping the same ids twice restores every app's active flag |
| ProhibitedAppService.WithoutIds | backend/API/Services/ProhibitedAppService.cs:171-174 | an app is kept exactly when its id is not listed |
| ProhibitedAppService.SaveError | backend/API/Services/ProhibitedAppService.cs:112-138 | a create is refused exactly when any app has the name or the process; an update exactly when the id is unknown or another app has the name or the process |
| ProhibitedAppService.CreatedApp | backend/API/Services/ProhibitedAppService.cs:116-129 | a created app carries the new id, the form's fields and the creator, and has no update stamp |
| ProhibitedAppService.UpdatedApp | backend/API/Services/ProhibitedAppService.cs:139-148 | an updated app keeps its id and creation data and takes the form's fields |
| ProhibitedAppService.CreateKeepsUnique | backend/API/Services/ProhibitedAppService.cs:114-129 | a create the checks accept keeps app names and processes unique |
| ProhibitedAppService.UpdateKeepsUnique | backend/API/Services/ProhibitedAppService.cs:135-148 | an update the checks accept keeps app names and processes unique |
| ProhibitedAppService.SubsequenceKeepsUnique | backend/API/Services/ProhibitedAppService.cs:167-189 | removing apps keeps the rest unique |
| ProhibitedAppService.AppStore.constructor | backend/API/Services/ProhibitedAppService.cs:17-22 | the store starts on a table with unique names, processes and ids |
| ProhibitedAppService.AppStore.ChangeActivate | backend/API/Services/ProhibitedAppService.cs:80-108 | no ids and ids matching nothing are refused and nothing changes; otherwise the table becomes Flipped (saved before the log) and the names are returned unless the log write failed |
| ProhibitedAppService.AppStore.CreateUpdate | backend/API/Services/ProhibitedAppService.cs:110-165 | a SaveError refusal changes nothing; otherwise a create appends CreatedApp or an update replaces the app by UpdatedApp, uniqueness is kept and the log's message is returned |
| ProhibitedAppService.AppStore.DoRemove | backend/API/Services/ProhibitedAppService.cs:167-189 | no ids and ids matching nothing are refused and nothing changes; otherwise the table becomes WithoutIds (saved before the log) and the removed names are returned unless the log write failed |
| NotificationService.NotificationBeforeTotal | backend/API/Services/NotificationService.cs:45 | the newest-first order on notifications is total, so the page order is well defined |
| NotificationService.GetAlert | backend/API/Services/NotificationService.cs:25-71 | the items are the requested page of the caller's notifications matching the read flag, the date range and the text, sorted newest first, at most a page of them; "No notifications found." with no items exactly when that page is empty |
| NotificationService.TotalUnread | backend/API/Services/NotificationService.cs:194-199 | the unread count never exceeds the table and is 0 exactly when none of the user's notifications is unread |
| NotificationService.Find | backend/API/Services/NotificationService.cs:155-156 | the lookup finds a notification with the id, and finds none exactly when no notification has it |
| NotificationService.MarkedRead | backend/API/Services/NotificationService.cs:158 | marking read sets only that notification's read flag; every other notification and field is unchanged |
| NotificationService.MarkAsReadIdempotent | backend/API/Services/NotificationService.cs:153-171 | marking a notification read twice is the same as once |
| NotificationService.MarkAsReadCount | backend/API/Services/NotificationService.cs:158-169 | the owner's unread count drops by one when the notification was unread, else stays |
| NotificationService.AllMarkedRead | backend/API/Services/NotificationService.cs:175-183 | every unread notification of the user becomes read and nothing else changes |
| NotificationService.AllMarkedReadCounts | backend/API/Services/NotificationService.cs:173-192 | afterwards the user has no unread notification and every other user's count is unchanged |
| NotificationService.WithoutIds | backend/API/Services/NotificationService.cs:205-210 | a notification is kept exactly when its id is not among those to delete |
| NotificationService.Created | backend/API/Services/NotificationService.cs:105-115 | a new notification carries the given id, message and recipient, is unread, and is created by the caller at the given time |
| NotificationService.AdminIds | backend/API/Services/NotificationService.cs:226-229 | a user is a recipient exactly when they hold the Admin role |
| NotificationService.FeedbackNotifications | backend/API/Services/NotificationService.cs:231-245 | one unread feedback notification per admin, each carrying the prefixed message from the caller |
| NotificationService.FeedbackReachesEachAdminOnce | backend/API/Services/NotificationService.cs:224-260 | every admin receives exactly one feedback notification and no other user any |
| NotificationService.CountTargets | backend/API/Services/NotificationService.cs:231-245 | a duplicate-free recipient list gives each recipient exactly one notification and others none |
| NotificationService.NotificationStore.constructor | backend/API/Services/NotificationService.cs:18-23 | the store starts on the given table with nothing pushed |
| NotificationService.NotificationStore.Create | backend/API/Services/NotificationService.cs:101-151 | no input is refused with "Notification data is null" and nothing changes; otherwise exactly the created notification is appended and pushed to its recipient |
| NotificationService.NotificationStore.MarkAsRead | backend/API/Services/NotificationService.cs:153-171 | an unknown id is refused with "Notification not found" and nothing changes; otherwise the table becomes MarkedRead and the owner's new unread count is pushed |
| NotificationService.NotificationStore.MarkAllAsRead | backend/API/Services/NotificationService.cs:173-192 | a user with nothing unread is refused with "No unread notifications found" and nothing changes; otherwise the table becomes AllMarkedRead and one push goes to the user |
| NotificationService.NotificationStore.Delete | backend/API/Services/NotificationService.cs:201-222 | an empty id list and ids matching nothing are refused and nothing changes; otherwise exactly the matching notifications go, and nothing is pushed |
| NotificationService.NotificationStore.SendToAdmins | backend/API/Services/NotificationService.cs:224-260 | the feedback notifications are appended in admin order and each is pushed to its admin, in the same order |
| QuestionBankService.FindShare | backend/API/Services/QuestionBankService.cs:84-85 | the share found is the first one of the bank with the user, and none is found exactly when no such share exists (also lines 359-363, 408-409) |
| QuestionBankService.FindByEmail | backend/API/Services/QuestionBankService.cs:351 | the user found has the email ignoring case, and none is found exactly when no user has it (also line 403) |
| QuestionBankService.AddError | backend/API/Services/QuestionBankService.cs:31-42 | a create is accepted exactly when the caller is a lecturer or admin, the title and subject are given and the subject exists |
| QuestionBankService.NewBank | backend/API/Services/QuestionBankService.cs:43-54 | a new bank has the trimmed title, is active and is owned by its creator |
| QuestionBankService.EditError | backend/API/Services/QuestionBankService.cs:63-92 | an edit is accepted exactly when the caller is a lecturer or admin, the fields are given, the subject and the bank exist and the caller created the bank or holds an edit share of it |
| QuestionBankService.ViewOnlyCannotEdit | backend/API/Services/QuestionBankService.cs:82-92 | a user who is not the creator and holds a view-only share is refused with the view-only message |
| QuestionBankService.ToggledStatus | backend/API/Services/QuestionBankService.cs:123 | the toggle gives 0 or 1, and differs from a status of 0 or 1 |
| QuestionBankService.ToggleTwice | backend/API/Services/QuestionBankService.cs:123 | toggling twice restores a status of 0 or 1 |
| QuestionBankService.ActiveStatusName | backend/API/Services/QuestionBankService.cs:129 | the status names in the message are Active, Inactive and Pending |
| QuestionBankService.ToggleError | backend/API/Services/QuestionBankService.cs:107-121 | a toggle is accepted exactly when the caller is a lecturer or admin, the bank exists and the caller created it |
| QuestionBankService.DeleteError | backend/API/Services/QuestionBankService.cs:257-273 | a delete is accepted exactly when the caller is a lecturer or admin, the bank exists under that subject, the caller created it and it holds no question |
| QuestionBankService.ShareError | backend/API/Services/QuestionBankService.cs:335-363 | a share is accepted exactly when the sharer is a lecturer or admin who created the bank, the target user exists by email (ignoring case), is a lecturer or admin, and holds no share of the bank yet |
| QuestionBankService.AccessModeError | backend/API/Services/QuestionBankService.cs:384-412 | a mode other than 0 or 1 is refused first; otherwise a change is accepted exactly when the sharer is a lecturer or admin who created the bank, the target exists and a share with them exists |
| QuestionBankService.ShareKeepsUnique | backend/API/Services/QuestionBankService.cs:359-372 | a share the checks accept keeps shares unique per bank and user |
| QuestionBankService.BankStore.constructor | backend/API/Services/QuestionBankService.cs:20-24 | the store starts on the given tables, shares unique, every bank stored under its own id |
| QuestionBankService.BankStore.AddQuestionBank | backend/API/Services/QuestionBankService.cs:27-59 | a refusal changes nothing; otherwise exactly NewBank is added under the new id and the created message is returned |
| QuestionBankService.BankStore.EditQuestionBank | backend/API/Services/QuestionBankService.cs:61-103 | a refusal changes nothing; otherwise only the bank's title (trimmed), subject, description and stamp change |
| QuestionBankService.BankStore.ToggleQuestionBankStatus | backend/API/Services/QuestionBankService.cs:105-130 | a refusal changes nothing; otherwise only the bank's status becomes ToggledStatus and the message names it |
| QuestionBankService.BankStore.DeleteQuestionBank | backend/API/Services/QuestionBankService.cs:255-276 | a refusal changes nothing; otherwise exactly that bank is removed |
| QuestionBankService.BankStore.ShareQuestionBank | backend/API/Services/QuestionBankService.cs:333-380 | a refusal changes nothing; otherwise exactly one share with the given mode is appended and shares stay unique |
| QuestionBankService.BankStore.ChangeAccessMode | backend/API/Services/QuestionBankService.cs:382-420 | a refusal changes nothing; otherwise only the existing share's mode changes |
| QuestionService.FindBank | backend/API/Services/QuestionService.cs:125 | the bank found has the id ignoring case, and none is found exactly when no bank has it (also lines 229-232) |
| QuestionService.NormalizeAnswersShape | backend/API/Services/QuestionService.cs:275-279 | every normalised answer is a trimmed, non-blank, comma-free piece of the answer text |
| QuestionService.NormalizeAnswersKeys | backend/API/Services/QuestionService.cs:275-279 | no two normalised answers are equal ignoring case, and every non-blank piece of the answer text is kept in some spelling |
| QuestionService.JoinedAnswersRoundTrip | backend/API/Services/QuestionService.cs:290-316 | joining trimmed, non-blank, comma-free answers with ',' gives a trimmed text that splits back into them |
| QuestionService.StoredAnswersRoundTrip | backend/API/Services/QuestionService.cs:275-290 | the stored answer text is unchanged by the final trim and splits back into the normalised answers (also line 316) |
| QuestionService.CommaOnlyAnswerIsEmpty | backend/API/Services/QuestionService.cs:272-279 | an answer text of commas only passes the required-answer test yet normalises to no answer at all |
| QuestionService.InvalidAnswers | backend/API/Services/QuestionService.cs:281-287 | no answer is reported exactly when every answer is one of the options |
| QuestionService.CheckByTypeAccepted | backend/API/Services/QuestionService.cs:259-290 | the type checks accept exactly essays with a sample answer and multiple-choice questions with two or more options, an answer, and every answer an option |
| QuestionService.NewQuestion | backend/API/Services/QuestionService.cs:306-326 | the stored row has the generated id, the bank and subject, the trimmed content and answer, the point and options, is active and owned by the caller |
| QuestionService.RequestCheckAccepted | backend/API/Services/QuestionService.cs:244-290 | the request checks pass exactly for non-blank content, a point in (0, 10], a known type, a difficulty from 1 to 4 and a passing type check, whose verdict is then kept |
| QuestionService.AcceptedIsWellFormed | backend/API/Services/QuestionService.cs:244-326 | a question stored from an accepted request is well formed |
| QuestionService.AddQuestionResult | backend/API/Services/QuestionService.cs:219-336 | the add succeeds exactly when no check fails, and otherwise returns the first failing check's message |
| QuestionService.AddQuestionAccepted | backend/API/Services/QuestionService.cs:221-290 | an add succeeds exactly for a lecturer or admin naming a bank with a known subject and a request that passes every check |
| QuestionService.AddQuestionStores | backend/API/Services/QuestionService.cs:306-330 | a successful add stores a well-formed active question owned by the caller under the generated id, a multiple-choice one with its normalised answers joined by ',' |
| QuestionService.AddQuestionPermissionFirst | backend/API/Services/QuestionService.cs:221-226 | a caller without the role is refused with the permission message before anything else is looked up |
| QuestionService.AddQuestionBPWeaker | backend/API/Services/QuestionService.cs:338-433 | the builder variant accepts every request the plain add accepts, and also some it refuses, since it does not check the point |
| QuestionService.ApplyEdit | backend/API/Services/QuestionService.cs:526-537 | an edit overwrites the content, bank, subject, type, difficulty, options and answer and stamps the update, keeping the point, id, status and creator |
| QuestionService.EditQuestionResult | backend/API/Services/QuestionService.cs:436-546 | the edit succeeds exactly when no check fails, and otherwise returns the first failing check's message |
| QuestionService.EditQuestionAccepted | backend/API/Services/QuestionService.cs:436-546 | an edit is accepted exactly when the question exists and an add of the same request would be, so the point must lie in (0, 10] although it is never stored |
| QuestionService.EditKeepsPoint | backend/API/Services/QuestionService.cs:526-537 | a successful edit keeps the stored point, id, status and creator |
| QuestionService.ToggledStatus | backend/API/Services/QuestionService.cs:567-568 | an active question becomes inactive and anything else active |
| QuestionService.ToggleTwice | backend/API/Services/QuestionService.cs:549-580 | toggling twice restores a status of 0 or 1 |
| QuestionService.ImportItem | backend/API/Services/QuestionService.cs:105-200 | an imported item becomes a well-formed, active question owned by the caller under its generated id |
| QuestionService.ImportPartition | backend/API/Services/QuestionService.cs:92-216 | every item is either imported or reported, never both, and every imported question is well formed and active |
| QuestionService.AddRows | backend/API/Services/QuestionService.cs:202-204 | inserting rows adds exactly their ids to the table |
| QuestionService.QuestionStore.constructor | backend/API/Services/QuestionService.cs:22-27 | the store starts with the given users' roles, banks and subjects and no questions |
| QuestionService.QuestionStore.AddQuestion | backend/API/Services/QuestionService.cs:219-336 | on success exactly the new question is stored under the generated id; on refusal nothing changes and the first failing check's message is returned |
| QuestionService.QuestionStore.EditQuestion | backend/API/Services/QuestionService.cs:436-546 | on success only the edited question changes, to ApplyEdit of it; on refusal nothing changes |
| QuestionService.QuestionStore.ToggleStatus | backend/API/Services/QuestionService.cs:549-580 | a caller without the role or an unknown question is refused and nothing changes; otherwise only that question's status flips and its update time is set |
| QuestionService.QuestionStore.ImportList | backend/API/Services/QuestionService.cs:92-216 | an empty list is refused before the permission check and nothing changes; otherwise exactly the valid items are inserted and the skipped ones reported |
| ExamService.DropLayout | backend/API/Services/ExamService.cs:77-80 | the result keeps only characters of the input that are not space, tab or newline; an input without them is unchanged, and a non-layout first or last character stays first or last |
| ExamService.NormalizeTitleIdempotent | backend/API/Services/ExamService.cs:77-86 | the title normal form (trim, lower case, layout removed) is its own normal form, so comparing normal forms is an equivalence (also lines 406-419) |
| ExamService.RescaleNearTen | backend/API/Services/ExamService.cs:113-117 | the points written for a question set, each rounded to two decimals, add up to 10 within half a cent per question (also lines 139-150) |
| ExamService.AddQuestionsAccepted | backend/API/Services/ExamService.cs:427-462 | the question checks of an add pass exactly when the ids are non-empty, distinct, active questions of the bank of one type equal to the exam's, and their points add up to more than 0 |
| ExamService.OneTypeIff | backend/API/Services/ExamService.cs:106-111 | the questions share one type equal to the exam's exactly when each has the exam's type (also lines 453-458) |
| ExamService.UpdateExamAccepted | backend/API/Services/ExamService.cs:33-115 | an update goes ahead exactly when the caller is a lecturer or admin who created the exam, the exam is a Draft, the times are ordered, the room and bank exist, the title is free among the caller's other exams, the question set is valid and its total is not 0 |
| ExamService.AddExamAccepted | backend/API/Services/ExamService.cs:392-462 | an add goes ahead exactly when the caller is a lecturer or admin, the times are ordered, the room exists, the title is free among the caller's exams, the bank exists and has questions, the question set is valid and its total is above 0 |
| ExamService.UpdateExamFacts | backend/API/Services/ExamService.cs:93-115 | an accepted update has an existing exam, a valid question set and a non-zero total |
| ExamService.AddExamFacts | backend/API/Services/ExamService.cs:444-462 | an accepted add has a valid question set and a positive total |
| ExamService.EndBeforeStartFirst | backend/API/Services/ExamService.cs:65-66 | reversed times are reported before the room, the bank and the questions are looked at, in both add and update (also lines 401-402) |
| ExamService.NegativeTotalOnlyRejectedByAdd | backend/API/Services/ExamService.cs:113-115 | a negative total is refused by add, while update lets it through when every other check passes (also lines 460-462) |
| ExamService.ChangeStatusAccepted | backend/API/Services/ExamService.cs:687-714 | a status change is made exactly when the caller is a lecturer or admin, the exam exists, is not ongoing, is not a completed exam being published, and the status actually changes |
| ExamService.ReportCounts | backend/API/Services/ExamService.cs:556-569 | completed and not-yet-completed attempts partition the attempts, and every marked attempt is completed |
| ExamService.AverageInRange | backend/API/Services/ExamService.cs:558-559 | with every graded score in a range, the reported average (rounded to two decimals) lies in that range up to half a cent |
| ExamService.AssignOtpAsWritten | backend/API/Services/ExamService.cs:750-776 | as written: the code shown is the fresh code, whatever is stored |
| ExamService.AssignOtpFirstCodeLost | backend/API/Services/ExamService.cs:750-773 | as written: the first OTP row of an exam keeps code 0 and is already expired while another code is shown |
| ExamService.AssignOtp | backend/API/Services/ExamService.cs:750-776 | models the intended behaviour: the code shown is the fresh code |
| ExamService.AssignOtpStoresShownCode | backend/API/Services/ExamService.cs:760-767 | models the intended behaviour: the stored code is the one shown and expires TimeValid seconds from now, whether the row is new or not |
| ExamService.ApplyUpdate | backend/API/Services/ExamService.cs:119-134 | the updated exam keeps its id, creator and updater, takes the trimmed title, one question per id and 10 points |
| ExamService.NewExam | backend/API/Services/ExamService.cs:469-490 | the new exam has the generated id, the caller as creator and no updater, the trimmed title, one question per id and 10 points |
| ExamService.UpdateExamOutcome | backend/API/Services/ExamService.cs:33-155 | success exactly when no check fails; a failure returns the first failing check's message and changes nothing; supervisors never change |
| ExamService.AddExamOutcome | backend/API/Services/ExamService.cs:392-534 | success exactly when no check fails; a failure returns the first failing check's message and changes nothing |
| ExamService.UpdateExamWrites | backend/API/Services/ExamService.cs:119-154 | an accepted update keeps the set of exams, gives the exam 10 points and one question per id, replaces its question rows by the rescaled points and touches no other exam |
| ExamService.AddExamWrites | backend/API/Services/ExamService.cs:465-527 | an accepted add inserts exactly one 10-point exam owned by the caller, its rescaled question rows and one supervisor row with no supervisor, created by the caller |
| ExamService.RescaledAt | backend/API/Services/ExamService.cs:146 | each rescaled point is the rounded share of the point in the same position (also line 500) |
| ExamService.StoredIsRescaled | backend/API/Services/ExamService.cs:139-150 | the rows written, read in request order, hold the rescaled points (also lines 493-513) |
| ExamService.WrittenPointsEach | backend/API/Services/ExamService.cs:146 | the row written for each question holds its point times 10 over the total, rounded to two decimals (also line 500) |
| ExamService.WrittenPointsNearTen | backend/API/Services/ExamService.cs:117-146 | the points written add up to the stored total of 10 within half a cent per question |
| ExamService.ExamStore.constructor | backend/API/Services/ExamService.cs:26-30 | the store holds the given reference tables and empty exam, question, supervisor and OTP tables |
| ExamService.ExamStore.UpdateExam | backend/API/Services/ExamService.cs:33-155 | the store's tables become exactly UpdateExamOutcome's; the reference tables and OTPs are unchanged |
| ExamService.ExamStore.AddExam | backend/API/Services/ExamService.cs:392-534 | the store's tables become exactly AddExamOutcome's; the reference tables and OTPs are unchanged |
| ExamService.ExamStore.ChangeExamStatus | backend/API/Services/ExamService.cs:687-722 | success exactly when no check fails; on success only that exam's Status, UpdatedAt and UpdateUser change; otherwise nothing changes |
| ExamService.ExamStore.AssignOtpCode | backend/API/Services/ExamService.cs:740-777 | models the intended behaviour: an unpublished or unknown exam and an ended exam are refused with no change; otherwise the exam's OTP row stores the code returned, with its validity and expiry, and nothing else changes |
| ExamSupervisorService.ListError | backend/API/Services/ExamSupervisorService.cs:22-69 | no error exactly when the caller is an admin or created a supervisor row of the exam, the exam exists and it has supervisor rows; permission is checked first |
| ExamSupervisorService.CreatorSeesRows | backend/API/Services/ExamSupervisorService.cs:27 | only an admin can reach "No supervisor found for this exam.": a row's creator has a row of the exam (also line 69) |
| ExamSupervisorService.RowsOfExam | backend/API/Services/ExamSupervisorService.cs:189 | exactly the exam's supervisor rows |
| ExamSupervisorService.FoundUsers | backend/API/Services/ExamSupervisorService.cs:192 | exactly the requested users that exist |
| ExamSupervisorService.StudentEmails | backend/API/Services/ExamSupervisorService.cs:195-197 | an e-mail is listed exactly when some found user holding only the Student role (no role included) has it; none exactly when there is no such user |
| ExamSupervisorService.ToAdd | backend/API/Services/ExamSupervisorService.cs:199-200 | exactly the requested ids not already supervising the exam |
| ExamSupervisorService.NewRows | backend/API/Services/ExamSupervisorService.cs:201-210 | one new row per id to add, each with the next fresh id, the exam and the creator of the exam's first row |
| ExamSupervisorService.AssignError | backend/API/Services/ExamSupervisorService.cs:188-211 | the assignment is accepted exactly when the exam has rows, some user is found, no found user holds only the Student role and some id is new; otherwise the first failing check's message, in that order, the student one naming their e-mails joined by ", " |
| ExamSupervisorService.AssignSkipsCurrent | backend/API/Services/ExamSupervisorService.cs:199-200 | an id already supervising the exam is never added again |
| ExamSupervisorService.Removable | backend/API/Services/ExamSupervisorService.cs:246-247 | exactly the exam's rows, only those the caller created unless an admin |
| ExamSupervisorService.SupervisorIds | backend/API/Services/ExamSupervisorService.cs:252 | exactly the supervisor ids of the rows |
| ExamSupervisorService.AfterRemove | backend/API/Services/ExamSupervisorService.cs:258-262 | exactly the rows that are not visible rows of a supervisor being deleted remain |
| ExamSupervisorService.SupervisorStore.constructor | backend/API/Services/ExamSupervisorService.cs:16-20 | the store holds the given supervisor rows, exams, users and roles |
| ExamSupervisorService.SupervisorStore.AssignSupervisor | backend/API/Services/ExamSupervisorService.cs:184-235 | a failing check returns its message with no change; a log failure undoes the insert; otherwise exactly the new rows are added and the requested ids returned |
| ExamSupervisorService.SupervisorStore.Remove | backend/API/Services/ExamSupervisorService.cs:236-285 | an unknown exam, no visible rows and no requested id among them are refused with no change; otherwise the visible rows of requested supervisors are removed and the ids not found returned; a log failure undoes it |
| ExamSupervisorService.RemoveSplitsRequest | backend/API/Services/ExamSupervisorService.cs:253-254 | each requested id is either deleted or reported as not found, never both |
| ExamSupervisorService.RemoveKeepsOthers | backend/API/Services/ExamSupervisorService.cs:247-262 | a removal never touches rows of another exam, nor, for a non-admin, rows created by someone else |
| StudentExamService.ListStatus | backend/API/Services/StudentExamService.cs:104-112 | no attempt reads NotStarted; InProgress, Failed and Passed read as themselves; every other stored status reads Submitted |
| StudentExamService.AccessError | backend/API/Services/StudentExamService.cs:131-147 | access is granted exactly when the exam exists, the validator passes, the OTP is valid and any existing attempt is neither completed nor past its submit time; a missing exam is reported first |
| StudentExamService.NoSubmitTimeResumes | backend/API/Services/StudentExamService.cs:146 | an attempt without a submit time is never refused for time |
| StudentExamService.Resumed | backend/API/Services/StudentExamService.cs:150-153 | a resumed attempt is back in progress with the client's address and browser; its identity, score and times are kept |
| StudentExamService.AttemptOf | backend/API/Services/StudentExamService.cs:140 | the attempt found is the student's at the exam, and none is found exactly when the student has none |
| StudentExamService.FirstAnswer | backend/API/Services/StudentExamService.cs:235 | the row found is the first one of the attempt for the question, or none (also lines 337, 408) |
| StudentExamService.UpsertFrame | backend/API/Services/StudentExamService.cs:229-258 | the save loop only overwrites the attempt's rows for questions it names and appends new rows under the given ids |
| StudentExamService.FirstAnswerUpdate | backend/API/Services/StudentExamService.cs:240-242 | overwriting a row for the same attempt and question leaves every question's first row in place |
| StudentExamService.FirstAnswerAppend | backend/API/Services/StudentExamService.cs:246-254 | appending rows leaves a question's first stored row in place |
| StudentExamService.SaveRecordsAnswers | backend/API/Services/StudentExamService.cs:229-258 | after a save whose questions are distinct, every question the loop kept records the answer the request gave, and every queued row is for a kept question |
| StudentExamService.RecordsStep | backend/API/Services/StudentExamService.cs:235-255 | the turn for one input records that input's answer |
| StudentExamService.RecordsKept | backend/API/Services/StudentExamService.cs:231-256 | the turn for one input leaves what is recorded for any other question |
| StudentExamService.AnsweredCount | backend/API/Services/StudentExamService.cs:300 | the answered count counts the request's answers that carry a question id, whether or not they were saved (also line 374) |
| StudentExamService.SaveAnswerRows | backend/API/Services/StudentExamService.cs:229-259 | the save loop leaves exactly the answer table SaveAnswers describes |
| StudentExamService.NormalizedAnswer | backend/API/Services/StudentExamService.cs:278-279 | the normalised answer is empty exactly when the answer is blank |
| StudentExamService.Graded | backend/API/Services/StudentExamService.cs:275-284 | a graded row records whether the trimmed, lower-cased answers agree and earns the question's points or 0; the answer and identity are kept |
| StudentExamService.GradeRows | backend/API/Services/StudentExamService.cs:273-289 | only the attempt's rows whose question is in the exam are graded; all other rows are unchanged |
| StudentExamService.GradeStep | backend/API/Services/StudentExamService.cs:273-288 | grading one more row extends the graded table by it and the total by its points |
| StudentExamService.ScoreAnswers | backend/API/Services/StudentExamService.cs:273-288 | the scoring loop leaves exactly GradeRows and the total TotalEarned |
| StudentExamService.TotalMatchesRows | backend/API/Services/StudentExamService.cs:283-295 | the stored score is the sum of the points the graded rows record |
| StudentExamService.TotalEarnedBounds | backend/API/Services/StudentExamService.cs:283-286 | with non-negative points the score lies between 0 and the points available |
| StudentExamService.PositiveIffSomeCorrect | backend/API/Services/StudentExamService.cs:281-291 | with positive points the score is positive exactly when some scored answer is correct |
| StudentExamService.ScoredStatus | backend/API/Services/StudentExamService.cs:291 | Passed exactly when the score is positive, Failed otherwise (also line 647) |
| StudentExamService.SubmitError | backend/API/Services/StudentExamService.cs:216-221 | a submit is accepted exactly when the attempt is the student's, the exam has not ended and the attempt is not already submitted; a missing attempt is reported first |
| StudentExamService.Submitted | backend/API/Services/StudentExamService.cs:291-300 | the submitted attempt keeps its identity and takes the status, score, submit time and answered count |
| StudentExamService.SubmitAsWritten | backend/API/Services/StudentExamService.cs:366-374 | as written: the strategy's score and the times are stored but the attempt keeps its old status |
| StudentExamService.SubmitAsWrittenStaysInProgress | backend/API/Services/StudentExamService.cs:366-374 | as written: an attempt the strategy passed still reads InProgress in the student's list (also lines 104-112) |
| StudentExamService.SubmitCorrected | backend/API/Services/StudentExamService.cs:365-374 | models the intended behaviour: the attempt keeps its id, exam, student, start time and extra time, and takes the strategy's status together with its score, the submit time, the answered count, the IP address and the browser; it is the as-written update with only the status corrected |
| StudentExamService.SubmitCorrectedListsVerdict | backend/API/Services/StudentExamService.cs:365-374 | models the intended behaviour: the attempt is listed with the strategy's verdict (also lines 104-112) |
| StudentExamService.MarkError | backend/API/Services/StudentExamService.cs:603-621 | marking is accepted exactly when a submitted attempt is found, the caller may mark the exam and at least one score is given |
| StudentExamService.MarkAnswers | backend/API/Services/StudentExamService.cs:627-642 | the marking loop leaves exactly the rows and total MarkAll describes |
| StudentExamService.MarkBounds | backend/API/Services/StudentExamService.cs:628-642 | marking changes only the attempt's rows, each to points at most the question's maximum with no automatic verdict, and the total grows by at most the maxima |
| StudentExamService.SubmitStatus | backend/API/Services/StudentExamService.cs:263-294 | an essay exam's submit stores Submitted; otherwise Passed exactly when the score is positive |
| StudentExamService.StudentExamStore.constructor | backend/API/Services/StudentExamService.cs:21-26 | the store starts on the given exams, items, supervision rows and admins, with no attempts or answers |
| StudentExamService.StudentExamStore.AccessExam | backend/API/Services/StudentExamService.cs:128-176 | a refusal changes nothing; otherwise an existing attempt is resumed, or the new attempt is added, and the answers are untouched |
| StudentExamService.StudentExamStore.SubmitExam1 | backend/API/Services/StudentExamService.cs:209-313 | a refusal changes nothing; otherwise the answers are saved, a non-essay exam is graded, and the attempt records the SubmitStatus, score, time and answered count |
| StudentExamService.StudentExamStore.SubmitExam | backend/API/Services/StudentExamService.cs:315-387 | models the intended behaviour: a validator refusal changes nothing; otherwise the answers are saved and the attempt takes the strategy's score and status |
| StudentExamService.StudentExamStore.SaveAnswerTemporary | backend/API/Services/StudentExamService.cs:389-433 | an attempt that is not the student's and a validator refusal change nothing; otherwise the answers are saved and the attempts are untouched |
| StudentExamService.StudentExamStore.MarkEssay | backend/API/Services/StudentExamService.cs:598-666 | a refusal changes nothing; otherwise each mark is capped at the question's maximum and the attempt takes the total and ScoredStatus |
| MonitoringService.OverviewStatus | backend/API/Services/MonitoringService.cs:133-138 | the overview shows Published exactly inside the exam's window, Finished exactly outside it when the exam ended or was finished by hand, and Draft otherwise |
| MonitoringService.FinishedInWindowShownPublished | backend/API/Services/MonitoringService.cs:133-138 | an exam finished by hand while its window is still open is shown Published and at the same time flagged completed |
| MonitoringService.PermittedExamIds | backend/API/Services/MonitoringService.cs:39-44 | every exam of a supervision row the user may see (an administrator sees all, others their own rows) is permitted, and only those |
| MonitoringService.StatusFilterAgainstShownStatus | backend/API/Services/MonitoringService.cs:59-67 | the Published filter keeps exactly the exams shown Published; the Finished filter keeps those shown Finished plus those finished by hand inside their window (also lines 133-138) |
| MonitoringService.OverviewExams | backend/API/Services/MonitoringService.cs:46-86 | an exam is listed exactly when it exists, is permitted, is not a draft, belongs to the searched subject, passes the status filter and every keyword of the search text is found in its title, room code, class code, subject name or creator's e-mail or name |
| MonitoringService.TextSearchNarrows | backend/API/Services/MonitoringService.cs:67-86 | a search text only ever removes exams from the overview |
| MonitoringService.SingleKeywordSearch | backend/API/Services/MonitoringService.cs:67-86 | a one-word lower-case search keeps exactly the exams one of whose six searched columns contains the word after lower-casing |
| MonitoringService.OverviewError | backend/API/Services/MonitoringService.cs:44-45 | the overview is refused exactly when the user has no permitted exam or nothing is left after filtering (also lines 89-90) |
| MonitoringService.WithExtraTime | backend/API/Services/MonitoringService.cs:271-275 | the extra minutes accumulate on the attempt, the submit time becomes the start plus the exam's duration plus all extra minutes (none without a start), and nothing else of the attempt changes |
| MonitoringService.ExtraTimeAccumulates | backend/API/Services/MonitoringService.cs:271-275 | two grants of extra time amount to one grant of their sum |
| MonitoringService.TakingAsWrittenNeverHolds | backend/API/Services/MonitoringService.cs:298-299 | as written: the filter "started after now and due before now" selects no attempt whose submit time is not before its start, so the operation always answers that nobody is taking the exam |
| MonitoringService.ExtraTimeDueAfterStart | backend/API/Services/MonitoringService.cs:271-275 | a submit time computed with non-negative minutes is never before the start, which is the assumption the as-written lemma rests on (also lines 305-308) |
| MonitoringService.ExtraTimeKeepsTaking | backend/API/Services/MonitoringService.cs:298-308 | models the intended behaviour: with the corrected filter (started and not yet due), non-negative extra time keeps an attempt being taken selected |
| MonitoringService.InProgressOf | backend/API/Services/MonitoringService.cs:349-350 | an attempt is selected exactly when it belongs to the exam and is in progress |
| MonitoringService.ExtraTimeTargets | backend/API/Services/MonitoringService.cs:297-299 | models the intended behaviour: the attempts extended are in-progress attempts of the exam that are being taken now |
| MonitoringService.ExtendAll | backend/API/Services/MonitoringService.cs:303-311 | the attempt table keeps its keys; the selected attempts get the extra time, all others are unchanged |
| MonitoringService.FinishedAttempt | backend/API/Services/MonitoringService.cs:385-391 | a finished attempt is Submitted with the given score and submit time and keeps its identity, exam and student |
| MonitoringService.AnsweredRows | backend/API/Services/MonitoringService.cs:389 | the answered count never exceeds the number of answer rows |
| MonitoringService.AnsweredRowsSame | backend/API/Services/MonitoringService.cs:389 | the answered count depends only on the rows' attempts and question ids, so grading rows leaves it unchanged |
| MonitoringService.TotalEarnedSame | backend/API/Services/MonitoringService.cs:366-384 | the total score depends only on the points each row earns |
| MonitoringService.FinishRows | backend/API/Services/MonitoringService.cs:366-384 | the answer table keeps its length; rows of graded attempts are graded against the exam's items, all others unchanged |
| MonitoringService.FinishAll | backend/API/Services/MonitoringService.cs:354-392 | the attempt table keeps its keys; each finished attempt is scored on its answers (0 for essay exams) with its answered count, all others unchanged |
| MonitoringService.FinishLeavesNoneInProgress | backend/API/Services/MonitoringService.cs:349-392 | after finishing the exam's in-progress attempts none of its attempts is in progress |
| MonitoringService.FinishAsWrittenGradesNothing | backend/API/Services/MonitoringService.cs:352-353 | as written: the guard returns before grading when there are attempts, so in-progress attempts stay in progress |
| MonitoringService.FinishCorrectedGradesAll | backend/API/Services/MonitoringService.cs:352-392 | models the intended behaviour: every attempt of the exam still in progress ends Submitted with the submit time, its score (0 for an essay exam, else the points earned) and its answered count; whenever one attempt is in progress the outcome differs from the guard as written |
| MonitoringService.FinishRowsStep | backend/API/Services/MonitoringService.cs:366-384 | grading one more attempt's rows extends the graded set by it and leaves its score and answered count as computed on the original rows |
| MonitoringService.FinishAllStep | backend/API/Services/MonitoringService.cs:385-391 | finishing one more attempt extends the finished set by it |
| MonitoringService.FinishAttempts | backend/API/Services/MonitoringService.cs:354-392 | the grading loop leaves exactly the attempt table FinishAll describes and the answer table FinishRows describes (untouched for essay exams) |
| MonitoringService.StudentAttempts | backend/API/Services/MonitoringService.cs:547-555 | an attempt is the student's at the exam exactly when its exam and student match |
| MonitoringService.NotJoined | backend/API/Services/MonitoringService.cs:553-560 | a requested student is reported exactly when they have no attempt at the exam, in request order, never more than requested |
| MonitoringService.ReassignedIds | backend/API/Services/MonitoringService.cs:547-565 | an attempt is deleted exactly when it belongs to the exam and its student was requested |
| MonitoringService.ReassignPartition | backend/API/Services/MonitoringService.cs:553-565 | a requested student is either reported as not joined or has their attempts deleted, never both and never neither |
| MonitoringService.RowsOutside | backend/API/Services/MonitoringService.cs:562-567 | the answer rows left are exactly the rows of attempts not deleted |
| MonitoringService.ReassignStep | backend/API/Services/MonitoringService.cs:553-565 | each loop step adds the student's attempts to those deleted, or the student to the report when they have none |
| MonitoringService.ReassignNote | backend/API/Services/MonitoringService.cs:583-584 | the note is empty exactly when every requested student had joined |
| MonitoringService.ScanReassign | backend/API/Services/MonitoringService.cs:550-565 | the loop reports exactly NotJoined and deletes exactly ReassignedIds |
| MonitoringService.MonitorStore.constructor | backend/API/Services/MonitoringService.cs:25-35 | the store starts on the given tables, every attempt stored under its own id and belonging to a known exam |
| MonitoringService.MonitorStore.AddStudentExtraTime | backend/API/Services/MonitoringService.cs:263-289 | an attempt not in progress is refused with "Student is not taking in exam." and nothing changes; otherwise only that attempt changes, to WithExtraTime of it |
| MonitoringService.MonitorStore.AddExamExtraTime | backend/API/Services/MonitoringService.cs:291-342 | models the intended behaviour (corrected time filter): no attempt being taken is an error, a failed log write changes nothing, otherwise exactly ExtraTimeTargets get the extra time |
| MonitoringService.MonitorStore.FinishExam | backend/API/Services/MonitoringService.cs:343-426 | models the intended behaviour (corrected guard): a failed log write changes nothing; otherwise every in-progress attempt is finished as FinishAll says, the answers are graded as FinishRows says and the exam becomes Finished |
| MonitoringService.MonitorStore.FinishStudentExam | backend/API/Services/MonitoringService.cs:428-501 | an attempt that is not an in-progress attempt of the exam is refused and nothing changes; otherwise that one attempt is graded and Submitted and all others are unchanged |
| MonitoringService.MonitorStore.ReAssignExam | backend/API/Services/MonitoringService.cs:536-592 | an exam that is not ongoing is refused and nothing changes, a failed log write changes nothing; otherwise the ReassignedIds attempts and their answer rows go and the note counts NotJoined |
| KeyboardHook.ModifierPrefix | backend/DesktopApp/Interops/KeyboardHook.cs:107-116 | at most the four modifier names |
| KeyboardHook.ComboParts | backend/DesktopApp/Interops/KeyboardHook.cs:107-116 | the held modifiers' names in their fixed order, then the key's name |
| KeyboardHook.ModifierNamed | backend/DesktopApp/Interops/KeyboardHook.cs:109-112 | a modifier is held exactly when its name is in the combination |
| KeyboardHook.PrefixHasNoPlus | backend/DesktopApp/Interops/KeyboardHook.cs:109-112 | no modifier name contains '+' |
| KeyboardHook.ComboSplits | backend/DesktopApp/Interops/KeyboardHook.cs:107-128 | a key name without '+' splits back out of the combination text after the modifiers, and is its last segment |
| KeyboardHook.ComboInjective | backend/DesktopApp/Interops/KeyboardHook.cs:107-116 | different modifier states or key names (without '+') give different texts |
| KeyboardHook.SingleKeyBlocksCombos | backend/DesktopApp/Interops/KeyboardHook.cs:118-139 | blocking a key name on its own blocks it under every combination of modifiers ("Escape" blocks "Ctrl+Escape") |
| KeyboardHook.BlockedCombo | backend/DesktopApp/Interops/KeyboardHook.cs:118-139 | a pressed combination is blocked exactly when an entry names it whole or names its key, ignoring case |
| KeyboardHook.SetKeepsBlocking | backend/DesktopApp/Interops/KeyboardHook.cs:33-40 | replacing the list by its case-insensitive set changes no blocking decision |
| KeyboardHook.Hook.constructor | backend/DesktopApp/Interops/KeyboardHook.cs:19-24 | no hook is installed and nothing is blocked |
| KeyboardHook.Hook.SetBlockedCombinations | backend/DesktopApp/Interops/KeyboardHook.cs:33-40 | a null argument throws with no change; otherwise the blocked set becomes the list without case-insensitive repeats; the hook is untouched |
| KeyboardHook.Hook.Start | backend/DesktopApp/Interops/KeyboardHook.cs:42-59 | a running hook is left alone; otherwise the returned handle is kept and 0 throws; the blocked set is untouched |
| KeyboardHook.Hook.Stop | backend/DesktopApp/Interops/KeyboardHook.cs:61-69 | the hook is removed exactly when one is set; afterwards none is set |
| KeyboardHook.Hook.IsBlockedCombination | backend/DesktopApp/Interops/KeyboardHook.cs:118-139 | the answer is Blocked of the set and the combination |
| KeyboardHook.Hook.HookCallback | backend/DesktopApp/Interops/KeyboardHook.cs:71-105 | an event is swallowed exactly when it is a key-down or system-key-down with a non-negative code and its combination is blocked |
| ProcessMonitor.FileName | backend/DesktopApp/Interops/ProcessMonitor.cs:203 | the file name is a suffix of the path and holds no directory separator (also line 252) |
| ProcessMonitor.BeforeLastDot | backend/DesktopApp/Interops/ProcessMonitor.cs:203 | the stem is a prefix of the name ending just before a dot, and no dot follows that one (also line 252) |
| ProcessMonitor.FileNameWithoutExtension | backend/DesktopApp/Interops/ProcessMonitor.cs:203 | the result is a prefix of the path's file name (also line 252) |
| ProcessMonitor.TrimEndBackslash | backend/DesktopApp/Interops/ProcessMonitor.cs:207 | the result is a prefix of the entry that does not end in a backslash (also line 256) |
| ProcessMonitor.WhitelistedIff | backend/DesktopApp/Interops/ProcessMonitor.cs:201-225 | a process is whitelisted exactly when an entry without a backslash names its file name without extension, or its path is readable and an entry with a backslash names that path, all ignoring case |
| ProcessMonitor.KillTargetsMembers | backend/DesktopApp/Interops/ProcessMonitor.cs:211-236 | exactly the processes neither whitelisted nor system processes are terminated |
| ProcessMonitor.KillSpares | backend/DesktopApp/Interops/ProcessMonitor.cs:192-244 | a whitelisted process survives, so does a system process, and every other process is terminated |
| ProcessMonitor.IsSystemProcess | backend/DesktopApp/Interops/ProcessMonitor.cs:144-190 | an unreadable path counts as a system process and a path outside the system directory never does; inside it, a signature that cannot be read counts as system, and a readable one counts exactly when it verifies and its subject names a trusted publisher |
| ProcessMonitor.SpoofedNotSystem | backend/DesktopApp/Interops/ProcessMonitor.cs:158-175 | a signed file in the system directory whose publisher is not trusted is not a system process |
| ProcessMonitor.NamedTargetsMembers | backend/DesktopApp/Interops/ProcessMonitor.cs:104 | the processes terminated for a name are exactly the running processes of that name ignoring case |
| ProcessMonitor.BlockIgnoresCase | backend/DesktopApp/Interops/ProcessMonitor.cs:100-118 | blocking a name in any case terminates exactly the running processes of that name ignoring case |
| ProcessMonitor.BlockProcess | backend/DesktopApp/Interops/ProcessMonitor.cs:100-118 | an empty name succeeds at once; otherwise every process of the name is terminated, and success means none failed to die |
| ProcessMonitor.TerminateUnlisted | backend/DesktopApp/Interops/ProcessMonitor.cs:211-240 | the loop terminates exactly KillTargets, and succeeds exactly when none of them failed |
| ProcessMonitor.CollectedIff | backend/DesktopApp/Interops/ProcessMonitor.cs:80-90 | a blocked name is collected exactly when a process of that name is running |
| ProcessMonitor.RunningBlockedSpec | backend/DesktopApp/Interops/ProcessMonitor.cs:68-98 | the answer names each running blocked application once, ignoring case, and nothing else |
| ProcessMonitor.RegisterAsWritten | backend/DesktopApp/Interops/ProcessMonitor.cs:122-125 | as written: the lower-cased name is looked up but the name as given is added, so a name with a capital letter registered twice fails |
| ProcessMonitor.MixedCaseTwiceThrows | backend/DesktopApp/Interops/ProcessMonitor.cs:122-125 | as written: the second registration of a mixed-case name throws |
| ProcessMonitor.Register | backend/DesktopApp/Interops/ProcessMonitor.cs:120-143 | models the intended behaviour: the registry is keyed by the lower-cased name and a repeated registration changes nothing |
| ProcessMonitor.RegisterIdempotent | backend/DesktopApp/Interops/ProcessMonitor.cs:120-143 | registering keeps the keys lower case, and registering the same name again in any case changes nothing |
| ProcessMonitor.RegisterLowerAgrees | backend/DesktopApp/Interops/ProcessMonitor.cs:122-125 | for a name already in lower case the written and the intended registration agree and neither fails |
| ProcessMonitor.Groups | backend/DesktopApp/Interops/ProcessMonitor.cs:34-41 | one group per process name ignoring case, holding the first process of the name and the number of processes of that name |
| ProcessMonitor.ListingFrom | backend/DesktopApp/Interops/ProcessMonitor.cs:43-62 | every listed line comes from a shown group's first process with the group's size, and every shown group is listed |
| ProcessMonitor.ListedGroups | backend/DesktopApp/Interops/ProcessMonitor.cs:25-66 | each listed line counts all running processes of its name, and comes from a process that is not idle, not System and not a system process |
| ProcessMonitor.ListingSorted | backend/DesktopApp/Interops/ProcessMonitor.cs:41 | the listing is ordered by name whenever the name comparison is a total preorder |
| ProcessMonitor.ScanReports | backend/DesktopApp/Interops/ProcessMonitor.cs:266-300 | a scan reports each new name once, in lower case, records it and watches it |
| ProcessMonitor.ScanCovers | backend/DesktopApp/Interops/ProcessMonitor.cs:266-300 | after a scan every watched process of the snapshot is known, so the same snapshot scanned again reports nothing |
| ProcessMonitor.ScanTwice | backend/DesktopApp/Interops/ProcessMonitor.cs:266-300 | scanning a snapshot twice reports nothing the second time |
| ProcessMonitor.SeededScanQuiet | backend/DesktopApp/Interops/ProcessMonitor.cs:260-264 | processes already running when the watch starts are never reported |
| ProcessMonitor.Monitor.constructor | backend/DesktopApp/Interops/ProcessMonitor.cs:12-17 | the static state starts uninitialised, with no watched names, no timer, nothing known and no scanner |
| ProcessMonitor.Monitor.Initialize | backend/DesktopApp/Interops/ProcessMonitor.cs:19-23 | only the logging service is set |
| ProcessMonitor.Monitor.GetRunningBlockedProcesses | backend/DesktopApp/Interops/ProcessMonitor.cs:68-98 | before initialisation an error; no list gives none; otherwise each running blocked name once, ignoring case |
| ProcessMonitor.Monitor.MonitorProcess | backend/DesktopApp/Interops/ProcessMonitor.cs:120-143 | models the intended behaviour: the name is registered once, lower-cased, and the timer runs |
| ProcessMonitor.Monitor.ListAllProcessesForServer | backend/DesktopApp/Interops/ProcessMonitor.cs:25-66 | before initialisation an error and no lines; otherwise the listing of the name groups in name order |
| ProcessMonitor.Monitor.MonitorNewProcesses | backend/DesktopApp/Interops/ProcessMonitor.cs:246-308 | before initialisation an error and nothing changes; otherwise the whitelist is split, every running name is recorded in lower case and one more scanning timer starts |
| ProcessMonitor.Monitor.ScanNewProcesses | backend/DesktopApp/Interops/ProcessMonitor.cs:266-300 | one timer tick leaves exactly the reports, known names and registry ScanAll describes |
| ProcessMonitor.Monitor.KillAllAppsExceptWhitelist | backend/DesktopApp/Interops/ProcessMonitor.cs:192-244 | before initialisation an error; otherwise exactly KillTargets are terminated, and success means none failed |
| ProcessMonitor.Monitor.StopMonitoring | backend/DesktopApp/Interops/ProcessMonitor.cs:310-320 | the watch timer stops and the registry empties; whether something stopped is whether the timer ran |
| WifiSetting.LineEnd | backend/DesktopApp/Helpers/WifiSetting.cs:99 | the end of the line holding a position: the next line break or the end of the text, with no line break before it |
| WifiSetting.DigitsEnd | backend/DesktopApp/Helpers/WifiSetting.cs:99 | where a greedy run of decimal digits ends: every character before it is a digit and the one at it is not |
| WifiSetting.NetworkMatchHere | backend/DesktopApp/Helpers/WifiSetting.cs:99 | a match of `SSID \d+ : (.+)` at the head of the text ends inside the text, past its start |
| WifiSetting.NonBlankTrimsMembers | backend/DesktopApp/Helpers/WifiSetting.cs:100-110 | a name is kept exactly when it is the non-empty trimmed text of some capture |
| WifiSetting.Distinct | backend/DesktopApp/Helpers/WifiSetting.cs:112 | the de-duplicated list has no repeats and holds exactly the names of the input |
| WifiSetting.ParseNetworks | backend/DesktopApp/Helpers/WifiSetting.cs:77-118 | the network list is distinct, its names are non-empty and trimmed, and they are exactly the non-blank trimmed captures of the pattern's matches; when running netsh fails the list is empty |
| WifiSetting.TrimCarriageReturn | backend/DesktopApp/Helpers/WifiSetting.cs:104 | the carriage return netsh ends its lines with is captured and trimmed away |
| WifiSetting.LineMatchHere | backend/DesktopApp/Helpers/WifiSetting.cs:99 | the pattern matches a network line at the head of the text up to its line break |
| WifiSetting.LineMatches | backend/DesktopApp/Helpers/WifiSetting.cs:99 | a network line at the head of the text is one whole match capturing the name and its carriage return |
| WifiSetting.NewlineSkipped | backend/DesktopApp/Helpers/WifiSetting.cs:99 | a line break cannot start a match |
| WifiSetting.NetworksRead | backend/DesktopApp/Helpers/WifiSetting.cs:99-110 | the captures of netsh's listing of some names, trimmed, are those names in order |
| WifiSetting.NonBlankTrimsCons | backend/DesktopApp/Helpers/WifiSetting.cs:100-110 | a capture put in front contributes its trimmed text in front, when that is not blank |
| WifiSetting.NetworksRoundTrip | backend/DesktopApp/Helpers/WifiSetting.cs:77-112 | the network list read from netsh's listing of some names is those names once each, in first-seen order |
| WifiSetting.InterfaceMatchAt | backend/DesktopApp/Helpers/WifiSetting.cs:230 | a match of `^\s*SSID\s*:\s(.+)$` at a line start captures a non-empty text |
| WifiSetting.ConnectedSsid | backend/DesktopApp/Helpers/WifiSetting.cs:210-243 | never empty: "Wi-Fi Error" when netsh fails, "No Wi-Fi" when nothing matches or the capture is blank, else the trimmed capture of the first match |
| WifiSetting.SsidLineMatchHere | backend/DesktopApp/Helpers/WifiSetting.cs:230 | the pattern matches an SSID line (indent, padding, ": ", name) at the head of the text up to its line break |
| WifiSetting.SsidLineMatches | backend/DesktopApp/Helpers/WifiSetting.cs:230 | an SSID line at the head of the output is the first match whatever follows, the BSSID line included |
| WifiSetting.OtherLineSkipped | backend/DesktopApp/Helpers/WifiSetting.cs:230 | a line starting with a visible character other than 'S' cannot start a match; the search goes on at the next line |
| WifiSetting.ConnectedRoundTrip | backend/DesktopApp/Helpers/WifiSetting.cs:230-237 | the connected name is read back from the first SSID line, past any other "key : value" lines before it and ignoring what follows |
| WifiSetting.FirstAfterLines | backend/DesktopApp/Helpers/WifiSetting.cs:230 | lines that cannot start a match are passed over |
| WifiSetting.CurrentWiFiStatus | backend/DesktopApp/Helpers/WifiSetting.cs:63-75 | "Wi-Fi Error" when listing the interfaces fails, "No Wi-Fi" when no wireless interface is up, else the name of the first one that is up |
| FaceDetection.InferState | frontend/src/pages/examlist/hooks/useFaceDetection.ts:39-47 | a label other than Mixed is returned only when its own rule holds |
| FaceDetection.InferStateFirstMatch | frontend/src/pages/examlist/hooks/useFaceDetection.ts:39-47 | first match wins: no rule earlier than the returned label holds, and Mixed is returned exactly when no rule holds |
| FaceDetection.AnxiousBeforeStressed | frontend/src/pages/examlist/hooks/useFaceDetection.ts:41-42 | (-0.5, 0.7) lies in both the Anxious and the Stressed region and is Anxious |
| FaceDetection.ConfidentBoundary | frontend/src/pages/examlist/hooks/useFaceDetection.ts:40-44 | Confident needs valence strictly above 0.5, so (0.5, 0.5) is Focused |
| FaceDetection.DistractedAndMixedSamples | frontend/src/pages/examlist/hooks/useFaceDetection.ts:45-46 | (0, 0.2) is Distracted and (0.3, 0.9) matches no rule, so it is Mixed |
| FaceDetection.FaceDetectionState.constructor | frontend/src/pages/examlist/hooks/useFaceDetection.ts:50-55 | the hook starts with no emotion data, no multiple-face result, no inferred state and no error |
| FaceDetection.FaceDetectionState.OnAnalysis | frontend/src/pages/examlist/hooks/useFaceDetection.ts:128-139 | a multiple-face result is kept and clears the emotion data and state; any other result is kept with the state inferred from its averages; the error is untouched |
| FaceDetection.FaceDetectionState.OnNoPhoto | frontend/src/pages/examlist/hooks/useFaceDetection.ts:114-121 | no photo clears the three analysis fields and leaves the error |
| FaceDetection.FaceDetectionState.OnAnalysisError | frontend/src/pages/examlist/hooks/useFaceDetection.ts:140-151 | a failed call keeps the server's message, or the default one when it is absent or empty, and clears the analysis fields |
| FrontendCommon.PadStart | frontend/src/helpers/common.ts:38 | the text grows to the width with the pad character in front and ends with the original text |
| FrontendCommon.AddLeadingZero | frontend/src/helpers/common.ts:37-40 | the text of a number is at least two characters long |
| FrontendCommon.AddLeadingZeroParses | frontend/src/helpers/common.ts:37-40 | the padded text reads back as the number: the padding only adds leading zeros |
| FrontendCommon.TwoDigits | frontend/src/helpers/common.ts:37-40 | a number from 1 to 99 pads to exactly two characters |
| FrontendCommon.IntTextPlain | frontend/src/helpers/common.ts:37-40 | no rendered integer holds a space or a '/' (also lines 129, 180) |
| FrontendCommon.JsRem60 | frontend/src/helpers/common.ts:128 | JavaScript's remainder by 60 lies strictly between -60 and 60 and takes the sign of the dividend |
| FrontendCommon.TimeTextReads | frontend/src/helpers/common.ts:126-130 | the timer text of any minutes and remainder reads back as minutes times 60 plus the remainder |
| FrontendCommon.MinutesAndSeconds | frontend/src/helpers/common.ts:127-128 | for a non-negative count the floored minutes and the remainder add back up to the count, with the seconds below 60 |
| FrontendCommon.FormatTimeNegative | frontend/src/helpers/common.ts:127-129 | for a negative count floor and remainder disagree: -30 seconds reads back as -90 |
| FrontendCommon.DigitRun | frontend/src/helpers/common.ts:173-175 | parseInt reads the longest run of digits from the start position |
| FrontendCommon.KeepParsed | frontend/src/helpers/common.ts:173 | the kept values are at most as many as the items |
| FrontendCommon.KeepParsedMembers | frontend/src/helpers/common.ts:173 | every kept value is the parse of some item, and every item that parses contributes its value |
| FrontendCommon.KeepParsedAll | frontend/src/helpers/common.ts:173 | nothing is dropped exactly when every item parses |
| FrontendCommon.NormalizeOne | frontend/src/helpers/common.ts:175-176 | a single value gives the empty list exactly when it does not parse, otherwise one value |
| FrontendCommon.JsParseIntToString | frontend/src/helpers/common.ts:175 | parseInt reads every rendered integer back |
| FrontendCommon.NormalizeRendered | frontend/src/helpers/common.ts:171-174 | role ids sent as their decimal texts normalise back to the same ids, in order |
| FrontendCommon.JsParseIntLenient | frontend/src/helpers/common.ts:175 | parseInt stops at the first non-digit: "12abc" is 12 and "abc" is not a number |
| FrontendCommon.DMYFields | frontend/src/helpers/common.ts:179-181 | the date text splits at '/' into the padded day, the padded month (counted from 1) and the year |
| FrontendCommon.DMYRoundTrip | frontend/src/helpers/common.ts:179-181 | the date text reads back as the date |
| FrontendCommon.GetQuestionButtonClass | frontend/src/helpers/common.ts:183-205 | the class list always starts with the two base classes |
| FrontendCommon.ButtonClassStates | frontend/src/helpers/common.ts:183-205 | the ring is there exactly for the current question; marked wins over answered; exactly one colour scheme is used |
| FrontendCommon.FormatScoreBounds | frontend/src/helpers/common.ts:228-231 | a shown score is never above 10, is a whole number of tenths, is 10 above 10, and is within half a tenth of a score up to 10 |
| FrontendCommon.FormatScoreMonotone | frontend/src/helpers/common.ts:228-231 | a higher score never shows lower |
| FrontendCommon.PlainOptions | frontend/src/helpers/common.ts:57-62 | one option per element, each the element as label and value |
| FrontendCommon.LabeledOption | frontend/src/helpers/common.ts:66-75 | the option keeps the element and takes its label field (or "None") and its value field (or "") |
| FrontendCommon.LabeledOptions | frontend/src/helpers/common.ts:65-76 | one labelled option per element, in order |
| FrontendCommon.ConvertToFormSelect | frontend/src/helpers/common.ts:51-84 | without both field names one plain option per element; with them one labelled option per element after a leading "None" entry exactly when asked |
| FrontendCommon.ConvertKeepsElements | frontend/src/helpers/common.ts:51-84 | every conversion keeps the list's elements in order, one option each |
| Pagination.ElidedPages | frontend/src/pages/admin/activitylog/index.tsx:93-122 | the page list starts with page 1 and, when there is more than one page, ends with the last page (the feedback page builds the same list) |
| Pagination.Lead | frontend/src/pages/admin/activitylog/index.tsx:101-107 | page 1 and the optional "..." hold no number but 1 and increase |
| Pagination.Trail | frontend/src/pages/admin/activitylog/index.tsx:114-122 | the optional "..." and the last page hold no number but the last page |
| Pagination.BuildElidedPages | frontend/src/pages/admin/activitylog/index.tsx:93-122 | the pushes and the window loop build exactly the elided page list |
| Pagination.ElidedIncreasing | frontend/src/pages/admin/activitylog/index.tsx:93-122 | page numbers strictly increase along the list and all lie in 1..max(1, totalPage) |
| Pagination.WindowListed | frontend/src/pages/admin/activitylog/index.tsx:109-112 | every page from startPage to endPage is in the list |
| Pagination.ElidedHasCurrent | frontend/src/pages/admin/activitylog/index.tsx:93-122 | a current page in 1..totalPage is always listed |
| Pagination.ElidedSize | frontend/src/pages/admin/activitylog/index.tsx:95-99 | the window holds at most five pages and the list at most nine entries |
| Pagination.ElidedEllipsisHides | frontend/src/pages/admin/activitylog/index.tsx:105-117 | each "..." stands between two page numbers with at least one page missing between them |
| Pagination.ElidedHiddenMarked | frontend/src/pages/admin/activitylog/index.tsx:93-122 | any real page missing from the list lies strictly between the neighbours of some "..." |
| Pagination.ChangePage | frontend/src/pages/admin/activitylog/index.tsx:73-80 | a requested page is taken exactly when 0 < page <= totalPage; otherwise the current page stays |
| Pagination.ButtonsStayInRange | frontend/src/pages/admin/activitylog/index.tsx:140-168 | every listed number and every enabled Previous/Next button leads to a page in 1..totalPage, which the page change accepts |
| ActivityLogPage.RoleFromSelect | frontend/src/pages/admin/activitylog/index.tsx:293-298 | the role is null ("all users") exactly when the value reads as 0, NaN exactly when it does not read as a number, and otherwise the non-zero number read |
| ActivityLogPage.RoleSelectRoundTrip | frontend/src/pages/admin/activitylog/index.tsx:304-318 | the "0" entry gives "all users" and each non-zero role entry gives back its role |
| ActivityLogPage.PickedDatesOrdered | frontend/src/pages/admin/activitylog/index.tsx:229-235 | a "from" day enabled against a chosen "to" day is at least a day before it and not in the future; a "to" day enabled against a chosen "from" day is at least a day after it and at most a day ahead (the pickers at lines 229-235 and 272-279) |
| ActivityLogPage.ActiveUsers | frontend/src/pages/admin/activitylog/index.tsx:61-63 | 0 before the statistics arrive; otherwise at most the number of entries and at least 1 when there is any entry |
| ActivityLogPage.LogFilters.constructor | frontend/src/pages/admin/activitylog/index.tsx:43-50 | no dates, all roles, page size 10, page 1, no search text |
| ActivityLogPage.LogFilters.HandlePageChange | frontend/src/pages/admin/activitylog/index.tsx:73-80 | the page changes exactly when 0 < page <= totalPage, and stays at least 1 |
| ActivityLogPage.LogFilters.HandlePageSizeChange | frontend/src/pages/admin/activitylog/index.tsx:83-90 | the new page size is stored and the log goes back to page 1 |
| ActivityLogPage.LogFilters.HandleRoleChange | frontend/src/pages/admin/activitylog/index.tsx:293-299 | the role read from the select is stored and the log goes back to page 1 |
| ActivityLogPage.LogFilters.HandleFilterChange | frontend/src/pages/admin/activitylog/index.tsx:323-331 | the filter bar's values override the old ones key by key, other keys keep their values, and the log goes back to page 1 |
| ActivityLogPage.LogFilters.HandleSearch | frontend/src/pages/admin/activitylog/index.tsx:191-196 | the search text, or "" when none is sent, is stored; the page is left as it is |
| ActivityLogPage.LogFilters.PickFromDate | frontend/src/pages/admin/activitylog/index.tsx:221-228 | a picked "from" day is stored |
| ActivityLogPage.LogFilters.PickToDate | frontend/src/pages/admin/activitylog/index.tsx:264-271 | a picked "to" day is stored |
| FeedbackPage.AsWrittenAllowsFarFuture | frontend/src/pages/admin/viewFeedback/index.tsx:220-224 | as written, once a "from" day is chosen a "to" day thirty days ahead is enabled, though it is disabled without one and under the activity log's rule |
| FeedbackPage.ToDateDisabledIntended | frontend/src/pages/admin/viewFeedback/index.tsx:220-224 | the intended rule disables every day the written rule does, and any day it leaves enabled is at most a day ahead and at least a day after the "from" day |
| FeedbackPage.FeedbackFilters.constructor | frontend/src/pages/admin/viewFeedback/index.tsx:24-30 | no dates, page size 5, page 1, no search text |
| FeedbackPage.FeedbackFilters.HandlePageChange | frontend/src/pages/admin/viewFeedback/index.tsx:32-40 | the page changes exactly when 0 < page <= totalPage, and stays at least 1 |
| FeedbackPage.FeedbackFilters.HandlePageSizeChange | frontend/src/pages/admin/viewFeedback/index.tsx:44-51 | the new page size is stored and the list goes back to page 1 |
| FeedbackPage.FeedbackFilters.HandleFilterChange | frontend/src/pages/admin/viewFeedback/index.tsx:233-243 | the filter bar's values override the old ones and the list goes back to page 1 |
| FeedbackPage.FeedbackFilters.PickDateTo | frontend/src/pages/admin/viewFeedback/index.tsx:211-219 | a picked "to" day is stored and the list goes back to page 1; no day changes nothing |
| FeedbackPage.FeedbackFilters.PickDateFrom | frontend/src/pages/admin/viewFeedback/index.tsx:178-181 | a picked "from" day is stored; no day changes nothing; the page is left as it is |
| FeedbackPage.FeedbackFilters.HandleSearch | frontend/src/pages/admin/viewFeedback/index.tsx:152-154 | the search text, or "" when none is sent, is stored |
| ManageQuestionPage.RestoreAsWritten | frontend/src/pages/teacher/managequestion/index.tsx:24-33 | with nothing cached the page opens on page size 5, page 1, no search and no filters |
| ManageQuestionPage.RestoreAsWrittenDropsInactive | frontend/src/pages/teacher/managequestion/index.tsx:24-33 | as written, a cached status 0 or "not my questions" (false) comes back as no filter, so the restored filters differ from the saved ones |
| ManageQuestionPage.Restore | frontend/src/pages/teacher/managequestion/index.tsx:24-33 | intended restore: with nothing cached the defaults; otherwise the search text and the three filters come back exactly as cached |
| ManageQuestionPage.RestoreSaved | frontend/src/pages/teacher/managequestion/index.tsx:24-33 | under the intended restore, filters with a page size and a page come back exactly as saved |
| ManageQuestionPage.QuestionPage.constructor | frontend/src/pages/teacher/managequestion/index.tsx:21-33 | the page opens on the restored filters with the cache as saved state, and fetches exactly when no list is cached |
| ManageQuestionPage.QuestionPage.HandleSearch | frontend/src/pages/teacher/managequestion/index.tsx:114-128 | the search text (or "") is stored, the page goes back to 1, the new filters are saved and a fetch is triggered |
| ManageQuestionPage.QuestionPage.HandlePageChange | frontend/src/pages/teacher/managequestion/index.tsx:130-143 | the requested page is stored without a range check, saved, and a fetch is triggered |
| ManageQuestionPage.QuestionPage.HandleFilterChange | frontend/src/pages/teacher/managequestion/index.tsx:284-297 | the three filters sent are stored, the page goes back to 1, the filters are saved and a fetch is triggered |
| ManageQuestionPage.ReopenRestores | frontend/src/pages/teacher/managequestion/index.tsx:24-33 | filters saved by any handler come back unchanged when the page is opened again (intended restore) |
| ManageQuestionPage.Before | frontend/src/pages/teacher/managequestion/index.tsx:148-158 | the part before the current page increases, holds only page 1 and current - 2 within 1..current - 1, starts with 1 past page 1 and is empty on page 1 |
| ManageQuestionPage.After | frontend/src/pages/teacher/managequestion/index.tsx:162-172 | the part after the current page increases, holds only current + 2 and the last page within current + 1..total, ends with the last page before it and is empty on it |
| ManageQuestionPage.BuildShortPages | frontend/src/pages/teacher/managequestion/index.tsx:145-172 | the conditional pushes build exactly Before, the current page and After |
| ManageQuestionPage.ShortPagesIncreasing | frontend/src/pages/teacher/managequestion/index.tsx:145-172 | the page numbers of the short list strictly increase |
| ManageQuestionPage.ShortPagesNumbers | frontend/src/pages/teacher/managequestion/index.tsx:145-172 | for a real page every number listed is a real page and is 1, the last page, the current page or two away from it |
| ManageQuestionPage.ShortPagesShape | frontend/src/pages/teacher/managequestion/index.tsx:145-172 | for a real page: the list starts with 1, ends with the last page, holds the current page, increases, stays in range, holds only 1, last, current and current +/- 2, and shows a neighbour only when it is page 1 or the last page |
| ManageQuestionPage.EllipsisWithoutGap | frontend/src/pages/teacher/managequestion/index.tsx:145-172 | on page 2 of 3 the list is 1, "...", 2, "...", 3: both ellipses hide nothing |
| ManageQuestionPage.ButtonsStayInRange | frontend/src/pages/teacher/managequestion/index.tsx:176-226 | every listed number and every enabled First/Previous/Next/Last button leads to a page in 1..totalPages |
| ExamList.UniqueExams | frontend/src/pages/teacher/examsupervision/components/ExamList.tsx:43-52 | the loop's result is the first row of each exam id in order: ids are unique and exactly the ids of the input occur |
| ExamList.UniqueExamsIdempotent | frontend/src/pages/teacher/examsupervision/components/ExamList.tsx:43-52 | de-duplicating an already de-duplicated list changes nothing |
| ExamList.Tab | frontend/src/pages/teacher/examsupervision/components/ExamList.tsx:165-177 | an exam is under a tab exactly when it is in the list and has the tab's status |
| ExamList.TabsPartition | frontend/src/pages/teacher/examsupervision/components/ExamList.tsx:165-177 | the three tab counts add up to at most the number of exams, and to exactly that number when every status is 0, 1 or 2 |
| ExamList.OtherStatusUnlisted | frontend/src/pages/teacher/examsupervision/components/ExamList.tsx:165-177 | an exam with a status other than 0, 1, 2 appears under no tab |
| ExamList.SubmitSearch | frontend/src/pages/teacher/examsupervision/components/ExamList.tsx:65-72 | the submit sets the subject and the search text and goes back to page 1, keeping the page size |
| ExamList.RenderPagination | frontend/src/pages/teacher/examsupervision/components/ExamList.tsx:79-109 | the loop pushes exactly the buttons of the window from max(1, cur - 2) to min(total, start + 4), with the ellipses and disabled flags of the window bar |
| ExamList.WindowShape | frontend/src/pages/teacher/examsupervision/components/ExamList.tsx:79-109 | at most five consecutive buttons, all real pages; the current page is among them when it is real; "..." before exactly when the current page is past 3, after exactly when the window stops before the last page |
| ExamList.WindowFull | frontend/src/pages/teacher/examsupervision/components/ExamList.tsx:79-88 | with at least four pages after the window start the window holds five buttons |
| ExamList.NoPagesNextEnabled | frontend/src/pages/teacher/examsupervision/components/ExamList.tsx:90-108 | with no pages there are no buttons, yet Next is enabled on page 1 |
| QuestionsList.Filtered | frontend/src/pages/teacher/bankquestion/components/componentDetail/questions-list.tsx:119-127 | a question is listed exactly when it is in the list, its type matches ("all" or the parsed type) and its content contains the search text ignoring case; never longer than the list |
| QuestionsList.AllShowsEverything | frontend/src/pages/teacher/bankquestion/components/componentDetail/questions-list.tsx:119-127 | with "all" and no search text the filtered list is the whole list |
| QuestionsList.JsSlice | frontend/src/pages/teacher/bankquestion/components/componentDetail/questions-list.tsx:131-132 | Array slice with non-negative bounds is the subsequence between the bounds clamped to the array |
| QuestionsList.PageSliceIsPage | frontend/src/pages/teacher/bankquestion/components/componentDetail/questions-list.tsx:130-132 | from page 1 on, the slice is the page of five starting at (page - 1) * 5 |
| QuestionsList.PageSizes | frontend/src/pages/teacher/bankquestion/components/componentDetail/questions-list.tsx:130-132 | totalPages = ceil(n / 5): every page up to it holds one to five questions, every page after it none |
| QuestionsList.PagesCoverAll | frontend/src/pages/teacher/bankquestion/components/componentDetail/questions-list.tsx:130-132 | pages 1 to totalPages put back together give the filtered list, each being the standard page |
| QuestionsList.ListView.constructor | frontend/src/pages/teacher/bankquestion/components/componentDetail/questions-list.tsx:51-54 | the list starts on page 1 with filter "all" and no search text |
| QuestionsList.ListView.HandleFilterChange | frontend/src/pages/teacher/bankquestion/components/componentDetail/questions-list.tsx:134-138 | a new type filter is stored and the list goes back to page 1 |
| QuestionsList.ListView.HandleSearchChange | frontend/src/pages/teacher/bankquestion/components/componentDetail/questions-list.tsx:140-144 | new search text is stored and the list goes back to page 1 |
| QuestionsList.ListView.HandlePageChange | frontend/src/pages/teacher/bankquestion/components/componentDetail/questions-list.tsx:146-150 | the page is taken only when 0 < page <= totalPages, otherwise kept; an accepted page shows at least one question |
| CaptureGallery.CaptureStatus | frontend/src/pages/teacher/examsupervision/pages/DetailConnectionSupervisor.tsx:105-116 | a capture with isDetected false is NoFace whatever its log type; otherwise log type 1 gives Warning, 2 Violation, and anything else (0, absent, other) Normal, each as an if-and-only-if |
| CaptureGallery.NoFaceBeatsLogType | frontend/src/pages/teacher/examsupervision/pages/DetailConnectionSupervisor.tsx:105-116 | the no-face test comes first: undetected with log type 2 is NoFace, unknown detection with log type 2 is Violation, log type 3 is Normal |
| CaptureGallery.ParseEmotions | frontend/src/pages/teacher/examsupervision/pages/DetailConnectionSupervisor.tsx:98-103 | an absent or empty emotions text parses as '{}'; text the parser rejects leaves an empty map; otherwise the parsed object |
| CaptureGallery.UnparsableIsEmpty | frontend/src/pages/teacher/examsupervision/pages/DetailConnectionSupervisor.tsx:98-103 | unparsable non-empty text gives the empty emotions map instead of failing |
| CaptureGallery.ToPhoto | frontend/src/pages/teacher/examsupervision/pages/DetailConnectionSupervisor.tsx:117-131 | a photo keeps the capture id, the status chain's status, the image URL or "", the detection flag and the parsed emotions |
| CaptureGallery.Photos | frontend/src/pages/teacher/examsupervision/pages/DetailConnectionSupervisor.tsx:93-97 | no photos unless the data is an array; otherwise one photo per capture, in order |
| CaptureGallery.WarningCountsNoFace | frontend/src/pages/teacher/examsupervision/pages/DetailConnectionSupervisor.tsx:135-139 | the "warning" statistic equals the number of NoFace photos, and normal plus warning never exceeds the total |
| CaptureGallery.WarningStatusNotCounted | frontend/src/pages/teacher/examsupervision/pages/DetailConnectionSupervisor.tsx:135-139 | a detected capture with log type 1 shows as Warning yet the "warning" statistic is 0 |
| CaptureGallery.StatusTextDistinct | frontend/src/pages/teacher/examsupervision/pages/DetailConnectionSupervisor.tsx:176-189 | two statuses get the same label exactly when they are equal, and no status gets the "unknown" label |
| CaptureGallery.StatusColorShared | frontend/src/pages/teacher/examsupervision/pages/DetailConnectionSupervisor.tsx:161-174 | two statuses share a badge colour exactly when they are equal or both are Violation/NoFace |
| CaptureGallery.LogTypeFilter | frontend/src/pages/teacher/examsupervision/pages/DetailConnectionSupervisor.tsx:252-261 | a cleared log-type choice (null or '') is sent as ''; any other choice is sent unchanged |
| AddStudentDialog.Unseen | frontend/src/pages/admin/manageroom/dialogs/DialogAddStudentToRoom.tsx:79-84 | a page row is kept exactly when the list does not hold its user id yet |
| AddStudentDialog.MergePage | frontend/src/pages/admin/manageroom/dialogs/DialogAddStudentToRoom.tsx:75-88 | an empty page changes nothing; page 1 replaces the list; a later page appends its rows whose ids are not listed yet |
| AddStudentDialog.MergeKeys | frontend/src/pages/admin/manageroom/dialogs/DialogAddStudentToRoom.tsx:75-88 | after a later page the list holds exactly the ids it held and the page's ids |
| AddStudentDialog.MergeKeepsUnique | frontend/src/pages/admin/manageroom/dialogs/DialogAddStudentToRoom.tsx:75-88 | when the list and the page each list a student once, the merged list lists every student at most once |
| AddStudentDialog.LoadMore | frontend/src/pages/admin/manageroom/dialogs/DialogAddStudentToRoom.tsx:141-148 | the page advances by one exactly when not loading, more is available and the page is below the last; otherwise the filter is unchanged |
| AddStudentDialog.LoadMoreInRange | frontend/src/pages/admin/manageroom/dialogs/DialogAddStudentToRoom.tsx:141-148 | from a page in 1..totalPage, load more moves at most one page forward and never past the last page |
| AddStudentDialog.FilterEffect | frontend/src/pages/admin/manageroom/dialogs/DialogAddStudentToRoom.tsx:90-110 | a refetch happens exactly when open, idle and the filter changed; a refetch for a new search or page size clears the list, otherwise the list is kept |
| AddStudentDialog.SchemaErrors | frontend/src/pages/admin/manageroom/dialogs/DialogAddStudentToRoom.tsx:27-29 | the form has no error exactly when at least one student is chosen |
| AddStudentDialog.EnabledPassesSchema | frontend/src/pages/admin/manageroom/dialogs/DialogAddStudentToRoom.tsx:320 | an enabled submit button implies the form's rule holds |
| AddStudentDialog.StudentPicker.constructor | frontend/src/pages/admin/manageroom/dialogs/DialogAddStudentToRoom.tsx:38-53 | empty search, list and selection, the initial filter (10 per page, page 1, no search) |
| AddStudentDialog.StudentPicker.ReceivePage | frontend/src/pages/admin/manageroom/dialogs/DialogAddStudentToRoom.tsx:75-88 | the list becomes the merged page, and stays free of repeated ids when the page has none |
| AddStudentDialog.StudentPicker.HandleLoadMore | frontend/src/pages/admin/manageroom/dialogs/DialogAddStudentToRoom.tsx:141-148 | the filter becomes LoadMore of the old filter |
| AddStudentDialog.StudentPicker.HandleSearch | frontend/src/pages/admin/manageroom/dialogs/DialogAddStudentToRoom.tsx:116-128 | the box shows the text and the list searches it from page 1, page size kept |
| AddStudentDialog.StudentPicker.OnFiltersChanged | frontend/src/pages/admin/manageroom/dialogs/DialogAddStudentToRoom.tsx:90-110 | the list and the refetch flag are the filter effect's, and the previous filter becomes the current one |
| AddStudentDialog.StudentPicker.ClickStudent | frontend/src/pages/admin/manageroom/dialogs/DialogAddStudentToRoom.tsx:228-241 | the selection becomes Click of the old one (append when not chosen, remove when chosen), with no repeated id |
| AddStudentDialog.StudentPicker.HandleClose | frontend/src/pages/admin/manageroom/dialogs/DialogAddStudentToRoom.tsx:131-139 | the search, the list and the filter start over |
| Selection.SearchUpdate | frontend/src/pages/admin/manageroom/dialogs/DialogAddStudentToRoom.tsx:116-128 | a search sets the text and goes back to page 1, keeping the page size |
| Selection.Toggle | frontend/src/pages/admin/manageroom/dialogs/DialogAddStudentToRoom.tsx:228-241 | checking appends the id; unchecking removes every occurrence and keeps every other id |
| Selection.UncheckKeepsOthers | frontend/src/pages/admin/manageroom/dialogs/DialogAddStudentToRoom.tsx:236-239 | unchecking an id that is not chosen changes nothing |
| Selection.CheckThenUncheck | frontend/src/pages/admin/manageroom/dialogs/DialogAddStudentToRoom.tsx:228-241 | checking a new id and unchecking it again restores the selection |
| Selection.Click | frontend/src/pages/admin/manageroom/dialogs/DialogAddStudentToRoom.tsx:228-241 | after a click the id is chosen exactly when it was not chosen before |
| Selection.ClickKeepsNoDup | frontend/src/pages/admin/manageroom/dialogs/DialogAddStudentToRoom.tsx:228-241 | clicks never choose an id twice |
| Selection.AppendNoDup | frontend/src/pages/admin/manageroom/dialogs/DialogAddStudentToRoom.tsx:230-234 | appending an id not yet present keeps the list free of repeats |
| Selection.UniqueBy | frontend/src/pages/teacher/examsupervisor/dialogs/DialogAssignSuppervisor.tsx:94-110 | the seen-set filter keeps the first row of each key, in order: keys unique, exactly the input's keys |
| Selection.DistinctByOfUnique | frontend/src/pages/teacher/examsupervisor/dialogs/DialogAssignSuppervisor.tsx:94-110 | a list whose keys are already unique passes the seen-set filter unchanged |
| Selection.DistinctByIdempotent | frontend/src/pages/teacher/examsupervisor/dialogs/DialogAssignSuppervisor.tsx:94-110 | filtering twice is filtering once |
| SelectField.WithoutValue | frontend/src/components/customFieldsFormik/SelectField.tsx:100-123 | no chosen option has the value any more, the other values stay chosen, and nothing new is added |
| SelectField.SelectMultiple | frontend/src/components/customFieldsFormik/SelectField.tsx:97-101 | in multiple mode the option's value is chosen afterwards exactly when it was not before; every other value keeps its state |
| SelectField.SelectSingle | frontend/src/components/customFieldsFormik/SelectField.tsx:110 | in single mode, choosing the option the value renders as (template-literal comparison) clears it to ''; any other choice sets the option's value |
| SelectField.Remove | frontend/src/components/customFieldsFormik/SelectField.tsx:120-123 | the removed chip's value is no longer chosen; every other value keeps its state |
| SelectField.SelectMultipleFlips | frontend/src/components/customFieldsFormik/SelectField.tsx:97-101 | in multiple mode choosing an option flips its check mark and leaves every other option's (also lines 266-267) |
| SelectField.SelectMultipleTwice | frontend/src/components/customFieldsFormik/SelectField.tsx:97-101 | choosing the same option twice in multiple mode gives back the same chosen values |
| SelectField.SelectSingleChecks | frontend/src/components/customFieldsFormik/SelectField.tsx:110 | in single mode choosing an option that is not the current one checks it (also line 268) |
| SelectField.SelectSingleClears | frontend/src/components/customFieldsFormik/SelectField.tsx:110 | choosing the checked option in single mode unchecks it, unless its value is '' itself (also line 268) |
| SelectField.TextAndStrictDiffer | frontend/src/components/customFieldsFormik/SelectField.tsx:110 | the check mark uses strict equality and the toggle a text comparison: a value of number 1 does not check the option '1', yet choosing that option clears the value (also line 268) |
| SelectField.Field.constructor | frontend/src/components/customFieldsFormik/SelectField.tsx:72-74 | the popover starts closed and untouched, with the form's value |
| SelectField.Field.HandleSelect | frontend/src/components/customFieldsFormik/SelectField.tsx:95-117 | the popover closes; multiple mode writes the toggled list unless onSelect takes over; single mode always writes the single-mode result |
| SelectField.Field.HandleRemove | frontend/src/components/customFieldsFormik/SelectField.tsx:120-130 | the chip's value is removed from the form value unless onSelect takes over |
| SelectField.Field.SetOpen | frontend/src/components/customFieldsFormik/SelectField.tsx:85-92 | the popover opens or closes, and closing it marks the field touched |
| RolePermissionsTab.ToggleCategory | frontend/src/pages/admin/manageuser/components/add-new-role-tab.tsx:87-91 | the category is expanded afterwards exactly when it was not before; every other category keeps its state |
| RolePermissionsTab.ToggleCategoryTwice | frontend/src/pages/admin/manageuser/components/add-new-role-tab.tsx:87-91 | expanding a collapsed category and collapsing it again restores the list |
| RolePermissionsTab.FilterKeepsPassing | frontend/src/pages/admin/manageuser/components/add-new-role-tab.tsx:114-116 | filtering a list whose every element passes gives the list back |
| RolePermissionsTab.PermissionToggle | frontend/src/pages/admin/manageuser/components/add-new-role-tab.tsx:93-101 | the permission is selected afterwards exactly when it was not before; every other permission keeps its state |
| RolePermissionsTab.SelectedAppend | frontend/src/pages/admin/manageuser/components/add-new-role-tab.tsx:100 | appending a permission selects exactly its id in addition |
| RolePermissionsTab.FilterKeys | frontend/src/pages/admin/manageuser/components/add-new-role-tab.tsx:96-97 | the ids left by a filter are those of the passing permissions |
| RolePermissionsTab.PermissionToggleTwice | frontend/src/pages/admin/manageuser/components/add-new-role-tab.tsx:93-101 | selecting a permission and deselecting it again restores the list |
| RolePermissionsTab.SetEntry | frontend/src/pages/admin/manageuser/components/add-new-role-tab.tsx:122 | Map.set: the id is present afterwards, no other id is added, ids stay unique, and every entry with another id stays |
| RolePermissionsTab.SetEntries | frontend/src/pages/admin/manageuser/components/add-new-role-tab.tsx:122 | setting a list of permissions in turn adds exactly their ids, keeps ids unique, and keeps every entry whose id is not among them |
| RolePermissionsTab.SetEntriesAppend | frontend/src/pages/admin/manageuser/components/add-new-role-tab.tsx:122 | setting the entries of a concatenation is setting those of each part in turn |
| RolePermissionsTab.MapValuesUnique | frontend/src/pages/admin/manageuser/components/add-new-role-tab.tsx:122 | a list without repeated ids comes out of the Map unchanged |
| RolePermissionsTab.CategoryToggleDeselects | frontend/src/pages/admin/manageuser/components/add-new-role-tab.tsx:103-117 | deselecting a fully selected category removes exactly its ids and keeps the other permissions in order |
| RolePermissionsTab.CategoryToggleSelects | frontend/src/pages/admin/manageuser/components/add-new-role-tab.tsx:103-124 | selecting a category that is not fully selected adds its ids, lists no id twice, leaves the category checked, and keeps every other selected permission when the selection had no repeats |
| RolePermissionsTab.CategoryToggleFlips | frontend/src/pages/admin/manageuser/components/add-new-role-tab.tsx:103-124 | for a non-empty category the checkbox is checked after the toggle exactly when it was not before (also lines 188-199) |
| RolePermissionsTab.RenderedCategories | frontend/src/pages/admin/manageuser/components/add-new-role-tab.tsx:185 | exactly the categories with at least one permission are drawn |
| RolePermissionsTab.RoleTab.constructor | frontend/src/pages/admin/manageuser/components/add-new-role-tab.tsx:49-52 | the tab starts with nothing expanded and nothing selected |
| RolePermissionsTab.RoleTab.HandleToggleCategory | frontend/src/pages/admin/manageuser/components/add-new-role-tab.tsx:87-91 | the expanded list becomes its toggle |
| RolePermissionsTab.RoleTab.HandlePermissionToggle | frontend/src/pages/admin/manageuser/components/add-new-role-tab.tsx:93-101 | the selection becomes its toggle and keeps ids unique |
| RolePermissionsTab.RoleTab.HandleCategoryToggle | frontend/src/pages/admin/manageuser/components/add-new-role-tab.tsx:103-125 | the selection becomes its category toggle and keeps ids unique |
| RolePermissionsTab.FilterUnique | frontend/src/pages/admin/manageuser/components/add-new-role-tab.tsx:114-116 | filtering keeps ids unique |
| RolePermissionsTab.ConsUnique | frontend/src/pages/admin/manageuser/components/add-new-role-tab.tsx:122 | putting a permission with a new id in front keeps ids unique |
| BankQuestionDialog.Ids | frontend/src/pages/teacher/manageexam/dialogs/DialogBankQuestion.tsx:124 | one id per shown question, in order |
| BankQuestionDialog.FilteredQuestions | frontend/src/pages/teacher/manageexam/dialogs/DialogBankQuestion.tsx:101-113 | nothing without loaded questions; otherwise exactly the loaded questions whose content contains the search text ignoring case, or all of them for an empty search |
| BankQuestionDialog.EmptySearchKeepsAll | frontend/src/pages/teacher/manageexam/dialogs/DialogBankQuestion.tsx:104-106 | an empty search keeps every loaded question, in order |
| BankQuestionDialog.SelectAll | frontend/src/pages/teacher/manageexam/dialogs/DialogBankQuestion.tsx:116-127 | the selection is cleared when it has as many ids as there are shown questions, and otherwise becomes the shown questions' ids |
| BankQuestionDialog.SelectAllTwice | frontend/src/pages/teacher/manageexam/dialogs/DialogBankQuestion.tsx:116-127 | when the first press selects, a second press clears the selection |
| BankQuestionDialog.SelectAllComparesCounts | frontend/src/pages/teacher/manageexam/dialogs/DialogBankQuestion.tsx:117 | only the counts are compared: two selected ids that are not shown are cleared, not replaced, when two other questions are shown |
| BankQuestionDialog.SubmitSelection | frontend/src/pages/teacher/manageexam/dialogs/DialogBankQuestion.tsx:142-148 | the submitted questions are exactly the shown questions whose id is selected, each carrying the bank's name, never more than are shown |
| BankQuestionDialog.SubmitAllSelected | frontend/src/pages/teacher/manageexam/dialogs/DialogBankQuestion.tsx:116-127 | after select-all has selected the shown questions, submitting returns all of them (also lines 142-148) |
| BankQuestionDialog.SubmitSubset | frontend/src/pages/teacher/manageexam/dialogs/DialogBankQuestion.tsx:142-148 | when every shown question is selected, all of them are submitted |
| BankQuestionDialog.SchemaErrors | frontend/src/pages/teacher/manageexam/dialogs/DialogBankQuestion.tsx:85-90 | no message exactly when a bank is chosen and at least two questions are selected |
| BankQuestionDialog.EnabledMeetsMinimum | frontend/src/pages/teacher/manageexam/dialogs/DialogBankQuestion.tsx:85-90 | an enabled submit button with a bank chosen means the schema holds (also line 399) |
| BankQuestionDialog.Dialog.constructor | frontend/src/pages/teacher/manageexam/dialogs/DialogBankQuestion.tsx:68-76 | the dialog opens with no bank, no search and the exam's current questions selected |
| BankQuestionDialog.Dialog.HandleSelectAll | frontend/src/pages/teacher/manageexam/dialogs/DialogBankQuestion.tsx:116-127 | the selection becomes the select-all result |
| BankQuestionDialog.Dialog.HandleCheck | frontend/src/pages/teacher/manageexam/dialogs/DialogBankQuestion.tsx:301-315 | checking appends the question's id; unchecking removes every occurrence of it |
| BankQuestionDialog.Dialog.Close | frontend/src/pages/teacher/manageexam/dialogs/DialogBankQuestion.tsx:92-98 | closing forgets the chosen bank and the search text |
| AssignSupervisorDialog.ExamChecked | frontend/src/pages/teacher/examsupervisor/dialogs/DialogAssignSuppervisor.tsx:192-201 | checking makes the exam the only one chosen; unchecking removes it and keeps every other chosen exam |
| AssignSupervisorDialog.SchemaErrors | frontend/src/pages/teacher/examsupervisor/dialogs/DialogAssignSuppervisor.tsx:37-41 | no message exactly when one exam, at least one supervisor and a note of at most 500 characters are given; "choose an exam" exactly when none is chosen, "only one exam" exactly when more are |
| AssignSupervisorDialog.AssignForm.constructor | frontend/src/pages/teacher/examsupervisor/dialogs/DialogAssignSuppervisor.tsx:148-152 | the form starts with no exam, no supervisor and an empty note |
| AssignSupervisorDialog.AssignForm.ClickExam | frontend/src/pages/teacher/examsupervisor/dialogs/DialogAssignSuppervisor.tsx:187-201 | the exam is chosen afterwards exactly when it was not before, and never more than one exam is chosen |
| AssignSupervisorDialog.AssignForm.ClickSupervisor | frontend/src/pages/teacher/examsupervisor/dialogs/DialogAssignSuppervisor.tsx:263-283 | the supervisors become the click's result, with no supervisor chosen twice |
| AddNewExam.QuestionIds | frontend/src/pages/teacher/manageexam/pages/AddNewExam.tsx:141-152 | one id per chosen question, in list order |
| AddNewExam.WithoutQuestion | frontend/src/pages/teacher/manageexam/pages/AddNewExam.tsx:174-176 | no entry with the removed id stays, every other entry stays, and nothing is added |
| AddNewExam.WithoutKeepsOrder | frontend/src/pages/teacher/manageexam/pages/AddNewExam.tsx:174-176 | the remaining ids are the old ids with the removed one taken out, in their old order |
| AddNewExam.QuestionIdsCons | frontend/src/pages/teacher/manageexam/pages/AddNewExam.tsx:141 | the ids of a question put in front are its id in front of the others |
| AddNewExam.WithoutAbsent | frontend/src/pages/teacher/manageexam/pages/AddNewExam.tsx:174-176 | removing an id that is not in the list changes nothing |
| AddNewExam.WithoutIdempotent | frontend/src/pages/teacher/manageexam/pages/AddNewExam.tsx:174-176 | removing the same id twice is removing it once |
| AddNewExam.RemoveAt | frontend/src/pages/teacher/manageexam/pages/AddNewExam.tsx:183 | `splice(i, 1)` on a position inside the list shortens it by one |
| AddNewExam.InsertAt | frontend/src/pages/teacher/manageexam/pages/AddNewExam.tsx:184 | `splice(i, 0, v)` lengthens the list by one and puts v at position i |
| AddNewExam.RemoveInserted | frontend/src/pages/teacher/manageexam/pages/AddNewExam.tsx:183-184 | taking out what was just put in gives the list back |
| AddNewExam.InsertRemoved | frontend/src/pages/teacher/manageexam/pages/AddNewExam.tsx:183-184 | putting back what was just taken out gives the list back |
| AddNewExam.SpliceStart | frontend/src/pages/teacher/manageexam/pages/AddNewExam.tsx:183-184 | splice's start position lies in the list, and is the index itself when that is in range |
| AddNewExam.MoveAsWritten | frontend/src/pages/teacher/manageexam/pages/AddNewExam.tsx:178-189 | as written: a toIndex outside the list leaves it unchanged |
| AddNewExam.MoveAsWrittenInsertsUndefined | frontend/src/pages/teacher/manageexam/pages/AddNewExam.tsx:178-189 | as written: a fromIndex just past the end grows the list by an `undefined` entry at toIndex |
| AddNewExam.MoveAsWrittenExample | frontend/src/pages/teacher/manageexam/pages/AddNewExam.tsx:178-189 | as written: on a one-question list, moving from index 1 to index 0 gives `[undefined, q]` |
| AddNewExam.Move | frontend/src/pages/teacher/manageexam/pages/AddNewExam.tsx:178-189 | models the intended behaviour: with both indices in the list the entry at fromIndex ends up at toIndex and the others keep their order; otherwise the list is unchanged |
| AddNewExam.MovePermutes | frontend/src/pages/teacher/manageexam/pages/AddNewExam.tsx:178-189 | the intended move keeps the entries: the result is a permutation |
| AddNewExam.RemoveAtMultiset | frontend/src/pages/teacher/manageexam/pages/AddNewExam.tsx:183 | taking out position i removes exactly that entry from the multiset |
| AddNewExam.InsertAtMultiset | frontend/src/pages/teacher/manageexam/pages/AddNewExam.tsx:184 | inserting adds exactly that entry to the multiset |
| AddNewExam.MoveBack | frontend/src/pages/teacher/manageexam/pages/AddNewExam.tsx:178-189 | moving back from toIndex to fromIndex undoes a move |
| AddNewExam.MoveAsWrittenAgrees | frontend/src/pages/teacher/manageexam/pages/AddNewExam.tsx:178-189 | with both indices in the list the code as written does the intended move |
| AddNewExam.StripTags | frontend/src/pages/teacher/manageexam/pages/AddNewExam.tsx:60 | stripping tags never lengthens the text and adds no character |
| AddNewExam.ConsTagFree | frontend/src/pages/teacher/manageexam/pages/AddNewExam.tsx:60 | a character in front of tag-free text leaves it tag-free unless a tag starts at it |
| AddNewExam.StripKeepsLeadingClose | frontend/src/pages/teacher/manageexam/pages/AddNewExam.tsx:60 | a leading '>' is never part of a tag |
| AddNewExam.StripTagsTagFree | frontend/src/pages/teacher/manageexam/pages/AddNewExam.tsx:60 | what the stripping leaves contains no tag |
| AddNewExam.StripTagFree | frontend/src/pages/teacher/manageexam/pages/AddNewExam.tsx:60 | text without tags is left as it is |
| AddNewExam.StripTagsIdempotent | frontend/src/pages/teacher/manageexam/pages/AddNewExam.tsx:60 | stripping twice strips nothing more |
| AddNewExam.EndTimeError | frontend/src/pages/teacher/manageexam/pages/AddNewExam.tsx:45-52 | the end time passes exactly when it is given, not before the start time, and in the future |
| AddNewExam.DurationError | frontend/src/pages/teacher/manageexam/pages/AddNewExam.tsx:41-43 | the duration passes exactly when it is given and at least 1 |
| AddNewExam.RequiredText | frontend/src/pages/teacher/manageexam/pages/AddNewExam.tsx:39-56 | a required text passes exactly when it is given and not empty |
| AddNewExam.ValidationErrors | frontend/src/pages/teacher/manageexam/pages/AddNewExam.tsx:38-63 | no message exactly when every required field is given, the duration is at least 1, the end time is after the start time and in the future, and the guidelines hold something other than markup and white space |
| AddNewExam.TimingErrors | frontend/src/pages/teacher/manageexam/pages/AddNewExam.tsx:39-50 | no message from the title, type, duration and time rules exactly when a title and type are given, the duration is at least 1 and the end time is set, not before the start and in the future |
| AddNewExam.SettingErrors | frontend/src/pages/teacher/manageexam/pages/AddNewExam.tsx:51-62 | no message from the remaining rules exactly when both display settings, the status and a room are given and the guidelines hold text outside markup |
| AddNewExam.MessageOf | frontend/src/pages/teacher/manageexam/pages/AddNewExam.tsx:38-63 | a failing rule contributes its message, a passing one nothing |
| AddNewExam.MarkupOnlyGuideLines | frontend/src/pages/teacher/manageexam/pages/AddNewExam.tsx:57-62 | guidelines made only of markup and white space, such as `<p> </p>`, are refused |
| AddNewExam.ExamDraft.constructor | frontend/src/pages/teacher/manageexam/pages/AddNewExam.tsx:74-75 | the page starts with no bank and no questions chosen |
| AddNewExam.ExamDraft.QuestionBankSubmit | frontend/src/pages/teacher/manageexam/pages/AddNewExam.tsx:166-172 | the dialog's bank and questions replace the current ones |
| AddNewExam.ExamDraft.RemoveQuestion | frontend/src/pages/teacher/manageexam/pages/AddNewExam.tsx:174-176 | the chosen questions lose every entry with the removed id |
| AddNewExam.ExamDraft.MoveQuestion | frontend/src/pages/teacher/manageexam/pages/AddNewExam.tsx:178-189 | models the intended behaviour (fromIndex checked as toIndex is): the list becomes the intended move, a permutation of the old list |
| AddNewExam.ExamDraft.Request | frontend/src/pages/teacher/manageexam/pages/AddNewExam.tsx:135-164 | the request carries the form's values, the chosen bank and the chosen questions' ids in order |
| AddQuestion.OptionIdInjective | frontend/src/pages/teacher/addquestion/index.tsx:31 | different positions get different row ids `option-<index + 1>` |
| AddQuestion.BlankOptions | frontend/src/pages/teacher/addquestion/index.tsx:22-29 | a new question has four empty rows, only the first marked correct |
| AddQuestion.BlankOptionIds | frontend/src/pages/teacher/addquestion/index.tsx:24-27 | the blank rows carry the ids of their positions |
| AddQuestion.LoadedOption | frontend/src/pages/teacher/addquestion/index.tsx:30-34 | a loaded row has its position's id and the stored text, and is marked correct exactly when its text is the stored correct answer |
| AddQuestion.ConvertApiToState | frontend/src/pages/teacher/addquestion/index.tsx:21-35 | no stored answers (absent or empty) give the blank rows; otherwise one loaded row per stored answer, in order |
| AddQuestion.Texts | frontend/src/pages/teacher/addquestion/index.tsx:171 | one answer text per row, in order |
| AddQuestion.Ids | frontend/src/pages/teacher/addquestion/index.tsx:30-34 | one id per row, in order |
| AddQuestion.ConvertKeepsTexts | frontend/src/pages/teacher/addquestion/index.tsx:21-35 | loading stored answers and sending the rows back gives the stored answers (also line 171) |
| AddQuestion.ConvertIdsDistinct | frontend/src/pages/teacher/addquestion/index.tsx:21-35 | the loaded rows have distinct ids |
| AddQuestion.TypeCode | frontend/src/pages/teacher/addquestion/index.tsx:168 | the type sent is 0, 1 or 2 |
| AddQuestion.TypeCodeInjective | frontend/src/pages/teacher/addquestion/index.tsx:168 | different question types are sent as different codes |
| AddQuestion.CorrectAnswerFor | frontend/src/pages/teacher/addquestion/index.tsx:172-177 | an essay sends the fixed text "không có", another non-multiple-choice type '', and multiple choice the text of the first row marked correct, or '' when none is |
| AddQuestion.ConvertKeepsCorrectAnswer | frontend/src/pages/teacher/addquestion/index.tsx:21-35 | editing a multiple-choice question without touching its rows sends back the stored correct answer when it is one of the answers, and '' when it is not (also lines 172-177) |
| AddQuestion.BlankCorrectAnswer | frontend/src/pages/teacher/addquestion/index.tsx:22-29 | a new question's blank rows send an empty correct answer (also line 176) |
| AddQuestion.TrimmedTexts | frontend/src/pages/teacher/addquestion/index.tsx:86 | one trimmed text per row |
| AddQuestion.DuplicateOptionsIff | frontend/src/pages/teacher/addquestion/index.tsx:84-89 | hasDuplicateOptions holds exactly when two rows have the same non-empty trimmed text |
| AddQuestion.Step2Answers | frontend/src/pages/teacher/addquestion/index.tsx:96-111 | passing step 2 with multiple choice means a subject is chosen and the answers are filled in and pairwise different |
| AddQuestion.DuplicateCheckAfterGate | frontend/src/pages/teacher/addquestion/index.tsx:116-120 | the duplicate check that handleNext repeats after step 2's gate never fires |
| AddQuestion.InitialType | frontend/src/pages/teacher/addquestion/index.tsx:44-46 | the page starts on essay exactly for a stored question without answers, and otherwise on multiple choice |
| AddQuestion.QuestionEditor.constructor | frontend/src/pages/teacher/addquestion/index.tsx:42-57 | the wizard opens on step 1 with the bank, subject, content, type and rows of the question being edited, or the empty defaults |
| AddQuestion.QuestionEditor.Payload | frontend/src/pages/teacher/addquestion/index.tsx:164-184 | the request carries the bank, subject and content, the type code, the row texts and the correct answer for the type |
| AddQuestion.QuestionEditor.HandleNext | frontend/src/pages/teacher/addquestion/index.tsx:113-126 | step 1 moves to step 2 when its gate holds; step 2 sends the payload and moves to step 3 when its gate holds; step 1 with too long a content shows the length error; anything else changes nothing |
| AddQuestion.QuestionEditor.HandleBack | frontend/src/pages/teacher/addquestion/index.tsx:128-132 | one step back, never before step 1 |
| AddQuestion.QuestionEditor.HandleContentChange | frontend/src/pages/teacher/addquestion/index.tsx:242-250 | an edit longer than the limit is refused and the content kept, so the content never exceeds the limit once within it |
| AddQuestion.QuestionEditor.HandleCreateNew | frontend/src/pages/teacher/addquestion/index.tsx:213-231 | back to step 1 with an empty bank, subject and content, multiple choice and the blank rows |

## Left out

- Common.Lower: only ASCII letters are lower-cased (and Common.UpperChar upper-cases only ASCII letters), where .NET's ToLower/ToUpper and JavaScript's toLowerCase follow Unicode; QuestionService.NormalizeAnswers, the name clashes of AuthorizeService (permissions and roles), QuestionBankService.EmailMatches, Common.ContainsIgnoreCase and every other case-insensitive comparison inherit this.
- Common.Trim: white space is the ASCII subset of char.IsWhiteSpace (Common.IsSpace); Unicode spaces are not trimmed. The same callers inherit this.
- ExamService.Rescaled: the points are exact reals; C#'s decimal division (28 significant digits) and its rounding of the last digit are not modelled.
- Domain.Round2: Math.Round(x, 2) is modelled on exact reals with the banker's rounding of the source; the decimal representation it works on is not modelled.
- Utils: the GUIDs, the Random draws of Generate6Number and GenerateCharacter and the sort keys of the shuffle are parameters; the directory creation and the file writes of GetUrlImages are I/O (the folder is a list of stored names).
- Utils: ObjToString, GenRandomCharacter, GetCacheResponse, IsObjectEqual, DowLoadFileFromUrl, GetUrlImage and the Guid helpers (ToGuid, ToString, IsGuidEmpty, IsGuid, IsNullOrEmpty; backend/API/Commons/Utils.cs:11-18, 60-64, 78-160, 202-222) are serialisation, reflection, network or framework conversions and are not modelled.
- WifiSetting: the `netsh` process and the network interface listing are parameters (their text output and the interface state); InitializeAsync, UpdateWiFiStatusAsync, ConnectToNetworkAsync (which writes a profile file and runs `netsh`), GetWiFiStatusAsync and GetListWiFiAsync (backend/DesktopApp/Helpers/WifiSetting.cs:27-62, 120-209) are I/O around the parsing modelled and are not modelled.
- Front end: debounce timers, rendering, translated labels, toasts, navigation and the requests sent to the backend are not modelled; each handler is a method whose inputs are what the request or the component hands it, and timestamps are parameters in milliseconds.
- ActivityLogPage.LogFilters.HandlePageSizeChange and FeedbackPage.FeedbackFilters.HandlePageSizeChange: the page size arrives already parsed; the parsing of the select's text is not modelled.
- ActivityLogPage and FeedbackPage: the free filter keys sent by the generic filter bar are a map of values; the filter bar itself (generic-filters.tsx) is not part of this model.
- SelectField: the onSelect and afterOnChange callbacks are foreign code; whether an onSelect is given is a flag, and what the callbacks do is not modelled; the error message shown under the field is not modelled.
- AddQuestion: the image upload, the create and update requests and the refetch after a save are not modelled; the page model ends with the payload it would send.
- AddNewExam: the create and update requests and the draft kept in the cache between visits are not modelled; the page model ends with the payload it would send.
- BankQuestionDialog: the fetch of the bank's questions is a parameter (the list fetched).
- FaceDetection and CaptureGallery: the camera frames and the images are not modelled; only their counts and the analysis outcomes are.
- FaceDetection: the face measurements (box sizes, ratios, angles and the thresholds they are compared with) are JavaScript doubles in the source and exact reals in the model; floating-point rounding is not modelled.
- AddQuestion.QuestionEditor.Payload: the payload holds the bank, subject, content, type code, option texts and correct answer; the difficultLevel, point, explanation, objectFile, tags, description, questionId and createUserId fields the page also sends are not modelled.
- The database, S3 storage, SignalR hubs, timers and P/Invoke calls are outside the model throughout; their results are parameters.
- ActivityLog.LogStore.WriteActivity and ActivityLog.LogStore.WriteExamActivity: the catch that returns "Update data success, but error writing log: ..." when the database or the upload throws is not modelled; the ids (Guid.NewGuid), the clock and the uploaded URL are parameters.
- ExportLog and ExportExamLog (Log.cs:215-289): they write an Excel file with EPPlus; not modelled.
- ActivityLog.GetListUserLog, ActivityLog.GetListExamLog: the projection to list view models is not modelled; the page holds the log rows themselves.
- ActivityLog.LogStore.DeleteExamLog: the storage key that ExtractKeyFromUrl derives from each screenshot URL (Log.cs:373), and the skip of a URL whose key comes out empty, are not modelled; a non-empty URL stands for its key.
- AuthenticateService: DoForgetPassword, DoRegister and DoSearchByEmail (AuthenticateService.cs:48-68, 144-173, 192-201) are not modelled; they send email or only look a user up.
- Common.PageCount: a page size of zero or less gives 0 pages, where C#'s `(int)Math.Ceiling(total / (double)size)` gives a negative count for a negative size and the platform's cast of infinity or NaN for a size of 0; SubjectService.GetAllSubjects and ActivityLog.GetListExamLog inherit this. The int32 overflow of `(CurrentPage - 1) * PageSize` in their skip is not modelled either (integers are unbounded).
- AuthenticateService: the "Error convert to MD5" / "Error encrypting" paths, taken when StringToMD5 throws, are not modelled; MD5 is a total function parameter.
- AuthorizeService: the listings and lookups (GetAllPermissions, GetOnePermission, GetAllRoles, GetAllRolesPermissions, GetPermissionsFromUserId, GetUserRoles, the category CRUD) and DeletePermission/DeleteRole are not modelled; only the operations that assign or change permissions and roles are.
- AuthorizeService.AuthorizeStore.AddPermissionsToRole: a requested permission id that names no permission is granted in the model, where the source fails on the foreign key at SaveChanges.
- Cache invalidation after a change (RemoveCache/ClearCache calls in the services) is not modelled in the services; DataCached models the cache on its own.
- ClassesService.GetClassById (ClassesService.cs:55-66) is not modelled: it is a lookup joined with the class's rooms, which the model does not hold.
- A null input object (DoCreateUpdateClass, CreateUpdateSubject and the other CreateUpdate operations) is not modelled: the inputs are datatype values that always exist.
- The metadata strings of the log records are not modelled. ClassesService and SubjectService model the action type, description and object id of their log entries; ProhibitedAppService, DisabledKeyService, ConfigUrlService, RoomService and NotificationService take the log write's outcome as a `logMessage` parameter and do not model the entry written.
- DataCached: permission ids are integers standing for the source's GUID strings; only their equality is used.
- DataCached.PermissionCache.GetUserPermissions and DataCached.PermissionCache.GetFunctions: the two-hour expiry of every entry is not modelled (no clock); an entry stays until it is removed.
- DataCached: GetCampuses, GetDepartments, GetSpecializations, GetPositions and GetMajors (DataCached.cs:95-173) are the same read-through pattern over reference tables and are not modelled; the catch paths of GetFunctions and GetUserPermissions (database errors) are not modelled.
- ExamService: GetExamDetailAsync, GetExamListAsync, ExportStudentExamResultReport, GetStudentExamDetailAsync and GetExamGuideLinesAsync are read-only listings and are not modelled; of GetExamResultReportAsync only the counts and the average score are, not the per-student rows or the average duration.
- ExamService.AddExamOutcome: the catch path of AddExamAsync (a database error inside the transaction, ExamService.cs:529-533) is not modelled.
- ExamSupervisorService: GetSupervisors and GetExams (ExamSupervisorService.cs:85-183) are searches for the assignment dialog and are not modelled; of GetAll only the checks are, not the projection; the catch paths (database errors) are not modelled.
- FaceDetection: the capture timer (every 2 seconds), the camera, the upload and the face-capture form built after an error (useFaceDetection.ts:58-107, 153-175) are not modelled; each analysis round is a method call with the response as a parameter.
- FileHandler.ImportFromExcel: the outer catch that reports a file that cannot be read ("Lỗi khi đọc file: …", FileHandler.cs:67-70) is not modelled; the workbook is given already parsed.
- FileHandler: DateTime.Parse and Convert.ChangeType depend on the culture and are a parameter of the model (a conversion function), not modelled themselves; GenerateExcelLargeFile, DowLoadFileFromUrl, WriteToSheet and CopyCellStyle (FileHandler.cs:195-374) are not modelled; GenerateExcelFile's cell formats and fonts are not modelled.
- FrontendCommon: JavaScript numbers are modelled as integers where the source works on integers (counts of seconds, role ids, dates) and as exact reals in formatScore; floating-point rounding of Math.round is modelled as round-half-up on exact reals.
- FrontendCommon: the date-display helpers that depend on the locale or the clock (showFormatDateFollowCurrentLang, convertUTCToVietnamTime, formatTimeAgo), the storage helpers and the animation constants (common.ts:10-35, 42-49, 86-124, 132-169, 207-226) are not modelled; convertToFormSelect's last branch for a list that is not an object (common.ts:83) cannot be reached from a list and is not modelled.
- KeyboardHook: the Win32 calls (SetWindowsHookEx, UnhookWindowsHookEx, CallNextHookEx, GetAsyncKeyState) are parameters of the methods (the returned handle, the held modifiers, the key's name); Initialize and the logging through the monitoring service are not modelled.
- JwtAuthentication: the signature, issuer, audience and lifetime checks of ValidateToken are one parameter (valid with claims, expired, or rejected); the cookie written by GenerateJwtToken, ValidateJwtToken and GetPrincipalFromExpiredToken (JwtAuthentication.cs:35-41, 88-146) are not modelled.
- MonitoringService.GetExamMonitorDetail (backend/API/Services/MonitoringService.cs:158-261) is a read-only projection of attempts and answers for display; the model keeps the tables it reads but not the view rows.
- MonitoringService.OverviewKeywordHit: the keyword goes into a SQL LIKE pattern `%keyword%`, where a '%' or '_' inside the keyword is a wildcard; the model treats the keyword as literal text.
- MonitoringService paging and counts of the overview (the page slice and the joined/submitted counts at 110-157) are display projections and are not modelled.
- MonitoringService.FinishStudentExam (502-535), the strategy-based variant, and ReAssignStudent (594-636) call scoring strategies and repositories whose code is not part of this model; the model has FinishStudentExam1's inline grading as MonitorStore.FinishStudentExam.
- MonitoringService notifications (the SignalR `Notify` calls) and the exception paths that roll a transaction back are left out: they are I/O and failures of the database.
- MonitoringService.ScanReassign: deletes every attempt of a requested student at the exam, where the source deletes the first one it finds; the two agree while a student has at most one attempt per exam.
- NotificationService.GetOne (backend/API/Services/NotificationService.cs:73-99) is a lookup projected for display; the lookup itself is NotificationService.Find.
- NotificationService: the creator's name joined into pushed messages (118-140) is display data and is not modelled; the hub is an outbox of pushes.
- ProcessMonitor: the watch timer's tick (backend/DesktopApp/Interops/ProcessMonitor.cs:130-139), which calls the callback of every watched name that is running, is not modelled beyond the timer being on; the callbacks are foreign code.
- ProcessMonitor.ReportNewProcessToApi (322-350) is an HTTP call, and the log lines are I/O; both are left out. The process snapshot, the signature check and which terminations fail are parameters.
- ProcessMonitor.Monitor.GetRunningBlockedProcesses: the catch that swallows a failing process lookup (92-95) is not modelled.
- QuestionBankService.GetList, GetQuestionBankDetailAsync and ExportQuestionBankReportAsync (backend/API/Services/QuestionBankService.cs:132-331, 422-462) are read-only listings, a detail view and a spreadsheet export; they are not modelled.
- QuestionBankService.BankStore.ShareQuestionBank: the notification email sent after the share is saved (line 377) is I/O and is left out; a failing mail send is not modelled.
- QuestionService.FormatListQuestion (backend/API/Services/QuestionService.cs:65-89) builds a prompt for an external AI model and is left out; DeleteQuestionAsync and GetListQuestionAsync (583-681) are a delete and a listing outside the checks modelled.
- QuestionService: the catch that turns a database failure into "Database error occurred while saving the question." (332-335) is not modelled.
- RoomService.GetRoomByIdAsync (backend/API/Services/RoomService.cs:91-131) is a lookup projected for display and is not modelled; a null form (183) cannot arise in the model.
- RoomUserService.GetUsersNotInRoom, GetUsersInRoom, AssignTeacherToRoom, UpdateRoomUser, Export and Import (backend/API/Services/RoomUserService.cs:22-135, 263-379) are listings, file transfer and single-row edits outside the enrolment rules modelled.
- RoomUserService.RoomUserStore.AddStudentsToRoom: the duplicated inputs are returned as a set, where the source returns a list in dictionary order after `Distinct`; the members are the same but their order is not modelled.
- RoomUserService: the "No new users to add." answer (248) and the log failure message are folded into the outcome; the log entry's text is not modelled.
- StudentExamService.GetList1, GetExamDetail, GetHistoryExams, GetHistoryExamDetail, GetSavedAnswers and GetEssayExam (backend/API/Services/StudentExamService.cs:28-85, 178-207, 435-596) are read-only views; only GetList's status mapping is modelled.
- StudentExamService: the validators (AccessExamValidator, SubmitExamValidator, AnswerValidator), the OTP check, the attempt builder and the scoring strategy are not part of this model; their outcomes are parameters.
- StudentExamService.StudentExamStore.SubmitExam: the answer rows the scoring strategy grades through its repository are not modelled, since the strategy's code is not part of this model; only its score and status are.
- StudentExamService: the catch paths that roll a transaction back are left out.
- UserService.GetById, GetList, ExportData, GetUserList, Create, Update and ChangeAvatar (backend/API/Services/UserService.cs:30-62, 88-153, 281-478, 554-582) are listings, single-user edits and file uploads; they reuse the checks modelled but are not modelled themselves.
- UserService.UserStore.AddListUser: the per-row catch ("Unexpected error") and the transaction failure path (274-278) are not modelled.
- UserService.CheckImportData: the data-annotation checks on each row are a parameter (`validate`); the spreadsheet reader is FileHandler.ImportFromExcel.

## Findings

| source | as written | input that shows it | evidently intended | confidence | as-written member | corrected member |
|---|---|---|---|---|---|---|
| backend/API/Services/MonitoringService.cs:352-353 | FinishExam's grading loop sits inside `if (!studentExams.Any())`, so it runs only when there is no attempt in progress and grades nothing | an exam with one attempt in progress | every attempt still in progress is graded and closed | medium, not executed | MonitoringService.FinishGradedAsWritten, MonitoringService.FinishAsWrittenGradesNothing | MonitoringService.FinishCorrectedGradesAll, MonitoringService.MonitorStore.FinishExam |
| backend/API/Services/MonitoringService.cs:298-299 | AddExamExtraTime selects attempts with start time after now and submit time before now, so whenever the submit time is not before the start time no attempt qualifies | an attempt started 10 minutes ago that ends in 20 minutes; the lemma assumes submit time ≥ start time, while the test data at backend/Test/MonitoringServiceTests.cs:384-432 uses a start 10 minutes ahead and a submit 5 minutes ago, the only shape that passes the filter | the attempts being taken now: started before now and not yet due | high, not executed | MonitoringService.TakingAsWritten, MonitoringService.TakingAsWrittenNeverHolds | MonitoringService.TakingNow, MonitoringService.ExtraTimeKeepsTaking, MonitoringService.MonitorStore.AddExamExtraTime |
| backend/API/Utilities/JwtAuthentication.cs:79 | a user without roles gets an empty RoleIds claim (line 26), and the parser splits it into one empty string that `int.Parse` rejects, so the token of such a user cannot be read back | a user with no role ids | an empty claim reads back as the empty role list, and every user's token round-trips | high, not executed | JwtAuthentication.EmptyRolesAsWritten | JwtAuthentication.DecodeRoleIdsCorrected, JwtAuthentication.ParseJwtTokenCorrected, JwtAuthentication.RoleIdsRoundTripCorrected, JwtAuthentication.TokenRoundTripCorrected |
| backend/DesktopApp/Interops/ProcessMonitor.cs:122-125 | MonitorProcess looks up the lower-cased name but adds the name as given, so a second registration of a mixed-case name misses the lookup, adds the same key again and throws | "Chrome" registered twice | a name is registered once, lower-cased, and registering it again changes nothing | high, not executed | ProcessMonitor.RegisterAsWritten, ProcessMonitor.MixedCaseTwiceThrows | ProcessMonitor.Register, ProcessMonitor.RegisterIdempotent, ProcessMonitor.Monitor.MonitorProcess |
| backend/API/Services/ExamService.cs:750-776 | the first OTP row of an exam is created with only its id, exam and creator, so its code, validity and times keep their defaults while the freshly drawn code is what the supervisor is shown | the first OTP assigned to a published exam | the row stores the code returned, with its validity and times | high, not executed | ExamService.AssignOtpAsWritten, ExamService.AssignOtpFirstCodeLost | ExamService.AssignOtp, ExamService.AssignOtpStoresShownCode, ExamService.ExamStore.AssignOtpCode |
| backend/API/Services/StudentExamService.cs:366-374 | SubmitExam stores the score, times and client data of the scoring result but drops the status it returns, so the attempt keeps "in progress" after a submit | any submitted attempt | the submitted attempt takes the verdict the scoring returns and leaves the in-progress list | medium, not executed | StudentExamService.SubmitAsWritten, StudentExamService.SubmitAsWrittenStaysInProgress | StudentExamService.SubmitCorrected, StudentExamService.SubmitCorrectedListsVerdict, StudentExamService.StudentExamStore.SubmitExam |
| backend/API/Services/UserService.cs:233 | AddListUser stores the generated password itself, while login compares the stored value with the MD5 hash of what is typed | any imported user logging in with the generated password | the stored password is the hash, as everywhere else | high, not executed | AuthenticateService.ImportedPasswordNeverLogsIn | AuthenticateService.ImportedHashLogsIn, UserService.Hashed, UserService.UserStore.AddListUser |
| backend/API/Services/ClassesService.cs:96-98 | the log entry (lines 134-135) is chosen after the new class's id has been set, so a create is logged as an update | any new class | a create is logged as a create | high, not executed | ClassesService.LogEntryAsWritten, ClassesService.CreateLoggedAsUpdate | ClassesService.LogEntryFor, ClassesService.ClassStore.DoCreateUpdateClass |
| backend/API/Services/SubjectService.cs:104 | the same order in CreateUpdateSubject (log entry at lines 137-140): a new subject is logged as an update | any new subject | a create is logged as a create | high, not executed | SubjectService.LogEntryAsWritten, SubjectService.CreateLoggedAsUpdate | SubjectService.LogEntryFor, SubjectService.SubjectStore.CreateUpdateSubject |
| frontend/src/pages/teacher/manageexam/pages/AddNewExam.tsx:178-189 | moveQuestion checks only the target index, so a source index past the end inserts an undefined question | fromIndex 5 on a list of 3 questions | both indexes are checked and a move permutes the list | low, not executed | AddNewExam.MoveAsWritten, AddNewExam.MoveAsWrittenInsertsUndefined, AddNewExam.MoveAsWrittenExample | AddNewExam.Move, AddNewExam.MovePermutes, AddNewExam.MoveBack, AddNewExam.ExamDraft.MoveQuestion |
| frontend/src/pages/admin/viewFeedback/index.tsx:220-224 | the "to" calendar's rule joins its two tests with `??`, so once a "from" day is chosen the bound on future days is never applied | a "from" day today and a "to" day 30 days ahead | either test disables the day, as in the activity log's calendar | medium, not executed | FeedbackPage.ToDateDisabledAsWritten, FeedbackPage.AsWrittenAllowsFarFuture | FeedbackPage.ToDateDisabled, FeedbackPage.ToDateDisabledIntended |
| frontend/src/pages/teacher/managequestion/index.tsx:24-33 | the cached filters are restored with `||`, so a saved status 0 ("inactive") or "not my questions" (false) comes back as no filter | leave the page with the status filter on "inactive" and return | the saved filters come back as they were (`??`) | medium, not executed | ManageQuestionPage.RestoreAsWritten, ManageQuestionPage.RestoreAsWrittenDropsInactive | ManageQuestionPage.Restore, ManageQuestionPage.RestoreSaved, ManageQuestionPage.ReopenRestores, ManageQuestionPage.QuestionPage.constructor |

=== FILE: activity_log.dfy ===
/**
 The activity logs (Log.cs): user actions and exam-time events are written
 as rows, searched by keywords and filters, paged newest first, looked up
 by id and deleted in batches.
 */
module ActivityLog {
  import opened Common
  import opened Domain
  import Utils

  /** A row of the UserLogs table. */
  datatype UserLog = UserLog(logId: string, userId: string, actionType: Option<string>, objectId: Option<string>,
                             ipAddress: string, browserInfo: string, description: Option<string>, status: int,
                             metadata: Option<string>, createdAt: int)

  /** A row of the ExamLogs table; `screenshotPath` is the uploaded file's URL, "" when there was none. */
  datatype ExamLog = ExamLog(examLogId: string, studentExamId: string, userId: string, actionType: Option<string>,
                             description: Option<string>, screenshotPath: string, deviceId: Option<string>,
                             deviceUsername: Option<string>, ipAddress: string, browserInfo: string, logType: int,
                             metaData: Option<string>, createdAt: int)

  /** The columns of a log's user that the user-log search reads (a missing user reads as NULLs and no roles). */
  datatype LogUser = LogUser(userCode: Option<string>, fullName: Option<string>, roles: set<int>)

  datatype UserLogFilter = UserLogFilter(textSearch: Option<string>, userId: Option<string>, roleId: Option<int>,
                                         logStatus: Option<int>, fromDate: Option<int>, toDate: Option<int>,
                                         currentPage: int, pageSize: int)

  datatype ExamLogFilter = ExamLogFilter(studentExamId: Option<string>, textSearch: Option<string>,
                                         currentPage: int, pageSize: int)

  datatype AddUserLog = AddUserLog(userId: string, actionType: Option<string>, objectId: Option<string>,
                                   description: Option<string>, status: int, metadata: Option<string>)

  /** An exam log to write; `screenshotName` is the attached file's name, if any. */
  datatype AddExamLog = AddExamLog(studentExamId: string, userId: string, actionType: Option<string>,
                                   description: Option<string>, screenshotName: Option<string>,
                                   deviceId: Option<string>, deviceUsername: Option<string>, logType: int,
                                   metadata: Option<string>)

  /** What the request says about its client. */
  datatype Client = Client(forwardedFor: Option<string>, remoteIpv4: Option<string>, userAgent: string)

  const MsgNotInExam: string := "Student is not in a exam process."
  const MsgNoLogs: string := "No found any log"
  const MsgNoIds: string := "No log ids provided."
  const MsgNothingToDelete: string := "No logs found to delete."
  const MsgEmptyUserLogId: string := "Log ID cannot be null or empty"
  const MsgEmptyExamLogId: string := "Log Exam ID cannot be null or empty"
  const MsgLogNotFound: string := "Log not found"
  const ScreenshotFolder: string := "logs/"

  // ---------------------------------------------------------------- keywords

  predicate NonEmpty(s: string)
  {
    s != ""
  }

  function TrimAll(xs: seq<string>): (r: seq<string>)
    ensures |r| == |xs| && forall i | 0 <= i < |xs| :: r[i] == Trim(xs[i])
  {
    seq(|xs|, i requires 0 <= i < |xs| => Trim(xs[i]))
  }

  function LowerAll(xs: seq<string>): (r: seq<string>)
    ensures |r| == |xs| && forall i | 0 <= i < |xs| :: r[i] == Lower(xs[i])
  {
    seq(|xs|, i requires 0 <= i < |xs| => Lower(xs[i]))
  }

  /** The trimmed, non-empty pieces of a text split at spaces. */
  function Pieces(text: string): (r: seq<string>)
    ensures forall k | k in r :: k != "" && ' ' !in k
  {
    var pieces := Split(text, ' ');
    var kept := Filter(TrimAll(pieces), NonEmpty);
    var trimmed := TrimAll(pieces);
    forall k | k in kept ensures k != "" && ' ' !in k {
      assert k in trimmed;
      var j :| 0 <= j < |trimmed| && trimmed[j] == k;
      assert k == Trim(pieces[j]);
      assert ' ' !in pieces[j];
    }
    kept
  }

  /** Lower-casing keeps a character that is not a space off the space. */
  lemma LowerNoSpace(s: string)
    requires ' ' !in s
    ensures ' ' !in Lower(s)
  {
    forall i | 0 <= i < |s| ensures Lower(s)[i] != ' ' {
      assert s[i] in s;
    }
  }

  /** `Split(' ', RemoveEmptyEntries | TrimEntries).Select(x => x.ToLower())`. */
  function Keywords(text: string): (r: seq<string>)
    ensures forall k | k in r :: k != "" && ' ' !in k && Lower(k) == k
  {
    var kept := Pieces(text);
    var r := LowerAll(kept);
    forall i | 0 <= i < |r| ensures r[i] != "" && ' ' !in r[i] && Lower(r[i]) == r[i] {
      assert kept[i] in kept;
      LowerNoSpace(kept[i]);
      LowerTwice(kept[i]);
    }
    r
  }

  lemma LowerTwice(s: string)
    ensures Lower(Lower(s)) == Lower(s)
  {
  }

  /** A text splits into blank pieces around spaces exactly when it is blank. */
  lemma {:induction false} SplitBlank(s: string)
    ensures IsBlank(s) <==> forall p | p in Split(s, ' ') :: IsBlank(p)
    decreases |s|
  {
    var k := IndexOf(s, ' ');
    if k < |s| {
      var rest := Split(s[k + 1..], ' ');
      SplitBlank(s[k + 1..]);
      assert Split(s, ' ') == [s[..k]] + rest;
      assert forall p | p in Split(s, ' ') :: p == s[..k] || p in rest;
      assert IsBlank(s) <==> IsBlank(s[..k]) && IsBlank(s[k + 1..]) by {
        assert s == s[..k] + [' '] + s[k + 1..];
        assert forall i | 0 <= i < k :: s[i] == s[..k][i];
        assert forall i | k < i < |s| :: s[i] == s[k + 1..][i - k - 1];
      }
    }
  }

  /** A blank search text gives no keywords and any other text at least one, so the `keywords.Any()` test never fails. */
  lemma KeywordsEmptyIffBlank(text: string)
    ensures Keywords(text) == [] <==> IsBlank(text)
  {
    var pieces := Split(text, ' ');
    assert |Keywords(text)| == |Pieces(text)|;
    SplitBlank(text);
    FilterEmpty(TrimAll(pieces), NonEmpty);
    TrimAllBlank(pieces);
  }

  /** A lower-case word without spaces, trimmed, is its own only keyword. */
  lemma KeywordsOfWord(kw: string)
    requires kw != "" && ' ' !in kw && !IsSpace(kw[0]) && !IsSpace(kw[|kw| - 1]) && Lower(kw) == kw
    ensures Keywords(kw) == [kw]
  {
    assert IndexOf(kw, ' ') == |kw|;
    assert Split(kw, ' ') == [kw];
    TrimNoop(kw);
    assert TrimAll([kw]) == [kw];
    assert Filter([kw], NonEmpty) == [kw];
    assert Pieces(kw) == [kw];
  }

  /** Every piece trims to "" exactly when every piece is blank. */
  lemma TrimAllBlank(pieces: seq<string>)
    ensures (forall t | t in TrimAll(pieces) :: !NonEmpty(t)) <==> forall p | p in pieces :: IsBlank(p)
  {
    var trimmed := TrimAll(pieces);
    forall j | 0 <= j < |pieces| ensures trimmed[j] in trimmed && pieces[j] in pieces {}
  }

  /** Nothing passes the filter exactly when no element passes the test. */
  lemma {:induction false} FilterEmpty<T>(s: seq<T>, p: T -> bool)
    ensures Filter(s, p) == [] <==> forall x | x in s :: !p(x)
  {
    if s != [] {
      FilterEmpty(s[1..], p);
      assert forall x | x in s :: x == s[0] || x in s[1..];
    }
  }

  // ---------------------------------------------------------------- GetListUserLog

  /** `ContainsIgnoreCase` on a column: a NULL column never matches. */
  predicate FieldHas(field: Option<string>, kw: string)
  {
    field.Some? && ContainsIgnoreCase(field.value, kw)
  }

  /** The user a log belongs to, as the join sees it. */
  function UserOf(users: map<string, LogUser>, userId: string): (r: LogUser)
    ensures userId !in users ==> r.userCode.None? && r.fullName.None? && r.roles == {}
  {
    if userId in users then users[userId] else LogUser(None, None, {})
  }

  /** One keyword's test: the user's code or name, or the log's description or action type. */
  predicate UserKeywordHit(l: UserLog, u: LogUser, kw: string)
  {
    FieldHas(u.userCode, kw) || FieldHas(u.fullName, kw) || FieldHas(l.description, kw) || FieldHas(l.actionType, kw)
  }

  predicate AllKeywordsHit(l: UserLog, u: LogUser, keywords: seq<string>)
  {
    forall kw | kw in keywords :: UserKeywordHit(l, u, kw)
  }

  /**
   The search expression built keyword by keyword: no expression for no
   keywords, otherwise the conjunction of each keyword's disjunction,
   evaluated on one log.
   */
  method KeywordFilter(l: UserLog, u: LogUser, keywords: seq<string>) returns (matches: Option<bool>)
    ensures keywords == [] <==> matches.None?
    ensures matches.Some? ==> (matches.value <==> AllKeywordsHit(l, u, keywords))
  {
    matches := None;
    for i := 0 to |keywords|
      invariant i == 0 <==> matches.None?
      invariant matches.Some? ==> (matches.value <==> forall k | 0 <= k < i :: UserKeywordHit(l, u, keywords[k]))
    {
      var hit := FieldHas(u.userCode, keywords[i]) || FieldHas(u.fullName, keywords[i])
                 || FieldHas(l.description, keywords[i]) || FieldHas(l.actionType, keywords[i]);
      matches := if matches.None? then Some(hit) else Some(matches.value && hit);
    }
  }

  /** All of GetListUserLog's filters; both date bounds are inclusive. */
  predicate MatchesUserLog(l: UserLog, users: map<string, LogUser>, f: UserLogFilter)
  {
    (Utils.IsEmpty(f.textSearch) || AllKeywordsHit(l, UserOf(users, l.userId), Keywords(f.textSearch.value)))
    && (Utils.IsEmpty(f.userId) || l.userId == f.userId.value)
    && (f.roleId.None? || f.roleId.value in UserOf(users, l.userId).roles)
    && (f.logStatus.None? || l.status == f.logStatus.value)
    && (f.fromDate.None? || l.createdAt >= f.fromDate.value)
    && (f.toDate.None? || l.createdAt <= f.toDate.value)
  }

  /** With only a date range set, a log matches exactly when it lies in the closed range. */
  lemma DateRangeInclusive(l: UserLog, users: map<string, LogUser>, f: UserLogFilter)
    requires f.textSearch.None? && f.userId.None? && f.roleId.None? && f.logStatus.None?
    requires f.fromDate.Some? && f.toDate.Some?
    ensures MatchesUserLog(l, users, f) <==> f.fromDate.value <= l.createdAt <= f.toDate.value
  {
  }

  predicate UserLogBefore(a: UserLog, b: UserLog)
  {
    a.createdAt >= b.createdAt
  }

  lemma UserLogBeforeTotal()
    ensures TotalPreorder(UserLogBefore)
  {
  }

  /** GetListUserLog: newest first, one page; an empty page (also one past the end) gives the message. */
  function GetListUserLog(logs: seq<UserLog>, users: map<string, LogUser>, f: UserLogFilter): (r: (string, Listing<UserLog>))
    ensures var matching := Filter(logs, (l: UserLog) => MatchesUserLog(l, users, f));
      var page := PageOf(SortBy(matching, UserLogBefore), f.currentPage, f.pageSize);
      && (r.0 == MsgNoLogs <==> page == [])
      && (r.0 == "" ==> r.1.items == Some(page))
      && (matching == [] || f.pageSize <= 0 ==> r.0 == MsgNoLogs)
      && (r.0 != "" ==> r.0 == MsgNoLogs && r.1.items.None?)
      && (r.0 == "" ==>
            r.1.items.Some? && r.1.items.value != [] && r.1.total == |matching|
            && |r.1.items.value| <= f.pageSize
            && r.1.totalPage == PageCount(|matching|, f.pageSize)
            && (forall l | l in r.1.items.value :: l in logs && MatchesUserLog(l, users, f))
            && SortedBy(r.1.items.value, UserLogBefore))
  {
    var matching := Filter(logs, (l: UserLog) => MatchesUserLog(l, users, f));
    UserLogBeforeTotal();
    var page := SortedPage(matching, UserLogBefore, f.currentPage, f.pageSize);
    if page == [] then (MsgNoLogs, Listing(None, 0, 0, 0, 0))
    else ("", Listing(Some(page), PageCount(|matching|, f.pageSize), f.currentPage, f.pageSize, |matching|))
  }

  // ---------------------------------------------------------------- GetListExamLog

  /** The exam-log test for one keyword: a present description, action type or metadata containing it after lower-casing. */
  predicate ExamKeywordHit(l: ExamLog, kw: string)
  {
    (l.description.Some? && Contains(Lower(l.description.value), kw))
    || (l.actionType.Some? && Contains(Lower(l.actionType.value), kw))
    || (l.metaData.Some? && Contains(Lower(l.metaData.value), kw))
  }

  /** The attempt filter (ignored when null or "") and the keywords. */
  predicate MatchesExamLog(l: ExamLog, f: ExamLogFilter)
  {
    (IsNullOrEmpty(f.studentExamId) || l.studentExamId == f.studentExamId.value)
    && (Utils.IsEmpty(f.textSearch) || forall kw | kw in Keywords(f.textSearch.value) :: ExamKeywordHit(l, kw))
  }

  /** For the keywords a search produces, the two lists test a column the same way. */
  lemma SameColumnTest(text: string, field: Option<string>, kw: string)
    requires kw in Keywords(text)
    ensures FieldHas(field, kw) <==> field.Some? && Contains(Lower(field.value), kw)
  {
  }

  predicate ExamLogBefore(a: ExamLog, b: ExamLog)
  {
    a.createdAt >= b.createdAt
  }

  lemma ExamLogBeforeTotal()
    ensures TotalPreorder(ExamLogBefore)
  {
  }

  /** GetListExamLog: the message only when nothing matches at all; a page past the end is an empty success. */
  function GetListExamLog(logs: seq<ExamLog>, f: ExamLogFilter): (r: (string, Listing<ExamLog>))
    ensures var matching := Filter(logs, (l: ExamLog) => MatchesExamLog(l, f));
      && (r.0 == MsgNoLogs <==> matching == [])
      && (r.0 != MsgNoLogs ==> r.0 == "")
      && (r.0 == "" ==> r.1.items == Some(PageOf(SortBy(matching, ExamLogBefore), f.currentPage, f.pageSize)))
      && (r.0 == MsgNoLogs ==> r.1.items.None?)
      && (r.0 == "" ==>
            r.1.items.Some? && r.1.total == |matching| && r.1.totalPage == PageCount(|matching|, f.pageSize)
            && (forall l | l in r.1.items.value :: l in logs && MatchesExamLog(l, f))
            && SortedBy(r.1.items.value, ExamLogBefore))
  {
    var matching := Filter(logs, (l: ExamLog) => MatchesExamLog(l, f));
    ExamLogBeforeTotal();
    if matching == [] then (MsgNoLogs, Listing(None, 0, 0, 0, 0))
    else
      assert matching[0] in matching;
      var page := SortedPage(matching, ExamLogBefore, f.currentPage, f.pageSize);
      ("", Listing(Some(page), PageCount(|matching|, f.pageSize), f.currentPage, f.pageSize, |matching|))
  }

  /**
   Past the last page the two lists disagree: the exam-log list answers
   with an empty page, the user-log list with its "nothing found" message.
   */
  lemma PastLastPage(ul: UserLog, el: ExamLog)
    ensures var uf := UserLogFilter(None, None, None, None, None, None, 2, 1);
      GetListUserLog([ul], map[], uf).0 == MsgNoLogs
    ensures var ef := ExamLogFilter(None, None, 2, 1);
      GetListExamLog([el], ef) == ("", Listing(Some([]), 1, 2, 1, 1))
  {
    var uf := UserLogFilter(None, None, None, None, None, None, 2, 1);
    assert Filter([ul], (l: UserLog) => MatchesUserLog(l, map[], uf)) == [ul];
    UserLogBeforeTotal();
    assert SortBy([ul], UserLogBefore) == [ul];
    var ef := ExamLogFilter(None, None, 2, 1);
    assert Filter([el], (l: ExamLog) => MatchesExamLog(l, ef)) == [el];
    ExamLogBeforeTotal();
    assert SortBy([el], ExamLogBefore) == [el];
  }

  // ---------------------------------------------------------------- writing

  /** The exam-log guard: the sender must be the student of that attempt, and the attempt in progress. */
  function ExamWriteError(studentExams: seq<StudentExam>, input: AddExamLog): (r: Option<string>)
    ensures r.None? <==> exists se | se in studentExams ::
      se.id == input.studentExamId && se.studentId == input.userId && se.status == AttemptInProgress
    ensures r.Some? ==> r.value == MsgNotInExam
  {
    if exists se | se in studentExams :: se.id == input.studentExamId && se.studentId == input.userId
                                       && se.status == AttemptInProgress
    then None
    else Some(MsgNotInExam)
  }

  /** A submitted attempt can no longer be logged against. */
  lemma NoLogAfterSubmit(se: StudentExam, input: AddExamLog)
    requires se.id == input.studentExamId && se.studentId == input.userId && se.status == AttemptSubmitted
    ensures ExamWriteError([se], input) == Some(MsgNotInExam)
  {
  }

  /** The object key a screenshot is stored under. */
  function ScreenshotKey(studentExamId: string, fileName: string): (r: string)
    ensures IsPrefix(ScreenshotFolder, r) && IsSuffix(fileName, r)
  {
    ScreenshotFolder + "StudentId:_" + studentExamId + "/" + fileName
  }

  /** The log stores: user logs and exam logs in table order. */
  class LogStore {
    var userLogs: seq<UserLog>
    var examLogs: seq<ExamLog>

    constructor (userLogs: seq<UserLog>, examLogs: seq<ExamLog>)
      ensures this.userLogs == userLogs && this.examLogs == examLogs
    {
      this.userLogs := userLogs;
      this.examLogs := examLogs;
    }

    /** WriteActivity for a user action: nothing for a null record, otherwise a row with the client's address and browser. */
    method WriteActivity(input: Option<AddUserLog>, client: Client, newId: string, now: int) returns (message: string)
      modifies this
      ensures message == "" && examLogs == old(examLogs)
      ensures input.None? ==> userLogs == old(userLogs)
      ensures input.Some? ==>
        var a := input.value;
        userLogs == old(userLogs) + [UserLog(newId, a.userId, a.actionType, a.objectId,
                                             Utils.ClientIpAddress(client.forwardedFor, client.remoteIpv4),
                                             Utils.ClientBrowser(client.userAgent), a.description, a.status,
                                             a.metadata, now)]
    {
      if input.None? {
        return "";
      }
      var a := input.value;
      var row := UserLog(newId, a.userId, a.actionType, a.objectId,
                         Utils.ClientIpAddress(client.forwardedFor, client.remoteIpv4),
                         Utils.ClientBrowser(client.userAgent), a.description, a.status, a.metadata, now);
      userLogs := userLogs + [row];
      message := "";
    }

    /**
     WriteActivity for an exam event: refused unless the attempt is in
     progress; a screenshot is uploaded under its key first (`uploadedUrl`
     is the storage's answer) and its URL stored with the row.
     */
    method WriteExamActivity(input: Option<AddExamLog>, studentExams: seq<StudentExam>, client: Client,
                             uploadedUrl: string, newId: string, now: int)
      returns (message: string, uploadKey: Option<string>)
      modifies this
      ensures userLogs == old(userLogs)
      ensures input.None? ==> message == "" && uploadKey.None? && examLogs == old(examLogs)
      ensures input.Some? && ExamWriteError(studentExams, input.value).Some? ==>
        message == MsgNotInExam && uploadKey.None? && examLogs == old(examLogs)
      ensures input.Some? && ExamWriteError(studentExams, input.value).None? ==>
        var a := input.value;
        message == ""
        && uploadKey == (if a.screenshotName.Some? then Some(ScreenshotKey(a.studentExamId, a.screenshotName.value)) else None)
        && examLogs == old(examLogs) + [ExamLog(newId, a.studentExamId, a.userId, a.actionType, a.description,
                                                if a.screenshotName.Some? then uploadedUrl else "",
                                                a.deviceId, a.deviceUsername,
                                                Utils.ClientIpAddress(client.forwardedFor, client.remoteIpv4),
                                                Utils.ClientBrowser(client.userAgent), a.logType, a.metadata, now)]
    {
      if input.None? {
        return "", None;
      }
      var a := input.value;
      var err := ExamWriteError(studentExams, a);
      if err.Some? {
        return err.value, None;
      }
      var url := "";
      uploadKey := None;
      if a.screenshotName.Some? {
        uploadKey := Some(ScreenshotKey(a.studentExamId, a.screenshotName.value));
        url := uploadedUrl;
      }
      var row := ExamLog(newId, a.studentExamId, a.userId, a.actionType, a.description, url, a.deviceId,
                         a.deviceUsername, Utils.ClientIpAddress(client.forwardedFor, client.remoteIpv4),
                         Utils.ClientBrowser(client.userAgent), a.logType, a.metadata, now);
      examLogs := examLogs + [row];
      message := "";
    }

    // -------------------------------------------------------------- lookups

    /** GetLogUserById: a blank id is refused, an unknown one reported. */
    method GetLogUserById(id: Option<string>) returns (message: string, log: Option<UserLog>)
      ensures Utils.IsEmpty(id) ==> message == MsgEmptyUserLogId && log.None?
      ensures !Utils.IsEmpty(id) ==>
        var k := FirstWhere(userLogs, (l: UserLog) => l.logId == id.value);
        (k.None? ==> message == MsgLogNotFound && log.None?)
        && (k.Some? ==> message == "" && log == Some(userLogs[k.value]))
    {
      if Utils.IsEmpty(id) {
        return MsgEmptyUserLogId, None;
      }
      var k := FirstWhere(userLogs, (l: UserLog) => l.logId == id.value);
      if k.None? {
        return MsgLogNotFound, None;
      }
      message, log := "", Some(userLogs[k.value]);
    }

    /** GetLogExamById: as GetLogUserById, over exam logs. */
    method GetLogExamById(id: Option<string>) returns (message: string, log: Option<ExamLog>)
      ensures Utils.IsEmpty(id) ==> message == MsgEmptyExamLogId && log.None?
      ensures !Utils.IsEmpty(id) ==>
        var k := FirstWhere(examLogs, (l: ExamLog) => l.examLogId == id.value);
        (k.None? ==> message == MsgLogNotFound && log.None?)
        && (k.Some? ==> message == "" && log == Some(examLogs[k.value]))
    {
      if Utils.IsEmpty(id) {
        return MsgEmptyExamLogId, None;
      }
      var k := FirstWhere(examLogs, (l: ExamLog) => l.examLogId == id.value);
      if k.None? {
        return MsgLogNotFound, None;
      }
      message, log := "", Some(examLogs[k.value]);
    }

    // -------------------------------------------------------------- deleting

    /** DeleteUserLog: refuses a null or empty id list and a list that matches nothing; otherwise removes every listed log. */
    method DeleteUserLog(logIds: Option<seq<string>>) returns (message: string)
      modifies this
      ensures examLogs == old(examLogs)
      ensures (logIds.None? || logIds.value == []) ==> message == MsgNoIds && userLogs == old(userLogs)
      ensures logIds.Some? && logIds.value != [] && (forall l | l in old(userLogs) :: l.logId !in logIds.value) ==>
        message == MsgNothingToDelete && userLogs == old(userLogs)
      ensures logIds.Some? && logIds.value != [] && (exists l | l in old(userLogs) :: l.logId in logIds.value) ==>
        message == "" && userLogs == Filter(old(userLogs), (l: UserLog) => l.logId !in logIds.value)
    {
      if logIds.None? || logIds.value == [] {
        return MsgNoIds;
      }
      var ids := logIds.value;
      var doomed := Filter(userLogs, (l: UserLog) => l.logId in ids);
      if doomed == [] {
        return MsgNothingToDelete;
      }
      assert doomed[0] in doomed;
      userLogs := Filter(userLogs, (l: UserLog) => l.logId !in ids);
      message := "";
    }

    /**
     DeleteExamLog: only a list that matches nothing is refused. The removed
     logs' stored screenshots (the non-empty URLs, in table order) are the
     files deleted from storage.
     */
    method DeleteExamLog(logIds: seq<string>) returns (message: string, screenshots: seq<string>)
      modifies this
      ensures userLogs == old(userLogs)
      ensures (forall l | l in old(examLogs) :: l.examLogId !in logIds) ==>
        message == MsgNothingToDelete && screenshots == [] && examLogs == old(examLogs)
      ensures (exists l | l in old(examLogs) :: l.examLogId in logIds) ==>
        message == "" && examLogs == Filter(old(examLogs), (l: ExamLog) => l.examLogId !in logIds)
        && forall s :: s in screenshots <==> s != "" && exists l | l in old(examLogs) :: l.examLogId in logIds && l.screenshotPath == s
    {
      var doomed := Filter(examLogs, (l: ExamLog) => l.examLogId in logIds);
      if doomed == [] {
        return MsgNothingToDelete, [];
      }
      assert doomed[0] in doomed;
      screenshots := [];
      for i := 0 to |doomed|
        invariant forall s :: s in screenshots <==> s != "" && exists k | 0 <= k < i :: doomed[k].screenshotPath == s
      {
        if doomed[i].screenshotPath != "" {
          screenshots := screenshots + [doomed[i].screenshotPath];
        }
      }
      forall l | l in examLogs && l.examLogId in logIds ensures exists k | 0 <= k < |doomed| :: doomed[k] == l {
        assert l in doomed;
      }
      forall k | 0 <= k < |doomed| ensures doomed[k] in examLogs && doomed[k].examLogId in logIds {
        assert doomed[k] in doomed;
      }
      examLogs := Filter(examLogs, (l: ExamLog) => l.examLogId !in logIds);
      message := "";
    }
  }

  /** Deleting removes exactly the listed logs and keeps every other one. */
  lemma DeleteRemovesExactlyListed(logs: seq<UserLog>, ids: seq<string>)
    ensures var kept := Filter(logs, (l: UserLog) => l.logId !in ids);
      && (forall l | l in kept :: l.logId !in ids)
      && (forall l | l in logs && l.logId !in ids :: l in kept)
      && |kept| + |Filter(logs, (l: UserLog) => l.logId in ids)| == |logs|
  {
    FilterSplit(logs, ids);
  }

  lemma {:induction false} FilterSplit(logs: seq<UserLog>, ids: seq<string>)
    ensures |Filter(logs, (l: UserLog) => l.logId !in ids)| + |Filter(logs, (l: UserLog) => l.logId in ids)| == |logs|
  {
    if logs != [] {
      FilterSplit(logs[1..], ids);
    }
  }
}

=== FILE: activity_log_page.dfy ===
/**
 The administrator's activity log page (pages/admin/activitylog/index.tsx):
 the filters the log is fetched with, the handlers that move between pages
 and change the page size, the role choice, the date pickers' disabled days
 and the count of active users. The page list under the table is built by
 Pagination.BuildElidedPages.
 */
module ActivityLogPage {
  import opened Common
  import opened Pagination

  /** A value a filter bar can send for one of its keys. */
  datatype FilterValue = Text(s: string) | Number(n: int) | Flag(b: bool) | Unset

  /** One day in milliseconds; dates are instants in milliseconds. */
  const Day: int := 24 * 60 * 60 * 1000

  /** What the role select gives: null for "all users" (value 0), a role number, or NaN for text that is not a number. */
  datatype RoleChoice = AllRoles | Role(n: int) | NotANumber

  /** `Number(value)`: blank text is 0, a decimal integer its value, anything else NaN. */
  function NumberOf(value: string): Option<int>
  {
    if IsBlank(value) then Some(0) else ParseInt(value)
  }

  /** `Number(value) === 0 ? null : Number(value)`. */
  function RoleFromSelect(value: string): (r: RoleChoice)
    ensures r == AllRoles <==> NumberOf(value) == Some(0)
    ensures r == NotANumber <==> NumberOf(value).None?
    ensures r.Role? ==> NumberOf(value) == Some(r.n) && r.n != 0
  {
    match NumberOf(value)
    case None => NotANumber
    case Some(n) => if n == 0 then AllRoles else Role(n)
  }

  /** The "all users" entry and the role entries give back what they stand for. */
  lemma RoleSelectRoundTrip(role: nat)
    ensures RoleFromSelect("0") == AllRoles
    ensures role != 0 ==> RoleFromSelect(NatToString(role)) == Role(role)
  {
    ParseNatToString(0);
    assert NatToString(0) == "0";
    if role != 0 {
      ParseNatToString(role);
      assert !IsBlank(NatToString(role)) by {
        TrimDigits(NatToString(role));
      }
    }
  }

  /** A day is disabled in the "from" picker when it is after the chosen "to" day less one day, or in the future. */
  predicate FromDateDisabled(toDate: Option<int>, now: int, date: int)
  {
    (toDate.Some? && date > toDate.value - Day) || date > now
  }

  /** A day is disabled in the "to" picker when it is before the chosen "from" day plus one day, or more than a day ahead. */
  predicate ToDateDisabled(fromDate: Option<int>, now: int, date: int)
  {
    (fromDate.Some? && date < fromDate.value + Day) || date > now + Day
  }

  /** Whichever picker is used second, an enabled day keeps the "to" day at least a day after the "from" day, and neither is far in the future. */
  lemma PickedDatesOrdered(fromDate: int, toDate: int, now: int)
    ensures !FromDateDisabled(Some(toDate), now, fromDate) ==> fromDate + Day <= toDate && fromDate <= now
    ensures !ToDateDisabled(Some(fromDate), now, toDate) ==> fromDate + Day <= toDate && toDate <= now + Day
  {
  }

  /** activeUsers: the number of distinct user codes among the last 30 days' entries, 0 before they arrive. */
  function ActiveUsers(statsData: Option<seq<string>>): (r: nat)
    ensures statsData.None? ==> r == 0
    ensures statsData.Some? ==> r <= |statsData.value| && (statsData.value != [] ==> r >= 1)
  {
    if statsData.None? then 0
    else
      var codes := set i | 0 <= i < |statsData.value| :: statsData.value[i];
      CodesAtMost(statsData.value);
      assert statsData.value != [] ==> statsData.value[0] in codes;
      |codes|
  }

  /** A list has at most as many distinct elements as entries. */
  lemma {:induction false} CodesAtMost(s: seq<string>)
    ensures |set i | 0 <= i < |s| :: s[i]| <= |s|
  {
    if s != [] {
      var init := s[..|s| - 1];
      CodesAtMost(init);
      var a := set i | 0 <= i < |init| :: init[i];
      var b := set i | 0 <= i < |s| :: s[i];
      assert b == a + {s[|s| - 1]} by {
        forall x | x in b ensures x in a + {s[|s| - 1]} {
          var i :| 0 <= i < |s| && s[i] == x;
          if i < |s| - 1 {
            assert init[i] == x;
          }
        }
        forall x | x in a ensures x in b {
          var i :| 0 <= i < |init| && init[i] == x;
          assert s[i] == x;
        }
      }
    }
  }

  /** The log's filters. Role, dates and free filter keys narrow the log; the page fields page it. */
  class LogFilters {
    var fromDate: Option<int>
    var toDate: Option<int>
    var roleEnum: RoleChoice
    var pageSize: int
    var currentPage: int
    var textSearch: string
    var others: map<string, FilterValue>

    predicate Valid()
      reads this
    {
      currentPage >= 1
    }

    constructor ()
      ensures fromDate.None? && toDate.None? && roleEnum == AllRoles
      ensures pageSize == 10 && currentPage == 1 && textSearch == "" && others == map[]
      ensures Valid()
    {
      fromDate, toDate, roleEnum := None, None, AllRoles;
      pageSize, currentPage, textSearch := 10, 1, "";
      others := map[];
    }

    /** handlePageChange: only a page from 1 to totalPage is taken. */
    method HandlePageChange(page: int, totalPage: int)
      requires Valid()
      modifies this`currentPage
      ensures Valid()
      ensures currentPage == ChangePage(old(currentPage), page, totalPage)
    {
      if page > 0 && page <= totalPage {
        currentPage := page;
      }
    }

    /** handlePageSizeChange, with the chosen size already parsed: the new size, from page 1. */
    method HandlePageSizeChange(newPageSize: int)
      modifies this`pageSize, this`currentPage
      ensures pageSize == newPageSize && currentPage == 1
      ensures Valid()
    {
      pageSize := newPageSize;
      currentPage := 1;
    }

    /** The role select: its choice, from page 1. */
    method HandleRoleChange(value: string)
      modifies this`roleEnum, this`currentPage
      ensures roleEnum == RoleFromSelect(value) && currentPage == 1
      ensures Valid()
    {
      roleEnum := RoleFromSelect(value);
      currentPage := 1;
    }

    /** onFilterChange: the filter bar's values over the old ones, from page 1. */
    method HandleFilterChange(newFilters: map<string, FilterValue>)
      modifies this`others, this`currentPage
      ensures others == old(others) + newFilters && currentPage == 1
      ensures forall k | k in newFilters :: others[k] == newFilters[k]
      ensures forall k | k in old(others) && k !in newFilters :: others[k] == old(others)[k]
      ensures Valid()
    {
      others := others + newFilters;
      currentPage := 1;
    }

    /** onSearch: the search text (or "" when none is sent); the page is left as it is. */
    method HandleSearch(text: Option<string>)
      modifies this`textSearch
      ensures textSearch == OrEmpty(text)
    {
      textSearch := OrEmpty(text);
    }

    /** A day picked in the "from" calendar; the page is left as it is. */
    method PickFromDate(date: int)
      modifies this`fromDate
      ensures fromDate == Some(date)
    {
      fromDate := Some(date);
    }

    /** A day picked in the "to" calendar; the page is left as it is. */
    method PickToDate(date: int)
      modifies this`toDate
      ensures toDate == Some(date)
    {
      toDate := Some(date);
    }
  }
}

=== FILE: add_new_exam.dfy ===
/**
 The teacher's add/edit exam page (pages/teacher/manageexam/pages/AddNewExam.tsx):
 the list of chosen questions with its remove and move handlers, the ids sent
 with the exam, and the form's validation schema. Times are milliseconds and
 the current time is a parameter.
 */
module AddNewExam {
  import opened Common

  /** An entry of the chosen-question list. */
  datatype SelectedQuestion = SelectedQuestion(questionId: string, content: string, questionBankName: string)

  /** The ids of the chosen questions, in list order. */
  function QuestionIds(qs: seq<SelectedQuestion>): (r: seq<string>)
    ensures |r| == |qs| && forall i | 0 <= i < |r| :: r[i] == qs[i].questionId
  {
    seq(|qs|, i requires 0 <= i < |qs| => qs[i].questionId)
  }

  // ---------------------------------------------------------------- removing

  /** handleRemoveQuestion's updater: every entry with that id goes, the rest stay. */
  function WithoutQuestion(qs: seq<SelectedQuestion>, questionId: string): (r: seq<SelectedQuestion>)
    ensures |r| <= |qs|
    ensures forall q | q in r :: q in qs && q.questionId != questionId
    ensures forall q | q in qs && q.questionId != questionId :: q in r
  {
    Filter(qs, (q: SelectedQuestion) => q.questionId != questionId)
  }

  /** The remaining ids are the old ids with that id taken out, in their old order. */
  lemma {:induction false} WithoutKeepsOrder(qs: seq<SelectedQuestion>, questionId: string)
    ensures QuestionIds(WithoutQuestion(qs, questionId)) == Filter(QuestionIds(qs), (x: string) => x != questionId)
  {
    if qs != [] {
      var ids := QuestionIds(qs);
      var keep := (x: string) => x != questionId;
      var rest := WithoutQuestion(qs[1..], questionId);
      WithoutKeepsOrder(qs[1..], questionId);
      assert ids == [qs[0].questionId] + QuestionIds(qs[1..]);
      assert Filter(ids, keep) == (if keep(ids[0]) then [ids[0]] else []) + Filter(QuestionIds(qs[1..]), keep);
      if qs[0].questionId != questionId {
        assert WithoutQuestion(qs, questionId) == [qs[0]] + rest;
        QuestionIdsCons(qs[0], rest);
      } else {
        assert WithoutQuestion(qs, questionId) == rest;
      }
    }
  }

  lemma QuestionIdsCons(q: SelectedQuestion, qs: seq<SelectedQuestion>)
    ensures QuestionIds([q] + qs) == [q.questionId] + QuestionIds(qs)
  {
  }

  /** Removing an id that is not in the list changes nothing. */
  lemma {:induction false} WithoutAbsent(qs: seq<SelectedQuestion>, questionId: string)
    requires forall i | 0 <= i < |qs| :: qs[i].questionId != questionId
    ensures WithoutQuestion(qs, questionId) == qs
  {
    if qs != [] {
      WithoutAbsent(qs[1..], questionId);
      assert qs == [qs[0]] + qs[1..];
    }
  }

  /** Removing the same id twice is removing it once. */
  lemma WithoutIdempotent(qs: seq<SelectedQuestion>, questionId: string)
    ensures WithoutQuestion(WithoutQuestion(qs, questionId), questionId) == WithoutQuestion(qs, questionId)
  {
    var once := WithoutQuestion(qs, questionId);
    forall i | 0 <= i < |once| ensures once[i].questionId != questionId {
      assert once[i] in once;
    }
    WithoutAbsent(once, questionId);
  }

  // ---------------------------------------------------------------- moving

  function RemoveAt<T>(xs: seq<T>, i: nat): (r: seq<T>)
    requires i < |xs|
    ensures |r| == |xs| - 1
  {
    xs[..i] + xs[i + 1..]
  }

  function InsertAt<T>(xs: seq<T>, i: nat, v: T): (r: seq<T>)
    requires i <= |xs|
    ensures |r| == |xs| + 1 && r[i] == v
  {
    xs[..i] + [v] + xs[i..]
  }

  /** Taking out what was just put in gives the list back. */
  lemma RemoveInserted<T>(xs: seq<T>, i: nat, v: T)
    requires i <= |xs|
    ensures RemoveAt(InsertAt(xs, i, v), i) == xs
  {
    var ys := InsertAt(xs, i, v);
    assert ys[..i] == xs[..i] && ys[i + 1..] == xs[i..];
  }

  /** Putting back what was just taken out gives the list back. */
  lemma InsertRemoved<T>(xs: seq<T>, i: nat)
    requires i < |xs|
    ensures InsertAt(RemoveAt(xs, i), i, xs[i]) == xs
  {
    var ys := RemoveAt(xs, i);
    assert ys[..i] == xs[..i] && ys[i..] == xs[i + 1..];
  }

  /** The position `splice(start, ...)` starts at: negative starts count from the end, and both are clamped. */
  function SpliceStart(len: nat, start: int): (s: nat)
    ensures s <= len
    ensures 0 <= start <= len ==> s == start
  {
    if start < 0 then (if len + start < 0 then 0 else len + start)
    else if start > len then len else start
  }

  /**
   handleMoveQuestion as written, on a list whose entries may be `undefined`
   (None): only toIndex is checked; `splice(fromIndex, 1)` removes nothing when
   fromIndex is past the end, and the `undefined` it then yields is inserted.
   */
  function MoveAsWritten<T>(xs: seq<T>, from: int, to: int): (r: seq<Option<T>>)
    ensures to < 0 || to >= |xs| ==> |r| == |xs| && forall i | 0 <= i < |r| :: r[i] == Some(xs[i])
  {
    var lifted := seq(|xs|, i requires 0 <= i < |xs| => Some(xs[i]));
    if to < 0 || to >= |xs| then lifted
    else
      var s := SpliceStart(|xs|, from);
      var rest := if s < |xs| then RemoveAt(lifted, s) else lifted;
      var moved := if s < |xs| then Some(xs[s]) else None;
      InsertAt(rest, SpliceStart(|rest|, to), moved)
  }

  /** A fromIndex past the end grows the list by an `undefined` entry at toIndex. */
  lemma MoveAsWrittenInsertsUndefined<T>(xs: seq<T>, to: int)
    requires 0 <= to < |xs|
    ensures |MoveAsWritten(xs, |xs|, to)| == |xs| + 1
    ensures MoveAsWritten(xs, |xs|, to)[to] == None
  {
  }

  /** The same on a one-question list: moving from index 1 to index 0. */
  lemma MoveAsWrittenExample(q: SelectedQuestion)
    ensures MoveAsWritten([q], 1, 0) == [None, Some(q)]
  {
  }

  /** The move as intended: both indices must lie in the list, and the entry at fromIndex ends up at toIndex. */
  function Move<T>(xs: seq<T>, from: int, to: int): (r: seq<T>)
    ensures !(0 <= from < |xs| && 0 <= to < |xs|) ==> r == xs
    ensures 0 <= from < |xs| && 0 <= to < |xs| ==>
      |r| == |xs| && r[to] == xs[from] && RemoveAt(r, to) == RemoveAt(xs, from)
  {
    if 0 <= from < |xs| && 0 <= to < |xs| then
      var r := InsertAt(RemoveAt(xs, from), to, xs[from]);
      RemoveInserted(RemoveAt(xs, from), to, xs[from]);
      r
    else xs
  }

  /** Moving keeps the entries: the result is a permutation. */
  lemma MovePermutes<T>(xs: seq<T>, from: int, to: int)
    ensures multiset(Move(xs, from, to)) == multiset(xs)
  {
    if 0 <= from < |xs| && 0 <= to < |xs| {
      RemoveAtMultiset(xs, from);
      InsertAtMultiset(RemoveAt(xs, from), to, xs[from]);
    }
  }

  lemma RemoveAtMultiset<T>(xs: seq<T>, i: nat)
    requires i < |xs|
    ensures multiset(RemoveAt(xs, i)) + multiset{xs[i]} == multiset(xs)
  {
    assert xs == xs[..i] + [xs[i]] + xs[i + 1..];
  }

  lemma InsertAtMultiset<T>(xs: seq<T>, i: nat, v: T)
    requires i <= |xs|
    ensures multiset(InsertAt(xs, i, v)) == multiset(xs) + multiset{v}
  {
    assert xs == xs[..i] + xs[i..];
  }

  /** Moving back from toIndex to fromIndex undoes a move. */
  lemma MoveBack<T>(xs: seq<T>, from: int, to: int)
    ensures Move(Move(xs, from, to), to, from) == xs
  {
    if 0 <= from < |xs| && 0 <= to < |xs| {
      var m := Move(xs, from, to);
      InsertRemoved(xs, from);
      assert Move(m, to, from) == InsertAt(RemoveAt(m, to), from, m[to]);
    }
  }

  /** Each question of a list, as a present (non-undefined) entry. */
  function Lifted<T>(xs: seq<T>): (r: seq<Option<T>>)
    ensures |r| == |xs| && forall i | 0 <= i < |xs| :: r[i] == Some(xs[i])
  {
    seq(|xs|, i requires 0 <= i < |xs| => Some(xs[i]))
  }

  /** Removing an entry commutes with lifting the list. */
  lemma LiftedRemoveAt<T>(xs: seq<T>, i: nat)
    requires i < |xs|
    ensures RemoveAt(Lifted(xs), i) == Lifted(RemoveAt(xs, i))
  {
    var a := RemoveAt(Lifted(xs), i);
    var b := Lifted(RemoveAt(xs, i));
    forall k | 0 <= k < |a| ensures a[k] == b[k] {
      if k < i {
        assert a[k] == Lifted(xs)[k] && RemoveAt(xs, i)[k] == xs[k];
      } else {
        assert a[k] == Lifted(xs)[k + 1] && RemoveAt(xs, i)[k] == xs[k + 1];
      }
    }
  }

  /** Inserting an entry commutes with lifting the list. */
  lemma LiftedInsertAt<T>(xs: seq<T>, i: nat, v: T)
    requires i <= |xs|
    ensures InsertAt(Lifted(xs), i, Some(v)) == Lifted(InsertAt(xs, i, v))
  {
    var a := InsertAt(Lifted(xs), i, Some(v));
    var b := Lifted(InsertAt(xs, i, v));
    forall k | 0 <= k < |a| ensures a[k] == b[k] {
      if k < i {
        assert a[k] == Lifted(xs)[k] && InsertAt(xs, i, v)[k] == xs[k];
      } else if k > i {
        assert a[k] == Lifted(xs)[k - 1] && InsertAt(xs, i, v)[k] == xs[k - 1];
      }
    }
  }

  /** With both indices in the list, the code as written does the intended move. */
  lemma MoveAsWrittenAgrees<T>(xs: seq<T>, from: int, to: int)
    requires 0 <= from < |xs| && 0 <= to < |xs|
    ensures MoveAsWritten(xs, from, to) == seq(|xs|, i requires 0 <= i < |xs| => Some(Move(xs, from, to)[i]))
  {
    var lifted := seq(|xs|, i requires 0 <= i < |xs| => Some(xs[i]));
    assert lifted == Lifted(xs);
    assert MoveAsWritten(xs, from, to) == InsertAt(RemoveAt(Lifted(xs), from), to, Some(xs[from]));
    LiftedRemoveAt(xs, from);
    LiftedInsertAt(RemoveAt(xs, from), to, xs[from]);
    assert MoveAsWritten(xs, from, to) == Lifted(Move(xs, from, to));
  }

  // ---------------------------------------------------------------- the form

  /** The form's values; None is a value the user left empty. */
  datatype ExamForm = ExamForm(
    title: Option<string>, examType: Option<int>, duration: Option<int>,
    startTime: Option<int>, endTime: Option<int>, isShowCorrectAnswer: Option<bool>,
    status: Option<int>, isShowResult: Option<bool>, roomId: Option<string>, guideLines: Option<string>)

  /** A tag starts here: '<', at least one character other than '>', then a '>'. */
  predicate TagStart(s: string)
  {
    |s| >= 2 && s[0] == '<' && s[1] != '>' && '>' in s[1..]
  }

  /** `replace(/<[^>]+>/g, '')`: each tag, up to its first '>', is removed, scanning left to right. */
  function StripTags(s: string): (r: string)
    ensures |r| <= |s|
    ensures forall c | c in r :: c in s
    decreases |s|
  {
    if s == [] then []
    else if TagStart(s) then
      var close := 1 + IndexOf(s[1..], '>');
      StripTags(s[close + 1..])
    else [s[0]] + StripTags(s[1..])
  }

  /** No tag starts anywhere in s. */
  predicate TagFree(s: string)
  {
    forall i | 0 <= i < |s| :: !TagStart(s[i..])
  }

  /** A character in front of tag-free text leaves it tag-free unless a tag starts at that character. */
  lemma ConsTagFree(c: char, t: string)
    requires TagFree(t) && !TagStart([c] + t)
    ensures TagFree([c] + t)
  {
    var r := [c] + t;
    forall i | 1 <= i < |r| ensures !TagStart(r[i..]) {
      assert r[i..] == t[i - 1..];
    }
    assert r[0..] == r;
  }

  /** A leading '>' is never part of a tag, so it stays in front. */
  lemma StripKeepsLeadingClose(s: string)
    requires s != [] && s[0] == '>'
    ensures StripTags(s) != [] && StripTags(s)[0] == '>'
  {
  }

  /** What the stripping leaves contains no tag. */
  lemma {:induction false} StripTagsTagFree(s: string)
    ensures TagFree(StripTags(s))
    decreases |s|
  {
    if s != [] {
      if TagStart(s) {
        var close := 1 + IndexOf(s[1..], '>');
        StripTagsTagFree(s[close + 1..]);
      } else {
        var t := StripTags(s[1..]);
        StripTagsTagFree(s[1..]);
        assert StripTags(s) == [s[0]] + t;
        if s[0] == '<' && t != [] {
          if s[1..] != [] && s[1] == '>' {
            StripKeepsLeadingClose(s[1..]);
          } else {
            assert '>' !in s[1..];
            assert '>' !in t;
          }
        }
        ConsTagFree(s[0], t);
      }
    }
  }

  /** Text without tags is left as it is. */
  lemma {:induction false} StripTagFree(s: string)
    requires TagFree(s)
    ensures StripTags(s) == s
    decreases |s|
  {
    if s != [] {
      assert !TagStart(s[0..]) by { assert s[0..] == s; }
      assert TagFree(s[1..]) by {
        forall i | 0 <= i < |s[1..]| ensures !TagStart(s[1..][i..]) {
          assert s[1..][i..] == s[i + 1..];
        }
      }
      StripTagFree(s[1..]);
    }
  }

  /** Stripping twice strips nothing more. */
  lemma StripTagsIdempotent(s: string)
    ensures StripTags(StripTags(s)) == StripTags(s)
  {
    StripTagsTagFree(s);
    StripTagFree(StripTags(s));
  }

  /** The guidelines test: something other than white space is left once the tags are gone (absent counts as ''). */
  predicate GuideLinesFilled(guideLines: Option<string>)
  {
    |Trim(StripTags(OrEmpty(guideLines)))| > 0
  }

  /** The first failing rule of the end time: required, not before the start time, in the future. */
  function EndTimeError(startTime: Option<int>, endTime: Option<int>, now: int): (r: Option<string>)
    ensures r.None? <==> endTime.Some? && startTime.Some? && endTime.value >= startTime.value && endTime.value > now
  {
    if endTime.None? then Some("Thời gian kết thúc là bắt buộc")
    else if !(startTime.Some? && endTime.value >= startTime.value) then Some("Thời gian kết thúc phải sau thời gian bắt đầu")
    else if !(endTime.value > now) then Some("Thời gian kết thúc phải trong tương lai")
    else None
  }

  /** The first failing rule of the duration: required, at least 1. */
  function DurationError(duration: Option<int>): (r: Option<string>)
    ensures r.None? <==> duration.Some? && duration.value >= 1
  {
    if duration.None? then Some("Thời gian làm bài là bắt buộc")
    else if duration.value < 1 then Some("Thời gian làm bài phải lớn hơn 0")
    else None
  }

  /** A required text: absent or empty fails. */
  function RequiredText(v: Option<string>, message: string): (r: Option<string>)
    ensures r.None? <==> v.Some? && v.value != ""
  {
    if v.None? || v.value == "" then Some(message) else None
  }

  /** The validation schema: each field's message, for the fields that fail. */
  function ValidationErrors(f: ExamForm, now: int): (r: seq<string>)
    ensures r == [] <==>
      f.title.Some? && f.title.value != "" && f.examType.Some? && f.duration.Some? && f.duration.value >= 1
      && f.startTime.Some? && f.endTime.Some? && f.endTime.value >= f.startTime.value && f.endTime.value > now
      && f.isShowCorrectAnswer.Some? && f.status.Some? && f.isShowResult.Some?
      && f.roomId.Some? && f.roomId.value != "" && GuideLinesFilled(f.guideLines)
  {
    TimingErrors(f, now) + SettingErrors(f)
  }

  /** The messages of the title, type, duration and time fields, in field order. */
  function TimingErrors(f: ExamForm, now: int): (r: seq<string>)
    ensures r == [] <==>
      f.title.Some? && f.title.value != "" && f.examType.Some? && f.duration.Some? && f.duration.value >= 1
      && f.startTime.Some? && f.endTime.Some? && f.endTime.value >= f.startTime.value && f.endTime.value > now
  {
    MessageOf(RequiredText(f.title, "Tiêu đề bài thi là bắt buộc"))
    + MessageOf(if f.examType.None? then Some("Loại bài thi là bắt buộc") else None)
    + MessageOf(DurationError(f.duration))
    + MessageOf(if f.startTime.None? then Some("Thời gian bắt đầu là bắt buộc") else None)
    + MessageOf(EndTimeError(f.startTime, f.endTime, now))
  }

  /** The messages of the display settings, the status, the room and the guidelines, in field order. */
  function SettingErrors(f: ExamForm): (r: seq<string>)
    ensures r == [] <==>
      f.isShowCorrectAnswer.Some? && f.status.Some? && f.isShowResult.Some?
      && f.roomId.Some? && f.roomId.value != "" && GuideLinesFilled(f.guideLines)
  {
    MessageOf(if f.isShowCorrectAnswer.None? then Some("Trạng thái hiển thị đáp án đúng là bắt buộc") else None)
    + MessageOf(if f.status.None? then Some("Trạng thái bài thi là bắt buộc") else None)
    + MessageOf(if f.isShowResult.None? then Some("Trạng thái hiển thị kết quả là bắt buộc") else None)
    + MessageOf(RequiredText(f.roomId, "Phòng học là bắt buộc"))
    + MessageOf(if GuideLinesFilled(f.guideLines) then None else Some("Hướng dẫn không được để trống"))
  }

  /** A failing check's message, or nothing. */
  function MessageOf(check: Option<string>): (r: seq<string>)
    ensures r == [] <==> check.None?
  {
    if check.Some? then [check.value] else []
  }

  /** Guidelines made only of markup and white space are refused. */
  lemma MarkupOnlyGuideLines()
    ensures !GuideLinesFilled(Some("<p> </p>"))
  {
    var s := "<p> </p>";
    assert TagStart(s) && IndexOf(s[1..], '>') == 1;
    assert s[3..] == " </p>";
    assert !TagStart(s[3..]) && StripTags(s[3..]) == " " + StripTags(s[4..]);
    assert TagStart(s[4..]) && IndexOf(s[5..], '>') == 2;
    assert s[4..][4..] == [];
    assert StripTags(s) == " ";
    BlankIff(" ");
  }

  /** The exam sent: the form's values with the chosen bank and the ids of the chosen questions, in order. */
  datatype ExamRequest = ExamRequest(form: ExamForm, questionBankId: string, questionIds: seq<string>)

  /** The page's state: the chosen bank and the chosen questions. */
  class ExamDraft {
    var selectedQuestions: seq<SelectedQuestion>
    var selectedQuestionBankId: string

    constructor ()
      ensures selectedQuestions == [] && selectedQuestionBankId == ""
    {
      selectedQuestions := [];
      selectedQuestionBankId := "";
    }

    /** handleQuestionBankSubmit: the dialog's bank and questions replace the current ones. */
    method QuestionBankSubmit(questionBankId: string, questions: seq<SelectedQuestion>)
      modifies this
      ensures selectedQuestionBankId == questionBankId && selectedQuestions == questions
    {
      selectedQuestionBankId := questionBankId;
      selectedQuestions := questions;
    }

    /** handleRemoveQuestion. */
    method RemoveQuestion(questionId: string)
      modifies this`selectedQuestions
      ensures selectedQuestions == WithoutQuestion(old(selectedQuestions), questionId)
    {
      selectedQuestions := WithoutQuestion(selectedQuestions, questionId);
    }

    /** handleMoveQuestion, with fromIndex checked as toIndex is. */
    method MoveQuestion(fromIndex: int, toIndex: int)
      modifies this`selectedQuestions
      ensures selectedQuestions == Move(old(selectedQuestions), fromIndex, toIndex)
      ensures multiset(selectedQuestions) == multiset(old(selectedQuestions))
    {
      MovePermutes(selectedQuestions, fromIndex, toIndex);
      selectedQuestions := Move(selectedQuestions, fromIndex, toIndex);
    }

    /** handleSubmitAddNewExam: the request for a form that passed validation. */
    function Request(values: ExamForm): (r: ExamRequest)
      reads this
      ensures r.form == values && r.questionBankId == selectedQuestionBankId
      ensures |r.questionIds| == |selectedQuestions|
      ensures forall i | 0 <= i < |selectedQuestions| :: r.questionIds[i] == selectedQuestions[i].questionId
    {
      ExamRequest(values, selectedQuestionBankId, QuestionIds(selectedQuestions))
    }
  }
}

=== FILE: add_question.dfy ===
/**
 The teacher's add/edit question page (pages/teacher/addquestion/index.tsx):
 the answer rows loaded from a stored question, the duplicate-answer test,
 the gates of the three-step wizard, and the question record sent on
 submission. The maximum content length is a parameter of the page; the
 upload of the image and the request itself are left out.
 */
module AddQuestion {
  import opened Common

  /** One row of the multiple-choice editor. */
  datatype ChoiceOption = ChoiceOption(id: string, text: string, isCorrect: bool)

  /** The question type chosen in step 1: the `essay` and `multipleChoice` values, or any other. */
  datatype QuestionType = Essay | MultipleChoice | OtherType

  /** The stored question the page is opened with when editing. */
  datatype StoredQuestion = StoredQuestion(
    questionBankId: Option<string>, subjectId: Option<string>, content: Option<string>,
    options: seq<string>, correctAnswer: Option<string>)

  /** The record handed to the add or edit request. */
  datatype NewQuestion = NewQuestion(
    questionBankId: string, subjectId: string, content: string, typeCode: int,
    options: seq<string>, correctAnswer: string)

  const EssayAnswer: string := "không có"
  const MsgDuplicateKey: string := "AddQuestion.AnswerNotDuplicate"

  /** The error shown when step 1 is left with too long a content. */
  function MsgTooLong(maxLength: nat): string
  {
    "Nội dung câu hỏi không được vượt quá " + NatToString(maxLength) + " ký tự"
  }

  /** The row id for position `index`: `option-1`, `option-2`, ... */
  function OptionId(index: nat): string
  {
    "option-" + NatToString(index + 1)
  }

  /** Different positions get different row ids. */
  lemma OptionIdInjective(i: nat, j: nat)
    requires i != j
    ensures OptionId(i) != OptionId(j)
  {
    if OptionId(i) == OptionId(j) {
      PrefixCancels("option-", NatToString(i + 1), NatToString(j + 1));
      NatToStringInjective(i + 1, j + 1);
    }
  }

  /** Different numbers are written differently. */
  lemma NatToStringInjective(m: nat, n: nat)
    requires NatToString(m) == NatToString(n)
    ensures m == n
  {
    DigitsOfNat(m);
    DigitsOfNat(n);
  }

  /** Texts that agree after the same prefix agree. */
  lemma PrefixCancels(p: string, a: string, b: string)
    requires p + a == p + b
    ensures a == b
  {
    assert a == (p + a)[|p|..];
    assert b == (p + b)[|p|..];
  }

  // ---------------------------------------------------------------- loading the rows

  /** The four empty rows of a new question, the first one marked correct. */
  function BlankOptions(): (r: seq<ChoiceOption>)
    ensures |r| == 4
    ensures forall i | 0 <= i < 4 :: r[i].text == "" && (r[i].isCorrect <==> i == 0)
  {
    [ChoiceOption("option-1", "", true), ChoiceOption("option-2", "", false),
     ChoiceOption("option-3", "", false), ChoiceOption("option-4", "", false)]
  }

  /** The blank rows carry the ids of their positions. */
  lemma BlankOptionIds()
    ensures forall i | 0 <= i < 4 :: BlankOptions()[i].id == OptionId(i)
  {
    assert NatToString(1) == "1" && NatToString(2) == "2";
    assert NatToString(3) == "3" && NatToString(4) == "4";
  }

  /** The row for the stored answer text at position i. */
  function LoadedOption(i: nat, text: string, correctAnswer: Option<string>): (r: ChoiceOption)
    ensures r.id == OptionId(i) && r.text == text
    ensures r.isCorrect <==> correctAnswer == Some(text)
  {
    ChoiceOption(OptionId(i), text, correctAnswer == Some(text))
  }

  /** convertApiToState: blank rows when there are no stored answers, otherwise one row per answer. */
  function ConvertApiToState(options: Option<seq<string>>, correctAnswer: Option<string>): (r: seq<ChoiceOption>)
    ensures options.None? || options.value == [] ==> r == BlankOptions()
    ensures options.Some? && options.value != [] ==>
      |r| == |options.value| && forall i | 0 <= i < |r| :: r[i] == LoadedOption(i, options.value[i], correctAnswer)
  {
    if options.None? || options.value == [] then BlankOptions()
    else seq(|options.value|, i requires 0 <= i < |options.value| => LoadedOption(i, options.value[i], correctAnswer))
  }

  /** The answer texts of the rows, as the request sends them. */
  function Texts(rows: seq<ChoiceOption>): (r: seq<string>)
    ensures |r| == |rows| && forall i | 0 <= i < |r| :: r[i] == rows[i].text
  {
    seq(|rows|, i requires 0 <= i < |rows| => rows[i].text)
  }

  function Ids(rows: seq<ChoiceOption>): (r: seq<string>)
    ensures |r| == |rows| && forall i | 0 <= i < |r| :: r[i] == rows[i].id
  {
    seq(|rows|, i requires 0 <= i < |rows| => rows[i].id)
  }

  /** Loading stored answers and sending the rows back gives the stored answers. */
  lemma ConvertKeepsTexts(options: seq<string>, correctAnswer: Option<string>)
    requires options != []
    ensures Texts(ConvertApiToState(Some(options), correctAnswer)) == options
  {
  }

  /** The loaded rows have distinct ids. */
  lemma ConvertIdsDistinct(options: Option<seq<string>>, correctAnswer: Option<string>)
    ensures NoDup(Ids(ConvertApiToState(options, correctAnswer)))
  {
    var ids := Ids(ConvertApiToState(options, correctAnswer));
    BlankOptionIds();
    forall i, j | 0 <= i < j < |ids| ensures ids[i] != ids[j] {
      OptionIdInjective(i, j);
    }
  }

  // ---------------------------------------------------------------- the encodings sent

  /** The numeric type sent: essay 0, multiple choice 1, anything else 2. */
  function TypeCode(t: QuestionType): (r: int)
    ensures 0 <= r <= 2
  {
    if t == Essay then 0 else if t == MultipleChoice then 1 else 2
  }

  /** Different types are sent as different codes. */
  lemma TypeCodeInjective(a: QuestionType, b: QuestionType)
    requires TypeCode(a) == TypeCode(b)
    ensures a == b
  {
  }

  /** The correct answer sent: a fixed text for an essay, the first row marked correct for multiple choice, else empty. */
  function CorrectAnswerFor(t: QuestionType, rows: seq<ChoiceOption>): (r: string)
    ensures t == Essay ==> r == EssayAnswer
    ensures t == OtherType ==> r == ""
    ensures t == MultipleChoice ==>
      (exists i | 0 <= i < |rows| :: rows[i].isCorrect && r == rows[i].text
                                     && forall j | 0 <= j < i :: !rows[j].isCorrect)
      || (r == "" && forall i | 0 <= i < |rows| :: !rows[i].isCorrect)
  {
    if t == Essay then EssayAnswer
    else if t == MultipleChoice then
      match FirstWhere(rows, (o: ChoiceOption) => o.isCorrect)
      case Some(k) => rows[k].text
      case None => ""
    else ""
  }

  /**
   Editing a multiple-choice question without touching its rows sends back the
   stored correct answer when it is one of the answers, and '' when it is not.
   */
  lemma ConvertKeepsCorrectAnswer(options: seq<string>, correct: string)
    requires options != []
    ensures CorrectAnswerFor(MultipleChoice, ConvertApiToState(Some(options), Some(correct)))
            == if correct in options then correct else ""
  {
    var rows := ConvertApiToState(Some(options), Some(correct));
    var r := CorrectAnswerFor(MultipleChoice, rows);
    if correct in options {
      var k :| 0 <= k < |options| && options[k] == correct;
      assert rows[k].isCorrect;
    } else {
      forall i | 0 <= i < |rows| ensures !rows[i].isCorrect {
        assert options[i] in options;
      }
    }
  }

  /** A new question's blank rows send an empty correct answer: the marked row has no text. */
  lemma BlankCorrectAnswer()
    ensures CorrectAnswerFor(MultipleChoice, BlankOptions()) == ""
  {
    assert BlankOptions()[0].isCorrect;
  }

  // ---------------------------------------------------------------- duplicate answers

  /** The trimmed answer texts. */
  function TrimmedTexts(rows: seq<ChoiceOption>): (r: seq<string>)
    ensures |r| == |rows| && forall i | 0 <= i < |r| :: r[i] == Trim(rows[i].text)
  {
    seq(|rows|, i requires 0 <= i < |rows| => Trim(rows[i].text))
  }

  function NonEmptyTexts(rows: seq<ChoiceOption>): seq<string>
  {
    Filter(TrimmedTexts(rows), (t: string) => |t| > 0)
  }

  /** hasDuplicateOptions: the set of non-empty trimmed texts is smaller than their list. */
  predicate HasDuplicateOptions(rows: seq<ChoiceOption>)
  {
    var texts := NonEmptyTexts(rows);
    |set t | t in texts| != |texts|
  }

  /** Two rows whose trimmed texts are equal and not empty. */
  predicate RepeatedAnswer(rows: seq<ChoiceOption>)
  {
    exists i, j | 0 <= i < j < |rows| :: Trim(rows[i].text) != "" && Trim(rows[i].text) == Trim(rows[j].text)
  }

  /** hasDuplicateOptions holds exactly when two rows have the same non-empty trimmed text. */
  lemma DuplicateOptionsIff(rows: seq<ChoiceOption>)
    ensures HasDuplicateOptions(rows) <==> RepeatedAnswer(rows)
  {
    var trimmed := TrimmedTexts(rows);
    var nonEmpty := (t: string) => |t| > 0;
    SetSizeNoDup(NonEmptyTexts(rows));
    FilterNoDupIff(trimmed, nonEmpty);
    if RepeatedAnswer(rows) {
      var i, j :| 0 <= i < j < |rows| && Trim(rows[i].text) != "" && Trim(rows[i].text) == Trim(rows[j].text);
      assert nonEmpty(trimmed[i]) && trimmed[i] == trimmed[j];
    }
  }

  // ---------------------------------------------------------------- the wizard gates

  /** canProceedFromStep1: a bank is chosen and the content is not blank and not over the limit. */
  predicate CanProceedFromStep1(bank: string, content: string, maxLength: nat)
  {
    bank != "" && |Trim(content)| > 0 && |content| <= maxLength
  }

  /** canProceedFromStep2: a subject is chosen, and multiple choice needs every answer filled in and none repeated. */
  predicate CanProceedFromStep2(subject: string, t: QuestionType, rows: seq<ChoiceOption>)
  {
    subject != "" &&
    (t == MultipleChoice ==> (forall i | 0 <= i < |rows| :: |Trim(rows[i].text)| > 0) && !HasDuplicateOptions(rows))
  }

  /** Passing step 2 with multiple choice means the answers are filled in and pairwise different. */
  lemma Step2Answers(subject: string, rows: seq<ChoiceOption>)
    ensures CanProceedFromStep2(subject, MultipleChoice, rows) <==>
      subject != "" && (forall i | 0 <= i < |rows| :: Trim(rows[i].text) != "")
      && forall i, j | 0 <= i < j < |rows| :: Trim(rows[i].text) != Trim(rows[j].text)
  {
    DuplicateOptionsIff(rows);
  }

  /**
   The duplicate check handleNext repeats after step 2's gate never fires: the
   gate has already excluded repeated answers.
   */
  lemma DuplicateCheckAfterGate(subject: string, t: QuestionType, rows: seq<ChoiceOption>)
    requires CanProceedFromStep2(subject, t, rows)
    ensures !(t == MultipleChoice && HasDuplicateOptions(rows))
  {
  }

  /** The question type the page starts with: multiple choice for a new question, else by whether it has answers. */
  function InitialType(question: Option<StoredQuestion>): (r: QuestionType)
    ensures r == Essay <==> question.Some? && question.value.options == []
    ensures r != OtherType
  {
    if question.None? then MultipleChoice
    else if |question.value.options| != 0 then MultipleChoice else Essay
  }

  /** The page's state: the wizard step and the values the steps collect. */
  class QuestionEditor {
    var currentStep: int
    var selectedBank: string
    var questionType: QuestionType
    var content: string
    var options: seq<ChoiceOption>
    var subject: string
    const maxLength: nat

    /** The wizard is on one of its three steps. */
    predicate Valid()
      reads this
    {
      1 <= currentStep <= 3
    }

    /** The initial state, from the question being edited if there is one. */
    constructor (question: Option<StoredQuestion>, maxLength: nat)
      ensures Valid() && currentStep == 1 && this.maxLength == maxLength
      ensures selectedBank == (if question.Some? then OrEmpty(question.value.questionBankId) else "")
      ensures subject == (if question.Some? then OrEmpty(question.value.subjectId) else "")
      ensures content == (if question.Some? then OrEmpty(question.value.content) else "")
      ensures questionType == InitialType(question)
      ensures options == (if question.Some? then ConvertApiToState(Some(question.value.options), question.value.correctAnswer)
                          else ConvertApiToState(None, None))
    {
      currentStep := 1;
      this.maxLength := maxLength;
      selectedBank := if question.Some? then OrEmpty(question.value.questionBankId) else "";
      subject := if question.Some? then OrEmpty(question.value.subjectId) else "";
      content := if question.Some? then OrEmpty(question.value.content) else "";
      questionType := InitialType(question);
      options := if question.Some? then ConvertApiToState(Some(question.value.options), question.value.correctAnswer)
                 else ConvertApiToState(None, None);
    }

    /** The record addNewQuestion sends for the current state. */
    function Payload(): (r: NewQuestion)
      reads this
      ensures r.typeCode == TypeCode(questionType) && r.options == Texts(options)
      ensures r.correctAnswer == CorrectAnswerFor(questionType, options)
      ensures r.questionBankId == selectedBank && r.subjectId == subject && r.content == content
    {
      NewQuestion(selectedBank, subject, content, TypeCode(questionType), Texts(options),
                  CorrectAnswerFor(questionType, options))
    }

    /**
     handleNext: step 1 moves on when its gate holds; step 2 submits and moves to
     step 3 when its gate holds; step 1 with too long a content shows an error.
     */
    method HandleNext() returns (error: Option<string>, submitted: Option<NewQuestion>)
      modifies this`currentStep
      ensures old(Valid()) ==> Valid()
      ensures old(currentStep) == 1 && CanProceedFromStep1(selectedBank, content, maxLength) ==>
        currentStep == 2 && error.None? && submitted.None?
      ensures old(currentStep) == 2 && CanProceedFromStep2(subject, questionType, options) ==>
        currentStep == 3 && error.None? && submitted == Some(Payload())
      ensures old(currentStep) == 1 && !CanProceedFromStep1(selectedBank, content, maxLength) && |content| > maxLength ==>
        currentStep == 1 && error == Some(MsgTooLong(maxLength)) && submitted.None?
      ensures (!(old(currentStep) == 1 && (CanProceedFromStep1(selectedBank, content, maxLength) || |content| > maxLength))
               && !(old(currentStep) == 2 && CanProceedFromStep2(subject, questionType, options))) ==>
        currentStep == old(currentStep) && error.None? && submitted.None?
    {
      error, submitted := None, None;
      if currentStep == 1 && CanProceedFromStep1(selectedBank, content, maxLength) {
        currentStep := 2;
      } else if currentStep == 2 && CanProceedFromStep2(subject, questionType, options) {
        submitted := Some(Payload());
        currentStep := 3;
      } else if currentStep == 1 && |content| > maxLength {
        error := Some(MsgTooLong(maxLength));
      }
    }

    /** handleBack: one step back, never before step 1. */
    method HandleBack()
      modifies this`currentStep
      ensures old(Valid()) ==> Valid()
      ensures old(currentStep) > 1 ==> currentStep == old(currentStep) - 1
      ensures old(currentStep) <= 1 ==> currentStep == old(currentStep)
    {
      if currentStep > 1 {
        currentStep := currentStep - 1;
      }
    }

    /** handleQuestionContentChange: an edit longer than the limit is refused and the content kept. */
    method HandleContentChange(newContent: string) returns (refused: bool)
      modifies this`content
      ensures refused <==> |newContent| > maxLength
      ensures !refused ==> content == newContent
      ensures refused ==> content == old(content)
      ensures |old(content)| <= maxLength ==> |content| <= maxLength
    {
      refused := |newContent| > maxLength;
      if !refused {
        content := newContent;
      }
    }

    /** handleCreateNew: back to step 1 with an empty new multiple-choice question. */
    method HandleCreateNew()
      modifies this`currentStep, this`selectedBank, this`questionType, this`content, this`options, this`subject
      ensures Valid() && currentStep == 1
      ensures selectedBank == "" && subject == "" && content == ""
      ensures questionType == InitialType(None) && options == ConvertApiToState(None, None)
    {
      currentStep := 1;
      selectedBank := "";
      questionType := MultipleChoice;
      content := "";
      options := BlankOptions();
      subject := "";
    }
  }
}

=== FILE: add_student_dialog.dfy ===
/**
 The dialog that adds students to a room
 (pages/admin/manageroom/dialogs/DialogAddStudentToRoom.tsx): the student
 list grows page by page as "load more" is pressed, a new search or page size
 starts it again, the checkboxes collect the chosen ids, and the form needs
 at least one of them.
 */
module AddStudentDialog {
  import opened Common
  import Selection

  /** A student row as the user list returns it. */
  datatype Student = Student(userId: string, fullName: string, userCode: Option<string>, major: Option<string>)

  function UserId(s: Student): string
  {
    s.userId
  }

  const MsgNoStudent: string := "Vui lòng chọn ít nhất 1 học sinh"

  /** The rows of `data` whose id the list does not hold yet, in order. */
  function Unseen(prev: seq<Student>, data: seq<Student>): (r: seq<Student>)
    ensures forall s | s in r :: s in data && !HasKey(prev, UserId, s.userId)
    ensures forall s | s in data && !HasKey(prev, UserId, s.userId) :: s in r
  {
    Filter(data, (n: Student) => !HasKey(prev, UserId, n.userId))
  }

  /**
   A page of students arriving: nothing happens for an empty page; the first
   page replaces the list; a later page appends the students not yet listed.
   */
  function MergePage(prev: seq<Student>, data: seq<Student>, currentPage: int): (r: seq<Student>)
    ensures data == [] ==> r == prev
    ensures data != [] && currentPage == 1 ==> r == data
    ensures data != [] && currentPage != 1 ==> r == prev + Unseen(prev, data)
  {
    if data == [] then prev
    else if currentPage == 1 then data
    else prev + Unseen(prev, data)
  }

  /** After a later page arrives the list holds exactly the ids it held and the ids of the page. */
  lemma MergeKeys(prev: seq<Student>, data: seq<Student>, currentPage: int, k: string)
    requires currentPage != 1
    ensures HasKey(MergePage(prev, data, currentPage), UserId, k) <==> HasKey(prev, UserId, k) || HasKey(data, UserId, k)
  {
    var r := MergePage(prev, data, currentPage);
    var u := Unseen(prev, data);
    if data != [] {
      assert r == prev + u;
      if HasKey(prev, UserId, k) {
        var i :| 0 <= i < |prev| && prev[i].userId == k;
        assert r[i] == prev[i];
      }
      if HasKey(data, UserId, k) && !HasKey(prev, UserId, k) {
        var i :| 0 <= i < |data| && data[i].userId == k;
        assert data[i] in data;
        var j :| 0 <= j < |u| && u[j] == data[i];
        assert r[|prev| + j] == u[j];
      }
      if HasKey(r, UserId, k) && !HasKey(prev, UserId, k) {
        var i :| 0 <= i < |r| && r[i].userId == k;
        if i < |prev| {
          assert r[i] == prev[i];
        } else {
          assert r[i] == u[i - |prev|];
          assert u[i - |prev|] in u;
          var j :| 0 <= j < |data| && data[j] == u[i - |prev|];
        }
      }
    }
  }

  /** Filtering keeps ids unique. */
  lemma {:induction false} FilterKeysUnique<T>(s: seq<T>, p: T -> bool, key: T -> string)
    requires KeysUnique(s, key)
    ensures KeysUnique(Filter(s, p), key)
  {
    if s != [] {
      FilterKeysUnique(s[1..], p, key);
      var rest := Filter(s[1..], p);
      if p(s[0]) {
        var r := [s[0]] + rest;
        forall i, j | 0 <= i < j < |r| ensures key(r[i]) != key(r[j]) {
          assert r[j] == rest[j - 1];
          assert rest[j - 1] in s[1..];
          var m :| 0 <= m < |s[1..]| && s[1..][m] == rest[j - 1];
          assert s[m + 1] == rest[j - 1];
          if i > 0 {
            assert r[i] == rest[i - 1];
          }
        }
      }
    }
  }

  /** With pages that list each student once, the merged list never lists a student twice. */
  lemma MergeKeepsUnique(prev: seq<Student>, data: seq<Student>, currentPage: int)
    requires KeysUnique(prev, UserId) && KeysUnique(data, UserId)
    ensures KeysUnique(MergePage(prev, data, currentPage), UserId)
  {
    if data != [] && currentPage != 1 {
      var u := Unseen(prev, data);
      FilterKeysUnique(data, (n: Student) => !HasKey(prev, UserId, n.userId), UserId);
      var r := prev + u;
      forall i, j | 0 <= i < j < |r| ensures r[i].userId != r[j].userId {
        if j >= |prev| {
          assert r[j] == u[j - |prev|];
          assert u[j - |prev|] in u;
          if i < |prev| {
            assert r[i] == prev[i];
          } else {
            assert r[i] == u[i - |prev|];
          }
        } else {
          assert r[i] == prev[i] && r[j] == prev[j];
        }
      }
    }
  }

  /** handleLoadMore: the next page is asked for only when idle, with more to come, below the last page. */
  function LoadMore(filter: Selection.ListFilter, loading: bool, hasMore: bool, totalPage: int): (r: Selection.ListFilter)
    ensures !loading && hasMore && filter.currentPage < totalPage ==> r == filter.(currentPage := filter.currentPage + 1)
    ensures !(!loading && hasMore && filter.currentPage < totalPage) ==> r == filter
  {
    if !loading && hasMore && filter.currentPage < totalPage then filter.(currentPage := filter.currentPage + 1) else filter
  }

  /** Load more never moves the page past the last page nor below where it was. */
  lemma LoadMoreInRange(filter: Selection.ListFilter, loading: bool, hasMore: bool, totalPage: int)
    requires 1 <= filter.currentPage <= totalPage
    ensures var r := LoadMore(filter, loading, hasMore, totalPage);
      filter.currentPage <= r.currentPage <= totalPage && r.currentPage <= filter.currentPage + 1
  {
  }

  /** The filter effect: a changed filter while open and idle refetches; a changed search or page size also clears the list. */
  function FilterEffect(prev: Selection.ListFilter, cur: Selection.ListFilter, isOpen: bool, loading: bool,
                        students: seq<Student>): (r: (seq<Student>, bool))
    ensures r.1 <==> isOpen && !loading && prev != cur
    ensures r.1 && (cur.textSearch != prev.textSearch || cur.pageSize != prev.pageSize) ==> r.0 == []
    ensures !(r.1 && (cur.textSearch != prev.textSearch || cur.pageSize != prev.pageSize)) ==> r.0 == students
  {
    var changed := cur.currentPage != prev.currentPage || cur.textSearch != prev.textSearch || cur.pageSize != prev.pageSize;
    assert changed <==> prev != cur;
    if isOpen && !loading && changed then
      ((if cur.textSearch != prev.textSearch || cur.pageSize != prev.pageSize then [] else students), true)
    else (students, false)
  }

  /** The form's rule: at least one student. */
  function SchemaErrors(studentList: seq<string>): (r: seq<string>)
    ensures r == [] <==> |studentList| >= 1
  {
    if |studentList| < 1 then [MsgNoStudent] else []
  }

  /** The submit button: enabled with a student chosen and no submission under way. */
  predicate SubmitEnabled(studentList: seq<string>, isSubmitting: bool)
  {
    |studentList| != 0 && !isSubmitting
  }

  /** An enabled submit button means the form's rule holds. */
  lemma EnabledPassesSchema(studentList: seq<string>, isSubmitting: bool)
    requires SubmitEnabled(studentList, isSubmitting)
    ensures SchemaErrors(studentList) == []
  {
  }

  /** The dialog's state: the filter and the filter last seen by the effect, the listed students, the chosen ids. */
  class StudentPicker {
    var filters: Selection.ListFilter
    var prevFilters: Selection.ListFilter
    var searchValue: string
    var allStudents: seq<Student>
    var studentList: seq<string>

    /** The listed students are unique and no id is chosen twice. */
    predicate Valid()
      reads this
    {
      KeysUnique(allStudents, UserId) && NoDup(studentList)
    }

    constructor ()
      ensures filters == Selection.InitialFilter && prevFilters == Selection.InitialFilter
      ensures searchValue == "" && allStudents == [] && studentList == []
      ensures Valid()
    {
      filters := Selection.InitialFilter;
      prevFilters := Selection.InitialFilter;
      searchValue := "";
      allStudents := [];
      studentList := [];
    }

    /** A page of the user list arrives for the current filter. */
    method ReceivePage(data: seq<Student>)
      requires Valid()
      modifies this`allStudents
      ensures allStudents == MergePage(old(allStudents), data, filters.currentPage)
      ensures KeysUnique(data, UserId) ==> Valid()
    {
      if KeysUnique(data, UserId) {
        MergeKeepsUnique(allStudents, data, filters.currentPage);
      }
      allStudents := MergePage(allStudents, data, filters.currentPage);
    }

    method HandleLoadMore(loading: bool, hasMore: bool, totalPage: int)
      modifies this`filters
      ensures filters == LoadMore(old(filters), loading, hasMore, totalPage)
    {
      filters := LoadMore(filters, loading, hasMore, totalPage);
    }

    /** handleSearch, once the debounce has fired: the box shows the text and the list searches it from page 1. */
    method HandleSearch(value: string)
      modifies this`searchValue, this`filters
      ensures searchValue == value && filters == Selection.SearchUpdate(old(filters), value)
    {
      searchValue := value;
      filters := Selection.SearchUpdate(filters, value);
    }

    /** The effect run after a filter change; it reports whether the list is fetched again. */
    method OnFiltersChanged(isOpen: bool, loading: bool) returns (refetch: bool)
      requires Valid()
      modifies this`allStudents, this`prevFilters
      ensures Valid()
      ensures (allStudents, refetch) == FilterEffect(old(prevFilters), filters, isOpen, loading, old(allStudents))
      ensures prevFilters == filters
    {
      var r := FilterEffect(prevFilters, filters, isOpen, loading, allStudents);
      allStudents, refetch := r.0, r.1;
      prevFilters := filters;
    }

    /** A student's checkbox. */
    method ClickStudent(userId: string)
      requires Valid()
      modifies this`studentList
      ensures Valid()
      ensures studentList == Selection.Click(old(studentList), userId)
    {
      Selection.ClickKeepsNoDup(studentList, userId);
      studentList := Selection.Click(studentList, userId);
    }

    /** handleClose: the search, the list and the filter start over. */
    method HandleClose()
      modifies this`searchValue, this`allStudents, this`filters
      ensures searchValue == "" && allStudents == [] && filters == Selection.InitialFilter
    {
      searchValue := "";
      allStudents := [];
      filters := Selection.InitialFilter;
    }
  }
}

=== FILE: assign_supervisor_dialog.dfy ===
/**
 The dialog that assigns supervisors to an exam
 (pages/teacher/examsupervisor/dialogs/DialogAssignSuppervisor.tsx): the two
 checkbox groups and the form's rules. The de-duplicated lists of exams and
 supervisors are Selection.UniqueBy, and the search boxes that send a list
 back to its first page are Selection.SearchUpdate.
 */
module AssignSupervisorDialog {
  import opened Common
  import Selection

  datatype ExamItem = ExamItem(examId: string, examName: string)
  datatype SupervisorItem = SupervisorItem(userId: string, fullName: string, email: string)

  const MsgExamMin: string := "Vui lòng chọn một kỳ thi"
  const MsgExamMax: string := "Chỉ được chọn một kỳ thi"
  const MsgSupervisorMin: string := "Vui lòng chọn ít nhất một giám thị"
  const MsgNoteMax: string := "Ghi chú không được vượt quá 500 ký tự"
  const NoteMaxLength: nat := 500

  /** The exam checkbox: checking makes the exam the only one chosen; unchecking removes it. */
  function ExamChecked(examIds: seq<string>, examId: string, checked: bool): (r: seq<string>)
    ensures checked ==> r == [examId]
    ensures !checked ==> examId !in r && (forall x | x in r :: x in examIds)
                         && (forall x | x in examIds && x != examId :: x in r)
  {
    if checked then [examId] else Filter(examIds, (id: string) => id != examId)
  }

  /** The form's rules, one message per failing field, in field order. */
  function SchemaErrors(examIds: seq<string>, supervisorIds: seq<string>, note: Option<string>): (r: seq<string>)
    ensures r == [] <==> |examIds| == 1 && |supervisorIds| >= 1 && (note.None? || |note.value| <= NoteMaxLength)
    ensures MsgExamMin in r <==> examIds == []
    ensures MsgExamMax in r <==> |examIds| > 1
  {
    (if |examIds| < 1 then [MsgExamMin] else if |examIds| > 1 then [MsgExamMax] else [])
    + (if |supervisorIds| < 1 then [MsgSupervisorMin] else [])
    + (if note.Some? && |note.value| > NoteMaxLength then [MsgNoteMax] else [])
  }

  /** The form's values. The checkboxes keep at most one exam and no supervisor twice. */
  class AssignForm {
    var examIds: seq<string>
    var supervisorIds: seq<string>
    var note: string

    predicate Valid()
      reads this
    {
      |examIds| <= 1 && NoDup(supervisorIds)
    }

    constructor ()
      ensures examIds == [] && supervisorIds == [] && note == ""
      ensures Valid()
    {
      examIds := [];
      supervisorIds := [];
      note := "";
    }

    /** A click on an exam's checkbox: its new state is the opposite of whether the exam is chosen. */
    method ClickExam(examId: string)
      requires Valid()
      modifies this`examIds
      ensures Valid()
      ensures examIds == ExamChecked(old(examIds), examId, examId !in old(examIds))
      ensures examId in examIds <==> examId !in old(examIds)
    {
      examIds := ExamChecked(examIds, examId, examId !in examIds);
    }

    /** A click on a supervisor's checkbox. */
    method ClickSupervisor(userId: string)
      requires Valid()
      modifies this`supervisorIds
      ensures Valid()
      ensures supervisorIds == Selection.Click(old(supervisorIds), userId)
    {
      Selection.ClickKeepsNoDup(supervisorIds, userId);
      supervisorIds := Selection.Click(supervisorIds, userId);
    }
  }
}

=== FILE: authenticate_service.dfy ===
/**
 Sign-in and passwords (AuthenticateService.cs): the ordered checks of a
 password login and of a Google login, the state a successful login
 writes, changing and resetting a password. MD5 is a parameter (`md5`);
 the token is represented by the role ids it carries.
 */
module AuthenticateService {
  import opened Common
  import opened Domain
  import UserService

  datatype LoginInput = LoginInput(email: Option<string>, password: string, campusId: Option<string>)

  datatype GoogleUserInfo = GoogleUserInfo(id: Option<string>, email: Option<string>, name: Option<string>, picture: Option<string>)

  /** What a successful login hands back: the user row as saved and the role ids put into the token. */
  datatype LoginResult = LoginResult(user: User, roleIds: set<int>)

  const MsgBadCredentials: string := "Incorrect email or password. Please try again."
  const MsgBadPassword: string := "Incorrect email or password. Please try again"
  const MsgEmptyPassword: string := "Password is empty. Please contact support."
  const MsgWrongCampus: string := "This account does not match the selected campus. Please verify and try again."
  const MsgDeactivated: string := "User is deactivated. Please contact us to support."
  const MsgNotFpt: string := "Please use your @fpt.edu.vn account to log in."
  const MsgNotAuthorized: string := "Your account is not authorized to access the system."
  const MsgNoActiveRole: string := "Your account does not have any active roles. Please contact admin."
  const MsgUserNotFound: string := "User not found."
  const MsgWrongCurrent: string := "Current password is not correct."
  const MsgSamePassword: string := "New password must be different from old password."
  /** The text of the NullReferenceException thrown when a stored password is missing. */
  const MsgNullReference: string := "Object reference not set to an instance of an object."
  const FptDomain: string := "@fpt.edu.vn"

  // ---------------------------------------------------------------- DoLogin

  /** `Users.FirstOrDefault(x => x.Email == email)`: null matches a null email. */
  function ByEmail(users: seq<User>, email: Option<string>): (r: Option<nat>)
    ensures r.Some? ==> r.value < |users| && users[r.value].email == email
    ensures r.None? <==> forall j | 0 <= j < |users| :: users[j].email != email
  {
    FirstWhere(users, (u: User) => u.email == email)
  }

  /** The stored hash matches the typed password, compared ignoring case. */
  predicate HashMatches(md5: string -> string, stored: Option<string>, typed: string)
  {
    stored.Some? && Upper(stored.value) == Upper(md5(typed))
  }

  /** DoLogin's checks in order: known email, stored password, hash, campus, not Inactive. */
  function LoginError(users: seq<User>, md5: string -> string, input: LoginInput): (r: Option<string>)
    ensures r.None? <==>
      (ByEmail(users, input.email).Some?
       && var u := users[ByEmail(users, input.email).value];
          !IsNullOrBlank(u.password) && HashMatches(md5, u.password, input.password)
          && u.campusId == input.campusId && u.status != Some(StatusInactive))
  {
    var k := ByEmail(users, input.email);
    if k.None? then Some(MsgBadCredentials)
    else
      var u := users[k.value];
      if IsNullOrBlank(u.password) then Some(MsgEmptyPassword)
      else if !HashMatches(md5, u.password, input.password) then Some(MsgBadPassword)
      else if u.campusId != input.campusId then Some(MsgWrongCampus)
      else if u.status == Some(StatusInactive) then Some(MsgDeactivated)
      else None
  }

  /**
   An unknown email and a wrong password are told apart: the two messages
   differ in their final full stop.
   */
  lemma UnknownEmailDistinguishable(users: seq<User>, md5: string -> string, a: LoginInput, b: LoginInput)
    requires ByEmail(users, a.email).None?
    requires ByEmail(users, b.email).Some? && !IsNullOrBlank(users[ByEmail(users, b.email).value].password)
    requires !HashMatches(md5, users[ByEmail(users, b.email).value].password, b.password)
    ensures LoginError(users, md5, a) != LoginError(users, md5, b)
  {
    assert MsgBadCredentials[|MsgBadCredentials| - 1] == '.';
    assert |MsgBadCredentials| != |MsgBadPassword|;
  }

  /** The roles of a user. */
  function RoleIdsOf(userRoles: set<(string, int)>, userId: string): (r: set<int>)
    ensures forall x :: x in r <==> (userId, x) in userRoles
  {
    set g | g in userRoles && g.0 == userId :: g.1
  }

  /** The user's roles that are active (only these go into a Google login's token). */
  function ActiveRoleIdsOf(userRoles: set<(string, int)>, activeRoles: set<int>, userId: string): (r: set<int>)
    ensures forall x :: x in r <==> (userId, x) in userRoles && x in activeRoles
  {
    set g | g in userRoles && g.0 == userId && g.1 in activeRoles :: g.1
  }

  // ---------------------------------------------------------------- LoginByGoogle

  /** `email.EndsWith("@fpt.edu.vn", OrdinalIgnoreCase)` for a present, non-empty email. */
  predicate FptEmail(email: Option<string>)
  {
    email.Some? && email.value != "" && IsSuffix(Lower(FptDomain), Lower(email.value))
  }

  /** `Users.FirstOrDefault(x => x.GoogleId == id || x.Email == email)` */
  function ByGoogle(users: seq<User>, info: GoogleUserInfo): (r: Option<nat>)
    ensures r.Some? ==> r.value < |users| && (users[r.value].googleId == info.id || users[r.value].email == info.email)
    ensures r.None? <==> forall j | 0 <= j < |users| :: users[j].googleId != info.id && users[j].email != info.email
  {
    FirstWhere(users, (u: User) => u.googleId == info.id || u.email == info.email)
  }

  /** The checks before the profile is saved: the domain, a matching user, the campus. */
  function GoogleError(users: seq<User>, info: GoogleUserInfo, campusId: Option<string>): (r: Option<string>)
    ensures r.None? <==>
      (FptEmail(info.email) && ByGoogle(users, info).Some? && users[ByGoogle(users, info).value].campusId == campusId)
  {
    if !FptEmail(info.email) then Some(MsgNotFpt)
    else if ByGoogle(users, info).None? then Some(MsgNotAuthorized)
    else if users[ByGoogle(users, info).value].campusId != campusId then Some(MsgWrongCampus)
    else None
  }

  /** The profile a Google login saves: the picture only fills an empty avatar, a present name replaces the old. */
  function GoogleProfile(u: User, info: GoogleUserInfo, now: int): (r: User)
    ensures !IsNullOrBlank(u.avatarUrl) ==> r.avatarUrl == u.avatarUrl
    ensures IsNullOrBlank(u.avatarUrl) && !IsNullOrBlank(info.picture) ==> r.avatarUrl == info.picture
    ensures r.fullName == (if info.name.Some? then info.name else u.fullName)
    ensures r.lastLogin == Some(now) && r.status == u.status && r.password == u.password && r.userId == u.userId
  {
    u.(avatarUrl := if IsNullOrBlank(u.avatarUrl) && !IsNullOrBlank(info.picture) then info.picture else u.avatarUrl,
       fullName := if info.name.Some? then info.name else u.fullName,
       lastLogin := Some(now))
  }

  /** Saving the Google profile twice with the same data changes nothing more. */
  lemma GoogleProfileIdempotent(u: User, info: GoogleUserInfo, now: int)
    ensures GoogleProfile(GoogleProfile(u, info, now), info, now) == GoogleProfile(u, info, now)
  {
  }

  // ---------------------------------------------------------------- the store

  /** The Users table (in table order); roles, their activity and the hash function are fixed. */
  class AuthStore {
    var users: seq<User>
    const userRoles: set<(string, int)>
    const activeRoles: set<int>
    const md5: string -> string

    constructor (users: seq<User>, userRoles: set<(string, int)>, activeRoles: set<int>, md5: string -> string)
      ensures this.users == users && this.userRoles == userRoles && this.activeRoles == activeRoles && this.md5 == md5
    {
      this.users := users;
      this.userRoles := userRoles;
      this.activeRoles := activeRoles;
      this.md5 := md5;
    }

    /** DoLogin: after the checks, marks the user Active and stamps the login; the token carries all the user's roles. */
    method DoLogin(input: LoginInput, now: int) returns (message: string, result: Option<LoginResult>)
      modifies this
      ensures var err := LoginError(old(users), md5, input);
        && (err.Some? ==> message == err.value && result.None? && users == old(users))
        && (err.None? ==>
              var k := ByEmail(old(users), input.email).value;
              var u := old(users)[k].(status := Some(StatusActive), lastLogin := Some(now));
              message == "" && users == old(users)[k := u]
              && result == Some(LoginResult(u, RoleIdsOf(userRoles, u.userId))))
    {
      var err := LoginError(users, md5, input);
      if err.Some? {
        return err.value, None;
      }
      var k := ByEmail(users, input.email).value;
      var u := users[k].(status := Some(StatusActive), lastLogin := Some(now));
      users := users[k := u];
      message, result := "", Some(LoginResult(u, RoleIdsOf(userRoles, u.userId)));
    }

    /**
     LoginByGoogle: after the domain, user and campus checks the profile is
     saved; only then are an Inactive status and the lack of an active role
     refused, so those refusals keep the saved profile.
     */
    method LoginByGoogle(info: GoogleUserInfo, campusId: Option<string>, now: int) returns (message: string, result: Option<LoginResult>)
      modifies this
      ensures var err := GoogleError(old(users), info, campusId);
        && (err.Some? ==> message == err.value && result.None? && users == old(users))
        && (err.None? ==>
              var k := ByGoogle(old(users), info).value;
              var u := GoogleProfile(old(users)[k], info, now);
              var active := ActiveRoleIdsOf(userRoles, activeRoles, u.userId);
              users == old(users)[k := u]
              && (u.status == Some(StatusInactive) ==> message == MsgDeactivated && result.None?)
              && (u.status != Some(StatusInactive) && active == {} ==> message == MsgNoActiveRole && result.None?)
              && (u.status != Some(StatusInactive) && active != {} ==> message == "" && result == Some(LoginResult(u, active))))
    {
      var err := GoogleError(users, info, campusId);
      if err.Some? {
        return err.value, None;
      }
      var k := ByGoogle(users, info).value;
      var u := GoogleProfile(users[k], info, now);
      users := users[k := u];
      if u.status == Some(StatusInactive) {
        return MsgDeactivated, None;
      }
      var active := ActiveRoleIdsOf(userRoles, activeRoles, u.userId);
      if active == {} {
        return MsgNoActiveRole, None;
      }
      message, result := "", Some(LoginResult(u, active));
    }

    /**
     DoChangePassword: the current password's hash must equal the stored one
     exactly, then the new password must differ from the current one. A user
     with no stored password makes `user.Password.Equals` throw: `thrown` is
     that NullReferenceException, which escapes the request with no change.
     */
    method DoChangePassword(userId: string, exPassword: string, password: string, now: int) returns (message: string, thrown: bool)
      modifies this
      ensures var k := FirstWhere(old(users), (u: User) => u.userId == userId);
        && (thrown <==> k.Some? && old(users)[k.value].password.None?)
        && (thrown ==> message == MsgNullReference && users == old(users))
        && (k.None? ==> message == MsgUserNotFound && users == old(users))
        && (k.Some? && old(users)[k.value].password.Some? && old(users)[k.value].password != Some(md5(exPassword)) ==>
              message == MsgWrongCurrent && users == old(users))
        && (k.Some? && old(users)[k.value].password == Some(md5(exPassword)) && password == exPassword ==>
              message == MsgSamePassword && users == old(users))
        && (k.Some? && old(users)[k.value].password == Some(md5(exPassword)) && password != exPassword ==>
              message == ""
              && users == old(users)[k.value := old(users)[k.value].(password := Some(md5(password)), updateUser := Some(userId),
                                                                     updatedAt := Some(now))])
    {
      thrown := false;
      var k := FirstWhere(users, (u: User) => u.userId == userId);
      if k.None? {
        return MsgUserNotFound, false;
      }
      if users[k.value].password.None? {
        return MsgNullReference, true;
      }
      if users[k.value].password != Some(md5(exPassword)) {
        return MsgWrongCurrent, false;
      }
      if password == exPassword {
        return MsgSamePassword, false;
      }
      users := users[k.value := users[k.value].(password := Some(md5(password)), updateUser := Some(userId), updatedAt := Some(now))];
      message := "";
    }

    /** DoResetPassword: stores the hash of RePassword for an existing user. */
    method DoResetPassword(userId: Option<string>, rePassword: string, now: int) returns (message: string)
      modifies this
      ensures userId.None? ==> message == "UserId is null" && users == old(users)
      ensures userId.Some? ==>
        var k := FirstWhere(old(users), (u: User) => u.userId == userId.value);
        && (k.None? ==> message == MsgUserNotFound && users == old(users))
        && (k.Some? ==>
              message == ""
              && users == old(users)[k.value := old(users)[k.value].(password := Some(md5(rePassword)),
                                                                     updateUser := Some(userId.value), updatedAt := Some(now))])
    {
      if userId.None? {
        return "UserId is null";
      }
      var k := FirstWhere(users, (u: User) => u.userId == userId.value);
      if k.None? {
        return MsgUserNotFound;
      }
      users := users[k.value := users[k.value].(password := Some(md5(rePassword)), updateUser := Some(userId.value),
                                                updatedAt := Some(now))];
      message := "";
    }
  }

  // ---------------------------------------------------------------- passwords and login

  /** A password stored by a change or a reset passes the login's hash check for that password. */
  lemma StoredHashLogsIn(md5: string -> string, password: string)
    ensures HashMatches(md5, Some(md5(password)), password)
  {
  }

  /** With a stored hash, only a password with a case-insensitively equal hash gets past the hash check. */
  lemma HashCheckIgnoresCase(md5: string -> string, stored: string, typed: string)
    requires Upper(stored) == Upper(md5(typed)) && stored != md5(typed)
    ensures HashMatches(md5, Some(stored), typed)
  {
  }

  /**
   As written, the bulk import stores the generated password itself. With
   MD5 rendered as 32 hex digits, typing that 10-character password at the
   login is always refused at the hash check.
   */
  lemma ImportedPasswordNeverLogsIn(ctx: UserService.ImportContext, input: UserService.UserInput, id: string,
                                    generated: string, md5: string -> string)
    requires |generated| == 10
    requires forall x :: |md5(x)| == 32
    ensures !HashMatches(md5, UserService.NewUser(ctx, input, id, generated).password, generated)
  {
    assert |Upper(generated)| == 10;
    assert |Upper(md5(generated))| == 32;
  }

  /** Storing the hash of the generated password, as AddListUser here does, lets that password pass the hash check. */
  lemma ImportedHashLogsIn(ctx: UserService.ImportContext, input: UserService.UserInput, id: string,
                           generated: string, md5: string -> string)
    ensures HashMatches(md5, UserService.NewUser(ctx, input, id, md5(generated)).password, generated)
  {
  }
}

=== FILE: authorize_service.dfy ===
/**
 Roles, permissions and their assignment (AuthorizeService.cs). The
 UserRoles and RolePermissions join tables are sets of pairs: a pair is
 either present or not, and the order rows were added in is not observable.
 */
module AuthorizeService {
  import opened Common

  datatype Permission = Permission(
    id: string, action: string, name: string, resource: string, categoryId: string,
    isActive: bool, description: string, updatedAt: int)

  datatype Role = Role(id: int, name: string, description: string, isActive: bool)

  /** The create-or-update form of a permission; a blank id creates. */
  datatype PermissionInput = PermissionInput(
    id: string, action: string, name: string, resource: string, categoryId: string,
    isActive: bool, description: string)

  /** The create-or-update form of a role; an id of 0 or less creates. */
  datatype RoleInput = RoleInput(id: int, name: string, description: string, isActive: bool)

  // ---------------------------------------------------------------- permissions

  const MsgBadCategory: string := "Category permission is not valid."
  const MsgPermissionExists: string := "Permission name or resource already exists."
  const MsgPermissionNotFound: string := "Permission not found."
  const MsgPermissionIdEmpty: string := "Permission ID cannot be empty."

  /**
   The stored permission clashes with the input: it is not the permission
   being updated, and its name or resource equals the input's trimmed one,
   ignoring case.
   */
  predicate PermissionClash(p: Permission, input: PermissionInput)
  {
    (IsBlank(input.id) || p.id != input.id)
    && (Lower(p.name) == Lower(Trim(input.name)) || Lower(p.resource) == Lower(Trim(input.resource)))
  }

  /** CreateUpdatePermission's checks in order: category, clash, and for an update the permission itself. */
  function PermissionError(perms: map<string, Permission>, categories: set<string>, input: PermissionInput)
    : (r: Option<string>)
    ensures r.None? <==>
      input.categoryId in categories
      && (forall k | k in perms :: !PermissionClash(perms[k], input))
      && (IsBlank(input.id) || input.id in perms)
    ensures input.categoryId !in categories ==> r == Some(MsgBadCategory)
  {
    if input.categoryId !in categories then Some(MsgBadCategory)
    else if exists k | k in perms :: PermissionClash(perms[k], input) then Some(MsgPermissionExists)
    else if !IsBlank(input.id) && input.id !in perms then Some(MsgPermissionNotFound)
    else None
  }

  /** A permission never clashes with itself on update: re-saving a permission under its own name passes. */
  lemma UpdateExcludesItself(perms: map<string, Permission>, categories: set<string>, input: PermissionInput)
    requires !IsBlank(input.id) && input.id in perms && input.categoryId in categories
    requires forall k | k in perms && k != input.id ::
      Lower(perms[k].name) != Lower(Trim(input.name)) && Lower(perms[k].resource) != Lower(Trim(input.resource))
    requires forall k | k in perms :: perms[k].id == k
    ensures PermissionError(perms, categories, input).None?
  {
  }

  /** On create every stored permission counts, so a name equal up to case and padding is refused. */
  lemma CreateRefusesSameName(perms: map<string, Permission>, categories: set<string>, input: PermissionInput, k: string)
    requires IsBlank(input.id) && input.categoryId in categories
    requires k in perms && Lower(perms[k].name) == Lower(Trim(input.name))
    ensures PermissionError(perms, categories, input) == Some(MsgPermissionExists)
  {
  }

  /** The stored permission after CreateUpdatePermission: a new one is active, an update takes the input's flag. */
  function SavedPermission(input: PermissionInput, newId: string, now: int): (r: Permission)
    ensures r.name == input.name && r.resource == input.resource && r.categoryId == input.categoryId
    ensures r.isActive == (IsBlank(input.id) || input.isActive)
    ensures r.id == if IsBlank(input.id) then newId else input.id
  {
    if IsBlank(input.id) then
      Permission(newId, input.action, input.name, input.resource, input.categoryId, true, input.description, 0)
    else
      Permission(input.id, input.action, input.name, input.resource, input.categoryId, input.isActive,
                 input.description, now)
  }

  // ---------------------------------------------------------------- roles

  const MsgRoleExists: string := "Role name already exists."
  const MsgRoleNotFound: string := "Role not found."
  const MsgRoleIdNotPositive: string := "Role ID must be greater than 0."

  /** CreateUpdateRole's checks: a create compares names ignoring case, an update compares them exactly. */
  function RoleError(roles: map<int, Role>, input: RoleInput): (r: Option<string>)
    ensures input.id <= 0 ==> (r.None? <==> forall k | k in roles :: Lower(roles[k].name) != Lower(input.name))
    ensures input.id > 0 ==> (r.None? <==>
      input.id in roles && forall k | k in roles && k != input.id :: roles[k].name != input.name)
  {
    if input.id <= 0 then
      if exists k | k in roles :: Lower(roles[k].name) == Lower(input.name) then Some(MsgRoleExists) else None
    else if input.id !in roles then Some(MsgRoleNotFound)
    else if exists k | k in roles && k != input.id :: roles[k].name == input.name then Some(MsgRoleExists)
    else None
  }

  /** "admin" is refused as a new role beside "Admin", but another role may be renamed to it. */
  lemma RoleNameCaseAsymmetry()
    ensures var roles := map[1 := Role(1, "Admin", "", true), 2 := Role(2, "Staff", "", true)];
      RoleError(roles, RoleInput(0, "admin", "", true)) == Some(MsgRoleExists)
      && RoleError(roles, RoleInput(2, "admin", "", true)).None?
  {
    var roles := map[1 := Role(1, "Admin", "", true), 2 := Role(2, "Staff", "", true)];
    assert Lower(roles[1].name) == Lower("admin");
    assert forall k | k in roles && k != 2 :: roles[k].name != "admin" by {
      assert roles[1].name != "admin" by {
        assert roles[1].name[0] != "admin"[0];
      }
    }
  }

  // ---------------------------------------------------------------- assignments

  /** The roles a user holds in the UserRoles table. */
  function RolesOf(userRoles: set<(string, int)>, userId: string): (r: set<int>)
    ensures forall x :: x in r <==> (userId, x) in userRoles
  {
    set p | p in userRoles && p.0 == userId :: p.1
  }

  /** The permissions a role holds in the RolePermissions table. */
  function PermissionsOf(rolePerms: set<(int, string)>, roleId: int): (r: set<string>)
    ensures forall x :: x in r <==> (roleId, x) in rolePerms
  {
    set p | p in rolePerms && p.0 == roleId :: p.1
  }

  /** AssignRolesToUser's new table: the user's pairs replaced by one per requested existing role. */
  function ReplaceRoles(userRoles: set<(string, int)>, userId: string, valid: set<int>): (r: set<(string, int)>)
    ensures RolesOf(r, userId) == valid
    ensures forall p: (string, int) | p.0 != userId :: p in r <==> p in userRoles
  {
    var added := set x | x in valid :: (userId, x);
    var r := (set p | p in userRoles && p.0 != userId) + added;
    assert forall x | x in valid :: (userId, x) in added;
    assert forall x :: x in RolesOf(r, userId) <==> x in valid;
    r
  }

  /** The requested roles that exist. */
  function ExistingRoles(roles: map<int, Role>, requested: seq<int>): (r: set<int>)
    ensures forall x :: x in r <==> x in roles && x in requested
  {
    set x | x in roles && x in requested
  }

  /** AddPermissionsToRole's new pairs: the distinct requested ids the role does not hold. */
  function NewPermissions(rolePerms: set<(int, string)>, roleId: int, requested: seq<string>): (r: set<string>)
    ensures forall x :: x in r <==> x in requested && (roleId, x) !in rolePerms
  {
    set x | x in requested && (roleId, x) !in rolePerms
  }

  /** The table with the given permissions granted to the role. */
  function Grant(rolePerms: set<(int, string)>, roleId: int, ids: set<string>): (r: set<(int, string)>)
    ensures PermissionsOf(r, roleId) == PermissionsOf(rolePerms, roleId) + ids
    ensures forall p: (int, string) | p.0 != roleId :: p in r <==> p in rolePerms
  {
    rolePerms + set x | x in ids :: (roleId, x)
  }

  /** RemovePermissionsFromRole's table: exactly the role's pairs naming a requested permission go. */
  function Revoke(rolePerms: set<(int, string)>, roleId: int, requested: seq<string>): (r: set<(int, string)>)
    ensures PermissionsOf(r, roleId) == PermissionsOf(rolePerms, roleId) - (set x | x in requested)
    ensures forall p: (int, string) | p.0 != roleId :: p in r <==> p in rolePerms
  {
    set p | p in rolePerms && !(p.0 == roleId && p.1 in requested)
  }

  /** Granting what a later removal names leaves the table as the removal alone would. */
  lemma RevokeAfterGrant(rolePerms: set<(int, string)>, roleId: int, requested: seq<string>)
    ensures Revoke(Grant(rolePerms, roleId, NewPermissions(rolePerms, roleId, requested)), roleId, requested)
      == Revoke(rolePerms, roleId, requested)
  {
  }

  /** The active permissions of a category. */
  function ActiveInCategory(perms: map<string, Permission>, categoryId: string): (r: set<string>)
    ensures forall x :: x in r <==> x in perms && perms[x].categoryId == categoryId && perms[x].isActive
  {
    set x | x in perms && perms[x].categoryId == categoryId && perms[x].isActive
  }

  const MsgAssignEmpty: string := "User ID cannot be empty and Role ID must be greater than 0."
  const MsgUserNotFound: string := "User not found."
  const MsgNoValidRoles: string := "No valid roles found."
  const MsgAddPermsEmpty: string := "Role ID must be greater than 0 and Permission ID cannot be empty."
  const MsgAllAssigned: string := "All these permissions are already assigned to this role."
  const MsgRemovePermsEmpty: string := "Role ID must be greater than 0 and Permission list cannot be empty."
  const MsgNothingToRemove: string := "No matching permissions found to remove."
  const MsgNoActiveInCategory: string := "No active permissions found in this category."
  const MsgCategoryAssigned: string := "All permissions in this category are already assigned to this role."

  /**
   The permission tables: permissions by id, roles by id, and the two join
   tables; the categories and users are read only.
   */
  class AuthorizeStore {
    var permissions: map<string, Permission>
    var roles: map<int, Role>
    var userRoles: set<(string, int)>
    var rolePermissions: set<(int, string)>
    const categories: set<string>
    const users: set<string>

    constructor (permissions: map<string, Permission>, roles: map<int, Role>, userRoles: set<(string, int)>,
                 rolePermissions: set<(int, string)>, categories: set<string>, users: set<string>)
      ensures this.permissions == permissions && this.roles == roles && this.userRoles == userRoles
      ensures this.rolePermissions == rolePermissions && this.categories == categories && this.users == users
    {
      this.permissions := permissions;
      this.roles := roles;
      this.userRoles := userRoles;
      this.rolePermissions := rolePermissions;
      this.categories := categories;
      this.users := users;
    }

    /** CreateUpdatePermission: checks, then stores the new or overwritten permission. */
    method CreateUpdatePermission(input: PermissionInput, newId: string, logMessage: string, now: int)
      returns (message: string)
      requires IsBlank(input.id) ==> newId !in permissions
      modifies this
      ensures roles == old(roles) && userRoles == old(userRoles) && rolePermissions == old(rolePermissions)
      ensures var err := PermissionError(old(permissions), categories, input);
        && (err.Some? ==> message == err.value && permissions == old(permissions))
        && (err.None? ==>
              message == logMessage
              && permissions == old(permissions)[SavedPermission(input, newId, now).id := SavedPermission(input, newId, now)])
    {
      var err := PermissionError(permissions, categories, input);
      if err.Some? {
        return err.value;
      }
      var saved := SavedPermission(input, newId, now);
      permissions := permissions[saved.id := saved];
      message := logMessage;
    }

    /** ToggleActivePermission: flips IsActive of an existing permission. */
    method ToggleActivePermission(id: string, logMessage: string) returns (message: string)
      modifies this
      ensures roles == old(roles) && userRoles == old(userRoles) && rolePermissions == old(rolePermissions)
      ensures IsBlank(id) ==> message == MsgPermissionIdEmpty && permissions == old(permissions)
      ensures !IsBlank(id) && id !in old(permissions) ==> message == MsgPermissionNotFound && permissions == old(permissions)
      ensures !IsBlank(id) && id in old(permissions) ==>
        message == logMessage && permissions == old(permissions)[id := old(permissions)[id].(isActive := !old(permissions)[id].isActive)]
    {
      if IsBlank(id) {
        return MsgPermissionIdEmpty;
      }
      if id !in permissions {
        return MsgPermissionNotFound;
      }
      permissions := permissions[id := permissions[id].(isActive := !permissions[id].isActive)];
      message := logMessage;
    }

    /** CreateUpdateRole: checks, then adds the role under the identity `newId` or overwrites it. */
    method CreateUpdateRole(input: RoleInput, newId: int, logMessage: string) returns (message: string)
      requires input.id <= 0 ==> newId > 0 && newId !in roles
      modifies this
      ensures permissions == old(permissions) && userRoles == old(userRoles) && rolePermissions == old(rolePermissions)
      ensures var err := RoleError(old(roles), input);
        && (err.Some? ==> message == err.value && roles == old(roles))
        && (err.None? && input.id <= 0 ==>
              message == logMessage && roles == old(roles)[newId := Role(newId, input.name, input.description, input.isActive)])
        && (err.None? && input.id > 0 ==>
              message == logMessage && roles == old(roles)[input.id := Role(input.id, input.name, input.description, input.isActive)])
    {
      var err := RoleError(roles, input);
      if err.Some? {
        return err.value;
      }
      var id := if input.id <= 0 then newId else input.id;
      roles := roles[id := Role(id, input.name, input.description, input.isActive)];
      message := logMessage;
    }

    /** ToggleActive (roles): flips IsActive of an existing role. */
    method ToggleRole(roleId: int, logMessage: string) returns (message: string)
      modifies this
      ensures permissions == old(permissions) && userRoles == old(userRoles) && rolePermissions == old(rolePermissions)
      ensures roleId <= 0 ==> message == MsgRoleIdNotPositive && roles == old(roles)
      ensures roleId > 0 && roleId !in old(roles) ==> message == MsgRoleNotFound && roles == old(roles)
      ensures roleId > 0 && roleId in old(roles) ==>
        message == logMessage && roles == old(roles)[roleId := old(roles)[roleId].(isActive := !old(roles)[roleId].isActive)]
    {
      if roleId <= 0 {
        return MsgRoleIdNotPositive;
      }
      if roleId !in roles {
        return MsgRoleNotFound;
      }
      roles := roles[roleId := roles[roleId].(isActive := !roles[roleId].isActive)];
      message := logMessage;
    }

    /**
     AssignRolesToUser: the user's roles become the requested roles that
     exist; the activity log's answer is ignored.
     */
    method AssignRolesToUser(userId: string, requested: seq<int>) returns (message: string)
      modifies this
      ensures permissions == old(permissions) && roles == old(roles) && rolePermissions == old(rolePermissions)
      ensures userId == "" || requested == [] ==> message == MsgAssignEmpty && userRoles == old(userRoles)
      ensures userId != "" && requested != [] && userId !in users ==> message == MsgUserNotFound && userRoles == old(userRoles)
      ensures userId != "" && requested != [] && userId in users && ExistingRoles(roles, requested) == {} ==>
        message == MsgNoValidRoles && userRoles == old(userRoles)
      ensures userId != "" && requested != [] && userId in users && ExistingRoles(roles, requested) != {} ==>
        message == "" && userRoles == ReplaceRoles(old(userRoles), userId, ExistingRoles(roles, requested))
    {
      if userId == "" || requested == [] {
        return MsgAssignEmpty;
      }
      if userId !in users {
        return MsgUserNotFound;
      }
      var valid := ExistingRoles(roles, requested);
      if valid == {} {
        return MsgNoValidRoles;
      }
      userRoles := ReplaceRoles(userRoles, userId, valid);
      message := "";
    }

    /** AddPermissionsToRole: grants the distinct requested ids the role lacks; none new is an error. */
    method AddPermissionsToRole(roleId: int, requested: seq<string>, logMessage: string) returns (message: string)
      modifies this
      ensures permissions == old(permissions) && roles == old(roles) && userRoles == old(userRoles)
      ensures roleId <= 0 || requested == [] ==> message == MsgAddPermsEmpty && rolePermissions == old(rolePermissions)
      ensures roleId > 0 && requested != [] && roleId !in roles ==> message == MsgRoleNotFound && rolePermissions == old(rolePermissions)
      ensures roleId > 0 && requested != [] && roleId in roles ==>
        var lacking := NewPermissions(old(rolePermissions), roleId, requested);
        && (lacking == {} ==> message == MsgAllAssigned && rolePermissions == old(rolePermissions))
        && (lacking != {} ==> message == logMessage && rolePermissions == Grant(old(rolePermissions), roleId, lacking))
    {
      if roleId <= 0 || requested == [] {
        return MsgAddPermsEmpty;
      }
      if roleId !in roles {
        return MsgRoleNotFound;
      }
      var lacking := NewPermissions(rolePermissions, roleId, requested);
      if lacking == {} {
        return MsgAllAssigned;
      }
      rolePermissions := Grant(rolePermissions, roleId, lacking);
      message := logMessage;
    }

    /** RemovePermissionsFromRole: removes the role's pairs naming requested ids; none matching is an error. */
    method RemovePermissionsFromRole(roleId: int, requested: seq<string>, logMessage: string) returns (message: string)
      modifies this
      ensures permissions == old(permissions) && roles == old(roles) && userRoles == old(userRoles)
      ensures roleId <= 0 || requested == [] ==> message == MsgRemovePermsEmpty && rolePermissions == old(rolePermissions)
      ensures roleId > 0 && requested != [] && roleId !in roles ==> message == MsgRoleNotFound && rolePermissions == old(rolePermissions)
      ensures roleId > 0 && requested != [] && roleId in roles ==>
        var matched := PermissionsOf(old(rolePermissions), roleId) * (set x | x in requested);
        && (matched == {} ==> message == MsgNothingToRemove && rolePermissions == old(rolePermissions))
        && (matched != {} ==> message == logMessage && rolePermissions == Revoke(old(rolePermissions), roleId, requested))
    {
      if roleId <= 0 || requested == [] {
        return MsgRemovePermsEmpty;
      }
      if roleId !in roles {
        return MsgRoleNotFound;
      }
      var matched := PermissionsOf(rolePermissions, roleId) * (set x | x in requested);
      if matched == {} {
        return MsgNothingToRemove;
      }
      rolePermissions := Revoke(rolePermissions, roleId, requested);
      message := logMessage;
    }

    /** AddCategoryPermissionsToRole: grants the category's active permissions the role lacks. */
    method AddCategoryPermissionsToRole(roleId: int, categoryId: string, logMessage: string) returns (message: string)
      modifies this
      ensures permissions == old(permissions) && roles == old(roles) && userRoles == old(userRoles)
      ensures roleId !in roles ==> message == MsgRoleNotFound && rolePermissions == old(rolePermissions)
      ensures roleId in roles ==>
        var active := ActiveInCategory(permissions, categoryId);
        var lacking := active - PermissionsOf(old(rolePermissions), roleId);
        && (active == {} ==> message == MsgNoActiveInCategory && rolePermissions == old(rolePermissions))
        && (active != {} && lacking == {} ==> message == MsgCategoryAssigned && rolePermissions == old(rolePermissions))
        && (lacking != {} ==> message == logMessage && rolePermissions == Grant(old(rolePermissions), roleId, lacking))
    {
      if roleId !in roles {
        return MsgRoleNotFound;
      }
      var active := ActiveInCategory(permissions, categoryId);
      if active == {} {
        return MsgNoActiveInCategory;
      }
      var lacking := active - PermissionsOf(rolePermissions, roleId);
      if lacking == {} {
        return MsgCategoryAssigned;
      }
      rolePermissions := Grant(rolePermissions, roleId, lacking);
      message := logMessage;
    }
  }

  /** After a category grant the role holds every active permission of the category. */
  lemma CategoryGrantCovers(rolePerms: set<(int, string)>, perms: map<string, Permission>, roleId: int, categoryId: string)
    ensures var lacking := ActiveInCategory(perms, categoryId) - PermissionsOf(rolePerms, roleId);
      ActiveInCategory(perms, categoryId) <= PermissionsOf(Grant(rolePerms, roleId, lacking), roleId)
  {
  }
}

=== FILE: bank_question_dialog.dfy ===
/**
 The dialog that picks an exam's questions from a question bank
 (pages/teacher/manageexam/dialogs/DialogBankQuestion.tsx): the search over the
 bank's questions, select-all, the per-question checkbox, the submitted
 selection and the form's rules. Its result feeds the exam page's
 handleQuestionBankSubmit.
 */
module BankQuestionDialog {
  import opened Common
  import AddNewExam
  import Selection

  /** A question of the chosen bank. */
  datatype BankQuestion = BankQuestion(questionId: string, content: string)

  /** The bank's detail as loaded: its questions may be missing. */
  datatype BankDetail = BankDetail(questions: Option<seq<BankQuestion>>, questionBankName: string)

  const MsgBankRequired: string := "ExamManagement.QuestionBankRequired"
  const MsgMinTwo: string := "ExamManagement.MinTwoQuestionsRequired"

  function Ids(qs: seq<BankQuestion>): (r: seq<string>)
    ensures |r| == |qs| && forall i | 0 <= i < |r| :: r[i] == qs[i].questionId
  {
    seq(|qs|, i requires 0 <= i < |qs| => qs[i].questionId)
  }

  /** filteredQuestions: nothing without loaded questions; otherwise those whose content contains the search text, ignoring case. */
  function FilteredQuestions(detail: Option<BankDetail>, searchText: string): (r: seq<BankQuestion>)
    ensures detail.None? || detail.value.questions.None? ==> r == []
    ensures detail.Some? && detail.value.questions.Some? ==>
      (forall q | q in r :: q in detail.value.questions.value && (searchText == "" || ContainsIgnoreCase(q.content, searchText)))
      && (forall q | q in detail.value.questions.value && (searchText == "" || ContainsIgnoreCase(q.content, searchText)) :: q in r)
  {
    if detail.None? || detail.value.questions.None? then []
    else if searchText == "" then detail.value.questions.value
    else Filter(detail.value.questions.value, (q: BankQuestion) => ContainsIgnoreCase(q.content, searchText))
  }

  /** An empty search keeps every loaded question, in order. */
  lemma EmptySearchKeepsAll(detail: BankDetail)
    requires detail.questions.Some?
    ensures FilteredQuestions(Some(detail), "") == detail.questions.value
  {
  }

  /** handleSelectAll: the selection is cleared when it has as many ids as there are shown questions, and otherwise becomes their ids. */
  function SelectAll(selected: seq<string>, filtered: seq<BankQuestion>): (r: seq<string>)
    ensures |selected| == |filtered| ==> r == []
    ensures |selected| != |filtered| ==> r == Ids(filtered)
  {
    if |selected| == |filtered| then [] else Ids(filtered)
  }

  /** Pressing select-all twice, when the first press selects, clears the selection again. */
  lemma SelectAllTwice(selected: seq<string>, filtered: seq<BankQuestion>)
    requires |selected| != |filtered|
    ensures SelectAll(SelectAll(selected, filtered), filtered) == []
  {
  }

  /**
   Only the counts are compared: a selection of two ids that are not shown is
   cleared, not replaced, when two other questions are shown.
   */
  lemma SelectAllComparesCounts()
    ensures SelectAll(["c", "d"], [BankQuestion("a", "x"), BankQuestion("b", "y")]) == []
  {
  }

  /** The submitted selection: the shown questions whose id is selected, with the bank's name, in the shown order. */
  function SubmitSelection(filtered: seq<BankQuestion>, selected: seq<string>, bankName: string): (r: seq<AddNewExam.SelectedQuestion>)
    ensures |r| <= |filtered|
    ensures forall q | q in r :: q.questionId in selected && q.questionBankName == bankName
                                 && BankQuestion(q.questionId, q.content) in filtered
    ensures forall q | q in filtered && q.questionId in selected ::
                      AddNewExam.SelectedQuestion(q.questionId, q.content, bankName) in r
  {
    if filtered == [] then []
    else
      var rest := SubmitSelection(filtered[1..], selected, bankName);
      var q := filtered[0];
      if q.questionId in selected then [AddNewExam.SelectedQuestion(q.questionId, q.content, bankName)] + rest else rest
  }

  /** After select-all has selected the shown questions, submitting returns all of them. */
  lemma {:induction false} SubmitAllSelected(filtered: seq<BankQuestion>, bankName: string)
    ensures |SubmitSelection(filtered, Ids(filtered), bankName)| == |filtered|
  {
    SubmitSubset(filtered, Ids(filtered), bankName);
  }

  lemma {:induction false} SubmitSubset(filtered: seq<BankQuestion>, selected: seq<string>, bankName: string)
    requires forall q | q in filtered :: q.questionId in selected
    ensures |SubmitSelection(filtered, selected, bankName)| == |filtered|
  {
    if filtered != [] {
      assert filtered[0] in filtered;
      SubmitSubset(filtered[1..], selected, bankName);
    }
  }

  /** The form's rules: a bank must be chosen and at least two questions selected. */
  function SchemaErrors(questionBankId: string, questionIds: seq<string>): (r: seq<string>)
    ensures r == [] <==> questionBankId != "" && |questionIds| >= 2
  {
    (if questionBankId == "" then [MsgBankRequired] else [])
    + (if |questionIds| < 2 then [MsgMinTwo] else [])
  }

  /** The submit button: disabled while submitting or with fewer than two questions selected. */
  predicate SubmitEnabled(isSubmitting: bool, questionIds: seq<string>)
  {
    !isSubmitting && |questionIds| >= 2
  }

  /** An enabled submit button means the question rule of the schema holds. */
  lemma EnabledMeetsMinimum(questionBankId: string, questionIds: seq<string>)
    requires SubmitEnabled(false, questionIds) && questionBankId != ""
    ensures SchemaErrors(questionBankId, questionIds) == []
  {
  }

  /** The dialog's state: the chosen bank, the search text and the selected ids. */
  class Dialog {
    var questionBankId: Option<string>
    var searchText: string
    var questionIds: seq<string>

    /** The dialog opens with the exam's current questions selected. */
    constructor (initialSelected: seq<AddNewExam.SelectedQuestion>)
      ensures questionBankId.None? && searchText == ""
      ensures questionIds == AddNewExam.QuestionIds(initialSelected)
    {
      questionBankId := None;
      searchText := "";
      questionIds := AddNewExam.QuestionIds(initialSelected);
    }

    method HandleSelectAll(filtered: seq<BankQuestion>)
      modifies this`questionIds
      ensures questionIds == SelectAll(old(questionIds), filtered)
    {
      questionIds := SelectAll(questionIds, filtered);
    }

    method HandleCheck(questionId: string, checked: bool)
      modifies this`questionIds
      ensures questionIds == Selection.Toggle(old(questionIds), questionId, checked)
    {
      questionIds := Selection.Toggle(questionIds, questionId, checked);
    }

    /** Closing the dialog forgets the chosen bank and the search text. */
    method Close()
      modifies this`questionBankId, this`searchText
      ensures questionBankId.None? && searchText == ""
    {
      questionBankId := None;
      searchText := "";
    }
  }
}

=== FILE: capture_gallery.dfy ===
/**
 The supervisor's gallery of a student's face captures
 (pages/teacher/examsupervision/pages/DetailConnectionSupervisor.tsx): how
 each capture's status is decided, what happens to emotions that do not
 parse, the three statistics above the gallery and the status labels.
 */
module CaptureGallery {
  import opened Common

  /** A capture as the list returns it. `isDetected` and `logType` may be absent (null or undefined). */
  datatype Capture = Capture(captureId: string, emotions: Option<string>, isDetected: Option<bool>,
                             logType: Option<int>, imageUrl: Option<string>, errorMessage: Option<string>)

  datatype Status = Normal | Warning | Violation | NoFace

  /** Emotion scores by name, as a parsed JSON object. */
  type Emotions = map<string, real>

  /** A gallery item. */
  datatype Photo = Photo(id: string, status: Status, imageUrl: string, emotions: Emotions,
                         isDetected: Option<bool>, errorMessage: Option<string>)

  /**
   The status chain: a capture known to show no face is NoFace whatever its
   log type; otherwise log type 0, 1, 2 give Normal, Warning, Violation, and
   anything else (absent included) gives Normal.
   */
  function CaptureStatus(isDetected: Option<bool>, logType: Option<int>): (r: Status)
    ensures r == NoFace <==> isDetected == Some(false)
    ensures isDetected != Some(false) ==>
      (r == Warning <==> logType == Some(1)) && (r == Violation <==> logType == Some(2))
      && (r == Normal <==> logType != Some(1) && logType != Some(2))
  {
    if isDetected == Some(false) then NoFace
    else if logType == Some(0) then Normal
    else if logType == Some(1) then Warning
    else if logType == Some(2) then Violation
    else Normal
  }

  /** The no-face test comes first: an undetected capture with log type 2 is not shown as a violation. */
  lemma NoFaceBeatsLogType()
    ensures CaptureStatus(Some(false), Some(2)) == NoFace
    ensures CaptureStatus(None, Some(2)) == Violation
    ensures CaptureStatus(Some(true), Some(3)) == Normal
  {
  }

  /**
   `JSON.parse(item.emotions || '{}')` with `{}` kept on failure. The JSON
   parser is a parameter: it gives the object read, or None when it throws.
   */
  function ParseEmotions(raw: Option<string>, parse: string -> Option<Emotions>): (r: Emotions)
    ensures raw.None? || raw == Some("") ==> r == (if parse("{}").Some? then parse("{}").value else map[])
    ensures raw.Some? && raw.value != "" && parse(raw.value).None? ==> r == map[]
    ensures raw.Some? && raw.value != "" && parse(raw.value).Some? ==> r == parse(raw.value).value
  {
    var text := if raw.Some? && raw.value != "" then raw.value else "{}";
    match parse(text)
    case None => map[]
    case Some(m) => m
  }

  /** Text that does not parse leaves the capture with no emotions rather than failing the gallery. */
  lemma UnparsableIsEmpty(raw: string, parse: string -> Option<Emotions>)
    requires raw != "" && parse(raw).None?
    ensures ParseEmotions(Some(raw), parse) == map[]
  {
  }

  function ToPhoto(c: Capture, parse: string -> Option<Emotions>): (r: Photo)
    ensures r.id == c.captureId && r.status == CaptureStatus(c.isDetected, c.logType)
    ensures r.imageUrl == OrEmpty(c.imageUrl) && r.isDetected == c.isDetected
    ensures r.emotions == ParseEmotions(c.emotions, parse)
  {
    Photo(c.captureId, CaptureStatus(c.isDetected, c.logType), OrEmpty(c.imageUrl),
          ParseEmotions(c.emotions, parse), c.isDetected,
          if c.errorMessage.Some? && c.errorMessage.value != "" then c.errorMessage else None)
  }

  /** dataMain: no photos unless the list is an array; otherwise one photo per capture, in order. */
  function Photos(data: Option<seq<Capture>>, parse: string -> Option<Emotions>): (r: seq<Photo>)
    ensures data.None? ==> r == []
    ensures data.Some? ==> |r| == |data.value| && forall i | 0 <= i < |r| :: r[i] == ToPhoto(data.value[i], parse)
  {
    if data.None? then []
    else seq(|data.value|, i requires 0 <= i < |data.value| => ToPhoto(data.value[i], parse))
  }

  predicate IsNormal(p: Photo) { p.status == Normal }
  predicate NotDetected(p: Photo) { p.isDetected == Some(false) }
  predicate IsNoFace(p: Photo) { p.status == NoFace }
  predicate IsWarning(p: Photo) { p.status == Warning }

  /** The statistics: all photos, the Normal ones, and under "warning" the captures with no face detected. */
  datatype Stats = Stats(total: nat, normal: nat, warning: nat)

  function StatItems(photos: seq<Photo>): Stats
  {
    Stats(|photos|, Count(photos, IsNormal), Count(photos, NotDetected))
  }

  /** For the gallery's photos the "warning" statistic is the number of NoFace photos, and with the Normal ones it never exceeds the total. */
  lemma {:induction false} WarningCountsNoFace(data: seq<Capture>, parse: string -> Option<Emotions>)
    ensures var photos := Photos(Some(data), parse);
      StatItems(photos).warning == Count(photos, IsNoFace)
      && StatItems(photos).normal + StatItems(photos).warning <= StatItems(photos).total
  {
    var photos := Photos(Some(data), parse);
    forall p | p in photos ensures NotDetected(p) == IsNoFace(p) {
      var i :| 0 <= i < |photos| && photos[i] == p;
    }
    CountMono(photos, NotDetected, IsNoFace);
    CountMono(photos, IsNoFace, NotDetected);
    var notNormal := (p: Photo) => !IsNormal(p);
    CountMono(photos, NotDetected, notNormal);
    CountPartition(photos, IsNormal, notNormal);
  }

  /** A detected capture with log type 1 shows as Warning but is not counted under "warning". */
  lemma WarningStatusNotCounted(id: string)
    ensures var photos := Photos(Some([Capture(id, None, Some(true), Some(1), None, None)]), _ => None);
      photos[0].status == Warning && StatItems(photos).warning == 0
  {
    var photos := Photos(Some([Capture(id, None, Some(true), Some(1), None, None)]), _ => None);
    assert photos == [photos[0]];
    assert !NotDetected(photos[0]);
  }

  /** getStatusText: one label per status. */
  function StatusText(s: Status): string
  {
    match s
    case Normal => "Bình thường"
    case Warning => "Cảnh báo"
    case Violation => "Vi phạm"
    case NoFace => "Không phát hiện khuôn mặt"
  }

  /** The label for values outside the four statuses. */
  const UnknownStatusText: string := "Không xác định"

  /** Different statuses get different labels, and none is the label for unknown values. */
  lemma StatusTextDistinct(a: Status, b: Status)
    ensures StatusText(a) == StatusText(b) <==> a == b
    ensures StatusText(a) != UnknownStatusText
  {
    var t := StatusText(a);
    assert t[0] == if a == Normal then 'B' else if a == Warning then 'C' else if a == Violation then 'V' else 'K';
    assert StatusText(b)[0] == if b == Normal then 'B' else if b == Warning then 'C' else if b == Violation then 'V' else 'K';
  }

  /** getStatusColor: the badge classes per status. */
  function StatusColor(s: Status): string
  {
    match s
    case Normal => "bg-green-100 text-green-800 border-green-200"
    case Warning => "bg-yellow-100 text-yellow-800 border-yellow-200"
    case Violation => "bg-red-100 text-red-800 border-red-200"
    case NoFace => "bg-red-100 text-red-800 border-red-200"
  }

  /** A violation and a missing face share the red badge; the other statuses each have their own colour. */
  lemma StatusColorShared(a: Status, b: Status)
    ensures StatusColor(a) == StatusColor(b) <==> a == b || (a in {Violation, NoFace} && b in {Violation, NoFace})
  {
    if StatusColor(a) == StatusColor(b) && a != b {
      assert StatusColor(a)[3] == StatusColor(b)[3];
    }
  }

  /** The log-type filter: a cleared choice (null) sends ''. */
  function LogTypeFilter(choice: Option<string>): (r: string)
    ensures choice.None? || choice == Some("") ==> r == ""
    ensures choice.Some? ==> r == choice.value
  {
    if choice.Some? then choice.value else ""
  }
}

=== FILE: classes_service.dfy ===
/**
 The classes rooms are held for (ClassesService.cs): searching and paging,
 switching a class on or off, and creating one with an unused ClassCode or
 overwriting one.
 */
module ClassesService {
  import opened Common
  import opened Domain

  datatype Class = Class(classId: string, classCode: string, description: Option<string>, createdBy: Option<string>,
                         isActive: bool, startDate: Option<int>, endDate: Option<int>,
                         createdAt: Option<int>, updatedAt: Option<int>)

  datatype ClassSearch = ClassSearch(textSearch: Option<string>, isActive: Option<bool>,
                                     fromDate: Option<int>, toDate: Option<int>, currentPage: int, pageSize: int)

  datatype ClassInput = ClassInput(classId: Option<string>, classCode: string, description: Option<string>,
                                   isActive: bool, startDate: Option<int>, endDate: Option<int>)

  /** The activity-log record a save writes. */
  datatype LogEntry = LogEntry(actionType: string, description: string, objectId: Option<string>)

  const MsgNoClasses: string := "No classes found."
  const MsgEmptyId: string := "Class ID cannot be null or empty."
  const MsgNotFound: string := "Class not found."
  const MsgCodeInUse: string := "This ClassCode is already in use. Please enter a different one."

  // ---------------------------------------------------------------- GetAllClasses

  /** A NULL StartDate fails both date bounds, as a comparison with NULL does. */
  predicate MatchesSearch(c: Class, q: ClassSearch)
  {
    (IsNullOrBlank(q.textSearch) || Contains(c.classCode, q.textSearch.value))
    && (q.isActive.None? || c.isActive == q.isActive.value)
    && (q.fromDate.None? || (c.startDate.Some? && c.startDate.value >= q.fromDate.value))
    && (q.toDate.None? || (c.startDate.Some? && c.startDate.value <= q.toDate.value))
  }

  predicate ClassBefore(a: Class, b: Class)
  {
    NewestFirst(a.createdAt, b.createdAt)
  }

  lemma ClassBeforeTotal()
    ensures TotalPreorder(ClassBefore)
  {
    NewestFirstTotal();
  }

  /** GetAllClasses: unlike the subject list, an empty page (even past the end) gives the message. */
  function GetAllClasses(classes: seq<Class>, q: ClassSearch): (r: (string, Listing<Class>))
    ensures var matching := Filter(classes, (c: Class) => MatchesSearch(c, q));
      var page := PageOf(SortBy(matching, ClassBefore), q.currentPage, q.pageSize);
      && (r.0 == MsgNoClasses <==> page == [])
      && (r.0 == "" ==> r.1.items == Some(page))
      && (matching == [] || q.pageSize <= 0 ==> r.0 == MsgNoClasses)
      && (r.0 != "" ==> r.0 == MsgNoClasses && r.1.items.None?)
      && (r.0 == "" ==>
            r.1.items.Some? && r.1.items.value != [] && r.1.total == |matching|
            && r.1.totalPage == PageCount(|matching|, q.pageSize)
            && (forall c | c in r.1.items.value :: c in classes && MatchesSearch(c, q))
            && SortedBy(r.1.items.value, ClassBefore))
  {
    var matching := Filter(classes, (c: Class) => MatchesSearch(c, q));
    ClassBeforeTotal();
    var page := SortedPage(matching, ClassBefore, q.currentPage, q.pageSize);
    if page == [] then (MsgNoClasses, Listing(None, 0, 0, 0, 0))
    else ("", Listing(Some(page), PageCount(|matching|, q.pageSize), q.currentPage, q.pageSize, |matching|))
  }

  /** The position of the class with the id. */
  function Find(classes: seq<Class>, id: string): (r: Option<nat>)
    ensures r.Some? ==> r.value < |classes| && classes[r.value].classId == id
    ensures r.None? <==> forall c | c in classes :: c.classId != id
  {
    var r := FirstWhere(classes, (c: Class) => c.classId == id);
    assert r.None? ==> forall c | c in classes :: c.classId != id by {
      if r.None? {
        forall c | c in classes ensures c.classId != id {
          var j :| 0 <= j < |classes| && classes[j] == c;
        }
      }
    }
    r
  }

  // ---------------------------------------------------------------- DoCreateUpdateClass

  predicate CodeTaken(classes: seq<Class>, code: string)
  {
    exists c | c in classes :: c.classCode == code
  }

  /** A create is refused for a used ClassCode; an update only for an unknown id. */
  function SaveError(classes: seq<Class>, input: ClassInput): (r: Option<string>)
    ensures IsNullOrBlank(input.classId) ==> (r.None? <==> !CodeTaken(classes, input.classCode))
    ensures !IsNullOrBlank(input.classId) ==> (r.None? <==> Find(classes, input.classId.value).Some?)
    ensures r.Some? ==> r.value == MsgCodeInUse || r.value == MsgNotFound
  {
    if IsNullOrBlank(input.classId) then
      if CodeTaken(classes, input.classCode) then Some(MsgCodeInUse) else None
    else if Find(classes, input.classId.value).None? then Some(MsgNotFound)
    else None
  }

  function CreatedClass(input: ClassInput, newId: string, caller: string, now: int): (r: Class)
    ensures r.classId == newId && r.classCode == input.classCode && r.createdBy == Some(caller)
    ensures r.isActive == input.isActive && r.createdAt == Some(now) && r.updatedAt.None?
  {
    Class(newId, input.classCode, input.description, Some(caller), input.isActive, input.startDate, input.endDate,
          Some(now), None)
  }

  /** An update overwrites CreatedBy with whoever saved it. */
  function UpdatedClass(c: Class, input: ClassInput, caller: string, now: int): (r: Class)
    ensures r.classId == c.classId && r.createdAt == c.createdAt && r.updatedAt == Some(now)
    ensures r.classCode == input.classCode && r.isActive == input.isActive && r.createdBy == Some(caller)
  {
    c.(classCode := input.classCode, description := input.description, createdBy := Some(caller),
       isActive := input.isActive, startDate := input.startDate, endDate := input.endDate, updatedAt := Some(now))
  }

  predicate CodesUnique(classes: seq<Class>)
  {
    forall i, j | 0 <= i < j < |classes| :: classes[i].classCode != classes[j].classCode
  }

  /** A create the check lets through keeps ClassCodes unique. */
  lemma CreateKeepsCodesUnique(classes: seq<Class>, input: ClassInput, newId: string, caller: string, now: int)
    requires CodesUnique(classes) && IsNullOrBlank(input.classId) && SaveError(classes, input).None?
    ensures CodesUnique(classes + [CreatedClass(input, newId, caller, now)])
  {
    var r := classes + [CreatedClass(input, newId, caller, now)];
    forall i, j | 0 <= i < j < |r| ensures r[i].classCode != r[j].classCode {
      if j == |classes| {
        assert r[i] in classes;
      }
    }
  }

  /** An update is not checked for ClassCode clashes, and it hands the class to its last editor. */
  lemma UpdateMayDuplicateCode(a: Class, b: Class, caller: string, now: int)
    requires a.classId != b.classId && a.classCode != b.classCode && !IsBlank(b.classId)
    ensures var input := ClassInput(Some(b.classId), a.classCode, b.description, b.isActive, b.startDate, b.endDate);
      && CodesUnique([a, b])
      && SaveError([a, b], input).None?
      && !CodesUnique([a, UpdatedClass(b, input, caller, now)])
      && UpdatedClass(b, input, caller, now).createdBy == Some(caller)
  {
    var input := ClassInput(Some(b.classId), a.classCode, b.description, b.isActive, b.startDate, b.endDate);
    assert Find([a, b], b.classId) == Some(1);
    assert [a, UpdatedClass(b, input, caller, now)][0].classCode == [a, UpdatedClass(b, input, caller, now)][1].classCode;
  }

  /**
   The log record as the code builds it: on a create the new ClassId is
   stored in the input first, so the created/updated test always sees an id.
   */
  function LogEntryAsWritten(input: ClassInput, newId: string): (r: LogEntry)
    ensures r.objectId == (if IsNullOrBlank(input.classId) then Some(newId) else input.classId)
  {
    var id := if IsNullOrBlank(input.classId) then Some(newId) else input.classId;
    var action := if IsNullOrBlank(id) then "created" else "updated.";
    LogEntry(action, "A class has been " + action, id)
  }

  /** A create with a generated (non-blank) id is logged as "updated.". */
  lemma CreateLoggedAsUpdate(input: ClassInput, newId: string)
    requires IsNullOrBlank(input.classId) && !IsBlank(newId)
    ensures LogEntryAsWritten(input, newId).actionType == "updated."
    ensures LogEntryAsWritten(input, newId).description == "A class has been updated."
  {
  }

  /** The log record with the created/updated test made on the id the caller sent. */
  function LogEntryFor(input: ClassInput, newId: string): (r: LogEntry)
    ensures r.actionType == "created" <==> IsNullOrBlank(input.classId)
    ensures r.actionType == "created" || r.actionType == "updated."
    ensures r.description == "A class has been " + r.actionType
    ensures r.objectId == (if IsNullOrBlank(input.classId) then Some(newId) else input.classId)
  {
    var created := IsNullOrBlank(input.classId);
    var action := if created then "created" else "updated.";
    LogEntry(action, "A class has been " + action, if created then Some(newId) else input.classId)
  }

  /** The two records differ exactly on creates. */
  lemma LogEntriesAgreeOnUpdates(input: ClassInput, newId: string)
    requires !IsBlank(newId)
    ensures LogEntryFor(input, newId) == LogEntryAsWritten(input, newId) <==> !IsNullOrBlank(input.classId)
  {
  }

  // ---------------------------------------------------------------- the store

  /** The Classes table in table order. */
  class ClassStore {
    var classes: seq<Class>

    constructor (classes: seq<Class>)
      ensures this.classes == classes
    {
      this.classes := classes;
    }

    /** DoDeactivateClass: flips IsActive (saved before the log) and returns the log's message. */
    method DoDeactivateClass(id: Option<string>, logMessage: string) returns (message: string)
      modifies this
      ensures IsNullOrEmpty(id) ==> message == MsgEmptyId && classes == old(classes)
      ensures !IsNullOrEmpty(id) && Find(old(classes), id.value).None? ==> message == MsgNotFound && classes == old(classes)
      ensures !IsNullOrEmpty(id) && Find(old(classes), id.value).Some? ==>
        var k := Find(old(classes), id.value).value;
        message == logMessage && classes == old(classes)[k := old(classes)[k].(isActive := !old(classes)[k].isActive)]
    {
      if IsNullOrEmpty(id) {
        return MsgEmptyId;
      }
      var k := Find(classes, id.value);
      if k.None? {
        return MsgNotFound;
      }
      classes := classes[k.value := classes[k.value].(isActive := !classes[k.value].isActive)];
      message := logMessage;
    }

    /** DoCreateUpdateClass: creates under `newId` or overwrites the class, and writes the log record. */
    method DoCreateUpdateClass(input: ClassInput, caller: string, now: int, newId: string, logMessage: string)
      returns (message: string, logged: Option<LogEntry>)
      requires !IsBlank(newId)
      modifies this
      ensures var err := SaveError(old(classes), input);
        && (err.Some? ==> message == err.value && logged.None? && classes == old(classes))
        && (err.None? && IsNullOrBlank(input.classId) ==>
              classes == old(classes) + [CreatedClass(input, newId, caller, now)])
        && (err.None? && !IsNullOrBlank(input.classId) ==>
              var k := Find(old(classes), input.classId.value).value;
              classes == old(classes)[k := UpdatedClass(old(classes)[k], input, caller, now)])
        && (err.None? ==> message == logMessage && logged == Some(LogEntryFor(input, newId)))
    {
      var err := SaveError(classes, input);
      if err.Some? {
        return err.value, None;
      }
      if IsNullOrBlank(input.classId) {
        classes := classes + [CreatedClass(input, newId, caller, now)];
      } else {
        var k := Find(classes, input.classId.value).value;
        classes := classes[k := UpdatedClass(classes[k], input, caller, now)];
      }
      message, logged := logMessage, Some(LogEntryFor(input, newId));
    }
  }
}

=== FILE: common.dfy ===
/**
 Shared value types and string/sequence helpers used by every module of the
 kiosk exam system model: optional values, ASCII whitespace and case
 handling, C#-style Split/Join, substring search, order-preserving
 de-duplication and decimal rendering of integers.
 */
module Common {

  datatype Option<T> = None | Some(value: T)

  /** A nullable string as C# interpolation and string.Join render it: null becomes "". */
  function OrEmpty(s: Option<string>): (r: string)
    ensures s.Some? ==> r == s.value
    ensures s.None? ==> r == ""
  {
    if s.Some? then s.value else ""
  }

  /** string.IsNullOrWhiteSpace on a nullable string. */
  predicate IsNullOrBlank(s: Option<string>)
  {
    s.None? || IsBlank(s.value)
  }

  /** string.IsNullOrEmpty on a nullable string: blank text is not empty. */
  predicate IsNullOrEmpty(s: Option<string>)
  {
    s.None? || s.value == ""
  }

  /** The (Success, Message) pair the services return, carrying the written value on success. */
  datatype Result<T> = Failure(message: string) | Success(value: T)

  // ---------------------------------------------------------------- characters

  /** White space as recognised by the model (ASCII subset of char.IsWhiteSpace). */
  predicate IsSpace(c: char)
  {
    c == ' ' || c == '\t' || c == '\n' || c == '\r' || c == '\U{0B}' || c == '\U{0C}'
  }


  function LowerChar(c: char): char
  {
    if 'A' <= c <= 'Z' then (c as int + 32) as char else c
  }

  function UpperChar(c: char): char
  {
    if 'a' <= c <= 'z' then (c as int - 32) as char else c
  }

  function Lower(s: string): (r: string)
    ensures |r| == |s|
  {
    seq(|s|, i requires 0 <= i < |s| => LowerChar(s[i]))
  }

  /** Lower-casing leaves no capital letter. */
  lemma LowerLeavesNoCapitals(s: string)
    ensures forall c | c in Lower(s) :: !('A' <= c <= 'Z')
  {
    forall c | c in Lower(s) ensures !('A' <= c <= 'Z') {
      var i :| 0 <= i < |s| && Lower(s)[i] == c;
    }
  }

  /** A string without capital letters is its own lower case. */
  lemma LowerNoCapitals(s: string)
    requires forall c | c in s :: !('A' <= c <= 'Z')
    ensures Lower(s) == s
  {
    forall i | 0 <= i < |s| ensures Lower(s)[i] == s[i] {
      assert s[i] in s;
    }
  }

  function Upper(s: string): (r: string)
    ensures |r| == |s|
  {
    seq(|s|, i requires 0 <= i < |s| => UpperChar(s[i]))
  }

  /** string.Equals(a, b, StringComparison.OrdinalIgnoreCase). */
  predicate EqIgnoreCase(a: string, b: string)
  {
    Lower(a) == Lower(b)
  }

  predicate IsDigit(c: char)
  {
    '0' <= c <= '9'
  }

  // ---------------------------------------------------------------- trimming

  /** Where the leading white space that starts at `i` ends. */
  function SkipSpaces(s: string, i: nat): (r: nat)
    requires i <= |s|
    ensures i <= r <= |s| && (r == |s| || !IsSpace(s[r]))
    ensures forall k | i <= k < r :: IsSpace(s[k])
    decreases |s| - i
  {
    if i < |s| && IsSpace(s[i]) then SkipSpaces(s, i + 1) else i
  }

  /** Where the text before `j` ends once the white space ending at `j` is dropped, never going below `lo`. */
  function SkipSpacesBack(s: string, lo: nat, j: nat): (r: nat)
    requires lo <= j <= |s|
    ensures lo <= r <= j && (r == lo || !IsSpace(s[r - 1]))
    ensures forall k | r <= k < j :: IsSpace(s[k])
    decreases j
  {
    if lo < j && IsSpace(s[j - 1]) then SkipSpacesBack(s, lo, j - 1) else j
  }

  /** string.IsNullOrWhiteSpace for a present string: the leading white space runs to the end. */
  predicate IsBlank(s: string)
  {
    SkipSpaces(s, 0) == |s|
  }

  /** A string is blank exactly when every character is white space. */
  lemma BlankIff(s: string)
    ensures IsBlank(s) <==> forall i | 0 <= i < |s| :: IsSpace(s[i])
  {
  }

  /** string.Trim(): a blank string trims to "" and a trimmed string has no white space at its ends. */
  function Trim(s: string): (r: string)
    ensures r == [] <==> IsBlank(s)
    ensures r == [] || (!IsSpace(r[0]) && !IsSpace(r[|r| - 1]))
    ensures forall c | c in r :: c in s
  {
    var i := SkipSpaces(s, 0);
    s[i..SkipSpacesBack(s, i, |s|)]
  }

  // ---------------------------------------------------------------- substrings

  predicate IsPrefix(p: string, s: string)
  {
    |p| <= |s| && s[..|p|] == p
  }

  predicate IsSuffix(p: string, s: string)
  {
    |p| <= |s| && s[|s| - |p|..] == p
  }

  /** s.Contains(sub) / s.includes(sub): some position of s starts with sub. */
  predicate Contains(s: string, sub: string)
    decreases |s|
  {
    IsPrefix(sub, s) || (|s| > 0 && Contains(s[1..], sub))
  }

  /** Case-insensitive containment, as `ToLower().Contains(x.ToLower())`. */
  predicate ContainsIgnoreCase(s: string, sub: string)
  {
    Contains(Lower(s), Lower(sub))
  }

  // ---------------------------------------------------------------- split / join

  /** Index of the first occurrence of c in s, or |s| when absent. */
  function IndexOf(s: string, c: char): (k: nat)
    ensures k <= |s|
    ensures k < |s| ==> s[k] == c
    ensures c !in s[..k]
  {
    if s == [] then 0 else if s[0] == c then 0 else 1 + IndexOf(s[1..], c)
  }

  /** string.Split(sep): all pieces, empty ones included; never an empty list. */
  function Split(s: string, sep: char): (r: seq<string>)
    ensures |r| >= 1
    ensures forall i | 0 <= i < |r| :: sep !in r[i]
    decreases |s|
  {
    var k := IndexOf(s, sep);
    if k == |s| then [s] else [s[..k]] + Split(s[k + 1..], sep)
  }

  /** string.Join(sep, parts). */
  function Join(parts: seq<string>, sep: char): string
  {
    if |parts| == 0 then ""
    else if |parts| == 1 then parts[0]
    else parts[0] + [sep] + Join(parts[1..], sep)
  }

  /** string.Join(sep, parts) with a separator of several characters. */
  function JoinWith(parts: seq<string>, sep: string): string
  {
    if |parts| == 0 then ""
    else if |parts| == 1 then parts[0]
    else parts[0] + sep + JoinWith(parts[1..], sep)
  }

  /** The joined text starts with the first part and ends with the last one. */
  lemma {:induction false} JoinEnds(parts: seq<string>, sep: char)
    requires |parts| >= 1
    ensures IsPrefix(parts[0], Join(parts, sep)) && IsSuffix(parts[|parts| - 1], Join(parts, sep))
    decreases |parts|
  {
    if |parts| > 1 {
      JoinEnds(parts[1..], sep);
      var rest := Join(parts[1..], sep);
      assert Join(parts, sep) == parts[0] + [sep] + rest;
      assert parts[1..][|parts[1..]| - 1] == parts[|parts| - 1];
    }
  }

  lemma {:induction false} JoinSplit(s: string, sep: char)
    ensures Join(Split(s, sep), sep) == s
    decreases |s|
  {
    var k := IndexOf(s, sep);
    if k < |s| {
      var rest := Split(s[k + 1..], sep);
      JoinSplit(s[k + 1..], sep);
      var parts := [s[..k]] + rest;
      assert Split(s, sep) == parts;
      assert parts[1..] == rest;
      assert Join(parts, sep) == s[..k] + [sep] + Join(rest, sep);
      assert s == s[..k] + [sep] + s[k + 1..];
    }
  }

  lemma {:induction false} SplitJoin(parts: seq<string>, sep: char)
    requires |parts| >= 1
    requires forall i | 0 <= i < |parts| :: sep !in parts[i]
    ensures Split(Join(parts, sep), sep) == parts
    decreases |parts|
  {
    if |parts| > 1 {
      var rest := parts[1..];
      SplitJoin(rest, sep);
      SplitFirst(parts[0], sep, Join(rest, sep));
      assert parts == [parts[0]] + rest;
    } else {
      IndexOfAbsent(parts[0], sep);
    }
  }

  /** Splitting at the first separator yields the text before it, then the split of the rest. */
  lemma SplitFirst(a: string, sep: char, b: string)
    requires sep !in a
    ensures Split(a + [sep] + b, sep) == [a] + Split(b, sep)
  {
    IndexOfPast(a, sep, b);
    AroundSeparator(a, sep, b);
  }

  /** The pieces on either side of one separator. */
  lemma AroundSeparator<T>(a: seq<T>, c: T, b: seq<T>)
    ensures (a + [c] + b)[..|a|] == a && (a + [c] + b)[|a| + 1..] == b
  {
  }

  lemma IndexOfAbsent(s: string, c: char)
    requires c !in s
    ensures IndexOf(s, c) == |s|
  {
  }

  lemma IndexOfPast(a: string, c: char, b: string)
    requires c !in a
    ensures IndexOf(a + [c] + b, c) == |a|
    decreases |a|
  {
    if a != [] {
      assert (a + [c] + b)[1..] == a[1..] + [c] + b;
      IndexOfPast(a[1..], c, b);
    }
  }

  // ---------------------------------------------------------------- filtering

  function Filter<T>(s: seq<T>, p: T -> bool): (r: seq<T>)
    ensures |r| <= |s|
    ensures forall x | x in r :: x in s && p(x)
    ensures forall x | x in s && p(x) :: x in r
  {
    if s == [] then [] else (if p(s[0]) then [s[0]] else []) + Filter(s[1..], p)
  }

  /** The head and tail of a concatenation whose first part is not empty. */
  lemma ConsAppend<T>(a: seq<T>, b: seq<T>)
    requires a != []
    ensures (a + b)[0] == a[0] && (a + b)[1..] == a[1..] + b
  {
  }

  lemma AppendAssoc<T>(x: seq<T>, y: seq<T>, z: seq<T>)
    ensures x + (y + z) == (x + y) + z
  {
  }

  /** Filtering distributes over concatenation. */
  lemma {:induction false} FilterAppend<T>(a: seq<T>, b: seq<T>, p: T -> bool)
    ensures Filter(a + b, p) == Filter(a, p) + Filter(b, p)
  {
    if a == [] {
      assert a + b == b;
    } else {
      var head := if p(a[0]) then [a[0]] else [];
      FilterAppend(a[1..], b, p);
      ConsAppend(a, b);
      assert Filter(a + b, p) == head + Filter(a[1..] + b, p);
      AppendAssoc(head, Filter(a[1..], p), Filter(b, p));
    }
  }

  /** The position of the first element passing p (LINQ FirstOrDefault, as an index). */
  function FirstWhere<T>(s: seq<T>, p: T -> bool): (r: Option<nat>)
    ensures r.Some? ==> r.value < |s| && p(s[r.value]) && forall j | 0 <= j < r.value :: !p(s[j])
    ensures r.None? <==> forall j | 0 <= j < |s| :: !p(s[j])
  {
    if s == [] then None
    else if p(s[0]) then Some(0)
    else
      var r := FirstWhere(s[1..], p);
      if r.Some? then Some(r.value + 1) else None
  }

  function Count<T>(s: seq<T>, p: T -> bool): nat
  {
    |Filter(s, p)|
  }

  /** Keeps the first element for each key, in order (LINQ DistinctBy, or a `Set` of seen keys). */
  function DistinctBy<T(==), K(==)>(s: seq<T>, key: T -> K): (r: seq<T>)
    ensures |r| <= |s|
    ensures forall x | x in r :: x in s
    decreases |s|
  {
    if s == [] then []
    else
      var d := DistinctBy(s[..|s| - 1], key);
      var last := s[|s| - 1];
      if HasKey(d, key, key(last)) then d else d + [last]
  }

  predicate HasKey<T, K(==)>(s: seq<T>, key: T -> K, k: K)
  {
    exists i | 0 <= i < |s| :: key(s[i]) == k
  }

  predicate KeysUnique<T, K(==)>(s: seq<T>, key: T -> K)
  {
    forall i, j | 0 <= i < j < |s| :: key(s[i]) != key(s[j])
  }

  /** Some entry equals `x` ignoring case (a HashSet or Contains with OrdinalIgnoreCase). */
  predicate HasIgnoreCase(entries: seq<string>, x: string)
  {
    HasKey(entries, Lower, Lower(x))
  }

  /** The case-insensitive set built from a list answers membership as the list does. */
  lemma DistinctIgnoreCase(entries: seq<string>, x: string)
    ensures HasIgnoreCase(DistinctBy(entries, Lower), x) <==> HasIgnoreCase(entries, x)
  {
    DistinctByKeys(entries, Lower, Lower(x));
  }

  /** After de-duplication no key occurs twice. */
  lemma {:induction false} DistinctByUnique<T, K>(s: seq<T>, key: T -> K)
    ensures KeysUnique(DistinctBy(s, key), key)
    decreases |s|
  {
    if s != [] {
      DistinctByUnique(s[..|s| - 1], key);
    }
  }

  /** De-duplication loses no key: every key of the input is the key of some kept element. */
  lemma {:induction false} DistinctByKeys<T, K>(s: seq<T>, key: T -> K, k: K)
    ensures HasKey(DistinctBy(s, key), key, k) <==> HasKey(s, key, k)
    decreases |s|
  {
    if s != [] {
      var init := s[..|s| - 1];
      DistinctByKeys(init, key, k);
      var d := DistinctBy(init, key);
      var r := DistinctBy(s, key);
      var last := s[|s| - 1];
      assert forall j | 0 <= j < |d| :: r[j] == d[j];
      if HasKey(s, key, k) {
        var i :| 0 <= i < |s| && key(s[i]) == k;
        if i < |s| - 1 {
          assert key(init[i]) == k;
          var j :| 0 <= j < |d| && key(d[j]) == k;
          assert key(r[j]) == k;
        } else if !HasKey(d, key, key(last)) {
          assert r[|d|] == last;
        } else {
          var j :| 0 <= j < |d| && key(d[j]) == key(last);
          assert key(r[j]) == k;
        }
      }
      if HasKey(r, key, k) {
        var j :| 0 <= j < |r| && key(r[j]) == k;
        if j < |d| {
          assert HasKey(d, key, k);
          var i :| 0 <= i < |init| && key(init[i]) == k;
          assert s[i] == init[i];
        } else {
          assert key(s[|s| - 1]) == k;
        }
      }
    }
  }

  // ---------------------------------------------------------------- numbers

  function DigitChar(d: nat): char
    requires d < 10
  {
    "0123456789"[d]
  }

  function DigitValue(c: char): nat
    requires IsDigit(c)
  {
    c as int - '0' as int
  }

  /** Decimal rendering of a natural number, as string interpolation does. */
  function NatToString(n: nat): (r: string)
    ensures |r| >= 1 && AllDigits(r)
  {
    if n < 10 then [DigitChar(n)] else NatToString(n / 10) + [DigitChar(n % 10)]
  }

  /** Decimal rendering of an integer: a minus sign before a negative one, then its digits. */
  function IntToString(n: int): (r: string)
    ensures |r| >= 1 && (r[0] == '-' || IsDigit(r[0]))
  {
    if n < 0 then "-" + NatToString(-n) else NatToString(n)
  }

  function DigitsValue(s: string): nat
    requires AllDigits(s)
  {
    if s == [] then 0 else DigitsValue(s[..|s| - 1]) * 10 + DigitValue(s[|s| - 1])
  }

  predicate AllDigits(s: string)
  {
    forall i | 0 <= i < |s| :: IsDigit(s[i])
  }

  /** int.Parse: optional surrounding white space, an optional sign and at least one digit; None is a FormatException. */
  function ParseInt(s: string): Option<int>
  {
    ParseSigned(Trim(s))
  }

  function ParseSigned(t: string): Option<int>
  {
    if t == [] then None
    else if t[0] == '-' then
      if t[1..] != [] && AllDigits(t[1..]) then Some(0 - DigitsValue(t[1..])) else None
    else
      var body := if t[0] == '+' then t[1..] else t;
      if body != [] && AllDigits(body) then Some(DigitsValue(body)) else None
  }

  lemma {:induction false} DigitsOfNat(n: nat)
    ensures DigitsValue(NatToString(n)) == n
  {
    var r := NatToString(n);
    if n >= 10 {
      DigitsOfNat(n / 10);
      assert r[..|r| - 1] == NatToString(n / 10);
    }
  }

  lemma TrimDigits(r: string)
    requires |r| >= 1 && AllDigits(r)
    ensures Trim(r) == r
  {
    assert IsDigit(r[0]) && IsDigit(r[|r| - 1]);
    TrimNoop(r);
  }

  /** Rendering an integer and parsing it back gives the integer. */
  lemma ParseIntToString(n: int)
    ensures ParseInt(IntToString(n)) == Some(n)
  {
    if n < 0 {
      var m: nat := -n;
      var d := NatToString(m);
      assert IntToString(n) == "-" + d;
      ParseNegativeDigits(d);
      DigitsOfNat(m);
    } else {
      ParseNatToString(n);
    }
  }

  lemma ParseNatToString(m: nat)
    ensures ParseInt(NatToString(m)) == Some(m)
  {
    DigitsOfNat(m);
    ParseDigits(NatToString(m));
  }

  lemma ParseDigits(d: string)
    requires |d| >= 1 && AllDigits(d)
    ensures ParseInt(d) == Some(DigitsValue(d))
  {
    TrimDigits(d);
    ParseTrimmed(d);
    ParseSignedDigits(d);
  }

  lemma ParseTrimmed(t: string)
    requires Trim(t) == t
    ensures ParseInt(t) == ParseSigned(t)
  {
  }

  lemma ParseSignedDigits(d: string)
    requires |d| >= 1 && AllDigits(d)
    ensures ParseSigned(d) == Some(DigitsValue(d))
  {
    assert IsDigit(d[0]);
  }

  lemma ParseNegativeDigits(d: string)
    requires |d| >= 1 && AllDigits(d)
    ensures ParseInt("-" + d) == Some(0 - DigitsValue(d))
  {
    NegativeTrim(d);
    ParseTrimmed("-" + d);
    ParseSignedNegative(d);
  }

  lemma ParseSignedNegative(d: string)
    requires |d| >= 1 && AllDigits(d)
    ensures ParseSigned("-" + d) == Some(0 - DigitsValue(d))
  {
    var s := "-" + d;
    assert s[0] == '-';
    assert s[1..] == d;
  }

  lemma NegativeTrim(digits: string)
    requires |digits| >= 1 && AllDigits(digits)
    ensures Trim("-" + digits) == "-" + digits
  {
    var s := "-" + digits;
    assert s[|s| - 1] == digits[|digits| - 1];
    TrimNoop(s);
  }

  // ---------------------------------------------------------------- more list facts

  /** A string whose two ends are not white space is left alone by Trim. */
  lemma TrimNoop(t: string)
    requires t == [] || (!IsSpace(t[0]) && !IsSpace(t[|t| - 1]))
    ensures Trim(t) == t
  {
    if t != [] {
      assert SkipSpaces(t, 0) == 0;
      assert SkipSpacesBack(t, 0, |t|) == |t|;
    }
  }

  /** No element occurs twice (`xs.Distinct().Count() == xs.Count`). */
  predicate NoDup<T(==)>(s: seq<T>)
  {
    forall i, j | 0 <= i < j < |s| :: s[i] != s[j]
  }

  /** A list has as many distinct elements as entries exactly when nothing repeats (`new Set(xs).size === xs.length`). */
  lemma {:induction false} SetSizeNoDup<T>(s: seq<T>)
    ensures |set x | x in s| <= |s|
    ensures |set x | x in s| == |s| <==> NoDup(s)
  {
    if s != [] {
      var tail := s[1..];
      SetSizeNoDup(tail);
      assert (set x | x in s) == {s[0]} + (set x | x in tail);
      if s[0] in tail {
        var k :| 0 <= k < |tail| && tail[k] == s[0];
        assert s[k + 1] == s[0];
        assert (set x | x in s) == (set x | x in tail);
      } else {
        if NoDup(tail) {
          forall i, j | 0 <= i < j < |s| ensures s[i] != s[j] {
            assert s[j] == tail[j - 1];
            if i > 0 {
              assert s[i] == tail[i - 1];
            }
          }
        }
        if NoDup(s) {
          forall i, j | 0 <= i < j < |tail| ensures tail[i] != tail[j] {
            assert tail[i] == s[i + 1] && tail[j] == s[j + 1];
          }
        }
      }
    }
  }

  /** A list headed by x is duplicate-free exactly when x is not in the rest and the rest is duplicate-free. */
  lemma ConsNoDup<T>(x: T, t: seq<T>)
    ensures NoDup([x] + t) <==> x !in t && NoDup(t)
  {
    var s := [x] + t;
    if NoDup(s) {
      forall i, j | 0 <= i < j < |t| ensures t[i] != t[j] {
        assert t[i] == s[i + 1] && t[j] == s[j + 1];
      }
    }
    if x in t {
      var k :| 0 <= k < |t| && t[k] == x;
      assert s[k + 1] == s[0];
    }
    if x !in t && NoDup(t) {
      forall i, j | 0 <= i < j < |s| ensures s[i] != s[j] {
        assert s[j] == t[j - 1] && s[j] in t;
        if i > 0 {
          assert s[i] == t[i - 1];
        }
      }
    }
  }

  /** No element passing p occurs again later in the list. */
  predicate DistinctWhere<T(==)>(s: seq<T>, p: T -> bool)
  {
    forall i, j | 0 <= i < j < |s| && p(s[i]) :: s[i] != s[j]
  }

  lemma DistinctWhereCons<T>(s: seq<T>, p: T -> bool)
    requires s != []
    ensures DistinctWhere(s, p) <==> (p(s[0]) ==> s[0] !in s[1..]) && DistinctWhere(s[1..], p)
  {
    var tail := s[1..];
    if DistinctWhere(s, p) {
      forall i, j | 0 <= i < j < |tail| && p(tail[i]) ensures tail[i] != tail[j] {
        assert tail[i] == s[i + 1] && tail[j] == s[j + 1];
      }
    }
    if p(s[0]) && s[0] in tail {
      var k :| 0 <= k < |tail| && tail[k] == s[0];
      assert s[k + 1] == s[0];
    }
    if (p(s[0]) ==> s[0] !in tail) && DistinctWhere(tail, p) {
      forall i, j | 0 <= i < j < |s| && p(s[i]) ensures s[i] != s[j] {
        assert s[j] == tail[j - 1] && s[j] in tail;
        if i > 0 {
          assert s[i] == tail[i - 1];
        }
      }
    }
  }

  /** The passing elements are distinct exactly when no passing element occurs again later. */
  lemma {:induction false} FilterNoDupIff<T>(s: seq<T>, p: T -> bool)
    ensures NoDup(Filter(s, p)) <==> DistinctWhere(s, p)
  {
    if s != [] {
      var rest := Filter(s[1..], p);
      FilterNoDupIff(s[1..], p);
      DistinctWhereCons(s, p);
      if p(s[0]) {
        assert Filter(s, p) == [s[0]] + rest;
        ConsNoDup(s[0], rest);
      } else {
        assert Filter(s, p) == rest;
      }
    }
  }

  /** Filtering keeps every element exactly when every element passes. */
  lemma {:induction false} FilterAll<T>(s: seq<T>, p: T -> bool)
    ensures |Filter(s, p)| == |s| <==> forall x | x in s :: p(x)
  {
    if s != [] {
      FilterAll(s[1..], p);
      assert forall x | x in s[1..] :: x in s;
      if !p(s[0]) {
        assert |Filter(s, p)| == |Filter(s[1..], p)| <= |s[1..]| < |s|;
      }
    }
  }

  /** The elements passing p and those passing its complement q together make up the whole list. */
  lemma {:induction false} CountPartition<T>(s: seq<T>, p: T -> bool, q: T -> bool)
    requires forall x | x in s :: q(x) == !p(x)
    ensures Count(s, p) + Count(s, q) == |s|
  {
    if s != [] {
      assert forall x | x in s[1..] :: x in s;
      CountPartition(s[1..], p, q);
    }
  }

  /**
   `xs.Except(ys)`: the distinct elements of xs that are not in ys, in order
   of first occurrence.
   */
  function Except<T(==,!new)>(xs: seq<T>, ys: set<T>): (r: seq<T>)
    ensures |r| <= |xs|
    ensures NoDup(r)
    ensures forall x :: x in r <==> x in xs && x !in ys
  {
    if xs == [] then []
    else
      var d := Except(xs[..|xs| - 1], ys);
      var x := xs[|xs| - 1];
      if x in ys || x in d then d else d + [x]
  }

  /** A weaker test keeps at least as many elements. */
  lemma {:induction false} CountMono<T>(s: seq<T>, p: T -> bool, q: T -> bool)
    requires forall x | x in s :: p(x) ==> q(x)
    ensures Count(s, p) <= Count(s, q)
  {
    if s != [] {
      assert forall x | x in s[1..] :: x in s;
      CountMono(s[1..], p, q);
    }
  }

  // ---------------------------------------------------------------- ordering and paging

  /** `le` is a total preorder: any two values compare, and comparison chains. */
  ghost predicate TotalPreorder<T(!new)>(le: (T, T) -> bool)
  {
    (forall a, b :: le(a, b) || le(b, a))
    && (forall a, b, c :: le(a, b) && le(b, c) ==> le(a, c))
  }

  predicate SortedBy<T>(s: seq<T>, le: (T, T) -> bool)
  {
    forall i, j | 0 <= i < j < |s| :: le(s[i], s[j])
  }

  /** Inserts x before the first element it may precede. */
  function InsertBy<T>(x: T, s: seq<T>, le: (T, T) -> bool): (r: seq<T>)
    ensures multiset(r) == multiset(s) + multiset{x}
  {
    if s == [] then [x]
    else if le(x, s[0]) then [x] + s
    else
      assert s == [s[0]] + s[1..];
      [s[0]] + InsertBy(x, s[1..], le)
  }

  /** Insertion sort: `OrderBy` with the comparison `le`. */
  function SortBy<T>(s: seq<T>, le: (T, T) -> bool): (r: seq<T>)
    ensures multiset(r) == multiset(s)
    ensures |r| == |s|
  {
    if s == [] then []
    else
      assert s == [s[0]] + s[1..];
      var r := InsertBy(s[0], SortBy(s[1..], le), le);
      assert |r| == |multiset(r)|;
      r
  }

  lemma {:induction false} InsertSorted<T(!new)>(x: T, s: seq<T>, le: (T, T) -> bool)
    requires TotalPreorder(le) && SortedBy(s, le)
    ensures SortedBy(InsertBy(x, s, le), le)
  {
    if s != [] && !le(x, s[0]) {
      InsertSorted(x, s[1..], le);
      var t := InsertBy(x, s[1..], le);
      forall j | 0 <= j < |t|
        ensures le(s[0], t[j])
      {
        assert t[j] in multiset(t);
        if t[j] != x {
          assert t[j] in multiset(s[1..]);
          var k :| 0 <= k < |s[1..]| && s[1..][k] == t[j];
          assert s[k + 1] == t[j];
        }
      }
    }
  }

  /** The sorted list is ordered by `le` and holds the same elements. */
  lemma {:induction false} SortSorted<T(!new)>(s: seq<T>, le: (T, T) -> bool)
    requires TotalPreorder(le)
    ensures SortedBy(SortBy(s, le), le)
  {
    if s != [] {
      SortSorted(s[1..], le);
      InsertSorted(s[0], SortBy(s[1..], le), le);
    }
  }

  /** `Skip(n)`: drops the first n elements (none for n <= 0). */
  function Skip<T>(xs: seq<T>, n: int): (r: seq<T>)
    ensures n <= 0 ==> r == xs
    ensures 0 < n ==> r == if n < |xs| then xs[n..] else []
  {
    if n <= 0 then xs else if n < |xs| then xs[n..] else []
  }

  /** `Take(n)`: keeps the first n elements (none for n <= 0). */
  function Take<T>(xs: seq<T>, n: int): (r: seq<T>)
    ensures n <= 0 ==> r == []
    ensures 0 < n ==> r == if n < |xs| then xs[..n] else xs
  {
    if n <= 0 then [] else if n < |xs| then xs[..n] else xs
  }

  /** `a * b` for a natural `a`, as repeated addition. */
  function Times(a: nat, b: int): (r: int)
    ensures b >= 0 ==> r >= 0
  {
    if a == 0 then 0 else Times(a - 1, b) + b
  }

  /** Times is multiplication. */
  lemma {:induction false} TimesIsProduct(a: nat, b: int)
    ensures Times(a, b) == a * b
  {
    if a > 0 {
      TimesIsProduct(a - 1, b);
    }
  }

  /** Where page `current` starts: `(current - 1) * size`, or 0 when the page size is not positive or the page is the first or earlier. */
  function PageStart(current: int, size: int): nat
  {
    if current <= 1 || size <= 0 then 0 else Times(current - 1, size)
  }

  /** `Skip((current - 1) * size).Take(size)`: a contiguous run of at most `size` elements. */
  function PageOf<T>(xs: seq<T>, current: int, size: int): (r: seq<T>)
    ensures size <= 0 ==> r == []
    ensures |r| <= |xs| && (size > 0 ==> |r| <= size)
    ensures forall i | 0 <= i < |r| :: PageStart(current, size) + i < |xs| && r[i] == xs[PageStart(current, size) + i]
    ensures PageStart(current, size) >= |xs| ==> r == []
    ensures size > 0 && PageStart(current, size) < |xs| ==>
      |r| == if PageStart(current, size) + size <= |xs| then size else |xs| - PageStart(current, size)
  {
    Take(Skip(xs, PageStart(current, size)), size)
  }

  /**
   One page of the list sorted by `le` (`OrderBy(..).Skip(..).Take(..)`):
   the page of the sorted list, so it is ordered and drawn from the list.
   */
  function SortedPage<T(!new)>(xs: seq<T>, le: (T, T) -> bool, current: int, size: int): (r: seq<T>)
    requires TotalPreorder(le)
    ensures r == PageOf(SortBy(xs, le), current, size)
    ensures SortedBy(r, le)
    ensures forall x | x in r :: x in xs
    ensures size <= 0 ==> r == []
  {
    var sorted := SortBy(xs, le);
    var page := PageOf(sorted, current, size);
    SortSorted(xs, le);
    assert forall x | x in page :: x in xs by {
      forall x | x in page ensures x in xs {
        var i :| 0 <= i < |page| && page[i] == x;
        assert x in multiset(sorted);
      }
    }
    page
  }

  /** Pages 1..n concatenated. */
  function PagesUpTo<T>(xs: seq<T>, size: int, n: nat): seq<T>
  {
    if n == 0 then [] else PagesUpTo(xs, size, n - 1) + PageOf(xs, n, size)
  }

  /** `n`, capped at the length of `xs`. */
  function Capped<T>(xs: seq<T>, n: int): (r: nat)
    ensures r <= |xs| && (0 <= n ==> r <= n)
  {
    if n < 0 then 0 else if n < |xs| then n else |xs|
  }

  /** Page k + 1 of a positive size runs from k * size to (k + 1) * size, cut at the end of the list. */
  lemma PageSpan<T>(xs: seq<T>, size: int, k: nat)
    requires size > 0
    ensures PageOf(xs, k + 1, size) == xs[Capped(xs, Times(k, size))..Capped(xs, Times(k + 1, size))]
  {
    assert PageStart(k + 1, size) == Times(k, size);
    assert Times(k + 1, size) == Times(k, size) + size;
  }

  /** A prefix followed by the slice after it is the longer prefix. */
  lemma SliceJoin<T>(xs: seq<T>, lo: nat, hi: nat)
    requires lo <= hi <= |xs|
    ensures xs[..lo] + xs[lo..hi] == xs[..hi]
  {
  }

  /** The first n pages of a positive size are the first n * size elements, or the whole list. */
  lemma {:induction false} PagesPrefix<T>(xs: seq<T>, size: int, n: nat)
    requires size > 0
    ensures PagesUpTo(xs, size, n) == xs[..Capped(xs, Times(n, size))]
    decreases n
  {
    if n > 0 {
      PagesPrefix(xs, size, n - 1);
      PageSpan(xs, size, n - 1);
      assert Times(n, size) == Times(n - 1, size) + size;
      var lo, hi := Capped(xs, Times(n - 1, size)), Capped(xs, Times(n, size));
      assert lo <= hi;
      SliceJoin(xs, lo, hi);
    }
  }

  /** Consecutive pages of a positive size, enough of them, cover the list in order. */
  lemma PagesCover<T>(xs: seq<T>, size: int, pages: nat)
    requires size > 0 && Times(pages, size) >= |xs|
    ensures PagesUpTo(xs, size, pages) == xs
  {
    PagesPrefix(xs, size, pages);
    assert xs[..|xs|] == xs;
  }

  /**
   Paging through the sorted list from page 1 to the last page lists every
   element of the list exactly as often as it occurs there, in order.
   */
  lemma SortedPagesCover<T>(xs: seq<T>, le: (T, T) -> bool, size: int)
    requires size > 0
    ensures var sorted := SortBy(xs, le);
      PagesUpTo(sorted, size, PageCount(|xs|, size)) == sorted
      && multiset(PagesUpTo(sorted, size, PageCount(|xs|, size))) == multiset(xs)
  {
    PagesCover(SortBy(xs, le), size, PageCount(|xs|, size));
  }

  /**
   The number of pages of `size` items that hold `total` items, as
   `(int)Math.Ceiling(total / (double)size)` computes it for a positive size.
   A size of zero or less gives 0 here.
   */
  function PageCount(total: nat, size: int): (r: nat)
    ensures size > 0 ==> Times(r, size) >= total && (r == 0 || Times(r - 1, size) < total)
    decreases total
  {
    if size <= 0 || total == 0 then 0
    else if total <= size then 1
    else 1 + PageCount(total - size, size)
  }
}

=== FILE: config_url_service.dfy ===
/**
 The URLs the kiosk may open (ConfigUrlService.cs): listing, looking one
 up, switching one on or off, creating or updating one with a URL no other
 row uses, and removing rows by URL.
 */
module ConfigUrlService {
  import opened Common

  datatype ConfigUrl = ConfigUrl(id: string, name: Option<string>, url: Option<string>, version: Option<string>,
                                 description: Option<string>, isActive: bool,
                                 createdAt: Option<int>, updatedAt: Option<int>)

  datatype ConfigUrlInput = ConfigUrlInput(id: Option<string>, name: Option<string>, url: Option<string>,
                                           version: Option<string>, description: Option<string>, isActive: bool)

  const MsgEmptyId: string := "Id cannot be null or empty"
  const MsgNotFound: string := "ConfigUrl not found"
  const MsgNoneFound: string := "No ConfigUrls found"
  const MsgUrlExists: string := "A ConfigUrl with this URL already exists."
  const MsgUrlInUse: string := "This Url is already in use. Please enter a different one."
  // DoRemove reuses the wording of the prohibited-app service.
  const MsgEmptyUrls: string := "App Id cannot be null or empty."
  const MsgNoUrlMatch: string := "No prohibited apps found for the provided IDs."

  /** The position of the row with the id (`FindAsync`). */
  function Find(rows: seq<ConfigUrl>, id: string): (r: Option<nat>)
    ensures r.Some? ==> r.value < |rows| && rows[r.value].id == id
    ensures r.None? <==> forall c | c in rows :: c.id != id
  {
    var r := FirstWhere(rows, (c: ConfigUrl) => c.id == id);
    assert r.None? ==> forall c | c in rows :: c.id != id by {
      if r.None? {
        forall c | c in rows ensures c.id != id {
          var j :| 0 <= j < |rows| && rows[j] == c;
        }
      }
    }
    r
  }

  /** GetOne: a blank id is refused, an unknown one not found. */
  function GetOne(rows: seq<ConfigUrl>, id: Option<string>): (r: Result<ConfigUrl>)
    ensures IsNullOrBlank(id) ==> r == Failure(MsgEmptyId)
    ensures !IsNullOrBlank(id) && r.Failure? ==> r.message == MsgNotFound
    ensures r.Success? <==> !IsNullOrBlank(id) && exists c | c in rows :: c.id == id.value
    ensures r.Success? ==> r.value in rows && r.value.id == id.value
  {
    if IsNullOrBlank(id) then Failure(MsgEmptyId)
    else
      var k := Find(rows, id.value);
      if k.None? then Failure(MsgNotFound) else Success(rows[k.value])
  }

  /** GetAll: every row, or a message when there is none. */
  function GetAll(rows: seq<ConfigUrl>): (r: Result<seq<ConfigUrl>>)
    ensures r.Success? <==> rows != []
    ensures r.Success? ==> r.value == rows
    ensures r.Failure? ==> r.message == MsgNoneFound
  {
    if rows == [] then Failure(MsgNoneFound) else Success(rows)
  }

  /** The row after ToggleConfigUrl. */
  function Toggled(c: ConfigUrl, now: int): (r: ConfigUrl)
    ensures r.isActive != c.isActive && r.updatedAt == Some(now)
    ensures r.(isActive := c.isActive, updatedAt := c.updatedAt) == c
  {
    c.(isActive := !c.isActive, updatedAt := Some(now))
  }

  lemma ToggleTwice(c: ConfigUrl, now: int, later: int)
    ensures Toggled(Toggled(c, now), later).isActive == c.isActive
    ensures Toggled(Toggled(c, now), later).(updatedAt := c.updatedAt) == c
  {
  }

  predicate UrlTaken(rows: seq<ConfigUrl>, url: Option<string>)
  {
    exists c | c in rows :: c.url == url
  }

  predicate UrlTakenByOther(rows: seq<ConfigUrl>, url: Option<string>, self: string)
  {
    exists c | c in rows :: c.url == url && c.id != self
  }

  /** CreateUpdate's refusal: a create with a used URL; an update of an unknown row, then one with another row's URL. */
  function SaveError(rows: seq<ConfigUrl>, input: ConfigUrlInput): (r: Option<string>)
    ensures IsNullOrBlank(input.id) ==> (r.None? <==> !UrlTaken(rows, input.url))
    ensures !IsNullOrBlank(input.id) ==>
      (r.None? <==> Find(rows, input.id.value).Some? && !UrlTakenByOther(rows, input.url, input.id.value))
    ensures !IsNullOrBlank(input.id) && Find(rows, input.id.value).None? ==> r == Some(MsgNotFound)
  {
    if IsNullOrBlank(input.id) then
      if UrlTaken(rows, input.url) then Some(MsgUrlExists) else None
    else if Find(rows, input.id.value).None? then Some(MsgNotFound)
    else if UrlTakenByOther(rows, input.url, input.id.value) then Some(MsgUrlInUse)
    else None
  }

  function CreatedRow(input: ConfigUrlInput, newId: string, now: int): (r: ConfigUrl)
    ensures r.id == newId && r.url == input.url && r.name == input.name && r.isActive == input.isActive
    ensures r.createdAt == Some(now) && r.updatedAt.None?
  {
    ConfigUrl(newId, input.name, input.url, input.version, input.description, input.isActive, Some(now), None)
  }

  function UpdatedRow(c: ConfigUrl, input: ConfigUrlInput, now: int): (r: ConfigUrl)
    ensures r.id == c.id && r.createdAt == c.createdAt && r.updatedAt == Some(now)
    ensures r.url == input.url && r.name == input.name && r.isActive == input.isActive
  {
    c.(name := input.name, url := input.url, version := input.version, description := input.description,
       isActive := input.isActive, updatedAt := Some(now))
  }

  predicate UrlsUnique(rows: seq<ConfigUrl>)
  {
    forall i, j | 0 <= i < j < |rows| :: rows[i].url != rows[j].url
  }

  predicate IdsUnique(rows: seq<ConfigUrl>)
  {
    forall i, j | 0 <= i < j < |rows| :: rows[i].id != rows[j].id
  }

  /** A create the checks let through keeps URLs unique. */
  lemma CreateKeepsUrlsUnique(rows: seq<ConfigUrl>, input: ConfigUrlInput, newId: string, now: int)
    requires UrlsUnique(rows) && IsNullOrBlank(input.id) && SaveError(rows, input).None?
    ensures UrlsUnique(rows + [CreatedRow(input, newId, now)])
  {
    var r := rows + [CreatedRow(input, newId, now)];
    forall i, j | 0 <= i < j < |r| ensures r[i].url != r[j].url {
      if j == |rows| {
        assert r[i] in rows;
      }
    }
  }

  /** An update the checks let through keeps URLs unique. */
  lemma UpdateKeepsUrlsUnique(rows: seq<ConfigUrl>, input: ConfigUrlInput, now: int)
    requires UrlsUnique(rows) && IdsUnique(rows) && !IsNullOrBlank(input.id) && SaveError(rows, input).None?
    ensures var k := Find(rows, input.id.value).value;
      UrlsUnique(rows[k := UpdatedRow(rows[k], input, now)])
  {
    var k := Find(rows, input.id.value).value;
    var r := rows[k := UpdatedRow(rows[k], input, now)];
    forall i, j | 0 <= i < j < |r| ensures r[i].url != r[j].url {
      if i == k {
        assert rows[j] in rows && rows[j].id != rows[k].id;
      } else if j == k {
        assert rows[i] in rows && rows[i].id != rows[k].id;
      }
    }
  }

  /** The URLs DoRemove matches: rows whose URL (null read as "") is listed, in table order. */
  function MatchedUrls(rows: seq<ConfigUrl>, urls: seq<string>): (r: seq<string>)
    ensures |r| <= |rows|
    ensures r == [] <==> forall c | c in rows :: OrEmpty(c.url) !in urls
    ensures forall u | u in r :: u in urls
    ensures forall u :: u in r <==> u in urls && exists c | c in rows :: OrEmpty(c.url) == u
    decreases |rows|
  {
    if rows == [] then []
    else
      var rest := MatchedUrls(rows[..|rows| - 1], urls);
      var c := rows[|rows| - 1];
      assert forall b | b in rows :: b in rows[..|rows| - 1] || b == c;
      assert forall b | b in rows[..|rows| - 1] :: b in rows;
      rest + (if OrEmpty(c.url) in urls then [OrEmpty(c.url)] else [])
  }

  /** The table after DoRemove. */
  function WithoutUrls(rows: seq<ConfigUrl>, urls: seq<string>): (r: seq<ConfigUrl>)
    ensures forall c :: c in r <==> c in rows && OrEmpty(c.url) !in urls
  {
    Filter(rows, (c: ConfigUrl) => OrEmpty(c.url) !in urls)
  }

  /** Removing rows keeps URLs and ids unique. */
  lemma {:induction false} RemoveKeepsUnique(rows: seq<ConfigUrl>, urls: seq<string>)
    requires UrlsUnique(rows) && IdsUnique(rows)
    ensures UrlsUnique(WithoutUrls(rows, urls)) && IdsUnique(WithoutUrls(rows, urls))
    decreases |rows|
  {
    if rows != [] {
      var rest := WithoutUrls(rows[1..], urls);
      RemoveKeepsUnique(rows[1..], urls);
      WithoutUrlsCons(rows, urls);
      if OrEmpty(rows[0].url) !in urls {
        HeadUnique(rows, rest);
      }
    }
  }

  lemma WithoutUrlsCons(rows: seq<ConfigUrl>, urls: seq<string>)
    requires rows != []
    ensures WithoutUrls(rows, urls) == (if OrEmpty(rows[0].url) !in urls then [rows[0]] else []) + WithoutUrls(rows[1..], urls)
  {
  }

  /** The first row in front of unique rows drawn from the others stays unique. */
  lemma HeadUnique(rows: seq<ConfigUrl>, rest: seq<ConfigUrl>)
    requires rows != [] && UrlsUnique(rows) && IdsUnique(rows)
    requires UrlsUnique(rest) && IdsUnique(rest) && forall x | x in rest :: x in rows[1..]
    ensures UrlsUnique([rows[0]] + rest) && IdsUnique([rows[0]] + rest)
  {
    var r := [rows[0]] + rest;
    forall x | x in rest ensures x.url != rows[0].url && x.id != rows[0].id {
      var i :| 0 <= i < |rows[1..]| && rows[1..][i] == x;
      assert rows[i + 1] == x;
    }
    forall i, j | 0 <= i < j < |r| ensures r[i].url != r[j].url && r[i].id != r[j].id {
      assert r[j] == rest[j - 1] && rest[j - 1] in rest;
      if i > 0 {
        assert r[i] == rest[i - 1];
      }
    }
  }

  /** Removal goes by URL: a row whose id is listed but whose URL is not stays. */
  lemma RemoveIgnoresIds(rows: seq<ConfigUrl>, urls: seq<string>, c: ConfigUrl)
    requires c in rows && c.id in urls && OrEmpty(c.url) !in urls
    ensures c in WithoutUrls(rows, urls)
  {
  }

  /** The ConfigUrls table in table order. */
  class UrlStore {
    var rows: seq<ConfigUrl>

    /** The table as loaded: Url and Id are each unique across its rows. */
    constructor (rows: seq<ConfigUrl>)
      requires UrlsUnique(rows) && IdsUnique(rows)
      ensures Valid()
      ensures this.rows == rows
    {
      this.rows := rows;
    }

    /** No URL and no id occurs in two rows. */
    predicate Valid()
      reads this
    {
      UrlsUnique(rows) && IdsUnique(rows)
    }

    /** ToggleConfigUrl: flips IsActive (saved before the log) and returns the log's message. */
    method ToggleConfigUrl(id: Option<string>, now: int, logMessage: string) returns (message: string)
      requires Valid()
      modifies this
      ensures Valid()
      ensures IsNullOrBlank(id) ==> message == MsgEmptyId && rows == old(rows)
      ensures !IsNullOrBlank(id) && Find(old(rows), id.value).None? ==> message == MsgNotFound && rows == old(rows)
      ensures !IsNullOrBlank(id) && Find(old(rows), id.value).Some? ==>
        var k := Find(old(rows), id.value).value;
        message == logMessage && rows == old(rows)[k := Toggled(old(rows)[k], now)]
    {
      if IsNullOrBlank(id) {
        return MsgEmptyId;
      }
      var k := Find(rows, id.value);
      if k.None? {
        return MsgNotFound;
      }
      rows := rows[k.value := Toggled(rows[k.value], now)];
      message := logMessage;
    }

    /** CreateUpdate: creates under `newId` when no id is given, else overwrites the row; keeps URLs and ids unique. */
    method CreateUpdate(input: ConfigUrlInput, now: int, newId: string, logMessage: string)
      returns (message: string, saved: Option<ConfigUrlInput>)
      requires Valid()
      requires forall c | c in rows :: c.id != newId
      modifies this
      ensures Valid()
      ensures var err := SaveError(old(rows), input);
        && (err.Some? ==> message == err.value && saved.None? && rows == old(rows))
        && (err.None? && IsNullOrBlank(input.id) ==> rows == old(rows) + [CreatedRow(input, newId, now)])
        && (err.None? && !IsNullOrBlank(input.id) ==>
              var k := Find(old(rows), input.id.value).value;
              rows == old(rows)[k := UpdatedRow(old(rows)[k], input, now)])
        && (err.None? ==> message == logMessage && (saved.Some? <==> logMessage == "") && (saved.Some? ==> saved.value == input))
    {
      var err := SaveError(rows, input);
      if err.Some? {
        return err.value, None;
      }
      if IsNullOrBlank(input.id) {
        CreateKeepsUrlsUnique(rows, input, newId, now);
        rows := rows + [CreatedRow(input, newId, now)];
      } else {
        var k := Find(rows, input.id.value).value;
        UpdateKeepsUrlsUnique(rows, input, now);
        rows := rows[k := UpdatedRow(rows[k], input, now)];
      }
      message := logMessage;
      saved := if logMessage == "" then Some(input) else None;
    }

    /** DoRemove: deletes every row whose URL is listed (saved before the log) and returns those URLs. */
    method DoRemove(urls: seq<string>, logMessage: string) returns (message: string, removed: Option<seq<string>>)
      requires Valid()
      modifies this
      ensures Valid()
      ensures urls == [] ==> message == MsgEmptyUrls && removed.None? && rows == old(rows)
      ensures urls != [] && MatchedUrls(old(rows), urls) == [] ==> message == MsgNoUrlMatch && removed.None? && rows == old(rows)
      ensures urls != [] && MatchedUrls(old(rows), urls) != [] ==>
        rows == WithoutUrls(old(rows), urls)
        && (logMessage != "" ==> message == logMessage && removed.None?)
        && (logMessage == "" ==> message == "" && removed == Some(MatchedUrls(old(rows), urls)))
    {
      if urls == [] {
        return MsgEmptyUrls, None;
      }
      var matched := MatchedUrls(rows, urls);
      if matched == [] {
        return MsgNoUrlMatch, None;
      }
      RemoveKeepsUnique(rows, urls);
      rows := WithoutUrls(rows, urls);
      if logMessage != "" {
        return logMessage, None;
      }
      message, removed := "", Some(matched);
    }
  }
}

=== FILE: data_cached.dfy ===
/**
 The permission cache (DataCached.cs): the active permissions under one key,
 each user's permissions under a per-user key, and a registry entry that
 lists every per-user key so that all of them can be cleared together.
 */
module DataCached {
  import opened Common

  datatype Permission = Permission(id: int, name: string, isActive: bool)

  /** What a cache entry holds. */
  datatype CacheValue = PermissionList(perms: seq<Permission>) | KeyList(keys: seq<string>)

  const PermissionsKey: string := "001"
  const UserPermissionKeys: string := "all_user_permission"
  const UserPermissionPrefix: string := "user_permission"
  const MsgNoPermissions: string := "No permissions found."
  const MsgEmptyUser: string := "User ID cannot be empty"

  /** The per-user key: the prefix, an underscore, the user id. */
  function UserKey(userId: string): (r: string)
    ensures IsPrefix(UserPermissionPrefix + "_", r) && |r| == |UserPermissionPrefix| + 1 + |userId|
    ensures r[|UserPermissionPrefix| + 1..] == userId
  {
    UserPermissionPrefix + "_" + userId
  }

  /** Different users get different keys, and no user key collides with the two fixed keys. */
  lemma UserKeysDistinct(u: string, v: string)
    ensures UserKey(u) == UserKey(v) ==> u == v
    ensures UserKey(u) != PermissionsKey && UserKey(u) != UserPermissionKeys
  {
    if UserKey(u) == UserKey(v) {
      assert u == UserKey(u)[|UserPermissionPrefix| + 1..];
    }
    assert UserKey(u)[0] == 'u';
  }

  /** GetFunctions' query: the active permissions. */
  function ActivePermissions(permissions: seq<Permission>): (r: seq<Permission>)
    ensures forall p :: p in r <==> p in permissions && p.isActive
  {
    Filter(permissions, (p: Permission) => p.isActive)
  }

  /** GetUserPermissions' query: the active permissions granted to one of the user's roles. */
  function UserPermissions(permissions: seq<Permission>, userRoles: set<(string, int)>, rolePermissions: set<(int, int)>,
                           userId: string): (r: seq<Permission>)
    ensures forall p :: p in r <==>
      p in permissions && p.isActive && exists ur | ur in userRoles :: ur.0 == userId && (ur.1, p.id) in rolePermissions
  {
    Filter(permissions, (p: Permission) =>
      p.isActive && exists ur | ur in userRoles :: ur.0 == userId && (ur.1, p.id) in rolePermissions)
  }

  /** The registry's list, or the empty list when it is absent. */
  function Registered(entries: map<string, CacheValue>): (r: seq<string>)
    ensures UserPermissionKeys in entries && entries[UserPermissionKeys].KeyList? ==> r == entries[UserPermissionKeys].keys
  {
    if UserPermissionKeys in entries && entries[UserPermissionKeys].KeyList? then entries[UserPermissionKeys].keys else []
  }

  /** The registry after a miss for `key`: the key is appended only when absent. */
  function Register(registry: seq<string>, key: string): (r: seq<string>)
    ensures key in r && forall k | k in registry :: k in r
    ensures key in registry ==> r == registry
    ensures NoDup(registry) ==> NoDup(r)
  {
    if key in registry then registry else registry + [key]
  }

  /** The keys a list names. */
  function Elems(s: seq<string>): (r: set<string>)
    ensures forall x :: x in r <==> x in s
  {
    set x | x in s
  }

  /** The cache: key to value, with expiry left out. */
  class PermissionCache {
    var entries: map<string, CacheValue>

    constructor ()
      ensures entries == map[]
    {
      entries := map[];
    }

    /** The registry never lists a key twice. */
    predicate Valid()
      reads this
    {
      NoDup(Registered(entries))
    }

    /** GetFunctions: a hit is answered from the cache; a miss caches the active permissions unless there are none. */
    method GetFunctions(permissions: seq<Permission>) returns (message: string, result: seq<Permission>)
      modifies this
      ensures PermissionsKey in old(entries) && old(entries)[PermissionsKey].PermissionList? ==>
        message == "" && result == old(entries)[PermissionsKey].perms && entries == old(entries)
      ensures !(PermissionsKey in old(entries) && old(entries)[PermissionsKey].PermissionList?) ==>
        result == ActivePermissions(permissions)
        && (result == [] ==> message == MsgNoPermissions && entries == old(entries))
        && (result != [] ==> message == "" && entries == old(entries)[PermissionsKey := PermissionList(result)])
    {
      if PermissionsKey in entries && entries[PermissionsKey].PermissionList? {
        return "", entries[PermissionsKey].perms;
      }
      result := ActivePermissions(permissions);
      if result == [] {
        return MsgNoPermissions, result;
      }
      entries := entries[PermissionsKey := PermissionList(result)];
      message := "";
    }

    /**
     GetUserPermissions: an empty id is refused; a hit is answered from the
     cache without querying; a miss caches the user's permissions and
     registers the key.
     */
    method GetUserPermissions(userId: Option<string>, permissions: seq<Permission>, userRoles: set<(string, int)>,
                              rolePermissions: set<(int, int)>) returns (message: string, result: Option<seq<Permission>>)
      requires Valid()
      modifies this
      ensures Valid()
      ensures IsNullOrEmpty(userId) ==> message == MsgEmptyUser && result.None? && entries == old(entries)
      ensures !IsNullOrEmpty(userId) && UserKey(userId.value) in old(entries)
              && old(entries)[UserKey(userId.value)].PermissionList? ==>
        message == "" && result == Some(old(entries)[UserKey(userId.value)].perms) && entries == old(entries)
      ensures !IsNullOrEmpty(userId) && !(UserKey(userId.value) in old(entries)
              && old(entries)[UserKey(userId.value)].PermissionList?) ==>
        var key := UserKey(userId.value);
        var perms := UserPermissions(permissions, userRoles, rolePermissions, userId.value);
        message == "" && result == Some(perms)
        && key in entries && entries[key] == PermissionList(perms)
        && Registered(entries) == Register(Registered(old(entries)), key)
        && forall k | k in old(entries) && k != key && k != UserPermissionKeys :: k in entries && entries[k] == old(entries)[k]
    {
      if IsNullOrEmpty(userId) {
        return MsgEmptyUser, None;
      }
      var key := UserKey(userId.value);
      if key in entries && entries[key].PermissionList? {
        return "", Some(entries[key].perms);
      }
      var perms := UserPermissions(permissions, userRoles, rolePermissions, userId.value);
      UserKeysDistinct(userId.value, userId.value);
      ghost var before := entries;
      entries := entries[key := PermissionList(perms)];
      assert Registered(entries) == Registered(before);
      var registry := Registered(entries);
      if key !in registry {
        entries := entries[UserPermissionKeys := KeyList(registry + [key])];
      }
      message, result := "", Some(perms);
    }

    /** ClearAllUserPermissionCache: removes every registered key, one by one, and then the registry. */
    method ClearAllUserPermissionCache()
      modifies this
      ensures UserPermissionKeys in old(entries) && old(entries)[UserPermissionKeys].KeyList? ==>
        entries == old(entries) - Elems(old(entries)[UserPermissionKeys].keys) - {UserPermissionKeys}
      ensures !(UserPermissionKeys in old(entries) && old(entries)[UserPermissionKeys].KeyList?) ==> entries == old(entries)
      ensures UserPermissionKeys !in entries || entries == old(entries)
    {
      if !(UserPermissionKeys in entries && entries[UserPermissionKeys].KeyList?) {
        return;
      }
      var keys := entries[UserPermissionKeys].keys;
      ghost var before := entries;
      var i := 0;
      while i < |keys|
        invariant 0 <= i <= |keys|
        invariant entries == before - Elems(keys[..i])
      {
        entries := entries - {keys[i]};
        assert Elems(keys[..i + 1]) == Elems(keys[..i]) + {keys[i]} by {
          assert keys[..i + 1] == keys[..i] + [keys[i]];
        }
        i := i + 1;
      }
      assert keys[..|keys|] == keys;
      entries := entries - {UserPermissionKeys};
    }

    /** ClearCache: removes the active-permission list and every per-user list. */
    method ClearCache()
      modifies this
      ensures PermissionsKey !in entries
      ensures UserPermissionKeys in old(entries) && old(entries)[UserPermissionKeys].KeyList? ==>
        entries == old(entries) - {PermissionsKey} - Elems(old(entries)[UserPermissionKeys].keys) - {UserPermissionKeys}
    {
      entries := entries - {PermissionsKey};
      ghost var mid := entries;
      assert UserPermissionKeys != PermissionsKey;
      ClearAllUserPermissionCache();
      assert PermissionsKey !in mid;
    }

    /** RemoveCache: drops one entry. */
    method RemoveCache(name: string)
      modifies this
      ensures entries == old(entries) - {name}
    {
      entries := entries - {name};
    }
  }
}

=== FILE: disabled_key_service.dfy ===
/**
 The keys and key combinations the kiosk blocks during an exam
 (DisabledKeyService.cs): searching and paging, looking one up, switching
 keys on and off, deleting keys, creating a key with a new KeyCode and
 updating one.
 */
module DisabledKeyService {
  import opened Common
  import opened Domain

  datatype DisabledKey = DisabledKey(
    keyId: string, keyCode: Option<string>, keyCombination: Option<string>, description: Option<string>,
    riskLevel: int, isActive: bool, createdAt: Option<int>, createdUser: Option<string>,
    updatedAt: Option<int>, updatedUser: Option<string>)

  datatype KeySearch = KeySearch(textSearch: Option<string>, isActive: Option<bool>, riskLevel: Option<int>,
                                 currentPage: int, pageSize: int)

  datatype KeyInput = KeyInput(keyId: Option<string>, keyCode: Option<string>, keyCombination: Option<string>,
                               description: Option<string>, riskLevel: int, isActive: bool)

  const MsgNoKeys: string := "No disabled keys found."
  const MsgEmptyKeyId: string := "Key Id cannot null or empty."
  const MsgKeyNotFound: string := "Key not found!"
  const MsgNoUser: string := "Current user ID is required."
  const MsgEmptyIds: string := "Key Id cannot be null or empty."
  const MsgNoMatch: string := "No matching keys found."
  const MsgCodeExists: string := "This KeyCode is already exists! Try another name."
  const MsgUpdateNotFound: string := "Key not found."

  // ---------------------------------------------------------------- GetAll / GetOne

  /** `(column ?? "").ToLower().Contains(text)` */
  predicate ColumnContains(col: Option<string>, loweredText: string)
  {
    Contains(Lower(OrEmpty(col)), loweredText)
  }

  predicate MatchesSearch(k: DisabledKey, q: KeySearch)
  {
    (IsNullOrBlank(q.textSearch)
     || ColumnContains(k.keyCode, Lower(q.textSearch.value)) || ColumnContains(k.keyCombination, Lower(q.textSearch.value)))
    && (q.isActive.None? || k.isActive == q.isActive.value)
    && (q.riskLevel.None? || k.riskLevel == q.riskLevel.value)
  }

  /** Inactive first, then latest update first. */
  predicate KeyBefore(a: DisabledKey, b: DisabledKey)
  {
    InactiveFirstNewest((a.isActive, a.updatedAt), (b.isActive, b.updatedAt))
  }

  lemma KeyBeforeTotal()
    ensures TotalPreorder(KeyBefore)
  {
    InactiveFirstNewestTotal();
  }

  /** GetAll: the matching keys, sorted, and the page asked for; an empty page gives the message and no rows. */
  function GetAll(keys: seq<DisabledKey>, q: KeySearch): (r: (string, Listing<DisabledKey>))
    ensures var matching := Filter(keys, (k: DisabledKey) => MatchesSearch(k, q));
      var page := PageOf(SortBy(matching, KeyBefore), q.currentPage, q.pageSize);
      && (r.0 == MsgNoKeys <==> page == [])
      && (r.0 == "" ==> r.1.items == Some(page))
      && (matching == [] || q.pageSize <= 0 ==> r.0 == MsgNoKeys)
      && (r.0 == "" ==>
            r.1.items.Some? && r.1.items.value != [] && r.1.total == |matching|
            && r.1.totalPage == PageCount(|matching|, q.pageSize)
            && (forall k | k in r.1.items.value :: k in keys && MatchesSearch(k, q))
            && SortedBy(r.1.items.value, KeyBefore))
      && (r.0 != "" ==> r.0 == MsgNoKeys && r.1.items.None? && r.1.totalPage == 0)
  {
    var matching := Filter(keys, (k: DisabledKey) => MatchesSearch(k, q));
    KeyBeforeTotal();
    var page := SortedPage(matching, KeyBefore, q.currentPage, q.pageSize);
    if page == [] then (MsgNoKeys, Listing(None, 0, 0, 0, 0))
    else ("", Listing(Some(page), PageCount(|matching|, q.pageSize), q.currentPage, q.pageSize, |matching|))
  }

  /** The position of the key with the id (`FindAsync`). */
  function Find(keys: seq<DisabledKey>, id: string): (r: Option<nat>)
    ensures r.Some? ==> r.value < |keys| && keys[r.value].keyId == id
    ensures r.None? <==> forall k | k in keys :: k.keyId != id
  {
    var r := FirstWhere(keys, (k: DisabledKey) => k.keyId == id);
    assert r.None? ==> forall k | k in keys :: k.keyId != id by {
      if r.None? {
        forall k | k in keys ensures k.keyId != id {
          var j :| 0 <= j < |keys| && keys[j] == k;
        }
      }
    }
    r
  }

  /** GetOne: a blank id is refused, an unknown one not found. */
  function GetOne(keys: seq<DisabledKey>, id: Option<string>): (r: Result<DisabledKey>)
    ensures IsNullOrBlank(id) ==> r == Failure(MsgEmptyKeyId)
    ensures r.Success? <==> !IsNullOrBlank(id) && exists k | k in keys :: k.keyId == id.value
    ensures r.Success? ==> r.value in keys && r.value.keyId == id.value
  {
    if IsNullOrBlank(id) then Failure(MsgEmptyKeyId)
    else
      var k := Find(keys, id.value);
      if k.None? then Failure(MsgKeyNotFound) else Success(keys[k.value])
  }

  // ---------------------------------------------------------------- ChangeActivate / DoDelete

  /** The KeyCodes of the listed keys, in table order. */
  function MatchedCodes(keys: seq<DisabledKey>, ids: seq<string>): (r: seq<Option<string>>)
    ensures |r| <= |keys|
    ensures r == [] <==> forall k | k in keys :: k.keyId !in ids
    ensures forall c :: c in r <==> exists k | k in keys :: k.keyId in ids && k.keyCode == c
    decreases |keys|
  {
    if keys == [] then []
    else
      var rest := MatchedCodes(keys[..|keys| - 1], ids);
      var k := keys[|keys| - 1];
      assert forall b | b in keys :: b in keys[..|keys| - 1] || b == k;
      assert forall b | b in keys[..|keys| - 1] :: b in keys;
      rest + (if k.keyId in ids then [k.keyCode] else [])
  }

  /** The table after ChangeActivate: every listed key flipped and stamped, the rest unchanged. */
  function Flipped(keys: seq<DisabledKey>, ids: seq<string>, token: string, now: int): (r: seq<DisabledKey>)
    ensures |r| == |keys|
    ensures forall i | 0 <= i < |keys| :: keys[i].keyId !in ids ==> r[i] == keys[i]
    ensures forall i | 0 <= i < |keys| :: keys[i].keyId in ids ==>
      r[i] == keys[i].(isActive := !keys[i].isActive, updatedAt := Some(now), updatedUser := Some(token))
  {
    seq(|keys|, i requires 0 <= i < |keys| =>
      if keys[i].keyId in ids then keys[i].(isActive := !keys[i].isActive, updatedAt := Some(now), updatedUser := Some(token))
      else keys[i])
  }

  /** Flipping the same ids twice restores every key's IsActive. */
  lemma FlipTwice(keys: seq<DisabledKey>, ids: seq<string>, token: string, now: int, later: int)
    ensures var twice := Flipped(Flipped(keys, ids, token, now), ids, token, later);
      forall i | 0 <= i < |keys| :: twice[i].isActive == keys[i].isActive && twice[i].keyId == keys[i].keyId
  {
  }

  /** The table after DoDelete. */
  function WithoutIds(keys: seq<DisabledKey>, ids: seq<string>): (r: seq<DisabledKey>)
    ensures forall k :: k in r <==> k in keys && k.keyId !in ids
  {
    Filter(keys, (k: DisabledKey) => k.keyId !in ids)
  }

  // ---------------------------------------------------------------- CreateUpdate

  predicate CodeTaken(keys: seq<DisabledKey>, code: Option<string>)
  {
    exists k | k in keys :: k.keyCode == code
  }

  predicate CodesUnique(keys: seq<DisabledKey>)
  {
    forall i, j | 0 <= i < j < |keys| :: keys[i].keyCode != keys[j].keyCode
  }

  /** CreateUpdate's refusal: no caller, then a create with a used KeyCode or an update of an unknown key. */
  function SaveError(keys: seq<DisabledKey>, input: KeyInput, token: Option<string>): (r: Option<string>)
    ensures IsNullOrBlank(token) ==> r == Some(MsgNoUser)
    ensures !IsNullOrBlank(token) && IsNullOrBlank(input.keyId) ==> (r.None? <==> !CodeTaken(keys, input.keyCode))
    ensures !IsNullOrBlank(token) && !IsNullOrBlank(input.keyId) ==> (r.None? <==> Find(keys, input.keyId.value).Some?)
  {
    if IsNullOrBlank(token) then Some(MsgNoUser)
    else if IsNullOrBlank(input.keyId) then
      if CodeTaken(keys, input.keyCode) then Some(MsgCodeExists) else None
    else if Find(keys, input.keyId.value).None? then Some(MsgUpdateNotFound)
    else None
  }

  function CreatedKey(input: KeyInput, newId: string, token: string, now: int): (r: DisabledKey)
    ensures r.keyId == newId && r.keyCode == input.keyCode && r.isActive == input.isActive && r.createdUser == Some(token)
  {
    DisabledKey(newId, input.keyCode, input.keyCombination, input.description, input.riskLevel, input.isActive,
                Some(now), Some(token), None, None)
  }

  function UpdatedKey(k: DisabledKey, input: KeyInput, token: string, now: int): (r: DisabledKey)
    ensures r.keyId == k.keyId && r.createdAt == k.createdAt && r.createdUser == k.createdUser
    ensures r.keyCode == input.keyCode && r.isActive == input.isActive
  {
    k.(keyCode := input.keyCode, riskLevel := input.riskLevel, keyCombination := input.keyCombination,
       description := input.description, isActive := input.isActive, updatedAt := Some(now), updatedUser := Some(token))
  }

  /** A create the checks let through keeps KeyCodes unique. */
  lemma CreateKeepsCodesUnique(keys: seq<DisabledKey>, input: KeyInput, token: string, newId: string, now: int)
    requires CodesUnique(keys) && !IsNullOrBlank(Some(token)) && IsNullOrBlank(input.keyId)
    requires SaveError(keys, input, Some(token)).None?
    ensures CodesUnique(keys + [CreatedKey(input, newId, token, now)])
  {
    var r := keys + [CreatedKey(input, newId, token, now)];
    forall i, j | 0 <= i < j < |r| ensures r[i].keyCode != r[j].keyCode {
      if j == |keys| {
        assert r[i] in keys;
      }
    }
  }

  /** An update is not checked for KeyCode clashes: renaming a key to another key's code goes through. */
  lemma UpdateMayDuplicateCode(a: DisabledKey, b: DisabledKey, token: string, now: int)
    requires a.keyId != b.keyId && a.keyCode != b.keyCode && !IsBlank(token) && !IsBlank(b.keyId)
    ensures var input := KeyInput(Some(b.keyId), a.keyCode, b.keyCombination, b.description, b.riskLevel, b.isActive);
      && CodesUnique([a, b])
      && SaveError([a, b], input, Some(token)).None?
      && !CodesUnique([a, UpdatedKey(b, input, token, now)])
  {
    var input := KeyInput(Some(b.keyId), a.keyCode, b.keyCombination, b.description, b.riskLevel, b.isActive);
    assert Find([a, b], b.keyId) == Some(1);
    assert [a, UpdatedKey(b, input, token, now)][0].keyCode == [a, UpdatedKey(b, input, token, now)][1].keyCode;
  }

  // ---------------------------------------------------------------- the store

  /** The DisabledKeys table in table order. */
  class KeyStore {
    var keys: seq<DisabledKey>

    constructor (keys: seq<DisabledKey>)
      ensures this.keys == keys
    {
      this.keys := keys;
    }

    /** ChangeActivate: the caller first, then the id list; flips every listed key (saved before the log). */
    method ChangeActivate(ids: seq<string>, token: Option<string>, now: int, logMessage: string)
      returns (message: string, codes: Option<seq<Option<string>>>)
      modifies this
      ensures IsNullOrBlank(token) ==> message == MsgNoUser && codes.None? && keys == old(keys)
      ensures !IsNullOrBlank(token) && ids == [] ==> message == MsgEmptyIds && codes.None? && keys == old(keys)
      ensures !IsNullOrBlank(token) && ids != [] && MatchedCodes(old(keys), ids) == [] ==>
        message == MsgNoMatch && codes.None? && keys == old(keys)
      ensures !IsNullOrBlank(token) && ids != [] && MatchedCodes(old(keys), ids) != [] ==>
        keys == Flipped(old(keys), ids, token.value, now)
        && (logMessage != "" ==> message == logMessage && codes.None?)
        && (logMessage == "" ==> message == "" && codes == Some(MatchedCodes(old(keys), ids)))
    {
      if IsNullOrBlank(token) {
        return MsgNoUser, None;
      }
      if ids == [] {
        return MsgEmptyIds, None;
      }
      var matched := MatchedCodes(keys, ids);
      if matched == [] {
        return MsgNoMatch, None;
      }
      ghost var before := keys;
      var i := 0;
      while i < |keys|
        invariant 0 <= i <= |keys| && |keys| == |before|
        invariant forall k | 0 <= k < i :: keys[k] == Flipped(before, ids, token.value, now)[k]
        invariant forall k | i <= k < |keys| :: keys[k] == before[k]
      {
        if keys[i].keyId in ids {
          keys := keys[i := keys[i].(isActive := !keys[i].isActive, updatedAt := Some(now), updatedUser := token)];
        }
        i := i + 1;
      }
      assert keys == Flipped(before, ids, token.value, now);
      if logMessage != "" {
        return logMessage, None;
      }
      message, codes := "", Some(matched);
    }

    /** DoDelete: removes every listed key (saved before the log) and returns their KeyCodes. */
    method DoDelete(ids: seq<string>, logMessage: string) returns (message: string, codes: Option<seq<Option<string>>>)
      modifies this
      ensures ids == [] ==> message == MsgEmptyIds && codes.None? && keys == old(keys)
      ensures ids != [] && MatchedCodes(old(keys), ids) == [] ==> message == MsgNoMatch && codes.None? && keys == old(keys)
      ensures ids != [] && MatchedCodes(old(keys), ids) != [] ==>
        keys == WithoutIds(old(keys), ids)
        && (logMessage != "" ==> message == logMessage && codes.None?)
        && (logMessage == "" ==> message == "" && codes == Some(MatchedCodes(old(keys), ids)))
    {
      if ids == [] {
        return MsgEmptyIds, None;
      }
      var matched := MatchedCodes(keys, ids);
      if matched == [] {
        return MsgNoMatch, None;
      }
      keys := WithoutIds(keys, ids);
      if logMessage != "" {
        return logMessage, None;
      }
      message, codes := "", Some(matched);
    }

    /** CreateUpdate: creates under `newId` when no id is given, else overwrites the key; returns the log's message. */
    method CreateUpdate(input: KeyInput, token: Option<string>, now: int, newId: string, logMessage: string)
      returns (message: string)
      modifies this
      ensures var err := SaveError(old(keys), input, token);
        && (err.Some? ==> message == err.value && keys == old(keys))
        && (err.None? && IsNullOrBlank(input.keyId) ==>
              message == logMessage && keys == old(keys) + [CreatedKey(input, newId, token.value, now)])
        && (err.None? && !IsNullOrBlank(input.keyId) ==>
              var k := Find(old(keys), input.keyId.value).value;
              message == logMessage && keys == old(keys)[k := UpdatedKey(old(keys)[k], input, token.value, now)])
    {
      var err := SaveError(keys, input, token);
      if err.Some? {
        return err.value;
      }
      if IsNullOrBlank(input.keyId) {
        keys := keys + [CreatedKey(input, newId, token.value, now)];
      } else {
        var k := Find(keys, input.keyId.value).value;
        keys := keys[k := UpdatedKey(keys[k], input, token.value, now)];
      }
      message := logMessage;
    }
  }
}

=== FILE: domain.dfy ===
/**
 Enumerations shared by the kiosk exam back end (role, exam, attempt, user
 and share states, question types), the names C# prints for them, and the
 two-decimal banker's rounding of `Math.Round(decimal, 2)`.
 */
module Domain {
  import opened Common

  // RoleEnum
  const RoleStudent: int := 1
  const RoleLecture: int := 2
  const RoleSupervisor: int := 3
  const RoleAdmin: int := 4

  // ExamStatus
  const ExamDraft: int := 0
  const ExamPublished: int := 1
  const ExamFinished: int := 2

  // ExamLiveStatus
  const LiveInactive: int := 0
  const LiveUpcoming: int := 1
  const LiveOngoing: int := 2
  const LiveCompleted: int := 3

  // StudentExamStatus
  const AttemptNotStarted: int := 0
  const AttemptInProgress: int := 1
  const AttemptSubmitted: int := 2
  const AttemptFailed: int := 3
  const AttemptPassed: int := 4

  // QuestionTypeChoose
  const TypeEssay: int := 0
  const TypeMultipleChoice: int := 1

  // UserStatus / ActiveStatus
  const StatusInactive: int := 0
  const StatusActive: int := 1
  const StatusPending: int := 2

  // ShareAccessMode
  const AccessViewOnly: int := 0
  const AccessCanEdit: int := 1

  /** `((ExamStatus)s).ToString()`: the member name, or the number for an undefined value. */
  function ExamStatusName(s: int): (r: string)
    ensures 0 <= s <= 2 <==> r in {"Draft", "Published", "Finished"}
  {
    if s == ExamDraft then "Draft"
    else if s == ExamPublished then "Published"
    else if s == ExamFinished then "Finished"
    else IntToString(s)
  }

  /** `((QuestionTypeChoose)t).ToString()`. */
  function QuestionTypeName(t: int): (r: string)
    ensures |r| >= 1
    ensures 0 <= t <= 5 <==> r in {"Essay", "MultipleChoice", "TrueFalse", "FillInTheBlank", "ShortAnswer", "Matching"}
  {
    if t == 0 then "Essay"
    else if t == 1 then "MultipleChoice"
    else if t == 2 then "TrueFalse"
    else if t == 3 then "FillInTheBlank"
    else if t == 4 then "ShortAnswer"
    else if t == 5 then "Matching"
    else IntToString(t)
  }

  // ---------------------------------------------------------------- time

  /** Timestamps are counted in seconds; `DateTime.AddMinutes(m)`. */
  function AddMinutes(t: int, m: int): (r: int)
    ensures m >= 0 ==> r >= t
  {
    t + m * 60
  }

  // ---------------------------------------------------------------- rounding

  /** Round half to even (MidpointRounding.ToEven) of a real to an integer. */
  function RoundHalfEven(y: real): (r: int)
    ensures -(1.0 / 2.0) <= r as real - y <= 1.0 / 2.0
    ensures y == y.Floor as real ==> r == y.Floor
  {
    var f := y.Floor;
    var frac := y - f as real;
    if frac < 0.5 then f
    else if frac > 0.5 then f + 1
    else if f % 2 == 0 then f else f + 1
  }

  /** Math.Round(x, 2) on a decimal: banker's rounding to two decimals. */
  function Round2(x: real): real
  {
    RoundHalfEven(x * 100.0) as real / 100.0
  }

  /** Rounding to two decimals moves a value by at most half a cent. */
  lemma Round2Error(x: real)
    ensures -0.005 <= Round2(x) - x <= 0.005
  {
    var r := RoundHalfEven(x * 100.0);
    assert -0.5 <= r as real - x * 100.0 <= 0.5;
    assert Round2(x) - x == (r as real - x * 100.0) / 100.0;
  }

  /** Rounding keeps values that already have at most two decimals. */
  lemma Round2Exact(n: int)
    ensures Round2(n as real / 100.0) == n as real / 100.0
  {
    assert (n as real / 100.0) * 100.0 == n as real;
  }

  /** Sum of a sequence of decimals (LINQ Sum). */
  function SumReal(xs: seq<real>): real
  {
    if xs == [] then 0.0 else SumReal(xs[..|xs| - 1]) + xs[|xs| - 1]
  }

  /** Every term within [lo, hi] puts the sum within [n*lo, n*hi]. */
  lemma {:induction false} SumBounds(xs: seq<real>, lo: real, hi: real)
    requires forall i | 0 <= i < |xs| :: lo <= xs[i] <= hi
    ensures |xs| as real * lo <= SumReal(xs) <= |xs| as real * hi
  {
    if xs != [] {
      SumBounds(xs[..|xs| - 1], lo, hi);
    }
  }

  // ---------------------------------------------------------------- records

  /** A row of the Questions table; Options is kept as the list its JSON text encodes. */
  datatype Question = Question(
    id: string, bankId: string, subjectId: string, content: string, qtype: int, difficulty: int,
    point: real, options: seq<string>, correctAnswer: string, explanation: string, objectFile: Option<string>,
    status: int, createUser: string, updateUser: string, updatedAt: int)

  /** A row of the Exams table (LiveStatus is derived from the clock and is not stored). */
  datatype Exam = Exam(
    id: string, roomId: string, title: string, description: string, duration: int,
    startTime: int, endTime: int, totalQuestions: int, totalPoints: real,
    showResult: bool, showCorrectAnswer: bool, status: int, createUser: string, updateUser: Option<string>,
    guideLines: string, examType: int, verifyCamera: bool, updatedAt: int)

  /** A row of the StudentExams table: one attempt of one student at one exam. */
  datatype StudentExam = StudentExam(
    id: string, examId: string, studentId: string, status: int, score: Option<real>,
    startTime: Option<int>, submitTime: Option<int>, extraTimeMinutes: Option<int>, totalQuestions: int,
    ipAddress: string, browser: string, updatedAt: int)

  /** A row of the StudentAnswers table. */
  datatype StudentAnswer = StudentAnswer(
    id: string, studentExamId: string, questionId: string, userAnswer: Option<string>,
    isCorrect: Option<bool>, pointsEarned: Option<real>, updatedAt: int)

  /** A row of the ExamSupervisors table; the row written with a new exam has no supervisor yet. */
  datatype ExamSupervisorRow = ExamSupervisorRow(id: string, examId: string, supervisorId: Option<string>, createdBy: string)

  /** A row of the Users table (the columns the modelled services read or write; nullable columns are options). */
  datatype User = User(
    userId: string, userCode: Option<string>, fullName: Option<string>, email: Option<string>,
    phone: Option<string>, password: Option<string>, googleId: Option<string>, avatarUrl: Option<string>,
    campusId: Option<string>, departmentId: Option<string>, positionId: Option<string>,
    majorId: Option<string>, specializationId: Option<string>, status: Option<int>,
    lastLogin: Option<int>, createdAt: Option<int>, createUser: Option<string>,
    updatedAt: Option<int>, updateUser: Option<string>)

  /** A row of the RoomUsers table: one member of one room. */
  datatype RoomUser = RoomUser(id: string, roomId: string, userId: string, roleId: int, status: int, updatedAt: int)

  /** The role check shared by the exam and question services: the user holds Lecture or Admin. */
  predicate IsLectureOrAdmin(roles: map<string, set<int>>, userId: string)
  {
    userId in roles && (RoleLecture in roles[userId] || RoleAdmin in roles[userId])
  }

  /** One page of a search: the rows (null when the page is empty), the page count, the page asked for, its size and the match count. */
  datatype Listing<T> = Listing(items: Option<seq<T>>, totalPage: int, currentPage: int, pageSize: int, total: int)

  /**
   The admin lists' order: inactive rows first, then the most recently
   updated first, rows never updated last (`OrderByDescending(x => !x.IsActive)
   .ThenByDescending(x => x.UpdatedAt)`, NULL sorting lowest).
   */
  predicate InactiveFirstNewest(a: (bool, Option<int>), b: (bool, Option<int>))
  {
    (!a.0 && b.0)
    || (a.0 == b.0 && (b.1.None? || (a.1.Some? && a.1.value >= b.1.value)))
  }

  lemma InactiveFirstNewestTotal()
    ensures TotalPreorder(InactiveFirstNewest)
  {
  }

  /** `OrderByDescending(x => x.CreatedAt)`: the newest first, NULL last. */
  predicate NewestFirst(a: Option<int>, b: Option<int>)
  {
    b.None? || (a.Some? && a.value >= b.value)
  }

  lemma NewestFirstTotal()
    ensures TotalPreorder(NewestFirst)
  {
  }
}

=== FILE: exam_list.dfy ===
/**
 The supervisor's list of exams being monitored
 (pages/teacher/examsupervision/components/ExamList.tsx): the rows are
 de-duplicated by exam id, split into tabs by status, searched from the
 first page, and paged through a window of at most five page buttons.
 */
module ExamList {
  import opened Common
  import opened Pagination
  import Selection

  /** A monitored exam; status 0 is not started, 1 ongoing, 2 completed. */
  datatype MonitorExam = MonitorExam(examId: string, examName: string, status: int)

  function ExamId(e: MonitorExam): string
  {
    e.examId
  }

  /** uniqueDataMain: the first row of each exam id, in order, through a set of ids seen so far. */
  method UniqueExams(dataMain: seq<MonitorExam>) returns (r: seq<MonitorExam>)
    ensures r == DistinctBy(dataMain, ExamId)
    ensures KeysUnique(r, ExamId)
    ensures forall id :: HasKey(r, ExamId, id) <==> HasKey(dataMain, ExamId, id)
  {
    r := Selection.UniqueBy(dataMain, ExamId);
  }

  /** Running the de-duplication on its own result changes nothing. */
  lemma UniqueExamsIdempotent(dataMain: seq<MonitorExam>)
    ensures DistinctBy(DistinctBy(dataMain, ExamId), ExamId) == DistinctBy(dataMain, ExamId)
  {
    Selection.DistinctByIdempotent(dataMain, ExamId);
  }

  /** The exams listed under a tab: those with the tab's status, in order. */
  function Tab(exams: seq<MonitorExam>, status: int): (r: seq<MonitorExam>)
    ensures forall e :: e in r <==> e in exams && e.status == status
  {
    Filter(exams, (e: MonitorExam) => e.status == status)
  }

  /** The tab sizes shown in the tab titles: ongoing (1), not started (0), completed (2). */
  function TabCounts(exams: seq<MonitorExam>): (nat, nat, nat)
  {
    (|Tab(exams, 1)|, |Tab(exams, 0)|, |Tab(exams, 2)|)
  }

  /** The three tab counts never exceed the number of exams, and add up to it when every status is one of 0, 1, 2. */
  lemma {:induction false} TabsPartition(exams: seq<MonitorExam>)
    ensures var c := TabCounts(exams); c.0 + c.1 + c.2 <= |exams|
    ensures (forall e | e in exams :: e.status in {0, 1, 2}) ==>
      var c := TabCounts(exams); c.0 + c.1 + c.2 == |exams|
  {
    if exams != [] {
      TabsPartition(exams[1..]);
      assert forall e | e in exams[1..] :: e in exams;
    }
  }

  /** An exam whose status is none of 0, 1, 2 is in no tab. */
  lemma OtherStatusUnlisted(exams: seq<MonitorExam>, e: MonitorExam)
    requires e.status !in {0, 1, 2}
    ensures e !in Tab(exams, 0) && e !in Tab(exams, 1) && e !in Tab(exams, 2)
  {
  }

  /** The filters the exam list is fetched with. */
  datatype MonitorFilters = MonitorFilters(subjectId: string, textSearch: string, currentPage: int, pageSize: int)

  /** The (debounced) submit of the search box or the subject choice: the new subject and text, from page 1. */
  function SubmitSearch(prev: MonitorFilters, subject: string, search: string): (r: MonitorFilters)
    ensures r.subjectId == subject && r.textSearch == search
    ensures r.currentPage == 1 && r.pageSize == prev.pageSize
  {
    prev.(subjectId := subject, textSearch := search, currentPage := 1)
  }

  /** The pager: the numbered buttons, the "..." before and after them, and whether Previous and Next are disabled. */
  datatype PageBar = PageBar(buttons: seq<Entry>, leadingEllipsis: bool, trailingEllipsis: bool,
                             prevDisabled: bool, nextDisabled: bool)

  /** The first numbered button: two before the current page, never before page 1. */
  function WindowStart(currentPage: int): int
  {
    Max(1, currentPage - MaxPagesToShow / 2)
  }

  /** The last numbered button: four after the first, never past the last page. */
  function WindowEnd(currentPage: int, totalPage: int): int
  {
    Min(totalPage, WindowStart(currentPage) + MaxPagesToShow - 1)
  }

  function WindowBar(currentPage: int, totalPage: int): PageBar
  {
    var start := WindowStart(currentPage);
    var end := WindowEnd(currentPage, totalPage);
    PageBar(Nums(start, end), start > 1, end < totalPage, currentPage == 1, currentPage == totalPage)
  }

  /** renderPagination: one button per page from the window's start to its end, pushed in a loop. */
  method RenderPagination(currentPage: int, totalPage: int) returns (bar: PageBar)
    ensures bar == WindowBar(currentPage, totalPage)
  {
    var startPage := Max(1, currentPage - MaxPagesToShow / 2);
    var endPage := Min(totalPage, startPage + MaxPagesToShow - 1);
    var pages: seq<Entry> := [];
    var i := startPage;
    while i <= endPage
      invariant startPage <= i <= Max(startPage, endPage + 1)
      invariant pages == Nums(startPage, i - 1)
      decreases endPage - i
    {
      pages := pages + [Num(i)];
      i := i + 1;
    }
    bar := PageBar(pages, startPage > 1, endPage < totalPage, currentPage == 1, currentPage == totalPage);
  }

  /**
   The window: at most five consecutive pages, all real pages; it holds the
   current page when that is a real page; "..." shows before it exactly when
   the current page is past 3, and after it exactly when it stops before the
   last page.
   */
  lemma WindowShape(currentPage: int, totalPage: int)
    ensures var bar := WindowBar(currentPage, totalPage);
      |bar.buttons| <= MaxPagesToShow
      && (forall i | 0 <= i < |bar.buttons| :: bar.buttons[i] == Num(WindowStart(currentPage) + i))
      && (forall i | 0 <= i < |bar.buttons| :: 1 <= bar.buttons[i].n <= totalPage)
      && (bar.leadingEllipsis <==> currentPage > 3)
      && (bar.trailingEllipsis <==> WindowEnd(currentPage, totalPage) < totalPage)
    ensures 1 <= currentPage <= totalPage ==> Num(currentPage) in WindowBar(currentPage, totalPage).buttons
  {
    var bar := WindowBar(currentPage, totalPage);
    var start := WindowStart(currentPage);
    if 1 <= currentPage <= totalPage {
      assert bar.buttons[currentPage - start] == Num(currentPage);
    }
  }

  /** With enough pages after the current one the window is full: five buttons. */
  lemma WindowFull(currentPage: int, totalPage: int)
    requires 1 <= currentPage && WindowStart(currentPage) + MaxPagesToShow - 1 <= totalPage
    ensures |WindowBar(currentPage, totalPage).buttons| == MaxPagesToShow
  {
  }

  /** With no pages at all there are no buttons, yet Next stays enabled on page 1. */
  lemma NoPagesNextEnabled()
    ensures WindowBar(1, 0).buttons == [] && !WindowBar(1, 0).nextDisabled
  {
  }
}

=== FILE: exam_service.dfy ===
/**
 Exam authoring (ExamService.cs): the ordered validation of AddExamAsync and
 UpdateExamAsync, title normalisation, the rescaling of question points to a
 10-point exam, the status change guard, the result-report aggregates and
 the OTP assignment.
 */
module ExamService {
  import opened Common
  import opened Domain

  // ---------------------------------------------------------------- titles

  predicate IsLayout(c: char)
  {
    c == ' ' || c == '\t' || c == '\n'
  }

  /** `.Replace(" ", "").Replace("\t", "").Replace("\n", "")`. */
  function DropLayout(s: string): (r: string)
    ensures forall i | 0 <= i < |r| :: r[i] in s && !IsLayout(r[i])
    ensures (forall i | 0 <= i < |s| :: !IsLayout(s[i])) ==> r == s
    ensures s != [] && !IsLayout(s[0]) ==> r != [] && r[0] == s[0]
    ensures s != [] && !IsLayout(s[|s| - 1]) ==> r != [] && r[|r| - 1] == s[|s| - 1]
  {
    if s == [] then []
    else
      var rest := DropLayout(s[1..]);
      assert forall c | c in s[1..] :: c in s;
      if IsLayout(s[0]) then rest else [s[0]] + rest
  }

  /** The key two exam titles are compared by: trimmed, lower-cased, spaces, tabs and newlines removed. */
  function NormalizeTitle(title: string): string
  {
    DropLayout(Lower(Trim(title)))
  }

  /** A normalised title is its own normal form, so comparing normal forms is an equivalence. */
  lemma NormalizeTitleIdempotent(title: string)
    ensures NormalizeTitle(NormalizeTitle(title)) == NormalizeTitle(title)
  {
    var t := Trim(title);
    var l := Lower(t);
    var n := DropLayout(l);
    if l != [] {
      assert l[0] == LowerChar(t[0]) && l[|l| - 1] == LowerChar(t[|t| - 1]);
    }
    TrimNoop(n);
    LowerLeavesNoCapitals(t);
    assert forall c | c in n :: c in l;
    LowerNoCapitals(n);
  }

  /** Some exam of the same creator, other than `except`, has the same normalised title. */
  predicate TitleTaken(exams: map<string, Exam>, userId: string, title: string, except: Option<string>)
  {
    exists id | id in exams ::
      && exams[id].createUser == userId
      && (except.None? || id != except.value)
      && NormalizeTitle(exams[id].title) == NormalizeTitle(title)
  }

  // ---------------------------------------------------------------- requests and messages

  /** The fields shared by AddExamRequest and UpdateExamRequest (examId is only read by update). */
  datatype ExamRequest = ExamRequest(
    examId: string, title: string, description: string, roomId: string, startTime: int, endTime: int,
    duration: int, showResult: bool, showCorrectAnswer: bool, status: int, examType: int,
    guideLines: string, verifyCamera: bool, bankId: string, questionIds: seq<string>)

  const MsgNoUpdatePermission := "User does not have permission to update exams."
  const MsgNoAddPermission := "User does not have permission to add exam."
  const MsgExamNotFound := "Exam not found."
  const MsgNotCreator := "You can only update exams you created."
  const MsgNotDraft := "Only exams is Draft can be updated."
  const MsgEndBeforeStart := "EndTime must be later than StartTime."
  const MsgNoRoom := "The selected room does not exist."
  const MsgTitleTaken := "An exam with the same title already exists."
  const MsgBankMissingOnUpdate := "Question bank does not exist."
  const MsgBankMissingOnAdd := "Question bank not found."
  const MsgBankEmpty := "Question bank has no questions."
  const MsgOutsideBank := "Some selected questions do not belong to the selected question bank."
  const MsgNoQuestions := "No questions selected."
  const MsgDuplicateIds := "Duplicate QuestionIds are not allowed."
  const MsgUpdateNotSelectable := "Some selected questions do not belong to the bank or are inactive."
  const MsgAddNotSelectable := "Some selected questions were not found."
  const MsgMixedTypes := "All selected questions must be of the same type."
  const MsgZeroTotal := "Total point of selected questions must be greater than 0."

  function TypeMismatchMessage(found: int, wanted: int, onAdd: bool): string
  {
    "ExamType mismatch. Selected questions are of type " + QuestionTypeName(found) + ", but ExamType is "
    + QuestionTypeName(wanted) + "." + (if onAdd then " (0: Essay, 1: MultipleChoice)" else "")
  }

  // ---------------------------------------------------------------- selection and points

  /** A question the exam may use: in the chosen bank and active (Status 1). */
  predicate Selectable(questions: map<string, Question>, bankId: string, id: string)
  {
    id in questions && questions[id].bankId == bankId && questions[id].status == 1
  }

  predicate SameType(questions: map<string, Question>, ids: seq<string>)
    requires forall id | id in ids :: id in questions
  {
    forall i, j | 0 <= i < |ids| && 0 <= j < |ids| :: questions[ids[i]].qtype == questions[ids[j]].qtype
  }

  function Points(questions: map<string, Question>, ids: seq<string>): (r: seq<real>)
    requires forall id | id in ids :: id in questions
    ensures |r| == |ids| && forall i | 0 <= i < |ids| :: r[i] == questions[ids[i]].point
  {
    seq(|ids|, i requires 0 <= i < |ids| => questions[ids[i]].point)
  }

  function Scale(xs: seq<real>, c: real): (r: seq<real>)
    ensures |r| == |xs|
  {
    if xs == [] then [] else Scale(xs[..|xs| - 1], c) + [xs[|xs| - 1] * c]
  }

  /** A question's share of a 10-point exam: `Math.Round(point * scale, 2)` with `scale = 10 / total`. */
  function Share(point: real, scale: real): real
  {
    Round2(point * scale)
  }

  /** Each question's share, in order. */
  function Rescaled(points: seq<real>, scale: real): (r: seq<real>)
    ensures |r| == |points|
  {
    if points == [] then []
    else Rescaled(points[..|points| - 1], scale) + [Share(points[|points| - 1], scale)]
  }

  /** The ExamQuestion rows written for a new question set, as question id to points. */
  function ExamQuestionPoints(questions: map<string, Question>, ids: seq<string>, scale: real): map<string, real>
    requires forall id | id in ids :: id in questions
  {
    map id | id in ids :: Share(questions[id].point, scale)
  }

  lemma {:induction false} SumScaled(xs: seq<real>, c: real)
    ensures SumReal(Scale(xs, c)) == c * SumReal(xs)
  {
    if xs != [] {
      var init := xs[..|xs| - 1];
      SumScaled(init, c);
      assert Scale(xs, c) == Scale(init, c) + [xs[|xs| - 1] * c];
      assert SumReal(Scale(xs, c)) == SumReal(Scale(init, c)) + xs[|xs| - 1] * c;
      assert SumReal(xs) == SumReal(init) + xs[|xs| - 1];
    }
  }

  lemma {:induction false} RoundedSumError(xs: seq<real>, scale: real)
    ensures -0.005 * |xs| as real <= SumReal(Rescaled(xs, scale)) - SumReal(Scale(xs, scale)) <= 0.005 * |xs| as real
  {
    if xs != [] {
      var init := xs[..|xs| - 1];
      var last := xs[|xs| - 1] * scale;
      RoundedSumError(init, scale);
      Round2Error(last);
      var r := Rescaled(xs, scale);
      var e := Scale(xs, scale);
      assert r == Rescaled(init, scale) + [Round2(last)];
      assert e == Scale(init, scale) + [last];
      assert SumReal(r) == SumReal(Rescaled(init, scale)) + Round2(last);
      assert SumReal(e) == SumReal(Scale(init, scale)) + last;
    }
  }

  lemma ScaleToTen(total: real)
    requires total != 0.0
    ensures (10.0 / total) * total == 10.0
  {
  }

  /**
   The rescaled points of an exam add up to 10 up to the rounding of each
   question to two decimals: within half a cent per question.
   */
  lemma RescaleNearTen(points: seq<real>)
    requires SumReal(points) != 0.0
    ensures -0.005 * |points| as real <= SumReal(Rescaled(points, 10.0 / SumReal(points))) - 10.0 <= 0.005 * |points| as real
  {
    var total := SumReal(points);
    var scale := 10.0 / total;
    RoundedSumError(points, scale);
    SumScaled(points, scale);
    ScaleToTen(total);
    assert SumReal(Scale(points, scale)) == 10.0;
  }

  // ---------------------------------------------------------------- validation pipelines

  /** The first failing check of UpdateExamAsync, or None when the update goes ahead. */
  function UpdateExamError(roles: map<string, set<int>>, exams: map<string, Exam>, rooms: set<string>,
                           banks: set<string>, questions: map<string, Question>, req: ExamRequest, userId: string): Option<string>
  {
    var ids := req.questionIds;
    if !IsLectureOrAdmin(roles, userId) then Some(MsgNoUpdatePermission)
    else if req.examId !in exams then Some(MsgExamNotFound)
    else if exams[req.examId].createUser != userId then Some(MsgNotCreator)
    else if exams[req.examId].status != ExamDraft then Some(MsgNotDraft)
    else if req.endTime <= req.startTime then Some(MsgEndBeforeStart)
    else if req.roomId !in rooms then Some(MsgNoRoom)
    else if TitleTaken(exams, userId, req.title, Some(req.examId)) then Some(MsgTitleTaken)
    else if req.bankId !in banks then Some(MsgBankMissingOnUpdate)
    else if ids == [] then Some(MsgNoQuestions)
    else if !NoDup(ids) then Some(MsgDuplicateIds)
    else if Count(ids, id => Selectable(questions, req.bankId, id)) != |ids| then Some(MsgUpdateNotSelectable)
    else
      FilterAll(ids, id => Selectable(questions, req.bankId, id));
      if !SameType(questions, ids) then Some(MsgMixedTypes)
      else if questions[ids[0]].qtype != req.examType then
        Some(TypeMismatchMessage(questions[ids[0]].qtype, req.examType, false))
      else if SumReal(Points(questions, ids)) == 0.0 then Some(MsgZeroTotal)
      else None
  }

  /** The first failing check of AddExamAsync, or None when the exam is created. */
  function AddExamError(roles: map<string, set<int>>, exams: map<string, Exam>, rooms: set<string>,
                        banks: set<string>, questions: map<string, Question>, req: ExamRequest, userId: string): Option<string>
  {
    var ids := req.questionIds;
    if !IsLectureOrAdmin(roles, userId) then Some(MsgNoAddPermission)
    else if req.endTime <= req.startTime then Some(MsgEndBeforeStart)
    else if req.roomId !in rooms then Some(MsgNoRoom)
    else if TitleTaken(exams, userId, req.title, None) then Some(MsgTitleTaken)
    else if req.bankId !in banks then Some(MsgBankMissingOnAdd)
    else AddQuestionsError(questions, req.bankId, ids, req.examType)
  }

  /** The question checks of AddExamAsync, in order, once the bank is known to exist. */
  function AddQuestionsError(questions: map<string, Question>, bankId: string, ids: seq<string>, examType: int): Option<string>
  {
    if !(exists q | q in questions :: questions[q].bankId == bankId) then Some(MsgBankEmpty)
    else if exists id | id in ids :: !(id in questions && questions[id].bankId == bankId) then Some(MsgOutsideBank)
    else if ids == [] then Some(MsgNoQuestions)
    else if !NoDup(ids) then Some(MsgDuplicateIds)
    else if Count(ids, id => Selectable(questions, bankId, id)) != |ids| then Some(MsgAddNotSelectable)
    else
      FilterAll(ids, id => Selectable(questions, bankId, id));
      if !SameType(questions, ids) then Some(MsgMixedTypes)
      else if questions[ids[0]].qtype != examType then
        Some(TypeMismatchMessage(questions[ids[0]].qtype, examType, true))
      else if SumReal(Points(questions, ids)) <= 0.0 then Some(MsgZeroTotal)
      else None
  }

  /** The question checks of an add pass exactly when the set is valid and its points add up to more than zero. */
  lemma AddQuestionsAccepted(questions: map<string, Question>, bankId: string, ids: seq<string>, examType: int)
    ensures AddQuestionsError(questions, bankId, ids, examType).None? <==>
      ValidQuestionSet(questions, bankId, ids, examType) && SumReal(Points(questions, ids)) > 0.0
  {
    FilterAll(ids, id => Selectable(questions, bankId, id));
    if ids != [] && forall id | id in ids :: Selectable(questions, bankId, id) {
      OneTypeIff(questions, ids, examType);
      assert questions[ids[0]].bankId == bankId;
    }
  }

  /** A question set an exam can be built from: non-empty, distinct, active in the bank, one type equal to the exam's. */
  predicate ValidQuestionSet(questions: map<string, Question>, bankId: string, ids: seq<string>, examType: int)
  {
    && ids != [] && NoDup(ids)
    && (forall id | id in ids :: Selectable(questions, bankId, id))
    && (forall id | id in ids :: questions[id].qtype == examType)
  }

  /** The questions share one type equal to the exam's exactly when each has the exam's type. */
  lemma OneTypeIff(questions: map<string, Question>, ids: seq<string>, examType: int)
    requires ids != [] && forall id | id in ids :: id in questions
    ensures SameType(questions, ids) && questions[ids[0]].qtype == examType
            <==> forall id | id in ids :: questions[id].qtype == examType
  {
    if forall id | id in ids :: questions[id].qtype == examType {
      assert forall i | 0 <= i < |ids| :: ids[i] in ids;
    }
    if SameType(questions, ids) && questions[ids[0]].qtype == examType {
      forall id | id in ids
        ensures questions[id].qtype == examType
      {
        var i :| 0 <= i < |ids| && ids[i] == id;
        assert questions[ids[i]].qtype == questions[ids[0]].qtype;
      }
    }
  }

  /**
   An update goes ahead exactly when the caller is a lecturer or admin who
   created the exam, the exam is still a Draft, the times are ordered, the
   room and bank exist, the title is free among the caller's other exams, the
   question set is valid and its points do not add up to zero.
   */
  lemma UpdateExamAccepted(roles: map<string, set<int>>, exams: map<string, Exam>, rooms: set<string>,
                           banks: set<string>, questions: map<string, Question>, req: ExamRequest, userId: string)
    ensures UpdateExamError(roles, exams, rooms, banks, questions, req, userId).None? <==>
      && IsLectureOrAdmin(roles, userId)
      && req.examId in exams && exams[req.examId].createUser == userId && exams[req.examId].status == ExamDraft
      && req.startTime < req.endTime && req.roomId in rooms
      && !TitleTaken(exams, userId, req.title, Some(req.examId)) && req.bankId in banks
      && ValidQuestionSet(questions, req.bankId, req.questionIds, req.examType)
      && SumReal(Points(questions, req.questionIds)) != 0.0
  {
    var ids := req.questionIds;
    FilterAll(ids, id => Selectable(questions, req.bankId, id));
    if ids != [] && forall id | id in ids :: Selectable(questions, req.bankId, id) {
      OneTypeIff(questions, ids, req.examType);
    }
  }


  /** Add accepts exactly the same question sets as update, but also needs a positive total and a bank with questions. */
  lemma AddExamAccepted(roles: map<string, set<int>>, exams: map<string, Exam>, rooms: set<string>,
                        banks: set<string>, questions: map<string, Question>, req: ExamRequest, userId: string)
    ensures AddExamError(roles, exams, rooms, banks, questions, req, userId).None? <==>
      && IsLectureOrAdmin(roles, userId)
      && req.startTime < req.endTime && req.roomId in rooms
      && !TitleTaken(exams, userId, req.title, None) && req.bankId in banks
      && ValidQuestionSet(questions, req.bankId, req.questionIds, req.examType)
      && SumReal(Points(questions, req.questionIds)) > 0.0
  {
    AddQuestionsAccepted(questions, req.bankId, req.questionIds, req.examType);
  }


  lemma UpdateExamFacts(roles: map<string, set<int>>, exams: map<string, Exam>, rooms: set<string>,
                        banks: set<string>, questions: map<string, Question>, req: ExamRequest, userId: string)
    requires UpdateExamError(roles, exams, rooms, banks, questions, req, userId).None?
    ensures req.examId in exams && ValidQuestionSet(questions, req.bankId, req.questionIds, req.examType)
    ensures SumReal(Points(questions, req.questionIds)) != 0.0
  {
    UpdateExamAccepted(roles, exams, rooms, banks, questions, req, userId);
  }

  lemma AddExamFacts(roles: map<string, set<int>>, exams: map<string, Exam>, rooms: set<string>,
                     banks: set<string>, questions: map<string, Question>, req: ExamRequest, userId: string)
    requires AddExamError(roles, exams, rooms, banks, questions, req, userId).None?
    ensures ValidQuestionSet(questions, req.bankId, req.questionIds, req.examType)
    ensures SumReal(Points(questions, req.questionIds)) > 0.0
  {
    AddExamAccepted(roles, exams, rooms, banks, questions, req, userId);
  }

  /** Reversed times are reported before the bank and the questions are looked at, in both pipelines. */
  lemma EndBeforeStartFirst(roles: map<string, set<int>>, exams: map<string, Exam>, rooms: set<string>,
                            banks: set<string>, questions: map<string, Question>, req: ExamRequest, userId: string)
    requires req.endTime <= req.startTime
    ensures AddExamError(roles, exams, rooms, banks, questions, req, userId)
            in {Some(MsgNoAddPermission), Some(MsgEndBeforeStart)}
    ensures UpdateExamError(roles, exams, rooms, banks, questions, req, userId)
            in {Some(MsgNoUpdatePermission), Some(MsgExamNotFound), Some(MsgNotCreator), Some(MsgNotDraft), Some(MsgEndBeforeStart)}
  {
  }

  /** A total of exactly zero is refused by both; a negative total only by add (update lets it through). */
  lemma NegativeTotalOnlyRejectedByAdd(roles: map<string, set<int>>, exams: map<string, Exam>, rooms: set<string>,
                                       banks: set<string>, questions: map<string, Question>, req: ExamRequest, userId: string)
    requires ValidQuestionSet(questions, req.bankId, req.questionIds, req.examType)
    requires SumReal(Points(questions, req.questionIds)) < 0.0
    ensures AddExamError(roles, exams, rooms, banks, questions, req, userId) != None
    ensures UpdateExamError(roles, exams, rooms, banks, questions, req, userId) == None <==>
      && IsLectureOrAdmin(roles, userId)
      && req.examId in exams && exams[req.examId].createUser == userId && exams[req.examId].status == ExamDraft
      && req.startTime < req.endTime && req.roomId in rooms
      && !TitleTaken(exams, userId, req.title, Some(req.examId)) && req.bankId in banks
  {
    AddExamAccepted(roles, exams, rooms, banks, questions, req, userId);
    UpdateExamAccepted(roles, exams, rooms, banks, questions, req, userId);
  }

  // ---------------------------------------------------------------- status change

  /** The first failing check of ChangeExamStatusAsync; `live` is the exam's LiveStatus at the time of the call. */
  function ChangeStatusError(roles: map<string, set<int>>, exams: map<string, Exam>, examId: string,
                             newStatus: int, live: int, userId: string): Option<string>
  {
    if !IsLectureOrAdmin(roles, userId) then Some("User does not have permission to change exam status.")
    else if examId !in exams then Some(MsgExamNotFound)
    else if live == LiveOngoing then Some("Cannot change status while the exam is ongoing.")
    else if live == LiveCompleted && newStatus == ExamPublished then Some("Cannot publish an exam that has already been completed.")
    else if exams[examId].status == newStatus then Some("Exam is already in status: " + ExamStatusName(newStatus) + ".")
    else None
  }

  /**
   The status state machine: a change is made exactly when the exam exists,
   is not running, actually changes status, and is not a completed exam being
   re-published.
   */
  lemma ChangeStatusAccepted(roles: map<string, set<int>>, exams: map<string, Exam>, examId: string,
                             newStatus: int, live: int, userId: string)
    ensures ChangeStatusError(roles, exams, examId, newStatus, live, userId).None? <==>
      && IsLectureOrAdmin(roles, userId) && examId in exams
      && live != LiveOngoing
      && !(live == LiveCompleted && newStatus == ExamPublished)
      && exams[examId].status != newStatus
  {
  }

  // ---------------------------------------------------------------- result report

  predicate IsCompletedAttempt(se: StudentExam)
  {
    se.status != AttemptNotStarted && se.status != AttemptInProgress
  }

  /** A result counts as marked when it is Failed or Passed, or a submitted multiple-choice attempt. */
  predicate IsMarked(status: int, examType: int)
  {
    status == AttemptFailed || status == AttemptPassed || (examType == TypeMultipleChoice && status == AttemptSubmitted)
  }

  function GradedScores(attempts: seq<StudentExam>): (r: seq<real>)
    ensures |r| <= |attempts|
  {
    if attempts == [] then []
    else GradedScores(attempts[..|attempts| - 1])
         + (if attempts[|attempts| - 1].score.Some? then [attempts[|attempts| - 1].score.value] else [])
  }

  datatype ReportTotals = ReportTotals(totalStudents: int, totalCompleted: int, totalGraded: int, averageScore: real)

  /** The aggregates of GetExamResultReportAsync over the exam's attempts. */
  function Report(attempts: seq<StudentExam>): ReportTotals
  {
    var scores := GradedScores(attempts);
    ReportTotals(|attempts|, Count(attempts, IsCompletedAttempt), |scores|,
                 if |scores| > 0 then Round2(SumReal(scores) / |scores| as real) else 0.0)
  }

  predicate NotYetCompleted(se: StudentExam)
  {
    se.status == AttemptNotStarted || se.status == AttemptInProgress
  }

  /** Completed and not-yet-completed attempts partition the attempts, and every marked attempt is a completed one. */
  lemma ReportCounts(attempts: seq<StudentExam>, examType: int)
    ensures Report(attempts).totalCompleted + Count(attempts, NotYetCompleted) == Report(attempts).totalStudents
    ensures Count(attempts, (se: StudentExam) => IsMarked(se.status, examType)) <= Report(attempts).totalCompleted
  {
    CountPartition(attempts, IsCompletedAttempt, NotYetCompleted);
    CountMono(attempts, (se: StudentExam) => IsMarked(se.status, examType), IsCompletedAttempt);
  }

  lemma DivBounds(s: real, n: real, lo: real, hi: real)
    requires n > 0.0 && n * lo <= s <= n * hi
    ensures lo <= s / n <= hi
  {
    var m := s / n;
    assert (m - lo) * n == s - lo * n;
    assert (hi - m) * n == hi * n - s;
  }

  /** The mean of values in [lo, hi] lies in [lo, hi]. */
  lemma MeanBounds(xs: seq<real>, lo: real, hi: real)
    requires xs != [] && forall i | 0 <= i < |xs| :: lo <= xs[i] <= hi
    ensures lo <= SumReal(xs) / |xs| as real <= hi
  {
    SumBounds(xs, lo, hi);
    DivBounds(SumReal(xs), |xs| as real, lo, hi);
  }

  /** With every graded score in [lo, hi], the reported average lies in [lo, hi] up to half a cent. */
  lemma AverageInRange(attempts: seq<StudentExam>, lo: real, hi: real)
    requires forall i | 0 <= i < |GradedScores(attempts)| :: lo <= GradedScores(attempts)[i] <= hi
    requires Report(attempts).totalGraded > 0
    ensures lo - 0.005 <= Report(attempts).averageScore <= hi + 0.005
  {
    var scores := GradedScores(attempts);
    var mean := SumReal(scores) / |scores| as real;
    MeanBounds(scores, lo, hi);
    Round2Error(mean);
    assert Report(attempts).averageScore == Round2(mean);
  }

  // ---------------------------------------------------------------- OTP

  datatype ExamOtp = ExamOtp(id: string, examId: string, otpCode: int, timeValid: int, createdBy: string,
                             createdAt: int, expiredAt: int)

  /** The value EF gives an unset DateTime column (DateTime.MinValue), as a timestamp. */
  const MinTime: int := 0

  /** The guard of AssignOTP: the exam must be Published and not already over. */
  function AssignOtpError(exams: map<string, Exam>, examId: string, now: int): Option<string>
  {
    if examId !in exams || exams[examId].status != ExamPublished then Some("Exam not found or not active.")
    else if exams[examId].endTime < now then Some("Exam has already ended.")
    else None
  }

  /**
   AssignOTP as written: a first OTP row is created with only its id, exam and
   creator, so its code, validity and times keep their defaults, while the
   freshly generated code is what the caller is shown. `code` is the value of
   Generate6Number and `newId` the generated row id.
   */
  function AssignOtpAsWritten(existing: Option<ExamOtp>, examId: string, userId: string, newId: string,
                              code: int, timeValid: int, now: int): (r: (ExamOtp, int))
    ensures r.1 == code
  {
    if existing.None? then (ExamOtp(newId, examId, 0, 0, userId, MinTime, MinTime), code)
    else (existing.value.(otpCode := code, createdAt := now, expiredAt := now + timeValid, timeValid := timeValid), code)
  }

  /** The first code ever assigned to an exam is not the one stored: the row keeps code 0 and is already expired. */
  lemma AssignOtpFirstCodeLost(examId: string, userId: string, newId: string, code: int, timeValid: int, now: int)
    requires 100000 <= code < 999999
    ensures var (row, shown) := AssignOtpAsWritten(None, examId, userId, newId, code, timeValid, now);
            row.otpCode != shown && row.expiredAt == MinTime
  {
  }

  /** AssignOTP as evidently intended: both branches store the code, its validity and its expiry. */
  function AssignOtp(existing: Option<ExamOtp>, examId: string, userId: string, newId: string,
                     code: int, timeValid: int, now: int): (r: (ExamOtp, int))
    ensures r.1 == code
  {
    var base := if existing.None? then ExamOtp(newId, examId, 0, 0, userId, MinTime, MinTime) else existing.value;
    (base.(otpCode := code, createdAt := now, expiredAt := now + timeValid, timeValid := timeValid), code)
  }

  /** Whatever was stored before, the stored code is the one shown and it expires TimeValid seconds from now. */
  lemma AssignOtpStoresShownCode(existing: Option<ExamOtp>, examId: string, userId: string, newId: string,
                                 code: int, timeValid: int, now: int)
    ensures var (row, shown) := AssignOtp(existing, examId, userId, newId, code, timeValid, now);
            row.otpCode == shown && row.expiredAt == now + timeValid && row.timeValid == timeValid
            && row.examId == (if existing.None? then examId else existing.value.examId)
  {
  }

  /** The fields UpdateExamAsync overwrites: the request's, a trimmed title, the question count and 10 points. */
  function ApplyUpdate(e: Exam, req: ExamRequest, now: int): (r: Exam)
    ensures r.id == e.id && r.createUser == e.createUser && r.updateUser == e.updateUser
    ensures r.totalPoints == 10.0 && r.totalQuestions == |req.questionIds| && r.title == Trim(req.title)
  {
    e.(title := Trim(req.title), description := req.description, roomId := req.roomId,
       startTime := req.startTime, endTime := req.endTime, duration := req.duration,
       showResult := req.showResult, showCorrectAnswer := req.showCorrectAnswer, status := req.status,
       updatedAt := now, examType := req.examType, totalQuestions := |req.questionIds|, totalPoints := 10.0,
       guideLines := req.guideLines, verifyCamera := req.verifyCamera)
  }

  /** The exam row AddExamAsync inserts. */
  function NewExam(examId: string, req: ExamRequest, userId: string, now: int): (r: Exam)
    ensures r.id == examId && r.createUser == userId && r.updateUser == None
    ensures r.totalPoints == 10.0 && r.totalQuestions == |req.questionIds| && r.title == Trim(req.title)
  {
    Exam(examId, req.roomId, Trim(req.title), req.description, req.duration,
         req.startTime, req.endTime, |req.questionIds|, 10.0, req.showResult, req.showCorrectAnswer, req.status,
         userId, None, req.guideLines, req.examType, req.verifyCamera, now)
  }

  /** What an add or update call returns and the three tables it leaves behind. */
  datatype ExamWrite = ExamWrite(success: bool, message: string, exams: map<string, Exam>,
                                 examQuestions: map<string, map<string, real>>, supervisors: map<string, ExamSupervisorRow>)

  /**
   UpdateExamAsync: a rejected update changes nothing; an accepted one
   overwrites the exam's fields (10 points in total, one question per id) and
   replaces its whole question set by the rescaled points of the new ids.
   */
  function UpdateExamOutcome(roles: map<string, set<int>>, exams: map<string, Exam>, rooms: set<string>,
                             banks: set<string>, questions: map<string, Question>,
                             examQuestions: map<string, map<string, real>>, supervisors: map<string, ExamSupervisorRow>,
                             req: ExamRequest, userId: string, now: int): (r: ExamWrite)
    ensures r.success <==> UpdateExamError(roles, exams, rooms, banks, questions, req, userId).None?
    ensures !r.success ==> r.message == UpdateExamError(roles, exams, rooms, banks, questions, req, userId).value
                           && r.exams == exams && r.examQuestions == examQuestions
    ensures r.supervisors == supervisors
  {
    var err := UpdateExamError(roles, exams, rooms, banks, questions, req, userId);
    if err.Some? then ExamWrite(false, err.value, exams, examQuestions, supervisors)
    else
      UpdateExamFacts(roles, exams, rooms, banks, questions, req, userId);
      var total := SumReal(Points(questions, req.questionIds));
      ExamWrite(true, "Exam " + ExamStatusName(req.status) + " updated successfully.",
                exams[req.examId := ApplyUpdate(exams[req.examId], req, now)],
                examQuestions[req.examId := ExamQuestionPoints(questions, req.questionIds, 10.0 / total)],
                supervisors)
  }

  /**
   AddExamAsync: a rejected add changes nothing; an accepted one inserts a
   10-point exam owned by the caller, its rescaled questions and a supervisor
   row with no supervisor, created by the caller.
   */
  function AddExamOutcome(roles: map<string, set<int>>, exams: map<string, Exam>, rooms: set<string>,
                          banks: set<string>, questions: map<string, Question>,
                          examQuestions: map<string, map<string, real>>, supervisors: map<string, ExamSupervisorRow>,
                          req: ExamRequest, userId: string, examId: string, supervisorRowId: string, now: int): (r: ExamWrite)
    ensures r.success <==> AddExamError(roles, exams, rooms, banks, questions, req, userId).None?
    ensures !r.success ==> r.message == AddExamError(roles, exams, rooms, banks, questions, req, userId).value
                           && r.exams == exams && r.examQuestions == examQuestions && r.supervisors == supervisors
  {
    var err := AddExamError(roles, exams, rooms, banks, questions, req, userId);
    if err.Some? then ExamWrite(false, err.value, exams, examQuestions, supervisors)
    else
      AddExamFacts(roles, exams, rooms, banks, questions, req, userId);
      var total := SumReal(Points(questions, req.questionIds));
      ExamWrite(true, "Exam " + ExamStatusName(req.status) + " successfully.",
                exams[examId := NewExam(examId, req, userId, now)],
                examQuestions[examId := ExamQuestionPoints(questions, req.questionIds, 10.0 / total)],
                supervisors[supervisorRowId := ExamSupervisorRow(supervisorRowId, examId, None, userId)])
  }

  /** An accepted update keeps the set of exams, gives the exam 10 points and one question per id, and touches no other exam. */
  lemma UpdateExamWrites(roles: map<string, set<int>>, exams: map<string, Exam>, rooms: set<string>,
                          banks: set<string>, questions: map<string, Question>,
                          examQuestions: map<string, map<string, real>>, supervisors: map<string, ExamSupervisorRow>,
                          req: ExamRequest, userId: string, now: int)
    requires UpdateExamOutcome(roles, exams, rooms, banks, questions, examQuestions, supervisors, req, userId, now).success
    ensures var o := UpdateExamOutcome(roles, exams, rooms, banks, questions, examQuestions, supervisors, req, userId, now);
      && o.message == "Exam " + ExamStatusName(req.status) + " updated successfully."
      && req.examId in exams && o.exams.Keys == exams.Keys
      && o.exams[req.examId].totalPoints == 10.0 && o.exams[req.examId].totalQuestions == |req.questionIds|
      && (forall id | id in o.exams && id != req.examId :: o.exams[id] == exams[id])
      && req.examId in o.examQuestions && o.examQuestions[req.examId].Keys == set id | id in req.questionIds
      && (forall id | id in o.examQuestions && id != req.examId :: id in examQuestions && o.examQuestions[id] == examQuestions[id])
      && NoDup(req.questionIds) && (forall id | id in req.questionIds :: id in questions)
      && SumReal(Points(questions, req.questionIds)) != 0.0
      && o.examQuestions[req.examId] == ExamQuestionPoints(questions, req.questionIds, 10.0 / SumReal(Points(questions, req.questionIds)))
  {
    UpdateExamFacts(roles, exams, rooms, banks, questions, req, userId);
    var total := SumReal(Points(questions, req.questionIds));
    var o := UpdateExamOutcome(roles, exams, rooms, banks, questions, examQuestions, supervisors, req, userId, now);
    assert o.exams == exams[req.examId := ApplyUpdate(exams[req.examId], req, now)];
    assert o.examQuestions == examQuestions[req.examId := ExamQuestionPoints(questions, req.questionIds, 10.0 / total)];
  }

  /** An accepted add inserts exactly one exam, owned by the caller, worth 10 points, with one question per id and one supervisor row. */
  lemma AddExamWrites(roles: map<string, set<int>>, exams: map<string, Exam>, rooms: set<string>,
                       banks: set<string>, questions: map<string, Question>,
                       examQuestions: map<string, map<string, real>>, supervisors: map<string, ExamSupervisorRow>,
                       req: ExamRequest, userId: string, examId: string, supervisorRowId: string, now: int)
    requires AddExamOutcome(roles, exams, rooms, banks, questions, examQuestions, supervisors, req, userId, examId, supervisorRowId, now).success
    ensures var o := AddExamOutcome(roles, exams, rooms, banks, questions, examQuestions, supervisors, req, userId, examId, supervisorRowId, now);
      && o.message == "Exam " + ExamStatusName(req.status) + " successfully."
      && o.exams.Keys == exams.Keys + {examId} && o.exams[examId].createUser == userId
      && o.exams[examId].totalPoints == 10.0 && o.exams[examId].totalQuestions == |req.questionIds|
      && (forall id | id in exams && id != examId :: o.exams[id] == exams[id])
      && examId in o.examQuestions && o.examQuestions[examId].Keys == set id | id in req.questionIds
      && NoDup(req.questionIds) && (forall id | id in req.questionIds :: id in questions)
      && SumReal(Points(questions, req.questionIds)) > 0.0
      && o.examQuestions[examId] == ExamQuestionPoints(questions, req.questionIds, 10.0 / SumReal(Points(questions, req.questionIds)))
      && o.supervisors == supervisors[supervisorRowId := ExamSupervisorRow(supervisorRowId, examId, None, userId)]
  {
    AddExamFacts(roles, exams, rooms, banks, questions, req, userId);
    var total := SumReal(Points(questions, req.questionIds));
    var o := AddExamOutcome(roles, exams, rooms, banks, questions, examQuestions, supervisors, req, userId, examId, supervisorRowId, now);
    assert o.exams == exams[examId := NewExam(examId, req, userId, now)];
    assert o.examQuestions == examQuestions[examId := ExamQuestionPoints(questions, req.questionIds, 10.0 / total)];
  }

  /** The points a table stores for the given question ids, read in the order of the ids. */
  function StoredInOrder(m: map<string, real>, ids: seq<string>): (r: seq<real>)
    requires forall id | id in ids :: id in m
    ensures |r| == |ids| && forall i | 0 <= i < |ids| :: r[i] == m[ids[i]]
  {
    seq(|ids|, i requires 0 <= i < |ids| => m[ids[i]])
  }

  /** Each rescaled point is the rounded share of the point in the same position. */
  lemma {:induction false} RescaledAt(points: seq<real>, scale: real, i: nat)
    requires i < |points|
    ensures Rescaled(points, scale)[i] == Share(points[i], scale)
    decreases |points|
  {
    var init := points[..|points| - 1];
    if i < |points| - 1 {
      RescaledAt(init, scale, i);
      assert init[i] == points[i];
    }
  }

  /** Reading the written ExamQuestion rows in request order gives the rescaled points, position by position. */
  lemma StoredIsRescaled(questions: map<string, Question>, ids: seq<string>, scale: real)
    requires forall id | id in ids :: id in questions
    ensures StoredInOrder(ExamQuestionPoints(questions, ids, scale), ids) == Rescaled(Points(questions, ids), scale)
  {
    var m := ExamQuestionPoints(questions, ids, scale);
    var stored := StoredInOrder(m, ids);
    var points := Points(questions, ids);
    forall i | 0 <= i < |ids|
      ensures stored[i] == Rescaled(points, scale)[i]
    {
      RescaledAt(points, scale, i);
      assert ids[i] in ids;
    }
  }

  /** The row written for each question holds its point times 10 over the total, rounded to two decimals. */
  lemma WrittenPointsEach(questions: map<string, Question>, ids: seq<string>, scale: real, id: string)
    requires forall x | x in ids :: x in questions
    requires id in ids
    ensures var m := ExamQuestionPoints(questions, ids, scale);
      id in m && m[id] == Share(questions[id].point, scale)
  {
  }

  /** The points written for a question set with a non-zero total add up to 10 within half a cent per question. */
  lemma WrittenPointsNearTen(questions: map<string, Question>, ids: seq<string>)
    requires forall id | id in ids :: id in questions
    requires SumReal(Points(questions, ids)) != 0.0
    ensures var m := ExamQuestionPoints(questions, ids, 10.0 / SumReal(Points(questions, ids)));
      -0.005 * |ids| as real <= SumReal(StoredInOrder(m, ids)) - 10.0 <= 0.005 * |ids| as real
  {
    var scale := 10.0 / SumReal(Points(questions, ids));
    StoredIsRescaled(questions, ids, scale);
    RescaleNearTen(Points(questions, ids));
  }

  // ---------------------------------------------------------------- the service over its tables

  class ExamStore {
    var roles: map<string, set<int>>
    var exams: map<string, Exam>
    var rooms: set<string>
    var banks: set<string>
    var questions: map<string, Question>
    /** ExamQuestions grouped by exam: question id to the points it is worth in that exam. */
    var examQuestions: map<string, map<string, real>>
    var supervisors: map<string, ExamSupervisorRow>
    /** ExamOtps keyed by exam id (GetByExamId returns at most one row). */
    var otps: map<string, ExamOtp>

    constructor (roles: map<string, set<int>>, rooms: set<string>, banks: set<string>, questions: map<string, Question>)
      ensures this.roles == roles && this.rooms == rooms && this.banks == banks && this.questions == questions
      ensures exams == map[] && examQuestions == map[] && supervisors == map[] && otps == map[]
    {
      this.roles := roles;
      this.rooms := rooms;
      this.banks := banks;
      this.questions := questions;
      exams := map[];
      examQuestions := map[];
      supervisors := map[];
      otps := map[];
    }

    /** UpdateExamAsync over the store's tables. */
    method UpdateExam(req: ExamRequest, userId: string, now: int) returns (success: bool, message: string)
      modifies this
      ensures var o := old(UpdateExamOutcome(roles, exams, rooms, banks, questions, examQuestions, supervisors, req, userId, now));
              success == o.success && message == o.message
              && exams == o.exams && examQuestions == o.examQuestions && supervisors == o.supervisors
      ensures roles == old(roles) && rooms == old(rooms) && banks == old(banks) && questions == old(questions)
      ensures otps == old(otps)
    {
      var o := UpdateExamOutcome(roles, exams, rooms, banks, questions, examQuestions, supervisors, req, userId, now);
      success, message := o.success, o.message;
      exams, examQuestions, supervisors := o.exams, o.examQuestions, o.supervisors;
    }

    /** AddExamAsync over the store's tables; `examId` and `supervisorRowId` are the generated ids. */
    method AddExam(req: ExamRequest, userId: string, examId: string, supervisorRowId: string, now: int)
      returns (success: bool, message: string)
      requires examId !in exams && supervisorRowId !in supervisors
      modifies this
      ensures var o := old(AddExamOutcome(roles, exams, rooms, banks, questions, examQuestions, supervisors,
                                          req, userId, examId, supervisorRowId, now));
              success == o.success && message == o.message
              && exams == o.exams && examQuestions == o.examQuestions && supervisors == o.supervisors
      ensures roles == old(roles) && rooms == old(rooms) && banks == old(banks) && questions == old(questions)
      ensures otps == old(otps)
    {
      var o := AddExamOutcome(roles, exams, rooms, banks, questions, examQuestions, supervisors,
                              req, userId, examId, supervisorRowId, now);
      success, message := o.success, o.message;
      exams, examQuestions, supervisors := o.exams, o.examQuestions, o.supervisors;
    }

    /** ChangeExamStatusAsync: on success only Status, UpdatedAt and UpdateUser of that exam change. */
    method ChangeExamStatus(examId: string, newStatus: int, live: int, userId: string, now: int)
      returns (success: bool, message: string)
      modifies this
      ensures success <==> old(ChangeStatusError(roles, exams, examId, newStatus, live, userId)).None?
      ensures !success ==> message == old(ChangeStatusError(roles, exams, examId, newStatus, live, userId)).value
                           && exams == old(exams)
      ensures success ==>
        && message == "Exam status changed to " + ExamStatusName(newStatus) + " successfully."
        && exams == old(exams)[examId := old(exams)[examId].(status := newStatus, updatedAt := now, updateUser := Some(userId))]
      ensures roles == old(roles) && rooms == old(rooms) && banks == old(banks) && questions == old(questions)
      ensures examQuestions == old(examQuestions) && supervisors == old(supervisors) && otps == old(otps)
    {
      var err := ChangeStatusError(roles, exams, examId, newStatus, live, userId);
      if err.Some? {
        return false, err.value;
      }
      exams := exams[examId := exams[examId].(status := newStatus, updatedAt := now, updateUser := Some(userId))];
      return true, "Exam status changed to " + ExamStatusName(newStatus) + " successfully.";
    }

    /** AssignOTP (with the first-creation defect corrected): the exam's OTP row stores the code it returns. */
    method AssignOtpCode(examId: string, userId: string, newId: string, code: int, timeValid: int, now: int)
      returns (message: string, shown: Option<int>)
      modifies this
      ensures message == "" <==> old(AssignOtpError(exams, examId, now)).None?
      ensures message != "" ==> message == old(AssignOtpError(exams, examId, now)).value && shown == None && otps == old(otps)
      ensures message == "" ==>
        && var existing := if examId in old(otps) then Some(old(otps)[examId]) else None;
           && otps == old(otps)[examId := AssignOtp(existing, examId, userId, newId, code, timeValid, now).0]
           && shown == Some(code) && otps[examId].otpCode == code
      ensures roles == old(roles) && exams == old(exams) && rooms == old(rooms) && banks == old(banks)
      ensures questions == old(questions) && examQuestions == old(examQuestions) && supervisors == old(supervisors)
    {
      var err := AssignOtpError(exams, examId, now);
      if err.Some? {
        return err.value, None;
      }
      var existing := if examId in otps then Some(otps[examId]) else None;
      var (row, c) := AssignOtp(existing, examId, userId, newId, code, timeValid, now);
      AssignOtpStoresShownCode(existing, examId, userId, newId, code, timeValid, now);
      otps := otps[examId := row];
      return "", Some(c);
    }
  }
}

=== FILE: exam_supervisor_service.dfy ===
/**
 Supervisors of an exam (ExamSupervisorService.cs): who may list them,
 adding supervisors (never students), and removing them.
 */
module ExamSupervisorService {
  import opened Common
  import opened Domain

  // ---------------------------------------------------------------- listing

  const MsgNoViewPermission: string := "You do not have permission to view this exam's supervisors."
  const MsgExamNotFound: string := "Exam not found."

  /** The user holds the Admin role. */
  predicate IsAdmin(roles: map<string, set<int>>, userId: string)
  {
    userId in roles && RoleAdmin in roles[userId]
  }

  /** The user created one of the exam's supervisor rows. */
  predicate CreatedRowOf(rows: seq<ExamSupervisorRow>, examId: string, userId: string)
  {
    exists i | 0 <= i < |rows| :: rows[i].examId == examId && rows[i].createdBy == userId
  }

  const MsgNoSupervisorFound: string := "No supervisor found for this exam."

  /** GetAll's checks: permission (admin, or creator of a row of the exam), then the exam, then its supervisor rows. */
  function ListError(roles: map<string, set<int>>, rows: seq<ExamSupervisorRow>, exams: set<string>,
                     examId: string, userId: string): (r: Option<string>)
    ensures r.None? <==> (IsAdmin(roles, userId) || CreatedRowOf(rows, examId, userId)) && examId in exams
                         && RowsOfExam(rows, examId) != []
    ensures !IsAdmin(roles, userId) && !CreatedRowOf(rows, examId, userId) ==> r == Some(MsgNoViewPermission)
    ensures r == Some(MsgNoSupervisorFound) ==> IsAdmin(roles, userId) && examId in exams
  {
    if !IsAdmin(roles, userId) && !CreatedRowOf(rows, examId, userId) then Some(MsgNoViewPermission)
    else if examId !in exams then Some(MsgExamNotFound)
    else if RowsOfExam(rows, examId) == [] then Some(MsgNoSupervisorFound)
    else None
  }

  /** Only an admin can reach the empty-list error: a row's creator has a row of the exam. */
  lemma CreatorSeesRows(rows: seq<ExamSupervisorRow>, examId: string, userId: string)
    requires CreatedRowOf(rows, examId, userId)
    ensures RowsOfExam(rows, examId) != []
  {
    var i :| 0 <= i < |rows| && rows[i].examId == examId && rows[i].createdBy == userId;
    assert rows[i] in rows;
  }

  // ---------------------------------------------------------------- assigning

  const MsgNoRowsForExam: string := "No ExamSupervisor found for this exam."
  const MsgNoUsersFound: string := "No users found with the provided SupervisorId."
  const MsgNoNewSupervisor: string := "No new supervisor to add"

  /** The exam's supervisor rows, in table order. */
  function RowsOfExam(rows: seq<ExamSupervisorRow>, examId: string): (r: seq<ExamSupervisorRow>)
    ensures forall x :: x in r <==> x in rows && x.examId == examId
  {
    Filter(rows, (x: ExamSupervisorRow) => x.examId == examId)
  }

  /** Every role the user holds is Student; a user with no role at all counts too. */
  predicate OnlyStudent(roles: map<string, set<int>>, userId: string)
  {
    userId !in roles || roles[userId] <= {RoleStudent}
  }

  /** The requested users that exist, in table order. */
  function FoundUsers(users: seq<User>, requested: seq<string>): (r: seq<User>)
    ensures forall u :: u in r <==> u in users && u.userId in requested
  {
    Filter(users, (u: User) => u.userId in requested)
  }

  /** The emails of found users who hold only the Student role, in table order. */
  function StudentEmails(found: seq<User>, roles: map<string, set<int>>): (r: seq<string>)
    ensures |r| <= |found|
    ensures r == [] <==> forall u | u in found :: !OnlyStudent(roles, u.userId)
    ensures forall e :: e in r <==> exists u | u in found :: OnlyStudent(roles, u.userId) && OrEmpty(u.email) == e
  {
    if found == [] then []
    else
      var u := found[|found| - 1];
      var init := StudentEmails(found[..|found| - 1], roles);
      assert forall v | v in found :: v in found[..|found| - 1] || v == u;
      assert forall v | v in found[..|found| - 1] :: v in found;
      init + (if OnlyStudent(roles, u.userId) then [OrEmpty(u.email)] else [])
  }

  /** The requested ids not yet supervising, in request order and with repeats. */
  function ToAdd(current: seq<ExamSupervisorRow>, requested: seq<string>): (r: seq<string>)
    ensures forall x :: x in r <==> x in requested && forall c | c in current :: c.supervisorId != Some(x)
  {
    Filter(requested, (x: string) => forall c | c in current :: c.supervisorId != Some(x))
  }

  /** The new rows: one per id to add, created by the creator of the exam's first row. */
  function NewRows(toAdd: seq<string>, examId: string, createdBy: string, newIds: seq<string>): (r: seq<ExamSupervisorRow>)
    requires |newIds| >= |toAdd|
    ensures |r| == |toAdd|
    ensures forall i | 0 <= i < |toAdd| :: r[i] == ExamSupervisorRow(newIds[i], examId, Some(toAdd[i]), createdBy)
  {
    seq(|toAdd|, i requires 0 <= i < |toAdd| => ExamSupervisorRow(newIds[i], examId, Some(toAdd[i]), createdBy))
  }

  /**
   AssignSupervisor's checks, in order: the exam has supervisor rows, some
   requested user exists, none of them holds only the Student role, and some
   requested id is not supervising yet. The first check that fails gives
   the answer.
   */
  function AssignError(rows: seq<ExamSupervisorRow>, users: seq<User>, roles: map<string, set<int>>,
                       examId: string, requested: seq<string>): (r: Option<string>)
    ensures r.None? ==> RowsOfExam(rows, examId) != [] && FoundUsers(users, requested) != []
    ensures r.None? ==> forall u | u in users && u.userId in requested :: !OnlyStudent(roles, u.userId)
    ensures r.None? ==> ToAdd(RowsOfExam(rows, examId), requested) != []
    ensures r.None? <==>
      RowsOfExam(rows, examId) != [] && FoundUsers(users, requested) != []
      && (forall u | u in users && u.userId in requested :: !OnlyStudent(roles, u.userId))
      && ToAdd(RowsOfExam(rows, examId), requested) != []
    ensures RowsOfExam(rows, examId) == [] ==> r == Some(MsgNoRowsForExam)
    ensures RowsOfExam(rows, examId) != [] && FoundUsers(users, requested) == [] ==> r == Some(MsgNoUsersFound)
    ensures RowsOfExam(rows, examId) != [] && FoundUsers(users, requested) != []
            && (exists u | u in users && u.userId in requested :: OnlyStudent(roles, u.userId)) ==>
      r == Some("Users " + JoinWith(StudentEmails(FoundUsers(users, requested), roles), ", ") + " have Student role.")
    ensures RowsOfExam(rows, examId) != [] && FoundUsers(users, requested) != []
            && (forall u | u in users && u.userId in requested :: !OnlyStudent(roles, u.userId))
            && ToAdd(RowsOfExam(rows, examId), requested) == [] ==>
      r == Some(MsgNoNewSupervisor)
  {
    var current := RowsOfExam(rows, examId);
    var found := FoundUsers(users, requested);
    var students := StudentEmails(found, roles);
    if current == [] then Some(MsgNoRowsForExam)
    else if found == [] then Some(MsgNoUsersFound)
    else if students != [] then Some("Users " + JoinWith(students, ", ") + " have Student role.")
    else if ToAdd(current, requested) == [] then Some(MsgNoNewSupervisor)
    else None
  }

  /** An id already supervising the exam is never added again. */
  lemma AssignSkipsCurrent(rows: seq<ExamSupervisorRow>, examId: string, requested: seq<string>, k: int)
    requires 0 <= k < |rows| && rows[k].examId == examId && rows[k].supervisorId.Some?
    ensures rows[k].supervisorId.value !in ToAdd(RowsOfExam(rows, examId), requested)
  {
    assert rows[k] in RowsOfExam(rows, examId);
  }

  // ---------------------------------------------------------------- removing

  const MsgNoneToDelete: string := "No supervisors found to delete."
  const MsgNoMatchToDelete: string := "No matching supervisor id(s) found to delete."

  /** The rows the user may remove: the exam's rows, only those the user created unless an admin. */
  function Removable(rows: seq<ExamSupervisorRow>, examId: string, userId: string, isAdmin: bool)
    : (r: seq<ExamSupervisorRow>)
    ensures forall x :: x in r <==> x in rows && x.examId == examId && (isAdmin || x.createdBy == userId)
  {
    Filter(rows, (x: ExamSupervisorRow) => x.examId == examId && (isAdmin || x.createdBy == userId))
  }

  /** The supervisor ids of the rows. */
  function SupervisorIds(rows: seq<ExamSupervisorRow>): (r: set<string>)
    ensures forall x :: x in r <==> exists i | 0 <= i < |rows| :: rows[i].supervisorId == Some(x)
  {
    set i | 0 <= i < |rows| && rows[i].supervisorId.Some? :: rows[i].supervisorId.value
  }

  /** The rows left after removing the visible rows whose supervisor is to be deleted. */
  function AfterRemove(rows: seq<ExamSupervisorRow>, examId: string, userId: string, isAdmin: bool,
                       doomed: set<string>): (r: seq<ExamSupervisorRow>)
    ensures forall x :: x in r <==>
      x in rows && !(x.examId == examId && (isAdmin || x.createdBy == userId) && x.supervisorId.Some? && x.supervisorId.value in doomed)
  {
    Filter(rows, (x: ExamSupervisorRow) =>
      !(x.examId == examId && (isAdmin || x.createdBy == userId) && x.supervisorId.Some? && x.supervisorId.value in doomed))
  }

  /** What Remove returns: its message and the requested ids that matched no visible row. */
  datatype RemoveOutcome = RemoveOutcome(message: string, notFound: Option<seq<string>>)

  /**
   The supervisor table, with the exams, the users and their roles read
   only.
   */
  class SupervisorStore {
    var rows: seq<ExamSupervisorRow>
    const exams: set<string>
    const users: seq<User>
    const roles: map<string, set<int>>

    constructor (rows: seq<ExamSupervisorRow>, exams: set<string>, users: seq<User>, roles: map<string, set<int>>)
      ensures this.rows == rows && this.exams == exams && this.users == users && this.roles == roles
    {
      this.rows := rows;
      this.exams := exams;
      this.users := users;
      this.roles := roles;
    }

    /**
     AssignSupervisor: adds a row per requested id not yet supervising. The
     activity-log write is inside the transaction, so its failure undoes it.
     */
    method AssignSupervisor(examId: string, requested: seq<string>, newIds: seq<string>, logMessage: string)
      returns (message: string, accepted: Option<seq<string>>)
      requires |newIds| >= |requested|
      modifies this
      ensures var err := AssignError(old(rows), users, roles, examId, requested);
        && (err.Some? ==> message == err.value && accepted.None? && rows == old(rows))
        && (err.None? && logMessage != "" ==> message == logMessage && accepted.None? && rows == old(rows))
        && (err.None? && logMessage == "" ==>
              var current := RowsOfExam(old(rows), examId);
              && message == "" && accepted == Some(requested)
              && rows == old(rows) + NewRows(ToAdd(current, requested), examId, current[0].createdBy, newIds))
    {
      var err := AssignError(rows, users, roles, examId, requested);
      if err.Some? {
        return err.value, None;
      }
      if logMessage != "" {
        return logMessage, None;
      }
      var current := RowsOfExam(rows, examId);
      rows := rows + NewRows(ToAdd(current, requested), examId, current[0].createdBy, newIds);
      message, accepted := "", Some(requested);
    }

    /**
     Remove: deletes the visible rows of requested supervisors and reports
     the requested ids it did not find; a log failure undoes the deletion.
     */
    method Remove(examId: string, requested: seq<string>, userId: string, logMessage: string) returns (out: RemoveOutcome)
      modifies this
      ensures examId !in exams ==>
        out == RemoveOutcome("Exam with ID: " + examId + " does not exist.", None) && rows == old(rows)
      ensures examId in exams ==>
        var visible := Removable(old(rows), examId, userId, IsAdmin(roles, userId));
        var existing := SupervisorIds(visible);
        var doomed := (set x | x in requested) * existing;
        && (visible == [] ==> out == RemoveOutcome(MsgNoneToDelete, None) && rows == old(rows))
        && (visible != [] && doomed == {} ==>
              out == RemoveOutcome(MsgNoMatchToDelete, Some(Except(requested, existing))) && rows == old(rows))
        && (visible != [] && doomed != {} && logMessage != "" ==>
              out == RemoveOutcome(logMessage, None) && rows == old(rows))
        && (visible != [] && doomed != {} && logMessage == "" ==>
              out == RemoveOutcome("", Some(Except(requested, existing)))
              && rows == AfterRemove(old(rows), examId, userId, IsAdmin(roles, userId), doomed))
    {
      if examId !in exams {
        return RemoveOutcome("Exam with ID: " + examId + " does not exist.", None);
      }
      var admin := IsAdmin(roles, userId);
      var visible := Removable(rows, examId, userId, admin);
      if visible == [] {
        return RemoveOutcome(MsgNoneToDelete, None);
      }
      var existing := SupervisorIds(visible);
      var doomed := (set x | x in requested) * existing;
      var notFound := Except(requested, existing);
      if doomed == {} {
        return RemoveOutcome(MsgNoMatchToDelete, Some(notFound));
      }
      if logMessage != "" {
        return RemoveOutcome(logMessage, None);
      }
      rows := AfterRemove(rows, examId, userId, admin, doomed);
      out := RemoveOutcome("", Some(notFound));
    }
  }

  /** Removal splits the request: each requested id is either deleted or reported as not found. */
  lemma RemoveSplitsRequest(rows: seq<ExamSupervisorRow>, examId: string, userId: string, isAdmin: bool,
                            requested: seq<string>, x: string)
    requires x in requested
    ensures var existing := SupervisorIds(Removable(rows, examId, userId, isAdmin));
      x in (set y | y in requested) * existing <==> x !in Except(requested, existing)
  {
  }

  /** A removal never touches rows of other exams, nor, for a non-admin, rows created by someone else. */
  lemma RemoveKeepsOthers(rows: seq<ExamSupervisorRow>, examId: string, userId: string, isAdmin: bool,
                          doomed: set<string>, x: ExamSupervisorRow)
    requires x in rows && (x.examId != examId || (!isAdmin && x.createdBy != userId))
    ensures x in AfterRemove(rows, examId, userId, isAdmin, doomed)
  {
  }
}

=== FILE: face_detection.dfy ===
/**
 The client side of the webcam affect pipeline (useFaceDetection.ts): the
 ordered rule table that turns an average (valence, arousal) point into a
 named affect state, and the hook state that each analysis round updates.
 */
module FaceDetection {
  import opened Common

  datatype AffectState = Confident | Anxious | Stressed | Relaxed | Focused | Distracted | Mixed

  function StateName(s: AffectState): string
  {
    match s
    case Confident => "Confident"
    case Anxious => "Anxious"
    case Stressed => "Stressed"
    case Relaxed => "Relaxed"
    case Focused => "Focused"
    case Distracted => "Distracted"
    case Mixed => "Mixed"
  }

  /** The test of each labelled region of the valence/arousal plane; Mixed has none. */
  predicate Matches(s: AffectState, v: real, a: real)
  {
    match s
    case Confident => v > 0.5 && 0.5 <= a <= 0.8
    case Anxious => v < -0.3 && a > 0.6
    case Stressed => v < 0.0 && a > 0.5
    case Relaxed => v > 0.4 && a < 0.4
    case Focused => 0.0 <= v <= 0.5 && 0.4 <= a <= 0.6
    case Distracted => -0.1 <= v <= 0.1 && a < 0.3
    case Mixed => false
  }

  /** Position of each label in the rule table; Mixed is the fall-through after all six. */
  function Rank(s: AffectState): nat
  {
    match s
    case Confident => 0
    case Anxious => 1
    case Stressed => 2
    case Relaxed => 3
    case Focused => 4
    case Distracted => 5
    case Mixed => 6
  }

  /** inferState: a label other than Mixed is only returned when its own test holds. */
  function InferState(v: real, a: real): (r: AffectState)
    ensures r != Mixed ==> Matches(r, v, a)
  {
    if v > 0.5 && a >= 0.5 && a <= 0.8 then Confident
    else if v < -0.3 && a > 0.6 then Anxious
    else if v < 0.0 && a > 0.5 then Stressed
    else if v > 0.4 && a < 0.4 then Relaxed
    else if v >= 0.0 && v <= 0.5 && a >= 0.4 && a <= 0.6 then Focused
    else if v >= -0.1 && v <= 0.1 && a < 0.3 then Distracted
    else Mixed
  }

  /**
   First match wins: no rule earlier in the table than the returned label
   holds, and Mixed is returned exactly when no rule holds.
   */
  lemma InferStateFirstMatch(v: real, a: real)
    ensures forall s: AffectState | Rank(s) < Rank(InferState(v, a)) :: !Matches(s, v, a)
    ensures InferState(v, a) == Mixed <==> forall s: AffectState :: !Matches(s, v, a)
  {
    var r := InferState(v, a);
    forall s: AffectState | Rank(s) < Rank(r)
      ensures !Matches(s, v, a)
    {
      match s
      case Confident =>
      case Anxious =>
      case Stressed =>
      case Relaxed =>
      case Focused =>
      case Distracted =>
      case Mixed =>
    }
    if r != Mixed {
      assert Matches(r, v, a);
    }
  }

  /** (-0.5, 0.7) lies in both the Anxious and the Stressed region; the earlier rule wins. */
  lemma AnxiousBeforeStressed()
    ensures Matches(Anxious, -0.5, 0.7) && Matches(Stressed, -0.5, 0.7)
    ensures InferState(-0.5, 0.7) == Anxious
  {
  }

  /** Confident needs valence strictly above 0.5, so (0.5, 0.5) falls through to Focused. */
  lemma ConfidentBoundary()
    ensures !Matches(Confident, 0.5, 0.5)
    ensures InferState(0.5, 0.5) == Focused
  {
  }

  /** (0, 0.2) is Distracted and (0.3, 0.9) matches no rule. */
  lemma DistractedAndMixedSamples()
    ensures InferState(0.0, 0.2) == Distracted
    ensures InferState(0.3, 0.9) == Mixed
  {
  }

  /** The part of the analysis response the client reads. */
  datatype AnalyzeResponse = AnalyzeResponse(result: string, status: string, avgValence: real, avgArousal: real,
                                             dominantEmotion: string, faceCount: int)

  const MultipleFacesDetected: string := "MultipleFacesDetected"
  const DefaultCaptureError: string := "An error occurred while capturing the screenshot"

  /** The state the hook keeps between analysis rounds. */
  class FaceDetectionState {
    var emotionData: Option<AnalyzeResponse>
    var multipleFaceDetected: Option<AnalyzeResponse>
    var inferredState: Option<AffectState>
    var errorMsg: Option<string>

    /** At most one of the two responses is held, and an inferred state exists exactly for the emotion data it was derived from. */
    ghost predicate Valid()
      reads this
    {
      && !(emotionData.Some? && multipleFaceDetected.Some?)
      && (inferredState.Some? <==> emotionData.Some?)
      && (emotionData.Some? ==>
            inferredState.value == InferState(emotionData.value.avgValence, emotionData.value.avgArousal))
    }

    constructor ()
      ensures Valid()
      ensures emotionData == None && multipleFaceDetected == None && inferredState == None && errorMsg == None
    {
      emotionData := None;
      multipleFaceDetected := None;
      inferredState := None;
      errorMsg := None;
    }

    /** One successful analysis round: a multiple-face result clears the emotion state, any other result replaces it. */
    method OnAnalysis(resp: AnalyzeResponse)
      requires Valid()
      modifies this
      ensures Valid()
      ensures errorMsg == old(errorMsg)
      ensures resp.result == MultipleFacesDetected ==>
        multipleFaceDetected == Some(resp) && emotionData == None && inferredState == None
      ensures resp.result != MultipleFacesDetected ==>
        && emotionData == Some(resp) && multipleFaceDetected == None
        && inferredState == Some(InferState(resp.avgValence, resp.avgArousal))
    {
      if resp.result == MultipleFacesDetected {
        multipleFaceDetected := Some(resp);
        emotionData := None;
        inferredState := None;
      } else {
        emotionData := Some(resp);
        multipleFaceDetected := None;
        inferredState := Some(InferState(resp.avgValence, resp.avgArousal));
      }
    }

    /** The camera returned no photo: the three analysis fields are cleared. */
    method OnNoPhoto()
      requires Valid()
      modifies this
      ensures Valid()
      ensures emotionData == None && multipleFaceDetected == None && inferredState == None
      ensures errorMsg == old(errorMsg)
    {
      multipleFaceDetected := None;
      emotionData := None;
      inferredState := None;
    }

    /** The analysis call failed: the server's message (or the default one when absent or empty) is kept and the analysis fields are cleared. */
    method OnAnalysisError(serverMessage: Option<string>)
      requires Valid()
      modifies this
      ensures Valid()
      ensures emotionData == None && multipleFaceDetected == None && inferredState == None
      ensures errorMsg == Some(if serverMessage.Some? && serverMessage.value != "" then serverMessage.value
                               else DefaultCaptureError)
    {
      errorMsg := Some(if serverMessage.Some? && serverMessage.value != "" then serverMessage.value
                       else DefaultCaptureError);
      emotionData := None;
      multipleFaceDetected := None;
      inferredState := None;
    }
  }
}

=== FILE: feedback_page.dfy ===
/**
 The administrator's feedback list (pages/admin/viewFeedback/index.tsx): the
 same paging handlers and page list as the activity log, a "from" and a "to"
 date picker, and a filter bar that sends the list back to page 1.
 */
module FeedbackPage {
  import opened Common
  import opened Pagination
  import ActivityLogPage

  /**
   The "to" calendar's disabled days as written:
   `(dateFrom && date < dateFrom + 1 day) ?? date > now + 1 day`. The left
   operand is undefined only when no "from" day is chosen; once one is, it is
   a boolean, `??` keeps it, and the bound on future days is never applied.
   */
  predicate ToDateDisabledAsWritten(dateFrom: Option<int>, now: int, date: int)
  {
    if dateFrom.Some? then date < dateFrom.value + ActivityLogPage.Day
    else date > now + ActivityLogPage.Day
  }

  /** With a "from" day chosen, a "to" day a month ahead is open to picking, although without one it is not. */
  lemma AsWrittenAllowsFarFuture(now: int)
    ensures !ToDateDisabledAsWritten(Some(now), now, now + 30 * ActivityLogPage.Day)
    ensures ToDateDisabledAsWritten(None, now, now + 30 * ActivityLogPage.Day)
    ensures ActivityLogPage.ToDateDisabled(Some(now), now, now + 30 * ActivityLogPage.Day)
  {
  }

  /** The intended rule, the one the activity log's "to" calendar follows: either test disables the day. */
  predicate ToDateDisabled(dateFrom: Option<int>, now: int, date: int)
  {
    ActivityLogPage.ToDateDisabled(dateFrom, now, date)
  }

  /** Under the intended rule a day the written rule disables stays disabled, and an enabled "to" day is never more than a day ahead. */
  lemma ToDateDisabledIntended(dateFrom: Option<int>, now: int, date: int)
    ensures ToDateDisabledAsWritten(dateFrom, now, date) ==> ToDateDisabled(dateFrom, now, date)
    ensures !ToDateDisabled(dateFrom, now, date) ==>
      date <= now + ActivityLogPage.Day && (dateFrom.Some? ==> dateFrom.value + ActivityLogPage.Day <= date)
  {
  }

  /** A day is disabled in the "from" calendar when it is in the future. */
  predicate FromDateDisabled(now: int, date: int)
  {
    date > now
  }

  /** The feedback list's filters. */
  class FeedbackFilters {
    var dateFrom: Option<int>
    var dateTo: Option<int>
    var pageSize: int
    var currentPage: int
    var textSearch: string
    var others: map<string, ActivityLogPage.FilterValue>

    predicate Valid()
      reads this
    {
      currentPage >= 1
    }

    constructor ()
      ensures dateFrom.None? && dateTo.None? && pageSize == 5 && currentPage == 1
      ensures textSearch == "" && others == map[]
      ensures Valid()
    {
      dateFrom, dateTo := None, None;
      pageSize, currentPage, textSearch := 5, 1, "";
      others := map[];
    }

    /** handlePageChange: only a page from 1 to totalPage is taken. */
    method HandlePageChange(page: int, totalPage: int)
      requires Valid()
      modifies this`currentPage
      ensures Valid()
      ensures currentPage == ChangePage(old(currentPage), page, totalPage)
    {
      if page > 0 && page <= totalPage {
        currentPage := page;
      }
    }

    /** handlePageSizeChange, with the chosen size already parsed: the new size, from page 1. */
    method HandlePageSizeChange(newPageSize: int)
      modifies this`pageSize, this`currentPage
      ensures pageSize == newPageSize && currentPage == 1
      ensures Valid()
    {
      pageSize := newPageSize;
      currentPage := 1;
    }

    /** onFilterChange: the filter bar's values over the old ones, from page 1. */
    method HandleFilterChange(newFilters: map<string, ActivityLogPage.FilterValue>)
      modifies this`others, this`currentPage
      ensures others == old(others) + newFilters && currentPage == 1
      ensures Valid()
    {
      others := others + newFilters;
      currentPage := 1;
    }

    /** A pick in the "to" calendar: a day sets the end of the range and goes back to page 1; no day changes nothing. */
    method PickDateTo(date: Option<int>)
      requires Valid()
      modifies this`dateTo, this`currentPage
      ensures Valid()
      ensures date.Some? ==> dateTo == date && currentPage == 1
      ensures date.None? ==> dateTo == old(dateTo) && currentPage == old(currentPage)
    {
      if date.Some? {
        dateTo := date;
        currentPage := 1;
      }
    }

    /** A pick in the "from" calendar: a day sets the start of the range; the page is left as it is. */
    method PickDateFrom(date: Option<int>)
      modifies this`dateFrom
      ensures date.Some? ==> dateFrom == date
      ensures date.None? ==> dateFrom == old(dateFrom)
    {
      if date.Some? {
        dateFrom := date;
      }
    }

    /** onSearch: the search text (or "" when none is sent); the page is left as it is. */
    method HandleSearch(text: Option<string>)
      modifies this`textSearch
      ensures textSearch == OrEmpty(text)
    {
      textSearch := OrEmpty(text);
    }
  }
}

=== FILE: file_handler.dfy ===
/**
 Spreadsheet import and export (FileHandler.cs): cell texts are converted
 to the type of the property their column's header names, row by row from
 the second row on; an export writes one header row and one row per record.
 */
module FileHandler {
  import opened Common

  /**
   The kinds of value type a property may have: the ones the import converts
   itself (enum, bool, DateTime, int), the ones the export gives a width of
   their own (long and short, decimal, double and float, Guid, byte), and
   any other.
   */
  datatype ValueKind =
    | EnumK(members: seq<(string, int)>)
    | BoolK
    | DateTimeK
    | IntK
    | LongK
    | ShortK
    | FractionalK
    | GuidK
    | ByteK
    | OtherK

  /** A property's type: string, List<int>, or a value type that may be nullable. */
  datatype PropType = StringT | IntListT | ValueT(nullable: bool, kind: ValueKind)

  datatype Property = Property(name: string, ptype: PropType)

  /** A converted cell. */
  datatype Value =
    | VNull
    | VString(s: string)
    | VEnum(n: int)
    | VBool(b: bool)
    | VDate(t: int)
    | VInt(i: int)
    | VIntList(xs: seq<int>)
    | VConverted(repr: string)

  /**
   The culture-dependent parsers: DateTime.Parse and Convert.ChangeType to
   the target type for the remaining types; None stands for the exception
   they throw.
   */
  datatype Culture = Culture(parseDate: string -> Option<int>, changeType: (ValueKind, string) -> Option<string>)

  /** A worksheet: cell texts by row, and the last row and column of its used range. */
  datatype Sheet = Sheet(cells: seq<seq<string>>, rows: nat, columns: nat)

  /** An uploaded workbook: the upload's length in bytes and its worksheets. */
  datatype Workbook = Workbook(length: nat, sheets: seq<Sheet>)

  /** An imported record: the values set, by property index; unset properties keep their defaults. */
  type Item = map<nat, Value>

  const MsgNoFile: string := "No file found or file is empty."
  const MsgNoSheet: string := "No found worksheet in file."
  const Int32Min: int := -2147483648
  const Int32Max: int := 2147483647

  // ---------------------------------------------------------------- ConvertCellValue

  /** int.Parse: a FormatException or an OverflowException is None. */
  function Int32Parse(s: string): Option<int>
  {
    var n := ParseInt(s);
    if n.Some? && Int32Min <= n.value <= Int32Max then n else None
  }

  /** `int.TryParse(s.Trim(), out var i) ? i : 0`. */
  function PieceValue(piece: string): int
  {
    var n := Int32Parse(Trim(piece));
    if n.Some? then n.value else 0
  }

  predicate NonEmpty(s: string)
  {
    s != ""
  }

  predicate Positive(n: int)
  {
    n > 0
  }

  function PieceValues(pieces: seq<string>): (r: seq<int>)
    ensures |r| == |pieces| && forall i | 0 <= i < |pieces| :: r[i] == PieceValue(pieces[i])
  {
    seq(|pieces|, i requires 0 <= i < |pieces| => PieceValue(pieces[i]))
  }

  /** The List<int> conversion: split at ',', drop empty entries, parse each trimmed entry (0 on failure), keep the positive ones. */
  function IntListValue(value: string): seq<int>
  {
    Filter(PieceValues(Filter(Split(value, ','), NonEmpty)), Positive)
  }

  /** Every number of a List<int> cell is a positive 32-bit integer that one of its comma-separated pieces parses to. */
  lemma IntListValueSpec(value: string)
    ensures forall n | n in IntListValue(value) :: 0 < n <= Int32Max
    ensures forall n | n in IntListValue(value) :: exists p | p in Split(value, ',') :: PieceValue(p) == n
  {
    forall n | n in IntListValue(value) ensures 0 < n <= Int32Max && exists p | p in Split(value, ',') :: PieceValue(p) == n {
      IntListMember(value, n);
    }
  }

  lemma IntListMember(value: string, n: int)
    requires n in IntListValue(value)
    ensures 0 < n <= Int32Max && exists p | p in Split(value, ',') :: PieceValue(p) == n
  {
    var kept := Filter(Split(value, ','), NonEmpty);
    var nums := PieceValues(kept);
    assert n in nums && n > 0;
    var i :| 0 <= i < |nums| && nums[i] == n;
    PieceValueBound(kept[i]);
    assert kept[i] in kept;
  }

  /** A piece parses to a 32-bit integer (0 when it does not parse). */
  lemma PieceValueBound(piece: string)
    ensures Int32Min <= PieceValue(piece) <= Int32Max
  {
  }

  /** Enum.Parse: a member's name, or a number (defined as a member or not). */
  function EnumValue(members: seq<(string, int)>, value: string): Option<int>
  {
    var k := FirstWhere(members, (m: (string, int)) => m.0 == Trim(value));
    if k.Some? then Some(members[k.value].1) else Int32Parse(value)
  }

  /** A member's name always parses, to that member's value; anything else parses only as a 32-bit number. */
  lemma EnumValueSpec(members: seq<(string, int)>, value: string)
    ensures (exists m | m in members :: m.0 == Trim(value)) ==> EnumValue(members, value).Some?
    ensures var r := EnumValue(members, value);
      r.Some? ==> (exists m | m in members :: m.0 == Trim(value) && m.1 == r.value)
                  || (ParseInt(value) == r && Int32Min <= r.value <= Int32Max)
  {
    var k := FirstWhere(members, (m: (string, int)) => m.0 == Trim(value));
    if exists m | m in members :: m.0 == Trim(value) {
      var m :| m in members && m.0 == Trim(value);
      var j :| 0 <= j < |members| && members[j] == m;
      assert k.Some?;
    }
    if k.Some? {
      assert members[k.value] in members;
    }
  }

  /** The conversion of a (non-nullable) value type. */
  function ConvertValue(value: string, kind: ValueKind, culture: Culture): Option<Value>
  {
    match kind
    case EnumK(members) =>
      var n := EnumValue(members, value);
      if n.Some? then Some(VEnum(n.value)) else None
    case BoolK => Some(VBool(value == "1" || EqIgnoreCase(value, "true")))
    case DateTimeK =>
      var t := culture.parseDate(value);
      if t.Some? then Some(VDate(t.value)) else None
    case IntK =>
      var n := Int32Parse(value);
      if n.Some? then Some(VInt(n.value)) else None
    case LongK | ShortK | FractionalK | GuidK | ByteK | OtherK =>
      var c := culture.changeType(kind, value);
      if c.Some? then Some(VConverted(c.value)) else None
  }

  /**
   ConvertCellValue: a string is kept as it is; a nullable type gives null
   for "" and otherwise converts as its underlying type. None is a
   conversion that throws.
   */
  function ConvertCellValue(value: string, t: PropType, culture: Culture): Option<Value>
  {
    match t
    case StringT => Some(VString(value))
    case IntListT => Some(VIntList(IntListValue(value)))
    case ValueT(nullable, kind) =>
      if nullable && value == "" then Some(VNull) else ConvertValue(value, kind, culture)
  }

  /** A bool cell is true exactly for "1" and for "true" in any letter case, and never fails. */
  lemma BoolCell(value: string, nullable: bool, culture: Culture)
    requires value != ""
    ensures ConvertCellValue(value, ValueT(nullable, BoolK), culture) == Some(VBool(value == "1" || Lower(value) == "true"))
  {
    assert Lower("true") == "true";
  }

  /** A nullable column converts a non-empty text exactly as the plain type does. */
  lemma NullableAsUnderlying(value: string, kind: ValueKind, culture: Culture)
    requires value != ""
    ensures ConvertCellValue(value, ValueT(true, kind), culture) == ConvertCellValue(value, ValueT(false, kind), culture)
  {
  }

  /** The decimal texts of a list of numbers. */
  function Decimals(xs: seq<nat>): (r: seq<string>)
    ensures |r| == |xs| && forall i | 0 <= i < |xs| :: r[i] == NatToString(xs[i])
  {
    seq(|xs|, i requires 0 <= i < |xs| => NatToString(xs[i]))
  }

  /** Decimal texts are non-empty and hold no comma. */
  lemma DecimalsShape(xs: seq<nat>)
    ensures forall i | 0 <= i < |xs| :: ',' !in Decimals(xs)[i] && NonEmpty(Decimals(xs)[i])
  {
    var texts := Decimals(xs);
    forall i | 0 <= i < |texts| ensures ',' !in texts[i] && NonEmpty(texts[i]) {
      assert AllDigits(texts[i]);
      forall k | 0 <= k < |texts[i]| ensures texts[i][k] != ',' {
        assert IsDigit(texts[i][k]);
      }
    }
  }

  /** A number's decimal text reads back as the number. */
  lemma PieceValueOfDecimal(x: nat)
    requires x <= Int32Max
    ensures PieceValue(NatToString(x)) == x
  {
    var d := NatToString(x);
    TrimDigits(d);
    ParseNatToString(x);
    PieceValueOfTrimmed(d, x);
  }

  lemma PieceValueOfTrimmed(d: string, x: int)
    requires Trim(d) == d && ParseInt(d) == Some(x) && 0 <= x <= Int32Max
    ensures PieceValue(d) == x
  {
    assert Int32Parse(d) == Some(x);
  }

  /** Each decimal text parses back to its number. */
  lemma DecimalsParse(xs: seq<nat>)
    requires forall i | 0 <= i < |xs| :: xs[i] <= Int32Max
    ensures PieceValues(Decimals(xs)) == xs
  {
    var texts := Decimals(xs);
    var nums := PieceValues(texts);
    forall i | 0 <= i < |xs| ensures nums[i] == xs[i] {
      PieceValueOfDecimal(xs[i]);
    }
    assert |nums| == |xs|;
  }

  /**
   Positive 32-bit numbers written with ", " between them, as the export
   writes a List<int> cell, read back as the same list, and so do they
   written with a bare ','.
   */
  lemma IntListRoundTrip(xs: seq<nat>)
    requires forall i | 0 <= i < |xs| :: 0 < xs[i] <= Int32Max
    ensures IntListValue(JoinWith(Decimals(xs), ", ")) == xs
    ensures IntListValue(Join(Decimals(xs), ',')) == xs
  {
    var texts := Decimals(xs);
    if xs == [] {
      assert Split("", ',') == [""];
      assert Filter([""], NonEmpty) == [];
      assert PieceValues([]) == [];
      assert Filter([], Positive) == [];
    } else {
      DecimalsShape(xs);
      DecimalsParse(xs);
      ReadsBack(Join(texts, ','), texts, xs);
      SpacedReadsBack(xs);
    }
  }

  lemma SpacedReadsBack(xs: seq<nat>)
    requires xs != [] && forall i | 0 <= i < |xs| :: 0 < xs[i] <= Int32Max
    ensures IntListValue(JoinWith(Decimals(xs), ", ")) == xs
  {
    var texts := Decimals(xs);
    var spaced := [texts[0]] + SpaceEach(texts[1..]);
    JoinCommaSpace(texts);
    forall i | 0 <= i < |spaced| ensures ',' !in spaced[i] && NonEmpty(spaced[i]) && PieceValue(spaced[i]) == xs[i] {
      SpacedPiece(xs, i);
    }
    assert PieceValues(spaced) == xs;
    ReadsBack(JoinWith(texts, ", "), spaced, xs);
  }

  lemma SpacedPiece(xs: seq<nat>, i: nat)
    requires i < |xs| && 0 < xs[i] <= Int32Max
    ensures var texts := Decimals(xs);
      var p := if i == 0 then texts[0] else " " + texts[i];
      ',' !in p && NonEmpty(p) && PieceValue(p) == xs[i]
  {
    var d := NatToString(xs[i]);
    DecimalsShape(xs);
    assert Decimals(xs)[i] == d;
    PieceValueOfDecimal(xs[i]);
    if i > 0 {
      assert AllDigits(d);
      TrimLeadingSpace(d);
      assert forall k | 0 <= k < |" " + d| :: (" " + d)[k] != ',' by {
        forall k | 0 <= k < |" " + d| ensures (" " + d)[k] != ',' {
          if k > 0 {
            assert (" " + d)[k] == d[k - 1];
          }
        }
      }
      TrimDigits(d);
      assert Trim(" " + d) == Trim(d);
      assert PieceValue(" " + d) == PieceValue(d);
    }
  }

  /** A text joined from comma-free, non-empty pieces that parse to positive numbers reads back as those numbers. */
  lemma ReadsBack(value: string, pieces: seq<string>, xs: seq<nat>)
    requires |pieces| >= 1 && forall i | 0 <= i < |pieces| :: ',' !in pieces[i] && NonEmpty(pieces[i])
    requires value == Join(pieces, ',') && PieceValues(pieces) == xs
    requires forall i | 0 <= i < |xs| :: 0 < xs[i]
    ensures IntListValue(value) == xs
  {
    SplitJoin(pieces, ',');
    FilterKeepsAll(pieces, NonEmpty);
    var nums: seq<int> := xs;
    FilterKeepsAll(nums, Positive);
  }

  /** Each text with a space in front. */
  function SpaceEach(parts: seq<string>): (r: seq<string>)
    ensures |r| == |parts| && forall i | 0 <= i < |parts| :: r[i] == " " + parts[i]
  {
    seq(|parts|, i requires 0 <= i < |parts| => " " + parts[i])
  }

  /** Joining with ", " is joining with ',' once every part after the first carries its space. */
  lemma JoinCommaSpace(parts: seq<string>)
    requires |parts| >= 1
    ensures JoinWith(parts, ", ") == Join([parts[0]] + SpaceEach(parts[1..]), ',')
  {
    var all := [parts[0]] + SpaceEach(parts[1..]);
    if |parts| > 1 {
      var rest := parts[1..];
      JoinSpaced(rest);
      assert all[1..] == SpaceEach(rest);
      assert Join(all, ',') == parts[0] + [','] + Join(SpaceEach(rest), ',');
      assert JoinWith(parts, ", ") == parts[0] + ", " + JoinWith(rest, ", ");
      CommaSpace(parts[0], JoinWith(rest, ", "));
    }
  }

  lemma CommaSpace(a: string, x: string)
    ensures a + ", " + x == a + [','] + (" " + x)
  {
    assert ", " == [','] + " ";
  }

  lemma {:induction false} JoinSpaced(parts: seq<string>)
    requires |parts| >= 1
    ensures Join(SpaceEach(parts), ',') == " " + JoinWith(parts, ", ")
    decreases |parts|
  {
    var spaced := SpaceEach(parts);
    if |parts| > 1 {
      JoinSpaced(parts[1..]);
      assert spaced[1..] == SpaceEach(parts[1..]);
      assert Join(spaced, ',') == (" " + parts[0]) + [','] + Join(SpaceEach(parts[1..]), ',');
      assert JoinWith(parts, ", ") == parts[0] + ", " + JoinWith(parts[1..], ", ");
      CommaSpace(parts[0], JoinWith(parts[1..], ", "));
    }
  }

  /** A run of digits with a space in front trims to the digits. */
  lemma TrimLeadingSpace(d: string)
    requires |d| >= 1 && AllDigits(d)
    ensures Trim(" " + d) == d
  {
    var t := " " + d;
    assert !IsSpace(t[1]) && !IsSpace(t[|t| - 1]) by {
      assert IsDigit(d[0]) && IsDigit(d[|d| - 1]);
    }
    assert SkipSpaces(t, 0) == 1;
    assert SkipSpacesBack(t, 1, |t|) == |t|;
    assert t[1..] == d;
  }

  /** A filter every element passes keeps the list as it is. */
  lemma {:induction false} FilterKeepsAll<T>(s: seq<T>, p: T -> bool)
    requires forall i | 0 <= i < |s| :: p(s[i])
    ensures Filter(s, p) == s
  {
    if s != [] {
      FilterKeepsAll(s[1..], p);
    }
  }

  // ---------------------------------------------------------------- overlaying

  /** The map built by applying the first `n` settings in order, each overwriting what an earlier one set. */
  function Overlay<K, V>(ss: seq<Option<(K, V)>>, n: nat): (r: map<K, V>)
    requires n <= |ss|
  {
    if n == 0 then map[]
    else
      var item := Overlay(ss, n - 1);
      if ss[n - 1].Some? then item[ss[n - 1].value.0 := ss[n - 1].value.1] else item
  }

  /** One more setting: the map so far, with that setting applied when there is one. */
  lemma OverlayNext<K, V>(ss: seq<Option<(K, V)>>, n: nat)
    requires n < |ss|
    ensures Overlay(ss, n + 1) == if ss[n].Some? then Overlay(ss, n)[ss[n].value.0 := ss[n].value.1] else Overlay(ss, n)
  {
  }

  /** Setting `i` sets key `p`. */
  predicate Sets<K(==), V>(ss: seq<Option<(K, V)>>, i: int, p: K)
  {
    0 <= i < |ss| && ss[i].Some? && ss[i].value.0 == p
  }

  /** A key is set exactly when one of the first `n` settings sets it. */
  lemma {:induction false} OverlayKey<K, V>(ss: seq<Option<(K, V)>>, n: nat, p: K)
    requires n <= |ss|
    ensures p in Overlay(ss, n) <==> exists i | 0 <= i < n :: Sets(ss, i, p)
  {
    if n > 0 {
      OverlayKey(ss, n - 1, p);
      if p in Overlay(ss, n) && !Sets(ss, n - 1, p) {
        var i :| 0 <= i < n - 1 && Sets(ss, i, p);
      }
    }
  }

  /** A set key holds the value of the last setting that sets it. */
  lemma {:induction false} OverlayLastWins<K, V>(ss: seq<Option<(K, V)>>, n: nat, i: nat, p: K)
    requires n <= |ss| && i < n && Sets(ss, i, p)
    requires forall j | i < j < n :: !Sets(ss, j, p)
    ensures p in Overlay(ss, n) && Overlay(ss, n)[p] == ss[i].value.1
  {
    if i < n - 1 {
      assert !Sets(ss, n - 1, p);
      OverlayLastWins(ss, n - 1, i, p);
    }
  }

  /** Settings whose key is their own index. */
  predicate IndexKeyed<V>(ss: seq<Option<(int, V)>>)
  {
    forall j | 0 <= j < |ss| :: ss[j].Some? ==> ss[j].value.0 == j
  }

  /** When every setting's key is its index, key `p` is set exactly by setting `p`, to its value. */
  lemma {:induction false} OverlayIndexed<V>(ss: seq<Option<(int, V)>>, n: nat, p: int)
    requires n <= |ss| && IndexKeyed(ss)
    ensures p in Overlay(ss, n) <==> 0 <= p < n && ss[p].Some?
    ensures p in Overlay(ss, n) ==> Overlay(ss, n)[p] == ss[p].value.1
  {
    if n > 0 {
      OverlayIndexed(ss, n - 1, p);
    }
  }

  // ---------------------------------------------------------------- GetColumnMapping

  /** `Cells[row, col].Text`, 1-based; outside the stored cells it is "". */
  function Text(sheet: Sheet, row: int, col: int): string
  {
    if 1 <= row <= |sheet.cells| && 1 <= col <= |sheet.cells[row - 1]| then sheet.cells[row - 1][col - 1] else ""
  }

  function Header(sheet: Sheet, col: int): string
  {
    Trim(Text(sheet, 1, col))
  }

  /** The property a header binds: the first whose name equals it ignoring case; an empty header binds none. */
  function HeaderProperty(props: seq<Property>, header: string): (r: Option<nat>)
    ensures r.Some? ==> r.value < |props|
  {
    if header == "" then None else FirstWhere(props, (p: Property) => EqIgnoreCase(p.name, header))
  }

  /** The bound property is the first whose name matches; none is bound only when the header is empty or nothing matches. */
  lemma HeaderPropertySpec(props: seq<Property>, header: string)
    ensures var r := HeaderProperty(props, header);
      && (r.Some? ==> header != "" && r.value < |props| && EqIgnoreCase(props[r.value].name, header)
                      && forall j | 0 <= j < r.value :: !EqIgnoreCase(props[j].name, header))
      && (r.None? <==> header == "" || forall j | 0 <= j < |props| :: !EqIgnoreCase(props[j].name, header))
  {
  }

  /** Headers that differ only in letter case bind the same property. */
  lemma HeaderIgnoresCase(props: seq<Property>, h1: string, h2: string)
    requires Lower(h1) == Lower(h2)
    ensures HeaderProperty(props, h1) == HeaderProperty(props, h2)
  {
    var r1 := HeaderProperty(props, h1);
    var r2 := HeaderProperty(props, h2);
    HeaderPropertySpec(props, h1);
    HeaderPropertySpec(props, h2);
    assert h1 == "" <==> h2 == "";
    assert forall j | 0 <= j < |props| :: EqIgnoreCase(props[j].name, h1) == EqIgnoreCase(props[j].name, h2);
    if r1.Some? && r2.Some? {
      assert !(r1.value < r2.value) && !(r2.value < r1.value);
    }
  }

  /** What column `col`'s header contributes to the mapping: the column and the property its header binds. */
  function HeaderBinding(sheet: Sheet, props: seq<Property>, col: int): (r: Option<(int, nat)>)
    ensures r.Some? ==> r.value.0 == col && r.value.1 < |props|
  {
    var b := HeaderProperty(props, Header(sheet, col));
    if b.Some? then Some((col, b.value)) else None
  }

  /** Every column's header binding, indexed by column number (there is no column 0). */
  function Bindings(sheet: Sheet, props: seq<Property>): (r: seq<Option<(int, nat)>>)
    ensures |r| == sheet.columns + 1 && r[0].None? && IndexKeyed(r)
    ensures forall c | 0 <= c < |r| :: r[c].Some? ==> r[c].value.1 < |props|
  {
    seq(sheet.columns + 1, c requires 0 <= c <= sheet.columns => if c == 0 then None else HeaderBinding(sheet, props, c))
  }

  lemma BindingsAt(sheet: Sheet, props: seq<Property>, col: int)
    requires 1 <= col <= sheet.columns
    ensures Bindings(sheet, props)[col] == HeaderBinding(sheet, props, col)
  {
  }

  /** The column-to-property mapping: the header bindings applied in column order. */
  function ColumnMapping(sheet: Sheet, props: seq<Property>): map<int, nat>
  {
    Overlay(Bindings(sheet, props), sheet.columns + 1)
  }

  /** GetColumnMapping: one pass over the header row; a column whose header binds no property is left out. */
  method GetColumnMapping(sheet: Sheet, props: seq<Property>) returns (mapping: map<int, nat>)
    ensures mapping == ColumnMapping(sheet, props)
  {
    ghost var bs := Bindings(sheet, props);
    mapping := map[];
    var col := 1;
    while col <= sheet.columns
      invariant 1 <= col <= sheet.columns + 1
      invariant mapping == Overlay(bs, col)
    {
      var binding := HeaderBinding(sheet, props, col);
      BindingsAt(sheet, props, col);
      if binding.Some? {
        mapping := mapping[col := binding.value.1];
      }
      col := col + 1;
    }
  }

  /** A column is mapped exactly when its header binds a property, and then to that property. */
  lemma ColumnMappingSpec(sheet: Sheet, props: seq<Property>, c: int)
    ensures var m := ColumnMapping(sheet, props);
      && (c in m <==> 1 <= c <= sheet.columns && HeaderProperty(props, Header(sheet, c)).Some?)
      && (c in m ==> m[c] == HeaderProperty(props, Header(sheet, c)).value && m[c] < |props|)
  {
    var bs := Bindings(sheet, props);
    OverlayIndexed(bs, sheet.columns + 1, c);
    if 1 <= c <= sheet.columns {
      BindingsAt(sheet, props, c);
    }
  }

  /** The column mapping only names existing properties. */
  lemma ColumnMappingInto(sheet: Sheet, props: seq<Property>)
    ensures MappingInto(ColumnMapping(sheet, props), props)
  {
    forall c | c in ColumnMapping(sheet, props) ensures ColumnMapping(sheet, props)[c] < |props| {
      ColumnMappingSpec(sheet, props, c);
    }
  }

  // ---------------------------------------------------------------- ImportFromExcel

  /** A mapping from columns to property indices. */
  predicate MappingInto(mapping: map<int, nat>, props: seq<Property>)
  {
    forall c | c in mapping :: mapping[c] < |props|
  }

  /** What one cell sets: a property index and its value. */
  type Setting = Option<(nat, Value)>

  /**
   What the cell at (`row`, `col`) sets: the property its column is mapped
   to and the converted text, or nothing for an unmapped column, a blank
   cell or a conversion that throws.
   */
  function CellSetting(sheet: Sheet, props: seq<Property>, mapping: map<int, nat>, row: int, col: int, culture: Culture)
    : (r: Setting)
    requires MappingInto(mapping, props)
    ensures r.Some? ==> col in mapping && r.value.0 == mapping[col]
  {
    var cell := Trim(Text(sheet, row, col));
    if col in mapping && !IsBlank(cell) then
      var v := ConvertCellValue(cell, props[mapping[col]].ptype, culture);
      if v.Some? then Some((mapping[col], v.value)) else None
    else None
  }

  /** What each cell of one row sets, indexed by column number (there is no column 0). */
  function Settings(sheet: Sheet, props: seq<Property>, mapping: map<int, nat>, row: int, culture: Culture)
    : (r: seq<Setting>)
    requires MappingInto(mapping, props)
    ensures |r| == sheet.columns + 1 && r[0].None?
  {
    seq(sheet.columns + 1, c requires 0 <= c <= sheet.columns =>
      if c == 0 then None else CellSetting(sheet, props, mapping, row, c, culture))
  }

  lemma SettingsAt(sheet: Sheet, props: seq<Property>, mapping: map<int, nat>, row: int, culture: Culture, col: int)
    requires MappingInto(mapping, props) && 1 <= col <= sheet.columns
    ensures Settings(sheet, props, mapping, row, culture)[col] == CellSetting(sheet, props, mapping, row, col, culture)
  {
  }

  /** The record read from one row: every column's setting applied in column order. */
  function RowItem(sheet: Sheet, props: seq<Property>, mapping: map<int, nat>, row: int, culture: Culture): (r: Item)
    requires MappingInto(mapping, props)
  {
    Overlay(Settings(sheet, props, mapping, row, culture), sheet.columns + 1)
  }

  /** Every field of a row's record is a property index that some mapped column of that row set. */
  lemma RowItemFields(sheet: Sheet, props: seq<Property>, mapping: map<int, nat>, row: int, culture: Culture, p: nat)
    requires MappingInto(mapping, props)
    ensures p in RowItem(sheet, props, mapping, row, culture) ==>
      p < |props| && exists c | 1 <= c <= sheet.columns :: c in mapping && mapping[c] == p
  {
    var ss := Settings(sheet, props, mapping, row, culture);
    OverlayKey(ss, sheet.columns + 1, p);
    if p in RowItem(sheet, props, mapping, row, culture) {
      var c :| 0 <= c <= sheet.columns && Sets(ss, c, p);
      assert c != 0;
      SettingsAt(sheet, props, mapping, row, culture, c);
      assert c in mapping && mapping[c] == p;
    }
  }

  /** The records of rows 2 to n + 1, in row order. */
  function Rows(sheet: Sheet, props: seq<Property>, mapping: map<int, nat>, culture: Culture, n: nat): (r: seq<Item>)
    requires MappingInto(mapping, props)
    ensures |r| == n
  {
    if n == 0 then [] else Rows(sheet, props, mapping, culture, n - 1) + [RowItem(sheet, props, mapping, n + 1, culture)]
  }

  /** Record i is the one read from row i + 2. */
  lemma {:induction false} RowsAt(sheet: Sheet, props: seq<Property>, mapping: map<int, nat>, culture: Culture, n: nat, i: nat)
    requires MappingInto(mapping, props) && i < n
    ensures Rows(sheet, props, mapping, culture, n)[i] == RowItem(sheet, props, mapping, i + 2, culture)
  {
    if i < n - 1 {
      RowsAt(sheet, props, mapping, culture, n - 1, i);
    }
  }

  /** The records of rows 2 to the last row, read through the sheet's column mapping. */
  function ImportedRows(sheet: Sheet, props: seq<Property>, culture: Culture): (r: seq<Item>)
    ensures |r| == if sheet.rows >= 2 then sheet.rows - 1 else 0
  {
    ColumnMappingInto(sheet, props);
    Rows(sheet, props, ColumnMapping(sheet, props), culture, if sheet.rows >= 2 then sheet.rows - 1 else 0)
  }

  /** The inner loop of ImportFromExcel: reads one row, column by column; a later column overwrites an earlier one. */
  method ReadRow(sheet: Sheet, props: seq<Property>, mapping: map<int, nat>, row: int, culture: Culture)
    returns (item: Item)
    requires MappingInto(mapping, props)
    ensures item == RowItem(sheet, props, mapping, row, culture)
  {
    ghost var ss := Settings(sheet, props, mapping, row, culture);
    item := map[];
    var col := 1;
    while col <= sheet.columns
      invariant 1 <= col <= sheet.columns + 1
      invariant item == Overlay(ss, col)
    {
      var setting := CellSetting(sheet, props, mapping, row, col, culture);
      SettingsAt(sheet, props, mapping, row, culture, col);
      OverlayNext(ss, col);
      if setting.Some? {
        item := item[setting.value.0 := setting.value.1];
      }
      col := col + 1;
    }
  }

  /** ImportFromExcel: refuses a missing or empty upload and a workbook without sheets; otherwise reads the first sheet. */
  method ImportFromExcel(file: Option<Workbook>, props: seq<Property>, culture: Culture)
    returns (message: string, result: seq<Item>)
    ensures (file.None? || file.value.length == 0) ==> message == MsgNoFile && result == []
    ensures file.Some? && file.value.length > 0 && file.value.sheets == [] ==> message == MsgNoSheet && result == []
    ensures file.Some? && file.value.length > 0 && file.value.sheets != [] ==>
      message == "" && result == ImportedRows(file.value.sheets[0], props, culture)
  {
    if file.None? || file.value.length == 0 {
      return MsgNoFile, [];
    }
    if file.value.sheets == [] {
      return MsgNoSheet, [];
    }
    var sheet := file.value.sheets[0];
    var mapping := GetColumnMapping(sheet, props);
    ColumnMappingInto(sheet, props);
    result := [];
    var row := 2;
    while row <= sheet.rows
      invariant 2 <= row <= if sheet.rows >= 2 then sheet.rows + 1 else 2
      invariant result == Rows(sheet, props, mapping, culture, row - 2)
    {
      var item := ReadRow(sheet, props, mapping, row, culture);
      result := result + [item];
      row := row + 1;
    }
    message := "";
  }

  // ---------------------------------------------------------------- GenerateExcelFile

  /** The column width the export gives a value type. */
  function KindWidth(kind: ValueKind): nat
  {
    match kind
    case DateTimeK => 18
    case BoolK => 10
    case EnumK(_) => 20
    case IntK | LongK | ShortK => 12
    case FractionalK => 15
    case GuidK => 36
    case ByteK => 8
    case OtherK => 25
  }

  /**
   The column width of a property's type: nullable types are as wide as
   their underlying type; a type the switch does not name, List<int>
   among them, gets the fallback 25.
   */
  function ColumnWidth(t: PropType): (r: nat)
    ensures t == StringT ==> r == 30
    ensures t == IntListT ==> r == 25
    ensures t.ValueT? ==> r == KindWidth(t.kind)
    ensures t.ValueT? ==>
      && (t.kind == DateTimeK ==> r == 18)
      && (t.kind == BoolK ==> r == 10)
      && (t.kind.EnumK? ==> r == 20)
      && (t.kind in {IntK, LongK, ShortK} ==> r == 12)
      && (t.kind == FractionalK ==> r == 15)
      && (t.kind == GuidK ==> r == 36)
      && (t.kind == ByteK ==> r == 8)
      && (t.kind == OtherK ==> r == 25)
    ensures 8 <= r <= 36
  {
    match t
    case StringT => 30
    case IntListT => 25
    case ValueT(_, kind) => KindWidth(kind)
  }

  /** An exported sheet: a header row of (name, width) and the records' values by column. */
  datatype Export = Export(header: seq<(string, nat)>, rows: seq<seq<Value>>)

  /**
   GenerateExcelFile: a null or empty list gives the empty stream (None);
   otherwise the header row names every property and each record fills the
   row below the previous one.
   */
  function GenerateExcelFile(props: seq<Property>, data: Option<seq<seq<Value>>>): (r: Option<Export>)
    ensures r.None? <==> data.None? || data.value == []
    ensures r.Some? ==> (|r.value.header| == |props| && r.value.rows == data.value
      && forall i | 0 <= i < |props| :: r.value.header[i] == (props[i].name, ColumnWidth(props[i].ptype)))
  {
    if data.None? || data.value == [] then None
    else Some(Export(seq(|props|, i requires 0 <= i < |props| => (props[i].name, ColumnWidth(props[i].ptype))), data.value))
  }
}

=== FILE: frontend_common.dfy ===
/**
 The web client's shared helpers (frontend/src/helpers/common.ts): zero
 padding, the exam timer text, role-id normalisation, the dd/MM/yyyy date
 text, the question-button classes, score rounding and the select-option
 conversion. JavaScript numbers are modelled as integers where the helper
 is only given whole numbers, and as reals for the score.
 */
module FrontendCommon {
  import opened Common

  // ---------------------------------------------------------------- padding

  /** `s.padStart(width, c)`: c repeated in front until the text is `width` long. */
  function PadStart(s: string, width: nat, c: char): (r: string)
    ensures |r| == if |s| >= width then |s| else width
    ensures IsSuffix(s, r)
    ensures forall i | 0 <= i < |r| - |s| :: r[i] == c
  {
    if |s| >= width then s else seq(width - |s|, _ => c) + s
  }

  /** addLeadingZero: the number's text padded with '0' to at least two characters. */
  function AddLeadingZero(n: int): (r: string)
    ensures |r| >= 2
  {
    PadStart(IntToString(n), 2, '0')
  }

  /** A one-digit number's text is that digit. */
  lemma SingleDigit(n: nat)
    requires n < 10
    ensures IntToString(n) == [DigitChar(n)]
    ensures DigitValue(DigitChar(n)) == n
  {
    DigitsOfNat(n);
  }

  /** Every padded number reads back as the number: the padding only adds leading zeros. */
  lemma AddLeadingZeroParses(n: int)
    ensures ParseInt(AddLeadingZero(n)) == Some(n)
  {
    var s := IntToString(n);
    if |s| >= 2 {
      ParseIntToString(n);
    } else {
      assert n >= 0;
      SingleDigit(n);
      var r := AddLeadingZero(n);
      assert r == ['0', DigitChar(n)];
      ParseDigits(r);
      assert r[..1] == "0";
    }
  }

  /** No rendered integer holds a space or a '/'. */
  lemma IntTextPlain(n: int)
    ensures ' ' !in IntToString(n) && '/' !in IntToString(n)
    ensures ' ' !in AddLeadingZero(n) && '/' !in AddLeadingZero(n)
  {
    var d := NatToString(if n < 0 then -n else n);
    assert forall i | 0 <= i < |d| :: IsDigit(d[i]);
  }

  // ---------------------------------------------------------------- the timer text

  /** JavaScript's `s % 60`: the remainder takes the sign of s. */
  function JsRem60(s: int): (r: int)
    ensures -60 < r < 60
    ensures s >= 0 ==> 0 <= r
    ensures s < 0 ==> r <= 0
  {
    if s >= 0 then s % 60 else -((-s) % 60)
  }

  /** formatTime: `${Math.floor(s / 60)}m : ${(s % 60) padded to 2}s`. */
  function FormatTime(seconds: int): string
  {
    TimeText(seconds / 60, JsRem60(seconds))
  }

  /** The timer template: the minutes, "m : ", the seconds padded to two characters, "s". */
  function TimeText(minutes: int, remaining: int): string
  {
    IntToString(minutes) + "m : " + PadStart(IntToString(remaining), 2, '0') + "s"
  }

  /** Reads a "<m>m : <s>s" text back into m * 60 + s, or None when it is not of that shape. */
  function ReadTime(t: string): (r: Option<int>)
  {
    ReadTimeParts(Split(t, ' '))
  }

  /** The three space-separated pieces "<m>m", ":" and "<s>s", read as m * 60 + s. */
  function ReadTimeParts(parts: seq<string>): (r: Option<int>)
  {
    if |parts| == 3 && parts[1] == ":" && |parts[0]| >= 1 && parts[0][|parts[0]| - 1] == 'm'
       && |parts[2]| >= 1 && parts[2][|parts[2]| - 1] == 's'
    then
      var m := ParseInt(parts[0][..|parts[0]| - 1]);
      var s := ParseInt(parts[2][..|parts[2]| - 1]);
      if m.Some? && s.Some? then Some(m.value * 60 + s.value) else None
    else None
  }

  /** Three pieces free of the separator, written with the separator between them, split back into those pieces. */
  lemma Split3(x: string, y: string, z: string, sep: char)
    requires sep !in x && sep !in y && sep !in z
    ensures Split(x + [sep] + y + [sep] + z, sep) == [x, y, z]
  {
    assert x + [sep] + y + [sep] + z == x + [sep] + (y + [sep] + z);
    SplitFirst(x, sep, y + [sep] + z);
    SplitFirst(y, sep, z);
    IndexOfAbsent(z, sep);
  }

  /** The timer text's fixed pieces: "m", a space, ":", a space, and "s" at the end. */
  lemma TimeTextShape(a: string, b: string)
    ensures a + "m : " + b + "s" == (a + "m") + [' '] + ":" + [' '] + (b + "s")
  {
    var t := a + "m : " + b + "s";
    var u := (a + "m") + [' '] + ":" + [' '] + (b + "s");
    assert |t| == |u|;
    forall i | 0 <= i < |t| ensures t[i] == u[i] {
      if i < |a| {
      } else if i < |a| + 4 {
      } else {
      }
    }
  }

  /** The pieces of a timer text whose numbers parse read as minutes times 60 plus seconds. */
  lemma ReadTimeOf(a: string, b: string, m: int, sec: int)
    requires ParseInt(a) == Some(m) && ParseInt(b) == Some(sec)
    ensures ReadTimeParts([a + "m", ":", b + "s"]) == Some(m * 60 + sec)
  {
    var parts := [a + "m", ":", b + "s"];
    assert parts[0][..|parts[0]| - 1] == a;
    assert parts[2][..|parts[2]| - 1] == b;
  }

  /** Any minutes and seconds written by the template read back as minutes times 60 plus seconds. */
  lemma TimeTextReads(m: int, rem: int)
    ensures ReadTime(TimeText(m, rem)) == Some(m * 60 + rem)
  {
    var a, b := IntToString(m), AddLeadingZero(rem);
    var parts := [a + "m", ":", b + "s"];
    IntTextPlain(m);
    IntTextPlain(rem);
    var t := TimeText(m, rem);
    assert Split(t, ' ') == parts by {
      assert t == a + "m : " + b + "s";
      TimeTextShape(a, b);
      Split3(a + "m", ":", b + "s", ' ');
    }
    assert ReadTimeParts(parts) == Some(m * 60 + rem) by {
      ParseIntToString(m);
      AddLeadingZeroParses(rem);
      ReadTimeOf(a, b, m, rem);
    }
  }

  /** Floored minutes and JavaScript's remainder add back up for a non-negative count. */
  lemma MinutesAndSeconds(seconds: int)
    requires seconds >= 0
    ensures seconds / 60 * 60 + JsRem60(seconds) == seconds
    ensures 0 <= JsRem60(seconds) < 60
  {
  }

  /** For a negative count the floored minutes and the truncated remainder disagree: -30 reads back as -90. */
  lemma FormatTimeNegative()
    ensures ReadTime(FormatTime(-30)) == Some(-90)
  {
    assert -30 / 60 == -1 && JsRem60(-30) == -30;
    TimeTextReads(-1, -30);
  }

  // ---------------------------------------------------------------- role ids

  /** Where the run of decimal digits that starts at `i` ends. */
  function DigitRun(s: string, i: nat): (r: nat)
    requires i <= |s|
    ensures i <= r <= |s| && (r == |s| || !IsDigit(s[r]))
    ensures forall k | i <= k < r :: IsDigit(s[k])
    decreases |s| - i
  {
    if i < |s| && IsDigit(s[i]) then DigitRun(s, i + 1) else i
  }

  /**
   `parseInt(s, 10)`: leading white space, an optional sign, then the longest
   run of digits; NaN (None) when there is no digit. Anything after the
   digits is ignored.
   */
  function JsParseInt(s: string): (r: Option<int>)
  {
    var t := s[SkipSpaces(s, 0)..];
    var negative := |t| > 0 && t[0] == '-';
    var body := if |t| > 0 && (t[0] == '-' || t[0] == '+') then t[1..] else t;
    var n := DigitRun(body, 0);
    if n == 0 then None
    else
      var v: int := DigitsValue(body[..n]);
      Some(if negative then -v else v)
  }

  /** What normalizeRoleId is given: an array of values or a single value, each as its string form. */
  datatype RoleIdInput = Many(items: seq<string>) | One(item: string)

  /** The values f gives the items it accepts, in order (`map(f).filter(v => !isNaN(v))`). */
  function KeepParsed<T>(items: seq<T>, f: T -> Option<int>): (r: seq<int>)
    ensures |r| <= |items|
  {
    if items == [] then []
    else
      var rest := KeepParsed(items[1..], f);
      match f(items[0])
      case Some(v) => [v] + rest
      case None => rest
  }

  /** normalizeRoleId: an array maps through parseInt with NaN dropped; a single value gives [n] or []. */
  function NormalizeRoleId(input: RoleIdInput): (r: seq<int>)
  {
    match input
    case Many(items) => KeepParsed(items, JsParseInt)
    case One(item) => if JsParseInt(item).Some? then [JsParseInt(item).value] else []
  }

  /** Every kept value is f's value for some item, and every item f accepts contributes its value. */
  lemma {:induction false} KeepParsedMembers<T>(items: seq<T>, f: T -> Option<int>)
    ensures forall v | v in KeepParsed(items, f) :: exists x | x in items :: f(x) == Some(v)
    ensures forall x | x in items && f(x).Some? :: f(x).value in KeepParsed(items, f)
  {
    if items != [] {
      KeepParsedMembers(items[1..], f);
      assert forall x | x in items[1..] :: x in items;
      assert forall x | x in items :: x == items[0] || x in items[1..];
    }
  }

  /** Nothing is dropped exactly when f accepts every item. */
  lemma {:induction false} KeepParsedAll<T>(items: seq<T>, f: T -> Option<int>)
    ensures |KeepParsed(items, f)| == |items| <==> forall x | x in items :: f(x).Some?
  {
    if items != [] {
      KeepParsedAll(items[1..], f);
      assert forall x | x in items[1..] :: x in items;
      assert forall x | x in items :: x == items[0] || x in items[1..];
    }
  }

  /** A single value that does not parse gives the empty list; one that does gives exactly its value. */
  lemma NormalizeOne(item: string)
    ensures NormalizeRoleId(One(item)) == [] <==> JsParseInt(item).None?
    ensures |NormalizeRoleId(One(item))| <= 1
  {
  }

  /** parseInt reads every rendered integer back. */
  lemma JsParseIntToString(n: int)
    ensures JsParseInt(IntToString(n)) == Some(n)
  {
    var m: nat := if n < 0 then -n else n;
    var d := NatToString(m);
    DigitsOfNat(m);
    assert !IsSpace(IntToString(n)[0]);
    assert body: (if n < 0 then IntToString(n)[1..] else IntToString(n)) == d;
    assert DigitRun(d, 0) == |d| by {
      DigitRunAll(d, 0);
    }
    assert d[..|d|] == d;
  }

  /** A run of digits to the end of the text is read whole. */
  lemma {:induction false} DigitRunAll(d: string, i: nat)
    requires i <= |d| && AllDigits(d)
    ensures DigitRun(d, i) == |d|
    decreases |d| - i
  {
    if i < |d| {
      DigitRunAll(d, i + 1);
    }
  }

  function Rendered(ids: seq<int>): (r: seq<string>)
    ensures |r| == |ids|
  {
    if ids == [] then [] else [IntToString(ids[0])] + Rendered(ids[1..])
  }

  /** Role ids sent as their decimal texts normalise back to the same ids, in order. */
  lemma {:induction false} NormalizeRendered(ids: seq<int>)
    ensures NormalizeRoleId(Many(Rendered(ids))) == ids
  {
    if ids != [] {
      NormalizeRendered(ids[1..]);
      JsParseIntToString(ids[0]);
      assert Rendered(ids)[1..] == Rendered(ids[1..]);
    }
  }

  /** parseInt stops at the first non-digit: "12abc" is 12 and "abc" is NaN. */
  lemma JsParseIntLenient()
    ensures JsParseInt("12abc") == Some(12)
    ensures JsParseInt("abc") == None
  {
    var s := "12abc";
    assert SkipSpaces(s, 0) == 0;
    assert DigitRun(s, 0) == 2;
    assert s[..2] == "12" && s[..2][..1] == "1";
    assert DigitsValue("1") == 1 by {
      assert "1"[..0] == "";
    }
    assert DigitsValue("12") == 12;
    var t := "abc";
    assert SkipSpaces(t, 0) == 0;
    assert !IsDigit(t[0]) && DigitRun(t, 0) == 0;
  }

  // ---------------------------------------------------------------- dates

  /** The calendar fields a Date gives: getDate(), getMonth() (0-based) and getFullYear(). */
  datatype Date = Date(day: int, month0: int, year: int)

  /** formatDateToDMY: day and month + 1 padded to two digits, then the year, separated by '/'. */
  function FormatDateToDMY(date: Date): string
  {
    PadStart(IntToString(date.day), 2, '0') + "/" + PadStart(IntToString(date.month0 + 1), 2, '0')
      + "/" + IntToString(date.year)
  }

  /** Reads "dd/MM/yyyy" back into a Date with a 0-based month. */
  function ReadDMY(t: string): (r: Option<Date>)
  {
    var parts := Split(t, '/');
    if |parts| != 3 then None
    else
      match (ParseInt(parts[0]), ParseInt(parts[1]), ParseInt(parts[2]))
      case (Some(d), Some(m), Some(y)) => Some(Date(d, m - 1, y))
      case _ => None
  }

  /** The date text splits at '/' into the padded day, the padded month and the year. */
  lemma DMYFields(date: Date)
    ensures Split(FormatDateToDMY(date), '/')
         == [AddLeadingZero(date.day), AddLeadingZero(date.month0 + 1), IntToString(date.year)]
  {
    var a, b, c := AddLeadingZero(date.day), AddLeadingZero(date.month0 + 1), IntToString(date.year);
    IntTextPlain(date.day);
    IntTextPlain(date.month0 + 1);
    IntTextPlain(date.year);
    assert FormatDateToDMY(date) == a + ['/'] + b + ['/'] + c;
    Split3(a, b, c, '/');
  }

  /** The date text reads back as the date. */
  lemma DMYRoundTrip(date: Date)
    ensures ReadDMY(FormatDateToDMY(date)) == Some(date)
  {
    DMYFields(date);
    AddLeadingZeroParses(date.day);
    AddLeadingZeroParses(date.month0 + 1);
    ParseIntToString(date.year);
  }

  /** A number from 1 to 99 pads to exactly two characters. */
  lemma TwoDigits(n: int)
    requires 1 <= n <= 99
    ensures |AddLeadingZero(n)| == 2
  {
    if n >= 10 {
      assert NatToString(n) == NatToString(n / 10) + [DigitChar(n % 10)];
    }
  }

  // ---------------------------------------------------------------- question buttons

  /**
   getQuestionButtonClass: the palette button's classes for the current,
   answered and marked states, as the list of class words the text holds.
   The base words come first; marked is tested before answered; current
   adds the ring at the end.
   */
  function GetQuestionButtonClass(isCurrent: bool, isSelected: bool, isMarked: bool): (r: seq<string>)
    ensures |r| >= 3 && r[..2] == ["transition-colors", "duration-200"]
  {
    ["transition-colors", "duration-200"]
    + (if isMarked then ["bg-yellow-100", "text-gray-900"]
       else if isSelected then ["bg-blue-500", "text-white"]
       else ["border-gray-300"])
    + (if isCurrent then ["ring-2", "ring-blue-500"] else [])
  }

  /** The ring is there exactly for the current question; marked wins over answered; the colours never mix. */
  lemma ButtonClassStates(isCurrent: bool, isSelected: bool, isMarked: bool)
    ensures "ring-2" in GetQuestionButtonClass(isCurrent, isSelected, isMarked) <==> isCurrent
    ensures "bg-yellow-100" in GetQuestionButtonClass(isCurrent, isSelected, isMarked) <==> isMarked
    ensures "bg-blue-500" in GetQuestionButtonClass(isCurrent, isSelected, isMarked) <==> !isMarked && isSelected
    ensures "border-gray-300" in GetQuestionButtonClass(isCurrent, isSelected, isMarked) <==> !isMarked && !isSelected
  {
    var w := GetQuestionButtonClass(isCurrent, isSelected, isMarked);
    assert "ring-2"[0] != "transition-colors"[0] && "ring-2" != "duration-200";
    assert "ring-2" != "bg-yellow-100" && "ring-2" != "text-gray-900" && "ring-2" != "bg-blue-500";
    assert "ring-2" != "text-white" && "ring-2" != "border-gray-300";
    assert "bg-yellow-100"[3] != "bg-blue-500"[3] && "bg-yellow-100"[0] != "text-white"[0];
    assert "bg-yellow-100"[1] != "border-gray-300"[1] && "bg-yellow-100"[0] != "ring-blue-500"[0];
    assert "bg-yellow-100"[0] != "transition-colors"[0] && "bg-yellow-100"[0] != "duration-200"[0];
    assert "bg-yellow-100"[0] != "text-gray-900"[0];
    assert "bg-blue-500"[0] != "text-gray-900"[0] && "bg-blue-500"[0] != "text-white"[0];
    assert "bg-blue-500"[1] != "border-gray-300"[1] && "bg-blue-500"[0] != "ring-blue-500"[0];
    assert "bg-blue-500"[0] != "transition-colors"[0] && "bg-blue-500"[0] != "duration-200"[0];
    assert "border-gray-300"[1] != "bg-yellow-100"[1] && "border-gray-300"[0] != "text-gray-900"[0];
    assert "border-gray-300"[1] != "bg-blue-500"[1] && "border-gray-300"[0] != "text-white"[0];
    assert "border-gray-300"[0] != "ring-blue-500"[0] && "border-gray-300"[0] != "ring-2"[0];
    assert "border-gray-300"[0] != "transition-colors"[0] && "border-gray-300"[0] != "duration-200"[0];
  }

  // ---------------------------------------------------------------- scores

  /** formatScore: anything above 10 shows as 10; otherwise `Math.round(score * 10) / 10`, half rounding up. */
  function FormatScore(score: real): real
  {
    if score > 10.0 then 10.0 else (score * 10.0 + 0.5).Floor as real / 10.0
  }

  /** A shown score is never above 10, is a whole number of tenths, and lies within half a tenth of a score up to 10. */
  lemma FormatScoreBounds(score: real)
    ensures FormatScore(score) <= 10.0
    ensures (FormatScore(score) * 10.0).Floor as real == FormatScore(score) * 10.0
    ensures score > 10.0 ==> FormatScore(score) == 10.0
    ensures score <= 10.0 ==> score - 0.05 < FormatScore(score) <= score + 0.05
  {
    if score <= 10.0 {
      var k := (score * 10.0 + 0.5).Floor;
      assert k as real <= score * 10.0 + 0.5 < k as real + 1.0;
      assert k <= 100 by {
        assert score * 10.0 + 0.5 < 101.0;
      }
      assert (k as real / 10.0) * 10.0 == k as real;
    }
  }

  /** A higher score never shows lower. */
  lemma FormatScoreMonotone(a: real, b: real)
    requires a <= b
    ensures FormatScore(a) <= FormatScore(b)
  {
    if b > 10.0 {
      FormatScoreBounds(a);
    } else {
      var ka, kb := (a * 10.0 + 0.5).Floor, (b * 10.0 + 0.5).Floor;
      assert ka as real <= a * 10.0 + 0.5 <= b * 10.0 + 0.5 < kb as real + 1.0;
      assert ka <= kb;
      assert FormatScore(a) == ka as real / 10.0 && FormatScore(b) == kb as real / 10.0;
    }
  }

  // ---------------------------------------------------------------- select options

  /**
   One entry convertToFormSelect produces: `{label: el, value: el}` for a
   plain element, `{...el, label, value}` for a record (the label kept as `shown`), or the
   `{label: 'None', value: ''}` entry.
   */
  datatype SelectOption<T> = Plain(el: T) | Labeled(el: T, shown: string, value: string) | NoneOption

  /** A field name given as a JavaScript value: missing or "" is falsy. */
  predicate Truthy(field: Option<string>)
  {
    field.Some? && field.value != ""
  }

  function PlainOptions<T>(list: seq<T>): (r: seq<SelectOption<T>>)
    ensures |r| == |list|
    ensures forall i | 0 <= i < |r| :: r[i] == Plain(list[i])
  {
    if list == [] then [] else [Plain(list[0])] + PlainOptions(list[1..])
  }

  /** `{...el, label: el[fieldForLabel] ?? 'None', value: el[fieldForValue] ?? ''}`. */
  function LabeledOption<T>(el: T, lookup: (T, string) -> Option<string>, fieldForLabel: string, fieldForValue: string): (r: SelectOption<T>)
    ensures r.Labeled? && r.el == el
    ensures lookup(el, fieldForLabel).None? ==> r.shown == "None"
    ensures lookup(el, fieldForLabel).Some? ==> r.shown == lookup(el, fieldForLabel).value
    ensures lookup(el, fieldForValue).None? ==> r.value == ""
    ensures lookup(el, fieldForValue).Some? ==> r.value == lookup(el, fieldForValue).value
  {
    var l := lookup(el, fieldForLabel);
    var v := lookup(el, fieldForValue);
    Labeled(el, if l.Some? then l.value else "None", if v.Some? then v.value else "")
  }

  function LabeledOptions<T>(list: seq<T>, lookup: (T, string) -> Option<string>, fieldForLabel: string, fieldForValue: string): (r: seq<SelectOption<T>>)
    ensures |r| == |list|
    ensures forall i | 0 <= i < |r| :: r[i] == LabeledOption(list[i], lookup, fieldForLabel, fieldForValue)
  {
    if list == [] then []
    else [LabeledOption(list[0], lookup, fieldForLabel, fieldForValue)] + LabeledOptions(list[1..], lookup, fieldForLabel, fieldForValue)
  }

  /**
   convertToFormSelect: without both field names each element becomes its own
   label and value; with them each record gets its label field (or 'None')
   and value field (or ''), after a leading None entry when asked for.
   `lookup(el, f)` is `el[f]`, None when it is null or undefined.
   */
  function ConvertToFormSelect<T>(list: seq<T>, fieldForLabel: Option<string>, fieldForValue: Option<string>,
                                  noneOption: bool, lookup: (T, string) -> Option<string>): (r: seq<SelectOption<T>>)
    ensures !(Truthy(fieldForLabel) && Truthy(fieldForValue)) ==> |r| == |list|
    ensures Truthy(fieldForLabel) && Truthy(fieldForValue) ==> |r| == |list| + (if noneOption then 1 else 0)
    ensures |r| > 0 ==> (r[0].NoneOption? <==> Truthy(fieldForLabel) && Truthy(fieldForValue) && noneOption)
  {
    if !Truthy(fieldForLabel) || !Truthy(fieldForValue) then PlainOptions(list)
    else
      var listReturn := LabeledOptions(list, lookup, fieldForLabel.value, fieldForValue.value);
      if noneOption then [NoneOption] + listReturn else listReturn
  }

  /** The elements behind the options, None entries skipped. */
  function Elements<T>(options: seq<SelectOption<T>>): seq<T>
  {
    if options == [] then []
    else if options[0].NoneOption? then Elements(options[1..])
    else [options[0].el] + Elements(options[1..])
  }

  /** Every conversion keeps the list's elements, in order, one option each. */
  lemma {:induction false} ConvertKeepsElements<T>(list: seq<T>, fieldForLabel: Option<string>, fieldForValue: Option<string>,
                                                   noneOption: bool, lookup: (T, string) -> Option<string>)
    ensures Elements(ConvertToFormSelect(list, fieldForLabel, fieldForValue, noneOption, lookup)) == list
  {
    var r := ConvertToFormSelect(list, fieldForLabel, fieldForValue, noneOption, lookup);
    if Truthy(fieldForLabel) && Truthy(fieldForValue) && noneOption {
      assert r[1..] == LabeledOptions(list, lookup, fieldForLabel.value, fieldForValue.value);
      ElementsOfOptions(r[1..], list);
    } else {
      ElementsOfOptions(r, list);
    }
  }

  lemma {:induction false} ElementsOfOptions<T>(options: seq<SelectOption<T>>, list: seq<T>)
    requires |options| == |list|
    requires forall i | 0 <= i < |options| :: !options[i].NoneOption? && options[i].el == list[i]
    ensures Elements(options) == list
  {
    if options != [] {
      ElementsOfOptions(options[1..], list[1..]);
    }
  }
}

=== FILE: jwt_authentication.dfy ===
/**
 The claims of the access token (JwtAuthentication.cs): what GenerateJwtToken
 writes into the token and what ParseJwtToken reads back, in particular the
 `RoleIds` claim, a comma-separated list of role numbers. Signing, expiry
 and signature checking are library calls: the outcome of validation is a
 parameter (`Validation`).
 */
module JwtAuthentication {
  import opened Common
  import FileHandler

  /** The user data carried by a token; absent values are None. */
  datatype UserToken = UserToken(fullName: Option<string>, email: Option<string>, userId: Option<string>,
                                 avatarUrl: Option<string>, lastLoginIp: Option<string>, roleId: Option<seq<int>>)

  /** The claim types this code writes and reads; `Other` is any further claim a token may carry. */
  datatype ClaimType = FullName | Email | UserID | AvatarUrl | LastLoginIp | RoleIds | Other(name: string)

  /** The token's claims in the order they are written: (type, value). */
  type Claims = seq<(ClaimType, string)>

  /** What the token handler's validation reports: an expired token, any other rejection, or the claims. */
  datatype Validation = Expired | Rejected(reason: string) | Valid(claims: Claims)

  const MsgNullReference: string := "Object reference not set to an instance of an object."
  const MsgFormat: string := "The input string was not in a correct format."

  /** A role number fits the claim's element type, a 32-bit int. */
  predicate IsInt32(n: int)
  {
    FileHandler.Int32Min <= n <= FileHandler.Int32Max
  }

  // ---------------------------------------------------------------- encoding

  /** Each role number in decimal. */
  function Decimals(xs: seq<int>): (r: seq<string>)
    ensures |r| == |xs| && forall i | 0 <= i < |xs| :: r[i] == IntToString(xs[i])
  {
    seq(|xs|, i requires 0 <= i < |xs| => IntToString(xs[i]))
  }

  /** `string.Join(",", roleIds ?? new List<int>())`. */
  function EncodeRoleIds(roleIds: Option<seq<int>>): (r: string)
    ensures roleIds.None? || roleIds == Some([]) ==> r == ""
  {
    Join(Decimals(if roleIds.Some? then roleIds.value else []), ',')
  }

  /**
   GenerateJwtToken's claims. Every absent text becomes ""; `UserID.ToString()`
   on an absent id is a null dereference.
   */
  function TokenClaims(user: UserToken): (r: Result<Claims>)
    ensures r.Failure? <==> user.userId.None?
    ensures r.Success? ==> |r.value| == 6 && forall i | 0 <= i < 6 :: r.value[i].0 == Written[i]
  {
    if user.userId.None? then Failure(MsgNullReference)
    else Success([(FullName, OrEmpty(user.fullName)), (Email, OrEmpty(user.email)),
                  (UserID, user.userId.value), (AvatarUrl, OrEmpty(user.avatarUrl)),
                  (LastLoginIp, OrEmpty(user.lastLoginIp)), (RoleIds, EncodeRoleIds(user.roleId))])
  }

  /** The claim types in the order GenerateJwtToken writes them. */
  const Written: seq<ClaimType> := [FullName, Email, UserID, AvatarUrl, LastLoginIp, RoleIds]

  // ---------------------------------------------------------------- decoding

  /** `Claims.FirstOrDefault(x => x.Type == type)?.Value`. */
  function FindClaim(claims: Claims, claimType: ClaimType): (r: Option<string>)
    ensures r.None? <==> forall i | 0 <= i < |claims| :: claims[i].0 != claimType
  {
    if claims == [] then None
    else if claims[0].0 == claimType then Some(claims[0].1)
    else FindClaim(claims[1..], claimType)
  }

  /** The first claim of a type is the one found. */
  lemma {:induction false} FindClaimFirst(claims: Claims, claimType: ClaimType, i: nat)
    requires i < |claims| && claims[i].0 == claimType
    requires forall j | 0 <= j < i :: claims[j].0 != claimType
    ensures FindClaim(claims, claimType) == Some(claims[i].1)
  {
    if i > 0 {
      FindClaimFirst(claims[1..], claimType, i - 1);
    }
  }

  /** `pieces.Select(int.Parse).ToList()`: the first piece that is not a 32-bit number throws. */
  function ParseAll(pieces: seq<string>): (r: Result<seq<int>>)
    ensures r.Success? <==> forall i | 0 <= i < |pieces| :: FileHandler.Int32Parse(pieces[i]).Some?
    ensures r.Success? ==> |r.value| == |pieces|
                           && forall i | 0 <= i < |pieces| :: FileHandler.Int32Parse(pieces[i]) == Some(r.value[i])
  {
    if pieces == [] then Success([])
    else
      var head := FileHandler.Int32Parse(pieces[0]);
      var tail := ParseAll(pieces[1..]);
      if head.None? then Failure(MsgFormat)
      else if tail.Failure? then tail
      else Success([head.value] + tail.value)
  }

  /** `roleIds?.Split(',').Select(int.Parse).ToList() ?? new List<int>()`. */
  function DecodeRoleIds(claim: Option<string>): (r: Result<seq<int>>)
    ensures claim.None? ==> r == Success([])
    ensures claim.Some? ==> r == ParseAll(Split(claim.value, ','))
  {
    if claim.None? then Success([]) else ParseAll(Split(claim.value, ','))
  }

  /** The user read from validated claims, with the role list already decoded. */
  function UserFromClaims(claims: Claims, roleIds: seq<int>): UserToken
  {
    UserToken(FindClaim(claims, FullName), FindClaim(claims, Email), FindClaim(claims, UserID),
              FindClaim(claims, AvatarUrl), FindClaim(claims, LastLoginIp), Some(roleIds))
  }

  /**
   ParseJwtToken: an expired token gives null; any other rejection and a role
   piece that is not a number escape as exceptions (Failure).
   */
  function ParseJwtToken(validation: Validation): (r: Result<Option<UserToken>>)
    ensures validation.Expired? <==> r == Success(None)
    ensures validation.Rejected? ==> r == Failure(validation.reason)
    ensures validation.Valid? ==>
      var roles := DecodeRoleIds(FindClaim(validation.claims, RoleIds));
      (r.Failure? <==> roles.Failure?) && (r.Success? ==> r.value == Some(UserFromClaims(validation.claims, roles.value)))
  {
    match validation
    case Expired => Success(None)
    case Rejected(reason) => Failure(reason)
    case Valid(claims) =>
      var roles := DecodeRoleIds(FindClaim(claims, RoleIds));
      if roles.Failure? then Failure(roles.message) else Success(Some(UserFromClaims(claims, roles.value)))
  }

  // ---------------------------------------------------------------- round trip

  /** A decimal number holds no comma. */
  lemma NoCommaInDecimal(n: int)
    ensures ',' !in IntToString(n)
  {
    var d := NatToString(if n < 0 then -n else n);
    forall k | 0 <= k < |d| ensures d[k] != ',' {
      assert IsDigit(d[k]);
    }
    if n < 0 {
      assert IntToString(n) == "-" + d;
    }
  }

  /** A 32-bit number's decimal text parses back as that number. */
  lemma DecimalParses(n: int)
    requires IsInt32(n)
    ensures FileHandler.Int32Parse(IntToString(n)) == Some(n)
  {
    ParseIntToString(n);
  }

  /** A non-empty list of 32-bit role numbers survives the claim. */
  lemma RoleIdsRoundTrip(xs: seq<int>)
    requires xs != [] && forall i | 0 <= i < |xs| :: IsInt32(xs[i])
    ensures DecodeRoleIds(Some(EncodeRoleIds(Some(xs)))) == Success(xs)
  {
    var texts := Decimals(xs);
    forall i | 0 <= i < |texts| ensures ',' !in texts[i] && FileHandler.Int32Parse(texts[i]) == Some(xs[i]) {
      NoCommaInDecimal(xs[i]);
      DecimalParses(xs[i]);
    }
    SplitJoin(texts, ',');
    var r := ParseAll(texts);
    assert r.Success?;
    assert r.value == xs;
  }

  /** The claims written for a user are found again by their types. */
  lemma ClaimsFound(user: UserToken)
    requires user.userId.Some?
    ensures var claims := TokenClaims(user).value;
      FindClaim(claims, FullName) == Some(OrEmpty(user.fullName))
      && FindClaim(claims, Email) == Some(OrEmpty(user.email))
      && FindClaim(claims, UserID) == user.userId
      && FindClaim(claims, AvatarUrl) == Some(OrEmpty(user.avatarUrl))
      && FindClaim(claims, LastLoginIp) == Some(OrEmpty(user.lastLoginIp))
      && FindClaim(claims, RoleIds) == Some(EncodeRoleIds(user.roleId))
  {
    WrittenFound(OrEmpty(user.fullName), OrEmpty(user.email), user.userId.value,
                 OrEmpty(user.avatarUrl), OrEmpty(user.lastLoginIp), EncodeRoleIds(user.roleId));
  }

  lemma WrittenFound(a: string, b: string, c: string, d: string, e: string, f: string)
    ensures var claims := [(FullName, a), (Email, b), (UserID, c), (AvatarUrl, d), (LastLoginIp, e), (RoleIds, f)];
      FindClaim(claims, FullName) == Some(a) && FindClaim(claims, Email) == Some(b)
      && FindClaim(claims, UserID) == Some(c) && FindClaim(claims, AvatarUrl) == Some(d)
      && FindClaim(claims, LastLoginIp) == Some(e) && FindClaim(claims, RoleIds) == Some(f)
  {
    var c3 := [(AvatarUrl, d), (LastLoginIp, e), (RoleIds, f)];
    FoundAmongThree(FullName, a, Email, b, UserID, c, c3);
    FoundAmongThree(AvatarUrl, d, LastLoginIp, e, RoleIds, f, []);
    assert [(FullName, a), (Email, b), (UserID, c)] + c3
        == [(FullName, a), (Email, b), (UserID, c), (AvatarUrl, d), (LastLoginIp, e), (RoleIds, f)];
    assert [(AvatarUrl, d), (LastLoginIp, e), (RoleIds, f)] + [] == c3;
  }

  /** Three claims of distinct types in front: each is found, and any other type is looked up further on. */
  lemma FoundAmongThree(t1: ClaimType, v1: string, t2: ClaimType, v2: string, t3: ClaimType, v3: string, rest: Claims)
    requires t1 != t2 && t1 != t3 && t2 != t3
    ensures var claims := [(t1, v1), (t2, v2), (t3, v3)] + rest;
      FindClaim(claims, t1) == Some(v1) && FindClaim(claims, t2) == Some(v2) && FindClaim(claims, t3) == Some(v3)
      && forall t | t != t1 && t != t2 && t != t3 :: FindClaim(claims, t) == FindClaim(rest, t)
  {
    var claims := [(t1, v1), (t2, v2), (t3, v3)] + rest;
    var tail1 := [(t2, v2), (t3, v3)] + rest;
    var tail2 := [(t3, v3)] + rest;
    assert claims[1..] == tail1 && tail1[1..] == tail2 && tail2[1..] == rest;
    assert FindClaim(tail2, t3) == Some(v3);
    assert FindClaim(tail1, t2) == Some(v2) && FindClaim(tail1, t3) == FindClaim(tail2, t3);
    assert FindClaim(claims, t3) == FindClaim(tail1, t3);
    forall t | t != t1 && t != t2 && t != t3 ensures FindClaim(claims, t) == FindClaim(rest, t) {
      assert FindClaim(claims, t) == FindClaim(tail1, t);
      assert FindClaim(tail1, t) == FindClaim(tail2, t);
    }
  }

  /**
   A token made for a user with at least one role reads back as that user,
   with every absent text turned into "".
   */
  lemma TokenRoundTrip(user: UserToken)
    requires user.userId.Some? && user.roleId.Some? && user.roleId.value != []
    requires forall i | 0 <= i < |user.roleId.value| :: IsInt32(user.roleId.value[i])
    ensures TokenClaims(user).Success?
    ensures ParseJwtToken(Valid(TokenClaims(user).value))
         == Success(Some(UserToken(Some(OrEmpty(user.fullName)), Some(OrEmpty(user.email)), user.userId,
                                   Some(OrEmpty(user.avatarUrl)), Some(OrEmpty(user.lastLoginIp)), user.roleId)))
  {
    ClaimsFound(user);
    RoleIdsRoundTrip(user.roleId.value);
  }

  /** As written: a user without roles gets a token whose parsing throws instead of giving an empty list. */
  lemma EmptyRolesAsWritten(user: UserToken)
    requires user.userId.Some? && (user.roleId.None? || user.roleId == Some([]))
    ensures TokenClaims(user).Success? && ParseJwtToken(Valid(TokenClaims(user).value)).Failure?
  {
    ClaimsFound(user);
    assert Split("", ',') == [""];
    assert FileHandler.Int32Parse("") == None;
  }

  // ---------------------------------------------------------------- corrected decoding

  /** The decoding evidently intended: an empty claim is the empty list, as the encoder writes it. */
  function DecodeRoleIdsCorrected(claim: Option<string>): (r: Result<seq<int>>)
    ensures claim.None? || claim == Some("") ==> r == Success([])
    ensures claim.Some? && claim.value != "" ==> r == DecodeRoleIds(claim)
  {
    if claim.None? || claim.value == "" then Success([]) else DecodeRoleIds(claim)
  }

  /** ParseJwtToken with the corrected decoding. */
  function ParseJwtTokenCorrected(validation: Validation): (r: Result<Option<UserToken>>)
    ensures validation.Expired? <==> r == Success(None)
    ensures validation.Rejected? ==> r == Failure(validation.reason)
    ensures validation.Valid? ==>
      var roles := DecodeRoleIdsCorrected(FindClaim(validation.claims, RoleIds));
      (r.Failure? <==> roles.Failure?) && (r.Success? ==> r.value == Some(UserFromClaims(validation.claims, roles.value)))
  {
    match validation
    case Expired => Success(None)
    case Rejected(reason) => Failure(reason)
    case Valid(claims) =>
      var roles := DecodeRoleIdsCorrected(FindClaim(claims, RoleIds));
      if roles.Failure? then Failure(roles.message) else Success(Some(UserFromClaims(claims, roles.value)))
  }

  /** Every list of 32-bit role numbers, the empty one included, survives the claim. */
  lemma RoleIdsRoundTripCorrected(xs: seq<int>)
    requires forall i | 0 <= i < |xs| :: IsInt32(xs[i])
    ensures DecodeRoleIdsCorrected(Some(EncodeRoleIds(Some(xs)))) == Success(xs)
  {
    if xs != [] {
      RoleIdsRoundTrip(xs);
      var d := IntToString(xs[0]);
      JoinEnds(Decimals(xs), ',');
      assert |d| >= 1;
    }
  }

  /** With the corrected decoding every token reads back as its user; an absent role list reads back empty. */
  lemma TokenRoundTripCorrected(user: UserToken)
    requires user.userId.Some?
    requires user.roleId.Some? ==> forall i | 0 <= i < |user.roleId.value| :: IsInt32(user.roleId.value[i])
    ensures TokenClaims(user).Success?
    ensures ParseJwtTokenCorrected(Valid(TokenClaims(user).value))
         == Success(Some(UserToken(Some(OrEmpty(user.fullName)), Some(OrEmpty(user.email)), user.userId,
                                   Some(OrEmpty(user.avatarUrl)), Some(OrEmpty(user.lastLoginIp)),
                                   Some(if user.roleId.Some? then user.roleId.value else []))))
  {
    ClaimsFound(user);
    RoleIdsRoundTripCorrected(if user.roleId.Some? then user.roleId.value else []);
  }
}

=== FILE: keyboard_hook.dfy ===
/**
 The desktop client's low-level keyboard hook (KeyboardHook.cs): the set of
 blocked key combinations, the text of a pressed combination, the blocking
 test and the hook's installed/removed state. The operating system's hook
 handle and the modifier key states are parameters.
 */
module KeyboardHook {
  import opened Common

  const WmKeyDown: int := 0x0100
  const WmSysKeyDown: int := 0x0104
  const MsgNullCombinations: string := "Value cannot be null. (Parameter 'combinations')"
  const MsgHookFailed: string := "Failed to set keyboard hook."

  /** Which modifier keys are held, as read from GetKeyState. */
  datatype Modifiers = Modifiers(ctrl: bool, alt: bool, shift: bool, win: bool)

  /** The names BuildComboString gives the modifiers, in their fixed order. */
  function ModifierPrefix(m: Modifiers): (r: seq<string>)
    ensures |r| <= 4
  {
    (if m.ctrl then ["Ctrl"] else []) + (if m.alt then ["Alt"] else [])
    + (if m.shift then ["Shift"] else []) + (if m.win then ["Win"] else [])
  }

  /** The parts BuildComboString collects: the held modifiers, then the key's name. */
  function ComboParts(m: Modifiers, key: string): (r: seq<string>)
    ensures |r| >= 1 && r[|r| - 1] == key && r[..|r| - 1] == ModifierPrefix(m)
  {
    ModifierPrefix(m) + [key]
  }

  /** BuildComboString: the parts joined by '+'. */
  function BuildComboString(m: Modifiers, key: string): string
  {
    Join(ComboParts(m, key), '+')
  }

  /** `combo.Split('+').Last()`. */
  function LastSegment(combo: string): string
  {
    var parts := Split(combo, '+');
    parts[|parts| - 1]
  }

  /**
   What IsBlockedCombination decides: some blocked entry equals the whole
   combination, or its last segment, ignoring case.
   */
  predicate Blocked(entries: seq<string>, combo: string)
  {
    HasIgnoreCase(entries, combo) || HasIgnoreCase(entries, LastSegment(combo))
  }

  // ---------------------------------------------------------------- the combination text

  /** A modifier is held exactly when its name is among the prefix parts. */
  lemma ModifierNamed(m: Modifiers)
    ensures m.ctrl <==> "Ctrl" in ModifierPrefix(m)
    ensures m.alt <==> "Alt" in ModifierPrefix(m)
    ensures m.shift <==> "Shift" in ModifierPrefix(m)
    ensures m.win <==> "Win" in ModifierPrefix(m)
  {
    assert "Ctrl" != "Alt" && "Ctrl" != "Shift" && "Ctrl" != "Win";
    assert "Alt"[0] != "Win"[0] && "Alt" != "Shift" && "Shift" != "Win";
  }

  /** No modifier name contains '+'. */
  lemma PrefixHasNoPlus(m: Modifiers)
    ensures forall i | 0 <= i < |ModifierPrefix(m)| :: '+' !in ModifierPrefix(m)[i]
  {
    var p := ModifierPrefix(m);
    forall i | 0 <= i < |p| ensures '+' !in p[i] {
      assert p[i] in ["Ctrl", "Alt", "Shift", "Win"];
    }
  }

  /** A key name without '+' splits back out of the combination text with the modifiers before it. */
  lemma ComboSplits(m: Modifiers, key: string)
    requires '+' !in key
    ensures Split(BuildComboString(m, key), '+') == ComboParts(m, key)
    ensures LastSegment(BuildComboString(m, key)) == key
  {
    var parts := ComboParts(m, key);
    PrefixHasNoPlus(m);
    assert forall i | 0 <= i < |parts| - 1 :: parts[i] == ModifierPrefix(m)[i];
    SplitJoin(parts, '+');
  }

  /** Different modifier states or different key names (without '+') give different texts. */
  lemma ComboInjective(m1: Modifiers, key1: string, m2: Modifiers, key2: string)
    requires '+' !in key1 && '+' !in key2
    requires BuildComboString(m1, key1) == BuildComboString(m2, key2)
    ensures m1 == m2 && key1 == key2
  {
    ComboSplits(m1, key1);
    ComboSplits(m2, key2);
    var p1 := ComboParts(m1, key1);
    assert p1[..|p1| - 1] == ModifierPrefix(m2);
    ModifierNamed(m1);
    ModifierNamed(m2);
  }

  // ---------------------------------------------------------------- the blocking test

  /** Blocking a key name on its own blocks it under every combination of modifiers ("Escape" blocks "Ctrl+Escape"). */
  lemma SingleKeyBlocksCombos(entries: seq<string>, m: Modifiers, key: string)
    requires '+' !in key && HasIgnoreCase(entries, key)
    ensures Blocked(entries, BuildComboString(m, key))
  {
    ComboSplits(m, key);
  }

  /** A pressed combination is blocked exactly when an entry names it whole or names its key, ignoring case. */
  lemma BlockedCombo(entries: seq<string>, m: Modifiers, key: string)
    requires '+' !in key
    ensures Blocked(entries, BuildComboString(m, key))
        <==> exists e | e in entries :: EqIgnoreCase(e, BuildComboString(m, key)) || EqIgnoreCase(e, key)
  {
    ComboSplits(m, key);
    var combo := BuildComboString(m, key);
    if HasIgnoreCase(entries, combo) {
      var i :| 0 <= i < |entries| && Lower(entries[i]) == Lower(combo);
      assert entries[i] in entries;
    }
    if HasIgnoreCase(entries, key) {
      var i :| 0 <= i < |entries| && Lower(entries[i]) == Lower(key);
      assert entries[i] in entries;
    }
  }

  /** Replacing the list by its case-insensitive set changes no blocking decision. */
  lemma SetKeepsBlocking(combinations: seq<string>, combo: string)
    ensures Blocked(DistinctBy(combinations, Lower), combo) <==> Blocked(combinations, combo)
  {
    DistinctIgnoreCase(combinations, combo);
    DistinctIgnoreCase(combinations, LastSegment(combo));
  }

  /** The hook's state: the installed hook's handle (0 when none) and the blocked combinations. */
  class Hook {
    var hookId: int
    var blocked: seq<string>

    constructor ()
      ensures hookId == 0 && blocked == [] && Valid()
    {
      hookId := 0;
      blocked := [];
    }

    /** No two blocked entries are equal ignoring case (a HashSet with OrdinalIgnoreCase). */
    predicate Valid()
      reads this
    {
      KeysUnique(blocked, Lower)
    }

    /** SetBlockedCombinations: a null argument throws; otherwise the whole set is replaced. */
    method SetBlockedCombinations(combinations: Option<seq<string>>) returns (error: Option<string>)
      modifies this
      ensures combinations.None? ==> error == Some(MsgNullCombinations) && blocked == old(blocked)
      ensures combinations.Some? ==> error.None? && blocked == DistinctBy(combinations.value, Lower) && Valid()
      ensures old(Valid()) ==> Valid()
      ensures hookId == old(hookId)
    {
      if combinations.None? {
        return Some(MsgNullCombinations);
      }
      blocked := DistinctBy(combinations.value, Lower);
      DistinctByUnique(combinations.value, Lower);
      error := None;
    }

    /** Start: a running hook is left alone; otherwise the handle the system returns is kept, and 0 throws. */
    method Start(handle: int) returns (error: Option<string>)
      modifies this
      ensures old(hookId) != 0 ==> error.None? && hookId == old(hookId)
      ensures old(hookId) == 0 ==> hookId == handle && (error.Some? <==> handle == 0)
      ensures error.Some? ==> error.value == MsgHookFailed
      ensures blocked == old(blocked) && (old(Valid()) ==> Valid())
    {
      if hookId != 0 {
        return None;
      }
      hookId := handle;
      if hookId == 0 {
        return Some(MsgHookFailed);
      }
      error := None;
    }

    /** Stop: removes the hook only when one is set; afterwards none is set. */
    method Stop() returns (unhooked: bool)
      modifies this
      ensures unhooked <==> old(hookId) != 0
      ensures hookId == 0 && blocked == old(blocked) && (old(Valid()) ==> Valid())
    {
      unhooked := hookId != 0;
      if hookId != 0 {
        hookId := 0;
      }
    }

    /** IsBlockedCombination: the whole combination first, then each entry against the last segment and the whole. */
    method IsBlockedCombination(combo: string) returns (b: bool)
      ensures b == Blocked(blocked, combo)
    {
      if HasIgnoreCase(blocked, combo) {
        return true;
      }
      for i := 0 to |blocked|
        invariant forall j | 0 <= j < i :: Lower(blocked[j]) != Lower(LastSegment(combo))
      {
        if EqIgnoreCase(blocked[i], LastSegment(combo)) {
          return true;
        }
        if EqIgnoreCase(blocked[i], combo) {
          return true;
        }
      }
      return false;
    }

    /** HookCallback: only key-down and system-key-down events are looked at, and a blocked one is swallowed. */
    method HookCallback(nCode: int, wParam: int, m: Modifiers, key: string) returns (swallow: bool)
      ensures swallow <==> nCode >= 0 && (wParam == WmKeyDown || wParam == WmSysKeyDown)
                           && Blocked(blocked, BuildComboString(m, key))
    {
      swallow := false;
      if nCode >= 0 && (wParam == WmKeyDown || wParam == WmSysKeyDown) {
        var combo := BuildComboString(m, key);
        swallow := IsBlockedCombination(combo);
      }
    }
  }
}

=== FILE: manage_question_page.dfy ===
/**
 The lecturer's question management page
 (pages/teacher/managequestion/index.tsx): filters restored from the store
 when the page opens and saved back on every change, the search and filter
 handlers that go back to page 1, and the `Pagination` component's short
 page list around the current page.
 */
module ManageQuestionPage {
  import opened Common
  import opened Pagination

  /** The question list's filters; an absent filter (undefined) is None. */
  datatype QuestionFilters = QuestionFilters(pageSize: int, currentPage: int, textSearch: string,
                                             isMyQuestion: Option<bool>, status: Option<int>,
                                             difficultyLevel: Option<int>)

  /** `x || fallback` on a number: 0 is falsy. */
  function NumberOr(x: int, fallback: int): int
  {
    if x != 0 then x else fallback
  }

  /**
   The filters the page starts from as written: each cached field `|| default`.
   A cached status 0 ("inactive") or "not my questions" (false) is falsy and
   comes back as no filter at all.
   */
  function RestoreAsWritten(cached: Option<QuestionFilters>): (r: QuestionFilters)
    ensures cached.None? ==> r == QuestionFilters(5, 1, "", None, None, None)
  {
    if cached.None? then QuestionFilters(5, 1, "", None, None, None)
    else
      var c := cached.value;
      QuestionFilters(NumberOr(c.pageSize, 5), NumberOr(c.currentPage, 1), c.textSearch,
                      if c.isMyQuestion == Some(true) then c.isMyQuestion else None,
                      if c.status.Some? && c.status.value != 0 then c.status else None,
                      if c.difficultyLevel.Some? && c.difficultyLevel.value != 0 then c.difficultyLevel else None)
  }

  /** Leaving the page on the "inactive" status filter and coming back shows every status. */
  lemma RestoreAsWrittenDropsInactive(f: QuestionFilters)
    requires f.status == Some(0) || f.isMyQuestion == Some(false)
    ensures var r := RestoreAsWritten(Some(f));
      (f.status == Some(0) ==> r.status.None?) && (f.isMyQuestion == Some(false) ==> r.isMyQuestion.None?)
    ensures RestoreAsWritten(Some(f)) != f
  {
  }

  /** The intended restore: the page fields fall back to their defaults, the three filters come back as they were (`??`). */
  function Restore(cached: Option<QuestionFilters>): (r: QuestionFilters)
    ensures cached.None? ==> r == QuestionFilters(5, 1, "", None, None, None)
    ensures cached.Some? ==>
      r.isMyQuestion == cached.value.isMyQuestion && r.status == cached.value.status
      && r.difficultyLevel == cached.value.difficultyLevel && r.textSearch == cached.value.textSearch
  {
    if cached.None? then QuestionFilters(5, 1, "", None, None, None)
    else
      var c := cached.value;
      c.(pageSize := NumberOr(c.pageSize, 5), currentPage := NumberOr(c.currentPage, 1))
  }

  /** Filters with a page size and page set come back from the store exactly as saved. */
  lemma RestoreSaved(f: QuestionFilters)
    requires f.pageSize != 0 && f.currentPage != 0
    ensures Restore(Some(f)) == f
  {
  }

  /** Filters the store can hold: a page size and a page are set. */
  predicate Storable(f: QuestionFilters)
  {
    f.pageSize != 0 && f.currentPage != 0
  }

  /** The page's state: the filters, what the store holds for them, and whether the list is fetched. */
  class QuestionPage {
    var filters: QuestionFilters
    var saved: Option<QuestionFilters>
    var isTrigger: bool

    /** The store holds the filters in use. */
    predicate Synced()
      reads this
    {
      saved == Some(filters)
    }

    /** The page opens on the stored filters; it fetches unless a list is already stored. */
    constructor (cached: Option<QuestionFilters>, hasDefaultData: bool)
      ensures filters == Restore(cached) && saved == cached && isTrigger == !hasDefaultData
    {
      filters := Restore(cached);
      saved := cached;
      isTrigger := !hasDefaultData;
    }

    /** handleSearch: the search text (or ""), from page 1, saved and fetched. */
    method HandleSearch(text: Option<string>)
      modifies this
      ensures filters == old(filters).(textSearch := OrEmpty(text), currentPage := 1)
      ensures Synced() && isTrigger
    {
      isTrigger := true;
      filters := filters.(textSearch := OrEmpty(text), currentPage := 1);
      saved := Some(filters);
    }

    /** handlePageChange: the page asked for (the buttons only offer real pages), saved and fetched. */
    method HandlePageChange(page: int)
      modifies this
      ensures filters == old(filters).(currentPage := page)
      ensures Synced() && isTrigger
    {
      isTrigger := true;
      filters := filters.(currentPage := page);
      saved := Some(filters);
    }

    /** onFilterChange: the filter bar sends all three of its filters; from page 1, saved and fetched. */
    method HandleFilterChange(isMyQuestion: Option<bool>, status: Option<int>, difficultyLevel: Option<int>)
      modifies this
      ensures filters == old(filters).(isMyQuestion := isMyQuestion, status := status,
                                       difficultyLevel := difficultyLevel, currentPage := 1)
      ensures Synced() && isTrigger
    {
      isTrigger := true;
      filters := filters.(isMyQuestion := isMyQuestion, status := status, difficultyLevel := difficultyLevel, currentPage := 1);
      saved := Some(filters);
    }
  }

  /** After any handler, opening the page again starts from the filters it was left on. */
  lemma ReopenRestores(p: QuestionFilters, saved: Option<QuestionFilters>)
    requires saved == Some(p) && Storable(p)
    ensures Restore(saved) == p
  {
    RestoreSaved(p);
  }

  /**
   The `Pagination` component's list: 1 unless on page 1, current - 2 if past
   page 1, "..." unless on page 1, the current page, "..." unless on the last
   page, current + 2 if before the last page, and the last page unless on it.
   */
  function ShortPages(currentPage: int, totalPages: int): (r: seq<Entry>)
  {
    Before(currentPage) + [Num(currentPage)] + After(currentPage, totalPages)
  }

  /** What comes before the current page: page 1 and the page two before it. */
  function Before(currentPage: int): (r: seq<Entry>)
    ensures Increasing(r) && NumsWithin(r, 1, currentPage - 1)
    ensures forall i | 0 <= i < |r| && r[i].Num? :: r[i].n == 1 || r[i].n == currentPage - 2
    ensures currentPage > 1 ==> |r| >= 1 && r[0] == Num(1)
    ensures currentPage <= 1 ==> r == []
  {
    (if currentPage > 1 then [Num(1)] else [])
    + (if currentPage - 2 > 1 then [Num(currentPage - 2)] else [])
    + (if currentPage - 1 >= 1 then [Ellipsis] else [])
  }

  /** What comes after the current page: the page two after it and the last page. */
  function After(currentPage: int, totalPages: int): (r: seq<Entry>)
    ensures Increasing(r) && NumsWithin(r, currentPage + 1, totalPages)
    ensures forall i | 0 <= i < |r| && r[i].Num? :: r[i].n == totalPages || r[i].n == currentPage + 2
    ensures currentPage < totalPages ==> |r| >= 1 && r[|r| - 1] == Num(totalPages)
    ensures currentPage >= totalPages ==> r == []
  {
    (if currentPage + 1 <= totalPages then [Ellipsis] else [])
    + (if currentPage + 2 < totalPages then [Num(currentPage + 2)] else [])
    + (if currentPage < totalPages then [Num(totalPages)] else [])
  }

  /** The component's construction, push by push. */
  method BuildShortPages(currentPage: int, totalPages: int) returns (pages: seq<Entry>)
    ensures pages == ShortPages(currentPage, totalPages)
  {
    pages := [];
    if currentPage > 1 {
      pages := pages + [Num(1)];
    }
    if currentPage - 2 > 1 {
      pages := pages + [Num(currentPage - 2)];
    }
    if currentPage - 1 >= 1 {
      pages := pages + [Ellipsis];
    }
    pages := pages + [Num(currentPage)];
    if currentPage + 1 <= totalPages {
      pages := pages + [Ellipsis];
    }
    if currentPage + 2 < totalPages {
      pages := pages + [Num(currentPage + 2)];
    }
    if currentPage < totalPages {
      pages := pages + [Num(totalPages)];
    }
  }

  /** The page numbers of the list strictly increase. */
  lemma ShortPagesIncreasing(currentPage: int, totalPages: int)
    ensures Increasing(ShortPages(currentPage, totalPages))
  {
    var a := Before(currentPage);
    var b := [Num(currentPage)];
    IncreasingJoin(a, b, currentPage);
    IncreasingJoin(a + b, After(currentPage, totalPages), currentPage + 1);
  }

  /** For a real page, every number of the list is a real page: 1, the last page, the current page or two away from it. */
  lemma ShortPagesNumbers(currentPage: int, totalPages: int)
    requires 1 <= currentPage <= totalPages
    ensures var r := ShortPages(currentPage, totalPages);
      forall i | 0 <= i < |r| && r[i].Num? ::
        1 <= r[i].n <= totalPages && r[i].n in {1, totalPages, currentPage, currentPage - 2, currentPage + 2}
  {
    var a := Before(currentPage);
    var c := After(currentPage, totalPages);
    var r := ShortPages(currentPage, totalPages);
    forall i | 0 <= i < |r| && r[i].Num?
      ensures 1 <= r[i].n <= totalPages && r[i].n in {1, totalPages, currentPage, currentPage - 2, currentPage + 2}
    {
      if i < |a| {
        assert r[i] == a[i];
      } else if i > |a| {
        assert r[i] == c[i - |a| - 1];
      }
    }
  }

  /**
   For a real page: the list starts at page 1 and ends at the last page,
   holds the current page, its numbers strictly increase and stay in range,
   and the only numbers are 1, the last page, the current page and the pages
   two before and two after it; so a neighbour of the current page shows
   only when it is page 1 or the last page.
   */
  lemma ShortPagesShape(currentPage: int, totalPages: int)
    requires 1 <= currentPage <= totalPages
    ensures var r := ShortPages(currentPage, totalPages);
      |r| >= 1 && r[0] == Num(1) && r[|r| - 1] == Num(totalPages)
      && Num(currentPage) in r && Increasing(r) && NumsWithin(r, 1, totalPages)
      && (forall i | 0 <= i < |r| && r[i].Num? ::
            r[i].n in {1, totalPages, currentPage, currentPage - 2, currentPage + 2})
      && (Num(currentPage - 1) in r ==> currentPage - 1 == 1)
      && (Num(currentPage + 1) in r ==> currentPage + 1 == totalPages)
  {
    var r := ShortPages(currentPage, totalPages);
    ShortPagesIncreasing(currentPage, totalPages);
    ShortPagesNumbers(currentPage, totalPages);
    assert r[|Before(currentPage)|] == Num(currentPage);
    if Num(currentPage - 1) in r {
      var i :| 0 <= i < |r| && r[i] == Num(currentPage - 1);
    }
    if Num(currentPage + 1) in r {
      var i :| 0 <= i < |r| && r[i] == Num(currentPage + 1);
    }
  }

  /** On page 2 of 3 both "..." stand between pages that are next to each other: nothing is skipped. */
  lemma EllipsisWithoutGap()
    ensures ShortPages(2, 3) == [Num(1), Ellipsis, Num(2), Ellipsis, Num(3)]
  {
  }

  /** First and Previous are disabled on page 1; Next and Last on the last page. */
  function BackDisabled(currentPage: int): bool { currentPage == 1 }
  function ForwardDisabled(currentPage: int, totalPages: int): bool { currentPage == totalPages }

  /** Every enabled button leads to a real page. */
  lemma ButtonsStayInRange(currentPage: int, totalPages: int, target: int)
    requires 1 <= currentPage <= totalPages
    requires Num(target) in ShortPages(currentPage, totalPages)
          || (!BackDisabled(currentPage) && (target == 1 || target == currentPage - 1))
          || (!ForwardDisabled(currentPage, totalPages) && (target == totalPages || target == currentPage + 1))
    ensures 1 <= target <= totalPages
  {
    ShortPagesShape(currentPage, totalPages);
    if Num(target) in ShortPages(currentPage, totalPages) {
      var r := ShortPages(currentPage, totalPages);
      var i :| 0 <= i < |r| && r[i] == Num(target);
    }
  }
}

=== FILE: monitoring_service.dfy ===
/**
 The supervision side of a running exam (MonitoringService.cs): the status the
 overview derives for each exam, extra time for one student or a whole exam,
 finishing an exam or one student's attempt, and re-assigning an exam to
 students by deleting their attempts.
 */
module MonitoringService {
  import opened Common
  import opened Domain
  import opened StudentExamService
  import Utils
  import ActivityLog

  // ---------------------------------------------------------------- overview

  /** The exam is inside its time window. */
  predicate InWindow(e: Exam, now: int)
  {
    e.startTime <= now <= e.endTime
  }

  /** IsCompleted of the overview: past its end or finished by hand. */
  predicate OverviewCompleted(e: Exam, now: int)
  {
    e.endTime < now || e.status == ExamFinished
  }

  /** The status the overview shows: Published inside the window, else Finished when completed, else Draft. */
  function OverviewStatus(e: Exam, now: int): (r: int)
    ensures r == ExamPublished <==> InWindow(e, now)
    ensures r == ExamFinished <==> !InWindow(e, now) && OverviewCompleted(e, now)
    ensures r == ExamDraft <==> !InWindow(e, now) && !OverviewCompleted(e, now)
  {
    if InWindow(e, now) then ExamPublished
    else if OverviewCompleted(e, now) then ExamFinished
    else ExamDraft
  }

  /** An exam finished by hand during its window is shown as Published while also flagged completed. */
  lemma FinishedInWindowShownPublished(e: Exam, now: int)
    requires e.status == ExamFinished && InWindow(e, now)
    ensures OverviewStatus(e, now) == ExamPublished && OverviewCompleted(e, now)
  {
  }

  /** The user may supervise through this row: as its supervisor, as its creator, or as an admin. */
  predicate Permits(row: ExamSupervisorRow, userId: string, isAdmin: bool)
  {
    isAdmin || row.supervisorId == Some(userId) || row.createdBy == userId
  }

  /** The exams whose supervision rows the user may see. */
  function PermittedExamIds(supervisors: seq<ExamSupervisorRow>, userId: string, isAdmin: bool): (r: set<string>)
    ensures forall i | 0 <= i < |supervisors| && Permits(supervisors[i], userId, isAdmin) :: supervisors[i].examId in r
    ensures forall id | id in r ::
      exists i | 0 <= i < |supervisors| :: supervisors[i].examId == id && Permits(supervisors[i], userId, isAdmin)
  {
    set i | 0 <= i < |supervisors| && Permits(supervisors[i], userId, isAdmin) :: supervisors[i].examId
  }

  /** The optional status filter of the overview search. */
  predicate PassesStatusFilter(e: Exam, filter: Option<int>, now: int)
  {
    if filter == Some(ExamPublished) then InWindow(e, now)
    else if filter == Some(ExamFinished) then OverviewCompleted(e, now)
    else true
  }

  /** The Published filter keeps exactly the exams shown Published; the Finished filter also keeps some shown Published. */
  lemma StatusFilterAgainstShownStatus(e: Exam, now: int)
    ensures PassesStatusFilter(e, Some(ExamPublished), now) <==> OverviewStatus(e, now) == ExamPublished
    ensures PassesStatusFilter(e, Some(ExamFinished), now) <==>
      OverviewStatus(e, now) == ExamFinished || (InWindow(e, now) && e.status == ExamFinished)
  {
  }

  const MsgNoSupervision: string := "You do not have the right to supervise any exams."
  const MsgNoExamFound: string := "No found any exam."

  /**
   What the overview reads of an exam through its navigation properties: the
   room's subject, the room code, the class code, the subject name and the
   creator's e-mail and full name. A missing room gives no subject; a missing
   text reads as "".
   */
  datatype ExamLinks = ExamLinks(subjectId: Option<string>, roomCode: string, classCode: string,
                                 subjectName: string, creatorEmail: string, creatorName: string)

  /** The search of GetExamOverview, paging aside. */
  datatype OverviewSearch = OverviewSearch(subjectId: Option<string>, examStatus: Option<int>, textSearch: Option<string>)

  /** The links of one exam; an exam the join finds nothing for reads as all empty. */
  function LinksOf(links: map<string, ExamLinks>, id: string): (r: ExamLinks)
    ensures id in links ==> r == links[id]
    ensures id !in links ==> r.subjectId.None? && r.roomCode == "" && r.creatorName == ""
  {
    if id in links then links[id] else ExamLinks(None, "", "", "", "", "")
  }

  /** The subject filter: ignored when empty, otherwise the exam's room must belong to that subject. */
  predicate PassesSubjectFilter(l: ExamLinks, subjectId: Option<string>)
  {
    Utils.IsEmpty(subjectId) || l.subjectId == Some(subjectId.value)
  }

  /** One keyword's test: the lower-cased title, room code, class code, subject name, creator e-mail or creator name contains it. */
  predicate OverviewKeywordHit(e: Exam, l: ExamLinks, kw: string)
  {
    Contains(Lower(e.title), kw) || Contains(Lower(l.roomCode), kw) || Contains(Lower(l.classCode), kw)
    || Contains(Lower(l.subjectName), kw) || Contains(Lower(l.creatorEmail), kw) || Contains(Lower(l.creatorName), kw)
  }

  /** The text filter: ignored when empty, otherwise every keyword of the text must hit. */
  predicate PassesTextSearch(e: Exam, l: ExamLinks, textSearch: Option<string>)
  {
    Utils.IsEmpty(textSearch) || forall kw | kw in ActivityLog.Keywords(textSearch.value) :: OverviewKeywordHit(e, l, kw)
  }

  /** All of the overview's tests on one exam. */
  predicate Shown(e: Exam, l: ExamLinks, search: OverviewSearch, now: int)
  {
    e.status != ExamDraft && PassesSubjectFilter(l, search.subjectId)
    && PassesStatusFilter(e, search.examStatus, now) && PassesTextSearch(e, l, search.textSearch)
  }

  /** The overview's exams before paging: permitted, not Draft, of the searched subject, passing the status filter and containing every keyword. */
  function OverviewExams(exams: map<string, Exam>, links: map<string, ExamLinks>, permitted: set<string>,
                         search: OverviewSearch, now: int): (r: set<string>)
    ensures forall id :: id in r <==>
      && id in exams && id in permitted && exams[id].status != ExamDraft
      && PassesSubjectFilter(LinksOf(links, id), search.subjectId)
      && PassesStatusFilter(exams[id], search.examStatus, now)
      && PassesTextSearch(exams[id], LinksOf(links, id), search.textSearch)
    ensures r <= permitted
  {
    set id | id in exams && id in permitted && Shown(exams[id], LinksOf(links, id), search, now)
  }

  /** Adding a search text never brings an exam in: the overview with a text is part of the one without. */
  lemma TextSearchNarrows(exams: map<string, Exam>, links: map<string, ExamLinks>, permitted: set<string>,
                          search: OverviewSearch, now: int)
    ensures OverviewExams(exams, links, permitted, search, now) <= OverviewExams(exams, links, permitted, search.(textSearch := None), now)
  {
  }

  /** A search text of one keyword keeps exactly the exams one of whose six columns contains it after lower-casing. */
  lemma SingleKeywordSearch(e: Exam, l: ExamLinks, kw: string)
    requires kw != "" && ' ' !in kw && !IsSpace(kw[0]) && !IsSpace(kw[|kw| - 1]) && Lower(kw) == kw
    ensures PassesTextSearch(e, l, Some(kw)) <==> OverviewKeywordHit(e, l, kw)
  {
    ActivityLog.KeywordsOfWord(kw);
    assert !IsBlank(kw) by {
      assert !IsSpace(kw[0]);
    }
  }

  /** The overview's refusals: no permitted exam at all, then nothing left after filtering. */
  function OverviewError(permitted: set<string>, shown: set<string>): (r: Option<string>)
    ensures r.None? <==> permitted != {} && shown != {}
  {
    if permitted == {} then Some(MsgNoSupervision)
    else if shown == {} then Some(MsgNoExamFound)
    else None
  }

  // ---------------------------------------------------------------- extra time

  function OrZero(m: Option<int>): int
  {
    if m.Some? then m.value else 0
  }

  /**
   Extra time for one attempt: the minutes accumulate and the submit time is
   recomputed from the start, the exam's duration and all extra minutes (no
   start time gives no submit time).
   */
  function WithExtraTime(a: StudentExam, duration: int, extra: int, now: int): (r: StudentExam)
    ensures r.extraTimeMinutes == Some(OrZero(a.extraTimeMinutes) + extra)
    ensures r.submitTime.Some? <==> a.startTime.Some?
    ensures a.startTime.Some? ==> r.submitTime.value == AddMinutes(a.startTime.value, duration + r.extraTimeMinutes.value)
    ensures r.(extraTimeMinutes := a.extraTimeMinutes, submitTime := a.submitTime, updatedAt := a.updatedAt) == a
  {
    var minutes := OrZero(a.extraTimeMinutes) + extra;
    a.(extraTimeMinutes := Some(minutes),
       submitTime := if a.startTime.Some? then Some(AddMinutes(a.startTime.value, duration + minutes)) else None,
       updatedAt := now)
  }

  /** Two grants of extra time amount to one grant of their sum. */
  lemma ExtraTimeAccumulates(a: StudentExam, duration: int, e1: int, e2: int, t1: int, t2: int)
    ensures WithExtraTime(WithExtraTime(a, duration, e1, t1), duration, e2, t2) == WithExtraTime(a, duration, e1 + e2, t2)
  {
    var b := WithExtraTime(a, duration, e1, t1);
    var c := WithExtraTime(b, duration, e2, t2);
    var d := WithExtraTime(a, duration, e1 + e2, t2);
    assert c.extraTimeMinutes == d.extraTimeMinutes;
  }

  /** AddExamExtraTime's row filter as written: started after now and due before now (null times compare false). */
  predicate TakingAsWritten(a: StudentExam, now: int)
  {
    a.startTime.Some? && a.startTime.value > now && a.submitTime.Some? && a.submitTime.value < now
  }

  /** No attempt due at or after its start passes the filter as written, so the operation always reports that nobody is taking the exam. */
  lemma TakingAsWrittenNeverHolds(a: StudentExam, now: int)
    requires a.startTime.Some? && a.submitTime.Some? ==> a.startTime.value <= a.submitTime.value
    ensures !TakingAsWritten(a, now)
  {
  }

  /** Every submit time extra time computes with non-negative minutes is at or after the start. */
  lemma ExtraTimeDueAfterStart(a: StudentExam, duration: int, extra: int, now: int)
    requires duration >= 0 && OrZero(a.extraTimeMinutes) + extra >= 0
    ensures var r := WithExtraTime(a, duration, extra, now);
      r.startTime.Some? && r.submitTime.Some? ==> r.startTime.value <= r.submitTime.value
  {
  }

  /** The corrected filter: started before now and not yet due. */
  predicate TakingNow(a: StudentExam, now: int)
  {
    a.startTime.Some? && a.startTime.value < now && a.submitTime.Some? && a.submitTime.value > now
  }

  /** With the corrected filter, non-negative extra time keeps an attempt that is being taken selected. */
  lemma ExtraTimeKeepsTaking(a: StudentExam, duration: int, extra: int, now: int)
    requires TakingNow(a, now) && extra >= 0
    requires a.submitTime == Some(AddMinutes(a.startTime.value, duration + OrZero(a.extraTimeMinutes)))
    ensures TakingNow(WithExtraTime(a, duration, extra, now), now)
  {
  }

  /** The in-progress attempts of the exam. */
  function InProgressOf(attempts: map<string, StudentExam>, examId: string): (r: set<string>)
    ensures forall id :: id in r <==> id in attempts && attempts[id].examId == examId && attempts[id].status == AttemptInProgress
  {
    set id | id in attempts && attempts[id].examId == examId && attempts[id].status == AttemptInProgress
  }

  /** The attempts AddExamExtraTime extends (corrected filter): in progress, of the exam, in the room, being taken now. */
  function ExtraTimeTargets(attempts: map<string, StudentExam>, exams: map<string, Exam>, examId: string,
                            roomId: string, now: int): (r: set<string>)
    ensures r <= InProgressOf(attempts, examId)
    ensures forall id | id in r :: TakingNow(attempts[id], now)
  {
    if examId in exams && exams[examId].roomId == roomId then
      set id | id in InProgressOf(attempts, examId) && TakingNow(attempts[id], now)
    else {}
  }

  /** The attempts after extra time is given to `ids`; all others are unchanged. */
  function ExtendAll(attempts: map<string, StudentExam>, ids: set<string>, duration: int, extra: int, now: int)
    : (r: map<string, StudentExam>)
    ensures r.Keys == attempts.Keys
    ensures forall id | id in attempts && id !in ids :: r[id] == attempts[id]
    ensures forall id | id in attempts && id in ids :: r[id] == WithExtraTime(attempts[id], duration, extra, now)
  {
    map id | id in attempts :: if id in ids then WithExtraTime(attempts[id], duration, extra, now) else attempts[id]
  }

  const MsgNotTaking: string := "Student is not taking in exam."
  const MsgNobodyTaking: string := "No student is currently taking this exam."

  // ---------------------------------------------------------------- finishing

  /** An attempt closed by the supervisor: Submitted, with the score, the time and the answered count. */
  function FinishedAttempt(a: StudentExam, total: real, answered: nat, now: int): (r: StudentExam)
    ensures r.status == AttemptSubmitted && r.score == Some(total) && r.submitTime == Some(now)
    ensures r.id == a.id && r.examId == a.examId && r.studentId == a.studentId
  {
    a.(status := AttemptSubmitted, score := Some(total), submitTime := Some(now), updatedAt := now, totalQuestions := answered)
  }

  /** The attempt's answer rows whose question id is not blank. */
  function AnsweredRows(rows: seq<StudentAnswer>, attemptId: string): (r: nat)
    ensures r <= |rows|
  {
    if rows == [] then 0
    else
      var a := rows[|rows| - 1];
      AnsweredRows(rows[..|rows| - 1], attemptId) + (if a.studentExamId == attemptId && !IsBlank(a.questionId) then 1 else 0)
  }

  /** Rows that agree on attempt and question give the same answered count. */
  lemma {:induction false} AnsweredRowsSame(r1: seq<StudentAnswer>, r2: seq<StudentAnswer>, attemptId: string)
    requires |r1| == |r2|
    requires forall k | 0 <= k < |r1| :: r1[k].studentExamId == r2[k].studentExamId && r1[k].questionId == r2[k].questionId
    ensures AnsweredRows(r1, attemptId) == AnsweredRows(r2, attemptId)
  {
    if r1 != [] {
      var n := |r1| - 1;
      AnsweredRowsSame(r1[..n], r2[..n], attemptId);
    }
  }

  /** Rows that earn the same points give the same total. */
  lemma {:induction false} TotalEarnedSame(r1: seq<StudentAnswer>, r2: seq<StudentAnswer>, attemptId: string,
                                           items: map<string, ExamItem>)
    requires |r1| == |r2|
    requires forall k | 0 <= k < |r1| :: EarnedFor(r1[k], attemptId, items) == EarnedFor(r2[k], attemptId, items)
    ensures TotalEarned(r1, attemptId, items) == TotalEarned(r2, attemptId, items)
  {
    if r1 != [] {
      var n := |r1| - 1;
      TotalEarnedSame(r1[..n], r2[..n], attemptId, items);
    }
  }

  /** The answer table after grading every attempt in `ids`. */
  function FinishRows(rows: seq<StudentAnswer>, ids: set<string>, items: map<string, ExamItem>, now: int)
    : (r: seq<StudentAnswer>)
    ensures |r| == |rows|
    ensures forall k | 0 <= k < |rows| ::
      r[k] == if rows[k].studentExamId in ids then GradeRow(rows[k], rows[k].studentExamId, items, now) else rows[k]
  {
    seq(|rows|, k requires 0 <= k < |rows| =>
      if rows[k].studentExamId in ids then GradeRow(rows[k], rows[k].studentExamId, items, now) else rows[k])
  }

  /** The attempt table after finishing every attempt in `ids`, each scored on the rows as they were. */
  function FinishAll(attempts: map<string, StudentExam>, rows: seq<StudentAnswer>, ids: set<string>, essay: bool,
                     items: map<string, ExamItem>, now: int): (r: map<string, StudentExam>)
    ensures r.Keys == attempts.Keys
    ensures forall id | id in attempts && id !in ids :: r[id] == attempts[id]
    ensures forall id | id in attempts && id in ids ::
      r[id] == FinishedAttempt(attempts[id], if essay then 0.0 else TotalEarned(rows, id, items), AnsweredRows(rows, id), now)
  {
    map id | id in attempts ::
      if id in ids then
        FinishedAttempt(attempts[id], if essay then 0.0 else TotalEarned(rows, id, items), AnsweredRows(rows, id), now)
      else attempts[id]
  }

  /** After finishing the exam's in-progress attempts none of its attempts is in progress. */
  lemma FinishLeavesNoneInProgress(attempts: map<string, StudentExam>, rows: seq<StudentAnswer>, examId: string,
                                   essay: bool, items: map<string, ExamItem>, now: int)
    ensures InProgressOf(FinishAll(attempts, rows, InProgressOf(attempts, examId), essay, items, now), examId) == {}
  {
    var r := FinishAll(attempts, rows, InProgressOf(attempts, examId), essay, items, now);
    forall id | id in r
      ensures !(r[id].examId == examId && r[id].status == AttemptInProgress)
    {
    }
  }

  /**
   The guard of FinishExam as written: the grading loop sits inside
   `if (!studentExams.Any())`, so it runs only over an empty list. Returns the
   attempts the loop grades.
   */
  function FinishGradedAsWritten(inProgress: set<string>): (r: set<string>)
  {
    if inProgress == {} then inProgress else {}
  }

  /** As written, FinishExam grades no attempt, so in-progress attempts stay in progress. */
  lemma FinishAsWrittenGradesNothing(attempts: map<string, StudentExam>, rows: seq<StudentAnswer>, examId: string,
                                     essay: bool, items: map<string, ExamItem>, now: int)
    ensures FinishGradedAsWritten(InProgressOf(attempts, examId)) == {}
    ensures FinishAll(attempts, rows, FinishGradedAsWritten(InProgressOf(attempts, examId)), essay, items, now) == attempts
  {
    var r := FinishAll(attempts, rows, {}, essay, items, now);
    assert forall id | id in attempts :: r[id] == attempts[id];
  }

  /**
   The corrected guard grades every in-progress attempt of the exam: each
   ends up Submitted with its score and answered count, and as soon as one
   attempt is in progress the outcome differs from the guard as written.
   */
  lemma FinishCorrectedGradesAll(attempts: map<string, StudentExam>, rows: seq<StudentAnswer>, examId: string,
                                 essay: bool, items: map<string, ExamItem>, now: int)
    ensures var r := FinishAll(attempts, rows, InProgressOf(attempts, examId), essay, items, now);
      forall id | id in InProgressOf(attempts, examId) ::
        && r[id].status == AttemptSubmitted && r[id].submitTime == Some(now)
        && r[id].score == Some(if essay then 0.0 else TotalEarned(rows, id, items))
        && r[id].totalQuestions == AnsweredRows(rows, id)
    ensures InProgressOf(attempts, examId) != {} ==>
      FinishAll(attempts, rows, InProgressOf(attempts, examId), essay, items, now)
        != FinishAll(attempts, rows, FinishGradedAsWritten(InProgressOf(attempts, examId)), essay, items, now)
  {
    var pending := InProgressOf(attempts, examId);
    if pending != {} {
      var id :| id in pending;
      FinishAsWrittenGradesNothing(attempts, rows, examId, essay, items, now);
      assert FinishAll(attempts, rows, pending, essay, items, now)[id].status != attempts[id].status;
    }
  }

  /** Grading one more attempt of the answer table extends the set of graded attempts by it. */
  lemma FinishRowsStep(rows: seq<StudentAnswer>, done: set<string>, id: string, items: map<string, ExamItem>, now: int)
    requires id !in done
    ensures GradeRows(FinishRows(rows, done, items, now), id, items, now) == FinishRows(rows, done + {id}, items, now)
    ensures TotalEarned(FinishRows(rows, done, items, now), id, items) == TotalEarned(rows, id, items)
    ensures AnsweredRows(FinishRows(rows, done, items, now), id) == AnsweredRows(rows, id)
  {
    var cur := FinishRows(rows, done, items, now);
    TotalEarnedSame(cur, rows, id, items);
    AnsweredRowsSame(cur, rows, id);
  }

  /** Finishing one more attempt extends the set of finished attempts by it. */
  lemma FinishAllStep(attempts: map<string, StudentExam>, rows: seq<StudentAnswer>, done: set<string>, id: string,
                      essay: bool, items: map<string, ExamItem>, now: int)
    requires id in attempts && id !in done
    ensures FinishAll(attempts, rows, done, essay, items, now)[id :=
        FinishedAttempt(attempts[id], if essay then 0.0 else TotalEarned(rows, id, items), AnsweredRows(rows, id), now)]
      == FinishAll(attempts, rows, done + {id}, essay, items, now)
  {
  }

  /** The grading loop of FinishExam over the attempts in `pending`. */
  method FinishAttempts(attempts: map<string, StudentExam>, rows: seq<StudentAnswer>, pending: set<string>,
                        essay: bool, items: map<string, ExamItem>, now: int)
    returns (attempts': map<string, StudentExam>, rows': seq<StudentAnswer>)
    requires pending <= attempts.Keys
    ensures attempts' == FinishAll(attempts, rows, pending, essay, items, now)
    ensures rows' == if essay then rows else FinishRows(rows, pending, items, now)
  {
    attempts' := attempts;
    rows' := rows;
    var todo := pending;
    while todo != {}
      invariant todo <= pending
      invariant attempts' == FinishAll(attempts, rows, pending - todo, essay, items, now)
      invariant rows' == if essay then rows else FinishRows(rows, pending - todo, items, now)
      decreases todo
    {
      var id :| id in todo;
      var done := pending - todo;
      if !essay {
        FinishRowsStep(rows, done, id, items, now);
        rows' := GradeRows(rows', id, items, now);
      }
      var total := if essay then 0.0 else TotalEarned(rows, id, items);
      FinishAllStep(attempts, rows, done, id, essay, items, now);
      attempts' := attempts'[id := FinishedAttempt(attempts[id], total, AnsweredRows(rows, id), now)];
      todo := todo - {id};
      assert pending - todo == done + {id};
    }
  }

  const MsgAttemptNotInProgress: string := "Student exam not found or already submitted."

  // ---------------------------------------------------------------- re-assigning

  const MsgNotOngoing: string := "Exam not found or not ongoing."

  /** ReAssignExam only works on an exam that is not a draft and is inside its window. */
  predicate Ongoing(e: Exam, now: int)
  {
    e.status != ExamDraft && InWindow(e, now)
  }

  /** The student's attempts at the exam. */
  function StudentAttempts(attempts: map<string, StudentExam>, examId: string, studentId: string): (r: set<string>)
    ensures forall id :: id in r <==> id in attempts && attempts[id].examId == examId && attempts[id].studentId == studentId
  {
    set id | id in attempts && attempts[id].examId == examId && attempts[id].studentId == studentId
  }

  /** The student has an attempt at the exam. */
  predicate Joined(attempts: map<string, StudentExam>, examId: string, studentId: string)
  {
    StudentAttempts(attempts, examId, studentId) != {}
  }

  /** The requested students without an attempt, in request order (repeats kept). */
  function NotJoined(attempts: map<string, StudentExam>, examId: string, studentIds: seq<string>): (r: seq<string>)
    ensures |r| <= |studentIds|
    ensures forall s :: s in r <==> s in studentIds && !Joined(attempts, examId, s)
  {
    if studentIds == [] then []
    else
      var n := |studentIds| - 1;
      NotJoined(attempts, examId, studentIds[..n])
      + (if Joined(attempts, examId, studentIds[n]) then [] else [studentIds[n]])
  }

  /** The attempts deleted: those of the exam whose student was requested. */
  function ReassignedIds(attempts: map<string, StudentExam>, examId: string, studentIds: seq<string>): (r: set<string>)
    ensures forall id :: id in r <==> id in attempts && attempts[id].examId == examId && attempts[id].studentId in studentIds
  {
    set id | id in attempts && attempts[id].examId == examId && attempts[id].studentId in studentIds
  }

  /** A requested student either is reported as not joined or has every attempt at the exam deleted. */
  lemma ReassignPartition(attempts: map<string, StudentExam>, examId: string, studentIds: seq<string>, s: string)
    requires s in studentIds
    ensures s in NotJoined(attempts, examId, studentIds) <==> !Joined(attempts, examId, s)
    ensures forall id | id in attempts && attempts[id].examId == examId && attempts[id].studentId == s ::
      id in ReassignedIds(attempts, examId, studentIds)
  {
  }

  /** The answer rows that survive deleting the attempts in `ids`. */
  function RowsOutside(rows: seq<StudentAnswer>, ids: set<string>): (r: seq<StudentAnswer>)
    ensures |r| <= |rows|
    ensures forall a | a in r :: a in rows && a.studentExamId !in ids
    ensures forall a | a in rows && a.studentExamId !in ids :: a in r
  {
    if rows == [] then []
    else
      var n := |rows| - 1;
      RowsOutside(rows[..n], ids) + (if rows[n].studentExamId in ids then [] else [rows[n]])
  }

  /** Taking one more requested student adds their attempts to those deleted and, if they have none, adds them to the report. */
  lemma ReassignStep(attempts: map<string, StudentExam>, examId: string, studentIds: seq<string>, i: nat)
    requires i < |studentIds|
    ensures var s := studentIds[i];
      && ReassignedIds(attempts, examId, studentIds[..i + 1])
         == ReassignedIds(attempts, examId, studentIds[..i]) + StudentAttempts(attempts, examId, s)
      && NotJoined(attempts, examId, studentIds[..i + 1])
         == NotJoined(attempts, examId, studentIds[..i]) + (if Joined(attempts, examId, s) then [] else [s])
  {
    var prefix := studentIds[..i + 1];
    assert prefix[..i] == studentIds[..i];
    assert prefix == studentIds[..i] + [studentIds[i]];
  }

  /** The note returned when some requested students had not joined. */
  function ReassignNote(notJoined: nat): (r: string)
    ensures r == "" <==> notJoined == 0
  {
    if notJoined == 0 then ""
    else "Reassign completed. However, " + IntToString(notJoined)
         + " student(s) could not be reassigned because they have not joined the exam yet."
  }

  /** The loop of ReAssignExam: who cannot be re-assigned, and which attempts go. */
  method ScanReassign(attempts: map<string, StudentExam>, examId: string, studentIds: seq<string>)
    returns (cannot: seq<string>, gone: set<string>)
    ensures cannot == NotJoined(attempts, examId, studentIds)
    ensures gone == ReassignedIds(attempts, examId, studentIds)
  {
    cannot := [];
    gone := {};
    var i := 0;
    while i < |studentIds|
      invariant 0 <= i <= |studentIds|
      invariant cannot == NotJoined(attempts, examId, studentIds[..i])
      invariant gone == ReassignedIds(attempts, examId, studentIds[..i])
    {
      var s := studentIds[i];
      ReassignStep(attempts, examId, studentIds, i);
      var mine := StudentAttempts(attempts, examId, s);
      if mine == {} {
        cannot := cannot + [s];
      }
      gone := gone + mine;
      i := i + 1;
    }
    assert studentIds[..i] == studentIds;
  }

  // ---------------------------------------------------------------- the tables

  /**
   The tables the supervision operations use: exams and attempts change, as
   do answer rows; each exam's scored items are read only.
   */
  class MonitorStore {
    var exams: map<string, Exam>
    var attempts: map<string, StudentExam>
    var answers: seq<StudentAnswer>
    const examItems: map<string, map<string, ExamItem>>

    /** Every attempt is stored under its own identifier and belongs to a known exam. */
    ghost predicate Valid()
      reads this
    {
      forall id | id in attempts :: attempts[id].id == id && attempts[id].examId in exams
    }

    constructor (exams: map<string, Exam>, attempts: map<string, StudentExam>, answers: seq<StudentAnswer>,
                 examItems: map<string, map<string, ExamItem>>)
      requires forall id | id in attempts :: attempts[id].id == id && attempts[id].examId in exams
      ensures Valid()
      ensures this.exams == exams && this.attempts == attempts && this.answers == answers && this.examItems == examItems
    {
      this.exams := exams;
      this.attempts := attempts;
      this.answers := answers;
      this.examItems := examItems;
    }

    function ItemsOf(examId: string): map<string, ExamItem>
    {
      if examId in examItems then examItems[examId] else map[]
    }

    /** AddStudentExtraTime: an in-progress attempt gets the extra minutes and a recomputed submit time. */
    method AddStudentExtraTime(attemptId: string, extra: int, now: int) returns (message: string)
      requires Valid()
      modifies this
      ensures Valid() && exams == old(exams) && answers == old(answers)
      ensures !(attemptId in old(attempts) && old(attempts)[attemptId].status == AttemptInProgress) ==>
        message == MsgNotTaking && attempts == old(attempts)
      ensures attemptId in old(attempts) && old(attempts)[attemptId].status == AttemptInProgress ==>
        message == "" && attempts == old(attempts)[attemptId :=
          WithExtraTime(old(attempts)[attemptId], exams[old(attempts)[attemptId].examId].duration, extra, now)]
    {
      if !(attemptId in attempts && attempts[attemptId].status == AttemptInProgress) {
        message := MsgNotTaking;
        return;
      }
      var a := attempts[attemptId];
      attempts := attempts[attemptId := WithExtraTime(a, exams[a.examId].duration, extra, now)];
      message := "";
    }

    /**
     AddExamExtraTime, with the corrected time filter: every attempt being
     taken in the exam's room gets the extra minutes; none is an error, and a
     failed activity-log write (`logMessage`) rolls everything back.
     */
    method AddExamExtraTime(examId: string, roomId: string, extra: int, logMessage: string, now: int)
      returns (message: string)
      requires Valid()
      modifies this
      ensures Valid() && exams == old(exams) && answers == old(answers)
      ensures var targets := ExtraTimeTargets(old(attempts), exams, examId, roomId, now);
        && (targets == {} ==> message == MsgNobodyTaking && attempts == old(attempts))
        && (targets != {} && logMessage != "" ==> message == logMessage && attempts == old(attempts))
        && (targets != {} && logMessage == "" ==>
              message == "" && attempts == ExtendAll(old(attempts), targets, exams[examId].duration, extra, now))
    {
      var targets := ExtraTimeTargets(attempts, exams, examId, roomId, now);
      if targets == {} {
        message := MsgNobodyTaking;
        return;
      }
      if logMessage != "" {
        message := logMessage;
        return;
      }
      var duration := exams[examId].duration;
      var todo := targets;
      ghost var start := attempts;
      while todo != {}
        invariant todo <= targets
        invariant Valid() && exams == old(exams) && answers == old(answers)
        invariant attempts == ExtendAll(start, targets - todo, duration, extra, now)
        decreases todo
      {
        var id :| id in todo;
        attempts := attempts[id := WithExtraTime(attempts[id], duration, extra, now)];
        todo := todo - {id};
      }
      message := "";
    }

    /**
     FinishExam, corrected to grade: every in-progress attempt of the exam is
     scored on its answers (essay exams score 0), marked Submitted with the
     answered count, and the exam becomes Finished.
     */
    method FinishExam(examId: string, logMessage: string, now: int) returns (message: string)
      requires Valid()
      modifies this
      ensures Valid()
      ensures logMessage != "" ==>
        message == logMessage && exams == old(exams) && attempts == old(attempts) && answers == old(answers)
      ensures logMessage == "" ==>
        var pending := InProgressOf(old(attempts), examId);
        var essay := examId in old(exams) && old(exams)[examId].examType == TypeEssay;
        && message == ""
        && attempts == FinishAll(old(attempts), old(answers), pending, essay, ItemsOf(examId), now)
        && answers == (if essay then old(answers) else FinishRows(old(answers), pending, ItemsOf(examId), now))
        && exams == (if examId in old(exams) then old(exams)[examId := old(exams)[examId].(status := ExamFinished, updatedAt := now)]
                     else old(exams))
    {
      if logMessage != "" {
        message := logMessage;
        return;
      }
      var pending := InProgressOf(attempts, examId);
      var essay := examId in exams && exams[examId].examType == TypeEssay;
      attempts, answers := FinishAttempts(attempts, answers, pending, essay, ItemsOf(examId), now);
      if examId in exams {
        exams := exams[examId := exams[examId].(status := ExamFinished, updatedAt := now)];
      }
      message := "";
    }

    /** FinishStudentExam1: one in-progress attempt of the exam is graded and marked Submitted. */
    method FinishStudentExam(examId: string, attemptId: string, logMessage: string, now: int) returns (message: string)
      requires Valid()
      modifies this
      ensures Valid() && exams == old(exams)
      ensures var found := attemptId in old(attempts) && old(attempts)[attemptId].examId == examId
                           && old(attempts)[attemptId].status == AttemptInProgress;
        && (!found ==> message == MsgAttemptNotInProgress && attempts == old(attempts) && answers == old(answers))
        && (found && logMessage != "" ==> message == logMessage && attempts == old(attempts) && answers == old(answers))
        && (found && logMessage == "" ==>
              var essay := exams[examId].examType == TypeEssay;
              && message == ""
              && answers == (if essay then old(answers) else GradeRows(old(answers), attemptId, ItemsOf(examId), now))
              && attempts == old(attempts)[attemptId := FinishedAttempt(old(attempts)[attemptId],
                   if essay then 0.0 else TotalEarned(old(answers), attemptId, ItemsOf(examId)),
                   AnsweredRows(old(answers), attemptId), now)])
    {
      if !(attemptId in attempts && attempts[attemptId].examId == examId && attempts[attemptId].status == AttemptInProgress) {
        message := MsgAttemptNotInProgress;
        return;
      }
      if logMessage != "" {
        message := logMessage;
        return;
      }
      var essay := exams[examId].examType == TypeEssay;
      var total := 0.0;
      var answered := AnsweredRows(answers, attemptId);
      if !essay {
        var graded;
        graded, total := ScoreAnswers(answers, attemptId, ItemsOf(examId), now);
        answers := graded;
      }
      attempts := attempts[attemptId := FinishedAttempt(attempts[attemptId], total, answered, now)];
      message := "";
    }

    /**
     ReAssignExam: on an ongoing exam, every requested student with an attempt
     loses it and its answers; the others are counted in the returned note.
     */
    method ReAssignExam(examId: string, studentIds: seq<string>, logMessage: string, now: int)
      returns (message: string, note: string)
      requires Valid()
      modifies this
      ensures Valid() && exams == old(exams)
      ensures !(examId in exams && Ongoing(exams[examId], now)) ==>
        message == MsgNotOngoing && attempts == old(attempts) && answers == old(answers)
      ensures examId in exams && Ongoing(exams[examId], now) && logMessage != "" ==>
        message == logMessage && attempts == old(attempts) && answers == old(answers)
      ensures examId in exams && Ongoing(exams[examId], now) && logMessage == "" ==>
        var gone := ReassignedIds(old(attempts), examId, studentIds);
        && message == ""
        && note == ReassignNote(|NotJoined(old(attempts), examId, studentIds)|)
        && attempts == (map id | id in old(attempts) && id !in gone :: old(attempts)[id])
        && answers == RowsOutside(old(answers), gone)
    {
      note := "";
      if !(examId in exams && Ongoing(exams[examId], now)) {
        message := MsgNotOngoing;
        return;
      }
      if logMessage != "" {
        message := logMessage;
        return;
      }
      var cannot, gone := ScanReassign(attempts, examId, studentIds);
      answers := RowsOutside(answers, gone);
      attempts := map id | id in attempts && id !in gone :: attempts[id];
      message := "";
      note := ReassignNote(|cannot|);
    }
  }
}

=== FILE: notification_service.dfy ===
/**
 In-app notifications (NotificationService.cs): a user's inbox with its
 filters, creating a notification, marking one or all as read, the unread
 count, deleting, and fanning a feedback message out to every admin. Pushes
 to the notification hub are recorded in an outbox.
 */
module NotificationService {
  import opened Common
  import opened Domain

  datatype Notification = Notification(notifyId: string, message: string, sendToId: string, createdBy: string,
                                       kind: Option<string>, isRead: bool, createdAt: int)

  datatype NotifySearch = NotifySearch(isRead: Option<bool>, dateFrom: Option<int>, dateTo: Option<int>,
                                       textSearch: Option<string>, currentPage: int, pageSize: int)

  datatype NotificationInput = NotificationInput(message: string, sendToId: string, kind: Option<string>)

  /** What the service pushes to a hub group. */
  datatype HubMessage =
    | NewNotify(group: string, notification: Notification)
    | ReadNotify(group: string, notifyId: string, totalUnread: nat)
    | ReadAllNotify(group: string)

  const MsgNoNotifications: string := "No notifications found."
  const MsgNullInput: string := "Notification data is null"
  const MsgNotFound: string := "Notification not found"
  const MsgNoUnread: string := "No unread notifications found"
  const MsgEmptyIds: string := "Notification IDs cannot be null or empty."
  const MsgNoMatch: string := "No notifications found for the provided IDs."
  const KindFeedback: string := "Feedback"
  const FeedbackPrefix: string := "New Feedback: "

  // ---------------------------------------------------------------- GetAlert / GetTotalUnread

  /** Only the caller's own notifications, with the optional read flag, inclusive date bounds and text. */
  predicate MatchesAlert(n: Notification, q: NotifySearch, caller: string)
  {
    n.sendToId == caller
    && (q.isRead.None? || n.isRead == q.isRead.value)
    && (q.dateFrom.None? || n.createdAt >= q.dateFrom.value)
    && (q.dateTo.None? || n.createdAt <= q.dateTo.value)
    && (IsNullOrEmpty(q.textSearch) || Contains(n.message, q.textSearch.value))
  }

  predicate NotificationBefore(a: Notification, b: Notification)
  {
    a.createdAt >= b.createdAt
  }

  lemma NotificationBeforeTotal()
    ensures TotalPreorder(NotificationBefore)
  {
  }

  /** GetAlert: one page of the caller's matching notifications, newest first; an empty page gives the message. */
  function GetAlert(notifications: seq<Notification>, q: NotifySearch, caller: string): (r: (string, Listing<Notification>))
    ensures var matching := Filter(notifications, (n: Notification) => MatchesAlert(n, q, caller));
      var page := PageOf(SortBy(matching, NotificationBefore), q.currentPage, q.pageSize);
      && (r.0 == MsgNoNotifications <==> page == [])
      && (r.0 == "" ==> r.1.items == Some(page) && |r.1.items.value| <= q.pageSize)
      && (matching == [] || q.pageSize <= 0 ==> r.0 == MsgNoNotifications)
      && (r.0 != "" ==> r.0 == MsgNoNotifications && r.1.items.None?)
      && (r.0 == "" ==>
            r.1.items.Some? && r.1.items.value != [] && r.1.total == |matching|
            && r.1.totalPage == PageCount(|matching|, q.pageSize)
            && (forall n | n in r.1.items.value :: n in notifications && n.sendToId == caller && MatchesAlert(n, q, caller))
            && SortedBy(r.1.items.value, NotificationBefore))
  {
    var matching := Filter(notifications, (n: Notification) => MatchesAlert(n, q, caller));
    NotificationBeforeTotal();
    var page := SortedPage(matching, NotificationBefore, q.currentPage, q.pageSize);
    if page == [] then (MsgNoNotifications, Listing(None, 0, 0, 0, 0))
    else ("", Listing(Some(page), PageCount(|matching|, q.pageSize), q.currentPage, q.pageSize, |matching|))
  }

  predicate UnreadFor(n: Notification, user: string)
  {
    n.sendToId == user && !n.isRead
  }

  /** GetTotalUnread: how many of the user's notifications are unread. */
  function TotalUnread(notifications: seq<Notification>, user: string): (r: nat)
    ensures r <= |notifications|
    ensures r == 0 <==> forall n | n in notifications :: !UnreadFor(n, user)
  {
    var f := Filter(notifications, (n: Notification) => UnreadFor(n, user));
    assert f == [] <==> forall n | n in notifications :: !UnreadFor(n, user) by {
      if f != [] {
        assert f[0] in f;
      }
    }
    |f|
  }

  // ---------------------------------------------------------------- MarkAsRead / MarkAllAsRead / Delete

  /** The position of the notification with the id (`FindAsync`). */
  function Find(notifications: seq<Notification>, id: string): (r: Option<nat>)
    ensures r.Some? ==> r.value < |notifications| && notifications[r.value].notifyId == id
    ensures r.None? <==> forall n | n in notifications :: n.notifyId != id
  {
    var r := FirstWhere(notifications, (n: Notification) => n.notifyId == id);
    assert r.None? ==> forall n | n in notifications :: n.notifyId != id by {
      if r.None? {
        forall n | n in notifications ensures n.notifyId != id {
          var j :| 0 <= j < |notifications| && notifications[j] == n;
        }
      }
    }
    r
  }

  /** The table after MarkAsRead on the notification at k. */
  function MarkedRead(notifications: seq<Notification>, k: nat): (r: seq<Notification>)
    requires k < |notifications|
    ensures |r| == |notifications| && r[k].isRead
    ensures forall i | 0 <= i < |r| && i != k :: r[i] == notifications[i]
    ensures r[k].(isRead := notifications[k].isRead) == notifications[k]
  {
    notifications[k := notifications[k].(isRead := true)]
  }

  /** Marking a notification read a second time changes nothing. */
  lemma MarkAsReadIdempotent(notifications: seq<Notification>, k: nat)
    requires k < |notifications|
    ensures MarkedRead(MarkedRead(notifications, k), k) == MarkedRead(notifications, k)
  {
  }

  /** Marking one notification read lowers its owner's unread count by one if it was unread, else not at all. */
  lemma {:induction false} MarkAsReadCount(notifications: seq<Notification>, k: nat)
    requires k < |notifications|
    ensures var user := notifications[k].sendToId;
      TotalUnread(MarkedRead(notifications, k), user)
      == TotalUnread(notifications, user) - (if notifications[k].isRead then 0 else 1)
  {
    var user := notifications[k].sendToId;
    var p := (n: Notification) => UnreadFor(n, user);
    var m := MarkedRead(notifications, k);
    assert notifications == notifications[..k] + [notifications[k]] + notifications[k + 1..];
    assert m == notifications[..k] + [m[k]] + notifications[k + 1..];
    FilterAppend(notifications[..k] + [notifications[k]], notifications[k + 1..], p);
    FilterAppend(notifications[..k], [notifications[k]], p);
    FilterAppend(notifications[..k] + [m[k]], notifications[k + 1..], p);
    FilterAppend(notifications[..k], [m[k]], p);
  }

  /** The table after MarkAllAsRead: every unread notification of the user is read, nothing else changes. */
  function AllMarkedRead(notifications: seq<Notification>, user: string): (r: seq<Notification>)
    ensures |r| == |notifications|
    ensures forall i | 0 <= i < |r| ::
      r[i] == if UnreadFor(notifications[i], user) then notifications[i].(isRead := true) else notifications[i]
  {
    seq(|notifications|, i requires 0 <= i < |notifications| =>
      if UnreadFor(notifications[i], user) then notifications[i].(isRead := true) else notifications[i])
  }

  /** After MarkAllAsRead the user has no unread notification left, and nobody else's count moved. */
  lemma AllMarkedReadCounts(notifications: seq<Notification>, user: string, other: string)
    requires other != user
    ensures TotalUnread(AllMarkedRead(notifications, user), user) == 0
    ensures TotalUnread(AllMarkedRead(notifications, user), other) == TotalUnread(notifications, other)
  {
    var r := AllMarkedRead(notifications, user);
    forall n | n in r ensures !UnreadFor(n, user) {
      var i :| 0 <= i < |r| && r[i] == n;
    }
    var p := (n: Notification) => UnreadFor(n, other);
    assert forall i | 0 <= i < |r| :: p(r[i]) == p(notifications[i]);
    FilterPointwise(r, notifications, p);
  }

  /** Two lists that agree on `p` position by position keep the same number of elements. */
  lemma {:induction false} FilterPointwise<T>(a: seq<T>, b: seq<T>, p: T -> bool)
    requires |a| == |b| && forall i | 0 <= i < |a| :: p(a[i]) == p(b[i])
    ensures |Filter(a, p)| == |Filter(b, p)|
  {
    if a != [] {
      assert forall i | 0 <= i < |a[1..]| :: p(a[1..][i]) == p(b[1..][i]) by {
        forall i | 0 <= i < |a[1..]| ensures p(a[1..][i]) == p(b[1..][i]) {
          assert a[1..][i] == a[i + 1] && b[1..][i] == b[i + 1];
        }
      }
      FilterPointwise(a[1..], b[1..], p);
      assert a == [a[0]] + a[1..] && b == [b[0]] + b[1..];
      FilterAppend([a[0]], a[1..], p);
      FilterAppend([b[0]], b[1..], p);
    }
  }

  /** The table after Delete. */
  function WithoutIds(notifications: seq<Notification>, ids: seq<string>): (r: seq<Notification>)
    ensures forall n :: n in r <==> n in notifications && n.notifyId !in ids
  {
    Filter(notifications, (n: Notification) => n.notifyId !in ids)
  }

  // ---------------------------------------------------------------- Create / SendToAdmins

  function Created(input: NotificationInput, id: string, caller: string, now: int): (r: Notification)
    ensures r.notifyId == id && r.message == input.message && r.sendToId == input.sendToId
    ensures r.createdBy == caller && !r.isRead && r.createdAt == now
  {
    Notification(id, input.message, input.sendToId, caller, input.kind, false, now)
  }

  /** The admins, in user-table order. */
  function AdminIds(users: seq<string>, roles: map<string, set<int>>): (r: seq<string>)
    ensures forall u :: u in r <==> u in users && u in roles && RoleAdmin in roles[u]
  {
    Filter(users, (u: string) => u in roles && RoleAdmin in roles[u])
  }

  /** SendToAdmins: one unread feedback notification per admin, the i-th under ids[i]. */
  function FeedbackNotifications(admins: seq<string>, ids: seq<string>, caller: string, message: string, now: int)
    : (r: seq<Notification>)
    requires |ids| == |admins|
    ensures |r| == |admins|
    ensures forall i | 0 <= i < |r| ::
      r[i].sendToId == admins[i] && r[i].notifyId == ids[i] && !r[i].isRead && r[i].kind == Some(KindFeedback)
      && r[i].message == FeedbackPrefix + message && r[i].createdBy == caller
  {
    seq(|admins|, i requires 0 <= i < |admins| =>
      Notification(ids[i], FeedbackPrefix + message, admins[i], caller, Some(KindFeedback), false, now))
  }

  /** Every admin receives exactly one feedback notification, and nobody else receives any. */
  lemma FeedbackReachesEachAdminOnce(users: seq<string>, roles: map<string, set<int>>, ids: seq<string>,
                                     caller: string, message: string, now: int, u: string)
    requires NoDup(users) && |ids| == |AdminIds(users, roles)|
    ensures var sent := FeedbackNotifications(AdminIds(users, roles), ids, caller, message, now);
      Count(sent, (n: Notification) => n.sendToId == u) == if u in users && u in roles && RoleAdmin in roles[u] then 1 else 0
  {
    var admins := AdminIds(users, roles);
    var sent := FeedbackNotifications(admins, ids, caller, message, now);
    FilterNoDup(users, (x: string) => x in roles && RoleAdmin in roles[x]);
    CountTargets(admins, sent, u);
  }

  /** Filtering a duplicate-free list leaves it duplicate-free. */
  lemma {:induction false} FilterNoDup<T>(s: seq<T>, p: T -> bool)
    requires NoDup(s)
    ensures NoDup(Filter(s, p))
  {
    if s != [] {
      assert NoDup(s[1..]) by {
        forall i, j | 0 <= i < j < |s[1..]| ensures s[1..][i] != s[1..][j] {
          assert s[1..][i] == s[i + 1] && s[1..][j] == s[j + 1];
        }
      }
      FilterNoDup(s[1..], p);
      assert s == [s[0]] + s[1..];
      FilterAppend([s[0]], s[1..], p);
      if p(s[0]) {
        var f := Filter(s, p);
        var rest := Filter(s[1..], p);
        assert f == [s[0]] + rest;
        forall i, j | 0 <= i < j < |f| ensures f[i] != f[j] {
          if i == 0 {
            assert f[j] == rest[j - 1] && rest[j - 1] in rest;
            assert f[j] in s[1..];
            var k :| 0 <= k < |s[1..]| && s[1..][k] == f[j];
            assert s[k + 1] == f[j];
          } else {
            assert f[i] == rest[i - 1] && f[j] == rest[j - 1];
          }
        }
      }
    }
  }

  /** Positionwise recipients: a duplicate-free recipient list gives each recipient one notification. */
  lemma {:induction false} CountTargets(admins: seq<string>, sent: seq<Notification>, u: string)
    requires |sent| == |admins| && NoDup(admins)
    requires forall i | 0 <= i < |sent| :: sent[i].sendToId == admins[i]
    ensures Count(sent, (n: Notification) => n.sendToId == u) == if u in admins then 1 else 0
  {
    var p := (n: Notification) => n.sendToId == u;
    if sent != [] {
      var a' := admins[1..];
      var s' := sent[1..];
      assert NoDup(a') by {
        forall i, j | 0 <= i < j < |a'| ensures a'[i] != a'[j] {
          assert a'[i] == admins[i + 1] && a'[j] == admins[j + 1];
        }
      }
      assert forall i | 0 <= i < |s'| :: s'[i].sendToId == a'[i] by {
        forall i | 0 <= i < |s'| ensures s'[i].sendToId == a'[i] {
          assert s'[i] == sent[i + 1] && a'[i] == admins[i + 1];
        }
      }
      CountTargets(a', s', u);
      assert sent == [sent[0]] + s';
      FilterAppend([sent[0]], s', p);
      assert admins == [admins[0]] + a';
      if admins[0] == u {
        forall k | 0 <= k < |a'| ensures a'[k] != u {
          assert a'[k] == admins[k + 1];
        }
      }
    }
  }

  // ---------------------------------------------------------------- the store

  /** The Notifications table in table order, and the pushes sent to the hub so far. */
  class NotificationStore {
    var notifications: seq<Notification>
    var outbox: seq<HubMessage>

    constructor (notifications: seq<Notification>)
      ensures this.notifications == notifications && outbox == []
    {
      this.notifications := notifications;
      outbox := [];
    }

    /** Create: stores an unread notification from the caller and pushes it to the recipient's group. */
    method Create(input: Option<NotificationInput>, id: string, caller: string, now: int) returns (message: string)
      modifies this
      ensures input.None? ==> message == MsgNullInput && notifications == old(notifications) && outbox == old(outbox)
      ensures input.Some? ==>
        var n := Created(input.value, id, caller, now);
        message == "" && notifications == old(notifications) + [n]
        && outbox == old(outbox) + [NewNotify(input.value.sendToId, n)]
    {
      if input.None? {
        return MsgNullInput;
      }
      var n := Created(input.value, id, caller, now);
      notifications := notifications + [n];
      outbox := outbox + [NewNotify(n.sendToId, n)];
      message := "";
    }

    /** MarkAsRead: marks the notification read and pushes its owner's new unread count. */
    method MarkAsRead(id: string) returns (message: string)
      modifies this
      ensures Find(old(notifications), id).None? ==>
        message == MsgNotFound && notifications == old(notifications) && outbox == old(outbox)
      ensures Find(old(notifications), id).Some? ==>
        var k := Find(old(notifications), id).value;
        var owner := old(notifications)[k].sendToId;
        message == "" && notifications == MarkedRead(old(notifications), k)
        && outbox == old(outbox) + [ReadNotify(owner, id, TotalUnread(notifications, owner))]
    {
      var k := Find(notifications, id);
      if k.None? {
        return MsgNotFound;
      }
      notifications := MarkedRead(notifications, k.value);
      var owner := notifications[k.value].sendToId;
      outbox := outbox + [ReadNotify(owner, id, TotalUnread(notifications, owner))];
      message := "";
    }

    /** MarkAllAsRead: marks each of the user's unread notifications read, one by one; errors when there are none. */
    method MarkAllAsRead(user: string) returns (message: string)
      modifies this
      ensures TotalUnread(old(notifications), user) == 0 ==>
        message == MsgNoUnread && notifications == old(notifications) && outbox == old(outbox)
      ensures TotalUnread(old(notifications), user) > 0 ==>
        message == "" && notifications == AllMarkedRead(old(notifications), user)
        && outbox == old(outbox) + [ReadAllNotify(user)]
    {
      if TotalUnread(notifications, user) == 0 {
        return MsgNoUnread;
      }
      ghost var before := notifications;
      var i := 0;
      while i < |notifications|
        invariant 0 <= i <= |notifications| && |notifications| == |before|
        invariant forall j | 0 <= j < i :: notifications[j] == AllMarkedRead(before, user)[j]
        invariant forall j | i <= j < |notifications| :: notifications[j] == before[j]
        invariant outbox == old(outbox)
      {
        if UnreadFor(notifications[i], user) {
          notifications := notifications[i := notifications[i].(isRead := true)];
        }
        i := i + 1;
      }
      assert notifications == AllMarkedRead(before, user);
      outbox := outbox + [ReadAllNotify(user)];
      message := "";
    }

    /** Delete: removes exactly the listed notifications. */
    method Delete(ids: seq<string>) returns (message: string)
      modifies this
      ensures ids == [] ==> message == MsgEmptyIds && notifications == old(notifications)
      ensures ids != [] && (forall n | n in old(notifications) :: n.notifyId !in ids) ==>
        message == MsgNoMatch && notifications == old(notifications)
      ensures ids != [] && (exists n | n in old(notifications) :: n.notifyId in ids) ==>
        message == "" && notifications == WithoutIds(old(notifications), ids)
      ensures outbox == old(outbox)
    {
      if ids == [] {
        return MsgEmptyIds;
      }
      if forall n | n in notifications :: n.notifyId !in ids {
        return MsgNoMatch;
      }
      notifications := WithoutIds(notifications, ids);
      message := "";
    }

    /** SendToAdmins: stores one feedback notification per admin and pushes each to its admin. */
    method SendToAdmins(users: seq<string>, roles: map<string, set<int>>, ids: seq<string>, caller: string,
                        text: string, now: int)
      requires |ids| == |AdminIds(users, roles)|
      modifies this
      ensures var sent := FeedbackNotifications(AdminIds(users, roles), ids, caller, text, now);
        && notifications == old(notifications) + sent
        && |outbox| == |old(outbox)| + |sent|
        && outbox[..|old(outbox)|] == old(outbox)
        && forall i | 0 <= i < |sent| :: outbox[|old(outbox)| + i] == NewNotify(sent[i].sendToId, sent[i])
    {
      var sent := FeedbackNotifications(AdminIds(users, roles), ids, caller, text, now);
      notifications := notifications + sent;
      var i := 0;
      while i < |sent|
        invariant 0 <= i <= |sent| && notifications == old(notifications) + sent
        invariant |outbox| == |old(outbox)| + i && outbox[..|old(outbox)|] == old(outbox)
        invariant forall j | 0 <= j < i :: outbox[|old(outbox)| + j] == NewNotify(sent[j].sendToId, sent[j])
      {
        outbox := outbox + [NewNotify(sent[i].sendToId, sent[i])];
        i := i + 1;
      }
    }
  }
}

=== FILE: pagination.dfy ===
/**
 Page lists shown under a paged table. The activity log page
 (pages/admin/activitylog/index.tsx) and the feedback page
 (pages/admin/viewFeedback/index.tsx) build the same list: page 1, a window
 of up to five pages from max(2, current - 2), the last page, and "..."
 wherever pages are skipped.
 */
module Pagination {
  /** An entry of a page list: a page number, or "..." for pages left out. */
  datatype Entry = Num(n: int) | Ellipsis

  const MaxPagesToShow: int := 5

  function Min(a: int, b: int): int { if a <= b then a else b }
  function Max(a: int, b: int): int { if a >= b then a else b }

  /** The page numbers lo, lo + 1, ..., hi (none when hi < lo). */
  function Nums(lo: int, hi: int): (r: seq<Entry>)
    ensures |r| == if hi >= lo then hi - lo + 1 else 0
    ensures forall i | 0 <= i < |r| :: r[i] == Num(lo + i)
    decreases hi - lo
  {
    if hi < lo then [] else Nums(lo, hi - 1) + [Num(hi)]
  }

  /** Page numbers grow from left to right. */
  predicate Increasing(r: seq<Entry>)
  {
    forall i, j | 0 <= i < j < |r| && r[i].Num? && r[j].Num? :: r[i].n < r[j].n
  }

  /** Every page number in r lies in lo..hi. */
  predicate NumsWithin(r: seq<Entry>, lo: int, hi: int)
  {
    forall i | 0 <= i < |r| && r[i].Num? :: lo <= r[i].n <= hi
  }

  /** Two increasing lists, all of the first's pages below all of the second's, join into an increasing list. */
  lemma IncreasingJoin(a: seq<Entry>, b: seq<Entry>, mid: int)
    requires Increasing(a) && Increasing(b)
    requires forall i | 0 <= i < |a| && a[i].Num? :: a[i].n < mid
    requires forall i | 0 <= i < |b| && b[i].Num? :: mid <= b[i].n
    ensures Increasing(a + b)
  {
    var r := a + b;
    forall i, j | 0 <= i < j < |r| && r[i].Num? && r[j].Num? ensures r[i].n < r[j].n {
      if j < |a| {
        assert r[i] == a[i] && r[j] == a[j];
      } else if i >= |a| {
        assert r[i] == b[i - |a|] && r[j] == b[j - |a|];
      } else {
        assert r[i] == a[i] && r[j] == b[j - |a|];
      }
    }
  }

  /** Where the window of numbered pages starts: two before the current page, but never before page 2. */
  function StartPage(currentPage: int): int
  {
    Max(2, currentPage - MaxPagesToShow / 2)
  }

  /** Where the window ends: five pages on, but never at or past the last page. */
  function EndPage(currentPage: int, totalPage: int): int
  {
    Min(totalPage - 1, StartPage(currentPage) + MaxPagesToShow - 1)
  }

  /** The page list: 1, "..." if the window starts after 2, the window, "..." if it ends before the page before last, and the last page when there is more than one. */
  function ElidedPages(currentPage: int, totalPage: int): (r: seq<Entry>)
    ensures |r| >= 1 && r[0] == Num(1)
    ensures totalPage > 1 ==> r[|r| - 1] == Num(totalPage)
  {
    Lead(currentPage) + Nums(StartPage(currentPage), EndPage(currentPage, totalPage)) + Trail(currentPage, totalPage)
  }

  /** Page 1, then "..." when the window starts after page 2. */
  function Lead(currentPage: int): (r: seq<Entry>)
    ensures Increasing(r) && NumsWithin(r, 1, 1)
  {
    [Num(1)] + (if StartPage(currentPage) > 2 then [Ellipsis] else [])
  }

  /** "..." when the window ends before the page before last, then the last page when there is more than one. */
  function Trail(currentPage: int, totalPage: int): (r: seq<Entry>)
    ensures Increasing(r) && NumsWithin(r, totalPage, totalPage)
  {
    (if EndPage(currentPage, totalPage) < totalPage - 1 then [Ellipsis] else [])
    + (if totalPage > 1 then [Num(totalPage)] else [])
  }

  /** renderPagination's construction: push 1, maybe "...", the window in a loop, maybe "...", then the last page. */
  method BuildElidedPages(currentPage: int, totalPage: int) returns (pages: seq<Entry>)
    ensures pages == ElidedPages(currentPage, totalPage)
  {
    var startPage := Max(2, currentPage - MaxPagesToShow / 2);
    var endPage := Min(totalPage - 1, startPage + MaxPagesToShow - 1);
    pages := [Num(1)];
    if startPage > 2 {
      pages := pages + [Ellipsis];
    }
    ghost var head := pages;
    assert head == Lead(currentPage);
    var i := startPage;
    while i <= endPage
      invariant startPage <= i <= Max(startPage, endPage + 1)
      invariant pages == head + Nums(startPage, i - 1)
      decreases endPage - i
    {
      pages := pages + [Num(i)];
      assert Nums(startPage, i) == Nums(startPage, i - 1) + [Num(i)];
      i := i + 1;
    }
    ghost var body := pages;
    assert body == Lead(currentPage) + Nums(StartPage(currentPage), EndPage(currentPage, totalPage));
    if endPage < totalPage - 1 {
      pages := pages + [Ellipsis];
    }
    if totalPage > 1 {
      pages := pages + [Num(totalPage)];
    }
    assert pages == body + Trail(currentPage, totalPage);
  }

  /** The list before its tail: page 1, maybe "...", then the window. */
  function LeadAndWindow(currentPage: int, totalPage: int): seq<Entry>
  {
    Lead(currentPage) + Nums(StartPage(currentPage), EndPage(currentPage, totalPage))
  }

  /** The list before its tail increases, and all of its numbers are below the window's end plus one (2 with an empty window). */
  lemma LeadAndWindowBelow(currentPage: int, totalPage: int)
    ensures Increasing(LeadAndWindow(currentPage, totalPage))
    ensures var start := StartPage(currentPage); var end := EndPage(currentPage, totalPage);
      NumsWithin(LeadAndWindow(currentPage, totalPage), 1, if start <= end then end else 1)
  {
    var start := StartPage(currentPage);
    var end := EndPage(currentPage, totalPage);
    var a := Lead(currentPage);
    var mid := Nums(start, end);
    IncreasingJoin(a, mid, start);
    forall i | 0 <= i < |a + mid| && (a + mid)[i].Num?
      ensures 1 <= (a + mid)[i].n <= if start <= end then end else 1
    {
      if i < |a| {
        assert (a + mid)[i] == a[i];
      } else {
        assert (a + mid)[i] == mid[i - |a|];
      }
    }
  }

  /** Page numbers in the list strictly increase, and none lies outside 1..max(1, totalPage). */
  lemma ElidedIncreasing(currentPage: int, totalPage: int)
    ensures Increasing(ElidedPages(currentPage, totalPage))
    ensures NumsWithin(ElidedPages(currentPage, totalPage), 1, Max(1, totalPage))
  {
    var start := StartPage(currentPage);
    var end := EndPage(currentPage, totalPage);
    var head := LeadAndWindow(currentPage, totalPage);
    var tail := Trail(currentPage, totalPage);
    LeadAndWindowBelow(currentPage, totalPage);
    IncreasingJoin(head, tail, if start <= end then end + 1 else 2);
    var r := ElidedPages(currentPage, totalPage);
    assert r == head + tail;
    forall i | 0 <= i < |r| && r[i].Num? ensures 1 <= r[i].n <= Max(1, totalPage) {
      if i < |head| {
        assert r[i] == head[i];
      } else {
        assert r[i] == tail[i - |head|];
      }
    }
  }

  /** Every page of the window is in the list. */
  lemma WindowListed(currentPage: int, totalPage: int, p: int)
    ensures StartPage(currentPage) <= p <= EndPage(currentPage, totalPage) ==> Num(p) in ElidedPages(currentPage, totalPage)
  {
    var r := ElidedPages(currentPage, totalPage);
    var start := StartPage(currentPage);
    var end := EndPage(currentPage, totalPage);
    var a := Lead(currentPage);
    if start <= p <= end {
      assert r[|a| + p - start] == Nums(start, end)[p - start];
    }
  }

  /** While the current page is a real page, its number is in the list. */
  lemma ElidedHasCurrent(currentPage: int, totalPage: int)
    requires 1 <= currentPage <= totalPage
    ensures Num(currentPage) in ElidedPages(currentPage, totalPage)
  {
    var r := ElidedPages(currentPage, totalPage);
    if currentPage == totalPage && totalPage > 1 {
      assert r[|r| - 1] == Num(currentPage);
    } else if currentPage > 1 {
      WindowListed(currentPage, totalPage, currentPage);
    }
  }

  /** The window holds at most five pages, so the list has at most nine entries. */
  lemma ElidedSize(currentPage: int, totalPage: int)
    ensures |Nums(StartPage(currentPage), EndPage(currentPage, totalPage))| <= MaxPagesToShow
    ensures |ElidedPages(currentPage, totalPage)| <= MaxPagesToShow + 4
  {
  }

  /** Each "..." sits between two page numbers with at least one page between them. */
  lemma ElidedEllipsisHides(currentPage: int, totalPage: int, i: int)
    requires 1 <= currentPage <= totalPage
    requires 0 <= i < |ElidedPages(currentPage, totalPage)| && ElidedPages(currentPage, totalPage)[i] == Ellipsis
    ensures var r := ElidedPages(currentPage, totalPage);
      0 < i < |r| - 1 && r[i - 1].Num? && r[i + 1].Num? && r[i - 1].n + 1 < r[i + 1].n
  {
    var r := ElidedPages(currentPage, totalPage);
    var start := StartPage(currentPage);
    var end := EndPage(currentPage, totalPage);
    var k := if start > 2 then 2 else 1;
    var mid := Nums(start, end);
    assert forall j | k <= j < k + |mid| :: r[j] == mid[j - k];
    if start > 2 && i == 1 {
      assert start <= end;
      assert r[2] == mid[0];
    } else {
      assert i == k + |mid| && end < totalPage - 1;
      assert start <= end;
      assert r[i - 1] == mid[|mid| - 1];
      assert r[i + 1] == Num(totalPage);
    }
  }

  /** A page left out of the list lies between the two neighbours of some "...". */
  lemma ElidedHiddenMarked(currentPage: int, totalPage: int, p: int)
    requires 1 <= currentPage <= totalPage && 1 <= p <= totalPage
    requires Num(p) !in ElidedPages(currentPage, totalPage)
    ensures var r := ElidedPages(currentPage, totalPage);
      exists i | 0 < i < |r| - 1 :: r[i] == Ellipsis && r[i - 1].Num? && r[i + 1].Num? && r[i - 1].n < p < r[i + 1].n
  {
    var r := ElidedPages(currentPage, totalPage);
    var start := StartPage(currentPage);
    var end := EndPage(currentPage, totalPage);
    var k := if start > 2 then 2 else 1;
    var mid := Nums(start, end);
    assert forall j | k <= j < k + |mid| :: r[j] == mid[j - k];
    assert p != 1 && p != totalPage;
    WindowListed(currentPage, totalPage, p);
    if p < start {
      assert start > 2 && start <= end;
      assert r[1] == Ellipsis && r[0] == Num(1) && r[2] == mid[0];
    } else {
      assert end < p < totalPage && start <= end;
      var i := k + |mid|;
      assert r[i] == Ellipsis && r[i - 1] == mid[|mid| - 1] && r[i + 1] == Num(totalPage);
    }
  }

  /** The "Previous" and "Next" buttons: disabled on the first page and on the last page. */
  function PrevDisabled(currentPage: int): bool { currentPage == 1 }
  function NextDisabled(currentPage: int, totalPage: int): bool { currentPage == totalPage }

  /** A page change is taken only for a page from 1 to totalPage. */
  function ChangePage(currentPage: int, page: int, totalPage: int): (r: int)
    ensures 0 < page <= totalPage ==> r == page
    ensures !(0 < page <= totalPage) ==> r == currentPage
  {
    if page > 0 && page <= totalPage then page else currentPage
  }

  /** Every enabled button of the list (a number, "Previous" or "Next") leads to a page from 1 to totalPage. */
  lemma ButtonsStayInRange(currentPage: int, totalPage: int, target: int)
    requires 1 <= currentPage <= totalPage
    requires Num(target) in ElidedPages(currentPage, totalPage)
          || (target == currentPage - 1 && !PrevDisabled(currentPage))
          || (target == currentPage + 1 && !NextDisabled(currentPage, totalPage))
    ensures 1 <= target <= totalPage
    ensures ChangePage(currentPage, target, totalPage) == target
  {
    ElidedIncreasing(currentPage, totalPage);
    if Num(target) in ElidedPages(currentPage, totalPage) {
      var r := ElidedPages(currentPage, totalPage);
      var i :| 0 <= i < |r| && r[i] == Num(target);
    }
  }
}

=== FILE: process_monitor.dfy ===
/**
 The desktop client's process watch (ProcessMonitor.cs): the whitelist split
 into process names and file paths, the blocked applications found running,
 the registry of watched process names, the set of process names already
 seen and the listing sent to the server. A snapshot of the running
 processes is a parameter; whether a process counts as a system process
 (a signature check) is a field of the snapshot.
 */
module ProcessMonitor {
  import opened Common

  /** A running process as the code reads it: id, name, main module path ("" when unreadable), system or not. */
  datatype Proc = Proc(id: int, name: string, path: string, system: bool)

  /** What a watched name does when its process is seen: kill it, or some other handler. */
  datatype Callback = Block(processName: string) | Handler(id: int)

  /** One line of the listing sent to the server. */
  datatype Listed = Listed(name: string, filePath: string, instanceCount: nat)

  /** The whitelist after the split: names and paths, each a case-insensitive set. */
  datatype Whitelist = Whitelist(names: seq<string>, paths: seq<string>)

  const MsgNotInitialized: string := "MonitoringService not initialized."

  function MsgDuplicateKey(key: string): string
  {
    "An item with the same key has already been added. Key: " + key
  }

  // ---------------------------------------------------------------- whitelist

  predicate IsPathEntry(entry: string)
  {
    '\\' in entry
  }

  predicate IsNameEntry(entry: string)
  {
    '\\' !in entry
  }

  predicate IsSeparator(c: char)
  {
    c == '\\' || c == '/'
  }

  /** Path.GetFileName: the text after the last directory separator. */
  function FileName(path: string): (r: string)
    ensures IsSuffix(r, path) && forall i | 0 <= i < |r| :: !IsSeparator(r[i])
    decreases |path|
  {
    if path == [] || IsSeparator(path[|path| - 1]) then ""
    else
      var init := FileName(path[..|path| - 1]);
      assert path[|path| - |init| - 1..] == path[..|path| - 1][|path| - 1 - |init|..] + [path[|path| - 1]];
      init + [path[|path| - 1]]
  }

  /** Everything before the last '.', which exists. */
  function BeforeLastDot(name: string): (r: string)
    requires '.' in name
    ensures IsPrefix(r, name) && |r| < |name| && name[|r|] == '.' && '.' !in name[|r| + 1..]
    decreases |name|
  {
    if name[|name| - 1] == '.' then name[..|name| - 1]
    else
      var r := BeforeLastDot(name[..|name| - 1]);
      assert name[|r| + 1..] == name[..|name| - 1][|r| + 1..] + [name[|name| - 1]];
      r
  }

  /** Path.GetFileNameWithoutExtension. */
  function FileNameWithoutExtension(path: string): (r: string)
    ensures IsPrefix(r, FileName(path))
  {
    var name := FileName(path);
    if '.' in name then BeforeLastDot(name) else name
  }

  /** `TrimEnd('\\')`: drops every trailing backslash. */
  function TrimEndBackslash(s: string): (r: string)
    ensures IsPrefix(r, s) && (r == "" || r[|r| - 1] != '\\')
    decreases |s|
  {
    if s != [] && s[|s| - 1] == '\\' then TrimEndBackslash(s[..|s| - 1]) else s
  }

  function FileNames(entries: seq<string>): (r: seq<string>)
    ensures |r| == |entries| && forall i | 0 <= i < |entries| :: r[i] == FileNameWithoutExtension(entries[i])
  {
    seq(|entries|, i requires 0 <= i < |entries| => FileNameWithoutExtension(entries[i]))
  }

  function TrimmedPaths(entries: seq<string>): (r: seq<string>)
    ensures |r| == |entries| && forall i | 0 <= i < |entries| :: r[i] == TrimEndBackslash(entries[i])
  {
    seq(|entries|, i requires 0 <= i < |entries| => TrimEndBackslash(entries[i]))
  }

  /**
   The split of KillAllAppsExceptWhitelist and MonitorNewProcesses: entries
   without '\' become process names (file name without extension), the others
   paths without trailing '\'.
   */
  function SplitWhitelist(whitelist: seq<string>): Whitelist
  {
    Whitelist(DistinctBy(FileNames(Filter(whitelist, IsNameEntry)), Lower),
              DistinctBy(TrimmedPaths(Filter(whitelist, IsPathEntry)), Lower))
  }

  /** The whitelist test: the process name is listed, or its path is known and listed. */
  predicate IsWhitelisted(wl: Whitelist, name: string, path: string)
  {
    HasIgnoreCase(wl.names, name) || (path != "" && HasIgnoreCase(wl.paths, path))
  }

  /** Some element of the mapped list equals x ignoring case exactly when some source entry maps to it. */
  lemma NamesFrom(entries: seq<string>, x: string)
    ensures HasIgnoreCase(FileNames(entries), x)
        <==> exists e | e in entries :: EqIgnoreCase(FileNameWithoutExtension(e), x)
  {
    var names := FileNames(entries);
    if HasIgnoreCase(names, x) {
      var i :| 0 <= i < |names| && Lower(names[i]) == Lower(x);
      assert entries[i] in entries;
    }
    if exists e | e in entries :: EqIgnoreCase(FileNameWithoutExtension(e), x) {
      var e :| e in entries && EqIgnoreCase(FileNameWithoutExtension(e), x);
      var i :| 0 <= i < |entries| && entries[i] == e;
      assert Lower(names[i]) == Lower(x);
    }
  }

  lemma PathsFrom(entries: seq<string>, x: string)
    ensures HasIgnoreCase(TrimmedPaths(entries), x)
        <==> exists e | e in entries :: EqIgnoreCase(TrimEndBackslash(e), x)
  {
    var paths := TrimmedPaths(entries);
    if HasIgnoreCase(paths, x) {
      var i :| 0 <= i < |paths| && Lower(paths[i]) == Lower(x);
      assert entries[i] in entries;
    }
    if exists e | e in entries :: EqIgnoreCase(TrimEndBackslash(e), x) {
      var e :| e in entries && EqIgnoreCase(TrimEndBackslash(e), x);
      var i :| 0 <= i < |entries| && entries[i] == e;
      assert Lower(paths[i]) == Lower(x);
    }
  }

  /**
   A process is whitelisted exactly when an entry without '\' names its file
   name without extension, or its path is known and an entry with '\'
   names that path, all ignoring case.
   */
  lemma WhitelistedIff(whitelist: seq<string>, name: string, path: string)
    ensures IsWhitelisted(SplitWhitelist(whitelist), name, path)
        <==> (exists e | e in whitelist :: IsNameEntry(e) && EqIgnoreCase(FileNameWithoutExtension(e), name))
             || (path != "" && exists e | e in whitelist :: IsPathEntry(e) && EqIgnoreCase(TrimEndBackslash(e), path))
  {
    var nameEntries := Filter(whitelist, IsNameEntry);
    var pathEntries := Filter(whitelist, IsPathEntry);
    DistinctIgnoreCase(FileNames(nameEntries), name);
    DistinctIgnoreCase(TrimmedPaths(pathEntries), path);
    NamesFrom(nameEntries, name);
    PathsFrom(pathEntries, path);
  }

  /** What KillAllAppsExceptWhitelist terminates: a process neither whitelisted nor a system process. */
  predicate Killable(wl: Whitelist, p: Proc)
  {
    !IsWhitelisted(wl, p.name, p.path) && !p.system
  }

  /** The processes of a snapshot KillAllAppsExceptWhitelist terminates, in snapshot order. */
  function KillTargets(wl: Whitelist, procs: seq<Proc>): (r: seq<Proc>)
    ensures |r| <= |procs|
  {
    if procs == [] then []
    else
      var n := |procs| - 1;
      KillTargets(wl, procs[..n]) + (if Killable(wl, procs[n]) then [procs[n]] else [])
  }

  /** Exactly the processes neither whitelisted nor system are targets. */
  lemma {:induction false} KillTargetsMembers(wl: Whitelist, procs: seq<Proc>, p: Proc)
    ensures p in KillTargets(wl, procs) <==> p in procs && Killable(wl, p)
  {
    if procs != [] {
      var n := |procs| - 1;
      KillTargetsMembers(wl, procs[..n], p);
      assert procs == procs[..n] + [procs[n]];
    }
  }

  lemma KillTargetsStep(wl: Whitelist, procs: seq<Proc>, i: nat)
    requires i < |procs|
    ensures KillTargets(wl, procs[..i + 1]) == KillTargets(wl, procs[..i]) + (if Killable(wl, procs[i]) then [procs[i]] else [])
  {
    assert procs[..i + 1][..i] == procs[..i];
  }

  /** A whitelisted process survives, and so does a system process; every other process is a target. */
  lemma KillSpares(whitelist: seq<string>, procs: seq<Proc>, p: Proc)
    requires p in procs
    ensures p in KillTargets(SplitWhitelist(whitelist), procs)
        <==> !p.system
             && !(exists e | e in whitelist :: IsNameEntry(e) && EqIgnoreCase(FileNameWithoutExtension(e), p.name))
             && !(p.path != "" && exists e | e in whitelist :: IsPathEntry(e) && EqIgnoreCase(TrimEndBackslash(e), p.path))
  {
    KillTargetsMembers(SplitWhitelist(whitelist), procs, p);
    WhitelistedIff(whitelist, p.name, p.path);
  }

  /** The signature of a file as IsSystemProcess reads it. */
  datatype Signature = Signature(verified: bool, subject: string)

  const TrustedPublishers: seq<string> := ["Microsoft Windows", "Intel Corporation", "Rivet Networks",
    "NVIDIA Corporation", "Rivet Networks LLC", "Realtek Semiconductor", "Advanced Micro Devices"]

  /**
   IsSystemProcess: a process whose path cannot be read counts as a system
   process; one outside the system directory never does; inside it, one whose
   signature cannot be read does, and otherwise the signature must verify and
   name a trusted publisher. `signature` is None when reading it throws.
   */
  function IsSystemProcess(path: string, systemDirectory: string, signature: Option<Signature>): (r: bool)
    ensures path == "" ==> r
    ensures path != "" && !IsPrefix(Lower(systemDirectory), Lower(path)) ==> !r
    ensures r && path != "" && signature.Some? ==> signature.value.verified
    ensures path != "" && IsPrefix(Lower(systemDirectory), Lower(path)) && signature.None? ==> r
    ensures path != "" && IsPrefix(Lower(systemDirectory), Lower(path)) && signature.Some? ==>
      (r <==> signature.value.verified && exists pub | pub in TrustedPublishers :: Contains(signature.value.subject, pub))
  {
    if path == "" then true
    else if !IsPrefix(Lower(systemDirectory), Lower(path)) then false
    else match signature
      case None => true
      case Some(sig) => sig.verified && exists pub | pub in TrustedPublishers :: Contains(sig.subject, pub)
  }

  /** A signed file in the system directory from an untrusted publisher is not a system process (a spoofed name). */
  lemma SpoofedNotSystem(path: string, systemDirectory: string, sig: Signature)
    requires forall pub | pub in TrustedPublishers :: !Contains(sig.subject, pub)
    ensures !IsSystemProcess(path, systemDirectory, Some(sig)) <==> path != ""
  {
  }

  /** No process of the list is one whose termination fails. */
  predicate NoneFailing(killed: seq<Proc>, failing: set<int>)
  {
    killed == [] || (NoneFailing(killed[..|killed| - 1], failing) && killed[|killed| - 1].id !in failing)
  }

  lemma {:induction false} NoneFailingAll(killed: seq<Proc>, failing: set<int>)
    ensures NoneFailing(killed, failing) <==> forall p | p in killed :: p.id !in failing
  {
    if killed != [] {
      var n := |killed| - 1;
      NoneFailingAll(killed[..n], failing);
      assert killed == killed[..n] + [killed[n]];
    }
  }

  lemma NoneFailingStep(killed: seq<Proc>, p: Proc, failing: set<int>)
    ensures NoneFailing(killed + [p], failing) == (NoneFailing(killed, failing) && p.id !in failing)
  {
    assert (killed + [p])[..|killed|] == killed;
  }

  /** BlockProcess's targets: the running processes bearing the lower-cased name, ignoring case. */
  function NamedTargets(procs: seq<Proc>, name: string): (r: seq<Proc>)
    ensures |r| <= |procs|
  {
    if procs == [] then []
    else
      var n := |procs| - 1;
      NamedTargets(procs[..n], name) + (if EqIgnoreCase(procs[n].name, name) then [procs[n]] else [])
  }

  /**
   BlockProcess: an empty name succeeds at once; otherwise every process of that
   name is terminated, and the answer is whether none of them failed to die.
   Which terminations fail is a parameter (`failing`, by process id).
   */
  method BlockProcess(processName: string, procs: seq<Proc>, failing: set<int>) returns (allSuccessful: bool, killed: seq<Proc>)
    ensures processName == "" ==> allSuccessful && killed == []
    ensures processName != "" ==> killed == NamedTargets(procs, Lower(processName))
    ensures allSuccessful <==> forall p | p in killed :: p.id !in failing
  {
    if processName == "" {
      return true, [];
    }
    var targets := NamedTargets(procs, Lower(processName));
    allSuccessful := true;
    for i := 0 to |targets|
      invariant allSuccessful <==> forall j | 0 <= j < i :: targets[j].id !in failing
    {
      if targets[i].id in failing {
        allSuccessful := false;
      }
    }
    killed := targets;
  }

  /** The loop of KillAllAppsExceptWhitelist over the snapshot, once the whitelist is split. */
  method TerminateUnlisted(wl: Whitelist, procs: seq<Proc>, failing: set<int>) returns (allSuccessful: bool, killed: seq<Proc>)
    ensures killed == KillTargets(wl, procs)
    ensures allSuccessful <==> forall p | p in killed :: p.id !in failing
  {
    allSuccessful, killed := true, [];
    for i := 0 to |procs|
      invariant killed == KillTargets(wl, procs[..i])
      invariant allSuccessful == NoneFailing(killed, failing)
    {
      KillTargetsStep(wl, procs, i);
      var process := procs[i];
      if IsWhitelisted(wl, process.name, process.path) {
        continue;
      }
      if !process.system {
        NoneFailingStep(killed, process, failing);
        killed := killed + [process];
        if process.id in failing {
          allSuccessful := false;
        }
      }
    }
    assert procs[..|procs|] == procs;
    NoneFailingAll(killed, failing);
  }

  /** Blocking a name terminates exactly the running processes of that name, whatever its case. */
  lemma {:induction false} NamedTargetsMembers(procs: seq<Proc>, name: string, p: Proc)
    ensures p in NamedTargets(procs, name) <==> p in procs && EqIgnoreCase(p.name, name)
  {
    if procs != [] {
      var n := |procs| - 1;
      NamedTargetsMembers(procs[..n], name, p);
      assert procs == procs[..n] + [procs[n]];
    }
  }

  /** Blocking a name terminates exactly the running processes of that name, whatever its case. */
  lemma BlockIgnoresCase(procs: seq<Proc>, name: string, p: Proc)
    ensures p in NamedTargets(procs, Lower(name)) <==> p in procs && EqIgnoreCase(p.name, name)
  {
    NamedTargetsMembers(procs, Lower(name), p);
    LowerIdempotent(name);
  }

  // ---------------------------------------------------------------- blocked applications running

  /** `Process.GetProcessesByName(name)`: how many running processes bear the name, ignoring case. */
  function Instances(procs: seq<Proc>, name: string): nat
  {
    Count(procs, (p: Proc) => EqIgnoreCase(p.name, name))
  }

  function Repeat(x: string, n: nat): (r: seq<string>)
    ensures |r| == n && forall i | 0 <= i < n :: r[i] == x
  {
    seq(n, _ => x)
  }

  /** What the loops of GetRunningBlockedProcesses collect: each blocked name once per running instance. */
  function Collected(apps: seq<string>, procs: seq<Proc>): seq<string>
  {
    if apps == [] then []
    else
      var n := |apps| - 1;
      Collected(apps[..n], procs) + Repeat(apps[n], Instances(procs, apps[n]))
  }

  /** A name is collected exactly when it is a blocked name with a running instance. */
  lemma {:induction false} CollectedIff(apps: seq<string>, procs: seq<Proc>, x: string)
    ensures x in Collected(apps, procs) <==> x in apps && Instances(procs, x) > 0
  {
    if apps != [] {
      var n := |apps| - 1;
      CollectedIff(apps[..n], procs, x);
      assert apps == apps[..n] + [apps[n]];
      if x == apps[n] && Instances(procs, x) > 0 {
        assert Repeat(x, Instances(procs, x))[0] == x;
      }
    }
  }

  /**
   The answer of GetRunningBlockedProcesses: every blocked name with a running
   instance is represented once, ignoring case, and nothing else is.
   */
  lemma RunningBlockedSpec(apps: seq<string>, procs: seq<Proc>)
    ensures KeysUnique(DistinctBy(Collected(apps, procs), Lower), Lower)
    ensures forall x | x in DistinctBy(Collected(apps, procs), Lower) :: x in apps && Instances(procs, x) > 0
    ensures forall x | x in apps && Instances(procs, x) > 0 :: HasIgnoreCase(DistinctBy(Collected(apps, procs), Lower), x)
  {
    var c := Collected(apps, procs);
    DistinctByUnique(c, Lower);
    forall x | x in DistinctBy(c, Lower) ensures x in apps && Instances(procs, x) > 0 {
      CollectedIff(apps, procs, x);
    }
    forall x | x in apps && Instances(procs, x) > 0 ensures HasIgnoreCase(DistinctBy(c, Lower), x) {
      CollectedIff(apps, procs, x);
      var i :| 0 <= i < |c| && c[i] == x;
      assert HasIgnoreCase(c, x);
      DistinctIgnoreCase(c, x);
    }
  }

  lemma CollectedStep(apps: seq<string>, procs: seq<Proc>, i: nat)
    requires i < |apps|
    ensures Collected(apps[..i + 1], procs) == Collected(apps[..i], procs) + Repeat(apps[i], Instances(procs, apps[i]))
  {
    assert apps[..i + 1][..i] == apps[..i];
  }

  // ---------------------------------------------------------------- the watch registry

  /** MonitorProcess as written: the lower-cased name is looked up but the name as given is added. */
  function RegisterAsWritten(monitored: map<string, Callback>, name: string, callback: Callback): (r: Result<map<string, Callback>>)
    ensures Lower(name) in monitored ==> r == Success(monitored)
    ensures Lower(name) !in monitored && name !in monitored ==> r == Success(monitored[name := callback])
    ensures r.Failure? <==> Lower(name) !in monitored && name in monitored
  {
    if Lower(name) in monitored then Success(monitored)
    else if name in monitored then Failure(MsgDuplicateKey(name))
    else Success(monitored[name := callback])
  }

  /** As written, watching a name with a capital letter twice throws on the second call. */
  lemma MixedCaseTwiceThrows(monitored: map<string, Callback>, name: string, callback: Callback)
    requires Lower(name) != name && Lower(name) !in monitored && name !in monitored
    ensures RegisterAsWritten(monitored, name, callback).Success?
    ensures RegisterAsWritten(RegisterAsWritten(monitored, name, callback).value, name, callback).Failure?
  {
  }

  /** The registration evidently intended: keyed by the lower-cased name, so a repeated call does nothing. */
  function Register(monitored: map<string, Callback>, name: string, callback: Callback): (r: map<string, Callback>)
    ensures Lower(name) in r && r.Keys == monitored.Keys + {Lower(name)}
    ensures Lower(name) in monitored ==> r == monitored
    ensures Lower(name) !in monitored ==> r[Lower(name)] == callback
  {
    if Lower(name) in monitored then monitored else monitored[Lower(name) := callback]
  }

  /** Every key is a lower-cased name. */
  predicate LowerKeys(monitored: map<string, Callback>)
  {
    forall k | k in monitored :: Lower(k) == k
  }

  lemma LowerIdempotent(s: string)
    ensures Lower(Lower(s)) == Lower(s)
  {
  }

  /** Registration keeps the keys lower-cased, and a second registration of a name in any case changes nothing. */
  lemma RegisterIdempotent(monitored: map<string, Callback>, name: string, other: string, c1: Callback, c2: Callback)
    requires LowerKeys(monitored) && EqIgnoreCase(name, other)
    ensures LowerKeys(Register(monitored, name, c1))
    ensures Register(Register(monitored, name, c1), other, c2) == Register(monitored, name, c1)
  {
    LowerIdempotent(name);
  }

  /** For a name already in lower case both versions agree, and neither fails. */
  lemma RegisterLowerAgrees(monitored: map<string, Callback>, name: string, callback: Callback)
    requires Lower(name) == name
    ensures RegisterAsWritten(monitored, name, callback) == Success(Register(monitored, name, callback))
  {
  }

  // ---------------------------------------------------------------- listing for the server

  /** The grouping key: the process name ignoring case. */
  function NameKey(p: Proc): string
  {
    Lower(p.name)
  }

  /** `GroupBy(ProcessName, OrdinalIgnoreCase).Select(g => (g.First(), g.Count()))`. */
  function Groups(procs: seq<Proc>): (r: seq<(Proc, nat)>)
    ensures |r| == |DistinctBy(procs, NameKey)|
    ensures forall i | 0 <= i < |r| :: r[i] == (DistinctBy(procs, NameKey)[i], Instances(procs, DistinctBy(procs, NameKey)[i].name))
  {
    var firsts := DistinctBy(procs, NameKey);
    seq(|firsts|, i requires 0 <= i < |firsts| => (firsts[i], Instances(procs, firsts[i].name)))
  }

  /** `OrderBy(x => x.Process.ProcessName)` with the culture's string order `le`. */
  function ByName(le: (string, string) -> bool): ((Proc, nat), (Proc, nat)) -> bool
  {
    (a: (Proc, nat), b: (Proc, nat)) => le(a.0.name, b.0.name)
  }

  /** A group is listed unless its first process is the idle (0) or system (4) process or a system process. */
  predicate Shown(g: (Proc, nat))
  {
    g.0.id != 0 && g.0.id != 4 && !g.0.system
  }

  function Line(g: (Proc, nat)): Listed
  {
    Listed(g.0.name, g.0.path, g.1)
  }

  /** The listing built from the ordered groups. */
  function Listing(groups: seq<(Proc, nat)>): (r: seq<Listed>)
    ensures |r| <= |groups|
  {
    if groups == [] then []
    else
      var n := |groups| - 1;
      Listing(groups[..n]) + (if Shown(groups[n]) then [Line(groups[n])] else [])
  }

  lemma ListingStep(groups: seq<(Proc, nat)>, i: nat)
    requires i < |groups|
    ensures Listing(groups[..i + 1]) == Listing(groups[..i]) + (if Shown(groups[i]) then [Line(groups[i])] else [])
  {
    assert groups[..i + 1][..i] == groups[..i];
  }

  /** Every listed line is a shown group's first process with its group's size. */
  lemma {:induction false} ListingFrom(groups: seq<(Proc, nat)>, l: Listed)
    ensures l in Listing(groups) <==> exists g | g in groups :: Shown(g) && l == Line(g)
  {
    if groups != [] {
      var n := |groups| - 1;
      ListingFrom(groups[..n], l);
      assert groups == groups[..n] + [groups[n]];
    }
  }

  /** Each listed line counts all running processes of its name, ignoring case, and no name is listed twice. */
  lemma ListedGroups(procs: seq<Proc>, le: (string, string) -> bool, l: Listed)
    requires l in Listing(SortBy(Groups(procs), ByName(le)))
    ensures l.instanceCount == Instances(procs, l.name) > 0
    ensures exists p | p in procs :: p.name == l.name && p.path == l.filePath && p.id != 0 && p.id != 4 && !p.system
  {
    var groups := Groups(procs);
    var sorted := SortBy(groups, ByName(le));
    ListingFrom(sorted, l);
    var g :| g in sorted && Shown(g) && l == Line(g);
    assert g in multiset(sorted);
    assert g in multiset(groups);
    var i :| 0 <= i < |groups| && groups[i] == g;
    var p := DistinctBy(procs, NameKey)[i];
    assert p in procs;
    assert Count(procs, (q: Proc) => EqIgnoreCase(q.name, p.name)) > 0 by {
      var k :| 0 <= k < |procs| && procs[k] == p;
      CountPositive(procs, p.name, k);
    }
  }

  lemma {:induction false} CountPositive(procs: seq<Proc>, name: string, k: nat)
    requires k < |procs| && EqIgnoreCase(procs[k].name, name)
    ensures Instances(procs, name) > 0
  {
    if k > 0 {
      CountPositive(procs[1..], name, k - 1);
    }
  }

  /** Ordering groups by their first process's name inherits a total preorder on names. */
  lemma ByNamePreorder(le: (string, string) -> bool)
    requires TotalPreorder(le)
    ensures TotalPreorder(ByName(le))
  {
    forall a: (Proc, nat), b: (Proc, nat) ensures ByName(le)(a, b) || ByName(le)(b, a) {
      assert le(a.0.name, b.0.name) || le(b.0.name, a.0.name);
    }
    forall a: (Proc, nat), b: (Proc, nat), c: (Proc, nat) | ByName(le)(a, b) && ByName(le)(b, c)
      ensures ByName(le)(a, c)
    {
      assert le(a.0.name, b.0.name) && le(b.0.name, c.0.name);
    }
  }

  /** The listing is ordered by name when the culture's comparison is a total preorder. */
  lemma ListingSorted(procs: seq<Proc>, le: (string, string) -> bool)
    requires TotalPreorder(le)
    ensures SortedBy(SortBy(Groups(procs), ByName(le)), ByName(le))
  {
    ByNamePreorder(le);
    SortSorted(Groups(procs), ByName(le));
  }

  // ---------------------------------------------------------------- new processes

  /** The part of the watch that a scan updates: names seen, what was reported, the registry and its timer. */
  datatype Scan = Scan(known: set<string>, detected: seq<string>, monitored: map<string, Callback>, timer: bool)

  /** One process of a scan of MonitorNewProcesses' timer. */
  function ScanStep(s: Scan, wl: Whitelist, p: Proc): Scan
  {
    var name := Lower(p.name);
    if p.system || IsWhitelisted(wl, p.name, p.path) || name in s.known then s
    else if name in s.monitored then s.(known := s.known + {name}, detected := s.detected + [name])
    else Scan(s.known + {name}, s.detected + [name], Register(s.monitored, name, Block(name)), true)
  }

  /** A scan over a snapshot of the running processes. */
  function ScanAll(s: Scan, wl: Whitelist, procs: seq<Proc>): Scan
  {
    if procs == [] then s
    else
      var n := |procs| - 1;
      ScanStep(ScanAll(s, wl, procs[..n]), wl, procs[n])
  }

  lemma ScanAllStep(s: Scan, wl: Whitelist, procs: seq<Proc>, i: nat)
    requires i < |procs|
    ensures ScanAll(s, wl, procs[..i + 1]) == ScanStep(ScanAll(s, wl, procs[..i]), wl, procs[i])
  {
    assert procs[..i + 1][..i] == procs[..i];
  }

  /** Whether a process is one a scan reports when its name is new. */
  predicate Watched(wl: Whitelist, p: Proc)
  {
    !p.system && !IsWhitelisted(wl, p.name, p.path)
  }

  /**
   What a scan from s0 has reported so far in t: distinct names, none known
   before, each now known and watched, the known set grown by exactly them,
   and the registry still keyed in lower case and only grown.
   */
  predicate ReportsFrom(s0: Scan, t: Scan)
  {
    NoDup(t.detected) && (forall d | d in t.detected :: d !in s0.known && d in t.monitored)
    && t.known == s0.known + (set d | d in t.detected)
    && LowerKeys(t.monitored) && s0.monitored.Keys <= t.monitored.Keys
  }

  lemma ScanStepReports(s0: Scan, t: Scan, wl: Whitelist, p: Proc)
    requires ReportsFrom(s0, t)
    ensures ReportsFrom(s0, ScanStep(t, wl, p))
  {
    var name := Lower(p.name);
    LowerIdempotent(p.name);
    var u := ScanStep(t, wl, p);
    if !(p.system || IsWhitelisted(wl, p.name, p.path) || name in t.known) {
      assert name !in t.detected;
      assert u.detected == t.detected + [name];
      assert (set d | d in u.detected) == (set d | d in t.detected) + {name};
    }
  }

  /** A scan reports each new name once, in lower case, records it and watches it. */
  lemma {:induction false} ScanReports(s: Scan, wl: Whitelist, procs: seq<Proc>)
    requires s.detected == [] && LowerKeys(s.monitored)
    ensures ReportsFrom(s, ScanAll(s, wl, procs))
  {
    if procs == [] {
      assert (set d | d in s.detected) == {};
    } else {
      var n := |procs| - 1;
      ScanReports(s, wl, procs[..n]);
      ScanStepReports(s, ScanAll(s, wl, procs[..n]), wl, procs[n]);
    }
  }

  /** After a scan every watched process of the snapshot is known, so scanning the same snapshot again reports nothing. */
  lemma {:induction false} ScanCovers(s: Scan, wl: Whitelist, procs: seq<Proc>)
    ensures forall p | p in procs && Watched(wl, p) :: Lower(p.name) in ScanAll(s, wl, procs).known
    ensures ScanAll(s, wl, procs).known >= s.known
  {
    if procs != [] {
      var n := |procs| - 1;
      ScanCovers(s, wl, procs[..n]);
      assert procs == procs[..n] + [procs[n]];
    }
  }

  lemma {:induction false} ScanQuiet(s: Scan, wl: Whitelist, procs: seq<Proc>)
    requires forall p | p in procs && Watched(wl, p) :: Lower(p.name) in s.known
    ensures ScanAll(s, wl, procs) == s
  {
    if procs != [] {
      var n := |procs| - 1;
      assert procs[n] in procs;
      assert forall p | p in procs[..n] :: p in procs;
      ScanQuiet(s, wl, procs[..n]);
    }
  }

  lemma ScanTwice(s: Scan, wl: Whitelist, procs: seq<Proc>)
    ensures var t := ScanAll(s, wl, procs);
      ScanAll(t.(detected := []), wl, procs).detected == []
  {
    ScanCovers(s, wl, procs);
    var t := ScanAll(s, wl, procs);
    ScanQuiet(t.(detected := []), wl, procs);
  }

  /** The lower-cased names of a snapshot. */
  function LowerNames(procs: seq<Proc>): (r: set<string>)
    ensures forall p | p in procs :: Lower(p.name) in r
  {
    if procs == [] then {}
    else
      var n := |procs| - 1;
      assert forall p | p in procs :: p in procs[..n] || p == procs[n];
      LowerNames(procs[..n]) + {Lower(procs[n].name)}
  }

  lemma LowerNamesStep(procs: seq<Proc>, i: nat)
    requires i < |procs|
    ensures LowerNames(procs[..i + 1]) == LowerNames(procs[..i]) + {Lower(procs[i].name)}
  {
    assert procs[..i + 1][..i] == procs[..i];
  }

  /** Processes already running when the watch for new processes starts are never reported by its scans. */
  lemma SeededScanQuiet(known: set<string>, monitored: map<string, Callback>, timer: bool, wl: Whitelist, procs: seq<Proc>)
    requires LowerNames(procs) <= known
    ensures ScanAll(Scan(known, [], monitored, timer), wl, procs) == Scan(known, [], monitored, timer)
  {
    ScanQuiet(Scan(known, [], monitored, timer), wl, procs);
  }

  /** The module's static state. */
  class Monitor {
    var initialized: bool
    var monitored: map<string, Callback>
    var timer: bool
    var known: set<string>
    var scanners: nat

    constructor ()
      ensures !initialized && monitored == map[] && !timer && known == {} && scanners == 0
    {
      initialized := false;
      monitored := map[];
      timer := false;
      known := {};
      scanners := 0;
    }

    /** Watched names are keyed in lower case. */
    predicate Valid()
      reads this
    {
      LowerKeys(monitored)
    }

    /** Initialize: the logging service is set. */
    method Initialize()
      modifies this
      ensures initialized && monitored == old(monitored) && timer == old(timer) && known == old(known)
      ensures scanners == old(scanners)
    {
      initialized := true;
    }

    /** GetRunningBlockedProcesses: null or empty gives []; otherwise each running blocked name once, ignoring case. */
    method GetRunningBlockedProcesses(blockedApps: Option<seq<string>>, procs: seq<Proc>)
      returns (error: Option<string>, result: seq<string>)
      ensures !initialized ==> error == Some(MsgNotInitialized)
      ensures initialized ==> error.None?
      ensures initialized && (blockedApps.None? || blockedApps.value == []) ==> result == []
      ensures initialized && blockedApps.Some? ==> result == DistinctBy(Collected(blockedApps.value, procs), Lower)
    {
      if !initialized {
        return Some(MsgNotInitialized), [];
      }
      var runningBlocked: seq<string> := [];
      if blockedApps.None? || |blockedApps.value| == 0 {
        return None, runningBlocked;
      }
      var apps := blockedApps.value;
      for i := 0 to |apps|
        invariant runningBlocked == Collected(apps[..i], procs)
      {
        var blockedName := apps[i];
        var found := Instances(procs, blockedName);
        for j := 0 to found
          invariant runningBlocked == Collected(apps[..i], procs) + Repeat(blockedName, j)
        {
          runningBlocked := runningBlocked + [blockedName];
        }
        CollectedStep(apps, procs, i);
      }
      assert apps[..|apps|] == apps;
      error, result := None, DistinctBy(runningBlocked, Lower);
    }

    /** MonitorProcess, as evidently intended: register the name once, then make sure the timer runs. */
    method MonitorProcess(processName: string, onDetected: Callback)
      modifies this
      ensures monitored == Register(old(monitored), processName, onDetected) && timer
      ensures initialized == old(initialized) && known == old(known) && scanners == old(scanners)
      ensures old(Valid()) ==> Valid()
    {
      if Lower(processName) !in monitored {
        monitored := monitored[Lower(processName) := onDetected];
        LowerIdempotent(processName);
      }
      if !timer {
        timer := true;
      }
    }

    /** ListAllProcessesForServer: one line per name group, in name order, without idle, system and system-signed processes. */
    method ListAllProcessesForServer(procs: seq<Proc>, le: (string, string) -> bool)
      returns (error: Option<string>, list: seq<Listed>)
      ensures !initialized ==> error == Some(MsgNotInitialized) && list == []
      ensures initialized ==> error.None? && list == Listing(SortBy(Groups(procs), ByName(le)))
    {
      if !initialized {
        return Some(MsgNotInitialized), [];
      }
      var grouped := SortBy(Groups(procs), ByName(le));
      list := [];
      for i := 0 to |grouped|
        invariant list == Listing(grouped[..i])
      {
        ListingStep(grouped, i);
        var item := grouped[i];
        if item.0.id == 0 || item.0.id == 4 {
          continue;
        }
        if !item.0.system {
          list := list + [Line(item)];
        }
      }
      assert grouped[..|grouped|] == grouped;
      error := None;
    }

    /**
     MonitorNewProcesses: splits the whitelist, records the lower-cased name of
     every running process as known, and starts one more scanning timer.
     */
    method MonitorNewProcesses(whitelist: seq<string>, procs: seq<Proc>) returns (error: Option<string>, wl: Whitelist)
      modifies this
      ensures !initialized ==> error == Some(MsgNotInitialized) && known == old(known) && scanners == old(scanners)
      ensures initialized ==> error.None? && wl == SplitWhitelist(whitelist) && known == old(known) + LowerNames(procs)
                              && scanners == old(scanners) + 1
      ensures monitored == old(monitored) && timer == old(timer) && initialized == old(initialized)
    {
      if !initialized {
        return Some(MsgNotInitialized), Whitelist([], []);
      }
      wl := SplitWhitelist(whitelist);
      for i := 0 to |procs|
        invariant known == old(known) + LowerNames(procs[..i])
        invariant monitored == old(monitored) && timer == old(timer) && initialized == old(initialized)
        invariant scanners == old(scanners)
      {
        LowerNamesStep(procs, i);
        known := known + {Lower(procs[i].name)};
      }
      assert procs[..|procs|] == procs;
      scanners := scanners + 1;
      error := None;
    }

    /** One tick of a scanning timer over a snapshot: new names are reported, recorded and watched. */
    method ScanNewProcesses(wl: Whitelist, procs: seq<Proc>) returns (detected: seq<string>)
      requires Valid()
      modifies this
      ensures var t := ScanAll(Scan(old(known), [], old(monitored), old(timer)), wl, procs);
        detected == t.detected && known == t.known && monitored == t.monitored && timer == t.timer
      ensures Valid() && initialized == old(initialized) && scanners == old(scanners)
    {
      ghost var s0 := Scan(known, [], monitored, timer);
      detected := [];
      for i := 0 to |procs|
        invariant Scan(known, detected, monitored, timer) == ScanAll(s0, wl, procs[..i])
        invariant initialized == old(initialized) && scanners == old(scanners)
      {
        ScanAllStep(s0, wl, procs, i);
        var process := procs[i];
        if process.system {
          continue;
        }
        var processName := Lower(process.name);
        if IsWhitelisted(wl, process.name, process.path) {
          continue;
        }
        if processName !in known {
          known := known + {processName};
          detected := detected + [processName];
          if processName !in monitored {
            MonitorProcess(processName, Block(processName));
          }
        }
      }
      assert procs[..|procs|] == procs;
      ScanReports(s0, wl, procs);
    }

    /**
     KillAllAppsExceptWhitelist: terminates every running process that is
     neither whitelisted nor a system process, in snapshot order; the answer is
     whether every termination succeeded. Which terminations fail is a
     parameter (`failing`, by process id).
     */
    method KillAllAppsExceptWhitelist(whitelist: seq<string>, procs: seq<Proc>, failing: set<int>)
      returns (error: Option<string>, allSuccessful: bool, killed: seq<Proc>)
      ensures !initialized ==> error == Some(MsgNotInitialized) && killed == []
      ensures initialized ==> error.None? && killed == KillTargets(SplitWhitelist(whitelist), procs)
      ensures allSuccessful <==> forall p | p in killed :: p.id !in failing
    {
      if !initialized {
        return Some(MsgNotInitialized), true, [];
      }
      allSuccessful, killed := TerminateUnlisted(SplitWhitelist(whitelist), procs, failing);
      error := None;
    }

    /** StopMonitoring: the watch timer is stopped and the registry cleared; scanning timers keep running. */
    method StopMonitoring() returns (stopped: bool)
      modifies this
      ensures stopped <==> old(timer)
      ensures !timer && monitored == map[]
      ensures known == old(known) && scanners == old(scanners) && initialized == old(initialized)
    {
      stopped := timer;
      if timer {
        timer := false;
      }
      monitored := map[];
    }
  }
}

=== FILE: prohibited_app_service.dfy ===
/**
 The catalogue of applications the kiosk refuses to run alongside an exam
 (ProhibitedAppService.cs): searching and paging it, looking one up,
 switching apps on and off, creating or updating one with unique name and
 process, and removing apps.
 */
module ProhibitedAppService {
  import opened Common
  import opened Domain

  datatype ProhibitedApp = ProhibitedApp(
    appId: string, appName: Option<string>, processName: Option<string>, appIconUrl: Option<string>,
    isActive: bool, typeApp: int, riskLevel: int, category: int, description: Option<string>,
    createdAt: Option<int>, createdUser: Option<string>, updatedAt: Option<int>, updatedUser: Option<string>)

  datatype AppSearch = AppSearch(
    textSearch: Option<string>, isActive: Option<bool>, typeApp: Option<int>, riskLevel: Option<int>,
    category: Option<int>, currentPage: int, pageSize: int)

  datatype AppInput = AppInput(
    appId: Option<string>, appName: Option<string>, processName: Option<string>, appIconUrl: Option<string>,
    isActive: bool, typeApp: int, riskLevel: int, category: int, description: Option<string>)

  const MsgNoApps: string := "No prohibited apps found."
  const MsgEmptyKey: string := "App ID cannot be null or empty."
  const MsgAppNotFound: string := "Prohibited app not found."
  const MsgEmptyIds: string := "App Id cannot be null or empty."
  const MsgNoMatch: string := "No prohibited apps found for the provided IDs."
  const MsgCreateClash: string := "Prohibited app name or process is already in use. Please enter a different one."
  const MsgUpdateClash: string := "Another prohibited app already uses this name or process. Please choose a different one."

  // ---------------------------------------------------------------- GetAll

  /** `x.ToLower().Contains(text)` on a nullable column: a null column never matches. */
  predicate ColumnContains(col: Option<string>, loweredText: string)
  {
    col.Some? && Contains(Lower(col.value), loweredText)
  }

  /** Every filter of the search that is set holds for the app. */
  predicate MatchesSearch(a: ProhibitedApp, q: AppSearch)
  {
    (IsNullOrBlank(q.textSearch)
     || ColumnContains(a.appName, Lower(q.textSearch.value)) || ColumnContains(a.processName, Lower(q.textSearch.value)))
    && (q.isActive.None? || a.isActive == q.isActive.value)
    && (q.typeApp.None? || a.typeApp == q.typeApp.value)
    && (q.riskLevel.None? || a.riskLevel == q.riskLevel.value)
    && (q.category.None? || a.category == q.category.value)
  }

  /** Inactive first, then latest update first. */
  predicate AppBefore(a: ProhibitedApp, b: ProhibitedApp)
  {
    InactiveFirstNewest((a.isActive, a.updatedAt), (b.isActive, b.updatedAt))
  }

  lemma AppBeforeTotal()
    ensures TotalPreorder(AppBefore)
  {
    InactiveFirstNewestTotal();
  }

  /**
   GetAll: the matching apps, sorted, and the page asked for; an empty page
   gives the "not found" message with no rows and no page count.
   */
  function GetAll(apps: seq<ProhibitedApp>, q: AppSearch): (r: (string, Listing<ProhibitedApp>))
    ensures var matching := Filter(apps, (a: ProhibitedApp) => MatchesSearch(a, q));
      var page := PageOf(SortBy(matching, AppBefore), q.currentPage, q.pageSize);
      && (r.0 == MsgNoApps <==> page == [])
      && (r.0 == "" ==> r.1.items == Some(page))
      && (matching == [] || q.pageSize <= 0 ==> r.0 == MsgNoApps)
      && (r.0 == "" ==>
            r.1.items.Some? && r.1.items.value != [] && r.1.total == |matching|
            && r.1.totalPage == PageCount(|matching|, q.pageSize)
            && (forall a | a in r.1.items.value :: a in apps && MatchesSearch(a, q))
            && SortedBy(r.1.items.value, AppBefore))
      && (r.0 != "" ==> r.0 == MsgNoApps && r.1.items.None? && r.1.totalPage == 0)
  {
    var matching := Filter(apps, (a: ProhibitedApp) => MatchesSearch(a, q));
    AppBeforeTotal();
    var page := SortedPage(matching, AppBefore, q.currentPage, q.pageSize);
    if page == [] then (MsgNoApps, Listing(None, 0, 0, 0, 0))
    else ("", Listing(Some(page), PageCount(|matching|, q.pageSize), q.currentPage, q.pageSize, |matching|))
  }

  // ---------------------------------------------------------------- GetOne

  /** The key names the app by its id, its name or its process. */
  predicate KeyMatches(a: ProhibitedApp, key: string)
  {
    a.appId == key || a.appName == Some(key) || a.processName == Some(key)
  }

  /** GetOne: an empty key is refused; otherwise the first app the key names. */
  function GetOne(apps: seq<ProhibitedApp>, key: Option<string>): (r: Result<ProhibitedApp>)
    ensures r.Success? <==> key.Some? && key.value != "" && exists a | a in apps :: KeyMatches(a, key.value)
    ensures r.Success? ==> r.value in apps && KeyMatches(r.value, key.value)
    ensures key.None? || key.value == "" ==> r == Failure(MsgEmptyKey)
  {
    if key.None? || key.value == "" then Failure(MsgEmptyKey)
    else
      var k := FirstWhere(apps, (a: ProhibitedApp) => KeyMatches(a, key.value));
      if k.None? then
        assert forall a | a in apps :: !KeyMatches(a, key.value) by {
          forall a | a in apps ensures !KeyMatches(a, key.value) {
            var j :| 0 <= j < |apps| && apps[j] == a;
          }
        }
        Failure(MsgAppNotFound)
      else Success(apps[k.value])
  }

  // ---------------------------------------------------------------- ChangeActivate / DoRemove

  /** The names of the apps whose id is listed, in table order. */
  function MatchedNames(apps: seq<ProhibitedApp>, ids: seq<string>): (r: seq<Option<string>>)
    ensures |r| <= |apps|
    ensures r == [] <==> forall a | a in apps :: a.appId !in ids
    ensures forall n :: n in r <==> exists a | a in apps :: a.appId in ids && a.appName == n
    decreases |apps|
  {
    if apps == [] then []
    else
      var rest := MatchedNames(apps[..|apps| - 1], ids);
      var a := apps[|apps| - 1];
      assert forall b | b in apps :: b in apps[..|apps| - 1] || b == a;
      assert forall b | b in apps[..|apps| - 1] :: b in apps;
      rest + (if a.appId in ids then [a.appName] else [])
  }

  /** The table after ChangeActivate: every listed app flipped and stamped, the rest unchanged. */
  function Flipped(apps: seq<ProhibitedApp>, ids: seq<string>, token: string, now: int): (r: seq<ProhibitedApp>)
    ensures |r| == |apps|
    ensures forall i | 0 <= i < |apps| :: apps[i].appId !in ids ==> r[i] == apps[i]
    ensures forall i | 0 <= i < |apps| :: apps[i].appId in ids ==>
      r[i] == apps[i].(isActive := !apps[i].isActive, updatedUser := Some(token), updatedAt := Some(now))
  {
    seq(|apps|, i requires 0 <= i < |apps| =>
      if apps[i].appId in ids then apps[i].(isActive := !apps[i].isActive, updatedUser := Some(token), updatedAt := Some(now))
      else apps[i])
  }

  /** Flipping the same ids twice restores every app's IsActive. */
  lemma FlipTwice(apps: seq<ProhibitedApp>, ids: seq<string>, token: string, now: int, later: int)
    ensures var twice := Flipped(Flipped(apps, ids, token, now), ids, token, later);
      forall i | 0 <= i < |apps| :: twice[i].isActive == apps[i].isActive && twice[i].appId == apps[i].appId
  {
  }

  /** The table after DoRemove: the listed apps are gone, the others stay in order. */
  function WithoutIds(apps: seq<ProhibitedApp>, ids: seq<string>): (r: seq<ProhibitedApp>)
    ensures forall a :: a in r <==> a in apps && a.appId !in ids
  {
    Filter(apps, (a: ProhibitedApp) => a.appId !in ids)
  }

  // ---------------------------------------------------------------- CreateUpdate

  /** Some app, other than the one with id `self` when given, has the name or the process. */
  predicate NameOrProcessTaken(apps: seq<ProhibitedApp>, name: Option<string>, process: Option<string>, self: Option<string>)
  {
    exists a | a in apps :: (self.None? || a.appId != self.value) && (a.appName == name || a.processName == process)
  }

  /** No two apps share a name or a process. */
  predicate NamesUnique(apps: seq<ProhibitedApp>)
  {
    forall i, j | 0 <= i < j < |apps| :: apps[i].appName != apps[j].appName && apps[i].processName != apps[j].processName
  }

  /** App ids identify rows. */
  predicate IdsUnique(apps: seq<ProhibitedApp>)
  {
    forall i, j | 0 <= i < j < |apps| :: apps[i].appId != apps[j].appId
  }

  /** CreateUpdate's refusal, if any: a create clashing with any app, an unknown id, an update clashing with another app. */
  function SaveError(apps: seq<ProhibitedApp>, input: AppInput): (r: Option<string>)
    ensures IsNullOrBlank(input.appId) ==>
      (r.None? <==> !NameOrProcessTaken(apps, input.appName, input.processName, None))
    ensures !IsNullOrBlank(input.appId) ==>
      (r.None? <==> FirstWhere(apps, (a: ProhibitedApp) => a.appId == input.appId.value).Some?
                    && !NameOrProcessTaken(apps, input.appName, input.processName, input.appId))
  {
    if IsNullOrBlank(input.appId) then
      if NameOrProcessTaken(apps, input.appName, input.processName, None) then Some(MsgCreateClash) else None
    else if FirstWhere(apps, (a: ProhibitedApp) => a.appId == input.appId.value).None? then Some(MsgAppNotFound)
    else if NameOrProcessTaken(apps, input.appName, input.processName, input.appId) then Some(MsgUpdateClash)
    else None
  }

  /** The new row of a create. */
  function CreatedApp(input: AppInput, newId: string, token: string, now: int): (r: ProhibitedApp)
    ensures r.appId == newId && r.appName == input.appName && r.processName == input.processName
    ensures r.isActive == input.isActive && r.createdUser == Some(token) && r.updatedAt.None?
  {
    ProhibitedApp(newId, input.appName, input.processName, None, input.isActive, input.typeApp, input.riskLevel,
                  input.category, input.description, Some(now), Some(token), None, None)
  }

  /** The row after an update: the form's fields and the stamp, creation data kept. */
  function UpdatedApp(a: ProhibitedApp, input: AppInput, token: string, now: int): (r: ProhibitedApp)
    ensures r.appId == a.appId && r.createdAt == a.createdAt && r.createdUser == a.createdUser
    ensures r.appName == input.appName && r.processName == input.processName && r.appIconUrl == input.appIconUrl
  {
    a.(appName := input.appName, processName := input.processName, appIconUrl := input.appIconUrl,
       typeApp := input.typeApp, isActive := input.isActive, riskLevel := input.riskLevel, category := input.category,
       description := input.description, updatedUser := Some(token), updatedAt := Some(now))
  }

  /** A create the checks let through keeps names and processes unique. */
  lemma CreateKeepsUnique(apps: seq<ProhibitedApp>, input: AppInput, newId: string, token: string, now: int)
    requires NamesUnique(apps) && IsNullOrBlank(input.appId) && SaveError(apps, input).None?
    ensures NamesUnique(apps + [CreatedApp(input, newId, token, now)])
  {
    var r := apps + [CreatedApp(input, newId, token, now)];
    forall i, j | 0 <= i < j < |r|
      ensures r[i].appName != r[j].appName && r[i].processName != r[j].processName
    {
      if j == |apps| {
        assert r[i] in apps;
      }
    }
  }

  /** An update the checks let through keeps names and processes unique. */
  lemma UpdateKeepsUnique(apps: seq<ProhibitedApp>, input: AppInput, k: nat, token: string, now: int)
    requires NamesUnique(apps) && IdsUnique(apps) && k < |apps| && !IsNullOrBlank(input.appId) && apps[k].appId == input.appId.value
    requires SaveError(apps, input).None?
    ensures NamesUnique(apps[k := UpdatedApp(apps[k], input, token, now)])
  {
    var r := apps[k := UpdatedApp(apps[k], input, token, now)];
    forall i, j | 0 <= i < j < |r|
      ensures r[i].appName != r[j].appName && r[i].processName != r[j].processName
    {
      if i == k {
        assert apps[j] in apps && apps[j].appId != apps[k].appId;
      } else if j == k {
        assert apps[i] in apps && apps[i].appId != apps[k].appId;
      }
    }
  }

  // ---------------------------------------------------------------- the store

  /** The ProhibitedApps table in table order. */
  class AppStore {
    var apps: seq<ProhibitedApp>

    ghost predicate Valid()
      reads this
    {
      NamesUnique(apps) && IdsUnique(apps)
    }

    constructor (apps: seq<ProhibitedApp>)
      requires NamesUnique(apps) && IdsUnique(apps)
      ensures Valid() && this.apps == apps
    {
      this.apps := apps;
    }

    /**
     ChangeActivate: flips IsActive on every listed app (saved before the
     activity log); returns their names, or the log's failure message.
     */
    method ChangeActivate(ids: seq<string>, token: string, now: int, logMessage: string)
      returns (message: string, names: Option<seq<Option<string>>>)
      requires Valid()
      modifies this
      ensures Valid()
      ensures ids == [] ==> message == MsgEmptyIds && names.None? && apps == old(apps)
      ensures ids != [] && MatchedNames(old(apps), ids) == [] ==> message == MsgNoMatch && names.None? && apps == old(apps)
      ensures ids != [] && MatchedNames(old(apps), ids) != [] ==>
        apps == Flipped(old(apps), ids, token, now)
        && (logMessage != "" ==> message == logMessage && names.None?)
        && (logMessage == "" ==> message == "" && names == Some(MatchedNames(old(apps), ids)))
    {
      if ids == [] {
        return MsgEmptyIds, None;
      }
      var matched := MatchedNames(apps, ids);
      if matched == [] {
        return MsgNoMatch, None;
      }
      ghost var before := apps;
      var i := 0;
      while i < |apps|
        invariant 0 <= i <= |apps| && |apps| == |before|
        invariant forall k | 0 <= k < i :: apps[k] == Flipped(before, ids, token, now)[k]
        invariant forall k | i <= k < |apps| :: apps[k] == before[k]
      {
        if apps[i].appId in ids {
          apps := apps[i := apps[i].(isActive := !apps[i].isActive, updatedUser := Some(token), updatedAt := Some(now))];
        }
        i := i + 1;
      }
      assert apps == Flipped(before, ids, token, now);
      if logMessage != "" {
        return logMessage, None;
      }
      message, names := "", Some(matched);
    }

    /** CreateUpdate: creates under `newId` when no id is given, else updates the app with that id; returns the log's message. */
    method CreateUpdate(input: AppInput, token: string, now: int, newId: string, logMessage: string) returns (message: string)
      requires Valid() && forall a | a in apps :: a.appId != newId
      modifies this
      ensures Valid()
      ensures var err := SaveError(old(apps), input);
        && (err.Some? ==> message == err.value && apps == old(apps))
        && (err.None? && IsNullOrBlank(input.appId) ==>
              message == logMessage && apps == old(apps) + [CreatedApp(input, newId, token, now)])
        && (err.None? && !IsNullOrBlank(input.appId) ==>
              var k := FirstWhere(old(apps), (a: ProhibitedApp) => a.appId == input.appId.value).value;
              message == logMessage && apps == old(apps)[k := UpdatedApp(old(apps)[k], input, token, now)])
    {
      var err := SaveError(apps, input);
      if err.Some? {
        return err.value;
      }
      if IsNullOrBlank(input.appId) {
        CreateKeepsUnique(apps, input, newId, token, now);
        apps := apps + [CreatedApp(input, newId, token, now)];
      } else {
        var k := FirstWhere(apps, (a: ProhibitedApp) => a.appId == input.appId.value).value;
        UpdateKeepsUnique(apps, input, k, token, now);
        apps := apps[k := UpdatedApp(apps[k], input, token, now)];
      }
      message := logMessage;
    }

    /** DoRemove: removes every listed app (saved before the log) and returns their names. */
    method DoRemove(ids: seq<string>, token: string, logMessage: string) returns (message: string, names: Option<seq<Option<string>>>)
      requires Valid()
      modifies this
      ensures Valid()
      ensures ids == [] ==> message == MsgEmptyIds && names.None? && apps == old(apps)
      ensures ids != [] && MatchedNames(old(apps), ids) == [] ==> message == MsgNoMatch && names.None? && apps == old(apps)
      ensures ids != [] && MatchedNames(old(apps), ids) != [] ==>
        apps == WithoutIds(old(apps), ids)
        && (logMessage != "" ==> message == logMessage && names.None?)
        && (logMessage == "" ==> message == "" && names == Some(MatchedNames(old(apps), ids)))
    {
      if ids == [] {
        return MsgEmptyIds, None;
      }
      var matched := MatchedNames(apps, ids);
      if matched == [] {
        return MsgNoMatch, None;
      }
      SubsequenceKeepsUnique(apps, ids);
      apps := WithoutIds(apps, ids);
      if logMessage != "" {
        return logMessage, None;
      }
      message, names := "", Some(matched);
    }
  }

  /** An app whose name, process and id no other app has can go in front of a table of unique apps. */
  lemma ConsKeepsUnique(x: ProhibitedApp, rest: seq<ProhibitedApp>)
    requires NamesUnique(rest) && IdsUnique(rest)
    requires forall a | a in rest :: a.appName != x.appName && a.processName != x.processName && a.appId != x.appId
    ensures NamesUnique([x] + rest) && IdsUnique([x] + rest)
  {
    var r := [x] + rest;
    assert forall j | 0 < j < |r| :: r[j] == rest[j - 1] && rest[j - 1] in rest;
  }

  /** Removing apps keeps the remaining ones unique. */
  lemma {:induction false} SubsequenceKeepsUnique(apps: seq<ProhibitedApp>, ids: seq<string>)
    requires NamesUnique(apps) && IdsUnique(apps)
    ensures NamesUnique(WithoutIds(apps, ids)) && IdsUnique(WithoutIds(apps, ids))
  {
    if apps != [] {
      SubsequenceKeepsUnique(apps[1..], ids);
      var rest := WithoutIds(apps[1..], ids);
      if apps[0].appId !in ids {
        assert WithoutIds(apps, ids) == [apps[0]] + rest;
        forall a | a in rest
          ensures a.appName != apps[0].appName && a.processName != apps[0].processName && a.appId != apps[0].appId
        {
          var k :| 0 <= k < |apps[1..]| && apps[1..][k] == a;
          assert apps[k + 1] == a;
        }
        ConsKeepsUnique(apps[0], rest);
      }
    }
  }
}

=== FILE: question_bank_service.dfy ===
/**
 Question banks (QuestionBankService.cs): creating, editing (by the creator
 or a user the bank was shared with for editing), switching status,
 deleting an empty bank, sharing it and changing a share's access mode.
 */
module QuestionBankService {
  import opened Common
  import opened Domain

  datatype QuestionBank = QuestionBank(
    id: string, title: string, subjectId: string, description: Option<string>,
    createUserId: string, status: int, updatedAt: int)

  datatype QuestionShare = QuestionShare(id: string, bankId: string, sharedWithUserId: string, accessMode: int)

  const MsgNoPermission: string := "You do not have permission to perform this action."
  const MsgAddMissingFields: string := "Missing required fields: Title or SubjectId"
  const MsgAddSubjectNotFound: string := "Subject not found. Please select a valid subject."
  const MsgCreated: string := "Question bank has been created successfully."
  const MsgEditMissingFields: string := "Title and SubjectId are required."
  const MsgSubjectNotFound: string := "Subject not found."
  const MsgBankNotFound: string := "Question bank not found."
  const MsgNotShared: string := "You are not allowed to edit this question bank."
  const MsgViewOnly: string := "You only have view permission and cannot edit this question bank."
  const MsgUpdated: string := "Question bank updated successfully."
  const MsgNotCreatorToggle: string := "You are not the creator of this question bank, so you cannot Deactive/Active it."
  const MsgDeleteNotFound: string := "Question bank not found or not match subjectId."
  const MsgNotCreatorDelete: string := "You are not the creator of this Question Bank and therefore cannot delete it."
  const MsgHasQuestions: string := "Cannot delete question bank with existing questions."
  const MsgDeleted: string := "Question bank deleted successfully."
  const MsgNotCreatorShare: string := "You do not have permission to share this question bank."
  const MsgTargetMissing: string := "The user you are trying to share with does not exist."
  const MsgTargetNotStaff: string := "The user you are trying to share with does not have permission to receive shared question banks."
  const MsgAlreadyShared: string := "This question bank has already been shared with this user."
  const MsgShared: string := "Question bank shared successfully."
  const MsgBadAccessMode: string := "Invalid access mode. Only 0 (ViewOnly) and 1 (CanEdit) are allowed."
  const MsgNotCreatorModify: string := "You do not have permission to modify this share."
  const MsgShareNotFound: string := "Share record not found."
  const MsgAccessModeUpdated: string := "Access mode updated successfully."

  // ---------------------------------------------------------------- lookups

  /** The first share of the bank with the user, by position in the table. */
  function FindShare(shares: seq<QuestionShare>, bankId: string, userId: string): (r: Option<nat>)
    ensures r.Some? ==> r.value < |shares| && shares[r.value].bankId == bankId && shares[r.value].sharedWithUserId == userId
    ensures r.Some? ==> forall j | 0 <= j < r.value :: !(shares[j].bankId == bankId && shares[j].sharedWithUserId == userId)
    ensures r.None? <==> forall j | 0 <= j < |shares| :: !(shares[j].bankId == bankId && shares[j].sharedWithUserId == userId)
  {
    if shares == [] then None
    else if shares[0].bankId == bankId && shares[0].sharedWithUserId == userId then Some(0)
    else
      var r := FindShare(shares[1..], bankId, userId);
      if r.Some? then Some(r.value + 1) else None
  }

  /** The user has an email equal to the given one ignoring case. */
  predicate EmailMatches(u: User, email: string)
  {
    u.email.Some? && Lower(u.email.value) == Lower(email)
  }

  /** The first user whose email equals the given one ignoring case. */
  function FindByEmail(users: seq<User>, email: string): (r: Option<User>)
    ensures r.Some? ==> r.value in users && EmailMatches(r.value, email)
    ensures r.None? <==> forall u | u in users :: !EmailMatches(u, email)
  {
    if users == [] then None
    else if EmailMatches(users[0], email) then Some(users[0])
    else
      var r := FindByEmail(users[1..], email);
      assert forall u | u in users :: u == users[0] || u in users[1..];
      r
  }

  /** No bank is shared twice with the same user. */
  predicate SharesUnique(shares: seq<QuestionShare>)
  {
    forall i, j | 0 <= i < j < |shares| ::
      !(shares[i].bankId == shares[j].bankId && shares[i].sharedWithUserId == shares[j].sharedWithUserId)
  }

  // ---------------------------------------------------------------- checks

  /** AddQuestionBankAsync's checks: role, required fields, subject. */
  function AddError(roles: map<string, set<int>>, subjects: set<string>, userId: string, title: string, subjectId: string)
    : (r: Option<string>)
    ensures r.None? <==> IsLectureOrAdmin(roles, userId) && !IsBlank(title) && !IsBlank(subjectId) && subjectId in subjects
  {
    if !IsLectureOrAdmin(roles, userId) then Some(MsgNoPermission)
    else if IsBlank(title) || IsBlank(subjectId) then Some(MsgAddMissingFields)
    else if subjectId !in subjects then Some(MsgAddSubjectNotFound)
    else None
  }

  /** A new bank: trimmed title, active, owned by its creator. */
  function NewBank(id: string, title: string, subjectId: string, description: Option<string>, userId: string, now: int)
    : (r: QuestionBank)
    ensures r.status == StatusActive && r.createUserId == userId && r.title == Trim(title)
  {
    QuestionBank(id, Trim(title), subjectId, description, userId, StatusActive, now)
  }

  /** The user may edit the bank: its creator, or shared with it in edit mode (first share found). */
  predicate MayEdit(bank: QuestionBank, shares: seq<QuestionShare>, userId: string)
  {
    bank.createUserId == userId
    || (var s := FindShare(shares, bank.id, userId); s.Some? && shares[s.value].accessMode == AccessCanEdit)
  }

  /** EditQuestionBankAsync's checks in order. */
  function EditError(roles: map<string, set<int>>, subjects: set<string>, banks: map<string, QuestionBank>,
                     shares: seq<QuestionShare>, bankId: string, title: string, subjectId: string, userId: string)
    : (r: Option<string>)
    ensures r.None? <==> (IsLectureOrAdmin(roles, userId) && !IsBlank(title) && !IsBlank(subjectId)
                          && subjectId in subjects && bankId in banks && MayEdit(banks[bankId], shares, userId))
  {
    if !IsLectureOrAdmin(roles, userId) then Some(MsgNoPermission)
    else if IsBlank(title) || IsBlank(subjectId) then Some(MsgEditMissingFields)
    else if subjectId !in subjects then Some(MsgSubjectNotFound)
    else if bankId !in banks then Some(MsgBankNotFound)
    else if banks[bankId].createUserId != userId then
      var s := FindShare(shares, banks[bankId].id, userId);
      if s.None? then Some(MsgNotShared)
      else if shares[s.value].accessMode != AccessCanEdit then Some(MsgViewOnly)
      else None
    else None
  }

  /** A user the bank was shared with for viewing only is refused an edit with the view-only message. */
  lemma ViewOnlyCannotEdit(roles: map<string, set<int>>, subjects: set<string>, banks: map<string, QuestionBank>,
                           shares: seq<QuestionShare>, bankId: string, title: string, subjectId: string, userId: string)
    requires EditError(roles, subjects, banks, shares, bankId, title, subjectId, userId) != Some(MsgNoPermission)
    requires !IsBlank(title) && !IsBlank(subjectId) && subjectId in subjects && bankId in banks
    requires banks[bankId].createUserId != userId
    requires var s := FindShare(shares, banks[bankId].id, userId); s.Some? && shares[s.value].accessMode == AccessViewOnly
    ensures EditError(roles, subjects, banks, shares, bankId, title, subjectId, userId) == Some(MsgViewOnly)
  {
  }

  /** ToggleQuestionBankStatusAsync's new status: 1 becomes 0, anything else becomes 1. */
  function ToggledStatus(s: int): (r: int)
    ensures r in {StatusInactive, StatusActive}
    ensures s in {StatusInactive, StatusActive} ==> r != s
  {
    if s == StatusActive then StatusInactive else StatusActive
  }

  /** Toggling twice restores a status of 0 or 1. */
  lemma ToggleTwice(s: int)
    requires s in {StatusInactive, StatusActive}
    ensures ToggledStatus(ToggledStatus(s)) == s
  {
  }

  /** `((ActiveStatus)s).ToString()` for the two values a toggle produces. */
  function ActiveStatusName(s: int): (r: string)
    ensures s == StatusActive ==> r == "Active"
    ensures s == StatusInactive ==> r == "Inactive"
    ensures s == StatusPending ==> r == "Pending"
  {
    if s == StatusActive then "Active"
    else if s == StatusInactive then "Inactive"
    else if s == StatusPending then "Pending"
    else IntToString(s)
  }

  /** ToggleQuestionBankStatusAsync's checks: role, bank, creator. */
  function ToggleError(roles: map<string, set<int>>, banks: map<string, QuestionBank>, bankId: string, userId: string)
    : (r: Option<string>)
    ensures r.None? <==> IsLectureOrAdmin(roles, userId) && bankId in banks && banks[bankId].createUserId == userId
  {
    if !IsLectureOrAdmin(roles, userId) then Some(MsgNoPermission)
    else if bankId !in banks then Some(MsgBankNotFound)
    else if banks[bankId].createUserId != userId then Some(MsgNotCreatorToggle)
    else None
  }

  /** DeleteQuestionBankAsync's checks: role, bank of that subject, creator, no questions. */
  function DeleteError(roles: map<string, set<int>>, banks: map<string, QuestionBank>, banksWithQuestions: set<string>,
                       bankId: string, subjectId: string, userId: string): (r: Option<string>)
    ensures r.None? <==> (IsLectureOrAdmin(roles, userId) && bankId in banks && banks[bankId].subjectId == subjectId
                          && banks[bankId].createUserId == userId && bankId !in banksWithQuestions)
  {
    if !IsLectureOrAdmin(roles, userId) then Some(MsgNoPermission)
    else if !(bankId in banks && banks[bankId].subjectId == subjectId) then Some(MsgDeleteNotFound)
    else if banks[bankId].createUserId != userId then Some(MsgNotCreatorDelete)
    else if bankId in banksWithQuestions then Some(MsgHasQuestions)
    else None
  }

  /** ShareQuestionBankAsync's checks: sharer's role, bank, sharer is creator, target, target's role, no share yet. */
  function ShareError(roles: map<string, set<int>>, users: seq<User>, banks: map<string, QuestionBank>,
                      shares: seq<QuestionShare>, bankId: string, email: string, sharerId: string): (r: Option<string>)
    ensures r.None? <==> (IsLectureOrAdmin(roles, sharerId) && bankId in banks && banks[bankId].createUserId == sharerId
                          && FindByEmail(users, email).Some? && IsLectureOrAdmin(roles, FindByEmail(users, email).value.userId)
                          && FindShare(shares, bankId, FindByEmail(users, email).value.userId).None?)
  {
    var target := FindByEmail(users, email);
    if !IsLectureOrAdmin(roles, sharerId) then Some(MsgNoPermission)
    else if bankId !in banks then Some(MsgBankNotFound)
    else if banks[bankId].createUserId != sharerId then Some(MsgNotCreatorShare)
    else if target.None? then Some(MsgTargetMissing)
    else if !IsLectureOrAdmin(roles, target.value.userId) then Some(MsgTargetNotStaff)
    else if FindShare(shares, bankId, target.value.userId).Some? then Some(MsgAlreadyShared)
    else None
  }

  /** ChangeAccessModeAsync's checks: the mode before anything else, then role, bank, creator, target, share. */
  function AccessModeError(roles: map<string, set<int>>, users: seq<User>, banks: map<string, QuestionBank>,
                           shares: seq<QuestionShare>, bankId: string, email: string, sharerId: string, mode: int)
    : (r: Option<string>)
    ensures mode !in {AccessViewOnly, AccessCanEdit} ==> r == Some(MsgBadAccessMode)
    ensures r.None? <==> (mode in {AccessViewOnly, AccessCanEdit} && IsLectureOrAdmin(roles, sharerId)
                          && bankId in banks && banks[bankId].createUserId == sharerId
                          && FindByEmail(users, email).Some?
                          && FindShare(shares, bankId, FindByEmail(users, email).value.userId).Some?)
  {
    var target := FindByEmail(users, email);
    if mode != AccessViewOnly && mode != AccessCanEdit then Some(MsgBadAccessMode)
    else if !IsLectureOrAdmin(roles, sharerId) then Some(MsgNoPermission)
    else if bankId !in banks then Some(MsgBankNotFound)
    else if banks[bankId].createUserId != sharerId then Some(MsgNotCreatorModify)
    else if target.None? then Some(MsgTargetMissing)
    else if FindShare(shares, bankId, target.value.userId).None? then Some(MsgShareNotFound)
    else None
  }

  /** Appending a share the checks let through keeps shares unique. */
  lemma ShareKeepsUnique(shares: seq<QuestionShare>, s: QuestionShare)
    requires SharesUnique(shares) && FindShare(shares, s.bankId, s.sharedWithUserId).None?
    ensures SharesUnique(shares + [s])
  {
  }

  /**
   The bank and share tables; users, their roles, subjects and the banks that
   hold questions are read only.
   */
  class BankStore {
    var banks: map<string, QuestionBank>
    var shares: seq<QuestionShare>
    const users: seq<User>
    const roles: map<string, set<int>>
    const subjects: set<string>
    const banksWithQuestions: set<string>

    ghost predicate Valid()
      reads this
    {
      SharesUnique(shares) && forall id | id in banks :: banks[id].id == id
    }

    constructor (banks: map<string, QuestionBank>, shares: seq<QuestionShare>, users: seq<User>,
                 roles: map<string, set<int>>, subjects: set<string>, banksWithQuestions: set<string>)
      requires SharesUnique(shares) && forall id | id in banks :: banks[id].id == id
      ensures Valid()
      ensures this.banks == banks && this.shares == shares && this.users == users && this.roles == roles
      ensures this.subjects == subjects && this.banksWithQuestions == banksWithQuestions
    {
      this.banks := banks;
      this.shares := shares;
      this.users := users;
      this.roles := roles;
      this.subjects := subjects;
      this.banksWithQuestions := banksWithQuestions;
    }

    method AddQuestionBank(newId: string, title: string, subjectId: string, description: Option<string>,
                           userId: string, now: int) returns (ok: bool, message: string)
      requires Valid() && newId !in banks
      modifies this
      ensures Valid() && shares == old(shares)
      ensures var err := AddError(roles, subjects, userId, title, subjectId);
        && (err.Some? ==> !ok && message == err.value && banks == old(banks))
        && (err.None? ==>
              ok && message == MsgCreated
              && banks == old(banks)[newId := NewBank(newId, title, subjectId, description, userId, now)])
    {
      var err := AddError(roles, subjects, userId, title, subjectId);
      if err.Some? {
        return false, err.value;
      }
      banks := banks[newId := NewBank(newId, title, subjectId, description, userId, now)];
      ok, message := true, MsgCreated;
    }

    method EditQuestionBank(bankId: string, title: string, subjectId: string, description: Option<string>,
                            userId: string, now: int) returns (ok: bool, message: string)
      requires Valid()
      modifies this
      ensures Valid() && shares == old(shares)
      ensures var err := EditError(roles, subjects, old(banks), shares, bankId, title, subjectId, userId);
        && (err.Some? ==> !ok && message == err.value && banks == old(banks))
        && (err.None? ==>
              ok && message == MsgUpdated
              && banks == old(banks)[bankId := old(banks)[bankId].(title := Trim(title), subjectId := subjectId,
                                                                  description := description, updatedAt := now)])
    {
      var err := EditError(roles, subjects, banks, shares, bankId, title, subjectId, userId);
      if err.Some? {
        return false, err.value;
      }
      banks := banks[bankId := banks[bankId].(title := Trim(title), subjectId := subjectId,
                                              description := description, updatedAt := now)];
      ok, message := true, MsgUpdated;
    }

    method ToggleQuestionBankStatus(bankId: string, userId: string, now: int) returns (ok: bool, message: string)
      requires Valid()
      modifies this
      ensures Valid() && shares == old(shares)
      ensures var err := ToggleError(roles, old(banks), bankId, userId);
        && (err.Some? ==> !ok && message == err.value && banks == old(banks))
        && (err.None? ==>
              var s := ToggledStatus(old(banks)[bankId].status);
              ok && message == "Question bank change to " + ActiveStatusName(s) + " successfully."
              && banks == old(banks)[bankId := old(banks)[bankId].(status := s, updatedAt := now)])
    {
      var err := ToggleError(roles, banks, bankId, userId);
      if err.Some? {
        return false, err.value;
      }
      var s := ToggledStatus(banks[bankId].status);
      banks := banks[bankId := banks[bankId].(status := s, updatedAt := now)];
      ok, message := true, "Question bank change to " + ActiveStatusName(s) + " successfully.";
    }

    method DeleteQuestionBank(bankId: string, subjectId: string, userId: string) returns (ok: bool, message: string)
      requires Valid()
      modifies this
      ensures Valid() && shares == old(shares)
      ensures var err := DeleteError(roles, old(banks), banksWithQuestions, bankId, subjectId, userId);
        && (err.Some? ==> !ok && message == err.value && banks == old(banks))
        && (err.None? ==> ok && message == MsgDeleted && banks == old(banks) - {bankId})
    {
      var err := DeleteError(roles, banks, banksWithQuestions, bankId, subjectId, userId);
      if err.Some? {
        return false, err.value;
      }
      banks := banks - {bankId};
      ok, message := true, MsgDeleted;
    }

    /** ShareQuestionBankAsync: records the share with the given mode (the mode is not checked here). */
    method ShareQuestionBank(bankId: string, email: string, sharerId: string, mode: int, newId: string)
      returns (ok: bool, message: string)
      requires Valid()
      modifies this
      ensures Valid() && banks == old(banks)
      ensures var err := ShareError(roles, users, banks, old(shares), bankId, email, sharerId);
        && (err.Some? ==> !ok && message == err.value && shares == old(shares))
        && (err.None? ==>
              ok && message == MsgShared
              && shares == old(shares) + [QuestionShare(newId, bankId, FindByEmail(users, email).value.userId, mode)])
    {
      var err := ShareError(roles, users, banks, shares, bankId, email, sharerId);
      if err.Some? {
        return false, err.value;
      }
      var s := QuestionShare(newId, bankId, FindByEmail(users, email).value.userId, mode);
      ShareKeepsUnique(shares, s);
      shares := shares + [s];
      ok, message := true, MsgShared;
    }

    /** ChangeAccessModeAsync: sets the mode on the existing share. */
    method ChangeAccessMode(bankId: string, email: string, sharerId: string, mode: int) returns (ok: bool, message: string)
      requires Valid()
      modifies this
      ensures Valid() && banks == old(banks)
      ensures var err := AccessModeError(roles, users, banks, old(shares), bankId, email, sharerId, mode);
        && (err.Some? ==> !ok && message == err.value && shares == old(shares))
        && (err.None? ==>
              var k := FindShare(old(shares), bankId, FindByEmail(users, email).value.userId).value;
              ok && message == MsgAccessModeUpdated && shares == old(shares)[k := old(shares)[k].(accessMode := mode)])
    {
      var err := AccessModeError(roles, users, banks, shares, bankId, email, sharerId, mode);
      if err.Some? {
        return false, err.value;
      }
      var k := FindShare(shares, bankId, FindByEmail(users, email).value.userId).value;
      shares := shares[k := shares[k].(accessMode := mode)];
      ok, message := true, MsgAccessModeUpdated;
    }
  }
}

=== FILE: question_service.dfy ===
/**
 Question authoring (QuestionService.cs): the ordered checks of adding,
 editing and importing questions, the normalisation of multiple-choice
 answers, the fields an edit overwrites and the active/inactive toggle.
 */
module QuestionService {
  import opened Common
  import opened Domain

  /**
   The part of AddQuestionRequest / EditQuestionRequest the service reads. A
   null option list, answer or explanation behaves as the empty one in every
   branch the model covers.
   */
  datatype QuestionRequest = QuestionRequest(
    questionId: string, bankId: string, content: string, qtype: int, difficulty: int, point: real,
    options: seq<string>, correctAnswer: string, explanation: string, objectFile: Option<string>,
    createUserId: string)

  /** A question bank as the question service sees it: its id and its nullable subject. */
  datatype BankRow = BankRow(id: string, subjectId: Option<string>)

  /** FirstOrDefault over the banks whose id equals `id` ignoring case. */
  function FindBank(banks: seq<BankRow>, id: string): (r: Option<BankRow>)
    ensures r.Some? ==> r.value in banks && EqIgnoreCase(r.value.id, id)
    ensures r.None? ==> forall b | b in banks :: !EqIgnoreCase(b.id, id)
  {
    if banks == [] then None
    else if EqIgnoreCase(banks[0].id, id) then Some(banks[0])
    else FindBank(banks[1..], id)
  }

  /** The subject lookup of add and edit: some subject id equals the bank's subject ignoring case. */
  predicate SubjectExists(subjects: seq<string>, bank: BankRow)
  {
    bank.subjectId.Some? && exists s | s in subjects :: EqIgnoreCase(s, bank.subjectId.value)
  }

  // ---------------------------------------------------------------- multiple-choice answers

  predicate NonBlank(s: string)
  {
    !IsBlank(s)
  }

  function TrimAll(xs: seq<string>): (r: seq<string>)
    ensures |r| == |xs| && forall i | 0 <= i < |xs| :: r[i] == Trim(xs[i])
  {
    seq(|xs|, i requires 0 <= i < |xs| => Trim(xs[i]))
  }

  /**
   Split(',', RemoveEmptyEntries), Trim, drop blank entries, Distinct ignoring
   case. The empty entries the split option removes trim to blank ones, so
   dropping blanks after trimming removes them too.
   */
  function NormalizeAnswers(correctAnswer: string): seq<string>
  {
    DistinctBy(Filter(TrimAll(Split(correctAnswer, ',')), NonBlank), Lower)
  }

  /** Every normalised answer is a trimmed, non-blank, comma-free piece of the input. */
  lemma NormalizeAnswersShape(correctAnswer: string)
    ensures forall a | a in NormalizeAnswers(correctAnswer) ::
              && NonBlank(a) && ',' !in a && Trim(a) == a
              && exists p | p in Split(correctAnswer, ',') :: a == Trim(p)
  {
    var pieces := Split(correctAnswer, ',');
    var trimmed := TrimAll(pieces);
    var kept := Filter(trimmed, NonBlank);
    forall a | a in DistinctBy(kept, Lower)
      ensures NonBlank(a) && ',' !in a && Trim(a) == a
      ensures exists p | p in pieces :: a == Trim(p)
    {
      assert a in kept;
      assert a in trimmed && NonBlank(a);
      var i :| 0 <= i < |trimmed| && trimmed[i] == a;
      assert pieces[i] in pieces && a == Trim(pieces[i]);
      assert ',' !in pieces[i];
      TrimNoop(a);
    }
  }

  /** No two normalised answers are equal ignoring case, and every non-blank piece of the input is kept in some spelling. */
  lemma NormalizeAnswersKeys(correctAnswer: string)
    ensures KeysUnique(NormalizeAnswers(correctAnswer), Lower)
    ensures forall p | p in Split(correctAnswer, ',') && NonBlank(p) ::
              HasKey(NormalizeAnswers(correctAnswer), Lower, Lower(Trim(p)))
  {
    var pieces := Split(correctAnswer, ',');
    var trimmed := TrimAll(pieces);
    var kept := Filter(trimmed, NonBlank);
    DistinctByUnique(kept, Lower);
    forall p | p in pieces && NonBlank(p)
      ensures HasKey(DistinctBy(kept, Lower), Lower, Lower(Trim(p)))
    {
      var i :| 0 <= i < |pieces| && pieces[i] == p;
      assert trimmed[i] == Trim(p);
      assert Trim(p) in trimmed && NonBlank(Trim(p));
      assert Trim(p) in kept;
      var j :| 0 <= j < |kept| && kept[j] == Trim(p);
      assert HasKey(kept, Lower, Lower(Trim(p)));
      DistinctByKeys(kept, Lower, Lower(Trim(p)));
    }
  }

  /** Joining trimmed, non-blank, comma-free answers gives a trimmed text that splits back into them. */
  lemma JoinedAnswersRoundTrip(r: seq<string>)
    requires r != []
    requires forall a | a in r :: NonBlank(a) && ',' !in a && Trim(a) == a
    ensures Trim(Join(r, ',')) == Join(r, ',') && Split(Join(r, ','), ',') == r
  {
    var first, last := r[0], r[|r| - 1];
    assert first in r && last in r;
    assert first != [] && last != [];
    JoinEnds(r, ',');
    var j := Join(r, ',');
    assert j[..|first|] == first;
    assert j[0] == first[0];
    assert j[|j| - |last|..] == last;
    assert j[|j| - 1] == last[|last| - 1];
    TrimNoop(j);
    assert forall i | 0 <= i < |r| :: r[i] in r;
    SplitJoin(r, ',');
  }

  /** Trimming the stored answer text changes nothing, and splitting it again gives the normalised answers back. */
  lemma StoredAnswersRoundTrip(correctAnswer: string)
    requires NormalizeAnswers(correctAnswer) != []
    ensures var r := NormalizeAnswers(correctAnswer);
            Trim(Join(r, ',')) == Join(r, ',') && Split(Join(r, ','), ',') == r
  {
    NormalizeAnswersShape(correctAnswer);
    JoinedAnswersRoundTrip(NormalizeAnswers(correctAnswer));
  }

  /** An answer text made only of commas passes the required-answer test and normalises to no answer at all. */
  lemma CommaOnlyAnswerIsEmpty()
    ensures !IsBlank(",") && NormalizeAnswers(",") == []
  {
    assert Split(",", ',') == ["", ""] by {
      assert IndexOf(",", ',') == 0;
      assert Split("", ',') == [""];
    }
    assert TrimAll(["", ""]) == ["", ""];
    assert Filter(["", ""], NonBlank) == [];
  }

  /** An option equal to the answer ignoring case exists. */
  predicate IsOption(options: seq<string>, a: string)
  {
    exists o | o in options :: EqIgnoreCase(o, a)
  }

  function InvalidAnswers(answers: seq<string>, options: seq<string>): (r: seq<string>)
    ensures r == [] <==> forall a | a in answers :: IsOption(options, a)
  {
    var r := Filter(answers, a => !IsOption(options, a));
    assert forall a | a in answers && !IsOption(options, a) :: a in r;
    assert r != [] ==> r[0] in r;
    r
  }

  /** The verdict of a check: a message, or the options and answer to store. */
  datatype Checked = Rejected(message: string) | Accepted(options: seq<string>, correctAnswer: string)

  /**
   The switch on the question type. An essay stores no options and needs a
   sample answer; a multiple-choice question needs two options and stores its
   normalised answers joined by ','. `onImport` selects the import loop's
   wording, which also has no "answer required" test.
   */
  function CheckByType(qtype: int, options: seq<string>, correctAnswer: string, onImport: bool): Checked
    requires qtype == TypeEssay || qtype == TypeMultipleChoice
  {
    if qtype == TypeEssay then
      if IsBlank(correctAnswer) then
        Rejected(if onImport then "Essay must have a sample answer." else "Essay must have a sample correct answer.")
      else Accepted([], correctAnswer)
    else if |options| < 2 then Rejected("Multiple choice must have at least 2 options.")
    else if !onImport && IsBlank(correctAnswer) then Rejected("Correct answer is required.")
    else
      var answers := NormalizeAnswers(correctAnswer);
      var invalid := InvalidAnswers(answers, options);
      if invalid != [] then
        Rejected(if onImport then "Invalid correct answers: " + JoinWith(invalid, ", ")
                 else "Correct answer(s) [" + JoinWith(invalid, ", ") + "] not found in options.")
      else Accepted(options, Join(answers, ','))
  }

  /** The type checks accept exactly the essays with a sample answer and the multiple-choice questions whose every answer is an option. */
  lemma CheckByTypeAccepted(qtype: int, options: seq<string>, correctAnswer: string, onImport: bool)
    requires qtype == TypeEssay || qtype == TypeMultipleChoice
    ensures var r := CheckByType(qtype, options, correctAnswer, onImport);
      && (r.Accepted? <==>
           || (qtype == TypeEssay && NonBlank(correctAnswer))
           || (qtype == TypeMultipleChoice && |options| >= 2 && (onImport || NonBlank(correctAnswer))
               && forall a | a in NormalizeAnswers(correctAnswer) :: IsOption(options, a)))
      && (r.Accepted? && qtype == TypeEssay ==> r.options == [] && r.correctAnswer == correctAnswer)
      && (r.Accepted? && qtype == TypeMultipleChoice ==>
            r.options == options && r.correctAnswer == Join(NormalizeAnswers(correctAnswer), ','))
  {
  }

  // ---------------------------------------------------------------- messages

  const MsgNoAddPermission: string := "The user is not a lecturer or admin and does not have permission to add questions."
  const MsgNoPermission: string := "You do not have permission to perform this action."
  const MsgBankNotFound: string := "Question bank not found."
  const MsgSubjectNotFound: string := "Subject not found."
  const MsgContentPoint: string := "Content and point must be provided. Point must be > 0 and <= 10."
  const MsgContent: string := "Content must be provided."
  const MsgType: string := "Invalid question type. (0: Essay, 1: MultipleChoice)"
  const MsgDifficulty: string := "Difficulty must be a value between 1 and 4. (1: Easy, 2: Medium, 3: Hard, 4: VeryHard)"
  const MsgDifficultyBP: string := "Difficulty must be between 1 and 4. (1: Easy, 2: Medium, 3: Hard, 4: VeryHard)"
  const MsgQuestionNotFound: string := "Question not found."
  const MsgImportEmpty: string := "The question list is empty."

  predicate BadContentOrPoint(content: string, point: real)
  {
    IsBlank(content) || point <= 0.0 || point > 10.0
  }

  /** A question the service can have stored: non-blank content, a point in (0, 10], a known type and difficulty. */
  predicate WellFormed(q: Question)
  {
    && NonBlank(q.content) && 0.0 < q.point <= 10.0
    && (q.qtype == TypeEssay || q.qtype == TypeMultipleChoice) && 1 <= q.difficulty <= 4
    && (q.qtype == TypeEssay ==> q.options == [])
    && (q.qtype == TypeMultipleChoice ==> |q.options| >= 2)
  }

  /**
   The request checks shared by add and edit, in order. (The separate
   "Content must be provided." test that follows is unreachable: blank
   content already failed the first test.)
   */
  function RequestCheck(req: QuestionRequest): Checked
  {
    if BadContentOrPoint(req.content, req.point) then Rejected(MsgContentPoint)
    else if req.qtype < 0 || req.qtype > 1 then Rejected(MsgType)
    else if req.difficulty < 1 || req.difficulty > 4 then Rejected(MsgDifficulty)
    else CheckByType(req.qtype, req.options, req.correctAnswer, false)
  }

  /** The row a successful add or import inserts. */
  function NewQuestion(id: string, subjectId: string, req: QuestionRequest, c: Checked, userId: string, now: int): (r: Question)
    requires c.Accepted?
    ensures r.id == id && r.bankId == req.bankId && r.subjectId == subjectId && r.status == StatusActive
    ensures r.createUser == userId && r.updateUser == userId && r.content == Trim(req.content)
    ensures r.point == req.point && r.options == c.options && r.correctAnswer == Trim(c.correctAnswer)
  {
    Question(id, req.bankId, subjectId, Trim(req.content), req.qtype, req.difficulty, req.point,
             c.options, Trim(c.correctAnswer), Trim(req.explanation), req.objectFile, StatusActive,
             userId, userId, now)
  }

  /** The request checks pass exactly for valid content, point, type and difficulty and a passing type check, whose verdict is then kept. */
  lemma RequestCheckAccepted(req: QuestionRequest)
    ensures RequestCheck(req).Accepted? <==>
              && !BadContentOrPoint(req.content, req.point)
              && (req.qtype == TypeEssay || req.qtype == TypeMultipleChoice) && 1 <= req.difficulty <= 4
              && CheckByType(req.qtype, req.options, req.correctAnswer, false).Accepted?
    ensures RequestCheck(req).Accepted? ==> RequestCheck(req) == CheckByType(req.qtype, req.options, req.correctAnswer, false)
  {
  }

  /** A question stored from an accepted request is well formed. */
  lemma AcceptedIsWellFormed(id: string, subjectId: string, req: QuestionRequest, userId: string, now: int)
    requires RequestCheck(req).Accepted?
    ensures WellFormed(NewQuestion(id, subjectId, req, RequestCheck(req), userId, now))
  {
    RequestCheckAccepted(req);
    CheckByTypeAccepted(req.qtype, req.options, req.correctAnswer, false);
  }

  /** The first failing check of AddQuestionAsync: permission, bank (ignoring case), subject, then the request checks. */
  function AddQuestionError(roles: map<string, set<int>>, banks: seq<BankRow>, subjects: seq<string>,
                            req: QuestionRequest, userId: string): Option<string>
  {
    if !IsLectureOrAdmin(roles, userId) then Some(MsgNoAddPermission)
    else if FindBank(banks, req.bankId).None? then Some(MsgBankNotFound)
    else if !SubjectExists(subjects, FindBank(banks, req.bankId).value) then Some(MsgSubjectNotFound)
    else if RequestCheck(req).Rejected? then Some(RequestCheck(req).message)
    else None
  }

  /** AddQuestionAsync: the first failing check, or the question stored under the generated id `newId`. */
  function AddQuestionResult(roles: map<string, set<int>>, banks: seq<BankRow>, subjects: seq<string>,
                             req: QuestionRequest, userId: string, newId: string, now: int): (r: Result<Question>)
    ensures r.Success? <==> AddQuestionError(roles, banks, subjects, req, userId).None?
    ensures r.Failure? ==> r.message == AddQuestionError(roles, banks, subjects, req, userId).value
  {
    var err := AddQuestionError(roles, banks, subjects, req, userId);
    if err.Some? then Failure(err.value)
    else Success(NewQuestion(newId, FindBank(banks, req.bankId).value.subjectId.value, req, RequestCheck(req), userId, now))
  }

  /** An add succeeds exactly for a lecturer or admin naming a bank with a known subject and a request that passes every check. */
  lemma AddQuestionAccepted(roles: map<string, set<int>>, banks: seq<BankRow>, subjects: seq<string>,
                            req: QuestionRequest, userId: string)
    ensures AddQuestionError(roles, banks, subjects, req, userId).None? <==>
              && IsLectureOrAdmin(roles, userId)
              && FindBank(banks, req.bankId).Some? && SubjectExists(subjects, FindBank(banks, req.bankId).value)
              && !BadContentOrPoint(req.content, req.point)
              && (req.qtype == TypeEssay || req.qtype == TypeMultipleChoice) && 1 <= req.difficulty <= 4
              && CheckByType(req.qtype, req.options, req.correctAnswer, false).Accepted?
  {
    RequestCheckAccepted(req);
  }

  /**
   A successful add stores a well-formed, active question owned by the
   caller under the generated id; a multiple-choice question stores its
   normalised answers joined by ','.
   */
  lemma AddQuestionStores(roles: map<string, set<int>>, banks: seq<BankRow>, subjects: seq<string>,
                          req: QuestionRequest, userId: string, newId: string, now: int)
    requires AddQuestionResult(roles, banks, subjects, req, userId, newId, now).Success?
    ensures var q := AddQuestionResult(roles, banks, subjects, req, userId, newId, now).value;
      && WellFormed(q) && q.id == newId && q.status == StatusActive && q.createUser == userId
      && q.bankId == req.bankId && q.content == Trim(req.content) && q.point == req.point
      && (req.qtype == TypeMultipleChoice && NormalizeAnswers(req.correctAnswer) != [] ==>
            q.correctAnswer == Join(NormalizeAnswers(req.correctAnswer), ','))
  {
    var subjectId := FindBank(banks, req.bankId).value.subjectId.value;
    AcceptedIsWellFormed(newId, subjectId, req, userId, now);
    RequestCheckAccepted(req);
    CheckByTypeAccepted(req.qtype, req.options, req.correctAnswer, false);
    if req.qtype == TypeMultipleChoice && NormalizeAnswers(req.correctAnswer) != [] {
      StoredAnswersRoundTrip(req.correctAnswer);
    }
  }

  /** The first failing check decides the message: a caller without the role hears that before anything else is looked up. */
  lemma AddQuestionPermissionFirst(roles: map<string, set<int>>, banks: seq<BankRow>, subjects: seq<string>,
                                   req: QuestionRequest, userId: string)
    requires !IsLectureOrAdmin(roles, userId)
    ensures AddQuestionError(roles, banks, subjects, req, userId) == Some(MsgNoAddPermission)
  {
  }

  /**
   AddQuestionBPAsync's checks. Its bank and subject come from repositories
   that are not part of this model, so they are parameters; it tests content
   but not the point, and words the difficulty message differently.
   */
  function AddQuestionBPError(roles: map<string, set<int>>, bank: Option<BankRow>, subjectExists: bool,
                              req: QuestionRequest, userId: string): Option<string>
  {
    if !IsLectureOrAdmin(roles, userId) then Some(MsgNoAddPermission)
    else if bank.None? then Some(MsgBankNotFound)
    else if !subjectExists then Some(MsgSubjectNotFound)
    else if IsBlank(req.content) then Some(MsgContent)
    else if req.qtype < 0 || req.qtype > 1 then Some(MsgType)
    else if req.difficulty < 1 || req.difficulty > 4 then Some(MsgDifficultyBP)
    else
      var c := CheckByType(req.qtype, req.options, req.correctAnswer, false);
      if c.Rejected? then Some(c.message) else None
  }

  /**
   The builder variant accepts every request the plain add accepts, and also
   some it refuses: a point outside (0, 10] is not checked.
   */
  lemma AddQuestionBPWeaker(roles: map<string, set<int>>, banks: seq<BankRow>, subjects: seq<string>,
                            req: QuestionRequest, userId: string)
    ensures AddQuestionError(roles, banks, subjects, req, userId).None? ==>
            AddQuestionBPError(roles, FindBank(banks, req.bankId), true, req, userId).None?
    ensures var zero := req.(point := 0.0);
            && IsLectureOrAdmin(roles, userId) && FindBank(banks, req.bankId).Some?
            && SubjectExists(subjects, FindBank(banks, req.bankId).value)
            ==> AddQuestionError(roles, banks, subjects, zero, userId) == Some(MsgContentPoint)
  {
    AddQuestionAccepted(roles, banks, subjects, req, userId);
  }

  // ---------------------------------------------------------------- edit

  /** The fields EditQuestionAsync overwrites; the point, status, id and creator are kept. */
  function ApplyEdit(q: Question, subjectId: string, req: QuestionRequest, c: Checked, userId: string, now: int): (r: Question)
    requires c.Accepted?
    ensures r.point == q.point && r.id == q.id && r.status == q.status && r.createUser == q.createUser
    ensures r.content == Trim(req.content) && r.bankId == req.bankId && r.subjectId == subjectId
    ensures r.qtype == req.qtype && r.difficulty == req.difficulty && r.options == c.options
    ensures r.updateUser == (if req.createUserId != "" then req.createUserId else userId) && r.updatedAt == now
  {
    q.(subjectId := subjectId, bankId := req.bankId, content := Trim(req.content), qtype := req.qtype,
       difficulty := req.difficulty, options := c.options, correctAnswer := Trim(c.correctAnswer),
       explanation := Trim(req.explanation), objectFile := req.objectFile,
       updateUser := if req.createUserId != "" then req.createUserId else userId, updatedAt := now)
  }

  /** The first failing check of EditQuestionAsync: permission, question, then the bank, subject and request checks of an add. */
  function EditQuestionError(roles: map<string, set<int>>, banks: seq<BankRow>, subjects: seq<string>,
                             questions: map<string, Question>, req: QuestionRequest, userId: string): Option<string>
  {
    if !IsLectureOrAdmin(roles, userId) then Some(MsgNoPermission)
    else if req.questionId !in questions then Some(MsgQuestionNotFound)
    else if FindBank(banks, req.bankId).None? then Some(MsgBankNotFound)
    else if !SubjectExists(subjects, FindBank(banks, req.bankId).value) then Some(MsgSubjectNotFound)
    else if RequestCheck(req).Rejected? then Some(RequestCheck(req).message)
    else None
  }

  /** EditQuestionAsync: the first failing check, or the edited question. */
  function EditQuestionResult(roles: map<string, set<int>>, banks: seq<BankRow>, subjects: seq<string>,
                              questions: map<string, Question>, req: QuestionRequest, userId: string, now: int): (r: Result<Question>)
    ensures r.Success? <==> EditQuestionError(roles, banks, subjects, questions, req, userId).None?
    ensures r.Failure? ==> r.message == EditQuestionError(roles, banks, subjects, questions, req, userId).value
  {
    var err := EditQuestionError(roles, banks, subjects, questions, req, userId);
    if err.Some? then Failure(err.value)
    else Success(ApplyEdit(questions[req.questionId], FindBank(banks, req.bankId).value.subjectId.value, req,
                           RequestCheck(req), userId, now))
  }

  /**
   An edit is accepted exactly when the question exists and an add of the
   same request would be; the request's point must lie in (0, 10] although
   it is never stored.
   */
  lemma EditQuestionAccepted(roles: map<string, set<int>>, banks: seq<BankRow>, subjects: seq<string>,
                             questions: map<string, Question>, req: QuestionRequest, userId: string)
    ensures EditQuestionError(roles, banks, subjects, questions, req, userId).None? <==>
              req.questionId in questions && AddQuestionError(roles, banks, subjects, req, userId).None?
    ensures EditQuestionError(roles, banks, subjects, questions, req, userId).None? ==> 0.0 < req.point <= 10.0
  {
  }

  /** A successful edit keeps the stored point, id, status and creator of the question. */
  lemma EditKeepsPoint(roles: map<string, set<int>>, banks: seq<BankRow>, subjects: seq<string>,
                       questions: map<string, Question>, req: QuestionRequest, userId: string, now: int)
    requires EditQuestionResult(roles, banks, subjects, questions, req, userId, now).Success?
    ensures var q := EditQuestionResult(roles, banks, subjects, questions, req, userId, now).value;
            var before := questions[req.questionId];
            q.point == before.point && q.id == before.id && q.status == before.status
            && q.createUser == before.createUser && q.content == Trim(req.content)
  {
  }

  // ---------------------------------------------------------------- toggle

  /** ToggleStatusAsync's new status: an active question (1) becomes 0, anything else becomes 1. */
  function ToggledStatus(status: int): (r: int)
    ensures r == StatusInactive || r == StatusActive
    ensures r == StatusInactive <==> status == StatusActive
  {
    if status == StatusActive then StatusInactive else StatusActive
  }

  /** Toggling twice restores a status that was 0 or 1. */
  lemma ToggleTwice(status: int)
    requires status == StatusInactive || status == StatusActive
    ensures ToggledStatus(ToggledStatus(status)) == status
  {
  }

  function ToggleMessage(wasActive: bool): string
  {
    "Question has been " + (if wasActive then "deactivated" else "activated") + " successfully."
  }

  // ---------------------------------------------------------------- import

  /** The prefix every import error carries. */
  function Tagged(content: string, message: string): string
  {
    "[Question: " + content + "] " + message
  }

  /** One iteration of the import loop: an error line for a skipped item, or the question to insert. */
  function ImportItem(banks: seq<BankRow>, req: QuestionRequest, userId: string, newId: string, now: int): (r: Result<Question>)
    ensures r.Success? ==> WellFormed(r.value) && r.value.id == newId && r.value.createUser == userId
                           && r.value.status == StatusActive
  {
    if BadContentOrPoint(req.content, req.point) then Failure(Tagged(req.content, "Invalid content or point."))
    else if req.qtype < 0 || req.qtype > 1 || req.difficulty < 1 || req.difficulty > 4 then
      Failure(Tagged(req.content, "Invalid type or difficulty. (1: Easy, 2: Medium, 3: Hard, 4: VeryHard)"))
    else
      var bank := FindBank(banks, req.bankId);
      if bank.None? then Failure(Tagged(req.content, MsgBankNotFound))
      else if bank.value.subjectId.None? then Failure(Tagged(req.content, MsgSubjectNotFound))
      else
        var c := CheckByType(req.qtype, req.options, req.correctAnswer, true);
        if c.Rejected? then Failure(Tagged(req.content, c.message))
        else Success(NewQuestion(newId, bank.value.subjectId.value, req, c, userId, now))
  }

  /** The questions the loop collects from the first |reqs| items, in order; `newIds` are the generated ids. */
  function Imported(banks: seq<BankRow>, reqs: seq<QuestionRequest>, userId: string, newIds: seq<string>, now: int): seq<Question>
    requires |newIds| == |reqs|
  {
    if reqs == [] then []
    else
      var n := |reqs| - 1;
      var item := ImportItem(banks, reqs[n], userId, newIds[n], now);
      Imported(banks, reqs[..n], userId, newIds[..n], now) + (if item.Success? then [item.value] else [])
  }

  /** The error lines the loop collects, in order. */
  function ImportErrors(banks: seq<BankRow>, reqs: seq<QuestionRequest>, userId: string, newIds: seq<string>, now: int): seq<string>
    requires |newIds| == |reqs|
  {
    if reqs == [] then []
    else
      var n := |reqs| - 1;
      var item := ImportItem(banks, reqs[n], userId, newIds[n], now);
      ImportErrors(banks, reqs[..n], userId, newIds[..n], now) + (if item.Failure? then [item.message] else [])
  }

  /** Every item is either imported or reported, never both; every imported question is well formed and active. */
  lemma {:induction false} ImportPartition(banks: seq<BankRow>, reqs: seq<QuestionRequest>, userId: string,
                                           newIds: seq<string>, now: int)
    requires |newIds| == |reqs|
    ensures |Imported(banks, reqs, userId, newIds, now)| + |ImportErrors(banks, reqs, userId, newIds, now)| == |reqs|
    ensures forall q | q in Imported(banks, reqs, userId, newIds, now) ::
              WellFormed(q) && q.status == StatusActive && q.createUser == userId && q.id in newIds
  {
    if reqs != [] {
      var n := |reqs| - 1;
      ImportPartition(banks, reqs[..n], userId, newIds[..n], now);
      assert forall x | x in newIds[..n] :: x in newIds;
    }
  }

  /** The summary line, followed by at most the first five error lines. */
  function ImportMessage(imported: nat, errors: seq<string>): string
  {
    var summary := "Imported " + NatToString(imported) + " question(s) successfully. Failed: " + NatToString(|errors|) + ".";
    if errors == [] then summary
    else summary + "\n" + Join(errors[..if |errors| < 5 then |errors| else 5], '\n')
  }

  /** Inserts rows by id (AddRange). */
  function AddRows(table: map<string, Question>, rows: seq<Question>): (r: map<string, Question>)
    ensures r.Keys == table.Keys + set q | q in rows :: q.id
  {
    if rows == [] then table else AddRows(table, rows[..|rows| - 1])[rows[|rows| - 1].id := rows[|rows| - 1]]
  }

  // ---------------------------------------------------------------- the service over its tables

  class QuestionStore {
    const roles: map<string, set<int>>
    const banks: seq<BankRow>
    const subjects: seq<string>
    var questions: map<string, Question>

    constructor (roles: map<string, set<int>>, banks: seq<BankRow>, subjects: seq<string>)
      ensures this.roles == roles && this.banks == banks && this.subjects == subjects && questions == map[]
    {
      this.roles := roles;
      this.banks := banks;
      this.subjects := subjects;
      questions := map[];
    }

    /** AddQuestionAsync: on success the new question is stored under `newId`; nothing changes otherwise. */
    method AddQuestion(req: QuestionRequest, userId: string, newId: string, now: int) returns (success: bool, message: string)
      modifies this
      ensures success == AddQuestionError(roles, banks, subjects, req, userId).None?
      ensures !success ==> message == AddQuestionResult(roles, banks, subjects, req, userId, newId, now).message
                           && questions == old(questions)
      ensures success ==> message == "Question has been created successfully."
                          && questions == old(questions)[newId := AddQuestionResult(roles, banks, subjects, req, userId, newId, now).value]
    {
      var r := AddQuestionResult(roles, banks, subjects, req, userId, newId, now);
      success := r.Success?;
      if success {
        questions, message := questions[newId := r.value], "Question has been created successfully.";
      } else {
        message := r.message;
      }
    }

    /** EditQuestionAsync: on success only the edited question changes. */
    method EditQuestion(req: QuestionRequest, userId: string, now: int) returns (success: bool, message: string)
      modifies this
      ensures success == old(EditQuestionError(roles, banks, subjects, questions, req, userId)).None?
      ensures !success ==> message == old(EditQuestionResult(roles, banks, subjects, questions, req, userId, now)).message
                           && questions == old(questions)
      ensures success ==> message == "Question has been updated successfully."
                          && questions == old(questions)[req.questionId := old(EditQuestionResult(roles, banks, subjects, questions, req, userId, now)).value]
    {
      var r := EditQuestionResult(roles, banks, subjects, questions, req, userId, now);
      success := r.Success?;
      if success {
        questions, message := questions[req.questionId := r.value], "Question has been updated successfully.";
      } else {
        message := r.message;
      }
    }

    /** ToggleStatusAsync: permission, existence, then the status flips and UpdatedAt is set. */
    method ToggleStatus(questionId: string, userId: string, now: int) returns (success: bool, message: string)
      modifies this
      ensures !IsLectureOrAdmin(roles, userId) ==> !success && message == MsgNoPermission && questions == old(questions)
      ensures IsLectureOrAdmin(roles, userId) && questionId !in old(questions) ==>
                !success && message == MsgQuestionNotFound && questions == old(questions)
      ensures IsLectureOrAdmin(roles, userId) && questionId in old(questions) ==>
                var q := old(questions)[questionId];
                && success && message == ToggleMessage(q.status == StatusActive)
                && questions == old(questions)[questionId := q.(status := ToggledStatus(q.status), updatedAt := now)]
    {
      if !IsLectureOrAdmin(roles, userId) {
        return false, MsgNoPermission;
      }
      if questionId !in questions {
        return false, MsgQuestionNotFound;
      }
      var q := questions[questionId];
      var isCurrentlyActive := q.status == StatusActive;
      questions := questions[questionId := q.(status := if isCurrentlyActive then StatusInactive else StatusActive, updatedAt := now)];
      return true, ToggleMessage(isCurrentlyActive);
    }

    /**
     ImportListQuestionAsync: an empty list is refused before the permission
     check; otherwise each item is validated in turn, the valid ones are
     inserted together and the call succeeds only when no item failed.
     */
    method ImportList(reqs: seq<QuestionRequest>, userId: string, newIds: seq<string>, now: int)
      returns (success: bool, message: string)
      requires |newIds| == |reqs|
      modifies this
      ensures reqs == [] ==> !success && message == MsgImportEmpty && questions == old(questions)
      ensures reqs != [] && !IsLectureOrAdmin(roles, userId) ==>
                !success && message == MsgNoPermission && questions == old(questions)
      ensures reqs != [] && IsLectureOrAdmin(roles, userId) ==>
                var added := Imported(banks, reqs, userId, newIds, now);
                var errors := ImportErrors(banks, reqs, userId, newIds, now);
                && questions == AddRows(old(questions), added)
                && success == (errors == [])
                && message == ImportMessage(|added|, errors)
    {
      if reqs == [] {
        return false, MsgImportEmpty;
      }
      if !IsLectureOrAdmin(roles, userId) {
        return false, MsgNoPermission;
      }
      var toAdd: seq<Question> := [];
      var errors: seq<string> := [];
      var successCount := 0;
      var i := 0;
      while i < |reqs|
        invariant 0 <= i <= |reqs|
        invariant toAdd == Imported(banks, reqs[..i], userId, newIds[..i], now)
        invariant errors == ImportErrors(banks, reqs[..i], userId, newIds[..i], now)
        invariant successCount == |toAdd|
      {
        var item := ImportItem(banks, reqs[i], userId, newIds[i], now);
        if item.Failure? {
          errors := errors + [item.message];
        } else {
          toAdd := toAdd + [item.value];
          successCount := successCount + 1;
        }
        assert reqs[..i + 1][..i] == reqs[..i] && newIds[..i + 1][..i] == newIds[..i];
        i := i + 1;
      }
      assert reqs[..i] == reqs && newIds[..i] == newIds;
      questions := AddRows(questions, toAdd);
      success := errors == [];
      message := ImportMessage(successCount, errors);
    }
  }
}

=== FILE: questions_list.dfy ===
/**
 The question list inside a question bank's detail page
 (pages/teacher/bankquestion/components/componentDetail/questions-list.tsx):
 the questions are filtered by type and by search text on the client, then
 cut into pages of five.
 */
module QuestionsList {
  import opened Common
  import opened Pagination

  datatype Question = Question(questionId: string, content: string, questionType: int)

  /** itemsPerPage */
  const ItemsPerPage: nat := 5

  /** The type filter: "all", or the type number as text (parsed as an integer). */
  predicate MatchesType(filterType: string, q: Question)
  {
    filterType == "all" || ParseInt(filterType) == Some(q.questionType)
  }

  /** The search: an empty query matches everything, otherwise the content must contain it, ignoring case. */
  predicate MatchesSearch(searchQuery: string, q: Question)
  {
    searchQuery == "" || ContainsIgnoreCase(q.content, searchQuery)
  }

  /** filteredQuestions: the questions passing both tests, in their order. */
  function Filtered(questions: seq<Question>, filterType: string, searchQuery: string): (r: seq<Question>)
    ensures forall q :: q in r <==> q in questions && MatchesType(filterType, q) && MatchesSearch(searchQuery, q)
    ensures |r| <= |questions|
  {
    Filter(questions, (q: Question) => MatchesType(filterType, q) && MatchesSearch(searchQuery, q))
  }

  /** With "all" and no search text nothing is filtered out. */
  lemma {:induction false} AllShowsEverything(questions: seq<Question>)
    ensures Filtered(questions, "all", "") == questions
  {
    if questions != [] {
      AllShowsEverything(questions[1..]);
    }
  }

  /** Array.prototype.slice: a negative bound counts from the end, and both bounds are clamped to the array. */
  function JsSlice<T>(s: seq<T>, start: int, end: int): (r: seq<T>)
    ensures 0 <= start <= end ==> r == s[Min(start, |s|)..Min(end, |s|)]
  {
    var from := if start < 0 then Max(|s| + start, 0) else Min(start, |s|);
    var to := if end < 0 then Max(|s| + end, 0) else Min(end, |s|);
    if from >= to then [] else s[from..to]
  }

  /** paginatedQuestions for page p: the slice from (p - 1) * 5 to p * 5. */
  function PageSlice<T>(items: seq<T>, p: int): seq<T>
  {
    JsSlice(items, (p - 1) * ItemsPerPage, p * ItemsPerPage)
  }

  /** From page 1 on, the slice is the usual page of five. */
  lemma PageSliceIsPage<T>(items: seq<T>, p: int)
    requires p >= 1
    ensures PageSlice(items, p) == PageOf(items, p, ItemsPerPage)
  {
    var r := PageSlice(items, p);
    var q := PageOf(items, p, ItemsPerPage);
    if p > 1 {
      TimesIsProduct(p - 1, ItemsPerPage);
    }
    assert PageStart(p, ItemsPerPage) == (p - 1) * ItemsPerPage;
    assert |r| == |q|;
  }

  /** totalPages, Math.ceil(n / 5): each page up to it holds one to five items, the pages after it none. */
  lemma PageSizes<T>(items: seq<T>, p: int)
    requires p >= 1
    ensures p <= PageCount(|items|, ItemsPerPage) ==> 1 <= |PageSlice(items, p)| <= ItemsPerPage
    ensures p > PageCount(|items|, ItemsPerPage) ==> PageSlice(items, p) == []
  {
    var total := PageCount(|items|, ItemsPerPage);
    TimesIsProduct(total, ItemsPerPage);
    if total > 0 {
      TimesIsProduct(total - 1, ItemsPerPage);
    }
  }

  /** The pages from 1 to totalPages, put back together, give the filtered list. */
  lemma PagesCoverAll<T>(items: seq<T>)
    ensures var total := PageCount(|items|, ItemsPerPage);
      PagesUpTo(items, ItemsPerPage, total) == items
      && forall p | 1 <= p <= total :: PageSlice(items, p) == PageOf(items, p, ItemsPerPage)
  {
    var total := PageCount(|items|, ItemsPerPage);
    PagesCover(items, ItemsPerPage, total);
    forall p | 1 <= p <= total ensures PageSlice(items, p) == PageOf(items, p, ItemsPerPage) {
      PageSliceIsPage(items, p);
    }
  }

  /** The list's state: the page shown, the type chosen and the search text. */
  class ListView {
    var currentPage: int
    var filterType: string
    var searchQuery: string

    predicate Valid()
      reads this
    {
      currentPage >= 1
    }

    constructor ()
      ensures currentPage == 1 && filterType == "all" && searchQuery == ""
      ensures Valid()
    {
      currentPage := 1;
      filterType := "all";
      searchQuery := "";
    }

    /** The page of `questions` on screen. */
    function Shown(questions: seq<Question>): seq<Question>
      reads this
    {
      PageSlice(Filtered(questions, filterType, searchQuery), currentPage)
    }

    /** handleFilterChange: a new type goes back to page 1. */
    method HandleFilterChange(value: string)
      modifies this`filterType, this`currentPage
      ensures filterType == value && currentPage == 1
      ensures Valid()
    {
      filterType := value;
      currentPage := 1;
    }

    /** handleSearchChange: new search text goes back to page 1. */
    method HandleSearchChange(value: string)
      modifies this`searchQuery, this`currentPage
      ensures searchQuery == value && currentPage == 1
      ensures Valid()
    {
      searchQuery := value;
      currentPage := 1;
    }

    /** handlePageChange: only a page from 1 to totalPages is taken; any other request is ignored. */
    method HandlePageChange(page: int, questions: seq<Question>)
      requires Valid()
      modifies this`currentPage
      ensures Valid()
      ensures var total := PageCount(|Filtered(questions, filterType, searchQuery)|, ItemsPerPage);
        currentPage == if 0 < page <= total then page else old(currentPage)
      ensures 0 < page <= PageCount(|Filtered(questions, filterType, searchQuery)|, ItemsPerPage) ==> Shown(questions) != []
    {
      var total := PageCount(|Filtered(questions, filterType, searchQuery)|, ItemsPerPage);
      if page > 0 && page <= total {
        currentPage := page;
        PageSizes(Filtered(questions, filterType, searchQuery), page);
      }
    }
  }
}

=== FILE: role_permissions_tab.dfy ===
/**
 The "new role" tab of user management (pages/admin/manageuser/components/add-new-role-tab.tsx):
 the expanded categories, the selected permissions and the three toggles that
 update them, and the category checkbox.
 */
module RolePermissionsTab {
  import opened Common

  datatype Permission = Permission(id: string, name: string)

  /** A category of permissions as listed by the server. */
  datatype PermissionCategory = PermissionCategory(categoryId: string, permissions: seq<Permission>)

  function PermId(p: Permission): string
  {
    p.id
  }

  predicate Selected(selected: seq<Permission>, id: string)
  {
    HasKey(selected, PermId, id)
  }

  // ---------------------------------------------------------------- expanded categories

  /** toggleCategory's updater: a listed id is taken out (every occurrence), an unlisted one appended. */
  function ToggleCategory(expanded: seq<string>, categoryId: string): (r: seq<string>)
    ensures categoryId in r <==> categoryId !in expanded
    ensures forall x | x != categoryId :: x in r <==> x in expanded
  {
    if categoryId in expanded then Filter(expanded, (x: string) => x != categoryId)
    else expanded + [categoryId]
  }

  /** Expanding a collapsed category and collapsing it again restores the list. */
  lemma {:induction false} ToggleCategoryTwice(expanded: seq<string>, categoryId: string)
    requires categoryId !in expanded
    ensures ToggleCategory(ToggleCategory(expanded, categoryId), categoryId) == expanded
  {
    var keep := (x: string) => x != categoryId;
    FilterAppend(expanded, [categoryId], keep);
    FilterKeepsPassing(expanded, keep);
  }

  /** Filtering a list whose every element passes gives the list back. */
  lemma {:induction false} FilterKeepsPassing<T>(s: seq<T>, p: T -> bool)
    requires forall i | 0 <= i < |s| :: p(s[i])
    ensures Filter(s, p) == s
  {
    if s != [] {
      FilterKeepsPassing(s[1..], p);
      assert s == [s[0]] + s[1..];
    }
  }

  // ---------------------------------------------------------------- one permission

  /** handlePermissionToggle's updater: a selected id is removed, an unselected one appended with its name. */
  function PermissionToggle(selected: seq<Permission>, id: string, name: string): (r: seq<Permission>)
    ensures Selected(r, id) <==> !Selected(selected, id)
    ensures forall k | k != id :: Selected(r, k) <==> Selected(selected, k)
  {
    if Selected(selected, id) then
      var r := Filter(selected, (p: Permission) => p.id != id);
      FilterKeys(selected, (p: Permission) => p.id != id);
      r
    else
      SelectedAppend(selected, Permission(id, name));
      selected + [Permission(id, name)]
  }

  /** The ids of a list with one entry appended. */
  lemma SelectedAppend(s: seq<Permission>, p: Permission)
    ensures forall k :: Selected(s + [p], k) <==> Selected(s, k) || k == p.id
  {
    var r := s + [p];
    assert PermId(r[|s|]) == p.id;
    forall k | Selected(s, k) ensures Selected(r, k) {
      var i :| 0 <= i < |s| && PermId(s[i]) == k;
      assert PermId(r[i]) == k;
    }
    forall k | Selected(r, k) && k != p.id ensures Selected(s, k) {
      var i :| 0 <= i < |r| && PermId(r[i]) == k;
      assert PermId(s[i]) == k;
    }
  }

  /** The keys left by a filter are those of the passing elements. */
  lemma FilterKeys(s: seq<Permission>, p: Permission -> bool)
    ensures forall k :: Selected(Filter(s, p), k) <==> exists i | 0 <= i < |s| :: s[i].id == k && p(s[i])
  {
    var f := Filter(s, p);
    forall k ensures Selected(f, k) <==> exists i | 0 <= i < |s| :: s[i].id == k && p(s[i]) {
      if Selected(f, k) {
        var j :| 0 <= j < |f| && f[j].id == k;
        assert f[j] in f;
      }
      if exists i | 0 <= i < |s| :: s[i].id == k && p(s[i]) {
        var i :| 0 <= i < |s| && s[i].id == k && p(s[i]);
        assert s[i] in s;
        var j :| 0 <= j < |f| && f[j] == s[i];
        assert PermId(f[j]) == k;
      }
    }
  }

  /** Selecting a permission and deselecting it again restores the list. */
  lemma PermissionToggleTwice(selected: seq<Permission>, id: string, name: string)
    requires !Selected(selected, id)
    ensures PermissionToggle(PermissionToggle(selected, id, name), id, name) == selected
  {
    var keep := (p: Permission) => p.id != id;
    assert Selected(selected + [Permission(id, name)], id) by {
      assert PermId((selected + [Permission(id, name)])[|selected|]) == id;
    }
    FilterAppend(selected, [Permission(id, name)], keep);
    forall i | 0 <= i < |selected| ensures keep(selected[i]) {
      assert PermId(selected[i]) != id;
    }
    FilterKeepsPassing(selected, keep);
  }

  // ---------------------------------------------------------------- the Map de-duplication

  /** `map.set(p.id, p)`: an existing key keeps its place and takes the new value; a new key goes last. */
  function SetEntry(entries: seq<Permission>, p: Permission): (r: seq<Permission>)
    ensures Selected(r, p.id)
    ensures forall k :: Selected(r, k) <==> Selected(entries, k) || k == p.id
    ensures KeysUnique(entries, PermId) ==> KeysUnique(r, PermId)
    ensures forall q | q in entries && q.id != p.id :: q in r
  {
    if Selected(entries, p.id) then
      var r := seq(|entries|, i requires 0 <= i < |entries| => if entries[i].id == p.id then p else entries[i]);
      assert forall i | 0 <= i < |r| :: r[i].id == entries[i].id;
      assert forall q | q in entries && q.id != p.id :: q in r by {
        forall q | q in entries && q.id != p.id ensures q in r {
          var i :| 0 <= i < |entries| && entries[i] == q;
          assert r[i] == q;
        }
      }
      r
    else
      SelectedAppend(entries, p);
      var r := entries + [p];
      assert KeysUnique(entries, PermId) ==> KeysUnique(r, PermId) by {
        if KeysUnique(entries, PermId) {
          forall i, j | 0 <= i < j < |r| ensures PermId(r[i]) != PermId(r[j]) {
            if j == |entries| {
              assert PermId(entries[i]) != p.id;
            }
          }
        }
      }
      r
  }

  /** The entries after setting each of `ps` in turn. */
  function SetEntries(entries: seq<Permission>, ps: seq<Permission>): (r: seq<Permission>)
    ensures forall k :: Selected(r, k) <==> Selected(entries, k) || Selected(ps, k)
    ensures KeysUnique(entries, PermId) ==> KeysUnique(r, PermId)
    ensures forall q | q in entries && !Selected(ps, q.id) :: q in r
    decreases |ps|
  {
    if ps == [] then entries
    else
      var init := ps[..|ps| - 1];
      var last := ps[|ps| - 1];
      assert forall k :: Selected(ps, k) <==> Selected(init, k) || k == last.id by {
        forall k ensures Selected(ps, k) <==> Selected(init, k) || k == last.id {
          if Selected(ps, k) {
            var i :| 0 <= i < |ps| && PermId(ps[i]) == k;
            if i < |init| {
              assert PermId(init[i]) == k;
            }
          }
          if Selected(init, k) {
            var i :| 0 <= i < |init| && PermId(init[i]) == k;
            assert PermId(ps[i]) == k;
          }
        }
      }
      SetEntry(SetEntries(entries, init), last)
  }

  /** `Array.from(new Map(list.map(p => [p.id, p])).values())`. */
  function MapValues(list: seq<Permission>): seq<Permission>
  {
    SetEntries([], list)
  }

  /** Setting the entries of a concatenation is setting those of each part in turn. */
  lemma {:induction false} SetEntriesAppend(entries: seq<Permission>, a: seq<Permission>, b: seq<Permission>)
    ensures SetEntries(entries, a + b) == SetEntries(SetEntries(entries, a), b)
    decreases |b|
  {
    if b == [] {
      assert a + b == a;
    } else {
      var init := b[..|b| - 1];
      var last := b[|b| - 1];
      assert (a + b)[..|a + b| - 1] == a + init;
      assert (a + b)[|a + b| - 1] == last;
      assert SetEntries(entries, a + b) == SetEntry(SetEntries(entries, a + init), last);
      SetEntriesAppend(entries, a, init);
      assert SetEntries(SetEntries(entries, a), b) == SetEntry(SetEntries(SetEntries(entries, a), init), last);
    }
  }

  /** A list without repeated ids is its own Map. */
  lemma {:induction false} MapValuesUnique(list: seq<Permission>)
    requires KeysUnique(list, PermId)
    ensures MapValues(list) == list
    decreases |list|
  {
    if list != [] {
      var init := list[..|list| - 1];
      var last := list[|list| - 1];
      assert KeysUnique(init, PermId);
      MapValuesUnique(init);
      forall i | 0 <= i < |init| ensures PermId(init[i]) != last.id {
        assert PermId(list[i]) != PermId(list[|list| - 1]);
      }
      assert list == init + [last];
    }
  }

  // ---------------------------------------------------------------- a whole category

  /** Every permission of the category is selected: the category's checkbox is checked. */
  predicate CategoryChecked(selected: seq<Permission>, category: PermissionCategory)
  {
    forall i | 0 <= i < |category.permissions| :: Selected(selected, category.permissions[i].id)
  }

  /** handleCategoryToggle's updater: a fully selected category is deselected, otherwise its permissions are merged in by id. */
  function CategoryToggle(selected: seq<Permission>, category: PermissionCategory): (r: seq<Permission>)
  {
    if CategoryChecked(selected, category) then
      Filter(selected, (p: Permission) => !Selected(category.permissions, p.id))
    else MapValues(selected + category.permissions)
  }

  /** Deselecting a fully selected category removes exactly its ids and keeps the rest in order. */
  lemma CategoryToggleDeselects(selected: seq<Permission>, category: PermissionCategory)
    requires CategoryChecked(selected, category)
    ensures CategoryToggle(selected, category) == Filter(selected, (p: Permission) => !Selected(category.permissions, p.id))
    ensures forall k :: Selected(CategoryToggle(selected, category), k) <==> Selected(selected, k) && !Selected(category.permissions, k)
  {
    FilterKeys(selected, (p: Permission) => !Selected(category.permissions, p.id));
  }

  /**
   Selecting a category that is not fully selected adds its ids to the
   selection; no id is listed twice, and, when the selection had no repeated
   ids, every selected permission outside the category stays.
   */
  lemma CategoryToggleSelects(selected: seq<Permission>, category: PermissionCategory)
    requires !CategoryChecked(selected, category)
    ensures forall k :: Selected(CategoryToggle(selected, category), k) <==> Selected(selected, k) || Selected(category.permissions, k)
    ensures KeysUnique(CategoryToggle(selected, category), PermId)
    ensures CategoryChecked(CategoryToggle(selected, category), category)
    ensures KeysUnique(selected, PermId) ==>
      forall q | q in selected && !Selected(category.permissions, q.id) :: q in CategoryToggle(selected, category)
  {
    var r := CategoryToggle(selected, category);
    var ps := category.permissions;
    SetEntriesAppend([], selected, ps);
    var none: seq<Permission> := [];
    assert KeysUnique(none, PermId);
    forall k ensures Selected(selected + ps, k) <==> Selected(selected, k) || Selected(ps, k) {
      if Selected(selected + ps, k) {
        var i :| 0 <= i < |selected + ps| && PermId((selected + ps)[i]) == k;
        if i >= |selected| {
          assert PermId(ps[i - |selected|]) == k;
        }
      }
      if Selected(ps, k) {
        var i :| 0 <= i < |ps| && PermId(ps[i]) == k;
        assert PermId((selected + ps)[|selected| + i]) == k;
      }
      if Selected(selected, k) {
        var i :| 0 <= i < |selected| && PermId(selected[i]) == k;
        assert PermId((selected + ps)[i]) == k;
      }
    }
    forall i | 0 <= i < |ps| ensures Selected(r, ps[i].id) {
      assert PermId(ps[i]) == ps[i].id;
    }
    if KeysUnique(selected, PermId) {
      MapValuesUnique(selected);
    }
  }

  /** After the toggle, a non-empty category is checked exactly when it was not checked before. */
  lemma CategoryToggleFlips(selected: seq<Permission>, category: PermissionCategory)
    requires category.permissions != []
    ensures CategoryChecked(CategoryToggle(selected, category), category) <==> !CategoryChecked(selected, category)
  {
    if CategoryChecked(selected, category) {
      CategoryToggleDeselects(selected, category);
      assert PermId(category.permissions[0]) == category.permissions[0].id;
    } else {
      CategoryToggleSelects(selected, category);
    }
  }

  /** The categories drawn: those with at least one permission (an empty one would count as checked). */
  function RenderedCategories(data: seq<PermissionCategory>): (r: seq<PermissionCategory>)
    ensures forall c | c in r :: c in data && c.permissions != []
    ensures forall c | c in data && c.permissions != [] :: c in r
  {
    Filter(data, (c: PermissionCategory) => |c.permissions| > 0)
  }

  /** The tab's state: the expanded categories and the selected permissions. */
  class RoleTab {
    var expandedCategories: seq<string>
    var selectedPermissions: seq<Permission>

    /** No permission is selected twice. */
    predicate Valid()
      reads this
    {
      KeysUnique(selectedPermissions, PermId)
    }

    constructor ()
      ensures Valid() && expandedCategories == [] && selectedPermissions == []
    {
      expandedCategories := [];
      selectedPermissions := [];
    }

    method HandleToggleCategory(categoryId: string)
      modifies this`expandedCategories
      ensures expandedCategories == ToggleCategory(old(expandedCategories), categoryId)
    {
      expandedCategories := ToggleCategory(expandedCategories, categoryId);
    }

    method HandlePermissionToggle(id: string, name: string)
      modifies this`selectedPermissions
      ensures selectedPermissions == PermissionToggle(old(selectedPermissions), id, name)
      ensures old(Valid()) ==> Valid()
    {
      var prev := selectedPermissions;
      selectedPermissions := PermissionToggle(prev, id, name);
      if KeysUnique(prev, PermId) {
        if Selected(prev, id) {
          FilterUnique(prev, (p: Permission) => p.id != id);
        } else {
          assert KeysUnique(prev + [Permission(id, name)], PermId) by {
            forall i, j | 0 <= i < j < |prev| + 1
              ensures PermId((prev + [Permission(id, name)])[i]) != PermId((prev + [Permission(id, name)])[j])
            {
              if j == |prev| {
                assert PermId(prev[i]) != id;
              }
            }
          }
        }
      }
    }

    method HandleCategoryToggle(category: PermissionCategory)
      modifies this`selectedPermissions
      ensures selectedPermissions == CategoryToggle(old(selectedPermissions), category)
      ensures old(Valid()) ==> Valid()
    {
      var prev := selectedPermissions;
      selectedPermissions := CategoryToggle(prev, category);
      if CategoryChecked(prev, category) {
        if KeysUnique(prev, PermId) {
          FilterUnique(prev, (p: Permission) => !Selected(category.permissions, p.id));
        }
      } else {
        CategoryToggleSelects(prev, category);
      }
    }
  }

  /** Filtering keeps ids unique. */
  lemma {:induction false} FilterUnique(s: seq<Permission>, p: Permission -> bool)
    requires KeysUnique(s, PermId)
    ensures KeysUnique(Filter(s, p), PermId)
  {
    if s != [] {
      var tail := s[1..];
      var rest := Filter(tail, p);
      forall i, j | 0 <= i < j < |tail| ensures PermId(tail[i]) != PermId(tail[j]) {
        assert tail[i] == s[i + 1] && tail[j] == s[j + 1];
      }
      FilterUnique(tail, p);
      if p(s[0]) {
        forall i | 0 <= i < |tail| ensures PermId(tail[i]) != s[0].id {
          assert tail[i] == s[i + 1];
        }
        FilterKeys(tail, p);
        ConsUnique(s[0], rest);
        assert Filter(s, p) == [s[0]] + rest;
      } else {
        assert Filter(s, p) == rest;
      }
    }
  }

  lemma ConsUnique(x: Permission, t: seq<Permission>)
    requires KeysUnique(t, PermId) && !Selected(t, x.id)
    ensures KeysUnique([x] + t, PermId)
  {
    var r := [x] + t;
    forall i, j | 0 <= i < j < |r| ensures PermId(r[i]) != PermId(r[j]) {
      assert r[j] == t[j - 1];
      if i > 0 {
        assert r[i] == t[i - 1];
      }
    }
  }
}

=== FILE: room_service.dfy ===
/**
 Exam rooms: a subject taught to a class (RoomService.cs). Searching and
 paging with member counts and the room's lecturers, switching a room on or
 off, removing one, and creating or updating one under a RoomCode no other
 room uses.
 */
module RoomService {
  import opened Common
  import opened Domain

  datatype Room = Room(roomId: string, classId: string, subjectId: string, roomCode: string, capacity: Option<int>,
                       description: Option<string>, isActive: bool, createdAt: Option<int>, updatedAt: Option<int>)

  datatype RoomSearch = RoomSearch(classId: Option<string>, subjectId: Option<string>, isActive: Option<bool>,
                                   textSearch: Option<string>, currentPage: int, pageSize: int)

  /** A listed room: the room, how many members it has, and the e-mails of its active lecturers. */
  datatype RoomSummary = RoomSummary(room: Room, totalUsers: nat, teachers: seq<Option<string>>)

  datatype RoomInput = RoomInput(roomId: Option<string>, classId: string, subjectId: string, roomCode: string,
                                 capacity: Option<int>, description: Option<string>, isActive: bool)

  const MsgNoRooms: string := "No rooms found."
  const MsgEmptyId: string := "Room Id cannot be null or empty."
  const MsgNotFound: string := "Room not found."
  const MsgCodeInUse: string := "This RoomCode is already in use. Please enter a different one."
  const MsgBadSubject: string := "Please select a subject valid."
  const MsgBadClass: string := "Please select a class valid"

  // ---------------------------------------------------------------- GetAllRooms

  /**
   The search joins each room with its subject's name and its class's code
   (`subjectNames`, `classCodes`); the keyword is lower-cased and matched
   against the lower-cased subject name, class code and room code.
   */
  predicate MatchesSearch(r: Room, subjectNames: map<string, string>, classCodes: map<string, string>, q: RoomSearch)
  {
    (IsNullOrBlank(q.classId) || r.classId == q.classId.value)
    && (IsNullOrBlank(q.subjectId) || r.subjectId == q.subjectId.value)
    && (q.isActive.None? || r.isActive == q.isActive.value)
    && (IsNullOrBlank(q.textSearch)
        || (r.subjectId in subjectNames && Contains(Lower(subjectNames[r.subjectId]), Lower(q.textSearch.value)))
        || (r.classId in classCodes && Contains(Lower(classCodes[r.classId]), Lower(q.textSearch.value)))
        || Contains(Lower(r.roomCode), Lower(q.textSearch.value)))
  }

  predicate RoomBefore(a: Room, b: Room)
  {
    NewestFirst(a.createdAt, b.createdAt)
  }

  lemma RoomBeforeTotal()
    ensures TotalPreorder(RoomBefore)
  {
    NewestFirstTotal();
  }

  /** A membership row of the room for an active lecturer whose user row exists. */
  predicate TeacherRow(m: RoomUser, users: map<string, User>, roomId: string)
  {
    m.roomId == roomId && m.roleId == RoleLecture && m.status == StatusActive && m.userId in users
  }

  /**
   The e-mails of the room's active lecturers, in membership order, one per
   such row; members without a user row are skipped.
   */
  function TeacherEmails(members: seq<RoomUser>, users: map<string, User>, roomId: string): (r: seq<Option<string>>)
    ensures |r| <= |members|
    ensures forall e | e in r :: exists m | m in members :: TeacherRow(m, users, roomId) && users[m.userId].email == e
    ensures forall m | m in members && TeacherRow(m, users, roomId) :: users[m.userId].email in r
    ensures (forall m | m in members :: !TeacherRow(m, users, roomId)) ==> r == []
    decreases |members|
  {
    if members == [] then []
    else
      var m := members[|members| - 1];
      var rest := TeacherEmails(members[..|members| - 1], users, roomId);
      assert forall x | x in members :: x in members[..|members| - 1] || x == m;
      assert forall x | x in members[..|members| - 1] :: x in members;
      if TeacherRow(m, users, roomId)
      then rest + [users[m.userId].email]
      else rest
  }

  function Summary(r: Room, members: seq<RoomUser>, users: map<string, User>): (s: RoomSummary)
    ensures s.room == r && s.totalUsers == Count(members, (m: RoomUser) => m.roomId == r.roomId)
  {
    RoomSummary(r, Count(members, (m: RoomUser) => m.roomId == r.roomId), TeacherEmails(members, users, r.roomId))
  }

  /** The rooms that match the search. */
  function MatchingRooms(rooms: seq<Room>, subjectNames: map<string, string>, classCodes: map<string, string>, q: RoomSearch)
    : seq<Room>
  {
    Filter(rooms, (x: Room) => MatchesSearch(x, subjectNames, classCodes, q))
  }

  /** GetAllRooms: the requested page of matching rooms in order, each with its member count and teachers' emails. */
  function GetAllRooms(rooms: seq<Room>, subjectNames: map<string, string>, classCodes: map<string, string>,
                       members: seq<RoomUser>, users: map<string, User>, q: RoomSearch): (r: (string, Listing<RoomSummary>))
    ensures r.0 != "" ==> r.0 == MsgNoRooms && r.1.items.None?
    ensures var page := PageOf(SortBy(MatchingRooms(rooms, subjectNames, classCodes, q), RoomBefore), q.currentPage, q.pageSize);
      && (r.0 == MsgNoRooms <==> page == [])
      && (r.0 == "" ==>
            r.1.items.Some? && |r.1.items.value| == |page|
            && forall i | 0 <= i < |page| :: r.1.items.value[i] == Summary(page[i], members, users))
  {
    var matching := MatchingRooms(rooms, subjectNames, classCodes, q);
    RoomBeforeTotal();
    var page := SortedPage(matching, RoomBefore, q.currentPage, q.pageSize);
    if page == [] then (MsgNoRooms, Listing(None, 0, 0, 0, 0))
    else
      var items := seq(|page|, i requires 0 <= i < |page| => Summary(page[i], members, users));
      ("", Listing(Some(items), PageCount(|matching|, q.pageSize), q.currentPage, q.pageSize, |matching|))
  }

  /** An empty page, even one past the end, gives the message and no rows; a page of rows carries the totals of all matching rooms. */
  lemma GetAllRoomsListing(rooms: seq<Room>, subjectNames: map<string, string>, classCodes: map<string, string>,
                           members: seq<RoomUser>, users: map<string, User>, q: RoomSearch)
    ensures var r := GetAllRooms(rooms, subjectNames, classCodes, members, users, q);
      var matching := MatchingRooms(rooms, subjectNames, classCodes, q);
      && (matching == [] || q.pageSize <= 0 ==> r.0 == MsgNoRooms)
      && (r.0 == "" ==>
            r.1.items.Some? && r.1.items.value != [] && r.1.total == |matching|
            && r.1.totalPage == PageCount(|matching|, q.pageSize))
  {
    RoomBeforeTotal();
  }

  /** Every row of a page is a matching room with its member count. */
  lemma GetAllRoomsRows(rooms: seq<Room>, subjectNames: map<string, string>, classCodes: map<string, string>,
                        members: seq<RoomUser>, users: map<string, User>, q: RoomSearch)
    ensures var r := GetAllRooms(rooms, subjectNames, classCodes, members, users, q);
      r.1.items.Some? ==>
        forall i | 0 <= i < |r.1.items.value| ::
          var s := r.1.items.value[i];
          s.room in rooms && MatchesSearch(s.room, subjectNames, classCodes, q)
          && s.totalUsers == Count(members, (m: RoomUser) => m.roomId == s.room.roomId)
  {
    var matching := MatchingRooms(rooms, subjectNames, classCodes, q);
    RoomBeforeTotal();
    var page := SortedPage(matching, RoomBefore, q.currentPage, q.pageSize);
    if page != [] {
      var items := seq(|page|, i requires 0 <= i < |page| => Summary(page[i], members, users));
      assert forall i | 0 <= i < |items| :: items[i].room == page[i] && page[i] in page;
    }
  }

  /** The rows of a page are in room order. */
  lemma GetAllRoomsOrder(rooms: seq<Room>, subjectNames: map<string, string>, classCodes: map<string, string>,
                         members: seq<RoomUser>, users: map<string, User>, q: RoomSearch)
    ensures var r := GetAllRooms(rooms, subjectNames, classCodes, members, users, q);
      r.1.items.Some? ==>
        forall i, j | 0 <= i < j < |r.1.items.value| :: RoomBefore(r.1.items.value[i].room, r.1.items.value[j].room)
  {
    var matching := MatchingRooms(rooms, subjectNames, classCodes, q);
    RoomBeforeTotal();
    var page := SortedPage(matching, RoomBefore, q.currentPage, q.pageSize);
    if page != [] {
      var items := seq(|page|, i requires 0 <= i < |page| => Summary(page[i], members, users));
      assert forall i | 0 <= i < |items| :: items[i].room == page[i];
    }
  }

  // ---------------------------------------------------------------- lookups and CreateUpdateRoomVM

  /** The position of the room with the id (`FindAsync`). */
  function Find(rooms: seq<Room>, id: string): (r: Option<nat>)
    ensures r.Some? ==> r.value < |rooms| && rooms[r.value].roomId == id
    ensures r.None? <==> forall x | x in rooms :: x.roomId != id
  {
    var r := FirstWhere(rooms, (x: Room) => x.roomId == id);
    assert r.None? ==> forall x | x in rooms :: x.roomId != id by {
      if r.None? {
        forall x | x in rooms ensures x.roomId != id {
          var j :| 0 <= j < |rooms| && rooms[j] == x;
        }
      }
    }
    r
  }

  /** Another room already holds the code; on a create, any room does. */
  predicate CodeTaken(rooms: seq<Room>, input: RoomInput)
  {
    exists x | x in rooms :: x.roomCode == input.roomCode && (IsNullOrBlank(input.roomId) || x.roomId != input.roomId.value)
  }

  /** CreateUpdateRoomVM's refusal, in the code's order: code in use, unknown subject, unknown class, unknown room. */
  function SaveError(rooms: seq<Room>, subjectIds: set<string>, classIds: set<string>, input: RoomInput): (r: Option<string>)
    ensures r.None? <==>
      !CodeTaken(rooms, input) && input.subjectId in subjectIds && input.classId in classIds
      && (!IsNullOrBlank(input.roomId) ==> Find(rooms, input.roomId.value).Some?)
    ensures CodeTaken(rooms, input) ==> r == Some(MsgCodeInUse)
    ensures !CodeTaken(rooms, input) && input.subjectId !in subjectIds ==> r == Some(MsgBadSubject)
    ensures !CodeTaken(rooms, input) && input.subjectId in subjectIds && input.classId !in classIds ==> r == Some(MsgBadClass)
  {
    if CodeTaken(rooms, input) then Some(MsgCodeInUse)
    else if input.subjectId !in subjectIds then Some(MsgBadSubject)
    else if input.classId !in classIds then Some(MsgBadClass)
    else if !IsNullOrBlank(input.roomId) && Find(rooms, input.roomId.value).None? then Some(MsgNotFound)
    else None
  }

  function CreatedRoom(input: RoomInput, newId: string, now: int): (r: Room)
    ensures r.roomId == newId && r.roomCode == input.roomCode && r.classId == input.classId
    ensures r.subjectId == input.subjectId && r.isActive == input.isActive && r.createdAt == Some(now) && r.updatedAt.None?
  {
    Room(newId, input.classId, input.subjectId, input.roomCode, input.capacity, input.description, input.isActive,
         Some(now), None)
  }

  function UpdatedRoom(x: Room, input: RoomInput, now: int): (r: Room)
    ensures r.roomId == x.roomId && r.createdAt == x.createdAt && r.updatedAt == Some(now)
    ensures r.roomCode == input.roomCode && r.classId == input.classId && r.subjectId == input.subjectId
    ensures r.isActive == input.isActive
  {
    x.(classId := input.classId, roomCode := input.roomCode, description := input.description,
       capacity := input.capacity, subjectId := input.subjectId, isActive := input.isActive, updatedAt := Some(now))
  }

  predicate CodesUnique(rooms: seq<Room>)
  {
    forall i, j | 0 <= i < j < |rooms| :: rooms[i].roomCode != rooms[j].roomCode
  }

  predicate IdsUnique(rooms: seq<Room>)
  {
    forall i, j | 0 <= i < j < |rooms| :: rooms[i].roomId != rooms[j].roomId
  }

  /** A create the checks let through keeps RoomCodes unique. */
  lemma CreateKeepsCodesUnique(rooms: seq<Room>, subjectIds: set<string>, classIds: set<string>, input: RoomInput,
                               newId: string, now: int)
    requires CodesUnique(rooms) && IsNullOrBlank(input.roomId) && SaveError(rooms, subjectIds, classIds, input).None?
    ensures CodesUnique(rooms + [CreatedRoom(input, newId, now)])
  {
    var r := rooms + [CreatedRoom(input, newId, now)];
    forall i, j | 0 <= i < j < |r| ensures r[i].roomCode != r[j].roomCode {
      if j == |rooms| {
        assert r[i] in rooms;
      }
    }
  }

  /** An update the checks let through keeps RoomCodes unique. */
  lemma UpdateKeepsCodesUnique(rooms: seq<Room>, subjectIds: set<string>, classIds: set<string>, input: RoomInput, now: int)
    requires CodesUnique(rooms) && IdsUnique(rooms) && !IsNullOrBlank(input.roomId)
    requires SaveError(rooms, subjectIds, classIds, input).None?
    ensures var k := Find(rooms, input.roomId.value).value;
      CodesUnique(rooms[k := UpdatedRoom(rooms[k], input, now)])
  {
    var k := Find(rooms, input.roomId.value).value;
    var r := rooms[k := UpdatedRoom(rooms[k], input, now)];
    forall i, j | 0 <= i < j < |r| ensures r[i].roomCode != r[j].roomCode {
      if i == k {
        assert rooms[j] in rooms && rooms[j].roomId != rooms[k].roomId;
      } else if j == k {
        assert rooms[i] in rooms && rooms[i].roomId != rooms[k].roomId;
      }
    }
  }

  /** The code check runs first: an update of an unknown room whose code is in use reports the code, not the room. */
  lemma UnknownRoomReportsCodeFirst(x: Room, input: RoomInput, subjectIds: set<string>, classIds: set<string>)
    requires !IsNullOrBlank(input.roomId) && input.roomId.value != x.roomId && input.roomCode == x.roomCode
    ensures Find([x], input.roomId.value).None?
    ensures SaveError([x], subjectIds, classIds, input) == Some(MsgCodeInUse)
  {
    assert CodeTaken([x], input) by {
      assert x in [x];
    }
  }

  /** Dropping the room at `k` keeps every other room, keeps the table's uniqueness and leaves no room with that id. */
  lemma RemoveKeepsOthers(rooms: seq<Room>, k: nat)
    requires k < |rooms| && IdsUnique(rooms) && CodesUnique(rooms)
    ensures var rest := rooms[..k] + rooms[k + 1..];
      IdsUnique(rest) && CodesUnique(rest)
      && forall x :: x in rest <==> x in rooms && x.roomId != rooms[k].roomId
  {
    var rest := rooms[..k] + rooms[k + 1..];
    assert forall j | 0 <= j < |rest| :: rest[j] == rooms[if j < k then j else j + 1];
    forall x ensures x in rest <==> x in rooms && x.roomId != rooms[k].roomId {
      if x in rooms && x.roomId != rooms[k].roomId {
        var j :| 0 <= j < |rooms| && rooms[j] == x;
        if j < k { assert rest[j] == x; } else { assert rest[j - 1] == x; }
      }
      if x in rest {
        var j :| 0 <= j < |rest| && rest[j] == x;
        assert rooms[if j < k then j else j + 1] == x;
      }
    }
  }

  // ---------------------------------------------------------------- the store

  /** The Rooms table in table order. */
  class RoomStore {
    var rooms: seq<Room>
    const subjectIds: set<string>
    const classIds: set<string>

    /** The Rooms table as loaded: RoomCode and RoomId are each unique across its rows. */
    constructor (rooms: seq<Room>, subjectIds: set<string>, classIds: set<string>)
      requires CodesUnique(rooms) && IdsUnique(rooms)
      ensures Valid()
      ensures this.rooms == rooms && this.subjectIds == subjectIds && this.classIds == classIds
    {
      this.rooms := rooms;
      this.subjectIds := subjectIds;
      this.classIds := classIds;
    }

    predicate Valid()
      reads this
    {
      CodesUnique(rooms) && IdsUnique(rooms)
    }

    /** ChangeActivateRoom: flips IsActive and stamps the room (saved before the log); returns the log's message. */
    method ChangeActivateRoom(id: Option<string>, now: int, logMessage: string) returns (message: string)
      requires Valid()
      modifies this
      ensures Valid()
      ensures IsNullOrBlank(id) ==> message == MsgEmptyId && rooms == old(rooms)
      ensures !IsNullOrBlank(id) && Find(old(rooms), id.value).None? ==> message == MsgNotFound && rooms == old(rooms)
      ensures !IsNullOrBlank(id) && Find(old(rooms), id.value).Some? ==>
        var k := Find(old(rooms), id.value).value;
        message == logMessage
        && rooms == old(rooms)[k := old(rooms)[k].(isActive := !old(rooms)[k].isActive, updatedAt := Some(now))]
    {
      if IsNullOrBlank(id) {
        return MsgEmptyId;
      }
      var k := Find(rooms, id.value);
      if k.None? {
        return MsgNotFound;
      }
      rooms := rooms[k.value := rooms[k.value].(isActive := !rooms[k.value].isActive, updatedAt := Some(now))];
      message := logMessage;
    }

    /** DoRemoveRoom: removes the room (saved before the log) and returns the log's message. */
    method DoRemoveRoom(id: Option<string>, logMessage: string) returns (message: string)
      requires Valid()
      modifies this
      ensures Valid()
      ensures IsNullOrBlank(id) ==> message == MsgEmptyId && rooms == old(rooms)
      ensures !IsNullOrBlank(id) && Find(old(rooms), id.value).None? ==> message == MsgNotFound && rooms == old(rooms)
      ensures !IsNullOrBlank(id) && Find(old(rooms), id.value).Some? ==>
        var k := Find(old(rooms), id.value).value;
        message == logMessage && rooms == old(rooms)[..k] + old(rooms)[k + 1..]
        && forall x :: x in rooms <==> x in old(rooms) && x.roomId != id.value
    {
      if IsNullOrBlank(id) {
        return MsgEmptyId;
      }
      var k := Find(rooms, id.value);
      if k.None? {
        return MsgNotFound;
      }
      RemoveKeepsOthers(rooms, k.value);
      rooms := rooms[..k.value] + rooms[k.value + 1..];
      message := logMessage;
    }

    /**
     CreateUpdateRoomVM: creates under `newId` when no id is given, else
     overwrites the room; keeps RoomCodes unique. The log's outcome is not
     reported: a save that went through always answers "".
     */
    method CreateUpdateRoomVM(input: RoomInput, now: int, newId: string) returns (message: string)
      requires Valid() && forall x | x in rooms :: x.roomId != newId
      modifies this
      ensures Valid()
      ensures var err := SaveError(old(rooms), subjectIds, classIds, input);
        && (err.Some? ==> message == err.value && rooms == old(rooms))
        && (err.None? ==> message == "")
        && (err.None? && IsNullOrBlank(input.roomId) ==> rooms == old(rooms) + [CreatedRoom(input, newId, now)])
        && (err.None? && !IsNullOrBlank(input.roomId) ==>
              var k := Find(old(rooms), input.roomId.value).value;
              rooms == old(rooms)[k := UpdatedRoom(old(rooms)[k], input, now)])
    {
      var err := SaveError(rooms, subjectIds, classIds, input);
      if err.Some? {
        return err.value;
      }
      if IsNullOrBlank(input.roomId) {
        CreateKeepsCodesUnique(rooms, subjectIds, classIds, input, newId, now);
        rooms := rooms + [CreatedRoom(input, newId, now)];
      } else {
        var k := Find(rooms, input.roomId.value).value;
        UpdateKeepsCodesUnique(rooms, subjectIds, classIds, input, now);
        rooms := rooms[k := UpdatedRoom(rooms[k], input, now)];
      }
      message := "";
    }
  }
}

=== FILE: room_user_service.dfy ===
/**
 Room membership (RoomUserService.cs): enrolling students by user id or user
 code under the room's capacity, removing members who are not sitting an
 exam of the room, and switching members' status.
 */
module RoomUserService {
  import opened Common
  import opened Domain

  // ---------------------------------------------------------------- resolving inputs

  /** The user is named by one of the inputs, by id or by code. */
  predicate NamedBy(u: User, inputs: seq<string>)
  {
    u.userId in inputs || (u.userCode.Some? && u.userCode.value in inputs)
  }

  /** The user answers to the input: it is the user's id or code. */
  predicate AnswersTo(u: User, k: string)
  {
    u.userId == k || u.userCode == Some(k)
  }

  /**
   The input-to-user dictionary: for each found user in table order, its code
   (when it has one) and then its id map to its id; a later entry overwrites.
   */
  function InputMap(found: seq<User>): (m: map<string, string>)
  {
    if found == [] then map[]
    else
      var u := found[|found| - 1];
      var m := InputMap(found[..|found| - 1]);
      var m' := if u.userCode.Some? then m[u.userCode.value := u.userId] else m;
      m'[u.userId := u.userId]
  }

  /** Every key of the dictionary maps to the id of a found user answering to it. */
  lemma {:induction false} InputMapSound(found: seq<User>, k: string)
    requires k in InputMap(found)
    ensures exists i | 0 <= i < |found| :: AnswersTo(found[i], k) && InputMap(found)[k] == found[i].userId
  {
    var n := |found| - 1;
    var u := found[n];
    if !AnswersTo(u, k) {
      InputMapSound(found[..n], k);
      var i :| 0 <= i < n && AnswersTo(found[..n][i], k) && InputMap(found[..n])[k] == found[..n][i].userId;
      assert found[i] == found[..n][i];
    } else {
      assert AnswersTo(found[n], k);
    }
  }

  /** Every found user answers through the dictionary to its id and its code. */
  lemma {:induction false} InputMapComplete(found: seq<User>, i: int)
    requires 0 <= i < |found|
    ensures found[i].userId in InputMap(found)
    ensures found[i].userCode.Some? ==> found[i].userCode.value in InputMap(found)
  {
    var n := |found| - 1;
    if i < n {
      InputMapComplete(found[..n], i);
      assert found[..n][i] == found[i];
    }
  }

  /** A user's id key always maps to that user when no later found user answers to it. */
  lemma {:induction false} InputMapOwnId(found: seq<User>, i: int)
    requires 0 <= i < |found|
    requires forall j | i < j < |found| :: !AnswersTo(found[j], found[i].userId)
    ensures found[i].userId in InputMap(found) && InputMap(found)[found[i].userId] == found[i].userId
  {
    var n := |found| - 1;
    if i < n {
      InputMapOwnId(found[..n], i);
      assert found[..n][i] == found[i];
    }
  }

  /** The loop that fills the dictionary. */
  method BuildInputMap(found: seq<User>) returns (m: map<string, string>)
    ensures m == InputMap(found)
  {
    m := map[];
    var i := 0;
    while i < |found|
      invariant 0 <= i <= |found|
      invariant m == InputMap(found[..i])
    {
      var u := found[i];
      assert found[..i + 1][..i] == found[..i];
      if u.userCode.Some? {
        m := m[u.userCode.value := u.userId];
      }
      m := m[u.userId := u.userId];
      i := i + 1;
    }
    assert found[..i] == found;
  }

  /** The inputs no found user answers to, in order, repeats kept. */
  function InvalidInputs(inputs: seq<string>, m: map<string, string>): (r: seq<string>)
    ensures forall x :: x in r <==> x in inputs && x !in m
  {
    Filter(inputs, x => x !in m)
  }

  /** The user is already a member of the room. */
  predicate InRoom(rows: seq<RoomUser>, roomId: string, userId: string)
  {
    exists i | 0 <= i < |rows| :: rows[i].roomId == roomId && rows[i].userId == userId
  }

  /** The dictionary keys whose user is already a member (not only inputs: a found user's other key too). */
  function DuplicatedInputs(m: map<string, string>, rows: seq<RoomUser>, roomId: string): (r: set<string>)
    ensures forall k :: k in r <==> k in m && InRoom(rows, roomId, m[k])
  {
    set k | k in m && InRoom(rows, roomId, m[k])
  }

  /** The inputs that will be added: inputs minus invalid minus duplicated, as LINQ `Except` computes it. */
  function ValidNewInputs(inputs: seq<string>, m: map<string, string>, rows: seq<RoomUser>, roomId: string)
    : (r: seq<string>)
    ensures |r| <= |inputs|
    ensures NoDup(r)
    ensures forall x :: x in r <==> x in inputs && x in m && !InRoom(rows, roomId, m[x])
  {
    var invalid := InvalidInputs(inputs, m);
    Except(Except(inputs, set x | x in invalid), DuplicatedInputs(m, rows, roomId))
  }

  /** An input repeated in the request is added once. */
  lemma RepeatedInputCollapses(inputs: seq<string>, m: map<string, string>, rows: seq<RoomUser>, roomId: string,
                               i: int, j: int)
    requires 0 <= i < j < |inputs| && inputs[i] == inputs[j]
    ensures |ValidNewInputs(inputs, m, rows, roomId)| < |inputs|
  {
    var r := ValidNewInputs(inputs, m, rows, roomId);
    ElementsBound(r, inputs, i, j);
  }

  /** A duplicate-free list drawn from a list with a repeat is strictly shorter. */
  lemma ElementsBound(r: seq<string>, xs: seq<string>, i: int, j: int)
    requires NoDup(r) && forall x | x in r :: x in xs
    requires 0 <= i < j < |xs| && xs[i] == xs[j]
    ensures |r| < |xs|
  {
    var rs := set x | x in r;
    var xss := set x | x in xs;
    NoDupCard(r);
    assert rs <= xss;
    SubsetCard(rs, xss);
    SetOfSeqCard(xs, i, j);
  }

  lemma {:induction false} SubsetCard(a: set<string>, b: set<string>)
    requires a <= b
    ensures |a| <= |b|
    decreases |b|
  {
    if a != {} {
      var x :| x in a;
      SubsetCard(a - {x}, b - {x});
    }
  }

  lemma {:induction false} NoDupCard(r: seq<string>)
    requires NoDup(r)
    ensures |set x | x in r| == |r|
  {
    if r != [] {
      var init := r[..|r| - 1];
      assert NoDup(init);
      NoDupCard(init);
      assert (set x | x in r) == (set x | x in init) + {r[|r| - 1]};
    }
  }

  lemma {:induction false} SeqSetCard(xs: seq<string>)
    ensures |set x | x in xs| <= |xs|
  {
    if xs != [] {
      var init := xs[..|xs| - 1];
      SeqSetCard(init);
      assert (set x | x in xs) == (set x | x in init) + {xs[|xs| - 1]};
    }
  }

  lemma SetOfSeqCard(xs: seq<string>, i: int, j: int)
    requires 0 <= i < j < |xs| && xs[i] == xs[j]
    ensures |set x | x in xs| < |xs|
  {
    var rest := xs[..j] + xs[j + 1..];
    assert xs == xs[..j] + [xs[j]] + xs[j + 1..];
    assert (set x | x in xs) == (set x | x in rest) by {
      assert xs[j] == rest[i];
    }
    SeqSetCard(rest);
  }

  // ---------------------------------------------------------------- capacity and rows

  /** All current rows of the room, whatever their status. */
  function MemberCount(rows: seq<RoomUser>, roomId: string): (r: nat)
    ensures r <= |rows|
  {
    Count(rows, (ru: RoomUser) => ru.roomId == roomId)
  }

  /** The capacity refusal: no free slot at all, then more new inputs than free slots. */
  function CapacityError(capacity: int, current: nat, requested: nat): (r: Option<string>)
    ensures r.None? <==> 0 < capacity - current && requested <= capacity - current
  {
    var slots := capacity - current;
    if slots <= 0 then
      Some("Room is full. Capacity = " + IntToString(capacity) + ", Current = " + IntToString(current) + ".")
    else if requested > slots then
      Some("Not enough capacity. Available slots: " + IntToString(slots) + ", Requested: " + IntToString(requested) + ".")
    else None
  }

  /** One new membership row per valid input: the input's user, as an active Student. */
  function NewRows(valid: seq<string>, m: map<string, string>, roomId: string, newIds: seq<string>, now: int)
    : (r: seq<RoomUser>)
    requires forall x | x in valid :: x in m
    requires |newIds| >= |valid|
    ensures |r| == |valid|
    ensures forall i | 0 <= i < |valid| ::
      r[i] == RoomUser(newIds[i], roomId, m[valid[i]], RoleStudent, StatusActive, now)
  {
    seq(|valid|, i requires 0 <= i < |valid| => RoomUser(newIds[i], roomId, m[valid[i]], RoleStudent, StatusActive, now))
  }

  // ---------------------------------------------------------------- removal and status

  /**
   Sending a user's id and its code, both new to the room, adds two rows for
   that one user.
   */
  lemma IdAndCodeAddTwoRows(u: User, code: string, roomId: string, rows: seq<RoomUser>, newIds: seq<string>, now: int)
    requires u.userCode == Some(code) && code != u.userId
    requires !InRoom(rows, roomId, u.userId) && |newIds| >= 2
    ensures var m := InputMap([u]);
      var added := NewRows(ValidNewInputs([u.userId, code], m, rows, roomId), m, roomId, newIds, now);
      |added| == 2 && added[0].userId == u.userId && added[1].userId == u.userId
  {
    var m := InputMap([u]);
    assert InputMap([u][..0]) == map[];
    assert m == map[code := u.userId][u.userId := u.userId];
    var valid := ValidNewInputs([u.userId, code], m, rows, roomId);
    assert u.userId in valid && code in valid;
    var i :| 0 <= i < |valid| && valid[i] == u.userId;
    var j :| 0 <= j < |valid| && valid[j] == code;
    assert i != j;
    assert m[valid[0]] == u.userId && m[valid[1]] == u.userId;
  }

  /** The loop that builds the new rows. */
  method MakeRows(valid: seq<string>, m: map<string, string>, roomId: string, newIds: seq<string>, now: int)
    returns (added: seq<RoomUser>)
    requires forall x | x in valid :: x in m
    requires |newIds| >= |valid|
    ensures added == NewRows(valid, m, roomId, newIds, now)
  {
    added := [];
    var i := 0;
    while i < |valid|
      invariant 0 <= i <= |valid|
      invariant added == NewRows(valid[..i], m, roomId, newIds, now)
    {
      added := added + [RoomUser(newIds[i], roomId, m[valid[i]], RoleStudent, StatusActive, now)];
      i := i + 1;
    }
    assert valid[..i] == valid;
  }

  /** The dictionary of the users the inputs name. */
  function Resolve(users: seq<User>, inputs: seq<string>): map<string, string>
  {
    InputMap(Filter(users, u => NamedBy(u, inputs)))
  }

  /** The exams held in the room. */
  function RoomExams(examRooms: map<string, string>, roomId: string): (r: set<string>)
    ensures forall e :: e in r <==> e in examRooms && examRooms[e] == roomId
  {
    set e | e in examRooms && examRooms[e] == roomId
  }

  /** The requested users with an attempt in progress at an exam of the room. */
  function BusyUsers(attempts: map<string, StudentExam>, exams: set<string>, userIds: seq<string>): (r: set<string>)
    ensures forall s :: s in r <==> s in userIds && exists id | id in attempts ::
      attempts[id].studentId == s && attempts[id].examId in exams && attempts[id].status == AttemptInProgress
  {
    set id | id in attempts && attempts[id].examId in exams && attempts[id].studentId in userIds
      && attempts[id].status == AttemptInProgress :: attempts[id].studentId
  }

  /** `FullName ?? UserCode`, a missing code printing as nothing. */
  function DisplayName(u: User): string
  {
    if u.fullName.Some? then u.fullName.value else if u.userCode.Some? then u.userCode.value else ""
  }

  /** The names listed when busy users block a removal, in table order. */
  function BusyNames(users: seq<User>, busy: set<string>): (r: seq<string>)
    ensures |r| <= |users|
    ensures forall n :: n in r <==> exists u | u in users :: u.userId in busy && DisplayName(u) == n
    ensures r == [] <==> forall u | u in users :: u.userId !in busy
  {
    if users == [] then []
    else
      var u := users[|users| - 1];
      assert forall v | v in users :: v in users[..|users| - 1] || v == u;
      assert forall v | v in users[..|users| - 1] :: v in users;
      BusyNames(users[..|users| - 1], busy) + (if u.userId in busy then [DisplayName(u)] else [])
  }

  /** The membership rows a removal or a status change addresses. */
  predicate Targeted(ru: RoomUser, roomId: string, userIds: seq<string>)
  {
    ru.roomId == roomId && ru.userId in userIds
  }

  /** The rows that survive removing the targeted ones. */
  function RemainingRows(rows: seq<RoomUser>, roomId: string, userIds: seq<string>): (r: seq<RoomUser>)
    ensures forall ru :: ru in r <==> ru in rows && !Targeted(ru, roomId, userIds)
  {
    Filter(rows, ru => !Targeted(ru, roomId, userIds))
  }

  /** The table after setting the status of every targeted row. */
  function WithStatus(rows: seq<RoomUser>, roomId: string, userIds: seq<string>, status: int, now: int)
    : (r: seq<RoomUser>)
    ensures |r| == |rows|
    ensures forall i | 0 <= i < |rows| ::
      r[i] == if Targeted(rows[i], roomId, userIds) then rows[i].(status := status, updatedAt := now) else rows[i]
  {
    if rows == [] then []
    else
      var ru := rows[|rows| - 1];
      WithStatus(rows[..|rows| - 1], roomId, userIds, status, now)
      + [if Targeted(ru, roomId, userIds) then ru.(status := status, updatedAt := now) else ru]
  }

  /** Setting a status is idempotent. */
  lemma WithStatusIdempotent(rows: seq<RoomUser>, roomId: string, userIds: seq<string>, status: int, now: int)
    ensures WithStatus(WithStatus(rows, roomId, userIds, status, now), roomId, userIds, status, now)
      == WithStatus(rows, roomId, userIds, status, now)
  {
    var once := WithStatus(rows, roomId, userIds, status, now);
    var twice := WithStatus(once, roomId, userIds, status, now);
    assert forall i | 0 <= i < |rows| :: twice[i] == once[i];
  }

  const MsgRoomOrUsersEmpty: string := "RoomId and list of UserIds cannot be null or empty."
  const MsgBusyPrefix: string := "Cannot remove users who are currently taking an exam: "
  const MsgNoMatchInRoom: string := "No matching users found in the room."
  const MsgAddEmpty: string := "Room ID and User Codes/IDs cannot be null or empty."
  const MsgRoomNotFound: string := "Room not found."
  const MsgNoNewUsers: string := "No new users to add."
  const MsgNoStudent: string := "No student found."

  /** What AddStudentsToRoom returns besides its message. */
  datatype AddOutcome = AddOutcome(message: string, added: seq<string>, invalid: seq<string>, duplicated: set<string>)

  /**
   The membership table with the users, rooms (their capacity), the room of
   each exam and the attempts it reads.
   */
  class RoomUserStore {
    var roomUsers: seq<RoomUser>
    const users: seq<User>
    const capacities: map<string, int>
    const examRooms: map<string, string>
    const attempts: map<string, StudentExam>

    constructor (roomUsers: seq<RoomUser>, users: seq<User>, capacities: map<string, int>,
                 examRooms: map<string, string>, attempts: map<string, StudentExam>)
      ensures this.roomUsers == roomUsers && this.users == users && this.capacities == capacities
      ensures this.examRooms == examRooms && this.attempts == attempts
    {
      this.roomUsers := roomUsers;
      this.users := users;
      this.capacities := capacities;
      this.examRooms := examRooms;
      this.attempts := attempts;
    }

    /**
     AddStudentsToRoom: resolves each input to a user, refuses over capacity,
     and adds one active Student row per valid new input.
     */
    method AddStudentsToRoom(roomId: string, inputs: seq<string>, newIds: seq<string>, logMessage: string, now: int)
      returns (out: AddOutcome)
      requires |newIds| >= |inputs|
      modifies this
      ensures IsBlank(roomId) || inputs == [] ==> out == AddOutcome(MsgAddEmpty, [], [], {}) && roomUsers == old(roomUsers)
      ensures !IsBlank(roomId) && inputs != [] && roomId !in capacities ==>
        out == AddOutcome(MsgRoomNotFound, [], [], {}) && roomUsers == old(roomUsers)
      ensures !IsBlank(roomId) && inputs != [] && roomId in capacities ==>
        var m := Resolve(users, inputs);
        var valid := ValidNewInputs(inputs, m, old(roomUsers), roomId);
        var cap := CapacityError(capacities[roomId], MemberCount(old(roomUsers), roomId), |valid|);
        && out.invalid == InvalidInputs(inputs, m)
        && out.duplicated == DuplicatedInputs(m, old(roomUsers), roomId)
        && (cap.Some? ==> out.message == cap.value && out.added == [] && roomUsers == old(roomUsers))
        && (cap.None? && valid == [] ==> out.message == MsgNoNewUsers && out.added == [] && roomUsers == old(roomUsers))
        && (cap.None? && valid != [] ==>
              out.message == logMessage && out.added == valid
              && roomUsers == old(roomUsers) + NewRows(valid, m, roomId, newIds, now))
    {
      if IsBlank(roomId) || inputs == [] {
        return AddOutcome(MsgAddEmpty, [], [], {});
      }
      if roomId !in capacities {
        return AddOutcome(MsgRoomNotFound, [], [], {});
      }
      var m := BuildInputMap(Filter(users, u => NamedBy(u, inputs)));
      var invalid := InvalidInputs(inputs, m);
      var duplicated := DuplicatedInputs(m, roomUsers, roomId);
      var valid := Except(Except(inputs, set x | x in invalid), duplicated);
      var cap := CapacityError(capacities[roomId], MemberCount(roomUsers, roomId), |valid|);
      if cap.Some? {
        return AddOutcome(cap.value, [], invalid, duplicated);
      }
      var added := MakeRows(valid, m, roomId, newIds, now);
      if added == [] {
        return AddOutcome(MsgNoNewUsers, [], invalid, duplicated);
      }
      roomUsers := roomUsers + added;
      out := AddOutcome(logMessage, valid, invalid, duplicated);
    }

    /**
     RemoveUsersFromRoom: refuses while a target sits an exam of the room,
     then removes exactly the targeted rows, refusing when there are none.
     */
    method RemoveUsersFromRoom(roomId: string, userIds: seq<string>, logMessage: string) returns (message: string)
      modifies this
      ensures var busy := BusyUsers(attempts, RoomExams(examRooms, roomId), userIds);
        var targets := Filter(old(roomUsers), ru => Targeted(ru, roomId, userIds));
        && (IsBlank(roomId) || userIds == [] ==> message == MsgRoomOrUsersEmpty && roomUsers == old(roomUsers))
        && (!IsBlank(roomId) && userIds != [] && busy != {} ==>
              message == MsgBusyPrefix + JoinWith(BusyNames(users, busy), ", ") && roomUsers == old(roomUsers))
        && (!IsBlank(roomId) && userIds != [] && busy == {} && targets == [] ==>
              message == MsgNoMatchInRoom && roomUsers == old(roomUsers))
        && (!IsBlank(roomId) && userIds != [] && busy == {} && targets != [] ==>
              message == logMessage && roomUsers == RemainingRows(old(roomUsers), roomId, userIds))
    {
      if IsBlank(roomId) || userIds == [] {
        return MsgRoomOrUsersEmpty;
      }
      var busy := BusyUsers(attempts, RoomExams(examRooms, roomId), userIds);
      if busy != {} {
        return MsgBusyPrefix + JoinWith(BusyNames(users, busy), ", ");
      }
      var targets := Filter(roomUsers, ru => Targeted(ru, roomId, userIds));
      if targets == [] {
        return MsgNoMatchInRoom;
      }
      roomUsers := RemainingRows(roomUsers, roomId, userIds);
      message := logMessage;
    }

    /** ToggleActive: every targeted row gets the requested status; none targeted is an error. */
    method ToggleActive(roomId: string, userIds: seq<string>, status: int, logMessage: string, now: int)
      returns (message: string)
      modifies this
      ensures Filter(old(roomUsers), ru => Targeted(ru, roomId, userIds)) == [] ==>
        message == MsgNoStudent && roomUsers == old(roomUsers)
      ensures Filter(old(roomUsers), ru => Targeted(ru, roomId, userIds)) != [] ==>
        message == logMessage && roomUsers == WithStatus(old(roomUsers), roomId, userIds, status, now)
    {
      if Filter(roomUsers, ru => Targeted(ru, roomId, userIds)) == [] {
        return MsgNoStudent;
      }
      var rows := roomUsers;
      var updated: seq<RoomUser> := [];
      var i := 0;
      while i < |rows|
        invariant 0 <= i <= |rows|
        invariant updated == WithStatus(rows[..i], roomId, userIds, status, now)
      {
        assert rows[..i + 1][..i] == rows[..i];
        var ru := rows[i];
        updated := updated + [if Targeted(ru, roomId, userIds) then ru.(status := status, updatedAt := now) else ru];
        i := i + 1;
      }
      assert rows[..i] == rows;
      roomUsers := updated;
      message := logMessage;
    }
  }
}

=== FILE: select_field.dfy ===
/**
 The Formik select field (components/customFieldsFormik/SelectField.tsx): how
 choosing an option changes the field's value in single and multiple mode,
 removing a chip, and which options show as checked. Option values are texts
 or numbers, as the field receives them.
 */
module SelectField {
  import opened Common

  /** An option's value: a text or a number. */
  datatype Val = Str(s: string) | Num(n: int)

  datatype SelectOption = SelectOption(value: Val, caption: string)

  /** A single-mode field value; Missing is `undefined`. */
  datatype SingleValue = Missing | Present(v: Val)

  /** The value as a template literal renders it. */
  function Text(v: SingleValue): string
  {
    match v
    case Missing => "undefined"
    case Present(Str(s)) => s
    case Present(Num(n)) => IntToString(n)
  }

  /** Some chosen option has this value. */
  predicate HasValue(items: seq<SelectOption>, v: Val)
  {
    exists i | 0 <= i < |items| :: items[i].value == v
  }

  /** A multiple-mode value, with an empty (null or undefined) value read as []. */
  function Items(value: Option<seq<SelectOption>>): seq<SelectOption>
  {
    if value.Some? then value.value else []
  }

  /** The chosen options whose value differs from v, in order. */
  function WithoutValue(items: seq<SelectOption>, v: Val): (r: seq<SelectOption>)
    ensures !HasValue(r, v)
    ensures forall w | w != v :: HasValue(r, w) <==> HasValue(items, w)
    ensures forall o | o in r :: o in items
  {
    var r := Filter(items, (o: SelectOption) => o.value != v);
    forall w | w != v && HasValue(items, w) ensures HasValue(r, w) {
      var i :| 0 <= i < |items| && items[i].value == w;
      assert items[i] in items;
      var j :| 0 <= j < |r| && r[j] == items[i];
    }
    forall w | HasValue(r, w) ensures HasValue(items, w) && w != v {
      var j :| 0 <= j < |r| && r[j].value == w;
      assert r[j] in r;
      var i :| 0 <= i < |items| && items[i] == r[j];
    }
    r
  }

  /** handleSelect in multiple mode: an already chosen value is taken out, a new one appended. */
  function SelectMultiple(value: Option<seq<SelectOption>>, option: SelectOption): (r: seq<SelectOption>)
    ensures HasValue(r, option.value) <==> !HasValue(Items(value), option.value)
    ensures forall w | w != option.value :: HasValue(r, w) <==> HasValue(Items(value), w)
  {
    var current := Items(value);
    if HasValue(current, option.value) then WithoutValue(current, option.value)
    else
      var r := current + [option];
      assert r[|current|].value == option.value;
      forall w | HasValue(current, w) ensures HasValue(r, w) {
        var i :| 0 <= i < |current| && current[i].value == w;
        assert r[i].value == w;
      }
      r
  }

  /** handleSelect in single mode: choosing the option the value already renders as clears it to ''. */
  function SelectSingle(value: SingleValue, option: SelectOption): (r: Val)
    ensures Text(value) == Text(Present(option.value)) ==> r == Str("")
    ensures Text(value) != Text(Present(option.value)) ==> r == option.value
  {
    if Text(value) == Text(Present(option.value)) then Str("") else option.value
  }

  /** handleRemove: every chosen option with that value goes. */
  function Remove(value: Option<seq<SelectOption>>, item: SelectOption): (r: seq<SelectOption>)
    ensures !HasValue(r, item.value)
    ensures forall w | w != item.value :: HasValue(r, w) <==> HasValue(Items(value), w)
  {
    WithoutValue(Items(value), item.value)
  }

  /** isChecked: membership by value in multiple mode, strict equality in single mode. */
  predicate IsCheckedMultiple(value: Option<seq<SelectOption>>, option: SelectOption)
  {
    HasValue(Items(value), option.value)
  }

  predicate IsCheckedSingle(value: SingleValue, option: SelectOption)
  {
    value == Present(option.value)
  }

  /** In multiple mode choosing an option flips its check mark and leaves the others'. */
  lemma SelectMultipleFlips(value: Option<seq<SelectOption>>, option: SelectOption, other: SelectOption)
    ensures IsCheckedMultiple(Some(SelectMultiple(value, option)), option) <==> !IsCheckedMultiple(value, option)
    ensures other.value != option.value ==>
      (IsCheckedMultiple(Some(SelectMultiple(value, option)), other) <==> IsCheckedMultiple(value, other))
  {
  }

  /** Choosing twice in multiple mode gives back the same set of chosen values. */
  lemma SelectMultipleTwice(value: Option<seq<SelectOption>>, option: SelectOption, w: Val)
    ensures HasValue(SelectMultiple(Some(SelectMultiple(value, option)), option), w) <==> HasValue(Items(value), w)
  {
  }

  /** In single mode, choosing an option that is not the current one checks it. */
  lemma SelectSingleChecks(value: SingleValue, option: SelectOption)
    requires Text(value) != Text(Present(option.value))
    ensures IsCheckedSingle(Present(SelectSingle(value, option)), option)
  {
  }

  /** Choosing the checked option in single mode unchecks it, unless its value is '' itself. */
  lemma SelectSingleClears(option: SelectOption)
    requires option.value != Str("")
    ensures !IsCheckedSingle(Present(SelectSingle(Present(option.value), option)), option)
  {
  }

  /**
   The two tests compare differently: a value of number 1 does not show the
   option with text value '1' as checked, yet choosing that option clears the value.
   */
  lemma TextAndStrictDiffer()
    ensures !IsCheckedSingle(Present(Num(1)), SelectOption(Str("1"), "one"))
    ensures SelectSingle(Present(Num(1)), SelectOption(Str("1"), "one")) == Str("")
  {
    assert IntToString(1) == "1";
  }

  /** The field's state: whether the popover is open, whether it was touched, and its value. */
  class Field {
    const multiple: bool
    /** A caller-supplied onSelect takes over writing the value. */
    const hasOnSelect: bool
    var open: bool
    var touched: bool
    var single: SingleValue
    var items: Option<seq<SelectOption>>

    constructor (multiple: bool, hasOnSelect: bool, single: SingleValue, items: Option<seq<SelectOption>>)
      ensures this.multiple == multiple && this.hasOnSelect == hasOnSelect
      ensures !open && !touched && this.single == single && this.items == items
    {
      this.multiple := multiple;
      this.hasOnSelect := hasOnSelect;
      open := false;
      touched := false;
      this.single := single;
      this.items := items;
    }

    /** handleSelect: the value changes by mode (multiple mode leaves it to onSelect when given), and the popover closes. */
    method HandleSelect(option: SelectOption)
      modifies this`open, this`single, this`items
      ensures !open
      ensures multiple && !hasOnSelect ==> items == Some(SelectMultiple(old(items), option)) && single == old(single)
      ensures multiple && hasOnSelect ==> items == old(items) && single == old(single)
      ensures !multiple ==> single == Present(SelectSingle(old(single), option)) && items == old(items)
    {
      if multiple {
        if !hasOnSelect {
          items := Some(SelectMultiple(items, option));
        }
      } else {
        single := Present(SelectSingle(single, option));
      }
      open := false;
    }

    /** handleRemove: the chip's value goes, unless onSelect takes over. */
    method HandleRemove(item: SelectOption)
      modifies this`items
      ensures !hasOnSelect ==> items == Some(Remove(old(items), item))
      ensures hasOnSelect ==> items == old(items)
    {
      if !hasOnSelect {
        items := Some(Remove(items, item));
      }
    }

    /** The popover opening or closing; closing marks the field touched. */
    method SetOpen(nowOpen: bool)
      modifies this`open, this`touched
      ensures open == nowOpen
      ensures touched == (old(touched) || (old(open) && !nowOpen))
    {
      if open != nowOpen && !nowOpen {
        touched := true;
      }
      open := nowOpen;
    }
  }
}

=== FILE: selection.dfy ===
/**
 How the web pages keep a list of chosen ids and a de-duplicated list of
 fetched rows: the checkbox that appends or removes an id
 (pages/teacher/manageexam/dialogs/DialogBankQuestion.tsx,
 pages/teacher/examsupervisor/dialogs/DialogAssignSuppervisor.tsx,
 pages/admin/manageroom/dialogs/DialogAddStudentToRoom.tsx), the filter
 through a set of keys already seen (DialogAssignSuppervisor.tsx and
 pages/teacher/examsupervision/components/ExamList.tsx), and the paging and
 search filter a list is fetched with.
 */
module Selection {
  import opened Common

  /** The paging and search filter a list is fetched with. */
  datatype ListFilter = ListFilter(pageSize: int, currentPage: int, textSearch: string)

  /** The filter a list starts from: ten rows, first page, no search. */
  const InitialFilter: ListFilter := ListFilter(10, 1, "")

  /** A search box's (debounced) text: the list searches for it from the first page. */
  function SearchUpdate(filter: ListFilter, text: string): (r: ListFilter)
    ensures r.textSearch == text && r.currentPage == 1 && r.pageSize == filter.pageSize
  {
    filter.(textSearch := text, currentPage := 1)
  }

  /** The checkbox: checking appends the id, unchecking removes every occurrence of it. */
  function Toggle(selected: seq<string>, item: string, checked: bool): (r: seq<string>)
    ensures checked ==> r == selected + [item]
    ensures !checked ==> item !in r && (forall x | x in r :: x in selected)
                         && (forall x | x in selected && x != item :: x in r)
  {
    if checked then selected + [item]
    else Filter(selected, (x: string) => x != item)
  }

  /** Unchecking an id that is not chosen leaves the selection as it is. */
  lemma {:induction false} UncheckKeepsOthers(selected: seq<string>, item: string)
    requires item !in selected
    ensures Toggle(selected, item, false) == selected
  {
    if selected != [] {
      UncheckKeepsOthers(selected[1..], item);
      assert selected == [selected[0]] + selected[1..];
    }
  }

  /** Checking an id that was not selected and unchecking it again restores the selection. */
  lemma CheckThenUncheck(selected: seq<string>, item: string)
    requires item !in selected
    ensures Toggle(Toggle(selected, item, true), item, false) == selected
  {
    FilterAppend(selected, [item], (x: string) => x != item);
    UncheckKeepsOthers(selected, item);
  }

  /** A click on a box: its new state is the opposite of whether the id is chosen. */
  function Click(selected: seq<string>, item: string): (r: seq<string>)
    ensures item in r <==> item !in selected
  {
    var checked := item !in selected;
    Toggle(selected, item, checked)
  }

  /** Clicks never choose an id twice. */
  lemma ClickKeepsNoDup(selected: seq<string>, item: string)
    requires NoDup(selected)
    ensures NoDup(Click(selected, item))
  {
    if item !in selected {
      AppendNoDup(selected, item);
    } else {
      var keep := (x: string) => x != item;
      FilterNoDupIff(selected, keep);
    }
  }

  /** Appending an id not yet present keeps a list without repeats. */
  lemma AppendNoDup(ids: seq<string>, item: string)
    requires NoDup(ids) && item !in ids
    ensures NoDup(ids + [item])
  {
    var r := ids + [item];
    forall i, j | 0 <= i < j < |r| ensures r[i] != r[j] {
      if j == |ids| {
        assert r[i] == ids[i];
        assert ids[i] in ids;
      } else {
        assert r[i] == ids[i] && r[j] == ids[j];
      }
    }
  }

  /** Appending one element adds exactly its key. */
  lemma HasKeyAppend<T, K>(s: seq<T>, x: T, key: T -> K, k: K)
    ensures HasKey(s + [x], key, k) <==> HasKey(s, key, k) || key(x) == k
  {
    if HasKey(s, key, k) {
      var i :| 0 <= i < |s| && key(s[i]) == k;
      assert (s + [x])[i] == s[i];
    }
    if HasKey(s + [x], key, k) {
      var i :| 0 <= i < |s + [x]| && key((s + [x])[i]) == k;
      if i < |s| {
        assert (s + [x])[i] == s[i];
      }
    }
    assert (s + [x])[|s|] == x;
  }

  /**
   A fetched list filtered through a set of keys already seen: the first
   element for each key is kept, in order.
   */
  method UniqueBy<T, K(==)>(s: seq<T>, key: T -> K) returns (r: seq<T>)
    ensures r == DistinctBy(s, key)
    ensures KeysUnique(r, key)
    ensures forall k :: HasKey(r, key, k) <==> HasKey(s, key, k)
  {
    var seen: set<K> := {};
    r := [];
    var i := 0;
    while i < |s|
      invariant 0 <= i <= |s|
      invariant r == DistinctBy(s[..i], key)
      invariant forall k :: k in seen <==> HasKey(r, key, k)
    {
      assert s[..i + 1][..i] == s[..i];
      assert s[..i + 1][i] == s[i];
      var k := key(s[i]);
      assert DistinctBy(s[..i + 1], key) == if HasKey(r, key, k) then r else r + [s[i]];
      if k !in seen {
        forall k' ensures k' in seen + {k} <==> HasKey(r + [s[i]], key, k') {
          HasKeyAppend(r, s[i], key, k');
        }
        seen := seen + {k};
        r := r + [s[i]];
      }
      i := i + 1;
    }
    assert s[..i] == s;
    DistinctByUnique(s, key);
    forall k ensures HasKey(r, key, k) <==> HasKey(s, key, k) {
      DistinctByKeys(s, key, k);
    }
  }

  /** A list whose keys are already unique passes through de-duplication unchanged. */
  lemma {:induction false} DistinctByOfUnique<T, K>(s: seq<T>, key: T -> K)
    requires KeysUnique(s, key)
    ensures DistinctBy(s, key) == s
    decreases |s|
  {
    if s != [] {
      var init := s[..|s| - 1];
      assert KeysUnique(init, key);
      DistinctByOfUnique(init, key);
      assert init + [s[|s| - 1]] == s;
    }
  }

  /** De-duplicating twice is de-duplicating once. */
  lemma DistinctByIdempotent<T, K>(s: seq<T>, key: T -> K)
    ensures DistinctBy(DistinctBy(s, key), key) == DistinctBy(s, key)
  {
    DistinctByUnique(s, key);
    DistinctByOfUnique(DistinctBy(s, key), key);
  }
}

=== FILE: student_exam_service.dfy ===
/**
 The student side of an exam attempt (StudentExamService.cs): the status shown
 in the student's exam list, entering or resuming an attempt, saving and
 submitting answers, automatic scoring of non-essay exams, and the marking of
 essay answers by the exam's staff.
 */
module StudentExamService {
  import opened Common
  import opened Domain

  // ---------------------------------------------------------------- exam list

  /** The status name the exam list shows for the student's attempt at one exam. */
  function ListStatus(attempt: Option<StudentExam>): (r: string)
    ensures r in {"NotStarted", "InProgress", "Failed", "Passed", "Submitted"}
    ensures r == "NotStarted" <==> attempt.None?
    ensures r == "InProgress" <==> attempt.Some? && attempt.value.status == AttemptInProgress
    ensures r == "Failed" <==> attempt.Some? && attempt.value.status == AttemptFailed
    ensures r == "Passed" <==> attempt.Some? && attempt.value.status == AttemptPassed
    ensures attempt.Some? && attempt.value.status == AttemptNotStarted ==> r == "Submitted"
  {
    if attempt.None? then "NotStarted"
    else if attempt.value.status == AttemptInProgress then "InProgress"
    else if attempt.value.status == AttemptFailed then "Failed"
    else if attempt.value.status == AttemptPassed then "Passed"
    else "Submitted"
  }

  // ---------------------------------------------------------------- entering an exam

  const MsgExamNotFound: string := "Exam not found."
  const MsgInvalidOtp: string := "Invalid or expired OTP."
  const MsgAlreadyCompleted: string := "You have already submitted this exam and cannot access it again."
  const MsgDurationEnded: string := "You cannot resume the exam. Your duration time has ended."

  /** `SubmitTime < now` on a nullable time: false when the attempt has no submit time. */
  predicate SubmitTimePassed(a: StudentExam, now: int)
  {
    a.submitTime.Some? && a.submitTime.value < now
  }

  /**
   The first refusal of AccessExam, in the order the service checks: the exam,
   the access validator's message, the OTP, then the student's existing
   attempt (`completed` is the completion test applied to its status).
   */
  function AccessError(examExists: bool, validatorMessage: string, otpValid: bool,
                       existing: Option<StudentExam>, completed: bool, now: int): (r: Option<string>)
    ensures r.None? <==> examExists && validatorMessage == "" && otpValid
                         && (existing.Some? ==> !completed && !SubmitTimePassed(existing.value, now))
    ensures !examExists ==> r == Some(MsgExamNotFound)
    ensures r.Some? ==> r.value != ""
  {
    if !examExists then Some(MsgExamNotFound)
    else if |validatorMessage| > 0 then Some(validatorMessage)
    else if !otpValid then Some(MsgInvalidOtp)
    else if existing.Some? && completed then Some(MsgAlreadyCompleted)
    else if existing.Some? && SubmitTimePassed(existing.value, now) then Some(MsgDurationEnded)
    else None
  }

  /** An attempt with no submit time is never refused for time once the other checks pass. */
  lemma NoSubmitTimeResumes(a: StudentExam, now: int)
    requires a.submitTime.None?
    ensures AccessError(true, "", true, Some(a), false, now).None?
  {
  }

  /** The resumed attempt: back in progress, with the client's address and browser; nothing else changes. */
  function Resumed(a: StudentExam, ip: string, browser: string, now: int): (r: StudentExam)
    ensures r.status == AttemptInProgress && r.updatedAt == now
    ensures r.id == a.id && r.examId == a.examId && r.studentId == a.studentId
    ensures r.score == a.score && r.startTime == a.startTime && r.submitTime == a.submitTime
  {
    a.(status := AttemptInProgress, ipAddress := ip, browser := browser, updatedAt := now)
  }

  /** A student holds at most one attempt per exam. */
  ghost predicate OneAttemptPerStudent(attempts: map<string, StudentExam>)
  {
    forall i, j | i in attempts && j in attempts ::
      attempts[i].examId == attempts[j].examId && attempts[i].studentId == attempts[j].studentId ==> i == j
  }

  /** GetByExamAndStudent: the student's attempt at the exam, if any. */
  ghost function AttemptOf(attempts: map<string, StudentExam>, examId: string, studentId: string): (r: Option<StudentExam>)
    ensures r.Some? ==> r.value in attempts.Values && r.value.examId == examId && r.value.studentId == studentId
    ensures r.None? ==> forall id | id in attempts :: !(attempts[id].examId == examId && attempts[id].studentId == studentId)
  {
    if exists id | id in attempts :: attempts[id].examId == examId && attempts[id].studentId == studentId then
      var id :| id in attempts && attempts[id].examId == examId && attempts[id].studentId == studentId;
      Some(attempts[id])
    else None
  }

  // ---------------------------------------------------------------- saving answers

  /** One answer of a submit or save request. */
  datatype AnswerInput = AnswerInput(questionId: Option<string>, userAnswer: Option<string>)

  /** `IsEmpty()` of the string helpers: null, empty or only white space. */
  predicate IsEmptyText(s: Option<string>)
  {
    s.None? || IsBlank(s.value)
  }

  /**
   Whether the save loop skips an input: SubmitExam1 and SaveAnswerTemporary
   skip an empty or blank question id (`blankSkips`), SubmitExam only a null
   or empty one.
   */
  predicate Skipped(input: AnswerInput, blankSkips: bool)
  {
    if blankSkips then IsEmptyText(input.questionId)
    else input.questionId.None? || input.questionId.value == ""
  }

  /** The row holds the attempt's answer to the question. */
  predicate AnswerOf(a: StudentAnswer, attemptId: string, questionId: string)
  {
    a.studentExamId == attemptId && a.questionId == questionId
  }

  /** `FirstOrDefault` over the attempt's answer rows: the index of the first row for the question, or |rows|. */
  function FirstAnswer(rows: seq<StudentAnswer>, attemptId: string, questionId: string): (k: nat)
    ensures k <= |rows|
    ensures k < |rows| ==> AnswerOf(rows[k], attemptId, questionId)
    ensures forall j | 0 <= j < k :: !AnswerOf(rows[j], attemptId, questionId)
  {
    if rows == [] then 0
    else if AnswerOf(rows[0], attemptId, questionId) then 0
    else 1 + FirstAnswer(rows[1..], attemptId, questionId)
  }

  /** The rows already stored (changed in place) and the rows queued for insertion. */
  datatype Upsert = Upsert(stored: seq<StudentAnswer>, added: seq<StudentAnswer>)

  /**
   One turn of the save loop: a skipped input does nothing, an input equal to
   the stored answer does nothing, a different one overwrites the stored
   answer and its time, and an unseen question queues a new row. Lookups see
   only the rows stored before the loop, never the queued ones.
   */
  function UpsertStep(u: Upsert, attemptId: string, input: AnswerInput, newId: string,
                      blankSkips: bool, now: int): Upsert
  {
    if Skipped(input, blankSkips) then u
    else
      var qid := input.questionId.value;
      var k := FirstAnswer(u.stored, attemptId, qid);
      if k < |u.stored| then
        if u.stored[k].userAnswer == input.userAnswer then u
        else u.(stored := u.stored[k := u.stored[k].(userAnswer := input.userAnswer, updatedAt := now)])
      else u.(added := u.added + [StudentAnswer(newId, attemptId, qid, input.userAnswer, None, None, now)])
  }

  /** The save loop over a whole request; `newIds[i]` is the identifier a new row for `inputs[i]` receives. */
  function UpsertAll(u: Upsert, attemptId: string, inputs: seq<AnswerInput>, newIds: seq<string>,
                     blankSkips: bool, now: int): Upsert
    requires |newIds| == |inputs|
  {
    if inputs == [] then u
    else
      var n := |inputs| - 1;
      UpsertStep(UpsertAll(u, attemptId, inputs[..n], newIds[..n], blankSkips, now),
                 attemptId, inputs[n], newIds[n], blankSkips, now)
  }

  /** The answer table after a save: the stored rows as updated, then the new rows. */
  function SaveAnswers(rows: seq<StudentAnswer>, attemptId: string, inputs: seq<AnswerInput>, newIds: seq<string>,
                       blankSkips: bool, now: int): seq<StudentAnswer>
    requires |newIds| == |inputs|
  {
    var u := UpsertAll(Upsert(rows, []), attemptId, inputs, newIds, blankSkips, now);
    u.stored + u.added
  }

  /** Two rows agree on everything a save may not change. */
  predicate SameIdentity(a: StudentAnswer, b: StudentAnswer)
  {
    a.id == b.id && a.studentExamId == b.studentExamId && a.questionId == b.questionId
    && a.isCorrect == b.isCorrect && a.pointsEarned == b.pointsEarned
  }

  /**
   What a save may change: stored rows keep their place, identity and grading;
   a stored row that changes belongs to the attempt and carries the save time;
   queued rows are only appended, each for the attempt, ungraded and with an
   identifier from `newIds`.
   */
  ghost predicate UpsertFramed(u: Upsert, v: Upsert, attemptId: string, newIds: seq<string>, now: int)
  {
    && |v.stored| == |u.stored|
    && (forall k | 0 <= k < |u.stored| :: SameIdentity(v.stored[k], u.stored[k]))
    && (forall k | 0 <= k < |u.stored| && v.stored[k] != u.stored[k] ::
          u.stored[k].studentExamId == attemptId && v.stored[k].updatedAt == now)
    && |u.added| <= |v.added| && v.added[..|u.added|] == u.added
    && (forall k | |u.added| <= k < |v.added| ::
          v.added[k].studentExamId == attemptId && v.added[k].isCorrect.None?
          && v.added[k].pointsEarned.None? && v.added[k].id in newIds)
  }

  lemma {:induction false} UpsertFrame(u: Upsert, attemptId: string, inputs: seq<AnswerInput>, newIds: seq<string>,
                                       blankSkips: bool, now: int)
    requires |newIds| == |inputs|
    ensures UpsertFramed(u, UpsertAll(u, attemptId, inputs, newIds, blankSkips, now), attemptId, newIds, now)
  {
    if inputs != [] {
      var n := |inputs| - 1;
      var w := UpsertAll(u, attemptId, inputs[..n], newIds[..n], blankSkips, now);
      UpsertFrame(u, attemptId, inputs[..n], newIds[..n], blankSkips, now);
      var v := UpsertStep(w, attemptId, inputs[n], newIds[n], blankSkips, now);
      assert v == UpsertAll(u, attemptId, inputs, newIds, blankSkips, now);
      forall k | |u.added| <= k < |w.added|
        ensures w.added[k].id in newIds
      {
        assert w.added[k].id in newIds[..n];
      }
      assert v.added[..|w.added|] == w.added;
      assert v.added[..|u.added|] == w.added[..|u.added|];
    }
  }

  /** No two inputs that the loop keeps name the same question. */
  predicate DistinctQuestions(inputs: seq<AnswerInput>, blankSkips: bool)
  {
    forall i, j | 0 <= i < j < |inputs| && !Skipped(inputs[i], blankSkips) && !Skipped(inputs[j], blankSkips) ::
      inputs[i].questionId != inputs[j].questionId
  }

  /** The answer later lookups see for the question: that of the first row for it. */
  predicate Records(rows: seq<StudentAnswer>, attemptId: string, questionId: string, answer: Option<string>)
  {
    var k := FirstAnswer(rows, attemptId, questionId);
    k < |rows| && rows[k].userAnswer == answer
  }

  /** Overwriting a row with one for the same attempt and question leaves every question's first row where it was. */
  lemma {:induction false} FirstAnswerUpdate(rows: seq<StudentAnswer>, attemptId: string, q: string, k: nat, x: StudentAnswer)
    requires k < |rows| && x.studentExamId == rows[k].studentExamId && x.questionId == rows[k].questionId
    ensures FirstAnswer(rows[k := x], attemptId, q) == FirstAnswer(rows, attemptId, q)
  {
    if k == 0 {
      assert rows[k := x][1..] == rows[1..];
    } else if !AnswerOf(rows[0], attemptId, q) {
      assert rows[k := x][1..] == rows[1..][k - 1 := x];
      FirstAnswerUpdate(rows[1..], attemptId, q, k - 1, x);
    }
  }

  /** Appending rows leaves a question's first row where it was. */
  lemma {:induction false} FirstAnswerAppend(rows: seq<StudentAnswer>, more: seq<StudentAnswer>, attemptId: string, q: string)
    requires FirstAnswer(rows, attemptId, q) < |rows|
    ensures FirstAnswer(rows + more, attemptId, q) == FirstAnswer(rows, attemptId, q)
  {
    if !AnswerOf(rows[0], attemptId, q) {
      assert (rows + more)[1..] == rows[1..] + more;
      FirstAnswerAppend(rows[1..], more, attemptId, q);
    }
  }

  /** A question absent from the stored rows has its first row among the appended ones. */
  lemma {:induction false} FirstAnswerPast(rows: seq<StudentAnswer>, more: seq<StudentAnswer>, attemptId: string, q: string)
    requires FirstAnswer(rows, attemptId, q) == |rows|
    ensures FirstAnswer(rows + more, attemptId, q) == |rows| + FirstAnswer(more, attemptId, q)
  {
    if rows == [] {
      assert rows + more == more;
    } else {
      assert (rows + more)[1..] == rows[1..] + more;
      FirstAnswerPast(rows[1..], more, attemptId, q);
    }
  }

  /** The questions of the inputs the save loop keeps. */
  function KeptIds(inputs: seq<AnswerInput>, blankSkips: bool): set<string>
  {
    if inputs == [] then {}
    else
      var last := inputs[|inputs| - 1];
      KeptIds(inputs[..|inputs| - 1], blankSkips) + (if Skipped(last, blankSkips) then {} else {last.questionId.value})
  }

  /** A question no kept input names is not among the kept questions. */
  lemma {:induction false} NotKept(inputs: seq<AnswerInput>, blankSkips: bool, q: string)
    requires forall i | 0 <= i < |inputs| && !Skipped(inputs[i], blankSkips) :: inputs[i].questionId != Some(q)
    ensures q !in KeptIds(inputs, blankSkips)
  {
    if inputs != [] {
      var n := |inputs| - 1;
      forall i | 0 <= i < n && !Skipped(inputs[..n][i], blankSkips)
        ensures inputs[..n][i].questionId != Some(q)
      {
        assert inputs[..n][i] == inputs[i];
      }
      NotKept(inputs[..n], blankSkips, q);
    }
  }

  /**
   After a save whose questions are distinct, the answer recorded for every
   question the loop kept is the one the request gave, and every queued row
   is for one of those questions.
   */
  lemma {:induction false} SaveRecordsAnswers(u: Upsert, attemptId: string, inputs: seq<AnswerInput>,
                                              newIds: seq<string>, blankSkips: bool, now: int)
    requires |newIds| == |inputs| && u.added == []
    requires DistinctQuestions(inputs, blankSkips)
    ensures var v := UpsertAll(u, attemptId, inputs, newIds, blankSkips, now);
      && (forall k | 0 <= k < |v.added| :: v.added[k].questionId in KeptIds(inputs, blankSkips))
      && (forall i | 0 <= i < |inputs| && !Skipped(inputs[i], blankSkips) ::
            Records(v.stored + v.added, attemptId, inputs[i].questionId.value, inputs[i].userAnswer))
  {
    if inputs != [] {
      var n := |inputs| - 1;
      var w := UpsertAll(u, attemptId, inputs[..n], newIds[..n], blankSkips, now);
      assert DistinctQuestions(inputs[..n], blankSkips) by {
        forall i, j | 0 <= i < j < n && !Skipped(inputs[..n][i], blankSkips) && !Skipped(inputs[..n][j], blankSkips)
          ensures inputs[..n][i].questionId != inputs[..n][j].questionId
        {
          assert inputs[..n][i] == inputs[i] && inputs[..n][j] == inputs[j];
        }
      }
      SaveRecordsAnswers(u, attemptId, inputs[..n], newIds[..n], blankSkips, now);
      var v := UpsertStep(w, attemptId, inputs[n], newIds[n], blankSkips, now);
      assert v == UpsertAll(u, attemptId, inputs, newIds, blankSkips, now);
      assert KeptIds(inputs[..n], blankSkips) <= KeptIds(inputs, blankSkips);
      if !Skipped(inputs[n], blankSkips) {
        var q := inputs[n].questionId.value;
        forall i | 0 <= i < n && !Skipped(inputs[..n][i], blankSkips)
          ensures inputs[..n][i].questionId != Some(q)
        {
          assert inputs[..n][i] == inputs[i];
        }
        NotKept(inputs[..n], blankSkips, q);
        assert FirstAnswer(w.added, attemptId, q) == |w.added|;
        RecordsStep(w, attemptId, inputs[n], newIds[n], blankSkips, now);
      }
      forall i | 0 <= i < n && !Skipped(inputs[i], blankSkips)
        ensures Records(v.stored + v.added, attemptId, inputs[i].questionId.value, inputs[i].userAnswer)
      {
        assert inputs[..n][i] == inputs[i];
        RecordsKept(w, v, attemptId, inputs[n], newIds[n], blankSkips, now, inputs[i].questionId.value, inputs[i].userAnswer);
      }
    }
  }

  /** The turn for one input records that input's answer, when no queued row is for its question. */
  lemma RecordsStep(w: Upsert, attemptId: string, input: AnswerInput, newId: string, blankSkips: bool, now: int)
    requires !Skipped(input, blankSkips)
    requires FirstAnswer(w.added, attemptId, input.questionId.value) == |w.added|
    ensures var v := UpsertStep(w, attemptId, input, newId, blankSkips, now);
      Records(v.stored + v.added, attemptId, input.questionId.value, input.userAnswer)
  {
    var q := input.questionId.value;
    var v := UpsertStep(w, attemptId, input, newId, blankSkips, now);
    var k := FirstAnswer(w.stored, attemptId, q);
    if k < |w.stored| {
      if w.stored[k].userAnswer != input.userAnswer {
        FirstAnswerUpdate(w.stored, attemptId, q, k, v.stored[k]);
      }
      FirstAnswerAppend(v.stored, v.added, attemptId, q);
    } else {
      FirstAnswerPast(v.stored, v.added, attemptId, q);
      assert v.added == w.added + [v.added[|w.added|]];
      FirstAnswerPast(w.added, [v.added[|w.added|]], attemptId, q);
    }
  }

  /** Overwriting another question's row keeps what is recorded for `q`. */
  lemma RecordsAfterOverwrite(stored: seq<StudentAnswer>, added: seq<StudentAnswer>, attemptId: string, q: string,
                              answer: Option<string>, k: nat, x: StudentAnswer)
    requires k < |stored| && x.studentExamId == stored[k].studentExamId && x.questionId == stored[k].questionId
    requires stored[k].questionId != q
    requires Records(stored + added, attemptId, q, answer)
    ensures Records(stored[k := x] + added, attemptId, q, answer)
  {
    FirstAnswerUpdate(stored, attemptId, q, k, x);
    if FirstAnswer(stored, attemptId, q) < |stored| {
      FirstAnswerAppend(stored, added, attemptId, q);
      FirstAnswerAppend(stored[k := x], added, attemptId, q);
    } else {
      FirstAnswerPast(stored, added, attemptId, q);
      FirstAnswerPast(stored[k := x], added, attemptId, q);
    }
  }

  /** Appending a row keeps what is recorded for `q`. */
  lemma RecordsAfterAppend(rows: seq<StudentAnswer>, extra: StudentAnswer, attemptId: string, q: string, answer: Option<string>)
    requires Records(rows, attemptId, q, answer)
    ensures Records(rows + [extra], attemptId, q, answer)
  {
    FirstAnswerAppend(rows, [extra], attemptId, q);
  }

  /** The turn for one input leaves what is recorded for any other question. */
  lemma RecordsKept(w: Upsert, v: Upsert, attemptId: string, input: AnswerInput, newId: string,
                    blankSkips: bool, now: int, q: string, answer: Option<string>)
    requires v == UpsertStep(w, attemptId, input, newId, blankSkips, now)
    requires !Skipped(input, blankSkips) ==> input.questionId.value != q
    requires Records(w.stored + w.added, attemptId, q, answer)
    ensures Records(v.stored + v.added, attemptId, q, answer)
  {
    if !Skipped(input, blankSkips) {
      var p := input.questionId.value;
      var k := FirstAnswer(w.stored, attemptId, p);
      if k < |w.stored| {
        if w.stored[k].userAnswer != input.userAnswer {
          RecordsAfterOverwrite(w.stored, w.added, attemptId, q, answer, k, v.stored[k]);
        }
      } else {
        var extra := v.added[|w.added|];
        assert v.added == w.added + [extra];
        AppendAssoc(w.stored, w.added, [extra]);
        RecordsAfterAppend(w.stored + w.added, extra, attemptId, q, answer);
      }
    }
  }

  /** TotalQuestions: the request's answers that carry a question id, whether or not the loop kept them. */
  function AnsweredCount(inputs: seq<AnswerInput>): (r: nat)
    ensures r <= |inputs|
    ensures r == 0 <==> forall i | 0 <= i < |inputs| :: inputs[i].questionId.None?
  {
    if inputs == [] then 0
    else AnsweredCount(inputs[..|inputs| - 1]) + (if inputs[|inputs| - 1].questionId.Some? then 1 else 0)
  }

  /** The save loop over one more input is one more turn. */
  lemma UpsertAllStep(u: Upsert, attemptId: string, inputs: seq<AnswerInput>, newIds: seq<string>,
                      blankSkips: bool, now: int, i: nat)
    requires |newIds| == |inputs| && i < |inputs|
    ensures UpsertAll(u, attemptId, inputs[..i + 1], newIds[..i + 1], blankSkips, now)
         == UpsertStep(UpsertAll(u, attemptId, inputs[..i], newIds[..i], blankSkips, now), attemptId, inputs[i], newIds[i], blankSkips, now)
  {
    assert inputs[..i + 1][..i] == inputs[..i] && newIds[..i + 1][..i] == newIds[..i];
  }

  /** The save loop of the service, run over the answer table. */
  method SaveAnswerRows(rows: seq<StudentAnswer>, attemptId: string, inputs: seq<AnswerInput>, newIds: seq<string>,
                        blankSkips: bool, now: int) returns (table: seq<StudentAnswer>)
    requires |newIds| == |inputs|
    ensures table == SaveAnswers(rows, attemptId, inputs, newIds, blankSkips, now)
  {
    var stored := rows;
    var added: seq<StudentAnswer> := [];
    var i := 0;
    while i < |inputs|
      invariant 0 <= i <= |inputs|
      invariant Upsert(stored, added) == UpsertAll(Upsert(rows, []), attemptId, inputs[..i], newIds[..i], blankSkips, now)
    {
      var input := inputs[i];
      UpsertAllStep(Upsert(rows, []), attemptId, inputs, newIds, blankSkips, now, i);
      if !Skipped(input, blankSkips) {
        var qid := input.questionId.value;
        var k := FirstAnswer(stored, attemptId, qid);
        if k < |stored| {
          if stored[k].userAnswer != input.userAnswer {
            stored := stored[k := stored[k].(userAnswer := input.userAnswer, updatedAt := now)];
          }
        } else {
          added := added + [StudentAnswer(newIds[i], attemptId, qid, input.userAnswer, None, None, now)];
        }
      }
      i := i + 1;
    }
    assert inputs[..i] == inputs && newIds[..i] == newIds;
    table := stored + added;
  }

  // ---------------------------------------------------------------- automatic scoring

  /** An exam's question as the scorer sees it: its points in the exam and its correct answer. */
  datatype ExamItem = ExamItem(points: real, correctAnswer: string)

  /** Trim then lower case, as both the student's and the correct answer are compared. */
  function NormalizedAnswer(s: string): (r: string)
    ensures r == [] <==> IsBlank(s)
  {
    Lower(Trim(s))
  }

  /** A null answer never matches the (non-null) correct answer. */
  predicate IsCorrectAnswer(userAnswer: Option<string>, correct: string)
  {
    userAnswer.Some? && NormalizedAnswer(userAnswer.value) == NormalizedAnswer(correct)
  }

  /** The row is one of the attempt's answers to a question of the exam. */
  predicate Scored(a: StudentAnswer, attemptId: string, items: map<string, ExamItem>)
  {
    a.studentExamId == attemptId && a.questionId in items
  }

  /** The points a row earns: the item's points when correct, zero otherwise or when not scored. */
  function EarnedFor(a: StudentAnswer, attemptId: string, items: map<string, ExamItem>): real
  {
    if Scored(a, attemptId, items) && IsCorrectAnswer(a.userAnswer, items[a.questionId].correctAnswer)
    then items[a.questionId].points else 0.0
  }

  /** A scored row after grading. */
  function Graded(a: StudentAnswer, attemptId: string, items: map<string, ExamItem>, now: int): (r: StudentAnswer)
    requires Scored(a, attemptId, items)
    ensures SameIdentity(r, a.(isCorrect := r.isCorrect, pointsEarned := r.pointsEarned))
    ensures r.userAnswer == a.userAnswer && r.updatedAt == now
    ensures r.isCorrect == Some(IsCorrectAnswer(a.userAnswer, items[a.questionId].correctAnswer))
    ensures r.pointsEarned == Some(EarnedFor(a, attemptId, items))
  {
    var ok := IsCorrectAnswer(a.userAnswer, items[a.questionId].correctAnswer);
    a.(isCorrect := Some(ok), pointsEarned := Some(if ok then items[a.questionId].points else 0.0), updatedAt := now)
  }

  /** A row after the scoring loop: graded when it is scored, unchanged otherwise. */
  function GradeRow(a: StudentAnswer, attemptId: string, items: map<string, ExamItem>, now: int): StudentAnswer
  {
    if Scored(a, attemptId, items) then Graded(a, attemptId, items, now) else a
  }

  /** The table after grading: the attempt's scored rows are graded, every other row is left as it was. */
  function GradeRows(rows: seq<StudentAnswer>, attemptId: string, items: map<string, ExamItem>, now: int)
    : (r: seq<StudentAnswer>)
    ensures |r| == |rows|
    ensures forall k | 0 <= k < |rows| :: r[k] == GradeRow(rows[k], attemptId, items, now)
    ensures forall k | 0 <= k < |rows| :: SameIdentity(r[k], rows[k].(isCorrect := r[k].isCorrect, pointsEarned := r[k].pointsEarned))
    ensures forall k | 0 <= k < |rows| && !Scored(rows[k], attemptId, items) :: r[k] == rows[k]
  {
    if rows == [] then []
    else GradeRows(rows[..|rows| - 1], attemptId, items, now) + [GradeRow(rows[|rows| - 1], attemptId, items, now)]
  }

  /** The total score: the points earned summed over the rows. */
  function TotalEarned(rows: seq<StudentAnswer>, attemptId: string, items: map<string, ExamItem>): real
  {
    if rows == [] then 0.0
    else TotalEarned(rows[..|rows| - 1], attemptId, items) + EarnedFor(rows[|rows| - 1], attemptId, items)
  }

  /** The points all the attempt's scored rows could earn. */
  function TotalPossible(rows: seq<StudentAnswer>, attemptId: string, items: map<string, ExamItem>): real
  {
    if rows == [] then 0.0
    else TotalPossible(rows[..|rows| - 1], attemptId, items)
         + (if Scored(rows[|rows| - 1], attemptId, items) then items[rows[|rows| - 1].questionId].points else 0.0)
  }

  /** Grading and scoring one more row extends the graded table by that row and the total by its points. */
  lemma GradeStep(rows: seq<StudentAnswer>, attemptId: string, items: map<string, ExamItem>, now: int, k: nat)
    requires k < |rows|
    ensures GradeRows(rows[..k + 1], attemptId, items, now) == GradeRows(rows[..k], attemptId, items, now) + [GradeRow(rows[k], attemptId, items, now)]
    ensures TotalEarned(rows[..k + 1], attemptId, items) == TotalEarned(rows[..k], attemptId, items) + EarnedFor(rows[k], attemptId, items)
  {
    var prefix := rows[..k + 1];
    assert prefix[..k] == rows[..k] && prefix[k] == rows[k];
  }

  /** The scoring loop of SubmitExam1. */
  method ScoreAnswers(rows: seq<StudentAnswer>, attemptId: string, items: map<string, ExamItem>, now: int)
    returns (graded: seq<StudentAnswer>, total: real)
    ensures graded == GradeRows(rows, attemptId, items, now)
    ensures total == TotalEarned(rows, attemptId, items)
  {
    graded := [];
    total := 0.0;
    var k := 0;
    while k < |rows|
      invariant 0 <= k <= |rows|
      invariant graded == GradeRows(rows[..k], attemptId, items, now)
      invariant total == TotalEarned(rows[..k], attemptId, items)
    {
      var answer := rows[k];
      GradeStep(rows, attemptId, items, now, k);
      if Scored(answer, attemptId, items) {
        var item := items[answer.questionId];
        var ok := IsCorrectAnswer(answer.userAnswer, item.correctAnswer);
        var earned := if ok then item.points else 0.0;
        graded := graded + [answer.(isCorrect := Some(ok), pointsEarned := Some(earned), updatedAt := now)];
        total := total + earned;
      } else {
        graded := graded + [answer];
      }
      k := k + 1;
    }
    assert rows[..k] == rows;
  }

  /** The stored score is the sum of the points the graded rows record for the attempt. */
  lemma {:induction false} TotalMatchesRows(rows: seq<StudentAnswer>, attemptId: string, items: map<string, ExamItem>, now: int)
    ensures TotalEarned(rows, attemptId, items) == RecordedPoints(GradeRows(rows, attemptId, items, now), attemptId, items)
  {
    if rows != [] {
      var n := |rows| - 1;
      TotalMatchesRows(rows[..n], attemptId, items, now);
      assert GradeRows(rows, attemptId, items, now)[..n] == GradeRows(rows[..n], attemptId, items, now);
      assert GradeRows(rows, attemptId, items, now)[n] == GradeRow(rows[n], attemptId, items, now);
    }
  }

  /** The points recorded on the attempt's scored rows. */
  function RecordedPoints(rows: seq<StudentAnswer>, attemptId: string, items: map<string, ExamItem>): real
  {
    if rows == [] then 0.0
    else
      var a := rows[|rows| - 1];
      RecordedPoints(rows[..|rows| - 1], attemptId, items)
      + (if Scored(a, attemptId, items) && a.pointsEarned.Some? then a.pointsEarned.value else 0.0)
  }

  /** With non-negative points the score lies between zero and the points available. */
  lemma {:induction false} TotalEarnedBounds(rows: seq<StudentAnswer>, attemptId: string, items: map<string, ExamItem>)
    requires forall q | q in items :: items[q].points >= 0.0
    ensures 0.0 <= TotalEarned(rows, attemptId, items) <= TotalPossible(rows, attemptId, items)
  {
    if rows != [] {
      TotalEarnedBounds(rows[..|rows| - 1], attemptId, items);
    }
  }

  /** A row of the attempt that answers a question of the exam correctly. */
  predicate CorrectlyAnswered(a: StudentAnswer, attemptId: string, items: map<string, ExamItem>)
  {
    Scored(a, attemptId, items) && IsCorrectAnswer(a.userAnswer, items[a.questionId].correctAnswer)
  }

  /** Some row of `init + [last]` is answered correctly exactly when one of `init` is, or `last` is. */
  lemma SomeCorrectSplit(init: seq<StudentAnswer>, last: StudentAnswer, attemptId: string, items: map<string, ExamItem>)
    ensures var rows := init + [last];
      (exists k | 0 <= k < |rows| :: CorrectlyAnswered(rows[k], attemptId, items)) <==>
      (exists k | 0 <= k < |init| :: CorrectlyAnswered(init[k], attemptId, items))
      || CorrectlyAnswered(last, attemptId, items)
  {
    var rows := init + [last];
    if exists k | 0 <= k < |rows| :: CorrectlyAnswered(rows[k], attemptId, items) {
      var k :| 0 <= k < |rows| && CorrectlyAnswered(rows[k], attemptId, items);
      if k < |init| {
        assert init[k] == rows[k];
      }
    }
    if exists k | 0 <= k < |init| :: CorrectlyAnswered(init[k], attemptId, items) {
      var k :| 0 <= k < |init| && CorrectlyAnswered(init[k], attemptId, items);
      assert rows[k] == init[k];
    }
    assert rows[|init|] == last;
  }

  /** With positive points the score is positive exactly when some scored answer is correct. */
  lemma {:induction false} PositiveIffSomeCorrect(rows: seq<StudentAnswer>, attemptId: string, items: map<string, ExamItem>)
    requires forall q | q in items :: items[q].points > 0.0
    ensures TotalEarned(rows, attemptId, items) > 0.0 <==>
      exists k | 0 <= k < |rows| :: Scored(rows[k], attemptId, items)
        && IsCorrectAnswer(rows[k].userAnswer, items[rows[k].questionId].correctAnswer)
  {
    if rows != [] {
      var n := |rows| - 1;
      PositiveIffSomeCorrect(rows[..n], attemptId, items);
      TotalEarnedBounds(rows[..n], attemptId, items);
      assert rows == rows[..n] + [rows[n]];
      SomeCorrectSplit(rows[..n], rows[n], attemptId, items);
      assert EarnedFor(rows[n], attemptId, items) > 0.0 <==> CorrectlyAnswered(rows[n], attemptId, items);
    }
  }

  /** The status a scored attempt receives: Passed when it scored anything, Failed otherwise. */
  function ScoredStatus(total: real): (r: int)
    ensures r == AttemptPassed <==> total > 0.0
    ensures r == AttemptFailed <==> total <= 0.0
  {
    if total > 0.0 then AttemptPassed else AttemptFailed
  }

  // ---------------------------------------------------------------- submitting

  const MsgNotStarted: string := "You have not started this exam or it has already been submitted."
  const MsgExamEnded: string := "Exam has ended, you cannot submit answers."
  const MsgAlreadySubmitted: string := "You have already submitted this exam."
  const MsgSubmitErrorPrefix: string := "An error occurred during submission: "
  const MsgNullReference: string := "Object reference not set to an instance of an object."
  const MsgStudentNotInExam: string := "Student is not found in this exam."

  /** The refusals of SubmitExam1, in order; `submittedOrFinished` is the completion test on the attempt's status. */
  function SubmitError(found: bool, examEnd: int, submittedOrFinished: bool, now: int): (r: Option<string>)
    ensures r.None? <==> found && now <= examEnd && !submittedOrFinished
    ensures !found ==> r == Some(MsgNotStarted)
  {
    if !found then Some(MsgNotStarted)
    else if examEnd < now then Some(MsgExamEnded)
    else if submittedOrFinished then Some(MsgAlreadySubmitted)
    else None
  }

  /** The attempt after SubmitExam1: graded status and score, submit time, client data and answer count. */
  function Submitted(a: StudentExam, status: int, total: real, ip: string, browser: string,
                     answered: nat, now: int): (r: StudentExam)
    ensures r.id == a.id && r.examId == a.examId && r.studentId == a.studentId
    ensures r.status == status && r.score == Some(total) && r.submitTime == Some(now)
    ensures r.totalQuestions == answered
  {
    a.(status := status, score := Some(total), submitTime := Some(now), updatedAt := now,
       ipAddress := ip, browser := browser, totalQuestions := answered)
  }

  /**
   The attempt after SubmitExam as written: score, times, client data and
   answer count are stored, but the status the scoring strategy returned is
   dropped, so the attempt keeps the status it had.
   */
  function SubmitAsWritten(a: StudentExam, strategyScore: real, strategyStatus: int, ip: string, browser: string,
                           answered: nat, now: int): (r: StudentExam)
    ensures r.status == a.status && r.score == Some(strategyScore) && r.submitTime == Some(now)
  {
    a.(score := Some(strategyScore), submitTime := Some(now), updatedAt := now,
       ipAddress := ip, browser := browser, totalQuestions := answered)
  }

  /** A submitted attempt whose strategy passed it still reads InProgress in the student's list. */
  lemma SubmitAsWrittenStaysInProgress(a: StudentExam, score: real, ip: string, browser: string, answered: nat, now: int)
    requires a.status == AttemptInProgress
    ensures SubmitAsWritten(a, score, AttemptPassed, ip, browser, answered, now).status != AttemptPassed
    ensures ListStatus(Some(SubmitAsWritten(a, score, AttemptPassed, ip, browser, answered, now))) == "InProgress"
  {
  }

  /** The corrected SubmitExam: the strategy's status is stored with its score. */
  function SubmitCorrected(a: StudentExam, strategyScore: real, strategyStatus: int, ip: string, browser: string,
                           answered: nat, now: int): (r: StudentExam)
    ensures r.status == strategyStatus && r.score == Some(strategyScore) && r.submitTime == Some(now)
    ensures r.totalQuestions == answered && r.ipAddress == ip && r.browser == browser && r.updatedAt == now
    ensures r.id == a.id && r.examId == a.examId && r.studentId == a.studentId
      && r.startTime == a.startTime && r.extraTimeMinutes == a.extraTimeMinutes
    ensures r == SubmitAsWritten(a, strategyScore, strategyStatus, ip, browser, answered, now).(status := strategyStatus)
  {
    Submitted(a, strategyStatus, strategyScore, ip, browser, answered, now)
  }

  /** The corrected submit lists the attempt with the strategy's verdict. */
  lemma SubmitCorrectedListsVerdict(a: StudentExam, score: real, status: int, ip: string, browser: string, answered: nat, now: int)
    requires status == AttemptPassed || status == AttemptFailed
    ensures ListStatus(Some(SubmitCorrected(a, score, status, ip, browser, answered, now))) ==
            (if status == AttemptPassed then "Passed" else "Failed")
  {
  }

  // ---------------------------------------------------------------- essay marking

  /** One mark the marker gives: the question and the points awarded. */
  datatype EssayScore = EssayScore(questionId: string, pointsEarned: real)

  const MsgNotSubmitted: string := "Student exam not found or not submitted."
  const MsgNoMarkPermission: string := "You do not have permission to mark this exam essay."
  const MsgGradeFirst: string := "Please grade the test before submitting."

  /** Only an attempt that is neither in progress nor unstarted can be marked. */
  predicate Markable(a: StudentExam)
  {
    a.status != AttemptInProgress && a.status != AttemptNotStarted
  }

  /** Some supervision row of the exam names the user as supervisor or creator, or the user is an admin. */
  predicate CanMark(supervisors: seq<ExamSupervisorRow>, examId: string, userId: string, isAdmin: bool)
  {
    exists i | 0 <= i < |supervisors| :: supervisors[i].examId == examId
      && (isAdmin || supervisors[i].supervisorId == Some(userId) || supervisors[i].createdBy == userId)
  }

  /** The refusals of MarkEssay, in order. */
  function MarkError(found: bool, permitted: bool, scores: seq<EssayScore>): (r: Option<string>)
    ensures r.None? <==> found && permitted && scores != []
    ensures found && permitted && scores == [] ==> r == Some(MsgGradeFirst)
  {
    if !found then Some(MsgNotSubmitted)
    else if !permitted then Some(MsgNoMarkPermission)
    else if scores == [] then Some(MsgGradeFirst)
    else None
  }

  /** The maximum a question can be awarded: its points in the exam, zero when it is not in the exam. */
  function MaxPoint(maxes: map<string, real>, questionId: string): real
  {
    if questionId in maxes then maxes[questionId] else 0.0
  }

  function Min(a: real, b: real): (r: real)
    ensures r <= a && r <= b && (r == a || r == b)
  {
    if a <= b then a else b
  }

  /** The answer rows as marking leaves them and the running total. */
  datatype Marking = Marking(rows: seq<StudentAnswer>, total: real)

  /**
   One mark: a question without an answer row is skipped; otherwise the first
   row for it gets the awarded points capped at the maximum, loses its
   correctness flag, and the capped points join the total.
   */
  function MarkStep(m: Marking, attemptId: string, s: EssayScore, maxes: map<string, real>, now: int): Marking
  {
    var k := FirstAnswer(m.rows, attemptId, s.questionId);
    if k == |m.rows| then m
    else
      var e := Min(s.pointsEarned, MaxPoint(maxes, s.questionId));
      Marking(m.rows[k := m.rows[k].(pointsEarned := Some(e), isCorrect := None, updatedAt := now)], m.total + e)
  }

  function MarkAll(m: Marking, attemptId: string, scores: seq<EssayScore>, maxes: map<string, real>, now: int): Marking
  {
    if scores == [] then m
    else
      var n := |scores| - 1;
      MarkStep(MarkAll(m, attemptId, scores[..n], maxes, now), attemptId, scores[n], maxes, now)
  }

  /** The sum of the maxima of the marked questions. */
  function MaxSum(scores: seq<EssayScore>, maxes: map<string, real>): real
  {
    if scores == [] then 0.0
    else MaxSum(scores[..|scores| - 1], maxes) + MaxPoint(maxes, scores[|scores| - 1].questionId)
  }

  /** The marking loop of MarkEssay. */
  method MarkAnswers(rows: seq<StudentAnswer>, attemptId: string, scores: seq<EssayScore>,
                     maxes: map<string, real>, now: int) returns (marked: seq<StudentAnswer>, total: real)
    ensures Marking(marked, total) == MarkAll(Marking(rows, 0.0), attemptId, scores, maxes, now)
  {
    marked := rows;
    total := 0.0;
    var i := 0;
    while i < |scores|
      invariant 0 <= i <= |scores|
      invariant Marking(marked, total) == MarkAll(Marking(rows, 0.0), attemptId, scores[..i], maxes, now)
    {
      assert scores[..i + 1][..i] == scores[..i];
      var score := scores[i];
      var k := FirstAnswer(marked, attemptId, score.questionId);
      if k < |marked| {
        var earned := Min(score.pointsEarned, MaxPoint(maxes, score.questionId));
        marked := marked[k := marked[k].(pointsEarned := Some(earned), isCorrect := None, updatedAt := now)];
        total := total + earned;
      }
      i := i + 1;
    }
    assert scores[..i] == scores;
  }

  /**
   Marking changes only the attempt's rows, each to ungraded-by-machine with
   points at most the question's maximum, and with non-negative maxima the
   total never exceeds the sum of the maxima of the marked questions.
   */
  lemma {:induction false} MarkBounds(m: Marking, attemptId: string, scores: seq<EssayScore>,
                                      maxes: map<string, real>, now: int)
    requires forall q | q in maxes :: maxes[q] >= 0.0
    ensures var r := MarkAll(m, attemptId, scores, maxes, now);
      && |r.rows| == |m.rows|
      && r.total <= m.total + MaxSum(scores, maxes)
      && (forall k | 0 <= k < |m.rows| && r.rows[k] != m.rows[k] ::
            && AnswerOf(m.rows[k], attemptId, r.rows[k].questionId)
            && r.rows[k].isCorrect.None? && r.rows[k].pointsEarned.Some?
            && r.rows[k].pointsEarned.value <= MaxPoint(maxes, r.rows[k].questionId))
  {
    if scores != [] {
      var n := |scores| - 1;
      MarkBounds(m, attemptId, scores[..n], maxes, now);
    }
  }

  /** The status a submit stores: Submitted for an essay exam, the scored status otherwise. */
  function SubmitStatus(essay: bool, total: real): (r: int)
    ensures essay ==> r == AttemptSubmitted
    ensures !essay ==> (r == AttemptPassed <==> total > 0.0)
  {
    if essay then AttemptSubmitted else ScoredStatus(total)
  }

  // ---------------------------------------------------------------- the attempt and answer tables

  /**
   The tables the service reads and writes: exams, each exam's scored items,
   supervision rows and the admins are read only; attempts (keyed by their
   identifier) and answer rows (in table order) change.
   */
  class StudentExamStore {
    const exams: map<string, Exam>
    const examItems: map<string, map<string, ExamItem>>
    const supervisors: seq<ExamSupervisorRow>
    const admins: set<string>
    var attempts: map<string, StudentExam>
    var answers: seq<StudentAnswer>

    /** Attempts are stored under their own identifier, belong to a known exam, and are unique per student and exam. */
    ghost predicate Valid()
      reads this
    {
      && (forall id | id in attempts :: attempts[id].id == id && attempts[id].examId in exams)
      && OneAttemptPerStudent(attempts)
    }

    constructor (exams: map<string, Exam>, examItems: map<string, map<string, ExamItem>>,
                 supervisors: seq<ExamSupervisorRow>, admins: set<string>)
      ensures Valid()
      ensures this.exams == exams && this.examItems == examItems
      ensures this.supervisors == supervisors && this.admins == admins
      ensures attempts == map[] && answers == []
    {
      this.exams := exams;
      this.examItems := examItems;
      this.supervisors := supervisors;
      this.admins := admins;
      attempts := map[];
      answers := [];
    }

    /** The scored items of an exam: its questions with their points and correct answers. */
    function ItemsOf(examId: string): map<string, ExamItem>
    {
      if examId in examItems then examItems[examId] else map[]
    }

    /** The maximum points of each question of an exam. */
    function MaxPoints(examId: string): map<string, real>
    {
      var items := ItemsOf(examId);
      map q | q in items :: items[q].points
    }

    /** The attempt exists and belongs to the exam and the student. */
    ghost predicate Owns(attemptId: string, examId: string, userId: string)
      reads this
    {
      attemptId in attempts && attempts[attemptId].examId == examId && attempts[attemptId].studentId == userId
    }

    /**
     AccessExam: the first refusal, or the student's existing attempt resumed,
     or the attempt the builder made (`newAttempt`) added.
     */
    method AccessExam(examId: string, userId: string, validatorMessage: string, otpValid: bool,
                      isCompleted: int -> bool, ip: string, browser: string, newAttempt: StudentExam, now: int)
      returns (message: string, attemptId: Option<string>)
      requires Valid()
      requires newAttempt.examId == examId && newAttempt.studentId == userId && newAttempt.id !in attempts
      modifies this
      ensures Valid() && answers == old(answers)
      ensures var existing := AttemptOf(old(attempts), examId, userId);
        var err := AccessError(examId in exams, validatorMessage, otpValid, existing,
                               existing.Some? && isCompleted(existing.value.status), now);
        && (err.Some? ==> message == err.value && attemptId.None? && attempts == old(attempts))
        && (err.None? ==> message == "" && attemptId.Some?)
        && (err.None? && existing.Some? ==>
              attemptId.value == existing.value.id
              && attempts == old(attempts)[existing.value.id := Resumed(existing.value, ip, browser, now)])
        && (err.None? && existing.None? ==>
              attemptId.value == newAttempt.id && attempts == old(attempts)[newAttempt.id := newAttempt])
    {
      var existing: Option<StudentExam> := None;
      if exists id | id in attempts :: attempts[id].examId == examId && attempts[id].studentId == userId {
        var id :| id in attempts && attempts[id].examId == examId && attempts[id].studentId == userId;
        existing := Some(attempts[id]);
      }
      assert existing == AttemptOf(attempts, examId, userId);
      var completed := existing.Some? && isCompleted(existing.value.status);
      var err := AccessError(examId in exams, validatorMessage, otpValid, existing, completed, now);
      if err.Some? {
        message := err.value;
        attemptId := None;
        return;
      }
      message := "";
      if existing.Some? {
        var a := existing.value;
        attempts := attempts[a.id := Resumed(a, ip, browser, now)];
        attemptId := Some(a.id);
      } else {
        attempts := attempts[newAttempt.id := newAttempt];
        attemptId := Some(newAttempt.id);
      }
    }

    /** The refusal SubmitExam1 gives for the request, if any. */
    ghost function SubmitCheck(attemptId: string, examId: string, userId: string,
                               submittedOrFinished: int -> bool, now: int): Option<string>
      reads this
      requires Valid()
    {
      if !Owns(attemptId, examId, userId) then SubmitError(false, 0, false, now)
      else SubmitError(true, exams[examId].endTime, submittedOrFinished(attempts[attemptId].status), now)
    }

    /**
     SubmitExam1: after the checks, the request's answers are saved, a
     non-essay exam is scored, and the attempt records status, score, submit
     time, client data and the count of answers with a question id.
     */
    method SubmitExam1(examId: string, attemptId: string, userId: string, inputs: seq<AnswerInput>, newIds: seq<string>,
                       submittedOrFinished: int -> bool, ip: string, browser: string, now: int)
      returns (message: string)
      requires Valid() && |newIds| == |inputs|
      modifies this
      ensures Valid()
      ensures old(SubmitCheck(attemptId, examId, userId, submittedOrFinished, now)).Some? ==>
        message == old(SubmitCheck(attemptId, examId, userId, submittedOrFinished, now)).value
        && attempts == old(attempts) && answers == old(answers)
      ensures old(SubmitCheck(attemptId, examId, userId, submittedOrFinished, now)).None? ==>
        var saved := SaveAnswers(old(answers), attemptId, inputs, newIds, true, now);
        var essay := exams[examId].examType == TypeEssay;
        var total := if essay then 0.0 else TotalEarned(saved, attemptId, ItemsOf(examId));
        && message == ""
        && answers == (if essay then saved else GradeRows(saved, attemptId, ItemsOf(examId), now))
        && attempts == old(attempts)[attemptId := Submitted(old(attempts)[attemptId], SubmitStatus(essay, total),
                                                          total, ip, browser, AnsweredCount(inputs), now)]
    {
      if !(attemptId in attempts && attempts[attemptId].examId == examId && attempts[attemptId].studentId == userId) {
        message := MsgNotStarted;
        return;
      }
      var attempt := attempts[attemptId];
      if exams[examId].endTime < now {
        message := MsgExamEnded;
        return;
      }
      if submittedOrFinished(attempt.status) {
        message := MsgAlreadySubmitted;
        return;
      }
      var saved := SaveAnswerRows(answers, attemptId, inputs, newIds, true, now);
      var essay := exams[examId].examType == TypeEssay;
      var total := 0.0;
      if essay {
        answers := saved;
      } else {
        var graded;
        graded, total := ScoreAnswers(saved, attemptId, ItemsOf(examId), now);
        answers := graded;
      }
      attempts := attempts[attemptId := Submitted(attempt, SubmitStatus(essay, total), total, ip, browser,
                                                  AnsweredCount(inputs), now)];
      message := "";
    }

    /**
     SubmitExam, corrected to store the strategy's status: after the
     validator, the answers are saved (skipping null or empty question ids)
     and the attempt takes the score and status the scoring strategy returned.
     */
    method SubmitExam(examId: string, attemptId: string, userId: string, validatorMessage: string,
                      inputs: seq<AnswerInput>, newIds: seq<string>, strategyScore: real, strategyStatus: int,
                      ip: string, browser: string, now: int)
      returns (message: string)
      requires Valid() && |newIds| == |inputs|
      modifies this
      ensures Valid()
      ensures validatorMessage != "" ==>
        message == validatorMessage && attempts == old(attempts) && answers == old(answers)
      ensures validatorMessage == "" && !old(Owns(attemptId, examId, userId)) ==>
        message == MsgSubmitErrorPrefix + MsgNullReference && attempts == old(attempts) && answers == old(answers)
      ensures validatorMessage == "" && old(Owns(attemptId, examId, userId)) ==>
        && message == ""
        && answers == SaveAnswers(old(answers), attemptId, inputs, newIds, false, now)
        && attempts == old(attempts)[attemptId := SubmitCorrected(old(attempts)[attemptId], strategyScore, strategyStatus,
                                                                  ip, browser, AnsweredCount(inputs), now)]
    {
      if |validatorMessage| > 0 {
        message := validatorMessage;
        return;
      }
      if !(attemptId in attempts && attempts[attemptId].examId == examId && attempts[attemptId].studentId == userId) {
        message := MsgSubmitErrorPrefix + MsgNullReference;
        return;
      }
      var attempt := attempts[attemptId];
      answers := SaveAnswerRows(answers, attemptId, inputs, newIds, false, now);
      attempts := attempts[attemptId := SubmitCorrected(attempt, strategyScore, strategyStatus, ip, browser,
                                                        AnsweredCount(inputs), now)];
      message := "";
    }

    /** SaveAnswerTemporary: the attempt must be the student's, the validator must pass, then the answers are saved. */
    method SaveAnswerTemporary(examId: string, attemptId: string, userId: string, validatorMessage: string,
                               inputs: seq<AnswerInput>, newIds: seq<string>, now: int)
      returns (message: string)
      requires Valid() && |newIds| == |inputs|
      modifies this
      ensures Valid() && attempts == old(attempts)
      ensures !old(Owns(attemptId, examId, userId)) ==> message == MsgStudentNotInExam && answers == old(answers)
      ensures old(Owns(attemptId, examId, userId)) && validatorMessage != "" ==>
        message == validatorMessage && answers == old(answers)
      ensures old(Owns(attemptId, examId, userId)) && validatorMessage == "" ==>
        message == "" && answers == SaveAnswers(old(answers), attemptId, inputs, newIds, true, now)
    {
      if !(attemptId in attempts && attempts[attemptId].examId == examId && attempts[attemptId].studentId == userId) {
        message := MsgStudentNotInExam;
        return;
      }
      if |validatorMessage| > 0 {
        message := validatorMessage;
        return;
      }
      answers := SaveAnswerRows(answers, attemptId, inputs, newIds, true, now);
      message := "";
    }

    /** The attempt exists for the exam and has been submitted. */
    ghost predicate MarkFound(attemptId: string, examId: string)
      reads this
    {
      attemptId in attempts && attempts[attemptId].examId == examId && Markable(attempts[attemptId])
    }

    /**
     MarkEssay: after the checks, each mark caps the awarded points at the
     question's maximum on the attempt's answer row, and the attempt takes the
     total as its score and Passed or Failed as its status.
     */
    method MarkEssay(examId: string, attemptId: string, userId: string, scores: seq<EssayScore>, now: int)
      returns (message: string)
      requires Valid()
      modifies this
      ensures Valid()
      ensures var err := MarkError(old(MarkFound(attemptId, examId)), CanMark(supervisors, examId, userId, userId in admins), scores);
        && (err.Some? ==> message == err.value && attempts == old(attempts) && answers == old(answers))
        && (err.None? ==>
              var m := MarkAll(Marking(old(answers), 0.0), attemptId, scores, MaxPoints(examId), now);
              && message == ""
              && answers == m.rows
              && attempts == old(attempts)[attemptId := old(attempts)[attemptId].(
                   score := Some(m.total), updatedAt := now, status := ScoredStatus(m.total))])
    {
      var found := attemptId in attempts && attempts[attemptId].examId == examId && Markable(attempts[attemptId]);
      var permitted := CanMark(supervisors, examId, userId, userId in admins);
      var err := MarkError(found, permitted, scores);
      if err.Some? {
        message := err.value;
        return;
      }
      var marked, total := MarkAnswers(answers, attemptId, scores, MaxPoints(examId), now);
      answers := marked;
      var attempt := attempts[attemptId];
      attempts := attempts[attemptId := attempt.(score := Some(total), updatedAt := now, status := ScoredStatus(total))];
      message := "";
    }
  }
}

=== FILE: subject_service.dfy ===
/**
 The subjects an exam belongs to (SubjectService.cs): searching and paging,
 looking one up, switching one on or off, and creating one with an unused
 code and name or overwriting one.
 */
module SubjectService {
  import opened Common
  import opened Domain

  datatype Subject = Subject(subjectId: string, subjectCode: string, subjectName: string,
                             description: Option<string>, content: Option<string>, status: bool, credits: Option<int>,
                             createdDate: Option<int>, updatedDate: Option<int>)

  datatype SubjectSearch = SubjectSearch(textSearch: Option<string>, status: Option<bool>, currentPage: int, pageSize: int)

  datatype SubjectInput = SubjectInput(subjectId: Option<string>, subjectCode: string, subjectName: string,
                                       description: Option<string>, content: Option<string>, status: bool,
                                       credits: Option<int>)

  /** The activity-log record a save writes. */
  datatype LogEntry = LogEntry(actionType: string, description: string, objectId: Option<string>)

  const MsgNoSubjects: string := "No subjects found."
  const MsgEmptyId: string := "Subject ID cannot be null or empty."
  const MsgNotFound: string := "Subject not found."
  const MsgCodeInUse: string := "This SubjectCode is already in use. Please enter a different one."
  const MsgNameInUse: string := "This SubjectName is already in use. Please enter a different one."
  const MsgUpdateNotFound: string := "Subject not found!"

  // ---------------------------------------------------------------- GetAllSubjects / GetSubjectById

  predicate MatchesSearch(s: Subject, q: SubjectSearch)
  {
    (IsNullOrBlank(q.textSearch) || Contains(s.subjectName, q.textSearch.value) || Contains(s.subjectCode, q.textSearch.value))
    && (q.status.None? || s.status == q.status.value)
  }

  predicate SubjectBefore(a: Subject, b: Subject)
  {
    NewestFirst(a.createdDate, b.createdDate)
  }

  lemma SubjectBeforeTotal()
    ensures TotalPreorder(SubjectBefore)
  {
    NewestFirstTotal();
  }

  /**
   GetAllSubjects: the message is given only when nothing matches at all; a
   page past the end is a success with no rows.
   */
  function GetAllSubjects(subjects: seq<Subject>, q: SubjectSearch): (r: (string, Listing<Subject>))
    ensures var matching := Filter(subjects, (s: Subject) => MatchesSearch(s, q));
      && (r.0 == "" <==> matching != [])
      && (r.0 == "" ==> r.1.items == Some(PageOf(SortBy(matching, SubjectBefore), q.currentPage, q.pageSize)))
      && (r.0 != "" ==> r.0 == MsgNoSubjects && r.1.items.None?)
      && (r.0 == "" ==>
            r.1.items.Some? && r.1.total == |matching| && r.1.totalPage == PageCount(|matching|, q.pageSize)
            && r.1.currentPage == q.currentPage && r.1.pageSize == q.pageSize
            && (q.pageSize > 0 ==> |r.1.items.value| <= q.pageSize)
            && (forall s | s in r.1.items.value :: s in subjects && MatchesSearch(s, q))
            && SortedBy(r.1.items.value, SubjectBefore))
  {
    var matching := Filter(subjects, (s: Subject) => MatchesSearch(s, q));
    if matching == [] then (MsgNoSubjects, Listing(None, 0, 0, 0, 0))
    else
      SubjectBeforeTotal();
      var page := SortedPage(matching, SubjectBefore, q.currentPage, q.pageSize);
      assert q.pageSize > 0 ==> |page| <= q.pageSize by {
        assert page == PageOf(SortBy(matching, SubjectBefore), q.currentPage, q.pageSize);
      }
      ("", Listing(Some(page), PageCount(|matching|, q.pageSize), q.currentPage, q.pageSize, |matching|))
  }

  /** The position of the subject with the id (`FindAsync`). */
  function Find(subjects: seq<Subject>, id: string): (r: Option<nat>)
    ensures r.Some? ==> r.value < |subjects| && subjects[r.value].subjectId == id
    ensures r.None? <==> forall s | s in subjects :: s.subjectId != id
  {
    var r := FirstWhere(subjects, (s: Subject) => s.subjectId == id);
    assert r.None? ==> forall s | s in subjects :: s.subjectId != id by {
      if r.None? {
        forall s | s in subjects ensures s.subjectId != id {
          var j :| 0 <= j < |subjects| && subjects[j] == s;
        }
      }
    }
    r
  }

  /** GetSubjectById: an empty id is refused (a blank one is looked up), an unknown one not found. */
  function GetSubjectById(subjects: seq<Subject>, id: Option<string>): (r: Result<Subject>)
    ensures IsNullOrEmpty(id) ==> r == Failure(MsgEmptyId)
    ensures r.Success? <==> !IsNullOrEmpty(id) && exists s | s in subjects :: s.subjectId == id.value
    ensures r.Success? ==> r.value in subjects && r.value.subjectId == id.value
  {
    if IsNullOrEmpty(id) then Failure(MsgEmptyId)
    else
      var k := Find(subjects, id.value);
      if k.None? then Failure(MsgNotFound) else Success(subjects[k.value])
  }

  // ---------------------------------------------------------------- CreateUpdateSubject

  predicate CodeTaken(subjects: seq<Subject>, code: string)
  {
    exists s | s in subjects :: s.subjectCode == code
  }

  predicate NameTaken(subjects: seq<Subject>, name: string)
  {
    exists s | s in subjects :: s.subjectName == name
  }

  /** A create is refused for a used code, then for a used name; an update only for an unknown id. */
  function SaveError(subjects: seq<Subject>, input: SubjectInput): (r: Option<string>)
    ensures IsNullOrEmpty(input.subjectId) ==>
      (r.None? <==> !CodeTaken(subjects, input.subjectCode) && !NameTaken(subjects, input.subjectName))
    ensures IsNullOrEmpty(input.subjectId) && CodeTaken(subjects, input.subjectCode) ==> r == Some(MsgCodeInUse)
    ensures !IsNullOrEmpty(input.subjectId) ==>
      (r.None? <==> Find(subjects, input.subjectId.value).Some?)
  {
    if IsNullOrEmpty(input.subjectId) then
      if CodeTaken(subjects, input.subjectCode) then Some(MsgCodeInUse)
      else if NameTaken(subjects, input.subjectName) then Some(MsgNameInUse)
      else None
    else if Find(subjects, input.subjectId.value).None? then Some(MsgUpdateNotFound)
    else None
  }

  function CreatedSubject(input: SubjectInput, newId: string, now: int): (r: Subject)
    ensures r.subjectId == newId && r.subjectCode == input.subjectCode && r.subjectName == input.subjectName
    ensures r.status == input.status && r.createdDate == Some(now) && r.updatedDate.None?
  {
    Subject(newId, input.subjectCode, input.subjectName, input.description, input.content, input.status,
            input.credits, Some(now), None)
  }

  function UpdatedSubject(s: Subject, input: SubjectInput, now: int): (r: Subject)
    ensures r.subjectId == s.subjectId && r.createdDate == s.createdDate && r.updatedDate == Some(now)
    ensures r.subjectCode == input.subjectCode && r.subjectName == input.subjectName && r.status == input.status
  {
    s.(subjectName := input.subjectName, description := input.description, subjectCode := input.subjectCode,
       content := input.content, status := input.status, credits := input.credits, updatedDate := Some(now))
  }

  predicate CodesUnique(subjects: seq<Subject>)
  {
    forall i, j | 0 <= i < j < |subjects| :: subjects[i].subjectCode != subjects[j].subjectCode
  }

  /** A create the checks let through keeps codes unique. */
  lemma CreateKeepsCodesUnique(subjects: seq<Subject>, input: SubjectInput, newId: string, now: int)
    requires CodesUnique(subjects) && IsNullOrEmpty(input.subjectId) && SaveError(subjects, input).None?
    ensures CodesUnique(subjects + [CreatedSubject(input, newId, now)])
  {
    var r := subjects + [CreatedSubject(input, newId, now)];
    forall i, j | 0 <= i < j < |r| ensures r[i].subjectCode != r[j].subjectCode {
      if j == |subjects| {
        assert r[i] in subjects;
      }
    }
  }

  /** An update is not checked: giving a subject another subject's code goes through. */
  lemma UpdateMayDuplicateCode(a: Subject, b: Subject, now: int)
    requires a.subjectId != b.subjectId && a.subjectCode != b.subjectCode && b.subjectId != ""
    ensures var input := SubjectInput(Some(b.subjectId), a.subjectCode, b.subjectName, b.description, b.content,
                                      b.status, b.credits);
      && CodesUnique([a, b])
      && SaveError([a, b], input).None?
      && !CodesUnique([a, UpdatedSubject(b, input, now)])
  {
    var input := SubjectInput(Some(b.subjectId), a.subjectCode, b.subjectName, b.description, b.content,
                              b.status, b.credits);
    assert Find([a, b], b.subjectId) == Some(1);
    assert [a, UpdatedSubject(b, input, now)][0].subjectCode == [a, UpdatedSubject(b, input, now)][1].subjectCode;
  }

  /**
   The log record as the code builds it: on a create the new id is stored in
   the input before the record is built, so the create/update test always sees
   an id.
   */
  function LogEntryAsWritten(input: SubjectInput, newId: string): (r: LogEntry)
    ensures r.objectId == (if IsNullOrEmpty(input.subjectId) then Some(newId) else input.subjectId)
  {
    var id := if IsNullOrEmpty(input.subjectId) then Some(newId) else input.subjectId;
    var created := IsNullOrEmpty(id);
    LogEntry(if created then "Create" else "Update",
             input.subjectCode + " has been " + (if created then "created" else "updated") + ".", id)
  }

  /** A create with a generated id is logged as an update. */
  lemma CreateLoggedAsUpdate(input: SubjectInput, newId: string)
    requires IsNullOrEmpty(input.subjectId) && newId != ""
    ensures LogEntryAsWritten(input, newId).actionType == "Update"
    ensures LogEntryAsWritten(input, newId).description == input.subjectCode + " has been updated."
  {
  }

  /** The log record with the create/update test made on the id the caller sent. */
  function LogEntryFor(input: SubjectInput, newId: string): (r: LogEntry)
    ensures r.actionType == "Create" <==> IsNullOrEmpty(input.subjectId)
    ensures r.actionType == "Create" || r.actionType == "Update"
    ensures r.objectId == (if IsNullOrEmpty(input.subjectId) then Some(newId) else input.subjectId)
    ensures r.description == input.subjectCode + " has been "
                             + (if IsNullOrEmpty(input.subjectId) then "created" else "updated") + "."
  {
    var created := IsNullOrEmpty(input.subjectId);
    LogEntry(if created then "Create" else "Update",
             input.subjectCode + " has been " + (if created then "created" else "updated") + ".",
             if created then Some(newId) else input.subjectId)
  }

  /** The two records differ exactly on creates. */
  lemma LogEntriesAgreeOnUpdates(input: SubjectInput, newId: string)
    requires newId != ""
    ensures LogEntryFor(input, newId) == LogEntryAsWritten(input, newId) <==> !IsNullOrEmpty(input.subjectId)
  {
  }

  // ---------------------------------------------------------------- the store

  /** The Subjects table in table order. */
  class SubjectStore {
    var subjects: seq<Subject>

    constructor (subjects: seq<Subject>)
      ensures this.subjects == subjects
    {
      this.subjects := subjects;
    }

    /** ChangeActivateSubject: flips Status (saved before the log) and returns the log's message. */
    method ChangeActivateSubject(id: Option<string>, logMessage: string) returns (message: string)
      modifies this
      ensures IsNullOrEmpty(id) ==> message == MsgEmptyId && subjects == old(subjects)
      ensures !IsNullOrEmpty(id) && Find(old(subjects), id.value).None? ==> message == MsgNotFound && subjects == old(subjects)
      ensures !IsNullOrEmpty(id) && Find(old(subjects), id.value).Some? ==>
        var k := Find(old(subjects), id.value).value;
        message == logMessage && subjects == old(subjects)[k := old(subjects)[k].(status := !old(subjects)[k].status)]
    {
      if IsNullOrEmpty(id) {
        return MsgEmptyId;
      }
      var k := Find(subjects, id.value);
      if k.None? {
        return MsgNotFound;
      }
      subjects := subjects[k.value := subjects[k.value].(status := !subjects[k.value].status)];
      message := logMessage;
    }

    /** CreateUpdateSubject: creates under `newId` or overwrites the subject, and writes the log record. */
    method CreateUpdateSubject(input: SubjectInput, now: int, newId: string, logMessage: string)
      returns (message: string, logged: Option<LogEntry>)
      requires newId != ""
      modifies this
      ensures var err := SaveError(old(subjects), input);
        && (err.Some? ==> message == err.value && logged.None? && subjects == old(subjects))
        && (err.None? && IsNullOrEmpty(input.subjectId) ==>
              subjects == old(subjects) + [CreatedSubject(input, newId, now)])
        && (err.None? && !IsNullOrEmpty(input.subjectId) ==>
              var k := Find(old(subjects), input.subjectId.value).value;
              subjects == old(subjects)[k := UpdatedSubject(old(subjects)[k], input, now)])
        && (err.None? ==> message == logMessage && logged == Some(LogEntryFor(input, newId)))
    {
      var err := SaveError(subjects, input);
      if err.Some? {
        return err.value, None;
      }
      if IsNullOrEmpty(input.subjectId) {
        subjects := subjects + [CreatedSubject(input, newId, now)];
      } else {
        var k := Find(subjects, input.subjectId.value).value;
        subjects := subjects[k := UpdatedSubject(subjects[k], input, now)];
      }
      message, logged := logMessage, Some(LogEntryFor(input, newId));
    }
  }
}

=== FILE: user_service.dfy ===
/**
 User administration (UserService.cs): the role-dependent validation of a
 user form, the uniqueness checks on email, phone and user code, switching
 a user between Active and Inactive, the bulk import of users and the
 numbering of rows in an import preview.
 */
module UserService {
  import opened Common
  import opened Domain

  /** The fields of a create/import form that the checks and the new row use. */
  datatype UserInput = UserInput(
    fullName: Option<string>, phone: Option<string>, userCode: Option<string>, email: Option<string>,
    campusId: Option<string>, departmentId: Option<string>, positionId: Option<string>,
    majorId: Option<string>, specializationId: Option<string>, roleIds: Option<seq<int>>, status: Option<int>)

  /** The lookup tables ValidateUserInput consults (ids only). */
  datatype Catalog = Catalog(
    campuses: set<string>, departments: set<string>, positions: set<string>,
    majors: set<string>, specializations: set<string>)

  // ---------------------------------------------------------------- ValidateUserInput

  /** `input.RoleId ?? new List<int>()` */
  function RolesOf(input: UserInput): seq<int>
  {
    if input.roleIds.Some? then input.roleIds.value else []
  }

  /** Teacher, Supervisor or Admin. */
  predicate IsStaff(roles: seq<int>)
  {
    RoleLecture in roles || RoleSupervisor in roles || RoleAdmin in roles
  }

  /** A required reference: present, not blank, and an existing id. */
  predicate Known(id: Option<string>, table: set<string>)
  {
    !IsNullOrBlank(id) && id.value in table
  }

  /** The check for one reference: blank gives the "required" message, unknown the "invalid" one. */
  function RefError(id: Option<string>, table: set<string>, required: string, name: string): (r: string)
    requires required != ""
    ensures r == "" <==> Known(id, table)
  {
    if IsNullOrBlank(id) then required
    else if id.value !in table then name + " '" + id.value + "' is invalid."
    else ""
  }

  /**
   ValidateUserInput: the campus first, then for any staff role the
   department and the position, then for Student the major, then for
   Lecture the specialization; "" when all pass.
   */
  function ValidateUserInput(input: UserInput, cat: Catalog): (r: string)
    ensures r == "" <==>
      (Known(input.campusId, cat.campuses)
       && (IsStaff(RolesOf(input)) ==> Known(input.departmentId, cat.departments) && Known(input.positionId, cat.positions))
       && (RoleStudent in RolesOf(input) ==> Known(input.majorId, cat.majors))
       && (RoleLecture in RolesOf(input) ==> Known(input.specializationId, cat.specializations)))
    ensures !Known(input.campusId, cat.campuses) ==> r == "CampusId '" + OrEmpty(input.campusId) + "' is invalid or required."
  {
    var roles := RolesOf(input);
    var staffRequired := " is required for Teacher, Supervisor, or Admin.";
    if !Known(input.campusId, cat.campuses) then "CampusId '" + OrEmpty(input.campusId) + "' is invalid or required."
    else if IsStaff(roles) && !Known(input.departmentId, cat.departments) then
      RefError(input.departmentId, cat.departments, "A DepartmentId" + staffRequired, "DepartmentId")
    else if IsStaff(roles) && !Known(input.positionId, cat.positions) then
      RefError(input.positionId, cat.positions, "A PositionId" + staffRequired, "PositionId")
    else if RoleStudent in roles && !Known(input.majorId, cat.majors) then
      RefError(input.majorId, cat.majors, "A MajorId is required for Student role.", "MajorId")
    else if RoleLecture in roles && !Known(input.specializationId, cat.specializations) then
      RefError(input.specializationId, cat.specializations, "A SpecializationId is required for Teacher role.", "SpecializationId")
    else ""
  }

  /** A Student-only form is judged without looking at the staff-only fields. */
  lemma StudentIgnoresStaffFields(input: UserInput, cat: Catalog, dept: Option<string>, pos: Option<string>, spec: Option<string>)
    requires forall k | 0 <= k < |RolesOf(input)| :: RolesOf(input)[k] == RoleStudent
    ensures ValidateUserInput(input, cat)
         == ValidateUserInput(input.(departmentId := dept, positionId := pos, specializationId := spec), cat)
  {
    var other := input.(departmentId := dept, positionId := pos, specializationId := spec);
    assert RolesOf(other) == RolesOf(input);
    forall x | x in RolesOf(input)
      ensures x == RoleStudent
    {
      var k :| 0 <= k < |RolesOf(input)| && RolesOf(input)[k] == x;
    }
  }

  // ---------------------------------------------------------------- uniqueness checks

  function EmailOf(u: User): Option<string> { u.email }
  function PhoneOf(u: User): Option<string> { u.phone }
  function CodeOf(u: User): Option<string> { u.userCode }

  /** Some user other than `self` (any user when `self` is null) holds the value in the field. */
  predicate TakenByOther(users: map<string, User>, field: User -> Option<string>, value: string, self: Option<string>)
  {
    exists id | id in users :: field(users[id]) == Some(value) && (self.None? || users[id].userId != self.value)
  }

  /** CheckEmailExisted: present, non-empty and well formed, and no user has it. */
  function CheckEmail(users: map<string, User>, wellFormed: string -> bool, email: Option<string>): (r: string)
    ensures r == "" <==>
      (email.Some? && email.value != "" && wellFormed(email.value)
       && !TakenByOther(users, EmailOf, email.value, None))
  {
    if email.None? || email.value == "" || !wellFormed(email.value) then "Email is not valid"
    else if TakenByOther(users, EmailOf, email.value, None) then "Email is already in use."
    else ""
  }

  /** CheckPhoneExisted: present and non-empty, and no other user has it. */
  function CheckPhone(users: map<string, User>, phone: Option<string>, self: Option<string>): (r: string)
    ensures r == "" <==>
      (phone.Some? && phone.value != "" && !TakenByOther(users, PhoneOf, phone.value, self))
  {
    if phone.None? || phone.value == "" then "Phone number is not valid"
    else if TakenByOther(users, PhoneOf, phone.value, self) then "Phone number is already in use."
    else ""
  }

  /** CheckUserCodeExisted: present and non-empty, and no other user has it. */
  function CheckUserCode(users: map<string, User>, code: Option<string>, self: Option<string>): (r: string)
    ensures r == "" <==>
      (code.Some? && code.value != "" && !TakenByOther(users, CodeOf, code.value, self))
  {
    if code.None? || code.value == "" then "UserCode is not valid"
    else if TakenByOther(users, CodeOf, code.value, self) then "UserCode is already in use."
    else ""
  }

  /** A user keeping their own phone on an update is not refused for it. */
  lemma OwnPhoneAllowed(users: map<string, User>, self: string, phone: string)
    requires phone != ""
    requires forall id | id in users && users[id].phone == Some(phone) :: users[id].userId == self
    ensures CheckPhone(users, Some(phone), Some(self)) == ""
  {
  }

  /** Without the user's id the same phone counts as taken by that user. */
  lemma OwnPhoneTakenWithoutId(users: map<string, User>, self: string, phone: string)
    requires phone != "" && self in users && users[self].phone == Some(phone)
    ensures CheckPhone(users, Some(phone), None) == "Phone number is already in use."
  {
    assert PhoneOf(users[self]) == Some(phone);
  }

  // ---------------------------------------------------------------- DoToggleActive

  /** The new status: Active becomes Inactive, anything else (null included) becomes Active. */
  function UserToggled(s: Option<int>): (r: Option<int>)
    ensures r.Some? && r.value in {StatusInactive, StatusActive}
    ensures (r == Some(StatusInactive)) <==> (s == Some(StatusActive))
  {
    if s == Some(StatusActive) then Some(StatusInactive) else Some(StatusActive)
  }

  /** Toggling twice restores an Active or Inactive user; any other status ends Active. */
  lemma UserToggleTwice(s: Option<int>)
    ensures s in {Some(StatusInactive), Some(StatusActive)} ==> UserToggled(UserToggled(s)) == s
    ensures s !in {Some(StatusInactive), Some(StatusActive)} ==> UserToggled(UserToggled(s)) == Some(StatusInactive)
  {
  }

  // ---------------------------------------------------------------- AddListUser

  /** What the import consults: the tables, the email-format test, the caller and the clock. */
  datatype ImportContext = ImportContext(
    users: map<string, User>, catalog: Catalog, roleTable: set<int>,
    wellFormed: string -> bool, token: Option<string>, now: int)

  /** The requested roles that exist. */
  function ValidRoles(input: UserInput, roleTable: set<int>): (r: set<int>)
    ensures forall x :: x in r <==> x in roleTable && x in RolesOf(input)
  {
    set x | x in roleTable && x in RolesOf(input)
  }

  /** The checks on one imported row, in order: email, phone, user code, form, roles. */
  function RowError(ctx: ImportContext, input: UserInput): (r: Option<string>)
    ensures r.Some? ==> r.value != ""
    ensures r.None? <==>
      (CheckEmail(ctx.users, ctx.wellFormed, input.email) == ""
       && CheckPhone(ctx.users, input.phone, None) == ""
       && CheckUserCode(ctx.users, input.userCode, None) == ""
       && ValidateUserInput(input, ctx.catalog) == ""
       && ValidRoles(input, ctx.roleTable) != {})
  {
    var e := CheckEmail(ctx.users, ctx.wellFormed, input.email);
    var p := CheckPhone(ctx.users, input.phone, None);
    var c := CheckUserCode(ctx.users, input.userCode, None);
    var v := ValidateUserInput(input, ctx.catalog);
    if e != "" then Some(e)
    else if p != "" then Some(p)
    else if c != "" then Some(c)
    else if v != "" then Some(v)
    else if ValidRoles(input, ctx.roleTable) == {} then Some("No valid roles found.")
    else None
  }

  /**
   The row AddListUser writes for an accepted input: the form's fields, no
   user code, and the stored password (hashed: see the findings).
   */
  function NewUser(ctx: ImportContext, input: UserInput, id: string, storedPassword: string): (r: User)
    ensures r.userId == id && r.userCode.None? && r.password == Some(storedPassword)
    ensures r.email == input.email && r.phone == input.phone && r.status == input.status
  {
    User(id, None, input.fullName, input.email, input.phone, Some(storedPassword), None, None,
         input.campusId, input.departmentId, input.positionId, input.majorId, input.specializationId,
         input.status, None, Some(ctx.now), ctx.token, None, None)
  }

  /** One UserRoles row per valid role of the new user. */
  function Grants(userId: string, roles: set<int>): (r: set<(string, int)>)
    ensures forall x :: (userId, x) in r <==> x in roles
    ensures forall g | g in r :: g.0 == userId
  {
    set x | x in roles :: (userId, x)
  }

  datatype ImportOutcome = ImportOutcome(created: seq<User>, grants: set<(string, int)>, errors: seq<(UserInput, string)>)

  predicate Accepted(ctx: ImportContext, input: UserInput)
  {
    RowError(ctx, input).None?
  }

  /** One pass of the import loop: a rejected input adds its error, an accepted one its user and grants. */
  function ImportRow(ctx: ImportContext, prev: ImportOutcome, input: UserInput, id: string, password: string): (r: ImportOutcome)
    ensures Accepted(ctx, input) ==>
      r == prev.(created := prev.created + [NewUser(ctx, input, id, password)],
                 grants := prev.grants + Grants(id, ValidRoles(input, ctx.roleTable)))
    ensures !Accepted(ctx, input) ==> r == prev.(errors := prev.errors + [(input, RowError(ctx, input).value)])
  {
    match RowError(ctx, input)
    case Some(m) => prev.(errors := prev.errors + [(input, m)])
    case None =>
      prev.(created := prev.created + [NewUser(ctx, input, id, password)],
            grants := prev.grants + Grants(id, ValidRoles(input, ctx.roleTable)))
  }

  /**
   The rows the import loop produces for `inputs`, input i getting the
   fresh id ids[i] and the stored password passwords[i]. Every row is
   checked against the tables as they were before the import.
   */
  function ImportRows(ctx: ImportContext, inputs: seq<UserInput>, ids: seq<string>, passwords: seq<string>): ImportOutcome
    requires |ids| >= |inputs| && |passwords| >= |inputs|
    decreases |inputs|
  {
    if inputs == [] then ImportOutcome([], {}, [])
    else
      var n := |inputs| - 1;
      ImportRow(ctx, ImportRows(ctx, inputs[..n], ids, passwords), inputs[n], ids[n], passwords[n])
  }

  /** Every input ends up either created or reported; reports carry their input and a message; created users get an id from `ids` and no user code. */
  lemma {:induction false} ImportRowsShape(ctx: ImportContext, inputs: seq<UserInput>, ids: seq<string>, passwords: seq<string>)
    requires |ids| >= |inputs| && |passwords| >= |inputs|
    ensures var r := ImportRows(ctx, inputs, ids, passwords);
      && |r.created| + |r.errors| == |inputs|
      && (forall e | e in r.errors :: e.0 in inputs && e.1 != "")
      && (forall u | u in r.created :: u.userCode.None? && u.userId in ids[..|inputs|])
    decreases |inputs|
  {
    if inputs != [] {
      var n := |inputs| - 1;
      ImportRowsShape(ctx, inputs[..n], ids, passwords);
      assert forall x | x in inputs[..n] :: x in inputs;
      assert ids[..n] <= ids[..|inputs|];
    }
  }

  /** One more input adds one created user when accepted and one error otherwise. */
  lemma ImportStep(ctx: ImportContext, inputs: seq<UserInput>, ids: seq<string>, passwords: seq<string>)
    requires |ids| >= |inputs| > 0 && |passwords| >= |inputs|
    ensures var n := |inputs| - 1;
      && |ImportRows(ctx, inputs, ids, passwords).created|
         == |ImportRows(ctx, inputs[..n], ids, passwords).created| + (if Accepted(ctx, inputs[n]) then 1 else 0)
      && |ImportRows(ctx, inputs, ids, passwords).errors|
         == |ImportRows(ctx, inputs[..n], ids, passwords).errors| + (if Accepted(ctx, inputs[n]) then 0 else 1)
  {
  }

  /** Filtering a one-element list. */
  lemma FilterOne(x: UserInput, p: UserInput -> bool)
    ensures |Filter([x], p)| == if p(x) then 1 else 0
  {
    assert [x][1..] == [];
  }

  /** The created users are one per accepted input, the errors one per rejected input. */
  lemma {:induction false} ImportCounts(ctx: ImportContext, inputs: seq<UserInput>, ids: seq<string>, passwords: seq<string>)
    requires |ids| >= |inputs| && |passwords| >= |inputs|
    ensures |ImportRows(ctx, inputs, ids, passwords).created| == Count(inputs, (x: UserInput) => Accepted(ctx, x))
    ensures |ImportRows(ctx, inputs, ids, passwords).errors| == Count(inputs, (x: UserInput) => !Accepted(ctx, x))
  {
    var p := (x: UserInput) => Accepted(ctx, x);
    var q := (x: UserInput) => !Accepted(ctx, x);
    if inputs != [] {
      var n := |inputs| - 1;
      ImportCounts(ctx, inputs[..n], ids, passwords);
      ImportStep(ctx, inputs, ids, passwords);
      assert inputs == inputs[..n] + [inputs[n]];
      FilterAppend(inputs[..n], [inputs[n]], p);
      FilterAppend(inputs[..n], [inputs[n]], q);
      FilterOne(inputs[n], p);
      FilterOne(inputs[n], q);
    }
  }

  /** "No users were created." exactly when every row is rejected. */
  lemma NothingCreatedIffAllRejected(ctx: ImportContext, inputs: seq<UserInput>, ids: seq<string>, passwords: seq<string>)
    requires |ids| >= |inputs| && |passwords| >= |inputs|
    ensures ImportRows(ctx, inputs, ids, passwords).created == [] <==> forall x | x in inputs :: !Accepted(ctx, x)
  {
    ImportCounts(ctx, inputs, ids, passwords);
    FilterAll(inputs, (x: UserInput) => !Accepted(ctx, x));
    CountPartition(inputs, (x: UserInput) => Accepted(ctx, x), (x: UserInput) => !Accepted(ctx, x));
  }

  /**
   Rows are checked against the table only, not against each other: two
   rows carrying the same new email are both accepted by the checks.
   */
  lemma BatchDuplicatesPassChecks(ctx: ImportContext, a: UserInput, b: UserInput, ids: seq<string>, passwords: seq<string>)
    requires Accepted(ctx, a) && Accepted(ctx, b) && a.email == b.email
    requires |ids| >= 2 && |passwords| >= 2
    ensures |ImportRows(ctx, [a, b], ids, passwords).created| == 2
    ensures ImportRows(ctx, [a, b], ids, passwords).created[0].email == ImportRows(ctx, [a, b], ids, passwords).created[1].email
  {
    assert [a, b][..1] == [a];
    assert [a][..0] == [];
    var none := ImportRows(ctx, [], ids, passwords);
    var first := ImportRows(ctx, [a], ids, passwords);
    assert first == ImportRow(ctx, none, a, ids[0], passwords[0]);
    assert first.created == [NewUser(ctx, a, ids[0], passwords[0])];
    assert ImportRows(ctx, [a, b], ids, passwords) == ImportRow(ctx, first, b, ids[1], passwords[1]);
  }

  /** The scan of AddListUser's loop over the inputs. */
  method ScanImport(ctx: ImportContext, inputs: seq<UserInput>, ids: seq<string>, passwords: seq<string>)
    returns (created: seq<User>, grants: set<(string, int)>, errors: seq<(UserInput, string)>)
    requires |ids| >= |inputs| && |passwords| >= |inputs|
    ensures ImportOutcome(created, grants, errors) == ImportRows(ctx, inputs, ids, passwords)
  {
    created, grants, errors := [], {}, [];
    var i := 0;
    while i < |inputs|
      invariant 0 <= i <= |inputs|
      invariant ImportOutcome(created, grants, errors) == ImportRows(ctx, inputs[..i], ids, passwords)
    {
      assert inputs[..i + 1][..i] == inputs[..i];
      var input := inputs[i];
      var err := RowError(ctx, input);
      if err.Some? {
        errors := errors + [(input, err.value)];
      } else {
        created := created + [NewUser(ctx, input, ids[i], passwords[i])];
        grants := grants + Grants(ids[i], ValidRoles(input, ctx.roleTable));
      }
      i := i + 1;
    }
    assert inputs[..|inputs|] == inputs;
  }

  /** Adds the users under their ids, later ones last. */
  function InsertAll(m: map<string, User>, us: seq<User>): (r: map<string, User>)
    ensures m.Keys <= r.Keys
    ensures forall u | u in us :: u.userId in r
    ensures forall id | id in r && id !in m :: exists u | u in us :: u.userId == id
    decreases |us|
  {
    if us == [] then m else InsertAll(m[us[0].userId := us[0]], us[1..])
  }

  // ---------------------------------------------------------------- CheckImportData

  /** One line of the import preview: the spreadsheet row, the data, the annotation errors. */
  datatype ErrorImport = ErrorImport(row: int, user: UserInput, errors: seq<string>)

  /**
   CheckImportData's loop: one preview line per data row, numbered from 2
   because row 1 of the sheet is the header. The annotation checks are the
   `validate` parameter.
   */
  method PreviewRows(items: seq<UserInput>, validate: UserInput -> seq<string>) returns (result: seq<ErrorImport>)
    ensures |result| == |items|
    ensures forall i | 0 <= i < |items| :: result[i] == ErrorImport(i + 2, items[i], validate(items[i]))
  {
    result := [];
    var i := 0;
    while i < |items|
      invariant 0 <= i <= |items|
      invariant |result| == i
      invariant forall k | 0 <= k < i :: result[k] == ErrorImport(k + 2, items[k], validate(items[k]))
    {
      result := result + [ErrorImport(i + 2, items[i], validate(items[i]))];
      i := i + 1;
    }
  }

  /** CheckImportData: the parse error, else "No data found in the file." for no rows, else the preview. */
  method CheckImportData(parsed: Result<seq<UserInput>>, validate: UserInput -> seq<string>)
    returns (message: string, result: seq<ErrorImport>)
    ensures parsed.Failure? && parsed.message != "" ==> message == parsed.message && result == []
    ensures parsed.Success? && parsed.value == [] ==> message == "No data found in the file." && result == []
    ensures parsed.Success? && parsed.value != [] ==>
      message == "" && |result| == |parsed.value|
      && forall i | 0 <= i < |result| :: result[i].row == i + 2 && result[i].user == parsed.value[i]
    ensures message == "" ==> forall i, j | 0 <= i < j < |result| :: result[i].row < result[j].row
  {
    if parsed.Failure? && parsed.message != "" {
      return parsed.message, [];
    }
    if parsed.Failure? || parsed.value == [] {
      return "No data found in the file.", [];
    }
    result := PreviewRows(parsed.value, validate);
    message := "";
  }

  // ---------------------------------------------------------------- the store

  /**
   The Users and UserRoles tables; the lookup tables, the email-format test
   and the password hash are fixed.
   */
  class UserStore {
    var users: map<string, User>
    var userRoles: set<(string, int)>
    const catalog: Catalog
    const roleTable: set<int>
    const wellFormed: string -> bool
    const md5: string -> string

    constructor (users: map<string, User>, userRoles: set<(string, int)>, catalog: Catalog, roleTable: set<int>,
                 wellFormed: string -> bool, md5: string -> string)
      ensures this.users == users && this.userRoles == userRoles && this.catalog == catalog
      ensures this.roleTable == roleTable && this.wellFormed == wellFormed && this.md5 == md5
    {
      this.users := users;
      this.userRoles := userRoles;
      this.catalog := catalog;
      this.roleTable := roleTable;
      this.wellFormed := wellFormed;
      this.md5 := md5;
    }

    /**
     DoToggleActive: switches the status, stamps the caller and the time;
     the change is saved before the activity log, whose message is returned.
     */
    method DoToggleActive(token: Option<string>, userId: Option<string>, now: int, logMessage: string) returns (message: string)
      modifies this
      ensures userRoles == old(userRoles)
      ensures IsNullOrBlank(userId) ==> message == "User ID is not valid!" && users == old(users)
      ensures !IsNullOrBlank(userId) && userId.value !in old(users) ==> message == "User not found!" && users == old(users)
      ensures !IsNullOrBlank(userId) && userId.value in old(users) ==>
        var u := old(users)[userId.value];
        message == logMessage
        && users == old(users)[userId.value := u.(status := UserToggled(u.status), updatedAt := Some(now), updateUser := token)]
    {
      if IsNullOrBlank(userId) {
        return "User ID is not valid!";
      }
      if userId.value !in users {
        return "User not found!";
      }
      var u := users[userId.value];
      users := users[userId.value := u.(status := UserToggled(u.status), updatedAt := Some(now), updateUser := token)];
      message := logMessage;
    }

    /**
     AddListUser: rejects an empty list, then checks every row against the
     tables as they were, and writes the accepted users and their roles in
     one go; with none accepted nothing is written. Input i gets ids[i] and
     the generated password passwords[i], stored hashed.
     */
    method AddListUser(inputs: seq<UserInput>, token: Option<string>, now: int, ids: seq<string>, passwords: seq<string>)
      returns (message: string, errors: Option<seq<(UserInput, string)>>)
      requires |ids| >= |inputs| && |passwords| >= |inputs|
      modifies this
      ensures inputs == [] ==> message == "List Users cannot null or empty." && errors.None?
                               && users == old(users) && userRoles == old(userRoles)
      ensures inputs != [] ==>
        var ctx := ImportContext(old(users), catalog, roleTable, wellFormed, token, now);
        var out := ImportRows(ctx, inputs, ids, Hashed(md5, passwords));
        errors == Some(out.errors)
        && (out.created == [] ==> message == "No users were created." && users == old(users) && userRoles == old(userRoles))
        && (out.created != [] ==> message == "" && users == InsertAll(old(users), out.created)
                                  && userRoles == old(userRoles) + out.grants)
    {
      if inputs == [] {
        return "List Users cannot null or empty.", None;
      }
      var ctx := ImportContext(users, catalog, roleTable, wellFormed, token, now);
      var created, grants, errs := ScanImport(ctx, inputs, ids, Hashed(md5, passwords));
      errors := Some(errs);
      if created == [] {
        message := "No users were created.";
        return;
      }
      users := InsertAll(users, created);
      userRoles := userRoles + grants;
      message := "";
    }
  }

  /** The stored form of each generated password. */
  function Hashed(md5: string -> string, passwords: seq<string>): (r: seq<string>)
    ensures |r| == |passwords|
    ensures forall i | 0 <= i < |r| :: r[i] == md5(passwords[i])
  {
    seq(|passwords|, i requires 0 <= i < |passwords| => md5(passwords[i]))
  }
}

=== FILE: utils.dfy ===
/**
 The small helpers of Utils.cs: emptiness tests, the six-digit code and
 the generated password, the client address and browser of a request, and
 the image upload that stores files under fresh names.
 */
module Utils {
  import opened Common

  // ---------------------------------------------------------------- emptiness

  /** IsEmpty: null, empty or nothing but white space. */
  predicate IsEmpty(s: Option<string>)
  {
    s.None? || IsBlank(s.value)
  }

  /** A string is empty in this sense exactly when trimming leaves nothing. */
  lemma IsEmptyIffTrimmedEmpty(s: string)
    ensures IsEmpty(Some(s)) <==> Trim(s) == ""
    ensures IsEmpty(Some(s)) ==> s == "" || IsSpace(s[0])
  {
  }

  /** IsObjectEmpty: a null or element-less collection. */
  function IsObjectEmpty<T>(xs: Option<seq<T>>): (r: bool)
    ensures r <==> (xs.None? || |xs.value| == 0)
    ensures !r ==> xs.value[0] in xs.value
  {
    xs.None? || xs.value == []
  }

  // ---------------------------------------------------------------- random codes

  /** `Random.Next(lo, hi)` given the generator's raw draw: a value in [lo, hi). */
  function Next(lo: int, hi: int, draw: nat): (r: int)
    requires lo < hi
    ensures lo <= r < hi
  {
    lo + draw % (hi - lo)
  }

  /** Generate6Number: `Next(100000, 999999)`, so the upper bound 999999 never comes out. */
  function Generate6Number(draw: nat): (r: int)
    ensures 100000 <= r < 999999
    ensures |NatToString(r)| == 6
  {
    var r := Next(100000, 999999, draw);
    assert Pow10(5) == 100000 && Pow10(6) == 1000000 by {
      assert Pow10(1) == 10 && Pow10(2) == 100 && Pow10(3) == 1000 && Pow10(4) == 10000;
    }
    DigitCount(r, 6);
    r
  }

  function Pow10(k: nat): (r: nat)
    ensures r >= 1
  {
    if k == 0 then 1 else 10 * Pow10(k - 1)
  }

  /** A number with k decimal digits prints as k characters. */
  lemma {:induction false} DigitCount(n: nat, k: nat)
    requires k >= 1 && Pow10(k - 1) <= n < Pow10(k)
    ensures |NatToString(n)| == k
    decreases k
  {
    if k > 1 {
      assert n >= 10 by {
        assert Pow10(k - 1) == 10 * Pow10(k - 2);
      }
      assert Pow10(k - 2) <= n / 10 < Pow10(k - 1) by {
        assert Pow10(k - 1) == 10 * Pow10(k - 2);
        assert Pow10(k) == 10 * Pow10(k - 1);
      }
      DigitCount(n / 10, k - 1);
    }
  }

  const Uppercase: string := "ABCDEFGHIJKLMNOPQRSTUVWXYZ"
  const Lowercase: string := "abcdefghijklmnopqrstuvwxyz"
  const Digits: string := "0123456789"
  const Special: string := "@$!%*?&"
  const AllChars: string := Uppercase + Lowercase + Digits + Special

  function Max(a: int, b: int): int
  {
    if a >= b then a else b
  }

  /** Each of the four alphabets is part of the combined one. */
  lemma AlphabetsInAll()
    ensures forall c | c in Uppercase :: c in AllChars
    ensures forall c | c in Lowercase :: c in AllChars
    ensures forall c | c in Digits :: c in AllChars
    ensures forall c | c in Special :: c in AllChars
  {
    forall c | c in Uppercase ensures c in AllChars {
      var k :| 0 <= k < |Uppercase| && Uppercase[k] == c;
      assert AllChars[k] == c;
    }
    forall c | c in Lowercase ensures c in AllChars {
      var k :| 0 <= k < |Lowercase| && Lowercase[k] == c;
      assert AllChars[|Uppercase| + k] == c;
    }
    forall c | c in Digits ensures c in AllChars {
      var k :| 0 <= k < |Digits| && Digits[k] == c;
      assert AllChars[|Uppercase| + |Lowercase| + k] == c;
    }
    forall c | c in Special ensures c in AllChars {
      var k :| 0 <= k < |Special| && Special[k] == c;
      assert AllChars[|Uppercase| + |Lowercase| + |Digits| + k] == c;
    }
  }

  /** The characters of a list of (sort key, character) pairs, in order. */
  function Seconds(s: seq<(int, char)>): (r: string)
    ensures |r| == |s| && forall i | 0 <= i < |s| :: r[i] == s[i].1
  {
    if s == [] then [] else [s[0].1] + Seconds(s[1..])
  }

  /** Inserting a pair adds its character to the characters. */
  lemma {:induction false} SecondsInsert(x: (int, char), s: seq<(int, char)>, le: ((int, char), (int, char)) -> bool)
    ensures multiset(Seconds(InsertBy(x, s, le))) == multiset(Seconds(s)) + multiset{x.1}
  {
    if s != [] && !le(x, s[0]) {
      SecondsInsert(x, s[1..], le);
      var t := InsertBy(x, s[1..], le);
      assert InsertBy(x, s, le) == [s[0]] + t;
      assert ([s[0]] + t)[1..] == t;
    } else if s != [] {
      assert ([x] + s)[1..] == s;
    }
  }

  /** Sorting the pairs keeps their characters, each as often. */
  lemma {:induction false} SecondsSort(s: seq<(int, char)>, le: ((int, char), (int, char)) -> bool)
    ensures multiset(Seconds(SortBy(s, le))) == multiset(Seconds(s))
  {
    if s != [] {
      SecondsSort(s[1..], le);
      SecondsInsert(s[0], SortBy(s[1..], le), le);
    }
  }

  /** `OrderBy(x => random.Next())`: the characters sorted by the sort keys they drew; the same characters, as often each. */
  function Shuffle(chars: string, keys: seq<int>): (r: string)
    requires |keys| == |chars|
    ensures |r| == |chars|
    ensures multiset(r) == multiset(chars)
    ensures forall c :: c in r <==> c in chars
  {
    var pairs := seq(|chars|, i requires 0 <= i < |chars| => (keys[i], chars[i]));
    var sorted := SortBy(pairs, (a: (int, char), b: (int, char)) => a.0 <= b.0);
    assert Seconds(pairs) == chars;
    SecondsSort(pairs, (a: (int, char), b: (int, char)) => a.0 <= b.0);
    var r := Seconds(sorted);
    assert forall c :: c in r <==> c in multiset(r);
    r
  }

  /**
   GenerateCharacter: one upper-case letter, one lower-case letter, one digit
   and one special character, then characters of all four kinds up to
   `length`, shuffled. `picks` are the generator's index draws, one per
   character, and `keys` the shuffle's sort keys.
   */
  method GenerateCharacter(length: int, picks: seq<nat>, keys: seq<int>) returns (r: string)
    requires |picks| >= Max(length, 4) && |keys| == Max(length, 4)
    ensures |r| == Max(length, 4)
    ensures exists c | c in r :: c in Uppercase
    ensures exists c | c in r :: c in Lowercase
    ensures exists c | c in r :: c in Digits
    ensures exists c | c in r :: c in Special
    ensures forall c | c in r :: c in AllChars
  {
    var u := Uppercase[picks[0] % |Uppercase|];
    var l := Lowercase[picks[1] % |Lowercase|];
    var d := Digits[picks[2] % |Digits|];
    var sp := Special[picks[3] % |Special|];
    AlphabetsInAll();
    var chars := [u, l, d, sp];
    var i := |chars|;
    while i < length
      invariant 4 <= i <= Max(length, 4) && |chars| == i
      invariant chars[0] == u && chars[1] == l && chars[2] == d && chars[3] == sp
      invariant forall c | c in chars :: c in AllChars
    {
      chars := chars + [AllChars[picks[i] % |AllChars|]];
      i := i + 1;
    }
    r := Shuffle(chars, keys);
    assert u in r && l in r && d in r && sp in r;
  }

  // ---------------------------------------------------------------- the request

  /** GetClientIpAddress: the first X-Forwarded-For entry, trimmed; else the remote IPv4 address; else "Unknown". */
  function ClientIpAddress(forwardedFor: Option<string>, remoteIpv4: Option<string>): (r: string)
    ensures !IsNullOrEmpty(forwardedFor) ==> r == Trim(Split(forwardedFor.value, ',')[0]) && ',' !in r
    ensures IsNullOrEmpty(forwardedFor) && remoteIpv4.Some? ==> r == remoteIpv4.value
    ensures IsNullOrEmpty(forwardedFor) && remoteIpv4.None? ==> r == "Unknown"
  {
    if !IsNullOrEmpty(forwardedFor) then
      var first := Split(forwardedFor.value, ',')[0];
      assert ',' !in Trim(first) by {
        assert forall c | c in Trim(first) :: c in first;
      }
      Trim(first)
    else if remoteIpv4.Some? then remoteIpv4.value
    else "Unknown"
  }

  /** A forwarded list's first hop is what is reported, whatever follows it. */
  lemma FirstHopWins(hop: string, rest: string)
    requires hop != "" && ',' !in hop && !IsSpace(hop[0]) && !IsSpace(hop[|hop| - 1])
    ensures ClientIpAddress(Some(hop + "," + rest), None) == hop
  {
    var s := hop + "," + rest;
    IndexOfPast(hop, ',', rest);
    assert s[..|hop|] == hop;
    TrimNoop(hop);
  }

  /** GetClientBrowser: the User-Agent header (read as "" when absent), or "Unknown" when it is blank. */
  function ClientBrowser(userAgent: string): (r: string)
    ensures r == "Unknown" <==> IsBlank(userAgent) || userAgent == "Unknown"
    ensures !IsBlank(r)
  {
    assert !IsSpace("Unknown"[0]);
    if IsEmpty(Some(userAgent)) then "Unknown" else userAgent
  }

  // ---------------------------------------------------------------- GetUrlImages

  /** One uploaded file: its name and size in bytes. */
  datatype Upload = Upload(fileName: string, length: int)

  const MaxImageBytes: int := 1048576
  const MsgTooLarge: string := "The file is too large (<= 1MB)."
  const MsgBadFormat: string := "Invalid file format."

  /** The part of the name after its last '.', including it (none after a directory separator). */
  function ExtensionTail(s: string): (r: string)
    ensures r == "" || (r[0] == '.' && IsSuffix(r, s) && '.' !in r[1..])
    decreases |s|
  {
    if s == [] then ""
    else
      var c := s[|s| - 1];
      if c == '/' || c == '\\' then ""
      else if c == '.' then
        assert IsSuffix(".", s) by {
          assert s[|s| - 1..] == ".";
        }
        "."
      else
        var t := ExtensionTail(s[..|s| - 1]);
        if t == "" then ""
        else
          assert IsSuffix(t + [c], s) by {
            assert s == s[..|s| - 1] + [c];
            assert s[..|s| - 1][|s| - 1 - |t|..] == t;
            assert s[|s| - |t + [c]|..] == s[..|s| - 1][|s| - 1 - |t|..] + [c];
          }
          t + [c]
  }

  /** Path.GetExtension: the tail from the last '.', or nothing when the name ends in '.' or has no '.'. */
  function Extension(name: string): (r: string)
    ensures r == "" || (|r| >= 2 && r[0] == '.' && IsSuffix(r, name) && '.' !in r[1..])
  {
    if name != [] && name[|name| - 1] == '.' then ""
    else
      var t := ExtensionTail(name);
      assert t != "" ==> name[|name| - 1] == t[|t| - 1] by {
        if t != "" {
          assert name[|name| - |t|..][|t| - 1] == t[|t| - 1];
        }
      }
      t
  }

  /** A name ending in '.' followed by a plain extension has exactly that extension, whatever comes before. */
  lemma {:induction false} ExtensionOfDotted(stem: string, ext: string)
    requires ext != "" && '.' !in ext && '/' !in ext && '\\' !in ext
    ensures Extension(stem + "." + ext) == "." + ext
    decreases |ext|
  {
    ExtensionTailOfDotted(stem, ext);
  }

  lemma {:induction false} ExtensionTailOfDotted(stem: string, ext: string)
    requires '.' !in ext && '/' !in ext && '\\' !in ext
    ensures ExtensionTail(stem + "." + ext) == "." + ext
    decreases |ext|
  {
    var s := stem + "." + ext;
    if ext == [] {
      assert s[|s| - 1] == '.';
    } else {
      var c := ext[|ext| - 1];
      assert c in ext;
      assert s[|s| - 1] == c;
      var e' := ext[..|ext| - 1];
      assert s[..|s| - 1] == stem + "." + e';
      assert '.' !in e' && '/' !in e' && '\\' !in e' by {
        assert forall x | x in e' :: x in ext;
      }
      ExtensionTailOfDotted(stem, e');
      assert ExtensionTail(s) == ExtensionTail(s[..|s| - 1]) + [c];
      assert "." + e' + [c] == "." + ext;
    }
  }

  /** The image formats the upload accepts (Constant.IMAGE_EXTENDS), compared in lower case. */
  predicate AllowedImage(fileName: string)
  {
    Lower(Extension(fileName)) in [".png", ".jpg", ".jpeg"]
  }

  /** Why a file is refused: size first, then format. */
  function UploadError(u: Upload): (r: Option<string>)
    ensures r.None? <==> u.length <= MaxImageBytes && AllowedImage(u.fileName)
    ensures u.length > MaxImageBytes ==> r == Some(MsgTooLarge)
  {
    if u.length > MaxImageBytes then Some(MsgTooLarge)
    else if !AllowedImage(u.fileName) then Some(MsgBadFormat)
    else None
  }

  /** The outcome of the checks on each file. */
  function Checks(uploads: seq<Upload>): (r: seq<Option<string>>)
    ensures |r| == |uploads| && forall i | 0 <= i < |uploads| :: r[i] == UploadError(uploads[i])
  {
    seq(|uploads|, i requires 0 <= i < |uploads| => UploadError(uploads[i]))
  }

  /** The stored name of a file: a fresh GUID followed by the lower-cased extension. */
  function StoredName(u: Upload, guid: string): (r: string)
    ensures IsPrefix(guid, r)
  {
    guid + Lower(Extension(u.fileName))
  }

  /** The stored name of each file. */
  function StoredNames(uploads: seq<Upload>, guids: seq<string>): (r: seq<string>)
    requires |guids| == |uploads|
    ensures |r| == |uploads| && forall i | 0 <= i < |r| :: r[i] == StoredName(uploads[i], guids[i])
  {
    seq(|uploads|, i requires 0 <= i < |uploads| => StoredName(uploads[i], guids[i]))
  }

  /**
   The upload from file `i` on, given each file's check and stored name,
   `written` being the names already stored: the message, the names
   returned and every name written.
   */
  function UploadFrom(checks: seq<Option<string>>, names: seq<string>, i: nat, written: seq<string>)
    : (r: (string, Option<seq<string>>, seq<string>))
    requires i <= |checks| == |names|
    decreases |checks| - i
  {
    if i == |checks| then ("", Some(written), written)
    else match checks[i]
      case Some(m) => (m, None, written)
      case None => UploadFrom(checks, names, i + 1, written + [names[i]])
  }

  /** With no refusal from `i` on, the upload from `i` stores every remaining file. */
  lemma {:induction false} UploadFromAll(checks: seq<Option<string>>, names: seq<string>, i: nat)
    requires i <= |checks| == |names|
    requires forall j | i <= j < |checks| :: checks[j].None?
    ensures UploadFrom(checks, names, i, names[..i]) == ("", Some(names), names)
    decreases |checks| - i
  {
    if i < |checks| {
      assert names[..i + 1] == names[..i] + [names[i]];
      UploadFromAll(checks, names, i + 1);
    } else {
      assert names[..i] == names;
    }
  }

  /** With no refusal from `i` up to `k`, the upload from `i` reaches `k` having stored the files before it. */
  lemma {:induction false} UploadFromReaches(checks: seq<Option<string>>, names: seq<string>, i: nat, k: nat)
    requires i <= k <= |checks| == |names|
    requires forall j | i <= j < k :: checks[j].None?
    ensures UploadFrom(checks, names, i, names[..i]) == UploadFrom(checks, names, k, names[..k])
    decreases k - i
  {
    if i < k {
      assert names[..i + 1] == names[..i] + [names[i]];
      UploadFromReaches(checks, names, i + 1, k);
    }
  }

  /**
   The upload's outcome: with no refusal, every file is stored under its
   name and the names are returned; otherwise the first refusal's message,
   no names, and only the files before it written.
   */
  lemma UploadOutcome(checks: seq<Option<string>>, names: seq<string>)
    requires |checks| == |names|
    ensures var r := UploadFrom(checks, names, 0, []);
      var bad := FirstWhere(checks, (c: Option<string>) => c.Some?);
      && (bad.None? ==> r == ("", Some(names), names))
      && (bad.Some? ==> r == (checks[bad.value].value, None, names[..bad.value]))
  {
    var bad := FirstWhere(checks, (c: Option<string>) => c.Some?);
    assert names[..0] == [];
    if bad.None? {
      UploadFromAll(checks, names, 0);
    } else {
      UploadFromReaches(checks, names, 0, bad.value);
    }
  }

  /** The image folder on disk. */
  class ImageFolder {
    var files: seq<string>

    constructor (files: seq<string>)
      ensures this.files == files
    {
      this.files := files;
    }

    /**
     GetUrlImages: checks and writes the files one by one. The first refused
     file ends the batch with its message and no names, but the files before
     it have already been written.
     */
    method GetUrlImages(uploads: seq<Upload>, guids: seq<string>) returns (error: string, names: Option<seq<string>>)
      requires |guids| == |uploads|
      modifies this
      ensures var r := UploadFrom(Checks(uploads), StoredNames(uploads, guids), 0, []);
        error == r.0 && names == r.1 && files == old(files) + r.2
    {
      ghost var checks, all := Checks(uploads), StoredNames(uploads, guids);
      var stored: seq<string> := [];
      var i := 0;
      while i < |uploads|
        invariant 0 <= i <= |uploads|
        invariant UploadFrom(checks, all, i, stored) == UploadFrom(checks, all, 0, [])
        invariant files == old(files) + stored
      {
        var err := UploadError(uploads[i]);
        if err.Some? {
          return err.value, None;
        }
        var name := StoredName(uploads[i], guids[i]);
        files := files + [name];
        stored := stored + [name];
        i := i + 1;
      }
      error, names := "", Some(stored);
    }
  }
}

=== FILE: wifi_setting.dfy ===
/**
 The desktop client's Wi-Fi helper (WifiSetting.cs): reading the network
 names out of `netsh wlan show networks`, the connected network out of
 `netsh wlan show interfaces`, and the first wireless interface that is up.
 Running netsh and listing the network interfaces are I/O: their outcome is a
 parameter, None when the call throws.
 */
module WifiSetting {
  import opened Common

  const NoWiFi: string := "No Wi-Fi"
  const WiFiError: string := "Wi-Fi Error"

  // ---------------------------------------------------------------- scanning

  /** Where the line holding position i ends: the next '\n', or the end of the text. */
  function LineEnd(s: string, i: nat): (r: nat)
    requires i <= |s|
    ensures i <= r <= |s| && (r == |s| || s[r] == '\n')
    ensures forall k | i <= k < r :: s[k] != '\n'
    decreases |s| - i
  {
    if i < |s| && s[i] != '\n' then LineEnd(s, i + 1) else i
  }

  /** Where the run of digits starting at i ends (`\d+` taken greedily). */
  function DigitsEnd(s: string, i: nat): (r: nat)
    requires i <= |s|
    ensures i <= r <= |s| && (r == |s| || !IsDigit(s[r]))
    ensures forall k | i <= k < r :: IsDigit(s[k])
    decreases |s| - i
  {
    if i < |s| && IsDigit(s[i]) then DigitsEnd(s, i + 1) else i
  }

  /** A text starts with "SSID". */
  predicate StartsWithSsid(s: string)
  {
    |s| >= 4 && s[0] == 'S' && s[1] == 'S' && s[2] == 'I' && s[3] == 'D'
  }

  /** A text starts with " : ". */
  predicate StartsWithColon(s: string)
  {
    |s| >= 3 && s[0] == ' ' && s[1] == ':' && s[2] == ' '
  }

  // ---------------------------------------------------------------- available networks

  /**
   The pattern `SSID \d+ : (.+)` tried at the start of s: its capture (the rest
   of the line, '\r' included, since `.` stops only at '\n') and where the match
   ends.
   */
  function NetworkMatchHere(s: string): (r: Option<(string, nat)>)
    ensures r.Some? ==> 0 < r.value.1 <= |s|
  {
    if StartsWithSsid(s) && |s| >= 5 && s[4] == ' ' then
      var t := s[5..];
      var d := DigitsEnd(t, 0);
      if d > 0 && StartsWithColon(t[d..]) then
        var u := t[d + 3..];
        var e := LineEnd(u, 0);
        if e > 0 then Some((u[..e], 5 + d + 3 + e)) else None
      else None
    else None
  }

  /** `Regex.Matches`: the captures of the successive non-overlapping matches, leftmost first. */
  function NetworkMatches(s: string): seq<string>
    decreases |s|
  {
    if s == [] then []
    else match NetworkMatchHere(s)
      case Some((c, e)) => [c] + NetworkMatches(s[e..])
      case None => NetworkMatches(s[1..])
  }

  /** The trimmed captures that are not empty, in order. */
  function NonBlankTrims(captures: seq<string>): seq<string>
  {
    if captures == [] then []
    else
      var n := |captures| - 1;
      var ssid := Trim(captures[n]);
      NonBlankTrims(captures[..n]) + (if ssid != "" then [ssid] else [])
  }

  lemma NonBlankTrimsStep(captures: seq<string>, i: nat)
    requires i < |captures|
    ensures NonBlankTrims(captures[..i + 1])
         == NonBlankTrims(captures[..i]) + (if Trim(captures[i]) != "" then [Trim(captures[i])] else [])
  {
    assert captures[..i + 1][..i] == captures[..i];
  }

  /** Each kept name is the trimmed text of some capture, and every capture that is not blank gives one. */
  lemma {:induction false} NonBlankTrimsMembers(captures: seq<string>, x: string)
    ensures x in NonBlankTrims(captures) <==> x != "" && exists c | c in captures :: Trim(c) == x
  {
    if captures != [] {
      var n := |captures| - 1;
      NonBlankTrimsMembers(captures[..n], x);
      assert captures == captures[..n] + [captures[n]];
    }
  }

  /** `networks.Distinct().ToList()`: ordinal de-duplication keeping first occurrences. */
  function Distinct(xs: seq<string>): (r: seq<string>)
    ensures NoDup(r) && forall x :: x in r <==> x in xs
  {
    Except(xs, {})
  }

  /** The answer of GetAvailableNetworksAsync for netsh's output, None when running netsh throws. */
  function AvailableNetworks(output: Option<string>): seq<string>
  {
    if output.None? then [] else Distinct(NonBlankTrims(NetworkMatches(output.value)))
  }

  /**
   The loop of GetAvailableNetworksAsync: each capture is trimmed, blanks are
   dropped, and the list is de-duplicated. The names are distinct, not empty,
   trimmed, and are exactly the trimmed captures that are not blank.
   */
  method ParseNetworks(output: Option<string>) returns (networks: seq<string>)
    ensures networks == AvailableNetworks(output)
    ensures NoDup(networks)
    ensures forall x | x in networks :: x != "" && !IsSpace(x[0]) && !IsSpace(x[|x| - 1])
    ensures output.Some? ==>
      forall x :: x in networks <==> x != "" && exists c | c in NetworkMatches(output.value) :: Trim(c) == x
    ensures output.None? ==> networks == []
  {
    if output.None? {
      return [];
    }
    var matches := NetworkMatches(output.value);
    var found: seq<string> := [];
    for i := 0 to |matches|
      invariant found == NonBlankTrims(matches[..i])
    {
      NonBlankTrimsStep(matches, i);
      var ssid := Trim(matches[i]);
      if ssid != "" {
        found := found + [ssid];
      }
    }
    assert matches[..|matches|] == matches;
    networks := Distinct(found);
    forall x ensures x in networks <==> x != "" && exists c | c in matches :: Trim(c) == x {
      NonBlankTrimsMembers(matches, x);
    }
  }

  /** The line netsh prints for the k-th visible network. */
  function NetworkLine(k: nat, ssid: string): string
  {
    "SSID " + NatToString(k) + " : " + ssid + "\r\n"
  }

  /** netsh's listing of the given network names, numbered from k. */
  function NetshNetworks(ssids: seq<string>, k: nat): string
  {
    if ssids == [] then "" else NetworkLine(k, ssids[0]) + NetshNetworks(ssids[1..], k + 1)
  }

  /** A name as netsh prints it: not empty, without '\n', without white space at its ends. */
  predicate Printable(ssid: string)
  {
    ssid != "" && '\n' !in ssid && !IsSpace(ssid[0]) && !IsSpace(ssid[|ssid| - 1])
  }

  /** The carriage return netsh ends its lines with is captured and then trimmed away. */
  lemma TrimCarriageReturn(ssid: string)
    requires Printable(ssid)
    ensures Trim(ssid + "\r") == ssid
  {
    var t := ssid + "\r";
    assert SkipSpaces(t, 0) == 0;
    assert SkipSpacesBack(t, 0, |t| - 1) == |ssid|;
    assert t[..|ssid|] == ssid;
  }

  /** A text made of a run of white space and then a visible character: the run is skipped. */
  lemma SkipRun(a: string, b: string)
    requires AllSpace(a) && b != [] && !IsSpace(b[0])
    ensures SkipSpaces(a + b, 0) == |a|
  {
    assert forall k | 0 <= k < |a| :: (a + b)[k] == a[k];
    assert (a + b)[|a|] == b[0];
  }

  /** A run of digits followed by a non-digit ends where the run does. */
  lemma DigitsRun(a: string, b: string)
    requires AllDigits(a) && b != [] && !IsDigit(b[0])
    ensures DigitsEnd(a + b, 0) == |a|
  {
    assert forall k | 0 <= k < |a| :: (a + b)[k] == a[k];
    assert (a + b)[|a|] == b[0];
  }

  /** The first line of a text ends at its first '\n'. */
  lemma LineRun(a: string, b: string)
    requires '\n' !in a
    ensures LineEnd(a + "\n" + b, 0) == |a|
  {
    var s := a + "\n" + b;
    assert forall k | 0 <= k < |a| :: s[k] == a[k];
    assert s[|a|] == '\n';
  }

  lemma Drop(a: string, b: string)
    ensures (a + b)[|a|..] == b
  {
  }

  /** The pattern matches a network line at the head of the text, up to the line break. */
  lemma LineMatchHere(d: string, x: string, rest: string)
    requires |d| >= 1 && AllDigits(d) && x != [] && '\n' !in x
    ensures NetworkMatchHere("SSID " + (d + (" : " + (x + "\n" + rest)))) == Some((x, 5 + |d| + 3 + |x|))
  {
    var u := x + "\n" + rest;
    var v := " : " + u;
    var t := d + v;
    var s := "SSID " + t;
    assert StartsWithSsid(s) && |s| >= 5 && s[4] == ' ' by {
      assert s[0] == 'S' && s[1] == 'S' && s[2] == 'I' && s[3] == 'D' && s[4] == ' ';
    }
    assert s[5..] == t by {
      Drop("SSID ", t);
    }
    assert DigitsEnd(t, 0) == |d| by {
      assert v[0] == ' ';
      DigitsRun(d, v);
    }
    assert t[|d|..] == v by {
      Drop(d, v);
    }
    assert StartsWithColon(v);
    assert t[|d| + 3..] == u by {
      Drop(" : ", u);
      assert t[|d| + 3..] == v[3..];
    }
    assert LineEnd(u, 0) == |x| by {
      LineRun(x, rest);
    }
    assert u[..|x|] == x;
  }

  /** A network line at the head of the text matches whole, capturing the name and its '\r'. */
  lemma LineMatches(k: nat, ssid: string, rest: string)
    requires Printable(ssid)
    ensures NetworkMatches(NetworkLine(k, ssid) + rest) == [ssid + "\r"] + NetworkMatches(rest)
  {
    var d := NatToString(k);
    var x := ssid + "\r";
    var s := "SSID " + (d + (" : " + (x + "\n" + rest)));
    assert NetworkLine(k, ssid) + rest == s;
    assert '\n' !in x;
    LineMatchHere(d, x, rest);
    var e := 5 + |d| + 3 + |x|;
    assert NetworkMatches(s) == [x] + NetworkMatches(s[e..]);
    assert s[e..] == "\n" + rest;
    NewlineSkipped(rest);
  }

  /** A line break cannot start a match. */
  lemma NewlineSkipped(rest: string)
    ensures NetworkMatches("\n" + rest) == NetworkMatches(rest)
  {
    assert ("\n" + rest)[1..] == rest;
  }

  /** Reading back netsh's listing gives the names it was made from, in order. */
  lemma {:induction false} NetworksRead(ssids: seq<string>, k: nat)
    requires forall i | 0 <= i < |ssids| :: Printable(ssids[i])
    ensures NonBlankTrims(NetworkMatches(NetshNetworks(ssids, k))) == ssids
  {
    if ssids != [] {
      var rest := NetshNetworks(ssids[1..], k + 1);
      NetworksRead(ssids[1..], k + 1);
      LineMatches(k, ssids[0], rest);
      TrimCarriageReturn(ssids[0]);
      NonBlankTrimsCons(ssids[0] + "\r", NetworkMatches(rest));
    }
  }

  lemma {:induction false} NonBlankTrimsCons(c: string, captures: seq<string>)
    ensures NonBlankTrims([c] + captures)
         == (if Trim(c) != "" then [Trim(c)] else []) + NonBlankTrims(captures)
    decreases |captures|
  {
    var h := if Trim(c) != "" then [Trim(c)] else [];
    var whole := [c] + captures;
    if captures == [] {
      assert whole[..0] == [];
    } else {
      var n := |captures| - 1;
      var last := captures[n];
      var k := if Trim(last) != "" then [Trim(last)] else [];
      assert whole[..n + 1] == [c] + captures[..n] && whole[n + 1] == last;
      assert NonBlankTrims(whole) == NonBlankTrims(whole[..n + 1]) + k;
      assert NonBlankTrims(captures) == NonBlankTrims(captures[..n]) + k;
      NonBlankTrimsCons(c, captures[..n]);
      assert NonBlankTrims(whole) == h + NonBlankTrims(captures[..n]) + k;
    }
  }


  /** GetAvailableNetworksAsync over netsh's listing of some names gives those names once each, in first-seen order. */
  lemma NetworksRoundTrip(ssids: seq<string>)
    requires forall i | 0 <= i < |ssids| :: Printable(ssids[i])
    ensures AvailableNetworks(Some(NetshNetworks(ssids, 1))) == Distinct(ssids)
  {
    NetworksRead(ssids, 1);
  }

  // ---------------------------------------------------------------- connected network

  /**
   The pattern `^\s*SSID\s*:\s(.+)$` tried at a line start: white space (line
   breaks included), "SSID", white space, ':', one white-space character, then
   at least one character up to the end of that line.
   */
  function InterfaceMatchAt(s: string): (r: Option<string>)
    ensures r.Some? ==> r.value != ""
  {
    var t := s[SkipSpaces(s, 0)..];
    if StartsWithSsid(t) then
      var u := t[4..];
      var v := u[SkipSpaces(u, 0)..];
      if |v| >= 2 && v[0] == ':' && IsSpace(v[1]) then
        var w := v[2..];
        var e := LineEnd(w, 0);
        if e > 0 then Some(w[..e]) else None
      else None
    else None
  }

  /** `Regex.Match` with RegexOptions.Multiline: the first line start, top to bottom, where the pattern matches. */
  function FirstInterfaceMatch(s: string): Option<string>
    decreases |s|
  {
    var m := InterfaceMatchAt(s);
    if m.Some? then m
    else
      var e := LineEnd(s, 0);
      if e == |s| then None else FirstInterfaceMatch(s[e + 1..])
  }

  /**
   GetConnectedSSIDAsync for netsh's output, None when running netsh throws:
   the trimmed capture of the first match, "No Wi-Fi" for no match or a blank
   capture, "Wi-Fi Error" on failure.
   */
  function ConnectedSsid(output: Option<string>): (r: string)
    ensures r != ""
    ensures output.None? ==> r == WiFiError
    ensures output.Some? && FirstInterfaceMatch(output.value).None? ==> r == NoWiFi
    ensures output.Some? && FirstInterfaceMatch(output.value).Some? ==>
      r == (if IsBlank(FirstInterfaceMatch(output.value).value) then NoWiFi else Trim(FirstInterfaceMatch(output.value).value))
  {
    match output
    case None => WiFiError
    case Some(text) =>
      match FirstInterfaceMatch(text)
      case None => NoWiFi
      case Some(capture) =>
        var ssid := Trim(capture);
        if ssid == "" then NoWiFi else ssid
  }

  /** The line netsh prints for the connected network: an indent, "SSID", padding, ": " and the name. */
  function SsidLine(indent: string, pad: string, ssid: string): string
  {
    indent + "SSID" + pad + ": " + ssid + "\r\n"
  }

  predicate AllSpace(s: string)
  {
    forall i | 0 <= i < |s| :: IsSpace(s[i])
  }

  /** The pattern matches an SSID line at the head of the text, up to the line break. */
  lemma SsidLineMatchHere(indent: string, pad: string, x: string, rest: string)
    requires AllSpace(indent) && AllSpace(pad) && x != [] && '\n' !in x
    ensures InterfaceMatchAt(indent + ("SSID" + (pad + (": " + (x + "\n" + rest))))) == Some(x)
  {
    var w := x + "\n" + rest;
    var v := ": " + w;
    var u := pad + v;
    var t := "SSID" + u;
    var s := indent + t;
    assert t[0] == 'S' && t[1] == 'S' && t[2] == 'I' && t[3] == 'D';
    assert SkipSpaces(s, 0) == |indent| by { SkipRun(indent, t); }
    assert s[|indent|..] == t by { Drop(indent, t); }
    assert t[4..] == u by { Drop("SSID", u); }
    assert v[0] == ':' && v[1] == ' ';
    assert SkipSpaces(u, 0) == |pad| by { SkipRun(pad, v); }
    assert u[|pad|..] == v by { Drop(pad, v); }
    assert v[2..] == w by { Drop(": ", w); }
    assert LineEnd(w, 0) == |x| by { LineRun(x, rest); }
    assert w[..|x|] == x;
  }

  /** An SSID line at the head of the output is matched, whatever follows (the BSSID line included). */
  lemma SsidLineMatches(indent: string, pad: string, ssid: string, rest: string)
    requires AllSpace(indent) && AllSpace(pad) && Printable(ssid)
    ensures FirstInterfaceMatch(SsidLine(indent, pad, ssid) + rest) == Some(ssid + "\r")
  {
    var x := ssid + "\r";
    assert SsidLine(indent, pad, ssid) + rest == indent + ("SSID" + (pad + (": " + (x + "\n" + rest))));
    assert '\n' !in x;
    SsidLineMatchHere(indent, pad, x, rest);
  }

  /** A line whose first character is visible and not 'S' cannot start a match, and the search moves to the next line. */
  lemma OtherLineSkipped(line: string, rest: string)
    requires OtherLine(line)
    ensures FirstInterfaceMatch(line + "\n" + rest) == FirstInterfaceMatch(rest)
  {
    var s := line + "\n" + rest;
    assert s[0] == line[0];
    SkipRun([], s);
    assert [] + s == s;
    LineRun(line, rest);
    assert s[|line| + 1..] == rest;
  }

  /** A "key : value" line whose key is not SSID. */
  predicate OtherLine(line: string)
  {
    line != "" && '\n' !in line && !IsSpace(line[0]) && line[0] != 'S'
  }

  function Lines(lines: seq<string>): string
  {
    if lines == [] then "" else lines[0] + "\n" + Lines(lines[1..])
  }

  /**
   GetConnectedSSIDAsync reads the name from the first SSID line: any lines
   before it that do not start with 'S' are passed over and anything after it
   is ignored.
   */
  lemma {:induction false} ConnectedRoundTrip(before: seq<string>, indent: string, pad: string, ssid: string, rest: string)
    requires forall i | 0 <= i < |before| :: OtherLine(before[i])
    requires AllSpace(indent) && AllSpace(pad) && Printable(ssid)
    ensures ConnectedSsid(Some(Lines(before) + SsidLine(indent, pad, ssid) + rest)) == ssid
  {
    var tail := SsidLine(indent, pad, ssid) + rest;
    var text := Lines(before) + SsidLine(indent, pad, ssid) + rest;
    assert text == Lines(before) + tail;
    FirstAfterLines(before, tail);
    SsidLineMatches(indent, pad, ssid, rest);
    assert FirstInterfaceMatch(text) == Some(ssid + "\r");
    TrimCarriageReturn(ssid);
  }

  lemma {:induction false} FirstAfterLines(before: seq<string>, tail: string)
    requires forall i | 0 <= i < |before| :: OtherLine(before[i])
    ensures FirstInterfaceMatch(Lines(before) + tail) == FirstInterfaceMatch(tail)
  {
    if before != [] {
      var line := before[0];
      var after := Lines(before[1..]) + tail;
      assert Lines(before) + tail == line + "\n" + after by {
        assert Lines(before) == line + "\n" + Lines(before[1..]);
      }
      calc {
        FirstInterfaceMatch(line + "\n" + after);
      == { OtherLineSkipped(line, after); }
        FirstInterfaceMatch(after);
      == { FirstAfterLines(before[1..], tail); }
        FirstInterfaceMatch(tail);
      }
    } else {
      assert Lines(before) + tail == tail;
    }
  }

  // ---------------------------------------------------------------- interface status

  /** A network interface as GetCurrentWiFiStatus reads it. */
  datatype Interface = Interface(name: string, wireless: bool, up: bool)

  predicate UpWireless(n: Interface)
  {
    n.wireless && n.up
  }

  /**
   GetCurrentWiFiStatus: the name of the first wireless interface that is up,
   "No Wi-Fi" when there is none, "Wi-Fi Error" when listing the interfaces
   throws (None).
   */
  function CurrentWiFiStatus(interfaces: Option<seq<Interface>>): (r: string)
    ensures interfaces.None? ==> r == WiFiError
    ensures interfaces.Some? && (forall i | 0 <= i < |interfaces.value| :: !UpWireless(interfaces.value[i])) ==> r == NoWiFi
    ensures interfaces.Some? && r != NoWiFi ==>
      exists i | 0 <= i < |interfaces.value| :: UpWireless(interfaces.value[i]) && r == interfaces.value[i].name
            && forall j | 0 <= j < i :: !UpWireless(interfaces.value[j])
  {
    match interfaces
    case None => WiFiError
    case Some(all) =>
      match FirstWhere(all, UpWireless)
      case None => NoWiFi
      case Some(i) => all[i].name
  }
}
